=== FILE: README.md ===
# python-media-scripts in Dafny

A model of the pure logic inside python-media-scripts, a collection of batch scripts for media files. The scripts extract Blu-ray titles, remux MKV files, re-encode HDR video, mark forced subtitles, build "night mode" stereo tracks and place 3D subtitles. Each script does its real work by running external tools such as ffmpeg, ffprobe, mkvmerge, mkvextract, x265, dovi_tool, hdr10plus_tool and bdsup2sub++. Between those runs the scripts build argument lists and file names, read probe output, and keep resume state on disk. That logic is what is modelled here.

The model is written as functions over immutable data. A tool's output, a file listing, an existence check or a typed answer is a parameter. A Python exception or `exit(n)` is a `Fail` value of `Results.Result`. Each module follows one script, or one concern that several revisions of a script share:

- `Results`, `Lists`, `Text`, `PyPath`, `Json` and `Prompts` are shared helpers:
  - the outcomes and Python failures;
  - list and string operations as Python defines them (`split`, `join`, `in` on strings, `lower`, `int()`, `str()`);
  - POSIX paths;
  - parsed JSON values;
  - `input()` loops.
- `MkvArgs` reads an argument list the way mkvmerge does: options that take a value, and the file each group of options applies to. It is used to state which file each track option lands on.
- The night-mode pipeline (nightmode/*.py, utils/nightmode.py):
  - `NightmodeJobs`: the job list. Files are found and sorted, rejected on request, and grouped by identical audio tracks; each group's answers then become its jobs.
  - `NightmodeQueue`: the job queue and its resume database, including the hash check.
  - `NightmodeStages`: the per-job stage machine that resumes from resume.txt.
  - `NightmodeAudio`: the pan filters and the readers of ffmpeg's output.
  - `NightmodeNorm`: the normalisation decision of every revision, over a small file-system model.
  - `NightmodeCleanup`: the cleanup step.
  - `NightmodeMkv`: the `--audio-tracks` and `--track-order` values and the mkvmerge command.
- The remux converters:
  - `BatchConvert` covers batchconvert.py.
  - `BatchConvertDict` covers its dict-based revision, batchconvert/batchconvert.py.
  - `EncodeExtras` covers the earliest converter.
  - `AudioFilters` covers their audio filter plan.
  - `Info` and `InfoJson` cover utils/info.py's track records, templates and JSON form.
- HDR video:
  - `VideoInfo` covers utils/videoinfo.py.
  - `VideoHdr` covers batchconvert/video-hdr.py.
- Blu-ray and other converters:
  - `Bluray` and `BlurayLegacy` cover the two revisions of the Blu-ray extractor.
  - `DsdToFlac` covers the DSD-to-FLAC mirror.
  - `CombinedMkv` covers the appended-MKV generator.
  - `Slideshow` covers the ffmpeg slideshow.
- 3D subtitles and subtitle flags:
  - `Bdn` holds the shared BDN XML description.
  - `Full3D`, `Sbs`, `AddDepth`, `DepthPlane` and `CompareDepth` cover the 3D subtitle tools.
  - `ForcedSubs` covers forced-subtitle marking.

Where two revisions of a script differ, both are modelled and a lemma states where they agree and where they do not.

Some behaviours of the code are easy to misread:

- The resume database of nightmode/batch_nightmode.py stores the hash of jobs_database.json, not a hash of the remaining queue (nightmode/batch_nightmode.py:181-195). A rerun therefore accepts the saved queue exactly when jobs_database.json is unchanged (`NightmodeQueue.BatchQueue`).
- The job list does not check that the keep or surround answers are non-empty. The keep prompt accepts any answer with a comma or of length one, and the surround answer is split as typed (`NightmodeJobs.AskTrackLists`).
- A normalised track whose measured peak reads 0.0 dB is not treated as already at target in every revision: two revisions lose the track (see Findings).


## Model

| member | source | states |
|---|---|---|
| BatchConvert.Externals | batchconvert.py:107-109 | exactly the external subtitle files the tracks name are collected |
| BatchConvert.Unlisted | batchconvert.py:111-116 | a folder's files are deleted exactly when they are not on the exclusion list |
| BatchConvert.RemoveSourceKeeps | batchconvert.py:103-118 | removing a folder's source from the list again leaves exactly the earlier list plus the folder's script and external subtitles |
| BatchConvert.CleanFoldersSpec | batchconvert.py:99-118 | in folder k a file is deleted exactly when it is listed there, is not on the initial list, is not one of the folder's protected names, and is not a script or external subtitle of an earlier folder |
| BatchConvert.CleanFilesDeletes | batchconvert.py:99-118 | given the folders' infos, --clean deletes in folder k exactly the files other than the script, the info file, the source name that folder's info holds, its script and external subtitles, and those kept by earlier folders (the infos batchconvert.py itself reads are CleanFilesRunDeletes's) |
| BatchConvert.CleanFilesKeepsProtected | batchconvert.py:99-118 | given the folders' infos, --clean never deletes the script, the info file, the source name the current folder's info holds, its vapoursynth script or an external subtitle; an info batchconvert.py reads holds "" there (CleanDeletesNamedSource) |
| BatchConvert.KeptBeforeIn | batchconvert.py:103-118 | a name is left on the list by the earlier folders exactly when one of them keeps it |
| BatchConvert.FolderInfo | batchconvert.py:92 | the info is read by Info(jsonFile); as written its source name is always "", corrected it is the "sourceFile" the info file holds |
| BatchConvert.CleanFilesRun | batchconvert.py:99-118 | cleanFiles reads every folder's info in turn: it fails exactly when one cannot be read, with the first such failure, and otherwise gives one deletion list per folder |
| BatchConvert.CleanFilesRunDeletes | batchconvert.py:99-118 | in folder k a file is deleted exactly when it is one of its files and is not the script, the info file, the source name its info holds, or a script or external subtitle of that folder or an earlier one |
| BatchConvert.SyncSpelled | batchconvert.py:168-169 | a track's sync arguments are the mkvmerge spelling of a "--sync 0:<n>" option, present only for a non-zero sync |
| BatchConvert.AudioSpelled | batchconvert.py:167-179 | an audio track's arguments are its options followed by its output file |
| BatchConvert.SubSpelled | batchconvert.py:181-195 | a subtitle's arguments are its options followed by its output file, or its external file when it has one |
| BatchConvert.VideoSpelled | batchconvert.py:151-165 | the video arguments are the title, track name, language and --no-chapters, then the info file's own options, then the video file |
| BatchConvert.RunVideo | batchconvert.py:151-165 | mkvmerge reads the video arguments as one input, the video file, carrying the video options |
| BatchConvert.RunChapters | batchconvert.py:197-198 | "--chapters chapters.xml" is left as a global option exactly when chapters.xml exists |
| BatchConvert.RunAudios | batchconvert.py:167-179 | mkvmerge reads the audio arguments as one input per track, in track order, each with its own options |
| BatchConvert.RunSubs | batchconvert.py:181-195 | mkvmerge reads the subtitle arguments as one input per track, in track order, each with its own options |
| BatchConvert.MergeInputs | batchconvert.py:147-198 | mkvmerge reads the whole command as the video input, then the audio inputs, then the subtitle inputs, each with its own options, and --chapters only when chapters.xml exists |
| BatchConvert.MergeCommand | batchconvert.py:147-198 | the command runs mkvmerge with --output and --title first; it ends with "--chapters chapters.xml" when chapters.xml exists, and with the video file when there are no tracks and no chapters |
| BatchConvert.MergeTracks | batchconvert.py:167-198 | after the video, the audio, subtitle and chapter arguments add one input per track in order and the chapters option |
| BatchConvert.ExtractAudio | batchconvert.py:604-610 | an audio track is extracted exactly when its output does not exist and it is not converted |
| BatchConvert.ExtractSubs | batchconvert.py:611-619 | a subtitle track is extracted exactly when its output does not exist, it is not OCRed and it has no external file |
| BatchConvert.ExtractCommand | batchconvert.py:621-632 | no mkvextract run without selected tracks; otherwise one "id:temp-<out>" argument per selected track between the three leading and two trailing words |
| BatchConvert.Renames | batchconvert.py:639-640 | the i-th temporary file is renamed to the i-th selected track's output |
| BatchConvert.ExtractCommandReadsBack | batchconvert.py:626-640 | the i-th track argument reads back as the track's id and the temporary file that is later renamed to its output; the command starts "mkvextract <source> tracks" and ends "chapters chapters.xml" |
| BatchConvert.ConvertOrExtract | batchconvert.py:595-610 | every audio track is either converted or, unless its output exists, extracted |
| BatchConvert.EncodeCommand | batchconvert.py:309-352 | the command fails exactly when a colour option cannot be formatted; otherwise x265 writes the temporary output with the frame count (which reads back as the number), and the info file's own x265 options come last |
| BatchConvert.Hdr10OptsNeedHdr10 | batchconvert.py:331-335 | HDR10 options appear only for HDR10 video, and --master-display only with mastering-display data |
| BatchConvert.PassCommands | batchconvert.py:352-357 | one pass runs the command as built; two passes insert "--pass 1 --no-slow-firstpass" and "--pass 2" right after "x265", the rest unchanged |
| BatchConvert.HardcodedSub | batchconvert.py:285-290 | the subtitle burnt in is the forced file of the first track that has one, and none when no track has one |
| BatchConvert.EncodeVideoStep | batchconvert.py:206-379 | an existing output is skipped; an unconverted video is extracted (through the Dolby Vision tool for DV); an encode happens only with a usable script and working HDR10+/DV tools, once or twice as two-pass says |
| BatchConvert.ForcedSteps | batchconvert.py:387-437 | the forced check always exports the forced events first; only when they exist does it swap the flags through BDXML, write the track back and remove its scratch files |
| BatchConvert.PrepForcedMissesExtracted | batchconvert.py:382-385 | as written: a track mkvextract extracted is never checked for forced events, and only tracks with an external file are |
| BatchConvert.CorrectedPrepChecksExtracted | batchconvert.py:382-385 | corrected: every track extracted from the source gets the forced check |
| BatchConvert.SubtitlesOcr | batchconvert.py:440-467 | OCR runs only with sup2srt installed and a linked source track, reading that track's output; an SDH filter step follows when srtFilter is set |
| BatchConvert.NoOcrIsForcedChecks | batchconvert.py:470-475 | without OCR tracks, convertSubtitles is the forced check of each track, in order |
| BatchConvert.OcrWithoutToolExits | batchconvert.py:440-443 | any OCR track without sup2srt installed makes convertSubtitles exit |
| BatchConvert.ConvertSubtitles | batchconvert.py:440-475 | convertSubtitles succeeds exactly when every OCR track has sup2srt installed and a linked image track, otherwise exits with 1; without OCR tracks it is the forced check of each track in order |
| BatchConvert.ConvertOkIff | batchconvert.py:440-475 | from any track on, the remaining conversion succeeds exactly when every remaining OCR track can be converted, and a failure is exit 1 |
| BatchConvert.ConvertAudioTrack | batchconvert.py:505-592 | a missing codec is KeyError; an existing output is skipped; otherwise the temporary output is renamed to the output, and a normalised track reads "<id>.norm.flac", made first only when missing |
| BatchConvert.ConvertAudioPlain | batchconvert.py:579-587 | without a normalize entry the track is converted by one ffmpeg run with every filter, the downmix spelled with the FL< matrix |
| BatchConvert.ConvertAudio | batchconvert.py:595-598 | one conversion step per converted track |
| BatchConvert.ConvertedTracks | batchconvert.py:596-597 | exactly the tracks whose convert entry is truthy are converted |
| BatchConvert.DestinationIsGrandparent | batchconvert.py:123-124 | the output is moved one directory up under its own name; a file right under the root has nowhere to go (ValueError) |
| BatchConvert.ConvertMkv | batchconvert.py:121-144 | nothing happens when `Path(source)` does not exist or when the destination exists; otherwise extract, subtitles, audio, video and merge run in that order before the move; `Path("")` is the current directory |
| BatchConvert.LoadedSourceNeverMissing | batchconvert.py:122-128 | as written: an info Info(jsonFile) reads has source name "", so the check looks at the current directory and convertMKV runs all its steps whatever "sourceFile" names |
| BatchConvert.CorrectedMissingSourceSkips | batchconvert.py:126-128 | corrected: with the source read from "sourceFile", a source that does not exist makes convertMKV run nothing |
| BatchConvert.FindFolders | batchconvert.py:46-53 | the current directory alone when it has the info file, otherwise exactly the subdirectories that do |
| BatchConvert.CleanFlags | batchconvert.py:67-81 | only the clean switches are accepted (exit 2 otherwise), the last of each pair winning |
| BatchConvert.SourceStep | batchconvert.py:91-96 | a folder's step fails as its info fails to read; otherwise the path `folder.joinpath(source)` is deleted exactly when it exists, and a path that exists as a directory raises OSError |
| BatchConvert.InFolderEmpty | batchconvert.py:93 | `folder.joinpath("")` is the folder itself |
| BatchConvert.CleanSourceFiles | batchconvert.py:89-96 | the folders are worked through in order and the run fails exactly when some folder's step fails, with the first such failure; the paths deleted are those the steps delete |
| BatchConvert.CleanSourceFilesDeletes | batchconvert.py:89-96 | in a run that gets through, exactly the folders' source paths, as their infos name them, that exist are deleted |
| BatchConvert.Main | batchconvert.py:40-86 | without arguments the folders are converted in order and the run succeeds exactly when convertMKV returns in every folder, otherwise it ends with the first folder's failure; nothing is cleaned then; with arguments nothing is converted, an unknown switch exits with 2, and the run succeeds exactly when the cleans asked for read every info file and unlink no directory, their results being those of cleanFiles and cleanSourceFiles |
| BatchConvert.CleanDeletesNamedSource | batchconvert.py:99-118 | as written: when every info reads, --clean deletes the file the first folder's "sourceFile" names, unless it is the script, the info file or a kept name |
| BatchConvert.CleanSourcesUnlinksFolder | batchconvert.py:89-96 | as written: when the first folder's info reads and the folder exists as a directory, --clean-sources unlinks the folder itself and fails with OSError |
| BatchConvert.CorrectedCleanKeepsSource | batchconvert.py:99-118 | corrected: --clean never deletes the file a folder's "sourceFile" names |
| BatchConvert.CorrectedCleanSourcesDeletes | batchconvert.py:89-96 | corrected: when every info reads and no source path is a directory, --clean-sources succeeds and deletes exactly the existing files the folders' "sourceFile" entries name |
| BatchConvertDict.SubscriptInfo | batchconvert/batchconvert.py:123-125 | a folder's step loads the info file into an Info object and subscripts it: a load that succeeds ends in TypeError, one that fails keeps its failure |
| BatchConvertDict.MainAsWritten | batchconvert/batchconvert.py:40-86 | as written, main never converts or cleans a folder: without arguments the first folder stops it, an unknown switch exits with 2, and a clean of either kind stops at the first folder |
| BatchConvertDict.SubscriptedInfoStopsMain | batchconvert/batchconvert.py:54-60 | where batchconvert.py converts every folder whose convertMKV returns, this revision stops at the first, with TypeError whenever its info file loads |
| BatchConvertDict.MainAsWrittenNoFolders | batchconvert/batchconvert.py:40-86 | with no folder found both revisions end alike for every argument list |
| BatchConvertDict.DictAudioArgs | batchconvert/batchconvert.py:149-203 | in the dict reading, an audio track gets "--sync 0:<n>" whenever the key is present, whatever its value, and agrees with batchconvert.py when presence matches a non-zero value |
| BatchConvertDict.Unsynced | batchconvert/batchconvert.py:149-203 | in the dict reading, subtitles never carry a sync |
| BatchConvertDict.DictAudioAsSerialized | batchconvert/batchconvert.py:149-203 | on keys as utils/info.py writes them, the audio arguments equal batchconvert.py's |
| BatchConvertDict.DictMergeAsSerialized | batchconvert/batchconvert.py:149-203 | on an info file written by utils/info.py the merge command is batchconvert.py's with every subtitle sync dropped |
| BatchConvertDict.DictEncodeVideoStep | batchconvert/batchconvert.py:211-372 | in the dict reading, an encode needs "x265Opts" and a vapoursynth section with a script; a section without "script" exits with 1 |
| BatchConvertDict.DictEncodeAgrees | batchconvert/batchconvert.py:211-372 | with "x265Opts" present and the script given as batchconvert.py has it, both revisions take the same video step |
| BatchConvertDict.DictConvertAudioTrack | batchconvert/batchconvert.py:572-663 | in the dict reading, a converted track is always converted by ffmpeg |
| BatchConvertDict.DictNormalizeRaises | batchconvert/batchconvert.py:572-663 | in the dict reading, where the id is the int the info file holds, a track to be normalised raises TypeError, where batchconvert.py converts it through "<id>.norm.flac"; every other track is handled the same |
| BatchConvert.PrepForcedSubs | batchconvert.py:381-384 | as written: only an external subtitle is skipped, so the steps are empty exactly when the track is not external |
| BatchConvert.CorrectedPrepForcedSubs | batchconvert.py:381-384 | corrected: the steps are empty exactly when the track is external |
| AudioFilters.FiltersOfAppend | batchconvert.py:522-535 | the filters of a list of entries are those of its parts, in order |
| AudioFilters.LastNormalize | batchconvert.py:537-540 | the last entry carrying "normalize", and none exactly when no entry carries it |
| AudioFilters.FoldPending | batchconvert.py:522-552 | after the loop the pending filters are exactly those of the entries after the last normalize (all of them without one), and normalize is set exactly when some entry carries it |
| AudioFilters.FoldPreFilter | batchconvert/batchconvert.py:604-607 | pre_filter is the comma-join of the filters gathered since the previous normalize entry up to the last one |
| AudioFilters.FoldKeepsOptions | batchconvert/batchconvert.py:577-580 | the loop never changes the codec or the extra output options the normaliser was built with |
| AudioFilters.FoldFails | nightmode/new-nightmode.py:58-69 | the loop fails, with KeyError, exactly when the "true_peak" key is required and some normalize entry lacks it |
| AudioFilters.FoldKeepsLra | batchconvert/batchconvert.py:608-613 | without normalize entries the keep-LRA flag is left as it was |
| AudioFilters.FfmpegCommandParts | nightmode/new-nightmode.py:103-110 | the plain command maps the track, sets the codec, carries encodeOpts only when non-empty and "-af" only with filters, and ends with the output |
| AudioFilters.EncodeOpts | batchconvert.py:519-520 | a convert dict without "encodeOpts" raises KeyError; otherwise the options as given |
| AudioFilters.PlanAudio | batchconvert.py:505-592 | a track is planned only when its convert dict has "encodeOpts" |
| AudioFilters.PlanWithoutNormalize | batchconvert.py:579-587 | without a normalize entry the track is one ffmpeg run carrying every filter in order |
| AudioFilters.PlanPostFilter | batchconvert.py:551-552 | with a normalize entry, post_filter is the comma-join of the filters after the last one |
| AudioFilters.PlanNormalizeLast | batchconvert/batchconvert.py:604-619 | with a single, final normalize entry every filter is pre_filter, post_filter is empty, "keep" sets the keep flag and the target level is taken |
| AudioFilters.NormalizeDropsEncodeOpts | batchconvert.py:505-518 | as written: the normaliser is built while encodeOpts is still None, so a normalised track loses its encoding options |
| AudioFilters.CorrectedPlanAudio | batchconvert.py:505-518 | corrected: fails exactly when the original fails, and plain ffmpeg plans are unchanged |
| AudioFilters.CorrectedNormalizeKeepsEncodeOpts | batchconvert.py:505-518 | corrected: a normalised track keeps its encoding options |
| AudioFilters.NightmodeOutFilesDistinct | nightmode/new-nightmode.py:116-120 | in a list without repeated settings no two tracks share an output name |
| AudioFilters.NightmodeOutFileRepeats | nightmode/new-nightmode.py:116-120 | repeated settings collide: every copy is named after the position of the first |
| AudioFilters.StepEntry | nightmode/new-nightmode.py:58-69 | one entry fails, with KeyError, exactly when it normalises without "true_peak" and that key is required |
| AudioFilters.Fold | batchconvert.py:522-549 | the loop can fail only with KeyError and only when "true_peak" is required; without normalize entries it succeeds and leaves the normalise flag and the normaliser's attributes as they were |
| AudioFilters.FoldByTotal | batchconvert.py:522-549 | a loop whose every step succeeds succeeds |
| AudioFilters.FoldByFailure | nightmode/new-nightmode.py:58-69 | a loop fails only with the failure its steps raise |
| AudioFilters.FoldByPlain | batchconvert.py:522-535 | entries without "normalize" only add pending filters, never setting the flag or touching the normaliser |
| EncodeExtras.ReadLines | batchconvert/encode_extras.py:84-87 | the lines readResume returns are non-empty, keep their newlines and join back to the stored text |
| EncodeExtras.ConvertStages | batchconvert/encode_extras.py:47-75 | without a resume file every stage runs, extraction through merge and "Done" |
| EncodeExtras.WordRunsRest | batchconvert/encode_extras.py:55-75 | once a stage has run and written the next status word, every later stage runs as well |
| EncodeExtras.FirstStored | batchconvert/encode_extras.py:55-75 | the first status word, in convertMKV's order, that is one of the stored lines; none before it is |
| EncodeExtras.ResumeRunsFrom | batchconvert/encode_extras.py:47-75 | a resumed run performs exactly the stages from the first stored status word on |
| EncodeExtras.ResumeAfterStage | batchconvert/encode_extras.py:47-81 | resuming from a status word written after a stage runs exactly the stages that follow it |
| EncodeExtras.AudioInputs | batchconvert/encode_extras.py:100-123 | each audio track is merged with its title, language and default flag, followed by its loudnorm and DRC files exactly when night mode is on |
| EncodeExtras.SubInputsAll | batchconvert/encode_extras.py:125-134 | every subtitle file is merged, in order, with its own title, language and default flag |
| EncodeExtras.MergeCommand | batchconvert/encode_extras.py:90-144 | mkvmerge reads the command back as exactly video.mkv, the audio and subtitle inputs, and the chapters file when it exists |
| EncodeExtras.MergeReadsBack | batchconvert/encode_extras.py:90-144 | the spelled inputs with the chapter option parse back to the same inputs and options |
| EncodeExtras.InputsSpellable | batchconvert/encode_extras.py:90-137 | every merged file name is not an option and every option list is well formed |
| EncodeExtras.AudioInputsAllShape | batchconvert/encode_extras.py:100-123 | every audio input file name is non-empty, does not start with a dash, and carries a title, language and default flag |
| EncodeExtras.ConvertPart | batchconvert/encode_extras.py:385-387 | the arguments a converted track adds end in its audio file name |
| EncodeExtras.Converted | batchconvert/encode_extras.py:382-383 | no more tracks are converted than the info file lists |
| EncodeExtras.ConvertedMembers | batchconvert/encode_extras.py:382-383 | a track is converted by ffmpeg exactly when it is listed and its convert field contains "yes" |
| EncodeExtras.PartsSnoc | batchconvert/encode_extras.py:381-387 | appending a converted track extends the accumulated arguments by exactly that track's part |
| EncodeExtras.FfmpegRuns | batchconvert/encode_extras.py:381-390 | ffmpeg runs once per converted track |
| EncodeExtras.FfmpegRunAt | batchconvert/encode_extras.py:381-390 | the k-th run carries the parts of every converted track up to and including the k-th, since the command is never reset |
| EncodeExtras.FfmpegRunEnds | batchconvert/encode_extras.py:381-390 | the k-th run ends with the k-th converted track's part and output file |
| EncodeExtras.FfmpegRunRepeatsFirst | batchconvert/encode_extras.py:381-390 | every run after the first converts the first track again and writes its file once more |
| EncodeExtras.CorrectedFfmpegRuns | batchconvert/encode_extras.py:381-390 | the corrected runs start from a fresh command each time, so run k converts only the k-th converted track |
| EncodeExtras.FirstRunAgrees | batchconvert/encode_extras.py:381-390 | the first run is the same as written and corrected |
| EncodeExtras.AudioTargets | batchconvert/encode_extras.py:393-398 | mkvextract copies exactly the tracks whose convert field contains "no", each as id:audio-id.ext |
| EncodeExtras.SubTargets | batchconvert/encode_extras.py:400-406 | every subtitle is extracted, in order, as id:subtitles-id.ext |
| EncodeExtras.ExtractCommand | batchconvert/encode_extras.py:392-408 | the mkvextract command names the source and "tracks", then the copied audio tracks and the subtitles, and ends with the chapters file |
| EncodeExtras.AudioFileWritten | batchconvert/encode_extras.py:381-408 | every track marked "yes" or "no" ends up as its audio file, written by an ffmpeg run or named in the mkvextract command |
| EncodeExtras.NonForcedSteps | batchconvert/encode_extras.py:183-219 | the non-forced subtitle is made in nine steps, toggling the forced flags in the XML and clearing them all in the output |
| EncodeExtras.PrepForced | batchconvert/encode_extras.py:226-241 | a present subtitle starts with extracting its forced captions; a missing first subtitle stops the preparation |
| EncodeExtras.PrepStopsAtMissing | batchconvert/encode_extras.py:226-241 | the first missing subtitle ends the loop: only the subtitles before it are prepared |
| EncodeExtras.PrepForcedSubs | batchconvert/encode_extras.py:222-225 | an info file without subtitles prepares nothing |
| EncodeExtras.Hardcoded | batchconvert/encode_extras.py:162-167 | a missing subtitle key raises; otherwise the burnt-in file is a present forced subtitle of some track, and none is burnt in only when no forced file is present |
| EncodeExtras.FirstForced | batchconvert/encode_extras.py:162-167 | the forced file found is a present one of some subtitle; nothing is found only when none is present |
| EncodeExtras.X264Command | batchconvert/encode_extras.py:169-171 | x264 reads y4m from standard input with the info file's options and the frame count, and writes video.mkv, the first file mergeMKV reads |
| EncodeExtras.NightmodePair | batchconvert/encode_extras.py:357-370 | a track's night-mode files are the loudnorm track's steps followed by the DRC track's, which starts from the compressed filter |
| EncodeExtras.LoudnormTrackCompressed | batchconvert/encode_extras.py:365-370 | as written, the "loudnorm" track is filtered through the compressor exactly like the DRC track |
| EncodeExtras.CorrectedLoudnormPlain | batchconvert/encode_extras.py:338-370 | with the corrected flag the loudnorm track uses plain loudnorm and differs from the DRC track |
| EncodeExtras.MergeFindsLoudnormFile | batchconvert/encode_extras.py:109-123 | after a normalised night-mode run the loudnorm file mergeMKV names exists |
| EncodeExtras.Main | batchconvert/encode_extras.py:24-44 | the folders are found as batchconvert.py finds them and run in order; the run succeeds exactly when every folder's stages return, each folder then running the stages its resume file calls for, and otherwise ends with the first failure |
| EncodeExtras.MainFolders | batchconvert/encode_extras.py:24-44 | a run that gets through works in the current directory alone when it holds the info file, otherwise in subdirectories holding one, and a folder without a resume file runs every stage |
| EncodeExtras.FirstRaised | batchconvert/encode_extras.py:47-75 | there is no failure exactly when every stage returns; otherwise the failure is that of the first stage that raises |
| EncodeExtras.FolderRun | batchconvert/encode_extras.py:47-75 | one folder runs the stages its resume file calls for, and fails exactly when one of them raises, with that failure |
| Json.GetSpec | utils/info.py:194-218 | a dict lookup finds a stored pair for the key, and misses exactly when no pair carries the key |
| Json.GetAppend | utils/info.py:279-291 | looking a key up in joined field lists finds the first list's value when it has one, otherwise the second's |
| Json.Field | utils/info.py:194-218 | subscripting a dict raises KeyError exactly when the key is missing, and otherwise yields the stored value |
| Json.StrsOf | utils/info.py:203-214 | a JSON list reads as a list of strings exactly when every item is a string, keeping its length |
| Json.StrsRoundTrip | utils/info.py:178-181 | a list of strings written to JSON reads back unchanged |
| Info.NewAudio | utils/info.py:80-92 | a new audio track starts with index -1 and keeps its id and convert dict |
| Info.NewSub | utils/info.py:37-58 | an external subtitle is kept exactly when it is named and the file exists; a new subtitle has no source track and index -1 |
| Info.ForcedFile | utils/info.py:76-77 | the forced file is the track's output file name behind "forced-" |
| Info.OutFileSplit | utils/info.py:33-34 | the output name id-index.ext splits back into its id, index and extension |
| Info.OutFileInjective | utils/info.py:33-34 | two tracks share an output name only when id, index and extension all agree |
| Info.IndexAudio | utils/info.py:265-267 | every audio track gets its position as index and is otherwise unchanged |
| Info.IndexSubs | utils/info.py:268-270 | every subtitle gets its position as index and is otherwise unchanged |
| Info.IndexedOutFilesDistinct | utils/info.py:265-267 | once indexed, no two audio tracks write the same output file |
| Info.FirstSource | utils/info.py:274-277 | the source found is the first non-sup2srt subtitle with the id; nothing is found only when there is none |
| Info.LinkSources | utils/info.py:268-277 | every sup2srt subtitle is linked to the first non-sup2srt subtitle with its id, or to nothing when there is none; other tracks are untouched |
| Info.FirstSourceSameKeys | utils/info.py:274-277 | the link depends only on the subtitles' sup2srt flags and ids |
| Info.KeepLanguages | utils/info.py:525-537 | the kept tracks are exactly those whose language is listed |
| Info.FilterLanguages | utils/info.py:524-537 | an empty language list keeps every track; otherwise exactly the tracks in a listed language are kept |
| Info.KeepLanguagesAppend | utils/info.py:525-537 | filtering keeps the tracks' order: filtering a joined list joins the filtered parts |
| Info.KeepLanguagesCount | utils/info.py:525-537 | a kept track appears as often as before, a dropped one not at all |
| Info.NightmodeTemplate | utils/info.py:107-140 | the night-mode copy keeps the id, language, sync and index, and becomes a non-default m4a track titled "<name> (AAC)" |
| Info.AudioListShape | utils/info.py:326-358 | without night mode the audio list is the audio streams' templates; with it the three night-mode variants follow the first audio track only |
| Info.EntryOf | batchconvert.py:524-549 | a filter entry can be read exactly when it is a dict whose "ffmpeg" is a string, whose downmix gains are numbers and whose normalize settings are numbers or "keep"; each part is present in the result exactly when its key is; a failure is TypeError or KeyError |
| Info.DownmixOf | batchconvert.py:490-535 | the gains are read as numbers, an int widened to a real; a missing gain raises KeyError, a gain of another kind TypeError |
| Info.NormalizeOf | batchconvert.py:537-549 | "keep" sets the keep flag and a number is the range target; the target level and the optional true peak are numbers; a missing range target or target level raises KeyError |
| Info.EntriesOf | batchconvert/batchconvert.py:589-590 | a filter list reads exactly when every item is readable, as one entry per item, each the reading of its item; a failure is TypeError or KeyError |
| Info.ConvertOf | batchconvert/batchconvert.py:576-590 | a convert dict reads as codec, encode options and filter list; a missing codec raises KeyError; a readable codec and options with a filter list succeed exactly when every entry is readable; a failure is TypeError or KeyError |
| Info.DynaudnormEntry | utils/info.py:116 | the dynaudnorm entry decodes to that ffmpeg filter alone |
| Info.DownmixEntry | utils/info.py:123-129 | the downmix entry decodes to its centre, LFE and surround volumes |
| Info.NormalizeEntry | utils/info.py:117-122 | the normalize entry decodes to "keep" LRA and a -23 target |
| Info.EntriesCons | batchconvert/batchconvert.py:589-590 | decoding a list decodes its head and then its rest |
| Info.NightmodeEntriesDecode | utils/info.py:132-137 | the night-mode filter list decodes to optional dynaudnorm, the downmix, then normalize |
| Info.SettingsLookups | utils/info.py:132-133 | the night-mode convert dict answers its three keys |
| Info.ConvertOfFields | utils/info.py:132-137 | a convert dict of codec, encode options and decodable filters reads back as those settings |
| Info.NightmodeTemplateSettings | utils/info.py:130-137 | a night-mode track reads back as 256K AAC with its filter entries |
| Info.NightmodeTemplatePlan | utils/info.py:130-137 | batchconvert.py normalises a night-mode track, with the optional dynaudnorm and the downmix as its pre-filter |
| Info.NightmodeEntryFilters | utils/info.py:132-137 | the filters of the night-mode entries are the optional dynaudnorm followed by the downmix |
| Info.NightmodeTemplateStrictFails | nightmode/new-nightmode.py:58-69 | a reader that requires "true_peak" in every normalize entry rejects a night-mode template with KeyError |
| Info.AudioExtension | utils/info.py:432-441 | the extension comes from substring tests against "dts", "truehd" and "ac3", dtshd only for a DTS-HD profile, mka otherwise; a DTS stream without a profile raises KeyError |
| Info.ChannelTitle | utils/info.py:457-469 | mono and stereo streams are titled so; others need a channel layout or raise |
| Info.StreamLanguage | utils/info.py:453-454 | the language is read exactly when the stream has a non-empty language tag |
| Info.AudioTemplate | utils/info.py:425-484 | a non-audio stream has no template; an audio template gets the stream's extension, a copy codec exactly for mka, its channel title and codec in the title, and the stream's language |
| Info.SubtitleExtension | utils/info.py:492-495 | sup exactly for a codec contained in "hdmv_pgs_subtitle", srt otherwise |
| Info.SubtitleTitle | utils/info.py:505-510 | the title is the upper-cased language, " Subtitles", and (PGS) or (SRT) by extension |
| Info.SubtitleTemplate | utils/info.py:486-522 | a non-subtitle stream has no template; a subtitle template fails exactly when the language tag is missing, and otherwise is a non-default, non-OCR track with the stream's id |
| Info.CodecSubstringClasses | utils/info.py:432-441 | the tests are substring tests of the codec name: "eac3" is not ac3, and an empty codec name counts as DTS |
| InfoJson.VapoursynthJson | utils/info.py:167-179 | the vapoursynth entry is truthy exactly when a script is set |
| InfoJson.AudioJsons | utils/info.py:280-283 | every audio track is written as one dict |
| InfoJson.SubJsons | utils/info.py:281-285 | every subtitle track is written as one dict |
| InfoJson.InfoGet | utils/info.py:279-291 | the written info dict holds exactly title, sourceFile, outputFile, video, audio and subs |
| InfoJson.VideoGet | utils/info.py:166-181 | the written video dict holds its fields, mkvmergeOpts only when non-empty, and "2pass" only in the corrected writer |
| InfoJson.HeadGet | utils/info.py:61-65 | every track is written with title, extension, default, id and language |
| InfoJson.SyncGet | utils/info.py:66-67 | "sync" is written exactly when it is non-zero |
| InfoJson.AudioGet | utils/info.py:94-105 | an audio track's dict holds its fields, sync only when non-zero, and its convert dict |
| InfoJson.SubGet | utils/info.py:60-71 | a subtitle's dict holds its fields, sync only when non-zero, and external only when set |
| InfoJson.LoadAudio | utils/info.py:219-238 | a loaded audio track has index -1; a falsy "convert" becomes {} and a truthy one is kept as it is, dict or not; a track without "convert" is KeyError |
| InfoJson.LoadSub | utils/info.py:239-261 | a loaded subtitle has index -1 and no source track yet |
| InfoJson.LoadAudios | utils/info.py:219-238 | every audio entry loads as one track |
| InfoJson.LoadSubs | utils/info.py:239-261 | every subtitle entry loads as one track |
| InfoJson.LoadVideo | utils/info.py:196-201 | a video section with "vapoursynth" but no top-level "script" raises KeyError |
| InfoJson.AudioRoundTrip | utils/info.py:94-105 | an audio track written and read back is the same track with index -1 |
| InfoJson.SubRoundTrip | utils/info.py:60-71 | a subtitle written and read back is the same, with index -1 and no source track, when its external file exists |
| InfoJson.AudiosRoundTrip | utils/info.py:219-238 | the audio list written and read back is the same list |
| InfoJson.SubsRoundTrip | utils/info.py:239-261 | the subtitle list written and read back is the same list |
| InfoJson.VapoursynthRoundTrip | utils/info.py:167-173 | a written vapoursynth entry holds the script, and the variables only when there are any |
| InfoJson.VideoWithRoundTrip | utils/info.py:166-218 | the video fields, read back with the script and variables, give the same video track |
| InfoJson.VideoRoundTrip | utils/info.py:196-201 | with the script read from the vapoursynth entry, a written video track reads back unchanged |
| InfoJson.FinishRestores | utils/info.py:265-277 | indexing and linking the loaded tracks restores an info file already in that form |
| InfoJson.FirstSourceSameKeysAll | utils/info.py:274-277 | reloading keeps every subtitle link, since links depend only on flags and ids |
| InfoJson.TracksRoundTrip | utils/info.py:219-277 | the tracks of a written info file read back as the same info file |
| InfoJson.LoadOfSerializedFails | utils/info.py:196-201 | as written, loading any info file with a vapoursynth entry that __iter__ wrote raises KeyError |
| InfoJson.Load | utils/info.py:185-196 | as written, an info file that loads is a dict, and the loaded info's source name is the "" the constructor starts from, whatever "sourceFile" holds |
| InfoJson.CorrectedLoad | utils/info.py:185-196 | corrected, an info file that loads is a dict whose "sourceFile" is the loaded source name |
| InfoJson.CorrectedRoundTrip | utils/info.py:184-291 | corrected, an info file written and loaded again is the same info file |
| ForcedSubs.Field | forced-subtitles/compare-forced-subtitles.py:8-11 | a timecode field reads as a number exactly when it is present and numeric; a missing field is IndexError, a malformed one ValueError |
| ForcedSubs.Tc2Sec | forced-subtitles/compare-forced-subtitles.py:6-17 | a timecode converts exactly when it has at least four colon-separated fields, the first four numeric, and the frame rate is not zero; otherwise it is an IndexError, ValueError or ZeroDivisionError; at a positive frame rate the time is never negative |
| ForcedSubs.SecondsOfFields | forced-subtitles/compare-forced-subtitles.py:6-17 | a timecode is hours times 3600 plus minutes times 60 plus seconds plus frames over the frame rate, and a zero frame rate divides by zero |
| ForcedSubs.MissingField | forced-subtitles/compare-forced-subtitles.py:8-11 | a timecode with fewer than four fields fails |
| ForcedSubs.ZeroPadNoColon | forced-subtitles/compare-forced-subtitles.py:7 | a zero-padded field is numeric and holds no colon |
| ForcedSubs.SplitFour | forced-subtitles/compare-forced-subtitles.py:7-11 | four colon-free fields joined by colons split back into the same four |
| ForcedSubs.Tc2SecOfTimecode | forced-subtitles/compare-forced-subtitles.py:6-17 | a timecode written as %02d:%02d:%02d:%02d converts to its value in seconds |
| ForcedSubs.IsOverlap | forced-subtitles/compare-forced-subtitles.py:24-37 | two events overlap exactly when each starts before the other ends and both have positive length |
| ForcedSubs.OverlapSymmetric | forced-subtitles/compare-forced-subtitles.py:24-37 | the overlap test does not depend on the order of the events |
| ForcedSubs.TouchingNoOverlap | forced-subtitles/compare-forced-subtitles.py:30-37 | an event that ends where the other starts does not overlap it |
| ForcedSubs.OverlapCount | forced-subtitles/compare-forced-subtitles.py:54-57 | an event's overlap count is at most the other file's event count, and positive exactly when it overlaps some event there |
| ForcedSubs.MarkForced | forced-subtitles/compare-forced-subtitles.py:53-57 | exactly the events that overlap some event of the other file are marked Forced="True"; the others are unchanged |
| ForcedSubs.MarkForcedCount | forced-subtitles/compare-forced-subtitles.py:52-57 | the printed count is the number of overlapping pairs, and zero exactly when no pair overlaps |
| ForcedSubs.Toggle | forced-subtitles/compare-forced-subtitles.py:63-66 | the toggled flag is always "True" or "False" |
| ForcedSubs.SubstringOfFalse | forced-subtitles/compare-forced-subtitles.py:63 | the flag "False" passes the substring test |
| ForcedSubs.NotSubstringOfFalse | forced-subtitles/compare-forced-subtitles.py:63 | the flag "True" fails the substring test |
| ForcedSubs.ToggleSwaps | forced-subtitles/compare-forced-subtitles.py:62-66 | on "True" and "False" the toggle swaps the two, so toggling twice restores the flag |
| ForcedSubs.ToggleAll | forced-subtitles/compare-forced-subtitles.py:62-66 | every event's flag is toggled and nothing else changes |
| ForcedSubs.NonforcedFile | forced-subtitles/compare-forced-subtitles.py:53-67 | in the "-nonforced" file an event is forced exactly when it overlapped nothing and was not forced before |
| ForcedSubs.OutputNameOfXml | forced-subtitles/compare-forced-subtitles.py:60-67 | for a name ending in ".xml" once, the outputs are the stem followed by "-forced.xml" or "-nonforced.xml" |
| ForcedSubs.FrameRateAttr | forced-subtitles/compare-forced-subtitles.py:20-21 | a file without a Format element raises StopIteration |
| ForcedSubs.Attr | forced-subtitles/compare-forced-subtitles.py:21 | an attribute lookup yields a stored value for the key, and raises KeyError exactly when no attribute has that name |
| Prompts.Ask | misc-scripts/extract_bluray.py:229-232 | the answer taken is the first acceptable one from the current position; running out of answers raises EOFError |
| NightmodeAudio.PanFilterSplits | nightmode/batch_nightmode.py:357-366 | the pan filter is "pan=stereo" and the two channel definitions, split back apart at the bars |
| NightmodeAudio.PanSideNoBar | nightmode/batch_nightmode.py:361-364 | a channel definition holds no bar when its gains hold none |
| NightmodeAudio.ConvertDiffersOnlyInOperator | batchconvert/batchconvert.py:557-569 | batchconvert.py's matrix and utils/nightmode.py's have the same terms for each channel and differ only in '<' for '=' |
| NightmodeAudio.OperatorPosition | batchconvert/batchconvert.py:562-567 | the channel operator is the third character of each channel definition |
| NightmodeAudio.LastLineWith | nightmode/batch_nightmode.py:429-432 | the line kept is the last right-stripped line holding the key; nothing is kept only when no line holds it |
| NightmodeAudio.VolumeField | nightmode/batch_nightmode.py:433 | the value is what lies between ": " and the last three characters; a line without a colon raises ValueError |
| NightmodeAudio.BatchMaxdB | nightmode/batch_nightmode.py:422-433 | the peak is read from the last max_volume line; without one `temp` is unbound and NameError is raised |
| NightmodeAudio.ReplaceMaxdB | nightmode/replace_nightmode.py:361-376 | without a max_volume line `temp` is empty and its index(':') raises ValueError |
| NightmodeAudio.CopyRange | nightmode/replace_nightmode.py:374-375 | the character loop copies the slice between its bounds, and nothing when the range is empty |
| NightmodeAudio.MaxdBRevisionsAgree | nightmode/replace_nightmode.py:361-376 | whenever a max_volume line exists, the character loop reads the same value as the slice of batch_nightmode.py |
| NightmodeAudio.MaxVolumeLineLength | nightmode/replace_nightmode.py:372-374 | a line holding "max_volume" is at least ten characters long |
| NightmodeAudio.UtilsMaxdB | utils/nightmode.py:40-64 | without output or without a max_volume line the peak is "0.0"; otherwise it is read as batch_nightmode.py reads it |
| NightmodeAudio.TrimField | nightmode/replace_nightmode.py:318-320 | the sample rate is the field without its first character and last three |
| NightmodeAudio.ReplaceSamplerate | nightmode/replace_nightmode.py:307-321 | the rate comes from the second comma field of the last Stream line; no Stream line is NameError, a single field IndexError |
| NightmodeAudio.BatchPanFilter | nightmode/batch_nightmode.py:357-366 | the filter starts with "pan=stereo", a bar and "FL="; when the gains hold no bar it is exactly three arguments: "pan=stereo" and the left and right definitions with a plain centre, the surround gain on the front, front-centre, back and side channels and the LFE gain on LFE |
| NightmodeAudio.UtilsPanFilter | utils/nightmode.py:122-134 | as the batch filter, but the centre is scaled by half the centre gain and the LFE gain is halved |
| NightmodeAudio.ConvertPanFilter | batchconvert.py:490-502 | as utils/nightmode.py's filter, but each channel is defined with the renormalising '<' |
| NightmodeAudio.PanFilterChannels | batchconvert/batchconvert.py:557-569 | with bar-free gains the filter splits into "pan=stereo" and two channel definitions, each "F", the side, the operator and its terms |
| NightmodeAudio.PanFilterHead | batchconvert/batchconvert.py:557-569 | the filter begins with "pan=stereo", a bar, "FL" and the channel operator |
| NightmodeCleanup.RemoveAllOf | nightmode/batch_nightmode.py:176-178 | every listed name is removed in order, and the run fails with OSError exactly when one of them is a directory |
| NightmodeCleanup.WithExt | nightmode/batch_nightmode.py:171-174 | exactly the entries whose lower-cased extension is on the list are selected |
| NightmodeCleanup.BatchCleanup | nightmode/batch_nightmode.py:165-178 | a completed cleanup ends by deleting resume.txt |
| NightmodeCleanup.NotInDeleteExt | nightmode/batch_nightmode.py:170-173 | an extension as os.path.splitext returns it, empty or dotted, is never one of "flac", "m4a", "mkv" |
| NightmodeCleanup.RemoveResumeOnly | nightmode/batch_nightmode.py:175-178 | with nothing selected, the cleanup removes resume.txt alone |
| NightmodeCleanup.BatchCleanupKeepsIntermediates | nightmode/batch_nightmode.py:169-178 | as written, no file is selected by extension, so only resume.txt is deleted |
| NightmodeCleanup.CorrectedCleanupDeletes | nightmode/batch_nightmode.py:167-178 | with dotted extensions the cleanup succeeds on a directory of files and deletes the extracted FLAC |
| NightmodeCleanup.Unprotected | nightmode/replace_nightmode.py:36-40 | exactly the entries whose name is not on the keep list are candidates for deletion |
| NightmodeCleanup.ReplaceCleanup | nightmode/replace_nightmode.py:116-120 | every name not on the keep list is deleted, and the cleanup fails exactly when one of those is a directory |
| NightmodeCleanup.ReplaceCleanupNames | nightmode/replace_nightmode.py:116-120 | removing the unprotected entries deletes exactly the names not on the keep list |
| NightmodeCleanup.ReplaceCleanupDeletesResume | nightmode/replace_nightmode.py:36-40 | resume.txt is not on the keep list, so a successful cleanup deletes it |
| NightmodeNorm.BatchNorm | nightmode/batch_nightmode.py:385-408 | normalised exactly when the peak reads 0.0 or the verified peak is the target; nothing is written for a 0.0 peak; otherwise the volume pass writes the FLAC named after the output's root, converted to m4a only for a verified "aac" track |
| NightmodeNorm.ReplaceNorm | nightmode/replace_nightmode.py:324-347 | the same decision as batch_nightmode.py, with the FLAC name cut at ".m4a" for "aac" |
| NightmodeNorm.M4aName | nightmode/replace_nightmode.py:350-352 | the m4a name differs from the FLAC name and ends in ".m4a" |
| NightmodeNorm.UtilsNorm | utils/nightmode.py:137-165 | a 0.0 peak returns False without writing; a verified peak writes the output and returns True; any other peak exits with status 0 |
| NightmodeNorm.ExtrasNorm | batchconvert/encode_extras.py:314-335 | the utils decision, where a verified normalisation starts with the volume pass into the output file |
| NightmodeNorm.NormRevisionsAgree | nightmode/batch_nightmode.py:385-408 | on a non-zero peak all four revisions succeed exactly when the verified peak is the target |
| NightmodeNorm.NormZeroPeakSplit | utils/nightmode.py:139-143 | on a 0.0 peak the night-mode scripts report success and the other two report failure, and none writes a file |
| NightmodeNorm.BatchAacKeepsName | nightmode/batch_nightmode.py:394-419 | an "aac" track named root.m4a is written as root.flac and converted back to root.m4a |
| NightmodeNorm.ReplaceAacKeepsName | nightmode/replace_nightmode.py:331-358 | the same holds for the replace revision's name cutting |
| NightmodeNorm.UtilsTrackFilter | utils/nightmode.py:196-201 | the filter is the compressor when asked for, then loudnorm when asked for, joined by commas |
| NightmodeNorm.UtilsNightmodeTrack | utils/nightmode.py:186-228 | the track fails exactly when the normalisation it runs, on the input or on prenorm.flac, exits |
| NightmodeNorm.UtilsTrackLeavesOutput | utils/nightmode.py:186-228 | a completed track removes prenorm.flac and leaves the output, or for "aac" the m4a in its place |
| NightmodeNorm.UtilsTrackRemovesOnlyPrenorm | utils/nightmode.py:186-228 | without "aac" a track removes no file but prenorm.flac |
| NightmodeNorm.UtilsNightmodeNames | utils/nightmode.py:235-238 | the three night-mode names are distinct and differ from downmix.flac and prenorm.flac |
| NightmodeNorm.UtilsNamesOfStem | utils/nightmode.py:236-238 | for an input stem.ext the names are stem-nightmode.flac, stem-nightmode-loudnorm.flac and stem-nightmode-drc.flac |
| NightmodeNorm.UtilsCreateNightmodeTracks | utils/nightmode.py:231-254 | the run starts with the downmix into downmix.flac and ends by removing it |
| NightmodeNorm.UtilsCreateLeavesTracks | utils/nightmode.py:231-254 | without "aac" a completed run leaves all three night-mode files and neither intermediate |
| NightmodeNorm.BatchNightmode | nightmode/batch_nightmode.py:344-354 | the filtered audio goes to normin.flac, which is removed exactly when normAudio reports success |
| NightmodeNorm.ReplaceNightmodeTrack | nightmode/replace_nightmode.py:275-305 | the fixed pan filter, with DRC when asked, goes to normin.flac, removed exactly when normAudio reports success |
| NightmodeNorm.BatchZeroPeakLosesTrack | nightmode/batch_nightmode.py:344-391 | as written, a filtered track whose peak reads 0.0 is reported normalised, normin.flac is deleted and no output track is written |
| NightmodeNorm.CorrectedBatchNightmode | nightmode/batch_nightmode.py:344-354 | corrected, the run is unchanged on a non-zero peak |
| NightmodeNorm.CorrectedBatchKeepsTrack | nightmode/batch_nightmode.py:344-419 | corrected, every run leaves the track: the m4a for a normalised "aac" track, the FLAC otherwise |
| NightmodeNorm.ExtrasNightmodeTrack | batchconvert/encode_extras.py:338-354 | the track fails exactly when its normalisation exits, and starts by filtering the input into prenorm.flac |
| NightmodeNorm.ExtrasZeroPeakNoOutput | batchconvert/encode_extras.py:338-354 | as written, a 0.0 peak leaves prenorm.flac behind and never writes the output track |
| NightmodeNorm.CorrectedExtrasNightmodeTrack | batchconvert/encode_extras.py:338-354 | corrected, the run fails exactly when the original does and is unchanged on a non-zero peak |
| NightmodeNorm.CorrectedExtrasKeepsTrack | batchconvert/encode_extras.py:338-354 | corrected, a completed run removes prenorm.flac and leaves the track, as m4a for a normalised "aac" track |
| NightmodeMkv.KeepFromJoin | nightmode/batch_nightmode.py:271-277 | when the first kept id does not occur again, the loop writes a comma before every id, so its output is the comma join behind a leading comma |
| NightmodeMkv.KeepAudioTracks | nightmode/batch_nightmode.py:271-277 | the `--audio-tracks` value is the comma join of the kept ids whenever the first id is not repeated |
| NightmodeMkv.KeepAudioTracksRepeatedFirst | nightmode/batch_nightmode.py:271-277 | a repeated first id loses its separator: ["1", "1", "2"] gives "11,2", not the join "1,1,2" |
| NightmodeMkv.KeepAudioTracksJoined | nightmode/batch_nightmode.py:271-277 | the intended value splits back at the commas into exactly the kept ids |
| NightmodeMkv.SurroundIds | nightmode/batch_nightmode.py:284-286 | the ids are the first field of each surround track, in order, and an empty track is an IndexError |
| NightmodeMkv.FinalKeep | nightmode/batch_nightmode.py:284-287 | keepTracks afterwards is sorted, holds exactly the ids that were kept or belong to a surround track, and is a permutation of the list with the missing ids appended |
| NightmodeMkv.TrackOrder | nightmode/batch_nightmode.py:280-297 | the order succeeds exactly when every surround track has an id, and always starts with the video track "0:0" |
| NightmodeMkv.MatchLoopSpec | nightmode/batch_nightmode.py:291-296 | the inner loop appends one file pair per surround track with the kept id, the first pair of the whole run being "1:0,2:0" and every later one "3:0,4:0" |
| NightmodeMkv.OrderLoopMatchesSpec | nightmode/batch_nightmode.py:288-296 | the outer loop appends ",0:<id>" for each kept id followed by that id's file pairs, from any state of the pairs written so far |
| NightmodeMkv.TrackOrderMatchesSpec | nightmode/batch_nightmode.py:280-297 | genTrackOrder equals the reference order over the final keep list, and returns that keep list |
| NightmodeMkv.ThirdSurroundTrackRepeatsPair | nightmode/batch_nightmode.py:289-296 | with three surround tracks 1, 2 and 3 the order is "0:0,0:1,1:0,2:0,0:2,3:0,4:0,0:3,3:0,4:0": the third track repeats the second's files |
| NightmodeMkv.ThirdSurroundTrackMissing | nightmode/batch_nightmode.py:289-296 | for those three tracks the order never names files 5 and 6 |
| NightmodeMkv.CorrectedTrackOrder | nightmode/batch_nightmode.py:280-297 | the intended order fails exactly as genTrackOrder does, places the file pair of every surround track, and returns the same keep list |
| NightmodeMkv.CorrectedOrderPlacesThird | nightmode/batch_nightmode.py:289-296 | with three or more surround tracks the intended order names ",5:0,6:0" |
| NightmodeMkv.StepOutputFile | nightmode/batch_nightmode.py:92-138 | a step's output file has an extension only for the flac and aac codecs; any other codec leaves it unset |
| NightmodeMkv.BatchTracksArgs | nightmode/batch_nightmode.py:233-266 | ten arguments per surround track, and a KeyError unless every track's language is English or Japanese and the codec is flac or aac |
| NightmodeMkv.MkvmergeHead | nightmode/batch_nightmode.py:246-250 | the command starts mkvmerge -o <out> --track-order <order> --audio-tracks <keep> <in> |
| NightmodeMkv.OutputMkvWith | nightmode/batch_nightmode.py:246-250 | the command fails first as the track order fails, then as the track arguments fail; otherwise it is mkvmerge -o <out> --track-order <order> --audio-tracks <keep list as left> <in> followed by the track arguments |
| NightmodeMkv.BatchOutputMkv | nightmode/batch_nightmode.py:231-268 | the command succeeds exactly when genTrackOrder and every track's language and codec lookups do; it carries genTrackOrder's order as written and the comma list of the keep tracks as genTrackOrder leaves them, then ten arguments per surround track |
| NightmodeMkv.CorrectedBatchOutputMkv | nightmode/batch_nightmode.py:289-296 | corrected: the same command with a track order that places every surround track's own two files |
| NightmodeMkv.OutputMkvRevisionsDiffer | nightmode/batch_nightmode.py:246-250 | the command as written and the corrected one fail alike and differ in nothing but the track order |
| NightmodeMkv.ThirdTrackCommand | nightmode/batch_nightmode.py:246-268 | for surround tracks 1:eng, 2:jpn, 3:eng the command as written never places ",5:0,6:0", which the corrected command does |
| NightmodeMkv.BatchMuxesStepOutputs | nightmode/batch_nightmode.py:124-138 | the two files outputMkv adds for surround track k are exactly the files the loudnorm and DRC steps wrote for it |
| NightmodeMkv.ReplaceTracksArgs | nightmode/replace_nightmode.py:167-229 | replace_nightmode.py's outputMkv fails only on a track without a language, adds ten arguments per English or Japanese track and nothing for an unknown codec |
| NightmodeMkv.ReplaceAgreesOnEnglish | nightmode/replace_nightmode.py:169-198 | on English tracks with a known codec both outputMkv versions add the same arguments |
| NightmodeMkv.ReplaceSkipsOtherLanguages | nightmode/replace_nightmode.py:167-229 | a track in a third language is skipped by replace_nightmode.py and a KeyError in batch_nightmode.py |
| NightmodeMkv.ReplaceOutputMkv | nightmode/replace_nightmode.py:161-231 | the command succeeds exactly when its genTrackOrder (the same as batch_nightmode.py's) and the language lookups do; it carries that order as written, then a multiple of ten track arguments |
| NightmodeStages.TrackStages | nightmode/batch_nightmode.py:111-142 | the per-track stages from position p on are three per remaining track |
| NightmodeStages.StageNameInjective | nightmode/batch_nightmode.py:103-164 | different stages write different names to resume.txt, and none is the "nightmode-drc-1" the first track also accepts |
| NightmodeStages.StageNameStripped | nightmode/batch_nightmode.py:103-105 | a stage name survives the rstrip applied when resume.txt is read back |
| NightmodeStages.TrackStepShape | nightmode/batch_nightmode.py:111-142 | one track's steps fire as a cascade: extraction after the copy or the previous track's DRC, then loudnorm, then DRC, each also resumable from the stage before it |
| NightmodeStages.TrackStepFrom | nightmode/batch_nightmode.py:111-142 | entered at a named stage, a track runs exactly the steps after that stage and ends at its DRC stage; any other name runs nothing |
| NightmodeStages.TailShape | nightmode/batch_nightmode.py:143-164 | the mux runs only after the last track's DRC and the copy-back after the mux |
| NightmodeStages.TrackLoopRuns | nightmode/batch_nightmode.py:111-142 | with distinct surround tracks the loop, entered where track p begins, writes every remaining track's three stages in order |
| NightmodeStages.TrackLoopResumes | nightmode/batch_nightmode.py:111-142 | entered at a per-track stage, the loop writes exactly the per-track stages after it |
| NightmodeStages.TrackLoopPasses | nightmode/batch_nightmode.py:111-142 | tracks before the one a stage belongs to, and all tracks for the mux stages, leave the resume name alone |
| NightmodeStages.ReplaceNightmode | nightmode/batch_nightmode.py:89-164 | reading resume.txt fails only when the file is empty, with IndexError; the copy to source is written exactly when there is no resume.txt, and then first; a run that copies the new mkv back reaches the clean-up |
| NightmodeStages.FreshRunShape | nightmode/batch_nightmode.py:106-110 | without resume.txt the run copies the source first, then runs the track loop and the tail |
| NightmodeStages.FreshRunWritesSchedule | nightmode/batch_nightmode.py:89-164 | a job started without resume.txt writes every stage of the schedule in order and reaches the clean-up |
| NightmodeStages.ResumedRunShape | nightmode/batch_nightmode.py:103-105 | a rerun starts from the first line of resume.txt with trailing whitespace stripped |
| NightmodeStages.ResumedRunWritesAfter | nightmode/batch_nightmode.py:89-164 | a rerun that finds the name of stage s writes exactly the stages after s in the schedule and reaches the clean-up |
| NightmodeStages.ResumedRunWritesRest | nightmode/batch_nightmode.py:89-164 | resuming from any position of the schedule writes exactly the rest of the schedule |
| NightmodeStages.NoSurroundTracksStalls | nightmode/batch_nightmode.py:143-144 | a job with no surround tracks stops after copying the source: the mux waits for "nightmode-drc-1", which no step writes |
| NightmodeQueue.BatchStart | nightmode/batch_nightmode.py:24-48 | the run resumes exactly when a database file exists and the first y-or-n answer is y; otherwise it generates from the first argument, exits with 1 when there is none, and fails with EOFError when the answers run out |
| NightmodeQueue.InvalidAnswerReasked | nightmode/batch_nightmode.py:29-32 | an answer other than y or n is asked again, and case does not matter |
| NightmodeQueue.BatchQueue | nightmode/batch_nightmode.py:50-70 | the queue is the saved list exactly when the resume database's hash matches the jobs database, the jobs database otherwise |
| NightmodeQueue.BatchStaleResumeIgnored | nightmode/batch_nightmode.py:68-69 | a resume database written against another jobs database is ignored |
| NightmodeQueue.ReplaceQueue | nightmode/replace_nightmode.py:15-20 | replace_nightmode.py runs the resume list whenever it exists, the work list otherwise |
| NightmodeQueue.QueueLoopRuns | nightmode/batch_nightmode.py:74-78 | the loop runs the queued jobs in order, each exactly once |
| NightmodeQueue.QueueLoopLeaves | nightmode/batch_nightmode.py:74-86 | after each job the resume file holds the jobs still to run, and it is deleted after the last job |
| NightmodeQueue.BatchRunCompletes | nightmode/batch_nightmode.py:15-87 | an uninterrupted run runs every queued job and leaves no resume database |
| NightmodeQueue.InterruptedRunResumes | nightmode/batch_nightmode.py:74-86 | a run interrupted in job k leaves the jobs from k on, and the two runs together run the queue |
| NightmodeQueue.BatchRunResumes | nightmode/batch_nightmode.py:181-195 | the resume database an interrupted run writes carries the current hash, so the next run picks up exactly the jobs from k on |
| NightmodeQueue.ReplaceRunResumes | nightmode/replace_nightmode.py:21-31 | replace_nightmode.py's rerun after an interruption in job k runs exactly the jobs from k on |
| NightmodeQueue.QueueLoop | nightmode/batch_nightmode.py:74-86 | at least one event per job run; each pass compares the job as its run leaves it with the last job, so the last job always deletes the resume file |
| NightmodeQueue.AfterMux | nightmode/batch_nightmode.py:284-287 | after the mux a job's keepTracks is sorted and holds exactly its earlier ids and its surround ids; nothing else of the job changes, and a surround track without an id leaves the job as it was |
| NightmodeQueue.FirstPassOfThree | nightmode/batch_nightmode.py:74-86 | after the first of three jobs the resume file is deleted exactly when that job, as its run left it, equals the last job; otherwise it holds the other two |
| NightmodeQueue.RepeatedLastJobDropsResume | nightmode/batch_nightmode.py:74-86 | a first job that its mux leaves equal to the last job deletes the resume file after running; a job listed first and last with unsorted keepTracks is changed by genTrackOrder, so the file survives with the other two jobs |
| NightmodeJobs.FilesList | nightmode/batch_nightmode.py:584-589 | the file list is sorted and holds exactly the paths the walk found |
| NightmodeJobs.FilesListOrderFree | nightmode/batch_nightmode.py:584-589 | the order the directory walk returns the paths in does not change the list |
| NightmodeJobs.StatsOf | nightmode/batch_nightmode.py:593-621 | one file stat per listed file, in list order |
| NightmodeJobs.MkvsWith | nightmode/batch_nightmode.py:574-576 | a group's file list holds exactly the files whose audio info equals the group's |
| NightmodeJobs.MkvsWithSnoc | nightmode/batch_nightmode.py:574-576 | walking one more file appends it to a group exactly when its audio info matches |
| NightmodeJobs.SimilarTracks | nightmode/batch_nightmode.py:557-580 | one group per distinct audio info, no two with the same info, each holding exactly the files with that info |
| NightmodeJobs.SimilarTracksOrder | nightmode/batch_nightmode.py:561-565 | the groups come in the order their audio info first occurs among the files |
| NightmodeJobs.SimilarTracksPartition | nightmode/batch_nightmode.py:557-580 | together the groups hold every file exactly once |
| NightmodeJobs.Decisions | nightmode/batch_nightmode.py:529-554 | one y-or-n decision per file, each from the first acceptable answer after the previous one, and EOFError when the answers run out |
| NightmodeJobs.DecisionsFirst | nightmode/batch_nightmode.py:538-550 | a file is rejected exactly when its accepted answer, lower-cased, is n |
| NightmodeJobs.Pick | nightmode/batch_nightmode.py:546-550 | the files whose decision matches are all selected, and nothing else |
| NightmodeJobs.RemoveRejected | nightmode/batch_nightmode.py:468-470 | removing the rejected stats one by one leaves exactly the accepted files in order |
| NightmodeJobs.SplitEach | nightmode/batch_nightmode.py:493 | each piece of the surround answer splits at ':' into parts that join back to the piece |
| NightmodeJobs.SurroundTracks | nightmode/batch_nightmode.py:492-493 | the parsed surround tracks join back, with ':' and ',', to the answer typed |
| NightmodeJobs.AskTrackLists | nightmode/batch_nightmode.py:483-502 | a group's answers: keep tracks from the first answer with a comma or of one character, surround tracks from the next answer, and a codec that is flac or aac |
| NightmodeJobs.JobsOf | nightmode/batch_nightmode.py:509-514 | one job per file of the group, in order, each carrying the group's answers |
| NightmodeJobs.GenerateJobs | nightmode/batch_nightmode.py:475-514 | the jobs' source files are the groups' files in group order, and every job's codec is flac or aac |
| NightmodeJobs.GenerateJobList | nightmode/batch_nightmode.py:463-524 | every job's codec is flac or aac, and running out of answers is an EOFError |
| NightmodeJobs.JobListPartition | nightmode/gen_nightmode.py:9-35 | with no path found twice, every found file is either the source of exactly one job or rejected, never both |
| DsdToFlac.Validate | dsd-to-flac/dsd-to-flac.py:60-70 | the run goes ahead exactly when both directories are given and the bit depth is "24" or "16"; every other case exits with status 1 |
| DsdToFlac.SampleFormat | dsd-to-flac/dsd-to-flac.py:140-145 | the sample format is chosen by substring test on "24" and "16" ("16" winning); a depth contained in neither leaves it unbound and raises NameError |
| DsdToFlac.ValidatedSampleFormat | dsd-to-flac/dsd-to-flac.py:68-70 | after main's checks the format is always bound: s32 for 24-bit and s16 for 16-bit |
| DsdToFlac.PartitionExact | dsd-to-flac/dsd-to-flac.py:179-183 | the walk's files are split into DSF and non-DSF lists with nothing lost or duplicated, each file in the list its extension selects |
| DsdToFlac.CollapseProps | dsd-to-flac/dsd-to-flac.py:172-177 | the directory list never has the same directory twice in a row and holds exactly the directories of the files walked |
| DsdToFlac.CollapseKeeps | dsd-to-flac/dsd-to-flac.py:172-177 | a directory sequence without adjacent repeats is kept as it is |
| DsdToFlac.Relative | dsd-to-flac/dsd-to-flac.py:186-191 | removing the input directory fails with IndexError exactly when nothing of the path is left |
| DsdToFlac.TopLevelFileFails | dsd-to-flac/dsd-to-flac.py:186-191 | as written: a file directly inside the input directory makes its directory name empty and the listing fails with IndexError |
| DsdToFlac.CorrectedTopLevel | dsd-to-flac/dsd-to-flac.py:186-191 | corrected: the top-level directory becomes the empty relative directory and the listing succeeds |
| DsdToFlac.ScanStep | dsd-to-flac/dsd-to-flac.py:171-183 | one walked file extends the directory list only when its directory differs from the last one, and lands in exactly one of the two file lists |
| DsdToFlac.Scan | dsd-to-flac/dsd-to-flac.py:171-183 | the loop builds the collapsed directory list and the DSF / non-DSF partition of the walk |
| DsdToFlac.GetFilesAndDirectories | dsd-to-flac/dsd-to-flac.py:159-193 | the method agrees with the listing definition, including its IndexError |
| DsdToFlac.FlacPathOf | dsd-to-flac/dsd-to-flac.py:203-213 | a file "<input>/<stem>.dsf" is written to "<output>/<stem>.flac" |
| DsdToFlac.OutputFlacList | dsd-to-flac/dsd-to-flac.py:203-213 | the FLAC list succeeds exactly when every DSF path has something left after removing the input directory, and then has one target per DSF file, in order |
| DsdToFlac.CopyTarget | dsd-to-flac/dsd-to-flac.py:224-231 | a non-DSF file is copied from itself, and the copy fails exactly when its relative path is empty |
| DsdToFlac.TranscodeDsdToFlac | dsd-to-flac/dsd-to-flac.py:140-155 | one ffmpeg command per DSF file, paired with its FLAC target, carrying the chosen sample format and rate; NameError when no format is bound and there is a DSF file to convert, and no failure without one |
| DsdToFlac.MainPlan | dsd-to-flac/dsd-to-flac.py:60-82 | a plan exists only for validated settings and has one command per DSF file and one copy per other file |
| DsdToFlac.MainPlanCommand | dsd-to-flac/dsd-to-flac.py:72-82 | every planned command converts a walked DSF file to its FLAC target with the validated format and the given rate |
| DsdToFlac.ListingOf | dsd-to-flac/dsd-to-flac.py:159-193 | the listing fails only with IndexError |
| DsdToFlac.CorrectedListing | dsd-to-flac/dsd-to-flac.py:186-191 | corrected: whenever the listing as written succeeds, the corrected one is the same |
| DsdToFlac.CorrectedRelative | dsd-to-flac/dsd-to-flac.py:186-191 | corrected: the same relative path wherever the original succeeds, and the empty path where it fails |
| DsdToFlac.FlacPath | dsd-to-flac/dsd-to-flac.py:206-211 | a FLAC target fails exactly when removing the input directory leaves nothing of the path |
| DsdToFlac.RelativeDirs | dsd-to-flac/dsd-to-flac.py:186-191 | the loop over the directories gives each one relative to the input directory, failing as the first failing one does |
| DsdToFlac.CopyNonDsfFiles | dsd-to-flac/dsd-to-flac.py:224-231 | one copy per non-DSF file, in order, each copying that file |
| DsdToFlac.Collapse | dsd-to-flac/dsd-to-flac.py:172-177 | the collected directories are empty exactly when no file was walked, and the last one is the directory of the last file |
| Text.ReplaceLast | dsd-to-flac/dsd-to-flac.py:197-199 | only the last occurrence of the pattern is replaced, everything before and after it kept; without an occurrence the string is unchanged |
| BlurayLegacy.FilePath | extract_bluray/extract_bluray.py:72-84 | the title path is empty exactly when the last '.'-field of the name holds neither "m2ts" nor "mpls" |
| BlurayLegacy.FilePathOfTitle | extract_bluray/extract_bluray.py:72-84 | an .m2ts title lives under BDMV/STREAM and an .mpls title under BDMV/PLAYLIST of the disc root |
| BlurayLegacy.TitleExists | extract_bluray/extract_bluray.py:87-101 | a title exists exactly when its extension is m2ts or mpls and its path is a file |
| BlurayLegacy.JsonFileName | extract_bluray/extract_bluray.py:14 | the JSON file is the script's base name up to its first '.' followed by ".json" |
| BlurayLegacy.GetBlurayInfo | extract_bluray/extract_bluray.py:104-140 | the recorded disc keeps the root as given, and every recorded title exists and has a non-empty path |
| BlurayLegacy.OutputShape | extract_bluray/extract_bluray.py:45-50 | a title goes to extras/<folder>/<outFile> when its "main" holds an "n" and to <folder>/<outFile> otherwise |
| BlurayLegacy.BatchCreateMkvs | extract_bluray/extract_bluray.py:35-69 | one mkvmerge command per title, in order, each from a non-empty title path; the batch exits with 1 exactly at the first title without a path |
| BlurayLegacy.RecordedDiscRunsThrough | extract_bluray/extract_bluray.py:41-44 | a disc recorded by getBlurayInfo is remuxed in full: its titles all have paths |
| BlurayLegacy.Main | extract_bluray/extract_bluray.py:10-32 | resuming with "y" remuxes the saved disc; otherwise a missing argument or a directory without BDMV/index.bdmv exits with 1, and an asked disc runs through |
| Bluray.RelativeRootRepeated | misc-scripts/extract_bluray.py:178-192 | as written: for a relative disc root the root and BDMV are repeated before STREAM or PLAYLIST |
| Bluray.CorrectedBluRayFilePath | misc-scripts/extract_bluray.py:178-192 | corrected: the title path is <root>/BDMV/STREAM/<name> or <root>/BDMV/PLAYLIST/<name>, for a relative or an absolute root |
| Bluray.BluRayFilePath | misc-scripts/extract_bluray.py:178-192 | as written: for an absolute root the path is the corrected one, since joining an absolute path replaces what came before |
| Bluray.TitleExists | misc-scripts/extract_bluray.py:195-206 | a title exists exactly when its suffix is .m2ts or .mpls and its located path exists |
| Bluray.ExtraAnswerGoesToExtras | misc-scripts/extract_bluray.py:229-240 | an accepted "y" answer records "main" as "no", which is exactly what later sends the title under extras/ |
| Bluray.AskTitles | misc-scripts/extract_bluray.py:219-242 | the title loop ends at an answer holding "done"; every recorded title exists, does not hold "done" and is "yes" or "no"; running out of answers is EOFError |
| Bluray.AskRoot | misc-scripts/extract_bluray.py:209-244 | the recorded disc's root is `str(path)`, every title recorded exists, and the answers consumed end after the "done" answer |
| Bluray.GetBlurayInfo | misc-scripts/extract_bluray.py:209-244 | the recorded disc's root is `str(path)` and every title recorded exists |
| Bluray.TitlesPresent | misc-scripts/extract_bluray.py:116-126 | the title check passes exactly when every title file exists |
| Bluray.FilterRoots | misc-scripts/extract_bluray.py:106-129 | exactly the discs whose directory exists, is a Blu-ray and has titles all present are kept |
| Bluray.FilterBlurayInfo | misc-scripts/extract_bluray.py:97-131 | without the JSON file nothing is listed; otherwise the kept discs of the list, a single disc object counting as a list of one |
| Bluray.RecordedRootKept | misc-scripts/extract_bluray.py:97-131 | a disc recorded by getBlurayInfo on an existing Blu-ray with at least one title survives filterBlurayInfo |
| Bluray.OutputPathShape | misc-scripts/extract_bluray.py:144-150 | a title goes to extras/<folder>/<outFile> exactly when its "main" holds an "n", and to <folder>/<outFile> otherwise |
| Bluray.CreateMkvs | misc-scripts/extract_bluray.py:134-175 | at most one run per title; the loop stops only with exit 1 on a missing input, or ValueError from with_name |
| Bluray.CreateMkvsFresh | misc-scripts/extract_bluray.py:152-155 | no run writes an output that already exists or that an earlier run wrote |
| Bluray.CreateMkvsRunOf | misc-scripts/extract_bluray.py:139-157 | every run reads its title's existing file and writes the temp- sibling of the title's output with mkvmerge |
| Bluray.BatchCreateMkvs | misc-scripts/extract_bluray.py:134-175 | no two runs of one disc write the same output |
| Bluray.AllTitlesRemuxed | misc-scripts/extract_bluray.py:136-175 | with every input present and every output new and distinct, each title is remuxed, in order, and the loop runs to the end |
| Bluray.AddDiscs | misc-scripts/extract_bluray.py:51-66 | the resume loop as written, with `selection` carried from one -d directory to the next: the filtered discs stay first, a directory that is not a Blu-ray exits with 1, and a missing answer is EOFError |
| Bluray.ListedDirAddedAgain | misc-scripts/extract_bluray.py:59-66 | right after resuming, a -d directory the JSON file already lists is not asked about and is appended again, so the list names one directory twice |
| Bluray.AddDiscsAgree | misc-scripts/extract_bluray.py:51-66 | for distinct -d directories none of which is listed yet, the loop as written and the corrected loop give the same result whatever `selection` holds |
| Bluray.CorrectedAddDiscs | misc-scripts/extract_bluray.py:59-66 | the resume loop as intended: a listed directory is skipped and any other is asked about; the filtered discs stay first |
| Bluray.CorrectedAddDiscsNew | misc-scripts/extract_bluray.py:59-65 | with the corrected loop every disc added after resuming has a directory no earlier disc has |
| Bluray.AskDiscs | misc-scripts/extract_bluray.py:77-87 | without resuming there is one disc per -d directory, in order, each rooted at `str(path)` |
| Bluray.AskDiscsNeedsBlurays | misc-scripts/extract_bluray.py:80-83 | any -d directory that is not a Blu-ray makes the session fail before remuxing |
| Bluray.RunAll | misc-scripts/extract_bluray.py:89-90 | the discs are remuxed in turn; only the last batch can have stopped, and fewer batches than discs means one stopped |
| Bluray.RunAllFresh | misc-scripts/extract_bluray.py:89-90 | across all discs of a session no two runs write the same output and none overwrites an existing one |
| Bluray.Main | misc-scripts/extract_bluray.py:43-90 | no answer to the resume question is EOFError; without resuming and without -d, printing the JSON path relative to the working directory raises ValueError unless it lies under it, and otherwise main exits with 1; resuming keeps the filtered discs first; otherwise one disc per -d directory; every disc is then remuxed |
| Bluray.MainResumesFresh | misc-scripts/extract_bluray.py:48-66 | resuming with distinct -d directories that are not listed yet lists no directory twice |
| Bluray.IsBluray | misc-scripts/extract_bluray.py:93-94 | a directory is a disc exactly when BDMV/index.bdmv exists below it |
| Bdn.GetInt | 3d-misc/full-3D.py:97-100 | `int(attrib[key])`: a value exactly when the key is present and its text is an integer; KeyError for a missing key, ValueError for malformed text |
| Bdn.ReadGraphic | 3d-misc/full-3D.py:96-110 | Width and Height are the integers written; Depth is 0 when empty and its integer otherwise; X is read as written except that a negative X on a 1920-wide graphic becomes 0 (likewise Y at height 1080) |
| Bdn.ReadWritten | 3d-misc/convertToSBS.py:50-64 | reading back attributes written from a geometry gives the same geometry, with only the full-frame negative X/Y clamped to 0 |
| DepthPlane.StripOfs | 3d-misc/3d-plane.py:22-23 | the plane is always a suffix of the file read |
| DepthPlane.StripOfsHeader | 3d-misc/3d-plane.py:22-23 | a 41-byte header starting with the 7-byte OFS magic is removed exactly, and data without the magic is kept whole |
| DepthPlane.PlaneValue | 3d-misc/3d-plane.py:62-65 | a defined byte decodes to a depth in [-127, 127], negative exactly for bytes above 128 |
| DepthPlane.EventValue | 3d-misc/AddDepthToXml.py:75-78 | the subtitle-depth decoding gives an even value in [-254, 254] |
| DepthPlane.EventValueIsDoubled | 3d-misc/AddDepthToXml.py:75-78 | the subtitle decoding is exactly twice the plane decoding of 3d-plane.py |
| DepthPlane.DefinedCount | 3d-misc/3d-plane.py:54-72 | defined and undefined frames partition the plane; every defined value lies in [-127, 127] |
| DepthPlane.PlaneStep | 3d-misc/3d-plane.py:49-72 | one frame adds one to the undefined count or one value to the defined list, and a cut exactly when the byte differs from the previous one |
| DepthPlane.StepInv | 3d-misc/3d-plane.py:43-72 | one iteration of the loop keeps every statistic equal to its definition over the frames read so far |
| DepthPlane.Get3DPlanesData | 3d-misc/3d-plane.py:30-84 | ZeroDivisionError exactly when every frame is undefined; otherwise the undefined count, the number of cuts, the total and extremes of the defined values, and the first and last defined frames are those of the plane |
| DepthPlane.PlaneMain | 3d-misc/3d-plane.py:15-27 | without a file argument main exits with 1, and a file that cannot be opened is an OSError; otherwise the statistics are those of the header-stripped plane: its undefined and defined frames add up to its length, and it fails exactly when no frame is defined |
| Full3D.Offsets | 3d-misc/full-3D.py:128-133 | both eyes' X offsets are non-negative; left minus right is the depth (one less for negative depths); the right eye moves left by half the depth unless that would cross 0 |
| Full3D.ModifyAttrib | 3d-misc/full-3D.py:86-91 | X, Y and OriginalDepth read back as the given integers; Depth is dropped exactly when non-empty; every other attribute is unchanged |
| Full3D.ConvertGraphic | 3d-misc/full-3D.py:93-136 | a read error is passed on; a depth too great for the graphic's width reaches the warning, whose str + int raises TypeError; otherwise both eyes are produced |
| Full3D.ConvertGraphicViews | 3d-misc/full-3D.py:128-136 | both eyes keep Y and record the original depth; the right eye's X is non-negative and the eyes are the depth's disparity apart |
| Full3D.Make3DXml | 3d-misc/full-3D.py:63-144 | succeeds exactly when every graphic converts; then it counts every graphic, has no warning, and the k-th left and right graphics are the k-th conversion |
| Full3D.SupCommand | 3d-misc/full-3D.py:53-58 | an 8-argument java command whose output and input are the last two arguments |
| Full3D.MainCommands | 3d-misc/full-3D.py:12-44 | fewer than three arguments exit with 1; otherwise make3DXML runs first and its failure ends the run, so the commands exist exactly when every graphic converts; then two BDSup2Sub runs, from <inFolder>/Output_left.xml and <inFolder>/Output_right.xml to the two named .sup files |
| Sbs.LeftFirst | 3d-misc/convertToSBS.py:18-21 | the eye order main passes on is 1 whatever the arguments |
| Sbs.CorrectedLeftFirst | 3d-misc/convertToSBS.py:18-21 | -1 exactly for three arguments whose third is "--rightfirst", 1 otherwise |
| Sbs.RightFirstIgnored | 3d-misc/convertToSBS.py:18-21 | with "--rightfirst" the script still uses 1 where -1 was meant |
| Sbs.HalfUp | 3d-misc/convertToSBS.py:89 | `(n + 1) // 2` is n/2 rounded up |
| Sbs.CeilQuarter | 3d-misc/convertToSBS.py:91 | `ceil((x + depth / 2) / 2)` on 2x + depth is the least r with n <= 4r |
| Sbs.Place | 3d-misc/convertToSBS.py:84-102 | the canvas width is width + 1920 - depth; X is never negative; a crop happens exactly when the new X would be negative, and then the crop is that overshoot and the final width is at most 1920 |
| Sbs.PlaceUncropped | 3d-misc/convertToSBS.py:91-96 | when 2x + depth >= 0 there is no crop and the new X is (2x + depth)/4 rounded up |
| Sbs.SubPng | 3d-misc/convertToSBS.py:94 | "sub_" + at least four digits + ".png" |
| Sbs.SubPngInjective | 3d-misc/convertToSBS.py:94 | different subtitle numbers give different file names |
| Sbs.ImCommand | 3d-misc/convertToSBS.py:104-124 | 25 arguments with a crop, 21 without; the ImageMagick executable first and the output file last |
| Sbs.ConvertGraphic | 3d-misc/convertToSBS.py:47-135 | succeeds exactly when the graphic reads and its signed depth passes the width check; then its text is sub_NNNN.png and the command writes that file in the output folder |
| Sbs.ConvertGraphicAttributes | 3d-misc/convertToSBS.py:129-135 | the rewritten graphic has Width, Height, X, Y and OrigDepth equal to the placement, no Depth, and its other attributes unchanged |
| Sbs.Numbered | 3d-misc/convertToSBS.py:47-48 | graphics are numbered from 1 in document order |
| Sbs.ConvertXmlTo3DSbs | 3d-misc/convertToSBS.py:28-145 | the output folder is the output name up to its first '.', the XML is written inside it, and the k-th graphic gets sub_(k+1).png |
| Sbs.Main | 3d-misc/convertToSBS.py:12-25 | fewer than two arguments exit with 1; otherwise the expanded input and the expanded output name + ".xml" are converted with eye order 1 |
| AddDepth.Round | 3d-misc/AddDepthToXml.py:125 | Python's round: within 0.5 of the argument, and halves go to the even integer |
| AddDepth.Fps | 3d-misc/AddDepthToXml.py:24-27 | a rate that rounds to 23.976 at three decimals is taken as 24; any other rate is kept |
| AddDepth.FpsOfFilmRates | 3d-misc/AddDepthToXml.py:24-27 | 24000/1001 is counted as 24, and 24 stays 24 |
| AddDepth.ToInt | 3d-misc/AddDepthToXml.py:122-125 | `int(text)`: a value exactly when the text is an optionally signed integer, else ValueError |
| AddDepth.FrameText | 3d-misc/AddDepthToXml.py:117-120 | IndexError exactly for an empty or lone-"0" frame field; otherwise the field or, after a leading '0', its second character |
| AddDepth.Tc2Frame | 3d-misc/AddDepthToXml.py:116-125 | a timecode with fewer than three fields fails |
| AddDepth.FieldsFrame | 3d-misc/AddDepthToXml.py:122-125 | fewer than three fields fail (IndexError once a field is missing) |
| AddDepth.Tc2FrameOfFields | 3d-misc/AddDepthToXml.py:116-125 | integer fields give round((hh * 3600 + mm * 60 + ss) * fps) + ff |
| AddDepth.FrameTextOfPad | 3d-misc/AddDepthToXml.py:118-120 | a two-digit frame field reads as its value with or without a leading zero |
| AddDepth.Tc2FrameOfTimecode | 3d-misc/AddDepthToXml.py:116-125 | a zero-padded hh:mm:ss:ff at an integer rate is frame (hh * 3600 + mm * 60 + ss) * rate + ff |
| AddDepth.MaxDepth | 3d-misc/AddDepthToXml.py:67-80 | none exactly when every byte is undefined; otherwise the decoded value of some defined byte |
| AddDepth.MaxDepthIsGreatest | 3d-misc/AddDepthToXml.py:72-80 | no defined byte decodes above the window's depth |
| AddDepth.WindowDepth | 3d-misc/AddDepthToXml.py:61-89 | IndexError exactly for an empty window; otherwise a depth in [-254, 254], 0 when every frame is undefined, and the number of undefined frames |
| AddDepth.ScanWindow | 3d-misc/AddDepthToXml.py:62-83 | the loop over the window computes WindowDepth |
| AddDepth.Margin | 3d-misc/AddDepthToXml.py:57-59 | the margin never exceeds 5; as written it is outframe minus `inframe // 6`, reaching the cap exactly when inframe < 6 × (outframe − 4); corrected, it is a sixth of the event's length rounded down, reaching the cap exactly when the event spans 30 frames or more |
| AddDepth.EventDepth | 3d-misc/AddDepthToXml.py:52-94 | an event starting past the plane gets Depth "0" and a DepthWarning of its length; one inside fails exactly when its window is empty |
| AddDepth.EventDepthAttributes | 3d-misc/AddDepthToXml.py:82-94 | Depth reads back as the window's greatest value (0 if undefined); UndefinedFrameDepth is present exactly when frames are undefined and counts them; other attributes are unchanged |
| AddDepth.ShortEventFails | 3d-misc/AddDepthToXml.py:57-66 | as written, an event inside the plane of at most 8 frames whose margin reaches 5 has an empty window and raises IndexError |
| AddDepth.SixFrameEvent | 3d-misc/AddDepthToXml.py:57-66 | frames 600 to 606 of a 1000-frame plane fail as written and succeed with the corrected margin |
| AddDepth.CorrectedWindowInside | 3d-misc/AddDepthToXml.py:57-61 | with the margin taken from the event's length, every event inside the plane reads a non-empty window inside its own frames |
| AddDepth.ProcessEvent | 3d-misc/AddDepthToXml.py:46-94 | needs InTC, OutTC and a first Graphic; only that graphic changes |
| AddDepth.AddDepthTags | 3d-misc/AddDepthToXml.py:23-96 | a file without events ends in ZeroDivisionError; otherwise each event is processed against the header-stripped plane |
| AddDepth.Main | 3d-misc/AddDepthToXml.py:10-20 | fewer than three arguments exit with 1; otherwise the tags are added at 24 fps |
| CompareDepth.CompareFrom | 3d-misc/compare-xml-depth.py:33-45 | the only failure is KeyError |
| CompareDepth.CompareDepth | 3d-misc/compare-xml-depth.py:20-45 | different graphic counts exit with 1; any other failure is a missing Depth |
| CompareDepth.CompareFromMeans | 3d-misc/compare-xml-depth.py:33-45 | true exactly when every pair's Depth texts are equal; KeyError exactly when a graphic without Depth comes before any differing pair |
| CompareDepth.CompareDepthMeans | 3d-misc/compare-xml-depth.py:29-45 | true exactly when the counts match and all Depth texts are pairwise equal; false only when some pair differs |
| CompareDepth.CompareGraphics | 3d-misc/compare-xml-depth.py:29-45 | the loop returns at the first differing pair and agrees with CompareDepth |
| CompareDepth.Main | 3d-misc/compare-xml-depth.py:7-17 | the script exits normally exactly when there are two arguments and the depths are the same |
| CombinedMkv.DirsMkvs | generate-combined-mkv/gen_combined_mkv.py:42-54 | every directory returned is a listed directory holding the source file, and every such listed entry is returned |
| CombinedMkv.DirsMkvsCounts | generate-combined-mkv/gen_combined_mkv.py:47-54 | a qualifying entry is kept exactly as often as it is listed, any other never |
| CombinedMkv.GetDirsMkvs | generate-combined-mkv/gen_combined_mkv.py:47-54 | the loop over the listing computes DirsMkvs |
| CombinedMkv.ChapterTitles | generate-combined-mkv/gen_combined_mkv.py:57-65 | one title per directory, the i-th answer for the i-th directory; EOFError exactly when answers run out |
| CombinedMkv.FirstChoice | generate-combined-mkv/gen_combined_mkv.py:18-20 | the first answer that is "y" or "n", every earlier answer being neither |
| CombinedMkv.ChooseTitles | generate-combined-mkv/gen_combined_mkv.py:16-31 | without chapNames.json the user's answers become the titles and are written; with it, no "y"/"n" answer is an EOFError; titles not written are exactly the stored ones; written titles number one per directory |
| CombinedMkv.CreateMkv | generate-combined-mkv/gen_combined_mkv.py:68-81 | IndexError exactly for no directories; otherwise the directory count plus 5 arguments from "mkvmerge --output out" to "--generate-chapters when-appending" |
| CombinedMkv.CreateMkvAppendsAll | generate-combined-mkv/gen_combined_mkv.py:72-81 | mkvmerge reads `<dir>/<source>` of every directory in order, each after the first marked '+' for appending |
| CombinedMkv.FirstDoctype | generate-combined-mkv/gen_combined_mkv.py:110-113 | the line found holds "DOCTYPE" and is one of the lines; none exactly when no line holds it |
| CombinedMkv.TerminatedIsJoin | generate-combined-mkv/gen_combined_mkv.py:128-130 | writing each line followed by a newline is joining the lines and a final empty one |
| CombinedMkv.NewChaptersLines | generate-combined-mkv/gen_combined_mkv.py:124-130 | read back line by line, the written file is the serialised tree's first line, the DOCTYPE line, the other lines and a final empty line |
| CombinedMkv.ChapterTexts | generate-combined-mkv/gen_combined_mkv.py:117-120 | the i-th ChapterString gets the i-th title; IndexError exactly when there are more chapters than titles |
| CombinedMkv.ApplyCustomTitles | generate-combined-mkv/gen_combined_mkv.py:101-130 | succeeds exactly when the titles cover every chapter and the input has a DOCTYPE line; the output's lines are then the serialised new tree's, with that DOCTYPE line second |
| CombinedMkv.Main | generate-combined-mkv/gen_combined_mkv.py:12-39 | a completed run found at least one directory, merged them with CreateMkv, wrote the new chapters file from the chosen titles and applied it with mkvpropedit |
| Slideshow.Images | slideshow/ffmpegSlideshow.py:25-28 | the images are the listed entries with "JPG" or "jpg" anywhere in the name, every such entry included |
| Slideshow.ImagesCounts | slideshow/ffmpegSlideshow.py:26-28 | a matching entry is taken exactly as often as it is listed, any other never |
| Slideshow.FadeChainsJoin | slideshow/ffmpegSlideshow.py:48-50 | the fade chains followed by any text are the ';'-join of the per-image chains and that text |
| Slideshow.FilterChains | slideshow/ffmpegSlideshow.py:45-55 | split at ';', the filter graph is one fade chain per image in image order, each fading out at second 4 whatever the display time, then the concat chain |
| Slideshow.InputArgs | slideshow/ffmpegSlideshow.py:38-41 | eight arguments per image, the image last |
| Slideshow.Inputs | slideshow/ffmpegSlideshow.py:37-41 | eight arguments per image; the i-th group is the i-th image's |
| Slideshow.OutputArgs | slideshow/ffmpegSlideshow.py:60-63 | eleven output arguments, the output file last |
| Slideshow.FfmpegCmd | slideshow/ffmpegSlideshow.py:33-63 | 8n + 14 arguments: ffmpeg, the image groups in order, -filter_complex and the filter graph, then the output options ending with the output file |
| Slideshow.FfmpegCmdImages | slideshow/ffmpegSlideshow.py:37-41 | reading the argument after each -i gives back exactly the images, in order |
| Slideshow.Main | slideshow/ffmpegSlideshow.py:22-30 | IndexError exactly when sys.argv holds fewer than two arguments after the program name; otherwise the command feeds ffmpeg the directory's images and writes the second argument |
| VideoInfo.FindKind | utils/videoinfo.py:99-113 | the first side data of a kind: no earlier entry is of that kind, and a type lookup that fails ends the search |
| VideoInfo.HasKindFind | utils/videoinfo.py:178-191 | the presence loops agree with the first-match loop: a kind is present exactly when a first entry of it is found |
| VideoInfo.HasKindMeans | utils/videoinfo.py:178-191 | once every entry has a readable type, a kind is present exactly when some entry is of that kind |
| VideoInfo.FirstFrame | utils/videoinfo.py:193-199 | the frame chosen is the first one of the stream, and no earlier frame belongs to it |
| VideoInfo.FloorDiv | utils/videoinfo.py:119 | Python's `//`: the quotient rounded down, for either sign of the divisor |
| VideoInfo.ColorValueOfFraction | utils/videoinfo.py:115-119 | "n/d" rescaled to a target denominator is (target // d) * n |
| VideoInfo.ColorValueBounds | utils/videoinfo.py:115-119 | the rescaled value never exceeds the exact one, and equals it when d divides the target |
| VideoInfo.ColorValueLosesSmall | utils/videoinfo.py:115-119 | a denominator above the target rescales every value to 0 |
| VideoInfo.DisplayJoin | utils/videoinfo.py:121-166 | the display string is its groups, each closed by ')' |
| VideoInfo.DisplayReadsBack | utils/videoinfo.py:121-166 | the display string reads back, group by group, as the groups it was written from |
| VideoInfo.FieldValues | utils/videoinfo.py:121-166 | the fields are rescaled in the order the string lists them, and the first unreadable field fails the string |
| VideoInfo.MasterKeys | utils/videoinfo.py:121-166 | the fields read are the eight chromaticities rescaled to 50000, then the two luminances rescaled to 10000 |
| VideoInfo.MasterDisplayString | utils/videoinfo.py:121-166 | the string is built exactly when every mastering-display field reads and rescales, and it reads back as the five groups of those values |
| VideoInfo.MasterDisplayReadsBack | utils/videoinfo.py:121-166 | the string reads back as the five groups G, B, R, WP and L of the rescaled fields |
| VideoInfo.VideoinfoLuminanceReversed | utils/videoinfo.py:155-162 | written minimum first, the L group makes x265 take the minimum luminance as the maximum |
| VideoInfo.CorrectedLuminanceOrder | utils/videoinfo.py:155-162 | written maximum first, x265 reads each luminance in its own place |
| VideoInfo.CllString | utils/videoinfo.py:168-176 | integer light levels give "max_content,max_average", which reads back as those two values in that order |
| VideoInfo.TakeIfUnset | utils/videoinfo.py:61-66 | a colour setting already set is kept; an unset one is taken from the stream |
| VideoInfo.Colours | utils/videoinfo.py:60-72 | a video stream sets the colour range once, "limited" for "tv" and "full" otherwise, fills only unset colour settings, and changes nothing else |
| VideoInfo.Hdr10Of | utils/videoinfo.py:90-97 | the mastering and light-level data are the first of their kinds, and HDR10 is set exactly when mastering data was found |
| VideoInfo.SideStep | utils/videoinfo.py:79-97 | HDR10+ and Dolby Vision are set from this list alone, the Dolby Vision track is this stream, and HDR10 metadata already found is kept |
| VideoInfo.Step | utils/videoinfo.py:59-97 | a stream that is not video changes nothing, and one without side data changes only the colour settings |
| VideoInfo.Hdr10Frozen | utils/videoinfo.py:87-88 | once HDR10 is set, no later stream changes the HDR10 metadata |
| VideoInfo.Hdr10Iff | utils/videoinfo.py:59-97 | HDR10 ends up set exactly when some stream carries mastering-display metadata |
| VideoInfo.NoSideDataKeeps | utils/videoinfo.py:76-77 | streams without side data leave HDR10+, Dolby Vision and the HDR10 metadata alone |
| VideoInfo.LastSideDataDecides | utils/videoinfo.py:79-84 | HDR10+ and Dolby Vision come from the last stream with side data, and so does the Dolby Vision track |
| VideoInfo.RangeFromFirstVideo | utils/videoinfo.py:68-72 | the colour range comes from the first video stream |
| VideoInfo.RangeKept | utils/videoinfo.py:68-72 | a colour range already set is never changed |
| VideoInfo.VideoInfoOf | utils/videoinfo.py:35-97 | HDR10 is found exactly when some stream carries mastering-display metadata, and without side data on any stream none of HDR10, HDR10+ and Dolby Vision is |
| VideoHdr.FfmpegVideoCmd | batchconvert/video-hdr.py:65-94 | ffmpeg, quiet, with -stats when asked, maps the given track of the input and writes either the raw HEVC stream or decoded y4m frames to standard output |
| VideoHdr.MapReadsBack | batchconvert/video-hdr.py:65-94 | the track number reads back from the "-map 0:<track>" argument |
| VideoHdr.FirstSideData | batchconvert/video-hdr.py:163-168 | the side data list is that of the stream's first frame, and is missing exactly when the stream has no frame |
| VideoHdr.IsDolbyVision | batchconvert/video-hdr.py:246-272 | Dolby Vision is detected exactly when stream 1's or stream 0's first frame carries its metadata, stream 1 deciding first |
| VideoHdr.MasterDisplayInfo | batchconvert/video-hdr.py:204-243 | nothing without mastering data; otherwise the display string of the first mastering data, written maximum luminance first, and a light-level string exactly when light-level data exists |
| VideoHdr.DisplayLuminanceOrder | batchconvert/video-hdr.py:227-230 | x265 reads this script's L group as (maximum, minimum) of the source, each in its own place |
| VideoHdr.HdrOpts | batchconvert/video-hdr.py:388-395 | the HDR options are --hdr10-opt --master-display <string>, followed by --max-cll only when a light level string is present |
| VideoHdr.X265Command | batchconvert/video-hdr.py:368-448 | the x265 command is the base options, 10-bit depth, the HDR10 options, the BT.709 or BT.2020 colour options, the HDR10+ file when detected, the Dolby Vision options when detected, and the frame count |
| VideoHdr.EncodePlan | batchconvert/video-hdr.py:319-366 | a source without mastering-display metadata is left alone, and every plan comes from a source with it |
| VideoHdr.EncodeEndsWithX265 | batchconvert/video-hdr.py:338-459 | without --skip-encode the last step is the x265 encode with the detected HDR10+ and Dolby Vision settings and their metadata files |

## Left out

- Running the external tools (ffmpeg, ffprobe, mkvmerge, mkvextract, mkvpropedit, x264, x265, dovi_tool, hdr10plus_tool, bdsup2sub++, ImageMagick): the model is limited to the argument lists they are given. Their output (probe JSON, `max_volume` lines, frame listings) is a parameter.
- File-system effects (existence checks, copy, rename, unlink, mkdir, rglob, os.walk, listdir): these are given predicates and sequences. The night-mode normalisation and cleanup use a set of file names, changed by a list of file operations.
- Interactive input: modelled as a sequence of answers. Running out of answers is `EOFError`.
- The 15-second wait and its CTRL-C handling before the source is overwritten, and printTracks: these only print and sleep.
- Printing in general: the average, minimum and maximum prints of the 3D-plane statistics; the duration printing of ffmpegAudio; the progress counters; and the mkvmerge-missing warning in the Blu-ray main, which only prints.
- Floating point: gains and volume adjustments are formatted through an abstract `fmt: real -> string`. Timecodes in seconds use exact reals. A frame rate counts as 23.976 when `Round(x * 1000) == 23976`. Python's float formatting and rounding are not modelled.
- Python's `int()` and `float()` accept surrounding whitespace, signs and underscores; the model reads digit strings only. Examples: `ForcedSubs.Field`, `Text.ParseInt`.
- blake2b and sha1: the jobs-database hash is an opaque string parameter. new-nightmode.py's sha1-named temporary file is the `normInput` parameter of the audio plan.
- JSON and XML parsing and writing: info files are `Json.Json` values, and BDN and chapter files are records of attribute maps (`Bdn`). The text of a JSON or XML file is not modelled.
- Command-line parsing with getopt and argparse: argparse's abbreviations and `-h` are not modelled in `BatchConvert.CleanFlags`; the other scripts take their arguments as a sequence.
- VapourSynth: encodeInfo.py, encodeInfo-x265.py, vpyScript.py, get_vs_filter, the `exec`/`eval` of a video script in encodeVideo, and the frame-streaming threads. These are foreign code and concurrency. The frame count x265 is given is a parameter.
- utils/info.py's getVideoTemplate and generateTemplate (the title and format read from ffprobe): these read tool output only.
- cleanPythonCache and psutil/ionice priority settings: these have no logic to model.
- nightmode/create-nightmode.py: it only parses getopt arguments and calls utils/nightmode.py, which is modelled.
- nightmode/replace_nightmode.py:107 (`for range(0, 30):`) does not parse, so that script cannot run at all. Its functions are still modelled as written.
- The unlink of the temporary video in video-hdr.py's --skip-encode branch is a step of the plan; whether the file exists is not checked.
- The m4a conversion of encode_extras.py (flacToM4a) is a file operation; the encoder is not modelled.
- The Blu-ray scripts' disc checks (locate, file existence) are parameters. The JSON files they write are left out.
- The unused `cuts` count in AddDepthToXml.py: it is computed and never used.
- The partial effects of a failing run: `DsdToFlac.MainPlan` returns `Fail` without the folders created before the failure, `BatchConvert.Main` and `EncodeExtras.Main` return the first failure without the folders finished or cleaned before it, and `convertToSBS` calling os.mkdir on an existing directory is not modelled.
- BatchConvert.Main: convertMKV's outcome in each folder is the parameter `run`; the steps it runs are modelled by `BatchConvert.ConvertMkv` and the members it lists, but not composed into `run`. The clean paths read each info file through the modelled reader, from its parsed JSON value, so an unreadable file or text that json.loads rejects is not modelled.
- Full3D.ModifyAttrib: requires a "Depth" attribute, because make3DXML has already read Depth from the same element; a missing key would have raised there first.
- Full3D.MainCommands: the working directory is not modelled; the commands carry the input names as the script builds them, and they resolve from the input folder's parent after `os.chdir('..')` (3d-misc/full-3D.py:38).
- AddDepth.Tc2Frame: its own contract states only the failure on too few fields. The values are stated by `AddDepth.Tc2FrameOfFields` and `AddDepth.Tc2FrameOfTimecode` for integer fields.
- VideoInfo.CllString: only integer and text light-level values are formatted; any other JSON value is a `TypeError` failure, where Python's format would print it.
- VideoInfo.Step: a field of the wrong JSON type is a `TypeError` failure; Python would raise `AttributeError` for some of them.
- NightmodeJobs.GenerateJobList: its own contract states only the codec answers and the EOFError. Completeness and disjointness are in `NightmodeJobs.JobListPartition`, which needs the found paths to be distinct, as rglob's are.
- NightmodeStages.FreshRunWritesSchedule: assumes every step of the job succeeds. It leaves out three failures, each modelled by its own member. A codec other than flac or aac leaves `extension` unbound, a NameError (nightmode/batch_nightmode.py:92-95). outputMkv raises KeyError for a surround language other than eng or jpn (nightmode/batch_nightmode.py:253, `NightmodeMkv.BatchOutputMkv`). A surround id missing from the track list is an IndexError (`NightmodeMkv.SurroundIds`).
- NightmodeStages.ResumedRunWritesAfter: assumes every step succeeds, leaving out the same three failures as FreshRunWritesSchedule: the unbound extension, outputMkv's language KeyError, and the SurroundIds IndexError.
- NightmodeStages.ResumedRunWritesRest: assumes every step succeeds, leaving out the same three failures as FreshRunWritesSchedule: the unbound extension, outputMkv's language KeyError, and the SurroundIds IndexError.
- ForcedSubs.MarkForced: its events hold times already converted to seconds, so the ValueError and IndexError that tc2sec raises on a malformed timecode (forced-subtitles/compare-forced-subtitles.py:25-28) are stated only by `ForcedSubs.Tc2Sec`.
- ForcedSubs.ToggleAll: every event carries a "Forced" value, so the KeyError of `attrib["Forced"]` on an event without the attribute (forced-subtitles/compare-forced-subtitles.py:63) is not modelled.
- The `__main__` block of compare-forced-subtitles.py: the IndexError with fewer than two file arguments (forced-subtitles/compare-forced-subtitles.py:41-42) has no member; the block's steps are `ForcedSubs.MarkForced`, `ForcedSubs.ToggleAll` and `ForcedSubs.OutputNameOfXml`.
- Info.DownmixOf: only int and float gains are read. A string "surrounds" gain, which getffFilter formats without dividing, and a boolean gain, which Python halves as an int, are TypeError here. Every gain is formatted through `fmt: real -> string`, so an int "surrounds" gain is printed as the real it stands for, where Python prints "2" and not "2.0".
- Info.NormalizeOf: a range target other than "keep" or a number, and a target level or true peak that is not a number, are TypeError here. The source stores any value on the FFmpegNormalize object, and what ffmpeg-normalize then does with it is not part of this model.
- Info.EntryOf: its readability carries the restrictions of `Info.DownmixOf` and `Info.NormalizeOf` above. A non-dict entry is TypeError here, where `ffFilter.keys()` raises AttributeError. A non-string "ffmpeg" filter is TypeError when it is read, where the source raises it only when the filters are joined.
- Info.ConvertOf: reads its filter entries through `Info.EntryOf`, with the same restrictions.
- Text.Lower, Text.Upper and Text.RStripSpace: these handle ASCII only. Python's `str.lower` and `str.upper` also map other Unicode letters, and `str.rstrip` also strips Unicode whitespace.
- The duration lookups of ffmpegAudio and ffmpegConvert (batchconvert/encode_extras.py:278-288, dsd-to-flac/dsd-to-flac.py:117-125): the stream index, the "tags" key and the "DURATION-eng" key can each raise. These run before ffmpeg and only feed a print, so their failures are not modelled.
- Each script's main takes the list the script itself indexes: its own `args` where the script defines one (`sys.argv[1:]` in AddDepthToXml.py, compare-xml-depth.py and convertToSBS.py), otherwise the whole `sys.argv` with the program name first (full-3D.py, 3d-plane.py, ffmpegSlideshow.py and the legacy extract_bluray.py).

## Findings

| source | as written | input that shows it | evidently intended | confidence | as-written member | corrected member |
|---|---|---|---|---|---|---|
| nightmode/batch_nightmode.py:271-277 | genKeepAudioTracks puts a comma only before ids that differ from the first id | keepTracks ["1", "1", "2"] gives "11,2" | the comma join "1,1,2" | not executed | NightmodeMkv.KeepAudioTracksRepeatedFirst | NightmodeMkv.KeepAudioTracksJoined |
| nightmode/batch_nightmode.py:289-296 | every surround match after the first gets the pair "3:0,4:0" | surround tracks 1:eng, 2:jpn, 3:eng with keep 1,2,3: the third track repeats files 3 and 4, and files 5 and 6 are never placed | the k-th surround track's files 2k+1 and 2k+2 | not executed | NightmodeMkv.ThirdSurroundTrackMissing | NightmodeMkv.CorrectedOrderPlacesThird |
| nightmode/batch_nightmode.py:169-178 | the delete list is ['flac', 'm4a', 'mkv'], compared with splitext extensions, which start with '.' | a job folder holding audio.flac, source.mkv and output.mkv: only resume.txt is deleted | extensions with the dot | not executed | NightmodeCleanup.BatchCleanupKeepsIntermediates | NightmodeCleanup.CorrectedCleanupDeletes |
| nightmode/batch_nightmode.py:344-391 | normAudio returns True for a measured peak of "0.0" without writing, and nightmode() then removes normin.flac | a filtered track whose max_volume reads 0.0 dB: no night-mode track is left | keep the filtered audio as the track | not executed | NightmodeNorm.BatchZeroPeakLosesTrack | NightmodeNorm.CorrectedBatchKeepsTrack |
| batchconvert/encode_extras.py:314-354 | normAudio returns False for "0.0", and nightmodeTrack keeps prenorm.flac but never writes the output | a track whose max_volume reads 0.0 dB: the loudnorm file mergeMKV expects does not exist | rename prenorm.flac to the output | not executed | NightmodeNorm.ExtrasZeroPeakNoOutput | NightmodeNorm.CorrectedExtrasKeepsTrack |
| batchconvert/batchconvert.py:123-125 | convertMKV builds an Info object from info.json and then subscripts it, and Info defines no item access; cleanFiles and cleanSourceFiles do the same at lines 92-93 and 102-103 | a folder with a loadable info.json, run without arguments: TypeError at the first folder, nothing converted | read the info file as a dict, as the rest of this revision is written | not executed | BatchConvertDict.SubscriptedInfoStopsMain | BatchConvertDict.DictMergeAsSerialized |
| batchconvert.py:505-518 | FFmpegNormalize is built with encodeOpts still None, before the track's encode options are read | a night-mode template track (codec aac, encodeOpts ["-b:a", "256K"], filters ending in normalize) is normalised without its bit rate | pass the encode options to ffmpeg-normalize | not executed | AudioFilters.NormalizeDropsEncodeOpts | AudioFilters.CorrectedNormalizeKeepsEncodeOpts |
| utils/info.py:196-201 | the reader takes the script from video["script"], where the writer nests it under video["vapoursynth"]; "sourceFile" is never read, so every loaded info has source name "", which batchconvert.py's convertMKV, cleanFiles and cleanSourceFiles then use (rows below) | any info file this class writes raises KeyError when loaded | read video["vapoursynth"]["script"] and "sourceFile" | not executed | InfoJson.LoadOfSerializedFails | InfoJson.CorrectedRoundTrip |
| batchconvert.py:99-118 | cleanFiles protects `info.sourceMKV`, which the reader leaves "" | a folder whose info.json loads and names movie.mkv as "sourceFile", run with --clean: movie.mkv is deleted | protect the source the info file names | not executed | BatchConvert.CleanDeletesNamedSource | BatchConvert.CorrectedCleanKeepsSource |
| batchconvert.py:89-96 | cleanSourceFiles unlinks `folder.joinpath(info.sourceMKV)`, which for the "" the reader leaves is the folder itself | any folder whose info.json loads, run with --clean-sources: unlink on the directory raises OSError at the first folder | delete the source file the info file names | not executed | BatchConvert.CleanSourcesUnlinksFolder | BatchConvert.CorrectedCleanSourcesDeletes |
| batchconvert.py:126-128 | convertMKV checks `Path(info.sourceMKV).exists()`, which for "" is the current directory | a folder whose info.json names a source that is not there: the check passes and the steps run | skip the folder when the source is missing | not executed | BatchConvert.LoadedSourceNeverMissing | BatchConvert.CorrectedMissingSourceSkips |
| utils/videoinfo.py:155-162 | the L group is written as L(min, max) | mastering data with min_luminance 0.005 and max_luminance 1000 gives L(50,10000000), which x265 reads as a maximum of 50 | L(max, min), as video-hdr.py writes it | not executed | VideoInfo.VideoinfoLuminanceReversed | VideoInfo.CorrectedLuminanceOrder |
| batchconvert.py:381-384 | prepForcedSubs returns early for a track that is not external, although its message says external tracks are the ones skipped | a PGS track mkvextract extracted is never checked for forced captions, while an external one is | skip external tracks, check extracted ones | not executed | BatchConvert.PrepForcedMissesExtracted | BatchConvert.CorrectedPrepChecksExtracted |
| batchconvert/encode_extras.py:381-390 | the ffmpeg command is never reset between converted tracks | two tracks with convert "yes": the second run converts the first track again before its own | one command per converted track | not executed | EncodeExtras.FfmpegRunRepeatsFirst | EncodeExtras.CorrectedFfmpegRuns |
| batchconvert/encode_extras.py:365-370 | the loudnorm-only track is built with withDRC=True, like the DRC track | any track with nightmode "yes": both night-mode tracks are compressed | withDRC=False for the loudnorm track | not executed | EncodeExtras.LoudnormTrackCompressed | EncodeExtras.CorrectedLoudnormPlain |
| misc-scripts/extract_bluray.py:59-66 | after resuming, `selection` is only re-asked for unlisted directories, so a listed directory is appended whenever the last answer was "y" | a JSON file listing disc A, resumed with "y" and run with -d A: A is listed twice | skip directories already listed | not executed | Bluray.ListedDirAddedAgain | Bluray.CorrectedAddDiscsNew |
| misc-scripts/extract_bluray.py:178-192 | the title path joins filePath onto filePath/BDMV again | root "disc" and title "00001.m2ts" give disc/BDMV/disc/BDMV/STREAM/00001.m2ts | disc/BDMV/STREAM/00001.m2ts | not executed | Bluray.RelativeRootRepeated | Bluray.CorrectedBluRayFilePath |
| dsd-to-flac/dsd-to-flac.py:186-191 | the relative directory is indexed at [0] after the input directory is removed | a .dsf file directly inside the input directory leaves "" and raises IndexError | the empty relative directory | not executed | DsdToFlac.TopLevelFileFails | DsdToFlac.CorrectedTopLevel |
| 3d-misc/convertToSBS.py:18-21 | leftfirst is set to -1 for --rightfirst and then unconditionally to 1 | arguments "in.xml out --rightfirst" still give 1 | -1 for --rightfirst | not executed | Sbs.RightFirstIgnored | Sbs.CorrectedLeftFirst |
| 3d-misc/AddDepthToXml.py:57-61 | the margin is min(outframe - inframe // 6, 5); `//` binds tighter than `-` | an event from frame 600 to 606 in a plane of 1000 frames reads an empty window and raises IndexError | min((outframe - inframe) // 6, 5) | not executed | AddDepth.ShortEventFails | AddDepth.CorrectedWindowInside |

=== FILE: add_depth.dfy ===
// 3d-misc/AddDepthToXml.py: gives every subtitle event of a BDN XML file
// the depth of the 3D plane over the frames it is shown, read from a
// window of the plane's depth bytes.
module AddDepth {
  import opened Results
  import opened Text
  import opened DepthPlane
  import ForcedSubs
  import Bdn

  const MarginFor3DSubs := 5

  // ------------------------------------------------------------ frame numbers

  /** Python's `round(x)`: the nearest integer, halves to even. */
  function Round(x: real): (r: int)
    ensures x - 0.5 <= r as real <= x + 0.5
    ensures (r as real - x == 0.5 || x - r as real == 0.5) ==> r % 2 == 0
  {
    var f := x.Floor;
    var d := x - f as real;
    if d < 0.5 then f else if d > 0.5 then f + 1 else if f % 2 == 0 then f else f + 1
  }

  /** AddDepthTags' frame rate: one that rounds to 23.976 at three decimals
      is counted as 24. */
  function Fps(framerate: real): (r: real)
    ensures Round(framerate * 1000.0) == 23976 ==> r == 24.0
    ensures Round(framerate * 1000.0) != 23976 ==> r == framerate
  {
    if Round(framerate * 1000.0) == 23976 then 24.0 else framerate
  }

  /** The NTSC film rate 24000/1001 becomes 24; 24 itself, the rate main
      passes, stays. */
  lemma FpsOfFilmRates()
    ensures Fps(24000.0 / 1001.0) == 24.0
    ensures Fps(24.0) == 24.0
  {
    var x := 24000.0 / 1001.0 * 1000.0;
    assert x == 24000000.0 / 1001.0;
    assert 23976.0 <= x < 23976.5;
    assert x.Floor == 23976;
  }

  /** `int(field)`: ValueError for text that is not an integer. */
  function ToInt(s: string): (r: Result<int>)
    ensures r.Ok? <==> ParseInt(s).Some?
    ensures r.Ok? ==> ParseInt(s) == Some(r.value)
    ensures r.Fail? ==> r.failure == ValueError
  {
    match ParseInt(s)
    case None => Fail(ValueError)
    case Some(v) => Ok(v)
  }

  /** The frame field of a timecode as Tc2frame reads it: a leading '0'
      is dropped by keeping the second character only, so "" and "0" are
      an IndexError. */
  function FrameText(ff: string): (r: Result<string>)
    ensures r.Fail? <==> |ff| == 0 || (ff[0] == '0' && |ff| < 2)
    ensures r.Fail? ==> r.failure == IndexError
    ensures r.Ok? ==> (r.value == ff || (ff[0] == '0' && r.value == ff[1..2]))
  {
    if |ff| == 0 || (ff[0] == '0' && |ff| < 2) then Fail(IndexError)
    else if ff[0] == '0' then Ok([ff[1]])
    else Ok(ff)
  }

  /** The frame number of hh:mm:ss and ff frames: the seconds times the
      rate, rounded as Python rounds, plus the frames. */
  function FrameNumber(h: int, m: int, s: int, f: int, fps: real): int
  {
    Round((h * 3600 + m * 60 + s) as real * fps) + f
  }

  /** Tc2frame: "hh:mm:ss:ff" as a frame number. The fields are read frames
      first, then hours, minutes and seconds; a missing field is an
      IndexError and one that is not an integer a ValueError. */
  function Tc2Frame(timecode: string, fps: real): (r: Result<int>)
    ensures |Split(timecode, ':')| < 3 ==> r.Fail?
  {
    match FrameText(LastField(timecode, ':'))
    case Fail(e) => Fail(e)
    case Ok(ff) => FieldsFrame(Split(timecode, ':'), ff, fps)
  }

  function FieldsFrame(tc: seq<string>, ff: string, fps: real): (r: Result<int>)
    requires |tc| > 0
    ensures |tc| < 3 ==> r.Fail?
  {
    match ToInt(tc[0])
    case Fail(e) => Fail(e)
    case Ok(h) =>
      if |tc| < 2 then Fail(IndexError)
      else match ToInt(tc[1])
        case Fail(e) => Fail(e)
        case Ok(m) =>
          if |tc| < 3 then Fail(IndexError)
          else match ToInt(tc[2])
            case Fail(e) => Fail(e)
            case Ok(s) =>
              match ToInt(ff)
              case Fail(e) => Fail(e)
              case Ok(f) => Ok(FrameNumber(h, m, s, f, fps))
  }

  /** A two-digit frame field reads as its value, with or without the
      leading zero. */
  lemma FrameTextOfPad(f: nat)
    requires f < 100
    ensures FrameText(ZeroPad(f, 2)).Ok? && ToInt(FrameText(ZeroPad(f, 2)).value) == Ok(f)
  {
    var z := ZeroPad(f, 2);
    var d := NatToString(f);
    if f < 10 {
      assert |d| == 1;
      assert z == "0" + d;
      assert ParseNat(z) == 10 * ParseNat(z[..1]) + DigitValue(z[1]);
      assert ParseNat(z[..1]) == 0;
      assert ParseNat([z[1]]) == 10 * ParseNat([]) + DigitValue(z[1]);
      assert !IsDigit('-') && !IsDigit('+');
    } else {
      assert |NatToString(f / 10)| == 1;
      assert z == d && |z| == 2 && z[0] != '0';
      assert !IsDigit('-') && !IsDigit('+');
    }
  }

  /** A zero-padded field reads as its value. */
  lemma ToIntOfPad(n: nat)
    ensures ToInt(ZeroPad(n, 2)) == Ok(n)
  {
    var z := ZeroPad(n, 2);
    assert z[0] != '-' && z[0] != '+' by {
      assert IsDigit(z[0]);
    }
  }

  lemma RoundOfInt(n: int)
    ensures Round(n as real) == n
  {
    assert (n as real).Floor == n;
  }

  lemma FrameNumberAtIntRate(h: int, m: int, s: int, f: int, rate: int)
    ensures FrameNumber(h, m, s, f, rate as real) == (h * 3600 + m * 60 + s) * rate + f
  {
    var secs: int := h * 3600 + m * 60 + s;
    assert secs as real * rate as real == (secs * rate) as real;
    RoundOfInt(secs * rate);
  }

  /** The fields of a timecode Timecode writes. */
  lemma TimecodeFields(h: nat, m: nat, s: nat, f: nat)
    ensures Split(ForcedSubs.Timecode(h, m, s, f), ':') == [ZeroPad(h, 2), ZeroPad(m, 2), ZeroPad(s, 2), ZeroPad(f, 2)]
    ensures LastField(ForcedSubs.Timecode(h, m, s, f), ':') == ZeroPad(f, 2)
  {
    ForcedSubs.ZeroPadNoColon(h, 2);
    ForcedSubs.ZeroPadNoColon(m, 2);
    ForcedSubs.ZeroPadNoColon(s, 2);
    ForcedSubs.ZeroPadNoColon(f, 2);
    ForcedSubs.SplitFour(ZeroPad(h, 2), ZeroPad(m, 2), ZeroPad(s, 2), ZeroPad(f, 2));
  }

  /** Fields that read as integers give (hh * 3600 + mm * 60 + ss) * rate
      + ff, rounded as Python rounds. */
  lemma Tc2FrameOfFields(timecode: string, fps: real, h: int, m: int, s: int, f: int)
    requires |Split(timecode, ':')| >= 3
    requires FrameText(LastField(timecode, ':')).Ok? && ToInt(FrameText(LastField(timecode, ':')).value) == Ok(f)
    requires ToInt(Split(timecode, ':')[0]) == Ok(h)
    requires ToInt(Split(timecode, ':')[1]) == Ok(m)
    requires ToInt(Split(timecode, ':')[2]) == Ok(s)
    ensures Tc2Frame(timecode, fps) == Ok(FrameNumber(h, m, s, f, fps))
  {
  }

  /** A well-formed timecode at an integer rate is its frame number:
      (hh * 3600 + mm * 60 + ss) * rate + ff. */
  lemma Tc2FrameOfTimecode(h: nat, m: nat, s: nat, f: nat, rate: nat)
    requires f < 100
    ensures Tc2Frame(ForcedSubs.Timecode(h, m, s, f), rate as real) == Ok((h * 3600 + m * 60 + s) * rate + f)
  {
    var tc := ForcedSubs.Timecode(h, m, s, f);
    TimecodeFields(h, m, s, f);
    FrameTextOfPad(f);
    ToIntOfPad(h);
    ToIntOfPad(m);
    ToIntOfPad(s);
    Tc2FrameOfFields(tc, rate as real, h, m, s, f);
    FrameNumberAtIntRate(h, m, s, f, rate);
  }

  // ------------------------------------------------------------ depth of a window

  /** The greatest EventValue of the defined bytes, if any. */
  function MaxDepth(p: seq<Byte>): (r: Option<int>)
    ensures r.None? <==> CountUndefined(p) == |p|
    ensures r.Some? ==> (exists k :: 0 <= k < |p| && p[k] != UndefinedDepth && EventValue(p[k]) == r.value)
    decreases |p|
  {
    if |p| == 0 then None
    else
      var init := p[..|p| - 1];
      var b := p[|p| - 1];
      var m := MaxDepth(init);
      assert forall k :: 0 <= k < |init| ==> init[k] == p[k];
      if b == UndefinedDepth then m
      else if m.None? || EventValue(b) > m.value then Some(EventValue(b)) else m
  }

  /** No defined byte of the window lies above MaxDepth. */
  lemma {:induction false} MaxDepthIsGreatest(p: seq<Byte>, k: nat)
    requires k < |p| && p[k] != UndefinedDepth
    ensures MaxDepth(p).Some? && EventValue(p[k]) <= MaxDepth(p).value
    decreases |p|
  {
    var init := p[..|p| - 1];
    if k < |p| - 1 {
      assert init[k] == p[k];
      MaxDepthIsGreatest(init, k);
    }
  }

  /** The depth and the undefined-frame count of a window: the greatest
      value (0 when every byte is undefined) and the number of 128 bytes.
      The first byte is read before the loop, so an empty window raises
      IndexError. */
  function WindowDepth(p: seq<Byte>): (r: Result<(int, nat)>)
    ensures r.Fail? <==> |p| == 0
    ensures r.Fail? ==> r.failure == IndexError
    ensures r.Ok? ==> -254 <= r.value.0 <= 254 && r.value.1 == CountUndefined(p)
    ensures r.Ok? && CountUndefined(p) == |p| ==> r.value.0 == 0
  {
    if |p| == 0 then Fail(IndexError)
    else match MaxDepth(p)
      case None => Ok((0, CountUndefined(p)))
      case Some(v) => Ok((v, CountUndefined(p)))
  }

  /** The loop of AddDepthTags over one window; the changes of value it
      counts are never used and are left out. */
  method ScanWindow(p: seq<Byte>) returns (r: Result<(int, nat)>)
    ensures r == WindowDepth(p)
  {
    if |p| == 0 {
      return Fail(IndexError);
    }
    var depth: int := -300;
    var warn: nat := 0;
    for i := 0 to |p|
      invariant warn == CountUndefined(p[..i])
      invariant MaxDepth(p[..i]).None? ==> depth == -300
      invariant MaxDepth(p[..i]).Some? ==> depth == MaxDepth(p[..i]).value
    {
      var h := p[i];
      assert p[..i + 1][..i] == p[..i];
      if h == UndefinedDepth {
        warn := warn + 1;
      } else {
        var v: int := h % 128;
        if h >= 128 {
          v := -v;
        }
        v := v * 2;
        assert v == EventValue(h);
        if v > depth {
          depth := v;
        }
      }
    }
    assert p[..|p|] == p;
    if depth == -300 {
      depth := 0;
    }
    r := Ok((depth, warn));
  }

  // ------------------------------------------------------------ events

  /** `margin = outframe - inframe // 6`, capped at 5: `//` binds tighter
      than `-`. The corrected margin divides the event's length. */
  function Margin(inFrame: int, outFrame: int, corrected: bool): (m: int)
    ensures m <= MarginFor3DSubs
    ensures !corrected ==> (m == MarginFor3DSubs <==> inFrame < 6 * (outFrame - MarginFor3DSubs + 1))
    ensures !corrected && m < MarginFor3DSubs ==> 6 * (outFrame - m) <= inFrame < 6 * (outFrame - m + 1)
    ensures corrected ==> (m == MarginFor3DSubs <==> outFrame - inFrame >= 6 * MarginFor3DSubs)
    ensures corrected && m < MarginFor3DSubs ==> 6 * m <= outFrame - inFrame < 6 * (m + 1)
  {
    var m := if corrected then (outFrame - inFrame) / 6 else outFrame - inFrame / 6;
    if m > MarginFor3DSubs then MarginFor3DSubs else m
  }

  /** `plane[inframe + margin:outframe - margin + 1]`. */
  function Window(plane: seq<Byte>, inFrame: int, outFrame: int, corrected: bool): seq<Byte>
  {
    var m := Margin(inFrame, outFrame, corrected);
    PySlice(plane, inFrame + m, outFrame - m + 1)
  }

  /** One event's graphic attributes: Depth "0" and a DepthWarning of the
      event's length when it starts past the end of the plane, else the
      window's depth and, when the window has undefined frames, their
      number. */
  function EventDepth(plane: seq<Byte>, inFrame: int, outFrame: int, g: Bdn.Attrib, corrected: bool)
    : (r: Result<Bdn.Attrib>)
    ensures inFrame >= |plane| ==> r == Ok(g["Depth" := "0"]["DepthWarning" := IntToString(outFrame - inFrame)])
    ensures inFrame < |plane| ==> (r.Fail? <==> |Window(plane, inFrame, outFrame, corrected)| == 0)
  {
    if inFrame >= |plane| then Ok(g["Depth" := "0"]["DepthWarning" := IntToString(outFrame - inFrame)])
    else match WindowDepth(Window(plane, inFrame, outFrame, corrected))
      case Fail(e) => Fail(e)
      case Ok((depth, warn)) => Ok(SetDepth(g, depth, warn))
  }

  /** The Depth attribute set, and UndefinedFrameDepth when frames were
      undefined. */
  function SetDepth(g: Bdn.Attrib, depth: int, warn: nat): (a: Bdn.Attrib)
    ensures "Depth" in a && a["Depth"] == IntToString(depth)
    ensures "UndefinedFrameDepth" !in g ==> ("UndefinedFrameDepth" in a <==> warn > 0)
    ensures warn > 0 ==> "UndefinedFrameDepth" in a && a["UndefinedFrameDepth"] == IntToString(warn)
    ensures a.Keys == g.Keys + {"Depth"} + (if warn > 0 then {"UndefinedFrameDepth"} else {})
    ensures forall k :: k in g && k != "Depth" && k != "UndefinedFrameDepth" ==> a[k] == g[k]
  {
    var a := g["Depth" := IntToString(depth)];
    if warn > 0 then a["UndefinedFrameDepth" := IntToString(warn)] else a
  }

  /** A processed event inside the plane carries the depth of its window, in
      [-254, 254], and an UndefinedFrameDepth equal to the number of
      undefined frames exactly when there are any; nothing else changes. */
  lemma EventDepthAttributes(plane: seq<Byte>, inFrame: int, outFrame: int, g: Bdn.Attrib, corrected: bool)
    requires inFrame < |plane| && EventDepth(plane, inFrame, outFrame, g, corrected).Ok?
    requires "UndefinedFrameDepth" !in g
    ensures var a := EventDepth(plane, inFrame, outFrame, g, corrected).value;
      var w := Window(plane, inFrame, outFrame, corrected);
      "Depth" in a && ParseInt(a["Depth"]).Some? && -254 <= ParseInt(a["Depth"]).value <= 254
      && ParseInt(a["Depth"]).value == (if CountUndefined(w) == |w| then 0 else MaxDepth(w).value)
      && ("UndefinedFrameDepth" in a <==> CountUndefined(w) > 0)
      && (CountUndefined(w) > 0 ==> ParseInt(a["UndefinedFrameDepth"]) == Some(CountUndefined(w)))
      && a.Keys == g.Keys + {"Depth"} + (if CountUndefined(w) > 0 then {"UndefinedFrameDepth"} else {})
      && forall k :: k in g && k != "Depth" ==> a[k] == g[k]
  {
    var w := Window(plane, inFrame, outFrame, corrected);
    var (depth, warn) := WindowDepth(w).value;
    assert EventDepth(plane, inFrame, outFrame, g, corrected).value == SetDepth(g, depth, warn);
    assert CountUndefined(w) != |w| ==> depth == MaxDepth(w).value;
    ParseIntToString(depth);
    ParseIntToString(warn);
  }

  /** As written, an event of at most 8 frames (inside the plane) has an
      empty window: the margin is 5 on both sides, so the script stops
      with IndexError. */
  lemma ShortEventFails(plane: seq<Byte>, inFrame: int, outFrame: int, g: Bdn.Attrib)
    requires 0 <= inFrame < |plane| && inFrame <= outFrame <= inFrame + 8
    requires outFrame - inFrame / 6 >= MarginFor3DSubs
    ensures EventDepth(plane, inFrame, outFrame, g, false) == Fail(IndexError)
  {
    assert Margin(inFrame, outFrame, false) == 5;
  }

  /** For example, a six-frame event at frame 600 of a plane of 1000 frames. */
  lemma SixFrameEvent(plane: seq<Byte>, g: Bdn.Attrib)
    requires |plane| == 1000
    ensures EventDepth(plane, 600, 606, g, false) == Fail(IndexError)
    ensures EventDepth(plane, 600, 606, g, true).Ok?
  {
    ShortEventFails(plane, 600, 606, g);
    assert Margin(600, 606, true) == 1;
    assert |Window(plane, 600, 606, true)| == 5;
  }

  /** With the corrected margin, every event that lies inside the plane
      reads a non-empty window inside its own frames, trimmed by the same
      margin (at most a sixth of its length, at most 5) on both sides. */
  lemma CorrectedWindowInside(plane: seq<Byte>, inFrame: int, outFrame: int, g: Bdn.Attrib)
    requires 0 <= inFrame <= outFrame < |plane|
    ensures var m := Margin(inFrame, outFrame, true);
      0 <= m <= (outFrame - inFrame) / 6
      && Window(plane, inFrame, outFrame, true) == plane[inFrame + m..outFrame - m + 1]
      && |Window(plane, inFrame, outFrame, true)| > 0
    ensures EventDepth(plane, inFrame, outFrame, g, true).Ok?
  {
  }

  datatype Event = Event(attrib: Bdn.Attrib, graphics: seq<Bdn.Attrib>)

  /** One Event: InTC and OutTC as frames, then its first Graphic given
      its depth. */
  function ProcessEvent(plane: seq<Byte>, e: Event, fps: real, corrected: bool): (r: Result<Event>)
    ensures r.Ok? ==> "InTC" in e.attrib && "OutTC" in e.attrib && |e.graphics| > 0
    ensures r.Ok? ==> (r.value.attrib == e.attrib && |r.value.graphics| == |e.graphics|
      && r.value.graphics[1..] == e.graphics[1..])
  {
    if "InTC" !in e.attrib then Fail(KeyError)
    else match Tc2Frame(e.attrib["InTC"], fps)
      case Fail(f) => Fail(f)
      case Ok(inFrame) =>
        if "OutTC" !in e.attrib then Fail(KeyError)
        else match Tc2Frame(e.attrib["OutTC"], fps)
          case Fail(f) => Fail(f)
          case Ok(outFrame) =>
            if |e.graphics| == 0 then Fail(IndexError)
            else match EventDepth(plane, inFrame, outFrame, e.graphics[0], corrected)
              case Fail(f) => Fail(f)
              case Ok(a) => Ok(e.(graphics := [a] + e.graphics[1..]))
  }

  /** AddDepthTags: the plane's header stripped, every event processed in
      order. The average depth divides by the number of events, so a file
      without events ends in ZeroDivisionError before anything is
      written. */
  function AddDepthTags(raw: seq<Byte>, events: seq<Event>, framerate: real, corrected: bool)
    : (r: Result<seq<Event>>)
    ensures |events| == 0 ==> r == Fail(ZeroDivision)
    ensures r.Ok? ==> |r.value| == |events| && forall k :: 0 <= k < |events| ==>
      ProcessEvent(StripOfs(raw), events[k], Fps(framerate), corrected) == Ok(r.value[k])
  {
    var plane := StripOfs(raw);
    match MapAll(events, (e: Event) => ProcessEvent(plane, e, Fps(framerate), corrected))
    case Fail(f) => Fail(f)
    case Ok(done) => if |events| == 0 then Fail(ZeroDivision) else Ok(done)
  }

  /** main: three arguments, and a frame rate of 24. */
  function Main(args: seq<string>, raw: seq<Byte>, events: seq<Event>): (r: Result<seq<Event>>)
    ensures |args| < 3 ==> r == Fail(Exit(1))
    ensures |args| >= 3 ==> r == AddDepthTags(raw, events, 24.0, false)
  {
    if |args| < 3 then Fail(Exit(1)) else AddDepthTags(raw, events, 24.0, false)
  }
}

=== FILE: batchconvert.dfy ===
// batchconvert.py: the per-folder steps of the remux converter that are
// decisions over an info file rather than tool runs: which generated files
// --clean deletes, the mkvmerge and mkvextract argument lists, the x265
// command and its two-pass variant, the subtitle steps, and the audio
// conversion plan of a track.
module BatchConvert {
  import opened Results
  import opened Text
  import opened Lists
  import opened Json
  import opened Info
  import AudioFilters
  import NightmodeAudio
  import MkvArgs
  import VideoInfo
  import VideoHdr
  import PyPath
  import InfoJson

  /** TrackInfo.getOutFile of an audio track. */
  function AudioOut(t: AudioTrack): string
  {
    OutFile(t.id, t.index, t.extension)
  }

  /** TrackInfo.getOutFile of a subtitle track. */
  function SubOut(t: SubTrack): string
  {
    OutFile(t.id, t.index, t.extension)
  }

  /** Output names carry the dot before their extension. */
  lemma OutFileHasDot(id: int, index: int, ext: string)
    ensures '.' in OutFile(id, index, ext)
  {
    var k := |IntToString(id)| + 1 + |IntToString(index)|;
    assert OutFile(id, index, ext)[k] == '.';
  }

  /** No option mkvmerge is given here contains a dot, so a name with one is
      always read as a file. */
  lemma DottedIsFile(s: string)
    requires '.' in s
    ensures !MkvArgs.IsOption(s)
  {
  }

  // ------------------------------------------------------------ --clean

  /** A folder holding an info file: the info and the names of its entries
      that are not directories, in listing order. */
  datatype Folder = Folder(info: InfoFile, files: seq<string>)

  /** The external subtitle files of the tracks, in track order. */
  function Externals(subs: seq<SubTrack>): (r: seq<string>)
    ensures forall x :: x in r <==> exists i :: 0 <= i < |subs| && subs[i].external == Some(x)
    decreases |subs|
  {
    if |subs| == 0 then []
    else
      var rest := Externals(subs[1..]);
      assert forall i :: 0 <= i < |subs| - 1 ==> subs[1..][i] == subs[i + 1];
      (match subs[0].external case Some(e) => [e] case None => []) + rest
  }

  /** What a folder adds to the exclusion list and leaves there: its
      vapoursynth script when one is named, and its external subtitles. */
  function Kept(info: InfoFile): seq<string>
  {
    (if info.video.vsScript != "" then [info.video.vsScript] else []) + Externals(info.subs)
  }

  /** Everything a folder adds to the exclusion list: its source first. */
  function Protected(info: InfoFile): seq<string>
  {
    [info.sourceMKV] + Kept(info)
  }

  /** The entries not on the exclusion list: those are unlinked. */
  function Unlisted(files: seq<string>, exclude: seq<string>): (r: seq<string>)
    ensures |r| <= |files|
    ensures forall x :: x in r <==> x in files && x !in exclude
    decreases |files|
  {
    if |files| == 0 then []
    else (if files[0] in exclude then [] else [files[0]]) + Unlisted(files[1..], exclude)
  }

  /** The loop of cleanFiles from a given exclusion list: the files deleted
      in each folder. After a folder its source is removed from the list
      again, but its script and external subtitles stay. */
  function CleanFolders(exclude: seq<string>, folders: seq<Folder>): (r: seq<seq<string>>)
    ensures |r| == |folders|
    decreases |folders|
  {
    if |folders| == 0 then []
    else
      var ex := exclude + Protected(folders[0].info);
      [Unlisted(folders[0].files, ex)] + CleanFolders(RemoveFirst(ex, folders[0].info.sourceMKV), folders[1..])
  }

  /** cleanFiles: the list starts with the script's own name and the info
      file's name. */
  function CleanFiles(script: string, infoFile: string, folders: seq<Folder>): (r: seq<seq<string>>)
    ensures |r| == |folders|
  {
    CleanFolders([script, infoFile], folders)
  }

  /** The names the folders before the k-th leave on the list. */
  function KeptBefore(folders: seq<Folder>, k: nat): seq<string>
    requires k <= |folders|
    decreases k
  {
    if k == 0 then [] else Kept(folders[0].info) + KeptBefore(folders[1..], k - 1)
  }

  /** Removing a folder's source again leaves exactly its kept names added. */
  lemma RemoveSourceKeeps(exclude: seq<string>, info: InfoFile, x: string)
    ensures x in RemoveFirst(exclude + Protected(info), info.sourceMKV) <==> x in exclude || x in Kept(info)
  {
    var ex := exclude + Protected(info);
    assert info.sourceMKV in ex by {
      assert ex[|exclude|] == info.sourceMKV;
    }
    assert multiset(ex) == multiset(exclude) + multiset{info.sourceMKV} + multiset(Kept(info));
    assert multiset(RemoveFirst(ex, info.sourceMKV)) == multiset(exclude) + multiset(Kept(info));
    assert x in RemoveFirst(ex, info.sourceMKV) <==> x in multiset(RemoveFirst(ex, info.sourceMKV));
  }

  lemma {:induction false} CleanFoldersSpec(exclude: seq<string>, folders: seq<Folder>, k: nat, x: string)
    requires k < |folders|
    ensures x in CleanFolders(exclude, folders)[k] <==>
      x in folders[k].files && x !in exclude && x !in Protected(folders[k].info) && x !in KeptBefore(folders, k)
    decreases k
  {
    if k > 0 {
      var ex := exclude + Protected(folders[0].info);
      var next := RemoveFirst(ex, folders[0].info.sourceMKV);
      assert CleanFolders(exclude, folders)[k] == CleanFolders(next, folders[1..])[k - 1];
      CleanFoldersSpec(next, folders[1..], k - 1, x);
      RemoveSourceKeeps(exclude, folders[0].info, x);
      assert folders[1..][k - 1] == folders[k];
    }
  }

  /** A file is deleted in the k-th folder exactly when it is listed there
      and is neither the script, nor the info file, nor that folder's
      source, script or external subtitles, nor a script or external
      subtitle of an earlier folder. */
  lemma CleanFilesDeletes(script: string, infoFile: string, folders: seq<Folder>, k: nat, x: string)
    requires k < |folders|
    ensures x in CleanFiles(script, infoFile, folders)[k] <==>
      x in folders[k].files && x != script && x != infoFile
      && x !in Protected(folders[k].info) && x !in KeptBefore(folders, k)
  {
    CleanFoldersSpec([script, infoFile], folders, k, x);
  }

  /** In particular the folder's own source, script and external subtitles
      and the script and info file are never deleted. */
  lemma CleanFilesKeepsProtected(script: string, infoFile: string, folders: seq<Folder>, k: nat)
    requires k < |folders|
    ensures forall x :: x in CleanFiles(script, infoFile, folders)[k] ==>
      x != script && x != infoFile && x != folders[k].info.sourceMKV && x !in Kept(folders[k].info)
  {
    forall x | x in CleanFiles(script, infoFile, folders)[k]
      ensures x != script && x != infoFile && x != folders[k].info.sourceMKV && x !in Kept(folders[k].info)
    {
      CleanFilesDeletes(script, infoFile, folders, k, x);
    }
  }

  /** A name is kept by an earlier folder exactly when one of them keeps it. */
  lemma {:induction false} KeptBeforeIn(folders: seq<Folder>, k: nat, x: string)
    requires k <= |folders|
    ensures x in KeptBefore(folders, k) <==> exists j :: 0 <= j < k && x in Kept(folders[j].info)
    decreases k
  {
    if k > 0 {
      KeptBeforeIn(folders[1..], k - 1, x);
      assert forall j :: 1 <= j < k ==> folders[1..][j - 1] == folders[j];
      if x in KeptBefore(folders[1..], k - 1) {
        var j :| 0 <= j < k - 1 && x in Kept(folders[1..][j].info);
        assert x in Kept(folders[j + 1].info);
      }
    }
  }

  /** `Info(str(folder.joinpath(infoFile)))`: the folder's info file, parsed
      (`infoJson`), read by Info(jsonFile) as written or, `corrected`, by the
      reader that takes "sourceFile" and the nested script. Whether an
      external subtitle exists is asked of `present`. */
  function FolderInfo(corrected: bool, infoJson: string -> Json, present: string -> bool, folder: string)
    : (r: Result<InfoFile>)
    ensures !corrected && r.Ok? ==> r.value.sourceMKV == ""
    ensures corrected && r.Ok? ==>
      infoJson(folder).JObj? && Get(infoJson(folder).fields, "sourceFile") == Some(JStr(r.value.sourceMKV))
  {
    if corrected then InfoJson.CorrectedLoad(infoJson(folder), present)
    else InfoJson.Load(infoJson(folder), present)
  }

  /** The folders as cleanFiles walks them once every info has been read;
      `listing(folder)` is the folder's entries that are not directories. */
  function LoadedFolders(folders: seq<string>, infos: seq<InfoFile>, listing: string -> seq<string>): (r: seq<Folder>)
    requires |infos| == |folders|
    ensures |r| == |folders|
    ensures forall k :: 0 <= k < |folders| ==> r[k] == Folder(infos[k], listing(folders[k]))
  {
    seq(|folders|, k requires 0 <= k < |folders| => Folder(infos[k], listing(folders[k])))
  }

  /** cleanFiles as main calls it: each folder's info is read before its
      files are deleted, and the first that cannot be read ends the run. */
  function CleanFilesRun(script: string, folders: seq<string>, corrected: bool, infoJson: string -> Json,
                         present: string -> bool, listing: string -> seq<string>): (r: Result<seq<seq<string>>>)
    ensures r.Ok? <==> forall k :: 0 <= k < |folders| ==> FolderInfo(corrected, infoJson, present, folders[k]).Ok?
    ensures r.Fail? ==>
      exists k :: 0 <= k < |folders| && FolderInfo(corrected, infoJson, present, folders[k]) == Fail(r.failure)
                  && forall j :: 0 <= j < k ==> FolderInfo(corrected, infoJson, present, folders[j]).Ok?
    ensures r.Ok? ==> |r.value| == |folders|
  {
    match MapAll(folders, (d: string) => FolderInfo(corrected, infoJson, present, d))
    case Fail(f) => Fail(f)
    case Ok(infos) => Ok(CleanFiles(script, InfoFileName, LoadedFolders(folders, infos, listing)))
  }

  /** In a run that reads every info, a file is deleted in folder k exactly
      when it is one of the folder's files and is neither the script, nor the
      info file, nor the source name that folder's info holds, nor a script
      or external subtitle of that folder or an earlier one. */
  lemma CleanFilesRunDeletes(script: string, folders: seq<string>, corrected: bool, infoJson: string -> Json,
                             present: string -> bool, listing: string -> seq<string>, k: nat, x: string)
    requires CleanFilesRun(script, folders, corrected, infoJson, present, listing).Ok?
    requires k < |folders|
    ensures var info := FolderInfo(corrected, infoJson, present, folders[k]).value;
      x in CleanFilesRun(script, folders, corrected, infoJson, present, listing).value[k] <==>
        x in listing(folders[k]) && x != script && x != InfoFileName && x != info.sourceMKV && x !in Kept(info)
        && forall j :: 0 <= j < k ==> x !in Kept(FolderInfo(corrected, infoJson, present, folders[j]).value)
  {
    var infos := MapAll(folders, (d: string) => FolderInfo(corrected, infoJson, present, d)).value;
    var fs := LoadedFolders(folders, infos, listing);
    CleanFilesDeletes(script, InfoFileName, fs, k, x);
    KeptBeforeIn(fs, k, x);
    assert forall j :: 0 <= j < k ==> fs[j].info == FolderInfo(corrected, infoJson, present, folders[j]).value;
  }

  // ------------------------------------------------------------ mkvmerge

  /** `str(int(track.default))`. */
  function DefaultFlag(b: bool): string
  {
    if b then "1" else "0"
  }

  /** `["--sync", "0:" + str(sync)]` when the sync is non-zero. */
  function SyncArgs(sync: int): seq<string>
  {
    if sync != 0 then ["--sync", "0:" + IntToString(sync)] else []
  }

  function AudioArgs(t: AudioTrack): seq<string>
  {
    SyncArgs(t.sync)
      + ["--track-name", "0:" + t.title, "--language", "0:" + t.language,
         "--default-track", "0:" + DefaultFlag(t.default), "--no-chapters", AudioOut(t)]
  }

  /** A subtitle is muxed from its external file when it has one. */
  function SubFile(t: SubTrack): string
  {
    match t.external case Some(e) => e case None => SubOut(t)
  }

  function SubArgs(t: SubTrack): seq<string>
  {
    SyncArgs(t.sync)
      + ["--track-name", "0:" + t.title, "--language", "0:" + t.language,
         "--default-track", "0:" + DefaultFlag(t.default), SubFile(t)]
  }

  function AudioArgsAll(ts: seq<AudioTrack>): seq<string>
    decreases |ts|
  {
    if |ts| == 0 then [] else AudioArgs(ts[0]) + AudioArgsAll(ts[1..])
  }

  function SubArgsAll(ts: seq<SubTrack>): seq<string>
    decreases |ts|
  {
    if |ts| == 0 then [] else SubArgs(ts[0]) + SubArgsAll(ts[1..])
  }

  /** The global and video options, the video's extra options and file. */
  function VideoArgs(info: InfoFile): seq<string>
  {
    ["--output", info.outputFile, "--title", info.title,
     "--track-name", "0:" + info.video.title, "--language", "0:" + info.video.language, "--no-chapters"]
      + info.video.mkvmergeOpts + [info.video.output]
  }

  function ChapterArgs(chaptersExist: bool): seq<string>
  {
    if chaptersExist then ["--chapters", "chapters.xml"] else []
  }

  /** mergeMKV's command: the global and video options, the video's extra
      options and file, every audio track, every subtitle track, and the
      chapters when chapters.xml exists. */
  function MergeCommand(info: InfoFile, chaptersExist: bool): (r: seq<string>)
    ensures |r| >= 11 && r[0] == "mkvmerge" && r[1..5] == ["--output", info.outputFile, "--title", info.title]
    ensures chaptersExist ==> r[|r| - 2..] == ["--chapters", "chapters.xml"]
    ensures !chaptersExist && info.subs == [] && info.audio == [] ==> r[|r| - 1] == info.video.output
  {
    ["mkvmerge"] + (VideoArgs(info) + (AudioArgsAll(info.audio) + (SubArgsAll(info.subs) + ChapterArgs(chaptersExist))))
  }

  // What mkvmerge is meant to read from that command, file by file.

  function SyncOpts(sync: int): seq<(string, string)>
  {
    if sync != 0 then [("--sync", "0:" + IntToString(sync))] else []
  }

  function AudioOpts(t: AudioTrack): seq<(string, string)>
  {
    SyncOpts(t.sync)
      + [("--track-name", "0:" + t.title), ("--language", "0:" + t.language),
         ("--default-track", "0:" + DefaultFlag(t.default)), ("--no-chapters", "")]
  }

  function SubOpts(t: SubTrack): seq<(string, string)>
  {
    SyncOpts(t.sync)
      + [("--track-name", "0:" + t.title), ("--language", "0:" + t.language),
         ("--default-track", "0:" + DefaultFlag(t.default))]
  }

  function VideoOpts(info: InfoFile): seq<(string, string)>
  {
    [("--output", info.outputFile), ("--title", info.title), ("--track-name", "0:" + info.video.title),
     ("--language", "0:" + info.video.language), ("--no-chapters", "")]
  }

  function AudioInputs(ts: seq<AudioTrack>): (r: seq<MkvArgs.Input>)
    ensures |r| == |ts|
    ensures forall i :: 0 <= i < |ts| ==> r[i] == MkvArgs.Input(AudioOut(ts[i]), AudioOpts(ts[i]))
    decreases |ts|
  {
    if |ts| == 0 then [] else [MkvArgs.Input(AudioOut(ts[0]), AudioOpts(ts[0]))] + AudioInputs(ts[1..])
  }

  function SubInputs(ts: seq<SubTrack>): (r: seq<MkvArgs.Input>)
    ensures |r| == |ts|
    ensures forall i :: 0 <= i < |ts| ==> r[i] == MkvArgs.Input(SubFile(ts[i]), SubOpts(ts[i]))
    decreases |ts|
  {
    if |ts| == 0 then [] else [MkvArgs.Input(SubFile(ts[0]), SubOpts(ts[0]))] + SubInputs(ts[1..])
  }

  lemma ArgsCons(p: (string, string), rest: seq<(string, string)>)
    ensures MkvArgs.Args([p] + rest) == (if MkvArgs.FlagOption(p.0) then [p.0] else [p.0, p.1]) + MkvArgs.Args(rest)
  {
    assert ([p] + rest)[1..] == rest;
  }

  lemma {:induction false} ArgsAppend(a: seq<(string, string)>, b: seq<(string, string)>)
    ensures MkvArgs.Args(a + b) == MkvArgs.Args(a) + MkvArgs.Args(b)
    decreases |a|
  {
    if |a| == 0 {
      assert a + b == b;
    } else {
      assert (a + b)[1..] == a[1..] + b;
      ArgsAppend(a[1..], b);
    }
  }

  lemma WellFormedAppend(a: seq<(string, string)>, b: seq<(string, string)>)
    requires MkvArgs.WellFormed(a) && MkvArgs.WellFormed(b)
    ensures MkvArgs.WellFormed(a + b)
  {
    forall i | 0 <= i < |a + b|
      ensures MkvArgs.ValueOption((a + b)[i].0) || (MkvArgs.FlagOption((a + b)[i].0) && (a + b)[i].1 == "")
    {
      if i >= |a| {
        assert (a + b)[i] == b[i - |a|];
      }
    }
  }

  lemma SyncSpelled(sync: int)
    ensures SyncArgs(sync) == MkvArgs.Args(SyncOpts(sync)) && MkvArgs.WellFormed(SyncOpts(sync))
  {
    if sync != 0 {
      ArgsCons(("--sync", "0:" + IntToString(sync)), []);
    }
  }

  /** The options of one audio track are spelled out before its file. */
  lemma AudioSpelled(t: AudioTrack)
    ensures AudioArgs(t) == MkvArgs.Args(AudioOpts(t)) + [AudioOut(t)]
    ensures MkvArgs.WellFormed(AudioOpts(t))
  {
    var fixed := [("--track-name", "0:" + t.title), ("--language", "0:" + t.language),
                  ("--default-track", "0:" + DefaultFlag(t.default)), ("--no-chapters", "")];
    ArgsCons(fixed[3], []);
    assert fixed[3..] == [fixed[3]];
    ArgsCons(fixed[2], fixed[3..]);
    assert fixed[2..] == [fixed[2]] + fixed[3..];
    ArgsCons(fixed[1], fixed[2..]);
    assert fixed[1..] == [fixed[1]] + fixed[2..];
    ArgsCons(fixed[0], fixed[1..]);
    assert fixed == [fixed[0]] + fixed[1..];
    assert MkvArgs.Args(fixed) == ["--track-name", "0:" + t.title, "--language", "0:" + t.language,
      "--default-track", "0:" + DefaultFlag(t.default), "--no-chapters"];
    SyncSpelled(t.sync);
    ArgsAppend(SyncOpts(t.sync), fixed);
    WellFormedAppend(SyncOpts(t.sync), fixed);
  }

  /** The options of one subtitle track are spelled out before its file. */
  lemma SubSpelled(t: SubTrack)
    ensures SubArgs(t) == MkvArgs.Args(SubOpts(t)) + [SubFile(t)]
    ensures MkvArgs.WellFormed(SubOpts(t))
  {
    var fixed := [("--track-name", "0:" + t.title), ("--language", "0:" + t.language),
                  ("--default-track", "0:" + DefaultFlag(t.default))];
    ArgsCons(fixed[2], []);
    assert fixed[2..] == [fixed[2]];
    ArgsCons(fixed[1], fixed[2..]);
    assert fixed[1..] == [fixed[1]] + fixed[2..];
    ArgsCons(fixed[0], fixed[1..]);
    assert fixed == [fixed[0]] + fixed[1..];
    assert MkvArgs.Args(fixed) == ["--track-name", "0:" + t.title, "--language", "0:" + t.language,
      "--default-track", "0:" + DefaultFlag(t.default)];
    SyncSpelled(t.sync);
    ArgsAppend(SyncOpts(t.sync), fixed);
    WellFormedAppend(SyncOpts(t.sync), fixed);
  }

  lemma VideoSpelled(info: InfoFile, ps: seq<(string, string)>)
    requires MkvArgs.WellFormed(ps) && info.video.mkvmergeOpts == MkvArgs.Args(ps)
    ensures VideoArgs(info) == MkvArgs.Args(VideoOpts(info) + ps) + [info.video.output]
    ensures MkvArgs.WellFormed(VideoOpts(info) + ps)
  {
    var v := VideoOpts(info);
    ArgsFourThenFlag(v);
    ArgsAppend(v, ps);
    WellFormedAppend(v, ps);
  }

  /** Four options with values and a flag spell out as nine arguments. */
  lemma ArgsFourThenFlag(v: seq<(string, string)>)
    requires |v| == 5 && MkvArgs.FlagOption(v[4].0)
    requires !MkvArgs.FlagOption(v[0].0) && !MkvArgs.FlagOption(v[1].0) && !MkvArgs.FlagOption(v[2].0) && !MkvArgs.FlagOption(v[3].0)
    ensures MkvArgs.Args(v) == [v[0].0, v[0].1, v[1].0, v[1].1, v[2].0, v[2].1, v[3].0, v[3].1, v[4].0]
  {
    ArgsCons(v[4], []);
    assert v[4..] == [v[4]];
    ArgsCons(v[3], v[4..]);
    assert v[3..] == [v[3]] + v[4..];
    ArgsCons(v[2], v[3..]);
    assert v[2..] == [v[2]] + v[3..];
    ArgsCons(v[1], v[2..]);
    assert v[1..] == [v[1]] + v[2..];
    ArgsCons(v[0], v[1..]);
    assert v == [v[0]] + v[1..];
  }

  /** The video part adds the first input. */
  lemma RunVideo(info: InfoFile, ps: seq<(string, string)>, rest: seq<string>)
    requires MkvArgs.WellFormed(ps) && info.video.mkvmergeOpts == MkvArgs.Args(ps)
    requires !MkvArgs.IsOption(info.video.output)
    ensures MkvArgs.Run(VideoArgs(info) + rest, MkvArgs.Start)
      == MkvArgs.Run(rest, MkvArgs.State([MkvArgs.Input(info.video.output, VideoOpts(info) + ps)], [], None))
  {
    VideoSpelled(info, ps);
    MkvArgs.FileWithOptions(VideoOpts(info) + ps, info.video.output, MkvArgs.Start);
    MkvArgs.RunAppend(VideoArgs(info), rest, MkvArgs.Start);
    assert MkvArgs.Start.pending + (VideoOpts(info) + ps) == VideoOpts(info) + ps;
    assert MkvArgs.Start.inputs + [MkvArgs.Input(info.video.output, VideoOpts(info) + ps)]
      == [MkvArgs.Input(info.video.output, VideoOpts(info) + ps)];
  }

  /** The chapters option is left pending after the last file. */
  lemma RunChapters(chaptersExist: bool, st: MkvArgs.State)
    requires st.pending == [] && st.awaiting.None?
    ensures MkvArgs.Run(ChapterArgs(chaptersExist), st)
      == st.(pending := if chaptersExist then [("--chapters", "chapters.xml")] else [])
  {
    if chaptersExist {
      var c := ChapterArgs(chaptersExist);
      assert MkvArgs.Run(c, st) == MkvArgs.Run(c[1..], MkvArgs.Step(st, "--chapters"));
      assert c[1..][1..] == [];
    }
  }

  /** One audio track's arguments add its input. */
  lemma RunAudio(t: AudioTrack, rest: seq<string>, st: MkvArgs.State)
    requires st.pending == [] && st.awaiting.None?
    ensures MkvArgs.Run(AudioArgs(t) + rest, st)
      == MkvArgs.Run(rest, MkvArgs.State(st.inputs + [MkvArgs.Input(AudioOut(t), AudioOpts(t))], [], None))
  {
    AudioSpelled(t);
    OutFileHasDot(t.id, t.index, t.extension);
    DottedIsFile(AudioOut(t));
    MkvArgs.RunAppend(AudioArgs(t), rest, st);
    MkvArgs.FileWithOptions(AudioOpts(t), AudioOut(t), st);
    assert st.pending + AudioOpts(t) == AudioOpts(t);
  }

  /** One subtitle track's arguments add its input. */
  lemma RunSub(t: SubTrack, rest: seq<string>, st: MkvArgs.State)
    requires st.pending == [] && st.awaiting.None? && !MkvArgs.IsOption(SubFile(t))
    ensures MkvArgs.Run(SubArgs(t) + rest, st)
      == MkvArgs.Run(rest, MkvArgs.State(st.inputs + [MkvArgs.Input(SubFile(t), SubOpts(t))], [], None))
  {
    SubSpelled(t);
    MkvArgs.RunAppend(SubArgs(t), rest, st);
    MkvArgs.FileWithOptions(SubOpts(t), SubFile(t), st);
    assert st.pending + SubOpts(t) == SubOpts(t);
  }

  lemma RunAudiosStep(ts: seq<AudioTrack>, st: MkvArgs.State)
    requires st.pending == [] && st.awaiting.None? && |ts| > 0
    ensures MkvArgs.Run(AudioArgsAll(ts), st)
      == MkvArgs.Run(AudioArgsAll(ts[1..]), MkvArgs.State(st.inputs + [MkvArgs.Input(AudioOut(ts[0]), AudioOpts(ts[0]))], [], None))
  {
    assert AudioArgsAll(ts) == AudioArgs(ts[0]) + AudioArgsAll(ts[1..]);
    RunAudio(ts[0], AudioArgsAll(ts[1..]), st);
  }

  lemma {:induction false} RunAudios(ts: seq<AudioTrack>, st: MkvArgs.State)
    requires st.pending == [] && st.awaiting.None?
    ensures MkvArgs.Run(AudioArgsAll(ts), st) == MkvArgs.State(st.inputs + AudioInputs(ts), [], None)
    decreases |ts|
  {
    if |ts| == 0 {
      assert st.inputs + AudioInputs(ts) == st.inputs;
    } else {
      var head := MkvArgs.Input(AudioOut(ts[0]), AudioOpts(ts[0]));
      var mid := MkvArgs.State(st.inputs + [head], [], None);
      RunAudiosStep(ts, st);
      RunAudios(ts[1..], mid);
      assert AudioInputs(ts) == [head] + AudioInputs(ts[1..]);
      assert st.inputs + [head] + AudioInputs(ts[1..]) == st.inputs + ([head] + AudioInputs(ts[1..]));
    }
  }

  lemma {:induction false} RunSubs(ts: seq<SubTrack>, st: MkvArgs.State)
    requires st.pending == [] && st.awaiting.None?
    requires forall i :: 0 <= i < |ts| ==> !MkvArgs.IsOption(SubFile(ts[i]))
    ensures MkvArgs.Run(SubArgsAll(ts), st) == MkvArgs.State(st.inputs + SubInputs(ts), [], None)
    decreases |ts|
  {
    if |ts| == 0 {
      assert st.inputs + SubInputs(ts) == st.inputs;
    } else {
      var mid := MkvArgs.State(st.inputs + [MkvArgs.Input(SubFile(ts[0]), SubOpts(ts[0]))], [], None);
      assert SubArgsAll(ts) == SubArgs(ts[0]) + SubArgsAll(ts[1..]);
      assert !MkvArgs.IsOption(SubFile(ts[0]));
      RunSub(ts[0], SubArgsAll(ts[1..]), st);
      forall i | 0 <= i < |ts[1..]| ensures !MkvArgs.IsOption(SubFile(ts[1..][i])) {
        assert ts[1..][i] == ts[i + 1];
      }
      RunSubs(ts[1..], mid);
      assert SubInputs(ts) == [MkvArgs.Input(SubFile(ts[0]), SubOpts(ts[0]))] + SubInputs(ts[1..]);
      assert mid.inputs + SubInputs(ts[1..]) == st.inputs + SubInputs(ts);
    }
  }

  /** Subtitle files that can be read as files: their output names always
      can, external names when they are not option names. */
  predicate ExternalsAreFiles(subs: seq<SubTrack>)
  {
    forall i :: 0 <= i < |subs| && subs[i].external.Some? ==> !MkvArgs.IsOption(subs[i].external.value)
  }

  /** mkvmerge reads the command as the video file with the global and
      video options plus its extra options, then one input per audio track
      in order (its sync option only when the sync is non-zero, its output
      file), then one per subtitle track (its external file in place of the
      output when it has one), with "--chapters chapters.xml" left over
      only when chapters.xml exists. */
  lemma MergeInputs(info: InfoFile, chaptersExist: bool, ps: seq<(string, string)>)
    requires MkvArgs.WellFormed(ps) && info.video.mkvmergeOpts == MkvArgs.Args(ps)
    requires !MkvArgs.IsOption(info.video.output)
    requires ExternalsAreFiles(info.subs)
    ensures MkvArgs.Parse(MergeCommand(info, chaptersExist)[1..]) ==
      MkvArgs.State([MkvArgs.Input(info.video.output, VideoOpts(info) + ps)] + AudioInputs(info.audio) + SubInputs(info.subs),
                    if chaptersExist then [("--chapters", "chapters.xml")] else [], None)
  {
    var rest := AudioArgsAll(info.audio) + (SubArgsAll(info.subs) + ChapterArgs(chaptersExist));
    var s1 := MkvArgs.State([MkvArgs.Input(info.video.output, VideoOpts(info) + ps)], [], None);
    assert MergeCommand(info, chaptersExist)[1..] == VideoArgs(info) + rest;
    RunVideo(info, ps, rest);
    MergeTracks(info, chaptersExist, s1);
  }

  /** The track part of the command after the video input. */
  lemma MergeTracks(info: InfoFile, chaptersExist: bool, s1: MkvArgs.State)
    requires s1.pending == [] && s1.awaiting.None?
    requires ExternalsAreFiles(info.subs)
    ensures MkvArgs.Run(AudioArgsAll(info.audio) + (SubArgsAll(info.subs) + ChapterArgs(chaptersExist)), s1) ==
      MkvArgs.State(s1.inputs + AudioInputs(info.audio) + SubInputs(info.subs),
                    if chaptersExist then [("--chapters", "chapters.xml")] else [], None)
  {
    var audio := AudioArgsAll(info.audio);
    var subs := SubArgsAll(info.subs);
    var chapters := ChapterArgs(chaptersExist);
    var s2 := MkvArgs.State(s1.inputs + AudioInputs(info.audio), [], None);
    var s3 := MkvArgs.State(s2.inputs + SubInputs(info.subs), [], None);
    assert MkvArgs.Run(audio + (subs + chapters), s1) == MkvArgs.Run(subs + chapters, s2) by {
      MkvArgs.RunAppend(audio, subs + chapters, s1);
      RunAudios(info.audio, s1);
    }
    assert MkvArgs.Run(subs + chapters, s2) == MkvArgs.Run(chapters, s3) by {
      forall i | 0 <= i < |info.subs| ensures !MkvArgs.IsOption(SubFile(info.subs[i])) {
        if info.subs[i].external.None? {
          OutFileHasDot(info.subs[i].id, info.subs[i].index, info.subs[i].extension);
          DottedIsFile(SubOut(info.subs[i]));
        }
      }
      MkvArgs.RunAppend(subs, chapters, s2);
      RunSubs(info.subs, s2);
    }
    RunChapters(chaptersExist, s3);
  }

  // ------------------------------------------------------------ mkvextract

  /** A track to extract: its id in the source and its output name. */
  datatype Extract = Extract(id: int, out: string)

  /** Audio tracks whose output does not exist yet and that are copied
      rather than converted. */
  function ExtractAudio(ts: seq<AudioTrack>, present: string -> bool): (r: seq<Extract>)
    ensures |r| <= |ts|
    ensures forall e :: e in r <==> exists i :: 0 <= i < |ts| && e == Extract(ts[i].id, AudioOut(ts[i]))
                                               && !present(AudioOut(ts[i])) && !Truthy(ts[i].convert)
    decreases |ts|
  {
    if |ts| == 0 then []
    else
      var rest := ExtractAudio(ts[1..], present);
      assert forall i :: 0 <= i < |ts| - 1 ==> ts[1..][i] == ts[i + 1];
      (if !present(AudioOut(ts[0])) && !Truthy(ts[0].convert) then [Extract(ts[0].id, AudioOut(ts[0]))] else []) + rest
  }

  /** Subtitle tracks whose output does not exist yet, that are not made by
      OCR and that have no external file. */
  function ExtractSubs(ts: seq<SubTrack>, present: string -> bool): (r: seq<Extract>)
    ensures |r| <= |ts|
    ensures forall e :: e in r <==> exists i :: 0 <= i < |ts| && e == Extract(ts[i].id, SubOut(ts[i]))
                                               && !present(SubOut(ts[i])) && !ts[i].sup2srt && ts[i].external.None?
    decreases |ts|
  {
    if |ts| == 0 then []
    else
      var rest := ExtractSubs(ts[1..], present);
      assert forall i :: 0 <= i < |ts| - 1 ==> ts[1..][i] == ts[i + 1];
      (if !present(SubOut(ts[0])) && !ts[0].sup2srt && ts[0].external.None? then [Extract(ts[0].id, SubOut(ts[0]))] else []) + rest
  }

  /** The tracks extractTracks collects: audio first, then subtitles. */
  function ExtractSelection(info: InfoFile, present: string -> bool): seq<Extract>
  {
    ExtractAudio(info.audio, present) + ExtractSubs(info.subs, present)
  }

  /** `"{}:{}".format(track.id, Path("temp-" + out))`. */
  function TempTarget(e: Extract): string
  {
    IntToString(e.id) + ":" + ("temp-" + e.out)
  }

  function TempTargets(sel: seq<Extract>): (r: seq<string>)
    ensures |r| == |sel|
    ensures forall i :: 0 <= i < |sel| ==> r[i] == TempTarget(sel[i])
    decreases |sel|
  {
    if |sel| == 0 then [] else [TempTarget(sel[0])] + TempTargets(sel[1..])
  }

  /** The mkvextract command, or None when there is nothing to extract. */
  function ExtractCommand(source: string, sel: seq<Extract>): (r: Option<seq<string>>)
    ensures r.None? <==> |sel| == 0
    ensures r.Some? ==> |r.value| == |sel| + 5
  {
    if |sel| == 0 then None
    else Some(["mkvextract", source, "tracks"] + TempTargets(sel) + ["chapters", "chapters.xml"])
  }

  /** The renames after the run: the i-th temporary file to the i-th output. */
  function Renames(sel: seq<Extract>): (r: seq<(string, string)>)
    ensures |r| == |sel|
    ensures forall i :: 0 <= i < |sel| ==> r[i] == ("temp-" + sel[i].out, sel[i].out)
    decreases |sel|
  {
    if |sel| == 0 then [] else [("temp-" + sel[0].out, sel[0].out)] + Renames(sel[1..])
  }

  lemma NoColonInInt(i: int)
    ensures ':' !in IntToString(i)
  {
    var s := IntToString(i);
    if i < 0 {
      assert s == "-" + NatToString(-i);
      assert forall k :: 1 <= k < |s| ==> s[k] == NatToString(-i)[k - 1];
    }
  }

  /** Each target of the command names the track id before its first ':'
      and, after it, the temporary file the i-th rename moves into place;
      the command starts with the source and ends with the chapters. */
  lemma ExtractCommandReadsBack(source: string, sel: seq<Extract>, i: nat)
    requires i < |sel|
    ensures var cmd := ExtractCommand(source, sel).value;
      var t := cmd[3 + i];
      ':' in t && var k := IndexOfChar(t, ':');
      ParseInt(t[..k]) == Some(sel[i].id) && t[k + 1..] == Renames(sel)[i].0
      && Renames(sel)[i].1 == sel[i].out
      && cmd[..3] == ["mkvextract", source, "tracks"] && cmd[|cmd| - 2..] == ["chapters", "chapters.xml"]
  {
    var cmd := ExtractCommand(source, sel).value;
    var t := TempTarget(sel[i]);
    var n := IntToString(sel[i].id);
    assert cmd[3 + i] == TempTargets(sel)[i];
    assert t[|n|] == ':';
    NoColonInInt(sel[i].id);
    var k := IndexOfChar(t, ':');
    assert forall j :: 0 <= j < |n| ==> t[j] == n[j];
    assert k == |n|;
    assert t[..k] == n;
    assert t[k + 1..] == "temp-" + sel[i].out;
    ParseIntToString(sel[i].id);
  }

  // ------------------------------------------------------------ x265

  /** A colour setting as an x265 option: only a set (truthy) value is
      passed, and it has to be text. */
  function ColourOpt(flag: string, v: Json): Result<seq<string>>
  {
    if !Truthy(v) then Ok([])
    else match v
      case JStr(s) => Ok([flag, s])
      case _ => Fail(TypeError)
  }

  /** The colour options in the order encodeVideo adds them. */
  function ColourOpts(p: VideoInfo.Probe): Result<seq<string>>
  {
    match (ColourOpt("--colorprim", p.colorPrimaries), ColourOpt("--transfer", p.colorTransfer),
           ColourOpt("--colormatrix", p.colorMatrix))
    case (Ok(a), Ok(b), Ok(c)) =>
      Ok((match p.colorRange case Some(r) => ["--range", r] case None => []) + (a + (b + c)))
    case (Fail(f), _, _) => Fail(f)
    case (_, Fail(f), _) => Fail(f)
    case (_, _, Fail(f)) => Fail(f)
  }

  /** The HDR10 options: the mastering display and the light level, each
      when its side data was found. */
  function Hdr10Opts(p: VideoInfo.Probe): seq<string>
  {
    if !p.hdr10 then []
    else
      (if p.masterData.Some? && p.masterString.Some? then ["--master-display", p.masterString.value] else [])
      + (if p.cllData.Some? && p.cllString.Some? then ["--max-cll", p.cllString.value] else [])
  }

  /** The x265 command of encodeVideo: y4m from stdin into the temporary
      output, the frame count, the colour options, "--hdr10-opt", the HDR10,
      Dolby Vision and HDR10+ options, then the info file's options. */
  function EncodeCommand(info: InfoFile, p: VideoInfo.Probe, frames: int, dvFile: string, hdr10PlusFile: string)
    : (r: Result<seq<string>>)
    ensures r.Fail? <==> ColourOpts(p).Fail?
    ensures r.Fail? ==> r.failure == ColourOpts(p).failure
    ensures r.Ok? ==> var c := r.value;
      |c| >= 8 + |info.video.x265Opts| && c[0] == "x265" && c[5] == "temp-" + info.video.output
      && c[6] == "--frames" && ParseInt(c[7]) == Some(frames)
      && c[|c| - |info.video.x265Opts|..] == info.video.x265Opts
  {
    match ColourOpts(p)
    case Fail(f) => Fail(f)
    case Ok(colour) =>
      var pre := ["x265", "--y4m", "--input", "-", "--output", "temp-" + info.video.output, "--frames", IntToString(frames)];
      var mid := colour + (["--hdr10-opt"] + (Hdr10Opts(p)
                 + ((if p.dolbyVision then VideoHdr.DvOpts(dvFile) else [])
                 + (if p.hdr10Plus then ["--dhdr10-info=" + hdr10PlusFile] else []))));
      ParseIntToString(frames);
      assert (pre + mid + info.video.x265Opts)[7] == pre[7];
      Ok(pre + mid + info.video.x265Opts)
  }

  /** A light level is passed only together with HDR10, and the display
      string only once mastering data was found. */
  lemma Hdr10OptsNeedHdr10(p: VideoInfo.Probe)
    ensures Hdr10Opts(p) != [] ==> p.hdr10
    ensures Hdr10Opts(p) != [] && Hdr10Opts(p)[0] == "--master-display" ==> p.masterData.Some? && p.masterString.Some?
  {
  }

  /** With 2pass the first run inserts "--pass 1 --no-slow-firstpass" after
      the program name and the second "--pass 2"; otherwise the one command
      runs once. */
  function PassCommands(cmd: seq<string>, twoPass: bool): (r: seq<seq<string>>)
    requires |cmd| > 0
    ensures !twoPass ==> r == [cmd]
    ensures twoPass ==> (|r| == 2
      && |r[0]| == |cmd| + 3 && r[0][..1] + r[0][4..] == cmd && r[0][1..4] == ["--pass", "1", "--no-slow-firstpass"]
      && |r[1]| == |cmd| + 2 && r[1][..1] + r[1][3..] == cmd && r[1][1..3] == ["--pass", "2"])
  {
    if !twoPass then [cmd]
    else
      var p1 := cmd[..1] + (["--pass", "1", "--no-slow-firstpass"] + cmd[1..]);
      var p2 := cmd[..1] + (["--pass", "2"] + cmd[1..]);
      assert p1[..1] == cmd[..1] && p1[4..] == cmd[1..];
      assert p2[..1] == cmd[..1] && p2[3..] == cmd[1..];
      assert cmd[..1] + cmd[1..] == cmd;
      [p1, p2]
  }

  /** What encodeVideo does. */
  datatype VideoStep =
    | VideoExists                                    // the output is there already
    | ExtractDovi(temp: string)                      // DV stream converted to profile 8.1, then renamed
    | CopyVideo(cmd: seq<string>)                    // mkvextract of track 0, then renamed
    | EncodeVideo(hardcode: Option<string>, runs: seq<seq<string>>)

  /** The first subtitle whose forced file exists is burnt in. */
  function HardcodedSub(subs: seq<SubTrack>, present: string -> bool): (r: Option<string>)
    ensures r.Some? ==> exists i :: 0 <= i < |subs| && r.value == ForcedFile(subs[i].id, subs[i].index, subs[i].extension)
                                     && present(r.value)
    ensures r.None? ==> forall i :: 0 <= i < |subs| ==> !present(ForcedFile(subs[i].id, subs[i].index, subs[i].extension))
    decreases |subs|
  {
    if |subs| == 0 then None
    else
      var f := ForcedFile(subs[0].id, subs[0].index, subs[0].extension);
      if present(f) then Some(f)
      else
        var r := HardcodedSub(subs[1..], present);
        assert forall i :: 1 <= i < |subs| ==> subs[i] == subs[1..][i - 1];
        r
  }

  /** The outcomes of the steps encodeVideo leaves to other code: whether
      the vapoursynth script loads and yields a clip, whether the HDR10+
      and RPU extractions succeed, the file names they use, and the frame
      count of the clip. */
  datatype VideoTools = VideoTools(scriptLoads: bool, hdr10PlusOk: bool, doviOk: bool,
                                   dvFile: string, hdr10PlusFile: string, frames: int)

  /** encodeVideo: the probe of the source is taken first; an existing
      output is skipped; a copied video is extracted (through the Dolby
      Vision tool when there is DV); a missing or failing vapoursynth script
      and failing metadata extraction exit with 1; otherwise x265 runs once
      or twice. */
  function EncodeVideoStep(info: InfoFile, probe: Result<VideoInfo.Probe>, present: string -> bool, tools: VideoTools)
    : (r: Result<VideoStep>)
    ensures r.Ok? ==> probe.Ok?
    ensures probe.Ok? && present(info.video.output) ==> r == Ok(VideoExists)
    ensures probe.Ok? && !present(info.video.output) && !info.video.convert ==>
      r == Ok(if probe.value.dolbyVision then ExtractDovi("temp-" + info.video.output)
              else CopyVideo(["mkvextract", info.sourceMKV, "tracks", "0:temp-" + info.video.output]))
    ensures r.Ok? && r.value.EncodeVideo? ==>
      info.video.convert && (info.video.vsScript != "" ==> present(info.video.vsScript) && tools.scriptLoads)
      && (probe.value.hdr10Plus ==> tools.hdr10PlusOk) && (probe.value.dolbyVision ==> tools.doviOk)
      && |r.value.runs| == (if info.video.twoPass then 2 else 1)
      && r.value.hardcode == HardcodedSub(info.subs, present)
  {
    match probe
    case Fail(f) => Fail(f)
    case Ok(p) =>
      if present(info.video.output) then Ok(VideoExists)
      else if !info.video.convert then
        Ok(if p.dolbyVision then ExtractDovi("temp-" + info.video.output)
           else CopyVideo(["mkvextract", info.sourceMKV, "tracks", "0:temp-" + info.video.output]))
      else if info.video.vsScript != "" && (!present(info.video.vsScript) || !tools.scriptLoads) then Fail(Exit(1))
      else if p.hdr10Plus && !tools.hdr10PlusOk then Fail(Exit(1))
      else if p.dolbyVision && !tools.doviOk then Fail(Exit(1))
      else match EncodeCommand(info, p, tools.frames, tools.dvFile, tools.hdr10PlusFile)
        case Fail(f) => Fail(f)
        case Ok(cmd) => Ok(EncodeVideo(HardcodedSub(info.subs, present), PassCommands(cmd, info.video.twoPass)))
  }

  // ------------------------------------------------------------ subtitles

  /** A step of the subtitle conversion. */
  datatype SubStep =
    | Tool(cmd: seq<string>)              // bdsup2sub++ or sup2srt
    | MakeDir(dir: string)
    | ChangeDir(dir: string)
    | ToggleForced(input: string, output: string)   // every event's Forced flag swapped (ForcedSubs.ToggleAll)
    | RemoveTree(dir: string)
    | RemoveFile(file: string)
    | FilterSdh(file: string)             // the srt rewritten without hearing-impaired cues

  function Bdsup2sub(args: seq<string>): SubStep
  {
    Tool(["bdsup2sub++"] + args)
  }

  /** The forced-subtitle check of a track: export the forced events; when
      there are any, swap every event's flag through BDXML and write the
      track back with all flags cleared, so the forced events become a
      track of their own and the full track loses them. */
  function ForcedSteps(t: SubTrack, forcedExists: bool): (r: seq<SubStep>)
    ensures |r| > 0 && r[0] == Bdsup2sub(["--forced-only", "--output", ForcedFile(t.id, t.index, t.extension), SubOut(t)])
    ensures |r| == (if forcedExists then 10 else 1)
    ensures forcedExists ==> r[8] == RemoveTree("subtitles") && r[9] == RemoveFile("subtitles-temp.sup")
  {
    [Bdsup2sub(["--forced-only", "--output", ForcedFile(t.id, t.index, t.extension), SubOut(t)])]
    + if !forcedExists then []
      else [MakeDir("subtitles"), ChangeDir("subtitles"),
            Bdsup2sub(["--output", "subtitles.xml", "../" + SubOut(t)]),
            ToggleForced("subtitles.xml", "subtitles-new.xml"), ChangeDir(".."),
            Bdsup2sub(["--forced-only", "--output", "subtitles-temp.sup", "subtitles/subtitles-new.xml"]),
            Bdsup2sub(["--force-all", "clear", "--output", SubOut(t), "subtitles-temp.sup"]),
            RemoveTree("subtitles"), RemoveFile("subtitles-temp.sup")]
  }

  /** prepForcedSubs as written: `if not track.external: return`, so only
      tracks with an external file are checked. */
  function PrepForcedSubs(t: SubTrack, forcedExists: bool): (r: seq<SubStep>)
    ensures r == [] <==> t.external.None?
  {
    if t.external.None? then [] else ForcedSteps(t, forcedExists)
  }

  /** prepForcedSubs as batchconvert/batchconvert.py guards it: external
      tracks are skipped, the extracted ones checked. */
  function CorrectedPrepForcedSubs(t: SubTrack, forcedExists: bool): (r: seq<SubStep>)
    ensures r == [] <==> t.external.Some?
  {
    if t.external.Some? then [] else ForcedSteps(t, forcedExists)
  }

  /** Track positions as index assignment leaves them. */
  predicate Indexed(subs: seq<SubTrack>)
  {
    forall i :: 0 <= i < |subs| ==> subs[i].index == i && subs[i].id >= 0
                                    && '-' !in subs[i].extension && '.' !in subs[i].extension
  }

  /** As written, the check never looks at a subtitle extractTracks
      extracted, and the file it reads for a track with an external file
      is one extractTracks never writes. */
  lemma PrepForcedMissesExtracted(subs: seq<SubTrack>, present: string -> bool, k: nat, forcedExists: bool)
    requires Indexed(subs) && k < |subs|
    ensures Extract(subs[k].id, SubOut(subs[k])) in ExtractSubs(subs, present) ==> PrepForcedSubs(subs[k], forcedExists) == []
    ensures subs[k].external.Some? ==>
      PrepForcedSubs(subs[k], forcedExists)[0] == Bdsup2sub(["--forced-only", "--output", ForcedFile(subs[k].id, k, subs[k].extension), SubOut(subs[k])])
      && forall e :: e in ExtractSubs(subs, present) ==> e.out != SubOut(subs[k])
  {
    if Extract(subs[k].id, SubOut(subs[k])) in ExtractSubs(subs, present) {
      var i :| 0 <= i < |subs| && Extract(subs[k].id, SubOut(subs[k])) == Extract(subs[i].id, SubOut(subs[i]))
               && !present(SubOut(subs[i])) && !subs[i].sup2srt && subs[i].external.None?;
      OutFileInjective(subs[i].id, i, subs[i].extension, subs[k].id, k, subs[k].extension);
    }
    if subs[k].external.Some? {
      forall e | e in ExtractSubs(subs, present) ensures e.out != SubOut(subs[k]) {
        var i :| 0 <= i < |subs| && e == Extract(subs[i].id, SubOut(subs[i]))
                 && !present(SubOut(subs[i])) && !subs[i].sup2srt && subs[i].external.None?;
        OutFileInjective(subs[i].id, i, subs[i].extension, subs[k].id, k, subs[k].extension);
      }
    }
  }

  /** With the corrected guard, every subtitle extractTracks extracts is
      checked, and the check reads the extracted file. */
  lemma CorrectedPrepChecksExtracted(subs: seq<SubTrack>, present: string -> bool, k: nat, forcedExists: bool)
    requires k < |subs|
    requires !present(SubOut(subs[k])) && !subs[k].sup2srt && subs[k].external.None?
    ensures Extract(subs[k].id, SubOut(subs[k])) in ExtractSubs(subs, present)
    ensures var r := CorrectedPrepForcedSubs(subs[k], forcedExists);
      r != [] && r[0] == Bdsup2sub(["--forced-only", "--output", ForcedFile(subs[k].id, subs[k].index, subs[k].extension), SubOut(subs[k])])
  {
  }

  /** subtitlesOCR: sup2srt from the linked image track into this track's
      output, then the SDH filter when asked for. A missing sup2srt or a
      track without a source exits with 1. */
  function SubtitlesOcr(subs: seq<SubTrack>, k: nat, haveSup2srt: bool): (r: Result<seq<SubStep>>)
    requires k < |subs|
    requires subs[k].sourceTrack.Some? ==> subs[k].sourceTrack.value < |subs|
    ensures r.Ok? <==> haveSup2srt && subs[k].sourceTrack.Some?
    ensures r.Ok? ==> (|r.value| == (if subs[k].srtFilter then 2 else 1)
      && r.value[0] == Tool(["sup2srt", "-l", subs[k].language, "-o", SubOut(subs[k]), SubOut(subs[subs[k].sourceTrack.value])]))
  {
    var t := subs[k];
    if !haveSup2srt then Fail(Exit(1))
    else match t.sourceTrack
      case None => Fail(Exit(1))
      case Some(src) =>
        Ok([Tool(["sup2srt", "-l", t.language, "-o", SubOut(t), SubOut(subs[src])])]
           + (if t.srtFilter then [FilterSdh(SubOut(t))] else []))
  }

  /** Links that point into the list, as Info.LinkSources leaves them. */
  predicate LinksInside(subs: seq<SubTrack>)
  {
    forall i :: 0 <= i < |subs| && subs[i].sourceTrack.Some? ==> subs[i].sourceTrack.value < |subs|
  }

  /** The forced check of a track, with the guard as written or corrected. */
  function ForcedCheck(t: SubTrack, forcedExists: string -> bool, corrected: bool): seq<SubStep>
  {
    var exists_ := forcedExists(ForcedFile(t.id, t.index, t.extension));
    if corrected then CorrectedPrepForcedSubs(t, exists_) else PrepForcedSubs(t, exists_)
  }

  /** convertSubtitles: each track in order, OCR for sup2srt tracks and the
      forced check for the others. */
  function ConvertSubtitles(subs: seq<SubTrack>, haveSup2srt: bool, forcedExists: string -> bool, corrected: bool)
    : (r: Result<seq<SubStep>>)
    requires LinksInside(subs)
    ensures r.Ok? <==> OcrPossible(subs, 0, haveSup2srt)
    ensures r.Fail? ==> r.failure == Exit(1)
    ensures (forall i :: 0 <= i < |subs| ==> !subs[i].sup2srt)
      ==> r == Ok(ForcedChecks(subs, 0, Checker(forcedExists, corrected)))
  {
    var check := Checker(forcedExists, corrected);
    ConvertOkIff(subs, 0, haveSup2srt, check);
    if forall i :: 0 <= i < |subs| ==> !subs[i].sup2srt then
      NoOcrIsForcedChecks(subs, 0, haveSup2srt, check);
      ConvertSubtitlesFrom(subs, 0, haveSup2srt, check)
    else
      ConvertSubtitlesFrom(subs, 0, haveSup2srt, check)
  }

  /** The forced check applied to every non-OCR track. */
  function Checker(forcedExists: string -> bool, corrected: bool): SubTrack -> seq<SubStep>
  {
    (t: SubTrack) => ForcedCheck(t, forcedExists, corrected)
  }

  /** Every OCR track from position k on has sup2srt and a linked image track. */
  predicate OcrPossible(subs: seq<SubTrack>, k: nat, haveSup2srt: bool)
  {
    forall i :: k <= i < |subs| && subs[i].sup2srt ==> haveSup2srt && subs[i].sourceTrack.Some?
  }

  /** convertSubtitles succeeds exactly when every OCR track can be
      converted, and otherwise exits with 1. */
  lemma {:induction false} ConvertOkIff(subs: seq<SubTrack>, k: nat, haveSup2srt: bool, check: SubTrack -> seq<SubStep>)
    requires k <= |subs| && LinksInside(subs)
    ensures var r := ConvertSubtitlesFrom(subs, k, haveSup2srt, check);
      (r.Ok? <==> OcrPossible(subs, k, haveSup2srt)) && (r.Fail? ==> r.failure == Exit(1))
    decreases |subs| - k
  {
    if k < |subs| {
      ConvertOkIff(subs, k + 1, haveSup2srt, check);
      var here := SubSteps(subs, k, haveSup2srt, check);
      assert here.Ok? <==> (subs[k].sup2srt ==> haveSup2srt && subs[k].sourceTrack.Some?);
      assert here.Fail? ==> here.failure == Exit(1);
      OcrPossibleStep(subs, k, haveSup2srt);
    }
  }

  lemma OcrPossibleStep(subs: seq<SubTrack>, k: nat, haveSup2srt: bool)
    requires k < |subs|
    ensures OcrPossible(subs, k, haveSup2srt)
      <==> (subs[k].sup2srt ==> haveSup2srt && subs[k].sourceTrack.Some?) && OcrPossible(subs, k + 1, haveSup2srt)
  {
  }

  /** One track of convertSubtitles, with `check` the forced check. */
  function SubSteps(subs: seq<SubTrack>, k: nat, haveSup2srt: bool, check: SubTrack -> seq<SubStep>)
    : Result<seq<SubStep>>
    requires k < |subs| && LinksInside(subs)
  {
    if subs[k].sup2srt then SubtitlesOcr(subs, k, haveSup2srt)
    else Ok(check(subs[k]))
  }

  /** convertSubtitles over the tracks from position k on. */
  function ConvertSubtitlesFrom(subs: seq<SubTrack>, k: nat, haveSup2srt: bool, check: SubTrack -> seq<SubStep>)
    : Result<seq<SubStep>>
    requires k <= |subs| && LinksInside(subs)
    decreases |subs| - k
  {
    if k == |subs| then Ok([])
    else Then(SubSteps(subs, k, haveSup2srt, check), ConvertSubtitlesFrom(subs, k + 1, haveSup2srt, check))
  }

  /** Two runs of steps one after the other; the first failure ends it. */
  function Then<T>(a: Result<seq<T>>, b: Result<seq<T>>): (r: Result<seq<T>>)
    ensures r.Ok? <==> a.Ok? && b.Ok?
    ensures r.Ok? ==> r.value == a.value + b.value
    ensures a.Fail? ==> r == Fail(a.failure)
  {
    match a
    case Fail(f) => Fail(f)
    case Ok(x) => match b case Fail(f) => Fail(f) case Ok(y) => Ok(x + y)
  }

  /** The steps of every non-OCR track's forced check, in order. */
  function ForcedChecks(subs: seq<SubTrack>, k: nat, check: SubTrack -> seq<SubStep>): seq<SubStep>
    requires k <= |subs|
    decreases |subs| - k
  {
    if k == |subs| then []
    else (if subs[k].sup2srt then [] else check(subs[k])) + ForcedChecks(subs, k + 1, check)
  }

  /** Without OCR tracks, convertSubtitles is exactly the forced checks, in
      track order. */
  lemma {:induction false} NoOcrIsForcedChecks(subs: seq<SubTrack>, k: nat, haveSup2srt: bool,
                                               check: SubTrack -> seq<SubStep>)
    requires k <= |subs| && LinksInside(subs)
    requires forall i :: k <= i < |subs| ==> !subs[i].sup2srt
    ensures ConvertSubtitlesFrom(subs, k, haveSup2srt, check) == Ok(ForcedChecks(subs, k, check))
    decreases |subs| - k
  {
    if k < |subs| {
      NoOcrIsForcedChecks(subs, k + 1, haveSup2srt, check);
    }
  }

  /** Any OCR track without sup2srt installed ends the run with exit 1. */
  lemma {:induction false} OcrWithoutToolExits(subs: seq<SubTrack>, k: nat, check: SubTrack -> seq<SubStep>, j: nat)
    requires k <= j < |subs| && LinksInside(subs) && subs[j].sup2srt
    ensures ConvertSubtitlesFrom(subs, k, false, check).Fail?
    decreases j - k
  {
    if k < j {
      OcrWithoutToolExits(subs, k + 1, check, j);
    }
  }

  // ------------------------------------------------------------ audio

  /** What convertAudioTrack does for a track. */
  datatype AudioStep =
    | AudioExists
    | ConvertTrack(intermediate: seq<seq<string>>, plan: AudioFilters.AudioPlan, rename: (string, string))

  /** The downmix matrix of this script: "FL<"/"FR<" with the centre and
      LFE gains halved. */
  function Pan(fmt: real -> string): AudioFilters.Downmix -> string
  {
    (d: AudioFilters.Downmix) => NightmodeAudio.ConvertPanFilter(fmt, d.surrounds, d.lfe, d.center)
  }

  /** The flac copy of the track that ffmpeg-normalize reads. */
  function NormInput(t: AudioTrack): string
  {
    IntToString(t.id) + ".norm.flac"
  }

  function NormIntermediate(source: string, t: AudioTrack): seq<string>
  {
    ["ffmpeg", "-y", "-i", source, "-map", "0:" + IntToString(t.id), "-acodec", "flac", IntToString(t.id) + ".norm.temp.flac"]
  }

  /** convertAudioTrack: the codec is looked up first, an existing output
      is skipped, then the filters decide between ffmpeg and
      ffmpeg-normalize, which reads a flac copy of the track made once. */
  function ConvertAudioTrack(source: string, t: AudioTrack, present: string -> bool, fmt: real -> string)
    : (r: Result<AudioStep>)
    ensures t.convert.JObj? && Get(t.convert.fields, "codec").None? ==> r == Fail(KeyError)
    ensures t.convert.JObj? && Get(t.convert.fields, "codec").Some? && present(AudioOut(t)) ==> r == Ok(AudioExists)
    ensures r.Ok? && r.value.ConvertTrack? ==>
      r.value.rename == ("temp-" + AudioOut(t), AudioOut(t))
      && (r.value.plan.RunNormalize? ==> (r.value.plan.input == NormInput(t) && r.value.plan.output == "temp-" + AudioOut(t)
            && r.value.intermediate == (if present(NormInput(t)) then [] else [NormIntermediate(source, t)])))
      && (r.value.plan.RunFfmpeg? ==> r.value.intermediate == [])
  {
    match t.convert
    case JObj(fields) =>
      if Get(fields, "codec").None? then Fail(KeyError)
      else if present(AudioOut(t)) then Ok(AudioExists)
      else
        (match ConvertOf(t.convert)
         case Fail(f) => Fail(f)
         case Ok(cs) =>
           match AudioFilters.PlanAudio(cs, source, IntToString(t.id), "temp-" + AudioOut(t), NormInput(t), Pan(fmt), true)
           case Fail(f) => Fail(f)
           case Ok(plan) =>
             var pre := if plan.RunNormalize? && !present(NormInput(t)) then [NormIntermediate(source, t)] else [];
             Ok(ConvertTrack(pre, plan, ("temp-" + AudioOut(t), AudioOut(t)))))
    case _ => Fail(TypeError)
  }

  /** A track without a normalize entry is converted by one ffmpeg run
      that carries every filter, the downmix spelled with this script's
      matrix. */
  lemma ConvertAudioPlain(source: string, t: AudioTrack, present: string -> bool, fmt: real -> string)
    requires !present(AudioOut(t))
    requires ConvertOf(t.convert).Ok?
    requires var cs := ConvertOf(t.convert).value;
      cs.encodeOpts.Some? && (cs.filters.None? || AudioFilters.LastNormalize(cs.filters.value).None?)
    ensures var cs := ConvertOf(t.convert).value;
      ConvertAudioTrack(source, t, present, fmt)
      == Ok(ConvertTrack([], AudioFilters.RunFfmpeg(AudioFilters.FfmpegCommand(
               source, IntToString(t.id), cs.codec, cs.encodeOpts.value,
               AudioFilters.FiltersOf(match cs.filters case Some(es) => es case None => [], Pan(fmt)),
               "temp-" + AudioOut(t))), ("temp-" + AudioOut(t), AudioOut(t))))
  {
    var cs := ConvertOf(t.convert).value;
    AudioFilters.PlanWithoutNormalize(cs, source, IntToString(t.id), "temp-" + AudioOut(t), NormInput(t), Pan(fmt), true);
  }

  /** convertAudio: every track with a truthy convert setting, in order. */
  function ConvertAudio(source: string, ts: seq<AudioTrack>, present: string -> bool, fmt: real -> string)
    : (r: Result<seq<AudioStep>>)
    ensures r.Ok? ==> |r.value| == |ConvertedTracks(ts)|
    decreases |ts|
  {
    if |ts| == 0 then Ok([])
    else
      var rest := ConvertAudio(source, ts[1..], present, fmt);
      if !Truthy(ts[0].convert) then rest
      else match ConvertAudioTrack(source, ts[0], present, fmt)
        case Fail(f) => Fail(f)
        case Ok(a) => match rest case Fail(f) => Fail(f) case Ok(b) => Ok([a] + b)
  }

  /** The tracks convertAudio converts. */
  function ConvertedTracks(ts: seq<AudioTrack>): (r: seq<AudioTrack>)
    ensures forall x :: x in r <==> x in ts && Truthy(x.convert)
    decreases |ts|
  {
    if |ts| == 0 then []
    else (if Truthy(ts[0].convert) then [ts[0]] else []) + ConvertedTracks(ts[1..])
  }

  /** Every audio track is either converted or extracted (when its output
      is missing), never both. */
  lemma ConvertOrExtract(info: InfoFile, present: string -> bool, k: nat)
    requires k < |info.audio|
    ensures Truthy(info.audio[k].convert) ==> info.audio[k] in ConvertedTracks(info.audio)
    ensures !present(AudioOut(info.audio[k])) && !Truthy(info.audio[k].convert) ==>
      Extract(info.audio[k].id, AudioOut(info.audio[k])) in ExtractSelection(info, present)
  {
  }

  // ------------------------------------------------------------ convertMKV

  /** The steps of convertMKV for one folder. */
  datatype Stage = ExtractStage | SubtitleStage | AudioStage | VideoStage | MergeStage | MoveOutput(dst: string)

  /** `Path(out).resolve()` moved up one directory: `parent.with_name(name)`. */
  function Destination(resolved: PyPath.Path): Result<PyPath.Path>
  {
    var parent := PyPath.Path(resolved.absolute, if |resolved.parts| == 0 then [] else resolved.parts[..|resolved.parts| - 1]);
    PyPath.WithName(parent, PyPath.Name(resolved))
  }

  /** The output lands in the grandparent directory under its own name;
      a file directly under the root has no such place (ValueError). */
  lemma DestinationIsGrandparent(resolved: PyPath.Path)
    requires forall i :: 0 <= i < |resolved.parts| ==>
      resolved.parts[i] != "" && resolved.parts[i] != "." && '/' !in resolved.parts[i]
    ensures |resolved.parts| >= 2 ==>
      Destination(resolved) == Ok(PyPath.Path(resolved.absolute, resolved.parts[..|resolved.parts| - 2] + [resolved.parts[|resolved.parts| - 1]]))
    ensures |resolved.parts| == 1 ==> Destination(resolved) == Fail(ValueError)
  {
    var n := |resolved.parts|;
    if n >= 2 {
      var parent := resolved.parts[..n - 1];
      assert parent[..|parent| - 1] == resolved.parts[..n - 2];
    }
  }

  /** `Path(p).exists()`, asked of the file system as pathlib prints the
      path: `Path("")` is ".", the current directory. */
  function PathExists(p: string, present: string -> bool): bool
  {
    present(PyPath.PathString(PyPath.PathOf(p)))
  }

  /** convertMKV on an info whose source name is `source`: nothing when
      `Path(source)` does not exist or when the destination exists;
      otherwise the five steps in order and the move. */
  function ConvertMkv(source: string, resolvedOutput: PyPath.Path, present: string -> bool): (r: Result<seq<Stage>>)
    ensures r.Ok? ==> Destination(resolvedOutput).Ok?
    ensures r.Ok? && r.value != [] ==> (PathExists(source, present) && |r.value| == 6
      && r.value[..5] == [ExtractStage, SubtitleStage, AudioStage, VideoStage, MergeStage]
      && r.value[5] == MoveOutput(PyPath.PathString(Destination(resolvedOutput).value))
      && !present(PyPath.PathString(Destination(resolvedOutput).value)))
    ensures !PathExists(source, present) ==> r.Ok? ==> r.value == []
  {
    match Destination(resolvedOutput)
    case Fail(f) => Fail(f)
    case Ok(dst) =>
      if !PathExists(source, present) || present(PyPath.PathString(dst)) then Ok([])
      else Ok([ExtractStage, SubtitleStage, AudioStage, VideoStage, MergeStage, MoveOutput(PyPath.PathString(dst))])
  }

  /** The source check of an info Info(jsonFile) reads looks at `Path("")`,
      the current directory, which exists: convertMKV never skips a folder
      for a missing source, whatever "sourceFile" names. */
  lemma LoadedSourceNeverMissing(j: Json, resolvedOutput: PyPath.Path, present: string -> bool)
    requires InfoJson.Load(j, present).Ok?
    requires present(".")
    requires Destination(resolvedOutput).Ok? && !present(PyPath.PathString(Destination(resolvedOutput).value))
    ensures ConvertMkv(InfoJson.Load(j, present).value.sourceMKV, resolvedOutput, present)
         == Ok([ExtractStage, SubtitleStage, AudioStage, VideoStage, MergeStage,
                MoveOutput(PyPath.PathString(Destination(resolvedOutput).value))])
  {
    assert Split("", '/') == [""];
    assert PyPath.PathString(PyPath.PathOf("")) == ".";
  }

  /** Corrected, with the source name read from "sourceFile", convertMKV
      runs nothing when that file does not exist. */
  lemma CorrectedMissingSourceSkips(j: Json, resolvedOutput: PyPath.Path, present: string -> bool, src: string)
    requires InfoJson.CorrectedLoad(j, present).Ok?
    requires j.JObj? && Get(j.fields, "sourceFile") == Some(JStr(src))
    requires !PathExists(src, present)
    ensures ConvertMkv(InfoJson.CorrectedLoad(j, present).value.sourceMKV, resolvedOutput, present).Ok? ==>
      ConvertMkv(InfoJson.CorrectedLoad(j, present).value.sourceMKV, resolvedOutput, present).value == []
  {
  }

  // ------------------------------------------------------------ main

  /** The info file every converted folder holds. */
  const InfoFileName := "info.json"

  /** The folders main works on: the current directory when it holds the
      info file, otherwise every subdirectory that does, in listing
      order. */
  function FindFolders(cwdHasInfo: bool, cwd: string, entries: seq<string>, isDir: string -> bool,
                       hasInfo: string -> bool): (r: seq<string>)
    ensures cwdHasInfo ==> r == [cwd]
    ensures !cwdHasInfo ==> (forall i :: 0 <= i < |r| ==> r[i] in entries && isDir(r[i]) && hasInfo(r[i]))
    ensures !cwdHasInfo ==> forall i :: 0 <= i < |entries| && isDir(entries[i]) && hasInfo(entries[i]) ==> entries[i] in r
  {
    if cwdHasInfo then [cwd] else Filter(entries, (x: string) => isDir(x) && hasInfo(x))
  }

  /** The --clean and --clean-sources switches (each with its --no- form,
      the last one given winning); any other argument is argparse's exit
      status 2. */
  function CleanFlags(args: seq<string>): (r: Result<(bool, bool)>)
    ensures r.Ok? <==> forall i :: 0 <= i < |args| ==>
      args[i] in ["--clean", "--no-clean", "--clean-sources", "--no-clean-sources"]
    ensures r.Fail? ==> r.failure == Exit(2)
    ensures r.Ok? && |args| > 0 && args[|args| - 1] == "--clean" ==> r.value.0
    ensures r.Ok? && |args| > 0 && args[|args| - 1] == "--clean-sources" ==> r.value.1
    ensures r.Ok? && r.value.0 ==> "--clean" in args
    ensures r.Ok? && r.value.1 ==> "--clean-sources" in args
    decreases |args|
  {
    if |args| == 0 then Ok((false, false))
    else
      var init := args[..|args| - 1];
      var last := args[|args| - 1];
      assert args == init + [last];
      match CleanFlags(init)
      case Fail(f) => Fail(f)
      case Ok(flags) =>
        if last == "--clean" then Ok((true, flags.1))
        else if last == "--no-clean" then Ok((false, flags.1))
        else if last == "--clean-sources" then Ok((flags.0, true))
        else if last == "--no-clean-sources" then Ok((flags.0, false))
        else Fail(Exit(2))
  }

  /** `folder.joinpath(name)` as pathlib prints it: an empty name leaves
      the folder itself. */
  function InFolder(folder: string, name: string): string
  {
    PyPath.PathString(PyPath.JoinPath(PyPath.PathOf(folder), PyPath.PathOf(name)))
  }

  /** One folder of cleanSourceFiles: its info is read, and the source path
      is unlinked when it exists; `unlink` of a directory raises OSError. */
  function SourceStep(folder: string, corrected: bool, infoJson: string -> Json, present: string -> bool,
                      isDir: string -> bool): (r: Result<seq<string>>)
    ensures var info := FolderInfo(corrected, infoJson, present, folder);
      && (info.Fail? ==> r == Fail(info.failure))
      && (info.Ok? ==>
            var p := InFolder(folder, info.value.sourceMKV);
            && (r.Fail? <==> present(p) && isDir(p))
            && (r.Fail? ==> r.failure == OSError)
            && (r.Ok? ==> forall x :: x in r.value <==> x == p && present(p)))
  {
    match FolderInfo(corrected, infoJson, present, folder)
    case Fail(f) => Fail(f)
    case Ok(i) =>
      var p := InFolder(folder, i.sourceMKV);
      if !present(p) then Ok([])
      else if isDir(p) then Fail(OSError)
      else Ok([p])
  }

  /** cleanSourceFiles: the folders in order, the first failure ending the
      loop; the paths unlinked are those the folders' steps unlink. */
  function CleanSourceFiles(folders: seq<string>, corrected: bool, infoJson: string -> Json,
                            present: string -> bool, isDir: string -> bool): (r: Result<seq<string>>)
    ensures r.Ok? <==> forall i :: 0 <= i < |folders| ==> SourceStep(folders[i], corrected, infoJson, present, isDir).Ok?
    ensures r.Fail? ==>
      exists i :: 0 <= i < |folders| && SourceStep(folders[i], corrected, infoJson, present, isDir) == Fail(r.failure)
                  && forall j :: 0 <= j < i ==> SourceStep(folders[j], corrected, infoJson, present, isDir).Ok?
  {
    match MapAll(folders, (d: string) => SourceStep(d, corrected, infoJson, present, isDir))
    case Fail(f) => Fail(f)
    case Ok(parts) => Ok(Flatten(parts))
  }

  /** In a run that gets through, --clean-sources deletes exactly the
      source paths of the folders, as their infos name them, that exist. */
  lemma CleanSourceFilesDeletes(folders: seq<string>, corrected: bool, infoJson: string -> Json,
                                present: string -> bool, isDir: string -> bool, x: string)
    requires CleanSourceFiles(folders, corrected, infoJson, present, isDir).Ok?
    ensures x in CleanSourceFiles(folders, corrected, infoJson, present, isDir).value <==>
      exists i :: 0 <= i < |folders| && FolderInfo(corrected, infoJson, present, folders[i]).Ok?
                  && x == InFolder(folders[i], FolderInfo(corrected, infoJson, present, folders[i]).value.sourceMKV)
                  && present(x)
  {
    var parts := MapAll(folders, (d: string) => SourceStep(d, corrected, infoJson, present, isDir)).value;
    FlattenIn(parts, x);
    assert forall i :: 0 <= i < |folders| ==> SourceStep(folders[i], corrected, infoJson, present, isDir) == Ok(parts[i]);
  }

  /** Only paths that exist are deleted. */
  lemma CleanSourceFilesPresent(folders: seq<string>, corrected: bool, infoJson: string -> Json,
                                present: string -> bool, isDir: string -> bool)
    requires CleanSourceFiles(folders, corrected, infoJson, present, isDir).Ok?
    ensures forall x :: x in CleanSourceFiles(folders, corrected, infoJson, present, isDir).value ==> present(x)
  {
    forall x | x in CleanSourceFiles(folders, corrected, infoJson, present, isDir).value
      ensures present(x)
    {
      CleanSourceFilesDeletes(folders, corrected, infoJson, present, isDir, x);
    }
  }

  /** What one invocation does: the folders converted, the files --clean
      deletes per folder, and the sources --clean-sources deletes. */
  datatype Session = Session(converted: seq<string>, cleaned: seq<seq<string>>, sourcesDeleted: seq<string>)

  /** main: without arguments every folder is converted in order, and
      `run(folder)` is what convertMKV does there -- its stages, or the
      failure one of them raises (a KeyError of convertAudioTrack, the
      exit(1) of convertSubtitles, ...), which ends the whole run. The
      switches are parsed only afterwards, so converting and cleaning
      never happen in the same run. The clean functions read every
      folder's info file themselves (`corrected` chooses the reader); a
      failure there ends the run too. */
  function Main(folders: seq<string>, args: seq<string>, script: string, corrected: bool, infoJson: string -> Json,
                listing: string -> seq<string>, present: string -> bool, isDir: string -> bool,
                run: string -> Result<seq<Stage>>): (r: Result<Session>)
    ensures |args| == 0 ==> (r.Ok? <==> forall i :: 0 <= i < |folders| ==> run(folders[i]).Ok?)
    ensures |args| == 0 && r.Ok? ==> r.value == Session(folders, [], [])
    ensures |args| == 0 && r.Fail? ==>
      exists i :: 0 <= i < |folders| && run(folders[i]) == Fail(r.failure) && forall j :: 0 <= j < i ==> run(folders[j]).Ok?
    ensures |args| > 0 ==>
      (r.Ok? <==>
         && CleanFlags(args).Ok?
         && (CleanFlags(args).value.0 ==> CleanFilesRun(script, folders, corrected, infoJson, present, listing).Ok?)
         && (CleanFlags(args).value.1 ==> CleanSourceFiles(folders, corrected, infoJson, present, isDir).Ok?))
    ensures |args| > 0 && CleanFlags(args).Fail? ==> r == Fail(Exit(2))
    ensures |args| > 0 && r.Ok? && CleanFlags(args).value.0 ==>
      r.value.cleaned == CleanFilesRun(script, folders, corrected, infoJson, present, listing).value
    ensures |args| > 0 && r.Ok? && CleanFlags(args).value.1 ==>
      r.value.sourcesDeleted == CleanSourceFiles(folders, corrected, infoJson, present, isDir).value
    ensures r.Ok? && r.value.converted != [] ==> r.value.cleaned == [] && r.value.sourcesDeleted == []
    ensures r.Ok? && "--clean" !in args ==> r.value.cleaned == []
    ensures r.Ok? ==> forall x :: x in r.value.sourcesDeleted ==> "--clean-sources" in args && present(x)
  {
    match (if |args| == 0 then MapAll(folders, run) else Ok([]))
    case Fail(f) => Fail(f)
    case Ok(_) =>
      match CleanFlags(args)
      case Fail(f) => Fail(f)
      case Ok(flags) =>
        match (if flags.0 then CleanFilesRun(script, folders, corrected, infoJson, present, listing) else Ok([]))
        case Fail(f) => Fail(f)
        case Ok(cleaned) =>
          match (if flags.1 then CleanSourceFiles(folders, corrected, infoJson, present, isDir) else Ok([]))
          case Fail(f) => Fail(f)
          case Ok(deleted) =>
            if flags.1 then
              CleanSourceFilesPresent(folders, corrected, infoJson, present, isDir);
              Ok(Session(if |args| == 0 then folders else [], cleaned, deleted))
            else Ok(Session(if |args| == 0 then folders else [], cleaned, deleted))
  }


  // ------------------------------------------------------------ the source name

  /** `folder.joinpath("")` is the folder itself. */
  lemma InFolderEmpty(folder: string)
    ensures InFolder(folder, "") == PyPath.PathString(PyPath.PathOf(folder))
  {
    assert Split("", '/') == [""];
    assert PyPath.PathOf("").parts == [];
    assert PyPath.PathOf(folder).parts + [] == PyPath.PathOf(folder).parts;
  }

  /** As written, --clean deletes the source file the first folder's info
      names: the reader leaves the source name "", and "" is what goes on
      the exclusion list. */
  lemma CleanDeletesNamedSource(folders: seq<string>, script: string, infoJson: string -> Json,
                                listing: string -> seq<string>, present: string -> bool, isDir: string -> bool,
                                run: string -> Result<seq<Stage>>, src: string)
    requires forall k :: 0 <= k < |folders| ==> InfoJson.Load(infoJson(folders[k]), present).Ok?
    requires |folders| > 0 && infoJson(folders[0]).JObj?
    requires Get(infoJson(folders[0]).fields, "sourceFile") == Some(JStr(src))
    requires src in listing(folders[0]) && src != "" && src != script && src != InfoFileName
    requires src !in Kept(InfoJson.Load(infoJson(folders[0]), present).value)
    ensures Main(folders, ["--clean"], script, false, infoJson, listing, present, isDir, run).Ok?
    ensures src in Main(folders, ["--clean"], script, false, infoJson, listing, present, isDir, run).value.cleaned[0]
  {
    assert CleanFlags(["--clean"]) == Ok((true, false)) by {
      assert ["--clean"][..0] == [];
    }
    assert forall k :: 0 <= k < |folders| ==> FolderInfo(false, infoJson, present, folders[k]).Ok?;
    CleanFilesRunDeletes(script, folders, false, infoJson, present, listing, 0, src);
  }

  /** As written, --clean-sources unlinks the first folder itself, since
      its source name is "": a folder that exists as a directory makes the
      run fail with OSError. */
  lemma CleanSourcesUnlinksFolder(folders: seq<string>, script: string, infoJson: string -> Json,
                                  listing: string -> seq<string>, present: string -> bool, isDir: string -> bool,
                                  run: string -> Result<seq<Stage>>)
    requires |folders| > 0 && InfoJson.Load(infoJson(folders[0]), present).Ok?
    requires present(PyPath.PathString(PyPath.PathOf(folders[0])))
    requires isDir(PyPath.PathString(PyPath.PathOf(folders[0])))
    ensures Main(folders, ["--clean-sources"], script, false, infoJson, listing, present, isDir, run) == Fail(OSError)
  {
    assert CleanFlags(["--clean-sources"]) == Ok((false, true)) by {
      assert ["--clean-sources"][..0] == [];
    }
    InFolderEmpty(folders[0]);
    assert SourceStep(folders[0], false, infoJson, present, isDir) == Fail(OSError);
  }

  /** Corrected, --clean never deletes the source file a folder's info
      names. */
  lemma CorrectedCleanKeepsSource(folders: seq<string>, script: string, infoJson: string -> Json,
                                  listing: string -> seq<string>, present: string -> bool, isDir: string -> bool,
                                  run: string -> Result<seq<Stage>>, k: nat, src: string)
    requires Main(folders, ["--clean"], script, true, infoJson, listing, present, isDir, run).Ok?
    requires k < |folders| && infoJson(folders[k]).JObj?
    requires Get(infoJson(folders[k]).fields, "sourceFile") == Some(JStr(src))
    ensures src !in Main(folders, ["--clean"], script, true, infoJson, listing, present, isDir, run).value.cleaned[k]
  {
    assert CleanFlags(["--clean"]) == Ok((true, false)) by {
      assert ["--clean"][..0] == [];
    }
    CleanFilesRunDeletes(script, folders, true, infoJson, present, listing, k, src);
  }

  /** Corrected, --clean-sources deletes exactly the source files the
      folders' infos name that exist, as long as none of them names a
      directory. */
  lemma CorrectedCleanSourcesDeletes(folders: seq<string>, script: string, infoJson: string -> Json,
                                     listing: string -> seq<string>, present: string -> bool, isDir: string -> bool,
                                     run: string -> Result<seq<Stage>>, x: string)
    requires forall k :: 0 <= k < |folders| ==> FolderInfo(true, infoJson, present, folders[k]).Ok?
    requires forall k :: 0 <= k < |folders| ==>
      !isDir(InFolder(folders[k], FolderInfo(true, infoJson, present, folders[k]).value.sourceMKV))
    ensures Main(folders, ["--clean-sources"], script, true, infoJson, listing, present, isDir, run).Ok?
    ensures x in Main(folders, ["--clean-sources"], script, true, infoJson, listing, present, isDir, run).value.sourcesDeleted
      <==> exists k, n :: 0 <= k < |folders| && infoJson(folders[k]).JObj?
                          && Get(infoJson(folders[k]).fields, "sourceFile") == Some(JStr(n))
                          && x == InFolder(folders[k], n) && present(x)
  {
    assert CleanFlags(["--clean-sources"]) == Ok((false, true)) by {
      assert ["--clean-sources"][..0] == [];
    }
    assert forall k :: 0 <= k < |folders| ==> SourceStep(folders[k], true, infoJson, present, isDir).Ok?;
    CleanSourceFilesDeletes(folders, true, infoJson, present, isDir, x);
  }

}

=== FILE: batchconvert_dict.dfy ===
// batchconvert/batchconvert.py: the older revision of the remux converter.
// As written it builds an Info object from the info file and then
// subscripts it (`info["outputFile"]`, `info["sourceFile"]`), which
// raises TypeError because Info defines no item access: converting or
// cleaning any folder stops there. The members below first model that,
// then the dict reading the rest of the file is written against
// (`info["video"]["output"]`, `"sync" in track`), in which optional keys
// decide what the newer batchconvert.py decides from field values. Where
// the two revisions agree the newer model is reused; this module states
// where they differ.
module BatchConvertDict {
  import opened Results
  import opened Text
  import opened Json
  import opened Info
  import AudioFilters
  import VideoInfo
  import BatchConvert
  import InfoJson


  // ------------------------------------------------------------ main

  /** One folder's step as written, convertMKV or either clean: the info
      file is loaded into an Info object (utils/info.py's reader) and then
      subscripted, so every load that succeeds ends in TypeError and every
      other keeps its own failure. */
  function SubscriptInfo(loaded: Result<InfoFile>): (r: Failure)
    ensures loaded.Ok? ==> r == TypeError
    ensures loaded.Fail? ==> r == loaded.failure
  {
    match loaded
    case Ok(_) => TypeError
    case Fail(f) => f
  }

  /** main of this revision as written: without arguments it converts every
      folder, and the first one stops the run; otherwise the switches are
      parsed (exit 2 on an unknown one), and a clean of either kind stops
      at the first folder the same way. `infoJson(folder)` is the parsed
      info file of the folder. */
  function MainAsWritten(folders: seq<string>, args: seq<string>, infoJson: string -> Json, present: string -> bool)
    : (r: Result<BatchConvert.Session>)
    ensures r.Ok? ==> r.value == BatchConvert.Session([], [], [])
    ensures r.Ok? ==> BatchConvert.CleanFlags(args).Ok?
    ensures |folders| > 0 && r.Ok? ==> |args| > 0 && BatchConvert.CleanFlags(args) == Ok((false, false))
    ensures |folders| > 0 && |args| == 0 ==>
      r == Fail(SubscriptInfo(BatchConvert.FolderInfo(false, infoJson, present, folders[0])))
    ensures BatchConvert.CleanFlags(args).Fail? && |args| > 0 ==> r == Fail(Exit(2))
  {
    if |args| == 0 && |folders| > 0 then Fail(SubscriptInfo(BatchConvert.FolderInfo(false, infoJson, present, folders[0])))
    else
      match BatchConvert.CleanFlags(args)
      case Fail(f) => Fail(f)
      case Ok(flags) =>
        if (flags.0 || flags.1) && |folders| > 0 then
          Fail(SubscriptInfo(BatchConvert.FolderInfo(false, infoJson, present, folders[0])))
        else Ok(BatchConvert.Session([], [], []))
  }

  /** Where the newer revision converts every folder whose convertMKV
      returns, this one as written stops at the first, whatever its info
      file holds. */
  lemma SubscriptedInfoStopsMain(folders: seq<string>, script: string, infoJson: string -> Json,
                                 listing: string -> seq<string>, present: string -> bool, isDir: string -> bool,
                                 run: string -> Result<seq<BatchConvert.Stage>>)
    requires |folders| > 0
    requires forall i :: 0 <= i < |folders| ==> run(folders[i]).Ok?
    ensures BatchConvert.Main(folders, [], script, false, infoJson, listing, present, isDir, run).Ok?
    ensures BatchConvert.Main(folders, [], script, false, infoJson, listing, present, isDir, run).value.converted == folders
    ensures MainAsWritten(folders, [], infoJson, present).Fail?
    ensures InfoJson.Load(infoJson(folders[0]), present).Ok? ==> MainAsWritten(folders, [], infoJson, present) == Fail(TypeError)
  {
  }

  /** With no folder to work on the Info objects are never built, and
      both revisions end alike. */
  lemma MainAsWrittenNoFolders(args: seq<string>, script: string, infoJson: string -> Json,
                               listing: string -> seq<string>, present: string -> bool, isDir: string -> bool,
                               run: string -> Result<seq<BatchConvert.Stage>>)
    ensures MainAsWritten([], args, infoJson, present)
         == BatchConvert.Main([], args, script, false, infoJson, listing, present, isDir, run)
  {
  }

  // ------------------------------------------------------------ mkvmerge

  /** An audio track's arguments: "--sync" whenever the key is present,
      whatever its value. */
  function DictAudioArgs(t: AudioTrack, syncKey: bool): (r: seq<string>)
    ensures syncKey == (t.sync != 0) ==> r == BatchConvert.AudioArgs(t)
    ensures syncKey ==> (|r| > 2 && r[0] == "--sync" && |r[1]| >= 2 && r[1][..2] == "0:"
      && ParseInt(r[1][2..]) == Some(t.sync))
    ensures !syncKey ==> r == BatchConvert.AudioArgs(t.(sync := 0))
  {
    if syncKey then
      ParseIntToString(t.sync);
      ["--sync", "0:" + IntToString(t.sync)] + BatchConvert.AudioArgs(t.(sync := 0))
    else BatchConvert.AudioArgs(t.(sync := 0))
  }

  function DictAudioArgsAll(ts: seq<AudioTrack>, syncKeys: seq<bool>): seq<string>
    requires |syncKeys| == |ts|
    decreases |ts|
  {
    if |ts| == 0 then [] else DictAudioArgs(ts[0], syncKeys[0]) + DictAudioArgsAll(ts[1..], syncKeys[1..])
  }

  /** Subtitle tracks never get a "--sync" in this revision. */
  function Unsynced(ts: seq<SubTrack>): (r: seq<SubTrack>)
    ensures |r| == |ts|
    ensures forall i :: 0 <= i < |ts| ==> r[i] == ts[i].(sync := 0)
    decreases |ts|
  {
    if |ts| == 0 then [] else [ts[0].(sync := 0)] + Unsynced(ts[1..])
  }

  /** mergeMKV: the same layout as batchconvert.py, with the audio sync
      decided by the presence of the key and no subtitle sync. */
  function DictMergeCommand(info: InfoFile, syncKeys: seq<bool>, chaptersExist: bool): seq<string>
    requires |syncKeys| == |info.audio|
  {
    ["mkvmerge"] + (BatchConvert.VideoArgs(info) + (DictAudioArgsAll(info.audio, syncKeys)
      + (BatchConvert.SubArgsAll(Unsynced(info.subs)) + BatchConvert.ChapterArgs(chaptersExist))))
  }

  /** Sync keys as utils/info.py writes them: present exactly when the
      value is non-zero. */
  predicate SerializedKeys(ts: seq<AudioTrack>, syncKeys: seq<bool>)
  {
    |syncKeys| == |ts| && forall i :: 0 <= i < |ts| ==> syncKeys[i] == (ts[i].sync != 0)
  }

  lemma {:induction false} DictAudioAsSerialized(ts: seq<AudioTrack>, syncKeys: seq<bool>)
    requires SerializedKeys(ts, syncKeys)
    ensures DictAudioArgsAll(ts, syncKeys) == BatchConvert.AudioArgsAll(ts)
    decreases |ts|
  {
    if |ts| > 0 {
      assert SerializedKeys(ts[1..], syncKeys[1..]) by {
        forall i | 0 <= i < |ts| - 1 ensures syncKeys[1..][i] == (ts[1..][i].sync != 0) {
          assert syncKeys[1..][i] == syncKeys[i + 1] && ts[1..][i] == ts[i + 1];
        }
      }
      DictAudioAsSerialized(ts[1..], syncKeys[1..]);
      assert syncKeys[0] == (ts[0].sync != 0);
    }
  }

  /** On an info file written by utils/info.py the command is the newer
      revision's with every subtitle sync dropped, so mkvmerge reads it as
      MergeInputs describes. */
  lemma DictMergeAsSerialized(info: InfoFile, syncKeys: seq<bool>, chaptersExist: bool)
    requires SerializedKeys(info.audio, syncKeys)
    ensures DictMergeCommand(info, syncKeys, chaptersExist)
            == BatchConvert.MergeCommand(info.(subs := Unsynced(info.subs)), chaptersExist)
  {
    DictAudioAsSerialized(info.audio, syncKeys);
  }

  // ------------------------------------------------------------ encodeVideo

  /** The "vapoursynth" entry of the video section: absent or empty, a dict
      without "script", or a script path. */
  datatype VsSection = NoVapoursynth | ScriptMissing | Script(path: string)

  /** encodeVideo of this revision: as batchconvert.py, except that a
      vapoursynth section without "script" and a video section without
      "x265Opts" exit with 1; the latter is checked only once the colour
      options have been read. */
  function DictEncodeVideoStep(info: InfoFile, vs: VsSection, hasX265Opts: bool, probe: Result<VideoInfo.Probe>,
                               present: string -> bool, tools: BatchConvert.VideoTools)
    : (r: Result<BatchConvert.VideoStep>)
    ensures r.Ok? && r.value.EncodeVideo? ==> hasX265Opts && !vs.ScriptMissing?
    ensures probe.Ok? && !present(info.video.output) && info.video.convert && vs.ScriptMissing? ==> r == Fail(Exit(1))
  {
    match probe
    case Fail(f) => Fail(f)
    case Ok(p) =>
      if present(info.video.output) then Ok(BatchConvert.VideoExists)
      else if !info.video.convert then
        Ok(if p.dolbyVision then BatchConvert.ExtractDovi("temp-" + info.video.output)
           else BatchConvert.CopyVideo(["mkvextract", info.sourceMKV, "tracks", "0:temp-" + info.video.output]))
      else if vs.ScriptMissing? then Fail(Exit(1))
      else if vs.Script? && (!present(vs.path) || !tools.scriptLoads) then Fail(Exit(1))
      else if p.hdr10Plus && !tools.hdr10PlusOk then Fail(Exit(1))
      else if p.dolbyVision && !tools.doviOk then Fail(Exit(1))
      else match BatchConvert.EncodeCommand(info, p, tools.frames, tools.dvFile, tools.hdr10PlusFile)
        case Fail(f) => Fail(f)
        case Ok(cmd) =>
          if !hasX265Opts then Fail(Exit(1))
          else Ok(BatchConvert.EncodeVideo(BatchConvert.HardcodedSub(info.subs, present),
                                           BatchConvert.PassCommands(cmd, info.video.twoPass)))
  }

  /** With "x265Opts" present and the script given exactly when the newer
      revision has one, both revisions do the same. */
  lemma DictEncodeAgrees(info: InfoFile, vs: VsSection, probe: Result<VideoInfo.Probe>,
                         present: string -> bool, tools: BatchConvert.VideoTools)
    requires vs == (if info.video.vsScript == "" then NoVapoursynth else Script(info.video.vsScript))
    ensures DictEncodeVideoStep(info, vs, true, probe, present, tools)
            == BatchConvert.EncodeVideoStep(info, probe, present, tools)
  {
  }

  // ------------------------------------------------------------ audio

  /** convertAudioTrack as written: the normalize path names its
      intermediate file `audioTrack["id"] + ".norm.flac"`, an int plus a
      str, which raises TypeError once the filters have been read. */
  function DictConvertAudioTrack(source: string, t: AudioTrack, present: string -> bool, fmt: real -> string)
    : (r: Result<BatchConvert.AudioStep>)
    ensures r.Ok? && r.value.ConvertTrack? ==> r.value.plan.RunFfmpeg?
  {
    match t.convert
    case JObj(fields) =>
      if Get(fields, "codec").None? then Fail(KeyError)
      else if present(BatchConvert.AudioOut(t)) then Ok(BatchConvert.AudioExists)
      else
        (match ConvertOf(t.convert)
         case Fail(f) => Fail(f)
         case Ok(cs) =>
           match AudioFilters.PlanAudio(cs, source, IntToString(t.id), "temp-" + BatchConvert.AudioOut(t), "",
                                        BatchConvert.Pan(fmt), true)
           case Fail(f) => Fail(f)
           case Ok(plan) =>
             if plan.RunNormalize? then Fail(TypeError)
             else Ok(BatchConvert.ConvertTrack([], plan, ("temp-" + BatchConvert.AudioOut(t), BatchConvert.AudioOut(t)))))
    case _ => Fail(TypeError)
  }

  /** The two revisions agree on every track except one that is to be
      normalised: there batchconvert.py converts through "<id>.norm.flac"
      and this revision raises TypeError. */
  lemma DictNormalizeRaises(source: string, t: AudioTrack, present: string -> bool, fmt: real -> string)
    ensures var fixed := BatchConvert.ConvertAudioTrack(source, t, present, fmt);
      if fixed.Ok? && fixed.value.ConvertTrack? && fixed.value.plan.RunNormalize?
      then DictConvertAudioTrack(source, t, present, fmt) == Fail(TypeError)
           && fixed.value.plan.input == IntToString(t.id) + ".norm.flac"
      else DictConvertAudioTrack(source, t, present, fmt) == fixed
  {
    if t.convert.JObj? && Get(t.convert.fields, "codec").Some? && !present(BatchConvert.AudioOut(t))
       && ConvertOf(t.convert).Ok? {
      var cs := ConvertOf(t.convert).value;
      var out := "temp-" + BatchConvert.AudioOut(t);
      var a := AudioFilters.PlanAudio(cs, source, IntToString(t.id), out, "", BatchConvert.Pan(fmt), true);
      var b := AudioFilters.PlanAudio(cs, source, IntToString(t.id), out, BatchConvert.NormInput(t), BatchConvert.Pan(fmt), true);
      assert a.Ok? == b.Ok? && (a.Ok? ==> a.value.RunNormalize? == b.value.RunNormalize?)
             && (a.Ok? && a.value.RunFfmpeg? ==> a == b) && (a.Fail? ==> a == b);
    }
  }
}

=== FILE: bdn.dfy ===
// The BDN XML subtitle descriptions the 3D scripts read and rewrite
// (3d-misc/full-3D.py, 3d-misc/convertToSBS.py): each Graphic element's
// attributes as a map from name to text, and the geometry read from them.
module Bdn {
  import opened Results
  import opened Text

  type Attrib = map<string, string>

  const FrameWidth: int := 1920
  const FrameHeight: int := 1080

  function Abs(n: int): nat { if n < 0 then -n else n }

  /** `int(attrib[key])`: KeyError for a missing attribute, ValueError for
      text that is not an integer. */
  function GetInt(a: Attrib, key: string): (r: Result<int>)
    ensures r.Ok? <==> key in a && ParseInt(a[key]).Some?
    ensures r.Ok? ==> ParseInt(a[key]) == Some(r.value)
    ensures r.Fail? ==> r.failure == (if key in a then ValueError else KeyError)
  {
    if key !in a then Fail(KeyError)
    else match ParseInt(a[key])
      case None => Fail(ValueError)
      case Some(v) => Ok(v)
  }

  /** A graphic's size, position and depth. */
  datatype Geometry = Geometry(width: int, height: int, x: int, y: int, depth: int)

  /** Width, Height, X and Y as integers, then Depth (0 when the attribute
      is empty), with a negative X or Y on a full-frame-wide or
      full-frame-high graphic moved to 0. */
  function ReadGraphic(a: Attrib): (r: Result<Geometry>)
    ensures r.Ok? ==> "Depth" in a && GetInt(a, "Width") == Ok(r.value.width) && GetInt(a, "Height") == Ok(r.value.height)
    ensures r.Ok? ==> if a["Depth"] == "" then r.value.depth == 0 else ParseInt(a["Depth"]) == Some(r.value.depth)
    ensures r.Ok? ==> (r.value.width == FrameWidth ==> r.value.x >= 0) && (r.value.height == FrameHeight ==> r.value.y >= 0)
    ensures r.Ok? ==> (GetInt(a, "X") == Ok(r.value.x) || (r.value.x == 0 && GetInt(a, "X").Ok? && GetInt(a, "X").value < 0))
    ensures r.Ok? ==> (GetInt(a, "Y") == Ok(r.value.y) || (r.value.y == 0 && GetInt(a, "Y").Ok? && GetInt(a, "Y").value < 0))
  {
    match (GetInt(a, "Width"), GetInt(a, "Height"), GetInt(a, "X"), GetInt(a, "Y"))
    case (Fail(e), _, _, _) => Fail(e)
    case (_, Fail(e), _, _) => Fail(e)
    case (_, _, Fail(e), _) => Fail(e)
    case (_, _, _, Fail(e)) => Fail(e)
    case (Ok(width), Ok(height), Ok(x), Ok(y)) =>
      if "Depth" !in a then Fail(KeyError)
      else
        var depth := if a["Depth"] == "" then Ok(0) else GetInt(a, "Depth");
        match depth
        case Fail(e) => Fail(e)
        case Ok(d) =>
          Ok(Geometry(width, height,
                      if width == FrameWidth && x < 0 then 0 else x,
                      if height == FrameHeight && y < 0 then 0 else y,
                      d))
  }

  /** The attributes of a graphic as the files spell them. */
  function Written(g: Geometry): Attrib
  {
    map["Width" := IntToString(g.width), "Height" := IntToString(g.height), "X" := IntToString(g.x),
        "Y" := IntToString(g.y), "Depth" := IntToString(g.depth)]
  }

  /** Reading written attributes gives the geometry back, X and Y moved to
      0 only where the frame-size workaround applies. */
  lemma ReadWritten(g: Geometry)
    ensures ReadGraphic(Written(g)) == Ok(Geometry(g.width, g.height,
      if g.width == FrameWidth && g.x < 0 then 0 else g.x,
      if g.height == FrameHeight && g.y < 0 then 0 else g.y, g.depth))
  {
    ParseIntToString(g.width);
    ParseIntToString(g.height);
    ParseIntToString(g.x);
    ParseIntToString(g.y);
    ParseIntToString(g.depth);
    assert |IntToString(g.depth)| > 0;
  }

  /** `width < framewidth and width + abs(depth / 2) > framewidth`, with
      the true division written over the integers. */
  predicate DepthTooGreat(width: int, depth: int)
  {
    width < FrameWidth && 2 * width + Abs(depth) > 2 * FrameWidth
  }
}

=== FILE: bluray.dfy ===
// misc-scripts/extract_bluray.py: remuxing Blu-ray titles into .mkv files
// with mkvmerge, driven by a JSON list of discs and the titles the user
// picked on each. Paths are pathlib values (PyPath.Path); whether a path
// exists is a parameter, since the disc and the output tree are outside the
// model.
module Bluray {
  import opened Results
  import opened Text
  import opened PyPath
  import Prompts

  /** One title of a disc as the JSON file stores it: "main" is "yes" for a
      feature and "no" for an extra. */
  datatype Title = Title(main: string, folder: string, filename: string)

  /** One disc: its root directory and the titles to remux. */
  datatype Root = Root(blurayDir: string, titles: seq<Title>)

  // ------------------------------------------------------------ getBluRayFilePath

  /** `Path("STREAM")` and friends: one relative component. */
  function Rel(name: string): Path
  {
    Path(false, [name])
  }

  /** getBluRayFilePath as written: the directory is joined onto itself
      before "STREAM" or "PLAYLIST" is added, so a relative disc root is
      repeated. */
  function BluRayFilePath(root: string, fileName: string): (r: Path)
    ensures PathOf(root).absolute ==> r == CorrectedBluRayFilePath(root, fileName)
  {
    FilePathIn(PathOf(root), PathOf(fileName))
  }

  function FilePathIn(dir: Path, name: Path): Path
  {
    var ext := Suffix(name);
    var base := JoinPath(dir, Rel("BDMV"));
    var stream := if Contains(ext, ".m2ts") then JoinPath(JoinPath(JoinPath(base, base), Rel("STREAM")), name) else base;
    if Contains(ext, ".mpls") then JoinPath(JoinPath(JoinPath(stream, stream), Rel("PLAYLIST")), name) else stream
  }

  /** getBluRayFilePath as evidently intended: BDMV/STREAM/<name> or
      BDMV/PLAYLIST/<name> under the disc root. */
  function CorrectedBluRayFilePath(root: string, fileName: string): (r: Path)
    ensures !PathOf(fileName).absolute && (Suffix(PathOf(fileName)) == ".m2ts" || Suffix(PathOf(fileName)) == ".mpls")
      ==> r == Path(PathOf(root).absolute, PathOf(root).parts + ["BDMV", TitleDir(Suffix(PathOf(fileName)))] + PathOf(fileName).parts)
  {
    var name := PathOf(fileName);
    if !name.absolute && (Suffix(name) == ".m2ts" || Suffix(name) == ".mpls") then
      CorrectedIn(PathOf(root), name);
      CorrectedFilePathIn(PathOf(root), name)
    else
      CorrectedFilePathIn(PathOf(root), name)
  }

  function CorrectedFilePathIn(dir: Path, name: Path): Path
  {
    var ext := Suffix(name);
    var base := JoinPath(dir, Rel("BDMV"));
    var stream := if Contains(ext, ".m2ts") then JoinPath(JoinPath(base, Rel("STREAM")), name) else base;
    if Contains(ext, ".mpls") then JoinPath(JoinPath(stream, Rel("PLAYLIST")), name) else stream
  }

  /** The directory a title extension lives in. */
  function TitleDir(ext: string): string
  {
    if ext == ".m2ts" then "STREAM" else "PLAYLIST"
  }

  lemma SuffixSelectors(ext: string)
    requires ext == ".m2ts" || ext == ".mpls"
    ensures Contains(ext, ".m2ts") == (ext == ".m2ts")
    ensures Contains(ext, ".mpls") == (ext == ".mpls")
  {
    assert IsPrefix(ext, ext);
    assert Contains(ext, ext);
    var other := if ext == ".m2ts" then ".mpls" else ".m2ts";
    ContainsIffOccurs(ext, other);
    forall i ensures !OccursAt(ext, other, i) {
      if 0 <= i && i + |other| <= |ext| {
        assert ext[i..i + |other|] == ext;
        assert ext[2] != other[2];
      }
    }
  }

  lemma RepeatedIn(r: Path, name: Path)
    requires !r.absolute && !name.absolute
    requires Suffix(name) == ".m2ts" || Suffix(name) == ".mpls"
    ensures FilePathIn(r, name) == Path(false, r.parts + ["BDMV"] + r.parts + ["BDMV", TitleDir(Suffix(name))] + name.parts)
  {
    var ext := Suffix(name);
    SuffixSelectors(ext);
    var base := JoinPath(r, Rel("BDMV"));
    var twice := JoinPath(base, base);
    assert twice == Path(false, r.parts + ["BDMV"] + r.parts + ["BDMV"]);
    var dir := JoinPath(twice, Rel(TitleDir(ext)));
    assert dir.parts == r.parts + ["BDMV"] + r.parts + ["BDMV", TitleDir(ext)];
    assert FilePathIn(r, name) == JoinPath(dir, name);
  }

  /** As written, a relative disc root appears twice in a title's path. */
  lemma RelativeRootRepeated(root: string, fileName: string)
    requires !PathOf(root).absolute && !PathOf(fileName).absolute
    requires Suffix(PathOf(fileName)) == ".m2ts" || Suffix(PathOf(fileName)) == ".mpls"
    ensures var r := PathOf(root).parts;
      BluRayFilePath(root, fileName)
      == Path(false, r + ["BDMV"] + r + ["BDMV", TitleDir(Suffix(PathOf(fileName)))] + PathOf(fileName).parts)
  {
    RepeatedIn(PathOf(root), PathOf(fileName));
  }

  lemma CorrectedIn(r: Path, name: Path)
    requires !name.absolute
    requires Suffix(name) == ".m2ts" || Suffix(name) == ".mpls"
    ensures CorrectedFilePathIn(r, name) == Path(r.absolute, r.parts + ["BDMV", TitleDir(Suffix(name))] + name.parts)
  {
    var ext := Suffix(name);
    SuffixSelectors(ext);
    var base := JoinPath(r, Rel("BDMV"));
    var dir := JoinPath(base, Rel(TitleDir(ext)));
    assert dir.parts == r.parts + ["BDMV", TitleDir(ext)];
    assert CorrectedFilePathIn(r, name) == JoinPath(dir, name);
  }

  /** titleExists: only ".m2ts" and ".mpls" titles, and then whether the
      file `locate` names exists. */
  function TitleExists(root: string, fileName: string, onDisk: Path -> bool, locate: (string, string) -> Path): (r: bool)
    ensures r <==> (Suffix(PathOf(fileName)) == ".m2ts" || Suffix(PathOf(fileName)) == ".mpls")
                   && onDisk(locate(root, fileName))
  {
    var ext := Suffix(PathOf(fileName));
    if ext != ".m2ts" && ext != ".mpls" then false
    else onDisk(locate(root, fileName))
  }

  /** isBluray: BDMV/index.bdmv exists under the directory. */
  predicate IsBluray(dir: Path, onDisk: Path -> bool): (r: bool)
    ensures r <==> onDisk(Path(dir.absolute, dir.parts + ["BDMV", "index.bdmv"]))
  {
    onDisk(JoinPath(dir, Path(false, ["BDMV", "index.bdmv"])))
  }

  // ------------------------------------------------------------ getBlurayInfo

  /** The extra-feature answer the inner loop accepts. */
  predicate YesNo(a: string)
  {
    Lower(a) == "y" || Lower(a) == "n"
  }

  /** The "main" value an accepted answer records: "y" (an extra) gives
      "no". */
  function MainOf(a: string): string
  {
    if Contains(Lower(a), "y") then "no" else "yes"
  }

  /** Answering "y" (in either case) to "Is this an extra feature" is what
      sends the title under extras/ later: "no" holds an "n", "yes" does
      not. */
  lemma ExtraAnswerGoesToExtras(a: string)
    requires YesNo(a)
    ensures MainOf(a) == "no" <==> Lower(a) == "y"
    ensures Contains(MainOf(a), "n") <==> Lower(a) == "y"
  {
    assert IsPrefix("y", "y");
    assert Contains("y", "y");
    assert !Contains("n", "y") by {
      assert "n"[..1][0] != "y"[0];
      assert !IsPrefix("y", "n") && "n"[1..] == "";
    }
    assert IsPrefix("n", "no");
    assert Contains("no", "n");
    assert !Contains("yes", "n") by {
      assert !IsPrefix("n", "yes") && !IsPrefix("n", "es") && !IsPrefix("n", "s");
      assert "yes"[1..] == "es" && "es"[1..] == "s" && "s"[1..] == "";
    }
  }

  /** The title loop of getBlurayInfo over the user's answers from `pos`:
      a file name (one holding "done" ends the loop, one `titleExists`
      rejects is asked again), the extra answer until it is "y" or "n",
      then the folder. Returns the titles and the position after the loop;
      running out of answers is EOFError. */
  function AskTitles(answers: seq<string>, pos: nat, titleExists: string -> bool): (r: Result<(seq<Title>, nat)>)
    ensures r.Ok? ==> pos < r.value.1 <= |answers| && Contains(answers[r.value.1 - 1], "done")
    ensures r.Ok? ==> forall i :: 0 <= i < |r.value.0| ==>
      titleExists(r.value.0[i].filename) && !Contains(r.value.0[i].filename, "done")
      && (r.value.0[i].main == "yes" || r.value.0[i].main == "no")
    ensures r.Fail? ==> r.failure == EOFError
    decreases |answers| - pos
  {
    if pos >= |answers| then Fail(EOFError)
    else
      var name := answers[pos];
      if Contains(name, "done") then Ok(([], pos + 1))
      else if !titleExists(name) then AskTitles(answers, pos + 1, titleExists)
      else
        match Prompts.Ask(answers, pos + 1, YesNo)
        case Fail(f) => Fail(f)
        case Ok(j) =>
          if j + 1 >= |answers| then Fail(EOFError)
          else
            var t := Title(MainOf(answers[j]), answers[j + 1], name);
            match AskTitles(answers, j + 2, titleExists)
            case Fail(f) => Fail(f)
            case Ok(rest) => Ok(([t] + rest.0, rest.1))
  }

  /** getBlurayInfo with the answers read from `pos` on: the disc's root as
      `str(path)`, the titles asked, and the position after the loop. */
  function AskRoot(root: string, answers: seq<string>, pos: nat, onDisk: Path -> bool, locate: (string, string) -> Path)
    : (r: Result<(Root, nat)>)
    ensures r.Ok? ==> pos < r.value.1 <= |answers|
    ensures r.Ok? ==> r.value.0.blurayDir == PathString(PathOf(root))
    ensures r.Ok? ==> forall i :: 0 <= i < |r.value.0.titles| ==>
      TitleExists(root, r.value.0.titles[i].filename, onDisk, locate)
    ensures r.Fail? ==> r.failure == EOFError
  {
    match AskTitles(answers, pos, (n: string) => TitleExists(root, n, onDisk, locate))
    case Fail(f) => Fail(f)
    case Ok(asked) => Ok((Root(PathString(PathOf(root)), asked.0), asked.1))
  }

  /** getBlurayInfo on its own: the answers from the first on. */
  function GetBlurayInfo(root: string, answers: seq<string>, onDisk: Path -> bool, locate: (string, string) -> Path)
    : (r: Result<Root>)
    ensures r.Ok? ==> r.value.blurayDir == PathString(PathOf(root))
    ensures r.Ok? ==> forall i :: 0 <= i < |r.value.titles| ==>
      TitleExists(root, r.value.titles[i].filename, onDisk, locate)
  {
    match AskRoot(root, answers, 0, onDisk, locate)
    case Fail(f) => Fail(f)
    case Ok(p) => Ok(p.0)
  }

  // ------------------------------------------------------------ filterBlurayInfo

  /** The inner loop of filterBlurayInfo: every title file exists (the
      loop empties the list at the first missing one). */
  function TitlesPresent(dir: string, ts: seq<Title>, onDisk: Path -> bool, locate: (string, string) -> Path): (r: bool)
    ensures r <==> forall i :: 0 <= i < |ts| ==> onDisk(locate(dir, ts[i].filename))
    decreases |ts|
  {
    if |ts| == 0 then true
    else if !onDisk(locate(dir, ts[0].filename)) then false
    else
      assert forall i :: 1 <= i < |ts| ==> ts[i] == ts[1..][i - 1];
      TitlesPresent(dir, ts[1..], onDisk, locate)
  }

  /** A root survives filterBlurayInfo when its directory exists, is a
      Blu-ray, and has titles whose files all exist. */
  predicate Keep(root: Root, onDisk: Path -> bool, locate: (string, string) -> Path)
  {
    var dir := PathOf(root.blurayDir);
    onDisk(dir) && IsBluray(dir, onDisk) && |root.titles| > 0
    && TitlesPresent(root.blurayDir, root.titles, onDisk, locate)
  }

  /** The JSON file's top level: one disc object or a list of them. */
  datatype Loaded = OneRoot(root: Root) | Roots(roots: seq<Root>)

  /** `if type(blurayInfo) == dict: blurayInfo = [blurayInfo]`. */
  function Listed(loaded: Loaded): seq<Root>
  {
    match loaded
    case OneRoot(one) => [one]
    case Roots(rs) => rs
  }

  function FilterRoots(roots: seq<Root>, onDisk: Path -> bool, locate: (string, string) -> Path): (r: seq<Root>)
    ensures |r| <= |roots|
    ensures forall x :: x in r <==> x in roots && Keep(x, onDisk, locate)
    decreases |roots|
  {
    if |roots| == 0 then []
    else
      var rest := FilterRoots(roots[1..], onDisk, locate);
      assert forall x :: x in roots <==> x == roots[0] || x in roots[1..];
      if Keep(roots[0], onDisk, locate) then [roots[0]] + rest else rest
  }

  /** filterBlurayInfo: nothing without the JSON file; a single object is
      wrapped into a list; exactly the listed roots that pass the check are
      kept, unchanged. */
  function FilterBlurayInfo(jsonExists: bool, loaded: Loaded, onDisk: Path -> bool, locate: (string, string) -> Path)
    : (r: seq<Root>)
    ensures !jsonExists ==> r == []
    ensures jsonExists ==> forall x :: x in r <==> x in Listed(loaded) && Keep(x, onDisk, locate)
  {
    if !jsonExists then [] else FilterRoots(Listed(loaded), onDisk, locate)
  }

  /** A disc recorded by getBlurayInfo on an existing Blu-ray with at least
      one title survives filterBlurayInfo when the JSON is read back: every
      title it records was checked to exist. */
  lemma RecordedRootKept(root: string, answers: seq<string>, onDisk: Path -> bool, locate: (string, string) -> Path)
    requires PathOf(PathString(PathOf(root))) == PathOf(root)
    requires locate == ((d: string, n: string) => CorrectedBluRayFilePath(d, n))
    requires onDisk(PathOf(root)) && IsBluray(PathOf(root), onDisk)
    requires forall n :: CorrectedBluRayFilePath(PathString(PathOf(root)), n) == CorrectedBluRayFilePath(root, n)
    ensures var r := GetBlurayInfo(root, answers, onDisk, locate);
      r.Ok? && |r.value.titles| > 0 ==> FilterBlurayInfo(true, OneRoot(r.value), onDisk, locate) == [r.value]
  {
    var r := GetBlurayInfo(root, answers, onDisk, locate);
    if r.Ok? && |r.value.titles| > 0 {
      var ts := r.value.titles;
      forall i | 0 <= i < |ts| ensures onDisk(locate(r.value.blurayDir, ts[i].filename)) {
        assert TitleExists(root, ts[i].filename, onDisk, locate);
      }
      assert Keep(r.value, onDisk, locate);
    }
  }

  // ------------------------------------------------------------ batchCreateMKVs

  /** Where a title is remuxed to: extras/<folder>/<outFile> when its
      "main" holds an "n", <folder>/<outFile> otherwise. */
  function OutputPath(t: Title, outFile: string): Path
  {
    if Contains(t.main, "n") then JoinPath(JoinPath(Rel("extras"), PathOf(t.folder)), PathOf(outFile))
    else JoinPath(PathOf(t.folder), PathOf(outFile))
  }

  /** For relative folder and file names the output is
      [extras/]<folder>/<outFile>, under extras/ exactly for extras. */
  lemma OutputPathShape(t: Title, outFile: string)
    requires !PathOf(t.folder).absolute && !PathOf(outFile).absolute
    ensures OutputPath(t, outFile)
      == Path(false, (if Contains(t.main, "n") then ["extras"] else []) + PathOf(t.folder).parts + PathOf(outFile).parts)
  {
  }

  /** One mkvmerge run: into a temporary sibling of the output, which then
      replaces the output. */
  datatype Run = Run(title: Title, input: Path, temp: Path, output: Path, cmd: seq<string>)

  /** The runs made, and what stopped the loop early, if anything. */
  datatype Batch = Batch(runs: seq<Run>, stop: Option<Failure>)

  /** `run` is the remux of title `t`: its input is where `locate` puts the
      title and exists, its output is the title's output path, its
      temporary file is the output's sibling "temp-<outFile>", and the
      command writes the temporary file from the input. */
  predicate RunOf(run: Run, t: Title, dir: string, outFile: string, onDisk: Path -> bool, locate: (string, string) -> Path)
  {
    run.input == locate(dir, t.filename) && onDisk(run.input)
    && run.output == OutputPath(t, outFile)
    && Name(run.temp) == "temp-" + outFile && run.temp.absolute == run.output.absolute
    && |run.temp.parts| == |run.output.parts| > 0
    && run.temp.parts[..|run.temp.parts| - 1] == run.output.parts[..|run.output.parts| - 1]
    && run.cmd == ["mkvmerge", "--output", PathString(run.temp), PathString(run.input)]
  }

  /** A run of batchCreateMKVs from `titles` on; `made` are the outputs of
      earlier runs, which exist by now. A title whose output exists is
      skipped; a title whose input is missing exits with 1. */
  function CreateMkvs(dir: string, titles: seq<Title>, outFile: string, onDisk: Path -> bool,
                      locate: (string, string) -> Path, made: set<Path>): (r: Batch)
    ensures |r.runs| <= |titles|
    ensures r.stop.Some? ==> r.stop.value == Exit(1) || r.stop.value == ValueError
    decreases |titles|
  {
    if |titles| == 0 then Batch([], None)
    else
      var t := titles[0];
      var input := locate(dir, t.filename);
      if !onDisk(input) then Batch([], Some(Exit(1)))
      else
        var output := OutputPath(t, outFile);
        if onDisk(output) || output in made then CreateMkvs(dir, titles[1..], outFile, onDisk, locate, made)
        else
          match WithName(output, "temp-" + outFile)
          case Fail(f) => Batch([], Some(f))
          case Ok(temp) =>
            var rest := CreateMkvs(dir, titles[1..], outFile, onDisk, locate, made + {output});
            Batch([Run(t, input, temp, output, ["mkvmerge", "--output", PathString(temp), PathString(input)])] + rest.runs,
                  rest.stop)
  }

  /** No run writes an output that is on disk or in `made`, and no two
      runs write the same output. */
  predicate FreshOutputs(runs: seq<Run>, onDisk: Path -> bool, made: set<Path>)
  {
    (forall i :: 0 <= i < |runs| ==> !onDisk(runs[i].output) && runs[i].output !in made)
    && forall i, j :: 0 <= i < j < |runs| ==> runs[i].output != runs[j].output
  }

  /** Every run is the remux of one of `titles`. */
  predicate RunsOf(runs: seq<Run>, titles: seq<Title>, dir: string, outFile: string, onDisk: Path -> bool,
                   locate: (string, string) -> Path)
  {
    forall i :: 0 <= i < |runs| ==> runs[i].title in titles && RunOf(runs[i], runs[i].title, dir, outFile, onDisk, locate)
  }

  /** No run overwrites an existing output or one made earlier in the
      loop, and no two runs write the same output. */
  lemma {:induction false} CreateMkvsFresh(dir: string, titles: seq<Title>, outFile: string, onDisk: Path -> bool,
                                           locate: (string, string) -> Path, made: set<Path>)
    ensures FreshOutputs(CreateMkvs(dir, titles, outFile, onDisk, locate, made).runs, onDisk, made)
    decreases |titles|
  {
    if |titles| > 0 {
      var t := titles[0];
      var input := locate(dir, t.filename);
      var output := OutputPath(t, outFile);
      var tail := titles[1..];
      if onDisk(input) && (onDisk(output) || output in made) {
        CreateMkvsFresh(dir, tail, outFile, onDisk, locate, made);
        assert CreateMkvs(dir, titles, outFile, onDisk, locate, made) == CreateMkvs(dir, tail, outFile, onDisk, locate, made);
      } else if onDisk(input) && WithName(output, "temp-" + outFile).Ok? {
        var rest := CreateMkvs(dir, tail, outFile, onDisk, locate, made + {output});
        CreateMkvsFresh(dir, tail, outFile, onDisk, locate, made + {output});
        var r := CreateMkvs(dir, titles, outFile, onDisk, locate, made);
        assert FreshOutputs(rest.runs, onDisk, made + {output});
        assert r.runs[1..] == rest.runs && r.runs[0].output == output;
        forall i | 0 <= i < |r.runs| ensures !onDisk(r.runs[i].output) && r.runs[i].output !in made {
          if i > 0 {
            assert r.runs[i] == rest.runs[i - 1];
          }
        }
        forall i, j | 0 <= i < j < |r.runs| ensures r.runs[i].output != r.runs[j].output {
          assert r.runs[j] == rest.runs[j - 1];
          if i > 0 {
            assert r.runs[i] == rest.runs[i - 1];
          }
        }
      }
    }
  }

  lemma RunsOfTail(runs: seq<Run>, titles: seq<Title>, dir: string, outFile: string, onDisk: Path -> bool,
                   locate: (string, string) -> Path)
    requires |titles| > 0 && RunsOf(runs, titles[1..], dir, outFile, onDisk, locate)
    ensures RunsOf(runs, titles, dir, outFile, onDisk, locate)
  {
    assert forall t :: t in titles[1..] ==> t in titles;
  }

  lemma RunsOfCons(run: Run, runs: seq<Run>, titles: seq<Title>, dir: string, outFile: string, onDisk: Path -> bool,
                   locate: (string, string) -> Path)
    requires |titles| > 0 && run.title == titles[0] && RunOf(run, titles[0], dir, outFile, onDisk, locate)
    requires RunsOf(runs, titles[1..], dir, outFile, onDisk, locate)
    ensures RunsOf([run] + runs, titles, dir, outFile, onDisk, locate)
  {
    RunsOfTail(runs, titles, dir, outFile, onDisk, locate);
    forall i | 0 <= i < |[run] + runs|
      ensures ([run] + runs)[i].title in titles && RunOf(([run] + runs)[i], ([run] + runs)[i].title, dir, outFile, onDisk, locate)
    {
      if i > 0 {
        assert ([run] + runs)[i] == runs[i - 1];
      }
    }
  }

  /** Each run is the remux of one of the titles. */
  lemma {:induction false} CreateMkvsRunOf(dir: string, titles: seq<Title>, outFile: string, onDisk: Path -> bool,
                                           locate: (string, string) -> Path, made: set<Path>)
    ensures RunsOf(CreateMkvs(dir, titles, outFile, onDisk, locate, made).runs, titles, dir, outFile, onDisk, locate)
    decreases |titles|
  {
    if |titles| > 0 {
      var t := titles[0];
      var input := locate(dir, t.filename);
      var output := OutputPath(t, outFile);
      var tail := titles[1..];
      if onDisk(input) && (onDisk(output) || output in made) {
        CreateMkvsRunOf(dir, tail, outFile, onDisk, locate, made);
        assert CreateMkvs(dir, titles, outFile, onDisk, locate, made) == CreateMkvs(dir, tail, outFile, onDisk, locate, made);
        RunsOfTail(CreateMkvs(dir, tail, outFile, onDisk, locate, made).runs, titles, dir, outFile, onDisk, locate);
      } else if onDisk(input) && WithName(output, "temp-" + outFile).Ok? {
        var temp := WithName(output, "temp-" + outFile).value;
        var rest := CreateMkvs(dir, tail, outFile, onDisk, locate, made + {output});
        CreateMkvsRunOf(dir, tail, outFile, onDisk, locate, made + {output});
        var run := Run(t, input, temp, output, ["mkvmerge", "--output", PathString(temp), PathString(input)]);
        assert RunOf(run, t, dir, outFile, onDisk, locate);
        RunsOfCons(run, rest.runs, titles, dir, outFile, onDisk, locate);
        assert CreateMkvs(dir, titles, outFile, onDisk, locate, made).runs == [run] + rest.runs;
      }
    }
  }

  /** batchCreateMKVs over a disc's titles. */
  function BatchCreateMkvs(root: Root, outFile: string, onDisk: Path -> bool, locate: (string, string) -> Path): (r: Batch)
    ensures |r.runs| <= |root.titles|
    ensures forall i, j :: 0 <= i < j < |r.runs| ==> r.runs[i].output != r.runs[j].output
  {
    var r := CreateMkvs(root.blurayDir, root.titles, outFile, onDisk, locate, {});
    CreateMkvsFresh(root.blurayDir, root.titles, outFile, onDisk, locate, {});
    assert FreshOutputs(r.runs, onDisk, {});
    r
  }

  /** The loop ran to the end with one run per title, in order. */
  predicate RanAll(b: Batch, titles: seq<Title>)
  {
    b.stop.None? && |b.runs| == |titles| && forall k :: 0 <= k < |titles| ==> b.runs[k].title == titles[k]
  }

  /** A title whose input exists and whose output is new is remuxed before
      the rest. */
  lemma CreateMkvsStep(dir: string, titles: seq<Title>, outFile: string, onDisk: Path -> bool,
                       locate: (string, string) -> Path, made: set<Path>)
    requires |titles| > 0 && onDisk(locate(dir, titles[0].filename))
    requires !onDisk(OutputPath(titles[0], outFile)) && OutputPath(titles[0], outFile) !in made
    requires WithName(OutputPath(titles[0], outFile), "temp-" + outFile).Ok?
    ensures var r := CreateMkvs(dir, titles, outFile, onDisk, locate, made);
      var rest := CreateMkvs(dir, titles[1..], outFile, onDisk, locate, made + {OutputPath(titles[0], outFile)});
      r.stop == rest.stop && |r.runs| == |rest.runs| + 1 && r.runs[0].title == titles[0] && r.runs[1..] == rest.runs
  {
  }

  /** With nothing on disk stopping it, every title is remuxed, in order
      (each to its own output, by CreateMkvsRunOf). */
  lemma {:induction false} AllTitlesRemuxed(dir: string, titles: seq<Title>, outFile: string, onDisk: Path -> bool,
                                            locate: (string, string) -> Path, made: set<Path>)
    requires forall k :: 0 <= k < |titles| ==> onDisk(locate(dir, titles[k].filename))
    requires forall k :: 0 <= k < |titles| ==> !onDisk(OutputPath(titles[k], outFile)) && OutputPath(titles[k], outFile) !in made
    requires forall k, l :: 0 <= k < l < |titles| ==> OutputPath(titles[k], outFile) != OutputPath(titles[l], outFile)
    requires forall k :: 0 <= k < |titles| ==> WithName(OutputPath(titles[k], outFile), "temp-" + outFile).Ok?
    ensures RanAll(CreateMkvs(dir, titles, outFile, onDisk, locate, made), titles)
    decreases |titles|
  {
    if |titles| > 0 {
      var output := OutputPath(titles[0], outFile);
      var tail := titles[1..];
      assert forall k :: 0 <= k < |tail| ==> tail[k] == titles[k + 1];
      assert forall k :: 0 <= k < |tail| ==> OutputPath(tail[k], outFile) != output;
      AllTitlesRemuxed(dir, tail, outFile, onDisk, locate, made + {output});
      CreateMkvsStep(dir, titles, outFile, onDisk, locate, made);
      var rest := CreateMkvs(dir, tail, outFile, onDisk, locate, made + {output});
      var r := CreateMkvs(dir, titles, outFile, onDisk, locate, made);
      forall k | 0 <= k < |titles| ensures r.runs[k].title == titles[k] {
        if k > 0 {
          assert r.runs[k] == r.runs[1..][k - 1] == rest.runs[k - 1];
        }
      }
    }
  }

  // ------------------------------------------------------------ main

  /** The blurayDir of every disc, in order. */
  function Dirs(roots: seq<Root>): (r: seq<string>)
    ensures |r| == |roots| && forall k :: 0 <= k < |roots| ==> r[k] == roots[k].blurayDir
    decreases |roots|
  {
    if |roots| == 0 then [] else [roots[0].blurayDir] + Dirs(roots[1..])
  }

  /** Every disc from position `n` on has a directory no earlier disc
      has. */
  predicate NewFrom(roots: seq<Root>, n: nat)
  {
    forall k :: n <= k < |roots| ==> roots[k].blurayDir !in Dirs(roots[..k])
  }

  /** The loop of main over the -d directories after resuming, as written:
      a directory that is not a Blu-ray exits with 1; for one whose
      `str(path)` is not listed yet the user is asked whether to add it,
      and the answer replaces `selection`; then, listed or not, the
      directory has its titles asked and is appended whenever `selection`
      is exactly "y". So a listed directory is skipped only while the last
      answer (or the resume answer) was not "y". */
  function AddDiscs(dirs: seq<string>, listed: seq<Root>, selection: string, answers: seq<string>, pos: nat,
                    onDisk: Path -> bool, locate: (string, string) -> Path): (r: Result<(seq<Root>, nat)>)
    ensures r.Ok? ==> |listed| <= |r.value.0| && r.value.0[..|listed|] == listed
    ensures r.Fail? ==> r.failure == Exit(1) || r.failure == EOFError
    decreases |dirs|
  {
    if |dirs| == 0 then Ok((listed, pos))
    else
      var path := PathOf(dirs[0]);
      var asked := PathString(path) !in Dirs(listed);
      if !IsBluray(path, onDisk) then Fail(Exit(1))
      else if asked && pos >= |answers| then Fail(EOFError)
      else
        var sel := if asked then answers[pos] else selection;
        var next := if asked then pos + 1 else pos;
        if sel != "y" then AddDiscs(dirs[1..], listed, sel, answers, next, onDisk, locate)
        else
          match AskRoot(dirs[0], answers, next, onDisk, locate)
          case Fail(f) => Fail(f)
          case Ok(p) =>
            var more := listed + [p.0];
            var r := AddDiscs(dirs[1..], more, sel, answers, p.1, onDisk, locate);
            assert r.Ok? ==> r.value.0[..|listed|] == more[..|listed|];
            r
  }

  /** Right after resuming (`selection` is still "y"), a -d directory that
      the JSON file already lists is not asked about and is appended a
      second time: the resumed list then names one directory twice. */
  lemma ListedDirAddedAgain(dirs: seq<string>, listed: seq<Root>, answers: seq<string>, pos: nat,
                            onDisk: Path -> bool, locate: (string, string) -> Path)
    requires |dirs| > 0 && IsBluray(PathOf(dirs[0]), onDisk)
    requires PathString(PathOf(dirs[0])) in Dirs(listed)
    requires AskRoot(dirs[0], answers, pos, onDisk, locate).Ok?
    ensures var r := AddDiscs(dirs, listed, "y", answers, pos, onDisk, locate);
      r.Ok? ==> (|listed| < |r.value.0| && r.value.0[|listed|].blurayDir in Dirs(listed)
                 && !NewFrom(r.value.0, |listed|))
  {
    var p := AskRoot(dirs[0], answers, pos, onDisk, locate).value;
    var more := listed + [p.0];
    var r := AddDiscs(dirs, listed, "y", answers, pos, onDisk, locate);
    assert r == AddDiscs(dirs[1..], more, "y", answers, p.1, onDisk, locate);
    if r.Ok? {
      assert r.value.0[..|more|] == more;
      assert r.value.0[|listed|] == more[|listed|] == p.0;
      assert r.value.0[..|listed|] == listed;
    }
  }

  lemma DirsAppend(listed: seq<Root>, d: Root)
    ensures Dirs(listed + [d]) == Dirs(listed) + [d.blurayDir]
  {
  }

  /** The -d directories name distinct paths, none of them listed yet. */
  predicate FreshDirs(dirs: seq<string>, listed: seq<Root>)
  {
    (forall k :: 0 <= k < |dirs| ==> PathString(PathOf(dirs[k])) !in Dirs(listed))
    && forall i, j :: 0 <= i < j < |dirs| ==> PathString(PathOf(dirs[i])) != PathString(PathOf(dirs[j]))
  }

  /** When the -d directories are distinct and none is listed yet, every
      one of them is asked about, the carried `selection` is never used,
      and the loop as written does what the corrected one does. */
  lemma {:induction false} AddDiscsAgree(dirs: seq<string>, listed: seq<Root>, selection: string,
                                         answers: seq<string>, pos: nat, onDisk: Path -> bool,
                                         locate: (string, string) -> Path)
    requires FreshDirs(dirs, listed)
    ensures AddDiscs(dirs, listed, selection, answers, pos, onDisk, locate)
         == CorrectedAddDiscs(dirs, listed, answers, pos, onDisk, locate)
    decreases |dirs|
  {
    if |dirs| > 0 {
      var path := PathOf(dirs[0]);
      assert PathString(path) !in Dirs(listed);
      var tail := dirs[1..];
      assert forall k :: 0 <= k < |tail| ==> tail[k] == dirs[k + 1];
      assert FreshDirs(tail, listed);
      if IsBluray(path, onDisk) && pos < |answers| {
        if answers[pos] != "y" {
          AddDiscsAgree(tail, listed, answers[pos], answers, pos + 1, onDisk, locate);
        } else {
          var q := AskRoot(dirs[0], answers, pos + 1, onDisk, locate);
          if q.Ok? {
            var more := listed + [q.value.0];
            DirsAppend(listed, q.value.0);
            assert FreshDirs(tail, more);
            AddDiscsAgree(tail, more, "y", answers, q.value.1, onDisk, locate);
          }
        }
      }
    }
  }

  /** The loop of main over the -d directories after resuming, corrected
      to what it evidently means: one whose `str(path)` is already listed
      is skipped, and for any other the user is asked whether to add it;
      an answer of exactly "y" asks for its titles. */
  function CorrectedAddDiscs(dirs: seq<string>, listed: seq<Root>, answers: seq<string>, pos: nat,
                             onDisk: Path -> bool, locate: (string, string) -> Path): (r: Result<(seq<Root>, nat)>)
    ensures r.Ok? ==> |listed| <= |r.value.0| && r.value.0[..|listed|] == listed
    ensures r.Fail? ==> r.failure == Exit(1) || r.failure == EOFError
    decreases |dirs|
  {
    if |dirs| == 0 then Ok((listed, pos))
    else
      var path := PathOf(dirs[0]);
      if !IsBluray(path, onDisk) then Fail(Exit(1))
      else if PathString(path) in Dirs(listed) then CorrectedAddDiscs(dirs[1..], listed, answers, pos, onDisk, locate)
      else if pos >= |answers| then Fail(EOFError)
      else if answers[pos] != "y" then CorrectedAddDiscs(dirs[1..], listed, answers, pos + 1, onDisk, locate)
      else
        match AskRoot(dirs[0], answers, pos + 1, onDisk, locate)
        case Fail(f) => Fail(f)
        case Ok(p) =>
          var more := listed + [p.0];
          var r := CorrectedAddDiscs(dirs[1..], more, answers, p.1, onDisk, locate);
          assert r.Ok? ==> r.value.0[..|listed|] == more[..|listed|];
          r
  }

  /** The corrected loop never lists a directory twice: each disc added
      has a directory that no disc before it has. */
  lemma {:induction false} CorrectedAddDiscsNew(dirs: seq<string>, listed: seq<Root>, answers: seq<string>, pos: nat,
                                                onDisk: Path -> bool, locate: (string, string) -> Path)
    ensures var r := CorrectedAddDiscs(dirs, listed, answers, pos, onDisk, locate);
      r.Ok? ==> NewFrom(r.value.0, |listed|)
    decreases |dirs|
  {
    var r := CorrectedAddDiscs(dirs, listed, answers, pos, onDisk, locate);
    if |dirs| > 0 && r.Ok? {
      var path := PathOf(dirs[0]);
      if PathString(path) in Dirs(listed) {
        assert r == CorrectedAddDiscs(dirs[1..], listed, answers, pos, onDisk, locate);
        CorrectedAddDiscsNew(dirs[1..], listed, answers, pos, onDisk, locate);
      } else if answers[pos] != "y" {
        assert r == CorrectedAddDiscs(dirs[1..], listed, answers, pos + 1, onDisk, locate);
        CorrectedAddDiscsNew(dirs[1..], listed, answers, pos + 1, onDisk, locate);
      } else {
        var p := AskRoot(dirs[0], answers, pos + 1, onDisk, locate).value;
        var more := listed + [p.0];
        assert r == CorrectedAddDiscs(dirs[1..], more, answers, p.1, onDisk, locate);
        CorrectedAddDiscsNew(dirs[1..], more, answers, p.1, onDisk, locate);
        NewFromStep(r.value.0, listed, p.0);
      }
    }
  }

  lemma NewFromStep(res: seq<Root>, listed: seq<Root>, d: Root)
    requires |listed| < |res| && res[..|listed| + 1] == listed + [d]
    requires d.blurayDir !in Dirs(listed) && NewFrom(res, |listed| + 1)
    ensures NewFrom(res, |listed|)
  {
    var n := |listed|;
    assert res[..n] == (listed + [d])[..n] == listed;
    assert res[n] == (listed + [d])[n] == d;
  }

  /** The loop of main without resuming: every -d directory must be a
      Blu-ray (exit 1 otherwise) and has its titles asked, in order. */
  function AskDiscs(dirs: seq<string>, answers: seq<string>, pos: nat, onDisk: Path -> bool,
                    locate: (string, string) -> Path): (r: Result<(seq<Root>, nat)>)
    ensures r.Ok? ==> (|r.value.0| == |dirs|
      && forall k :: 0 <= k < |dirs| ==> r.value.0[k].blurayDir == PathString(PathOf(dirs[k])))
    ensures r.Fail? ==> r.failure == Exit(1) || r.failure == EOFError
    decreases |dirs|
  {
    if |dirs| == 0 then Ok(([], pos))
    else if !IsBluray(PathOf(dirs[0]), onDisk) then Fail(Exit(1))
    else
      match AskRoot(dirs[0], answers, pos, onDisk, locate)
      case Fail(f) => Fail(f)
      case Ok(p) =>
        match AskDiscs(dirs[1..], answers, p.1, onDisk, locate)
        case Fail(f) => Fail(f)
        case Ok(rest) =>
          DiscsCons(dirs, p.0, rest.0);
          Ok(([p.0] + rest.0, rest.1))
  }

  lemma DiscsCons(dirs: seq<string>, d: Root, rest: seq<Root>)
    requires |dirs| > 0 && d.blurayDir == PathString(PathOf(dirs[0]))
    requires |rest| == |dirs| - 1
    requires forall k :: 0 <= k < |rest| ==> rest[k].blurayDir == PathString(PathOf(dirs[1..][k]))
    ensures forall k :: 0 <= k < |dirs| ==> ([d] + rest)[k].blurayDir == PathString(PathOf(dirs[k]))
  {
    forall k | 0 <= k < |dirs| ensures ([d] + rest)[k].blurayDir == PathString(PathOf(dirs[k])) {
      if k > 0 {
        assert ([d] + rest)[k] == rest[k - 1];
        assert dirs[1..][k - 1] == dirs[k];
      }
    }
  }

  /** A -d directory that is not a Blu-ray stops main without resuming:
      it never gets to remuxing. */
  lemma {:induction false} AskDiscsNeedsBlurays(dirs: seq<string>, answers: seq<string>, pos: nat, onDisk: Path -> bool,
                                                locate: (string, string) -> Path, k: nat)
    requires k < |dirs| && !IsBluray(PathOf(dirs[k]), onDisk)
    ensures AskDiscs(dirs, answers, pos, onDisk, locate).Fail?
    decreases |dirs|
  {
    if k > 0 && IsBluray(PathOf(dirs[0]), onDisk) {
      var p := AskRoot(dirs[0], answers, pos, onDisk, locate);
      if p.Ok? {
        assert dirs[1..][k - 1] == dirs[k];
        AskDiscsNeedsBlurays(dirs[1..], answers, p.value.1, onDisk, locate, k - 1);
      }
    }
  }

  /** The outputs a list of runs writes. */
  function Outputs(runs: seq<Run>): set<Path>
  {
    set i | 0 <= i < |runs| :: runs[i].output
  }

  /** Every run of a list of batches, in order. */
  function AllRuns(bs: seq<Batch>): seq<Run>
    decreases |bs|
  {
    if |bs| == 0 then [] else bs[0].runs + AllRuns(bs[1..])
  }

  /** The last loop of main: batchCreateMKVs on every disc in turn, the
      outputs of earlier discs existing by the time later ones are
      remuxed; a batch that exits ends the program. */
  function RunAll(roots: seq<Root>, outFile: string, onDisk: Path -> bool, locate: (string, string) -> Path,
                  made: set<Path>): (r: seq<Batch>)
    ensures |r| <= |roots|
    ensures forall k :: 0 <= k < |r| - 1 ==> r[k].stop.None?
    ensures |r| < |roots| ==> |r| > 0 && r[|r| - 1].stop.Some?
    decreases |roots|
  {
    if |roots| == 0 then []
    else
      var b := CreateMkvs(roots[0].blurayDir, roots[0].titles, outFile, onDisk, locate, made);
      if b.stop.Some? then [b]
      else [b] + RunAll(roots[1..], outFile, onDisk, locate, made + Outputs(b.runs))
  }

  lemma FreshConcat(a: seq<Run>, c: seq<Run>, onDisk: Path -> bool, made: set<Path>)
    requires FreshOutputs(a, onDisk, made) && FreshOutputs(c, onDisk, made + Outputs(a))
    ensures FreshOutputs(a + c, onDisk, made)
  {
    var ac := a + c;
    forall i, j | 0 <= i < j < |ac| ensures ac[i].output != ac[j].output {
      if j >= |a| {
        assert ac[j] == c[j - |a|];
        if i < |a| {
          assert ac[i].output in Outputs(a);
        } else {
          assert ac[i] == c[i - |a|];
        }
      }
    }
  }

  /** Across all the discs of one session no two runs write the same
      output, and none overwrites one that existed. */
  lemma {:induction false} RunAllFresh(roots: seq<Root>, outFile: string, onDisk: Path -> bool,
                                       locate: (string, string) -> Path, made: set<Path>)
    ensures FreshOutputs(AllRuns(RunAll(roots, outFile, onDisk, locate, made)), onDisk, made)
    decreases |roots|
  {
    if |roots| > 0 {
      var b := CreateMkvs(roots[0].blurayDir, roots[0].titles, outFile, onDisk, locate, made);
      CreateMkvsFresh(roots[0].blurayDir, roots[0].titles, outFile, onDisk, locate, made);
      if b.stop.Some? {
        assert AllRuns([b]) == b.runs + AllRuns([]);
      } else {
        var rest := RunAll(roots[1..], outFile, onDisk, locate, made + Outputs(b.runs));
        RunAllFresh(roots[1..], outFile, onDisk, locate, made + Outputs(b.runs));
        assert ([b] + rest)[1..] == rest;
        assert AllRuns([b] + rest) == b.runs + AllRuns(rest);
        FreshConcat(b.runs, AllRuns(rest), onDisk, made);
      }
    }
  }

  /** The user answered exactly "y" to resuming with the JSON file. */
  predicate Resumed(jsonExists: bool, answers: seq<string>)
  {
    jsonExists && |answers| > 0 && answers[0] == "y"
  }

  /** One session of main: the discs worked on and the batches run. */
  datatype Session = Session(roots: seq<Root>, batches: seq<Batch>)

  /** main: with the JSON file present the user is asked whether to resume
      with it; an answer of exactly "y" starts from the discs
      filterBlurayInfo keeps and runs the -d loop with `selection` still
      "y". Otherwise at least one -d directory is required: without one the
      JSON path is printed relative to the working directory, which raises
      ValueError unless the path as given lies under it (`jsonUnderCwd`),
      and exits with 1; each -d directory is then asked afresh. Every disc
      is then remuxed in turn. */
  function Main(jsonExists: bool, jsonUnderCwd: bool, loaded: Loaded, dirs: seq<string>, answers: seq<string>,
                outFile: string, onDisk: Path -> bool, locate: (string, string) -> Path): (r: Result<Session>)
    ensures jsonExists && |answers| == 0 ==> r == Fail(EOFError)
    ensures !Resumed(jsonExists, answers) && |dirs| == 0 && (jsonExists ==> |answers| > 0) ==>
      r == Fail(if jsonUnderCwd then Exit(1) else ValueError)
    ensures r.Ok? && Resumed(jsonExists, answers) ==>
      var kept := FilterBlurayInfo(true, loaded, onDisk, locate);
      |kept| <= |r.value.roots| && r.value.roots[..|kept|] == kept
    ensures r.Ok? && !Resumed(jsonExists, answers) ==>
      Dirs(r.value.roots) == seq(|dirs|, k requires 0 <= k < |dirs| => PathString(PathOf(dirs[k])))
    ensures r.Ok? ==> r.value.batches == RunAll(r.value.roots, outFile, onDisk, locate, {})
  {
    if jsonExists && |answers| == 0 then Fail(EOFError)
    else
      var discs :=
        if Resumed(jsonExists, answers) then
          AddDiscs(dirs, FilterBlurayInfo(true, loaded, onDisk, locate), "y", answers, 1, onDisk, locate)
        else if |dirs| == 0 then Fail(if jsonUnderCwd then Exit(1) else ValueError)
        else AskDiscs(dirs, answers, if jsonExists then 1 else 0, onDisk, locate);
      match discs
      case Fail(f) => Fail(f)
      case Ok(d) => Ok(Session(d.0, RunAll(d.0, outFile, onDisk, locate, {})))
  }

  /** Resuming with -d directories that are distinct and not yet listed
      lists no directory twice. */
  lemma MainResumesFresh(jsonExists: bool, jsonUnderCwd: bool, loaded: Loaded, dirs: seq<string>,
                         answers: seq<string>, outFile: string, onDisk: Path -> bool,
                         locate: (string, string) -> Path)
    requires Resumed(jsonExists, answers)
    requires FreshDirs(dirs, FilterBlurayInfo(true, loaded, onDisk, locate))
    ensures var r := Main(jsonExists, jsonUnderCwd, loaded, dirs, answers, outFile, onDisk, locate);
      r.Ok? ==> NewFrom(r.value.roots, |FilterBlurayInfo(true, loaded, onDisk, locate)|)
  {
    var kept := FilterBlurayInfo(true, loaded, onDisk, locate);
    AddDiscsAgree(dirs, kept, "y", answers, 1, onDisk, locate);
    CorrectedAddDiscsNew(dirs, kept, answers, 1, onDisk, locate);
  }
}

=== FILE: bluray_legacy.dfy ===
// extract_bluray/extract_bluray.py: the earlier revision of the Blu-ray
// remuxer. Paths are plain strings joined with os.path.join, the extension
// is the last '.'-field of the name, and a title whose path cannot be built
// stops the batch. The title loop of getBlurayInfo is the one of
// misc-scripts/extract_bluray.py (Bluray.AskTitles).
module BlurayLegacy {
  import opened Results
  import opened Text
  import opened PyPath
  import Bluray

  /** `fileName.split(".")[-1]`. */
  function Ext(fileName: string): string
  {
    LastField(fileName, '.')
  }

  /** getBluRayFilePath: BDMV/STREAM for an extension holding "m2ts",
      BDMV/PLAYLIST for one holding "mpls" (the later test wins), "" for
      anything else. */
  function FilePath(dir: string, fileName: string): (r: string)
    ensures r == "" <==> !Contains(Ext(fileName), "m2ts") && !Contains(Ext(fileName), "mpls")
  {
    var ext := Ext(fileName);
    if Contains(ext, "mpls") then
      NonEmptyJoin(dir, "BDMV/PLAYLIST", fileName);
      OsJoin(OsJoin(dir, "BDMV/PLAYLIST"), fileName)
    else if Contains(ext, "m2ts") then
      NonEmptyJoin(dir, "BDMV/STREAM", fileName);
      OsJoin(OsJoin(dir, "BDMV/STREAM"), fileName)
    else ""
  }

  lemma NonEmptyJoin(dir: string, sub: string, fileName: string)
    requires |sub| > 0 && sub[0] != '/'
    requires Contains(Ext(fileName), "m2ts") || Contains(Ext(fileName), "mpls")
    ensures OsJoin(OsJoin(dir, sub), fileName) != ""
  {
    LastFieldIsSuffix(fileName, '.');
    ContainsIffOccurs(Ext(fileName), "m2ts");
    ContainsIffOccurs(Ext(fileName), "mpls");
    assert |Ext(fileName)| > 0;
    assert |OsJoin(dir, sub)| > 0;
  }

  /** For a relative title name with exactly "m2ts" or "mpls" as its
      extension, the path is the disc's BDMV/STREAM or BDMV/PLAYLIST
      directory, a slash, and the name. */
  lemma FilePathOfTitle(dir: string, fileName: string)
    requires Ext(fileName) == "m2ts" || Ext(fileName) == "mpls"
    requires fileName[0] != '/'
    ensures FilePath(dir, fileName)
      == OsJoin(dir, if Ext(fileName) == "m2ts" then "BDMV/STREAM" else "BDMV/PLAYLIST") + "/" + fileName
  {
    var ext := Ext(fileName);
    assert IsPrefix(ext, ext);
    assert Contains(ext, ext);
    var other := if ext == "m2ts" then "mpls" else "m2ts";
    ContainsIffOccurs(ext, other);
    forall i ensures !OccursAt(ext, other, i) {
      if 0 <= i && i + |other| <= |ext| {
        assert ext[i..i + |other|] == ext;
        assert ext[1] != other[1];
      }
    }
    var sub := if ext == "m2ts" then "BDMV/STREAM" else "BDMV/PLAYLIST";
    var d := OsJoin(dir, sub);
    assert d[|d| - 1] == sub[|sub| - 1];
  }

  /** titleExists: the extension must be exactly "m2ts" or "mpls", and the
      file must exist. */
  function TitleExists(dir: string, fileName: string, isFile: string -> bool): (r: bool)
    ensures r <==> (Ext(fileName) == "m2ts" || Ext(fileName) == "mpls") && isFile(FilePath(dir, fileName))
  {
    var ext := Ext(fileName);
    if ext != "m2ts" && ext != "mpls" then false
    else isFile(FilePath(dir, fileName))
  }

  lemma ExistingTitleHasPath(dir: string, fileName: string, isFile: string -> bool)
    requires TitleExists(dir, fileName, isFile)
    ensures FilePath(dir, fileName) != ""
  {
    var e := Ext(fileName);
    assert IsPrefix(e, e);
  }

  /** The JSON file the script keeps its discs in: its own base name up to
      the first '.', plus ".json". */
  function JsonFileName(script: string): (r: string)
    ensures var b := Basename(script);
      exists stem :: r == stem + ".json" && IsPrefix(stem, b) && '.' !in stem && (|stem| < |b| ==> b[|stem|] == '.')
  {
    var b := Basename(script);
    var stem := Split(b, '.')[0];
    assert '.' in b ==> stem == b[..IndexOfChar(b, '.')];
    stem + ".json"
  }

  /** getBlurayInfo: the root as given, and the titles asked for. */
  function GetBlurayInfo(dir: string, answers: seq<string>, isFile: string -> bool): (r: Result<Bluray.Root>)
    ensures r.Ok? ==> r.value.blurayDir == dir
    ensures r.Ok? ==> forall i :: 0 <= i < |r.value.titles| ==>
      TitleExists(dir, r.value.titles[i].filename, isFile) && FilePath(dir, r.value.titles[i].filename) != ""
  {
    match Bluray.AskTitles(answers, 0, (n: string) => TitleExists(dir, n, isFile))
    case Fail(f) => Fail(f)
    case Ok(asked) =>
      assert forall i :: 0 <= i < |asked.0| ==> TitleExists(dir, asked.0[i].filename, isFile);
      forall i | 0 <= i < |asked.0| ensures FilePath(dir, asked.0[i].filename) != "" {
        ExistingTitleHasPath(dir, asked.0[i].filename, isFile);
      }
      Ok(Bluray.Root(dir, asked.0))
  }

  // ------------------------------------------------------------ batchCreateMKVs

  /** extras/<folder>/<outFile> when "main" holds an "n", else
      <folder>/<outFile>. */
  function Output(t: Bluray.Title, outFile: string): string
  {
    if Contains(t.main, "n") then OsJoin(OsJoin("extras", t.folder), outFile) else OsJoin(t.folder, outFile)
  }

  /** For plain folder and file names the output is the slash-joined
      path, under extras/ exactly for extras. */
  lemma OutputShape(t: Bluray.Title, outFile: string)
    requires |t.folder| > 0 && t.folder[0] != '/' && t.folder[|t.folder| - 1] != '/'
    requires |outFile| > 0 && outFile[0] != '/'
    ensures Output(t, outFile) == (if Contains(t.main, "n") then "extras/" else "") + t.folder + "/" + outFile
  {
    var e := OsJoin("extras", t.folder);
    assert e == "extras/" + t.folder;
    assert e[|e| - 1] == t.folder[|t.folder| - 1];
  }

  /** The mkvmerge command of one title. */
  function Command(dir: string, t: Bluray.Title, outFile: string): seq<string>
  {
    ["mkvmerge", "--output", Output(t, outFile), FilePath(dir, t.filename)]
  }

  datatype Batch = Batch(commands: seq<seq<string>>, stop: Option<Failure>)

  /** The loop of batchCreateMKVs for a given command and path test: one
      command per title, in order, until a title that fails the test exits
      with 1. */
  function RunTitles(titles: seq<Bluray.Title>, cmd: Bluray.Title -> seq<string>, ok: Bluray.Title -> bool): (r: Batch)
    ensures |r.commands| <= |titles|
    ensures forall k :: 0 <= k < |r.commands| ==> r.commands[k] == cmd(titles[k]) && ok(titles[k])
    ensures r.stop.None? ==> |r.commands| == |titles|
    ensures r.stop.Some? ==> r.stop.value == Exit(1) && |r.commands| < |titles| && !ok(titles[|r.commands|])
    decreases |titles|
  {
    if |titles| == 0 then Batch([], None)
    else if !ok(titles[0]) then Batch([], Some(Exit(1)))
    else
      var rest := RunTitles(titles[1..], cmd, ok);
      assert forall k :: 0 <= k < |titles| - 1 ==> titles[1..][k] == titles[k + 1];
      Batch([cmd(titles[0])] + rest.commands, rest.stop)
  }

  /** batchCreateMKVs: one mkvmerge run per title, in order, until a title
      whose path is "" exits with 1. */
  function BatchCreateMkvs(dir: string, titles: seq<Bluray.Title>, outFile: string): (r: Batch)
    ensures |r.commands| <= |titles|
    ensures forall k :: 0 <= k < |r.commands| ==>
      (r.commands[k] == Command(dir, titles[k], outFile) && FilePath(dir, titles[k].filename) != "")
    ensures r.stop.None? ==> |r.commands| == |titles|
    ensures r.stop.Some? ==>
      (r.stop.value == Exit(1) && |r.commands| < |titles| && FilePath(dir, titles[|r.commands|].filename) == "")
  {
    RunTitles(titles, (t: Bluray.Title) => Command(dir, t, outFile), (t: Bluray.Title) => FilePath(dir, t.filename) != "")
  }

  /** The batch stops exactly when some title has no path: a disc recorded
      by getBlurayInfo is remuxed in full. */
  lemma RecordedDiscRunsThrough(dir: string, answers: seq<string>, isFile: string -> bool, outFile: string)
    ensures var r := GetBlurayInfo(dir, answers, isFile);
      r.Ok? ==> BatchCreateMkvs(dir, r.value.titles, outFile).stop.None?
  {
  }

  // ------------------------------------------------------------ main

  /** The name every title is remuxed to. */
  const OutFile := "source.mkv"

  /** main: with the JSON file present the user is asked whether to resume
      with it, and an answer of exactly "y" remuxes the disc it holds;
      otherwise the disc root is the first argument (exit 1 without one or
      when BDMV/index.bdmv is not a file under it) and its titles are
      asked for, the answers continuing after the resume question. */
  function Main(jsonExists: bool, saved: Bluray.Root, args: seq<string>, answers: seq<string>,
                isFile: string -> bool): (r: Result<Batch>)
    ensures jsonExists && |answers| == 0 ==> r == Fail(EOFError)
    ensures jsonExists && |answers| > 0 && answers[0] == "y" ==> r == Ok(BatchCreateMkvs(saved.blurayDir, saved.titles, OutFile))
    ensures r.Ok? && !(jsonExists && answers[0] == "y") ==>
      |args| > 1 && isFile(OsJoin(args[1], "BDMV/index.bdmv")) && r.value.stop.None?
    ensures (!(jsonExists && |answers| > 0 && answers[0] == "y") && (jsonExists ==> |answers| > 0)
             && (|args| <= 1 || !isFile(OsJoin(args[1], "BDMV/index.bdmv")))) ==> r == Fail(Exit(1))
  {
    if jsonExists && |answers| == 0 then Fail(EOFError)
    else if jsonExists && answers[0] == "y" then Ok(BatchCreateMkvs(saved.blurayDir, saved.titles, OutFile))
    else if |args| <= 1 || !isFile(OsJoin(args[1], "BDMV/index.bdmv")) then Fail(Exit(1))
    else
      var rest := if jsonExists then answers[1..] else answers;
      match GetBlurayInfo(args[1], rest, isFile)
      case Fail(f) => Fail(f)
      case Ok(info) =>
        RecordedDiscRunsThrough(args[1], rest, isFile, OutFile);
        Ok(BatchCreateMkvs(info.blurayDir, info.titles, OutFile))
  }
}

=== FILE: combined_mkv.dfy ===
// generate-combined-mkv/gen_combined_mkv.py: appends the "source.mkv" of
// every sub-directory into one file with mkvmerge, then gives the chapters
// mkvmerge generated the titles the user chose, keeping the DOCTYPE line
// that the XML library drops.
module CombinedMkv {
  import opened Results
  import opened Text
  import Lists
  import opened PyPath

  const Source := "source.mkv"
  const ChapJson := "chapNames.json"
  const ChaptersXml := "chapters.xml"
  const ChaptersNewXml := "chapters-new.xml"

  // ------------------------------------------------------------ getDirsMkvs

  /** A directory entry that is a directory holding `sourceFile`. */
  function HoldsSource(sourceFile: string, isDir: string -> bool, isFile: string -> bool): string -> bool
  {
    x => isDir(x) && isFile(OsJoin(x, sourceFile))
  }

  /** getDirsMkvs: the directories of the listing that hold `sourceFile`,
      in listing order, each as often as the listing names it. */
  function DirsMkvs(listing: seq<string>, sourceFile: string, isDir: string -> bool, isFile: string -> bool)
    : (r: seq<string>)
    ensures forall i :: 0 <= i < |r| ==> r[i] in listing && isDir(r[i]) && isFile(OsJoin(r[i], sourceFile))
    ensures forall i :: (0 <= i < |listing| && isDir(listing[i]) && isFile(OsJoin(listing[i], sourceFile))
      ==> listing[i] in r)
  {
    var q := HoldsSource(sourceFile, isDir, isFile);
    var r := Lists.Filter(listing, q);
    assert forall i :: 0 <= i < |r| ==> q(r[i]);
    assert forall i :: (0 <= i < |listing| && isDir(listing[i]) && isFile(OsJoin(listing[i], sourceFile))
      ==> q(listing[i]));
    r
  }

  /** Each qualifying entry is kept exactly as often as it is listed. */
  lemma DirsMkvsCounts(listing: seq<string>, sourceFile: string, isDir: string -> bool, isFile: string -> bool,
                       x: string)
    ensures multiset(DirsMkvs(listing, sourceFile, isDir, isFile))[x]
            == if isDir(x) && isFile(OsJoin(x, sourceFile)) then multiset(listing)[x] else 0
  {
    Lists.FilterCounts(listing, HoldsSource(sourceFile, isDir, isFile), x);
  }

  /** The loop of getDirsMkvs. */
  method GetDirsMkvs(listing: seq<string>, sourceFile: string, isDir: string -> bool, isFile: string -> bool)
    returns (dirs: seq<string>)
    ensures dirs == DirsMkvs(listing, sourceFile, isDir, isFile)
  {
    var q := HoldsSource(sourceFile, isDir, isFile);
    dirs := [];
    for i := 0 to |listing|
      invariant dirs == Lists.Filter(listing[..i], q)
    {
      Lists.FilterSnoc(listing, i, q);
      var x := listing[i];
      if isDir(x) {
        var mkvpath := OsJoin(x, sourceFile);
        if isFile(mkvpath) {
          dirs := dirs + [x];
        }
      }
    }
    assert listing[..|listing|] == listing;
  }

  // ------------------------------------------------------------ titles

  /** getChapterTitles: one answer per directory, in directory order;
      running out of answers is an EOFError. */
  function ChapterTitles(dirs: seq<string>, answers: seq<string>): (r: Result<seq<string>>)
    ensures r.Ok? <==> |answers| >= |dirs|
    ensures r.Fail? ==> r.failure == EOFError
    ensures r.Ok? ==> |r.value| == |dirs| && forall i :: 0 <= i < |dirs| ==> r.value[i] == answers[i]
  {
    if |answers| < |dirs| then Fail(EOFError) else Ok(answers[..|dirs|])
  }

  /** Where main takes the titles from, and whether it writes them to
      chapNames.json. */
  datatype Titles = Titles(titles: seq<string>, written: bool)

  /** The first answer that is "y" or "n", when there is one. */
  function FirstChoice(answers: seq<string>): (r: Option<nat>)
    ensures r.Some? ==> (r.value < |answers| && (answers[r.value] == "y" || answers[r.value] == "n")
      && forall j :: 0 <= j < r.value ==> answers[j] != "y" && answers[j] != "n")
    ensures r.None? ==> forall j :: 0 <= j < |answers| ==> answers[j] != "y" && answers[j] != "n"
    decreases |answers|
  {
    if |answers| == 0 then None
    else if answers[0] == "y" || answers[0] == "n" then Some(0)
    else match FirstChoice(answers[1..])
      case None => None
      case Some(k) => Some(k + 1)
  }

  /** main's choice of titles: without chapNames.json the user is asked
      and the answers are written to it; with it, the first "y" or "n" of
      the answers decides between the stored titles and asking again. */
  function ChooseTitles(dirs: seq<string>, jsonExists: bool, answers: seq<string>, stored: Result<seq<string>>)
    : (r: Result<Titles>)
    ensures !jsonExists ==> (r.Ok? <==> |answers| >= |dirs|)
    ensures !jsonExists && r.Ok? ==> r.value.written && r.value.titles == answers[..|dirs|]
    ensures jsonExists && FirstChoice(answers).None? ==> r == Fail(EOFError)
    ensures r.Ok? && !r.value.written ==> jsonExists && stored == Ok(r.value.titles)
    ensures r.Ok? && r.value.written ==> |r.value.titles| == |dirs|
  {
    if !jsonExists then
      match ChapterTitles(dirs, answers)
      case Fail(f) => Fail(f)
      case Ok(ts) => Ok(Titles(ts, true))
    else match FirstChoice(answers)
      case None => Fail(EOFError)
      case Some(k) =>
        if answers[k] == "y" then
          (match stored
           case Fail(f) => Fail(f)
           case Ok(ts) => Ok(Titles(ts, false)))
        else
          match ChapterTitles(dirs, answers[k + 1..])
          case Fail(f) => Fail(f)
          case Ok(ts) => Ok(Titles(ts, true))
  }

  // ------------------------------------------------------------ createMKV

  /** createMKV: the first directory's file, then every later one with a
      '+' so mkvmerge appends it, and a chapter generated per appended
      file. An empty directory list is an IndexError. */
  function CreateMkv(dirs: seq<string>, sourceFile: string, outFile: string): (r: Result<seq<string>>)
    ensures r.Fail? <==> |dirs| == 0
    ensures r.Fail? ==> r.failure == IndexError
    ensures r.Ok? ==> (|r.value| == |dirs| + 5
      && r.value[..3] == ["mkvmerge", "--output", outFile]
      && r.value[|r.value| - 2..] == ["--generate-chapters", "when-appending"])
  {
    if |dirs| == 0 then Fail(IndexError)
    else
      Ok(["mkvmerge", "--output", outFile, OsJoin(dirs[0], sourceFile)]
         + seq(|dirs| - 1, i requires 0 <= i < |dirs| - 1 => "+" + OsJoin(dirs[i + 1], sourceFile))
         + ["--generate-chapters", "when-appending"])
  }

  /** The files an mkvmerge command of that shape reads, in order: the
      first input as it is, each later one without its '+'. */
  function AppendedInputs(cmd: seq<string>): (r: seq<string>)
    requires |cmd| >= 6
    ensures |r| == |cmd| - 5
  {
    [cmd[3]] + seq(|cmd| - 6, i requires 0 <= i < |cmd| - 6 => if |cmd[4 + i]| > 0 then cmd[4 + i][1..] else "")
  }

  /** mkvmerge reads `<dir>/<sourceFile>` of every directory, in
      directory order, appending all but the first. */
  lemma CreateMkvAppendsAll(dirs: seq<string>, sourceFile: string, outFile: string)
    requires |dirs| > 0
    ensures var cmd := CreateMkv(dirs, sourceFile, outFile).value;
      AppendedInputs(cmd) == seq(|dirs|, i requires 0 <= i < |dirs| => OsJoin(dirs[i], sourceFile))
      && forall i :: 4 <= i < |cmd| - 2 ==> cmd[i][0] == '+'
  {
  }

  // ------------------------------------------------------------ applyCustomTitles

  /** The first line holding "DOCTYPE". */
  function FirstDoctype(lines: seq<string>): (r: Option<string>)
    ensures r.Some? ==> r.value in lines && Contains(r.value, "DOCTYPE")
    ensures r.None? <==> forall i :: 0 <= i < |lines| ==> !Contains(lines[i], "DOCTYPE")
    decreases |lines|
  {
    if |lines| == 0 then None
    else if Contains(lines[0], "DOCTYPE") then Some(lines[0])
    else
      var r := FirstDoctype(lines[1..]);
      assert forall i :: 1 <= i < |lines| ==> lines[1..][i - 1] == lines[i];
      r
  }

  /** Every line followed by a newline. */
  function Terminated(lines: seq<string>): string
    decreases |lines|
  {
    if |lines| == 0 then "" else lines[0] + "\n" + Terminated(lines[1..])
  }

  /** The file chapters-new.xml: the serialised tree's first line, the
      DOCTYPE line, then each further line with a newline. */
  function NewChaptersFile(lines: seq<string>, doctype: string): string
    requires |lines| > 0
  {
    lines[0] + "\n" + doctype + "\n" + Terminated(lines[1..])
  }

  lemma {:induction false} TerminatedIsJoin(lines: seq<string>)
    ensures Terminated(lines) == Join("\n", lines + [""])
    decreases |lines|
  {
    if |lines| > 0 {
      TerminatedIsJoin(lines[1..]);
      assert (lines + [""])[1..] == lines[1..] + [""];
    }
  }

  /** Read back line by line, chapters-new.xml is the serialised tree with
      the DOCTYPE line put back in second place, ending in a newline. */
  lemma NewChaptersLines(lines: seq<string>, doctype: string)
    requires |lines| > 0 && '\n' !in doctype
    requires forall i :: 0 <= i < |lines| ==> '\n' !in lines[i]
    ensures Split(NewChaptersFile(lines, doctype), '\n') == [lines[0], doctype] + lines[1..] + [""]
  {
    var parts := [lines[0], doctype] + lines[1..] + [""];
    TerminatedIsJoin(lines[1..]);
    assert parts[1..] == [doctype] + lines[1..] + [""];
    assert parts[2..] == lines[1..] + [""];
    assert Join("\n", parts) == NewChaptersFile(lines, doctype);
    SplitJoin(parts, '\n');
  }

  /** The texts the ChapterString elements receive: the i-th gets the i-th
      title; more chapters than titles is an IndexError. */
  function ChapterTexts(chapters: nat, titles: seq<string>): (r: Result<seq<string>>)
    ensures r.Ok? <==> chapters <= |titles|
    ensures r.Fail? ==> r.failure == IndexError
    ensures r.Ok? ==> |r.value| == chapters && forall i :: 0 <= i < chapters ==> r.value[i] == titles[i]
  {
    if chapters > |titles| then Fail(IndexError) else Ok(titles[..chapters])
  }

  /** applyCustomTitles on the extracted chapters file `xml`, whose tree
      has `chapters` ChapterString elements; `serialise` stands for the XML
      library writing the tree with the given chapter texts. Without a
      DOCTYPE line the write of `doctype` fails as a name never bound. */
  function ApplyCustomTitles(xml: string, chapters: nat, titles: seq<string>, serialise: seq<string> -> string)
    : (r: Result<string>)
    ensures r.Ok? <==> chapters <= |titles| && FirstDoctype(Split(xml, '\n')).Some?
    ensures r.Ok? ==> Split(r.value, '\n') == (var lines := Split(serialise(titles[..chapters]), '\n');
      [lines[0], FirstDoctype(Split(xml, '\n')).value] + lines[1..] + [""])
  {
    match ChapterTexts(chapters, titles)
    case Fail(f) => Fail(f)
    case Ok(texts) =>
      var lines := Split(serialise(texts), '\n');
      match FirstDoctype(Split(xml, '\n'))
      case None => Fail(NameError)
      case Some(doctype) =>
        NewChaptersLines(lines, doctype);
        Ok(NewChaptersFile(lines, doctype))
  }

  // ------------------------------------------------------------ main

  /** What main does, in order: the titles, the mkvmerge command, the
      extraction and the new chapters file, and the mkvpropedit command. */
  datatype Plan = Plan(titles: Titles, merge: seq<string>, extract: seq<string>, chaptersNew: string,
                       propedit: seq<string>)

  function Main(listing: seq<string>, isDir: string -> bool, isFile: string -> bool, answers: seq<string>,
                stored: Result<seq<string>>, xml: string, chapters: nat, serialise: seq<string> -> string)
    : (r: Result<Plan>)
    ensures r.Ok? ==> |DirsMkvs(listing, Source, isDir, isFile)| > 0
    ensures r.Ok? ==> r.value.merge == CreateMkv(DirsMkvs(listing, Source, isDir, isFile), Source, Source).value
    ensures r.Ok? ==> r.value.propedit == ["mkvpropedit", Source, "--chapters", ChaptersNewXml]
    ensures r.Ok? ==> ApplyCustomTitles(xml, chapters, r.value.titles.titles, serialise) == Ok(r.value.chaptersNew)
  {
    var dirs := DirsMkvs(listing, Source, isDir, isFile);
    match ChooseTitles(dirs, isFile(ChapJson), answers, stored)
    case Fail(f) => Fail(f)
    case Ok(t) =>
      match CreateMkv(dirs, Source, Source)
      case Fail(f) => Fail(f)
      case Ok(merge) =>
        match ApplyCustomTitles(xml, chapters, t.titles, serialise)
        case Fail(f) => Fail(f)
        case Ok(file) =>
          Ok(Plan(t, merge, ["mkvextract", Source, "chapters", ChaptersXml], file,
                  ["mkvpropedit", Source, "--chapters", ChaptersNewXml]))
  }
}

=== FILE: compare_depth.dfy ===
// 3d-misc/compare-xml-depth.py: whether two BDN XML files give their
// Graphic elements the same Depth attributes, element by element.
module CompareDepth {
  import opened Results
  import Bdn

  /** The two graphics at one position both have a Depth and it is the
      same text. */
  predicate SameDepth(a: Bdn.Attrib, b: Bdn.Attrib)
  {
    "Depth" in a && "Depth" in b && a["Depth"] == b["Depth"]
  }

  /** compareDepth from position `i` on: KeyError at the first graphic
      without a Depth, false at the first pair of different depths, true
      when every pair agrees. */
  function CompareFrom(g1: seq<Bdn.Attrib>, g2: seq<Bdn.Attrib>, i: nat): (r: Result<bool>)
    requires |g1| == |g2| && i <= |g1|
    ensures r.Fail? ==> r.failure == KeyError
    decreases |g1| - i
  {
    if i == |g1| then Ok(true)
    else if "Depth" !in g1[i] || "Depth" !in g2[i] then Fail(KeyError)
    else if g1[i]["Depth"] != g2[i]["Depth"] then Ok(false)
    else CompareFrom(g1, g2, i + 1)
  }

  /** compareDepth: files with different numbers of graphics stop the
      script with status 1. */
  function CompareDepth(g1: seq<Bdn.Attrib>, g2: seq<Bdn.Attrib>): (r: Result<bool>)
    ensures |g1| != |g2| ==> r == Fail(Exit(1))
    ensures r.Fail? && |g1| == |g2| ==> r.failure == KeyError
  {
    if |g1| != |g2| then Fail(Exit(1)) else CompareFrom(g1, g2, 0)
  }

  /** True exactly when every pair from `i` on agrees; a KeyError exactly
      when a graphic without Depth comes before any pair that differs. */
  lemma {:induction false} CompareFromMeans(g1: seq<Bdn.Attrib>, g2: seq<Bdn.Attrib>, i: nat)
    requires |g1| == |g2| && i <= |g1|
    ensures CompareFrom(g1, g2, i) == Ok(true) <==> forall k :: i <= k < |g1| ==> SameDepth(g1[k], g2[k])
    ensures CompareFrom(g1, g2, i).Fail? <==> exists k :: (i <= k < |g1| && ("Depth" !in g1[k] || "Depth" !in g2[k])
      && forall j :: i <= j < k ==> SameDepth(g1[j], g2[j]))
    decreases |g1| - i
  {
    if i < |g1| {
      CompareFromMeans(g1, g2, i + 1);
      if CompareFrom(g1, g2, i).Fail? && "Depth" in g1[i] && "Depth" in g2[i] {
        var k :| i + 1 <= k < |g1| && ("Depth" !in g1[k] || "Depth" !in g2[k])
          && forall j :: i + 1 <= j < k ==> SameDepth(g1[j], g2[j]);
        assert forall j :: i <= j < k ==> SameDepth(g1[j], g2[j]);
      }
      if !CompareFrom(g1, g2, i).Fail? {
        forall k | i <= k < |g1| && ("Depth" !in g1[k] || "Depth" !in g2[k])
          ensures exists j :: i <= j < k && !SameDepth(g1[j], g2[j])
        {
          if k == i {
            assert false;
          } else if forall j :: i + 1 <= j < k ==> SameDepth(g1[j], g2[j]) {
            assert !SameDepth(g1[i], g2[i]);
          }
        }
      }
    }
  }

  /** The equal-length case of the above, for whole files. */
  lemma CompareDepthMeans(g1: seq<Bdn.Attrib>, g2: seq<Bdn.Attrib>)
    ensures CompareDepth(g1, g2) == Ok(true) <==> (|g1| == |g2| && forall k :: 0 <= k < |g1| ==> SameDepth(g1[k], g2[k]))
    ensures CompareDepth(g1, g2) == Ok(false) ==> exists k :: 0 <= k < |g1| && !SameDepth(g1[k], g2[k])
  {
    if |g1| == |g2| {
      CompareFromMeans(g1, g2, 0);
    }
  }

  /** The loop of compareDepth. */
  method CompareGraphics(g1: seq<Bdn.Attrib>, g2: seq<Bdn.Attrib>) returns (r: Result<bool>)
    ensures r == CompareDepth(g1, g2)
  {
    if |g1| != |g2| {
      return Fail(Exit(1));
    }
    for x := 0 to |g1|
      invariant CompareFrom(g1, g2, 0) == CompareFrom(g1, g2, x)
    {
      if "Depth" !in g1[x] || "Depth" !in g2[x] {
        return Fail(KeyError);
      }
      if g1[x]["Depth"] != g2[x]["Depth"] {
        return Ok(false);
      }
    }
    return Ok(true);
  }

  /** main: two arguments, and status 1 when the depths differ. */
  function Main(args: seq<string>, g1: seq<Bdn.Attrib>, g2: seq<Bdn.Attrib>): (r: Result<()>)
    ensures |args| < 2 ==> r == Fail(Exit(1))
    ensures r.Ok? <==> |args| >= 2 && CompareDepth(g1, g2) == Ok(true)
  {
    if |args| < 2 then Fail(Exit(1))
    else match CompareDepth(g1, g2)
      case Fail(f) => Fail(f)
      case Ok(same) => if same then Ok(()) else Fail(Exit(1))
  }
}

=== FILE: depth_plane.dfy ===
// The 3D-plane (.ofs) files of Blu-ray 3D discs: one depth byte per video
// frame, 128 meaning "undefined", after an optional 41-byte header that
// starts with a 7-byte magic. 3d-misc/3d-plane.py reports statistics over
// such a plane; 3d-misc/AddDepthToXml.py (module AddDepth) reads windows of
// it.
module DepthPlane {
  import opened Results

  type Byte = b: int | 0 <= b < 256

  /** b"\x89OFS\r\n\x1a". */
  const OfsMagic: seq<Byte> := [0x89, 0x4F, 0x46, 0x53, 0x0D, 0x0A, 0x1A]
  const OfsHeaderSize: nat := 41
  const UndefinedDepth: Byte := 128

  /** `plane[41:]` when the plane starts with the magic. */
  function StripOfs(raw: seq<Byte>): (r: seq<Byte>)
    ensures |r| <= |raw| && r == raw[|raw| - |r|..]
  {
    if |raw| >= 7 && raw[..7] == OfsMagic then
      if |raw| >= OfsHeaderSize then raw[OfsHeaderSize..] else []
    else raw
  }

  /** A header followed by frames leaves the frames; a plane without the
      magic is kept whole. */
  lemma StripOfsHeader(header: seq<Byte>, frames: seq<Byte>)
    ensures |header| == OfsHeaderSize && header[..7] == OfsMagic ==> StripOfs(header + frames) == frames
    ensures !(|frames| >= 7 && frames[..7] == OfsMagic) ==> StripOfs(frames) == frames
  {
    if |header| == OfsHeaderSize && header[..7] == OfsMagic {
      assert (header + frames)[..7] == header[..7];
      assert (header + frames)[OfsHeaderSize..] == frames;
    }
  }

  /** 3d-plane.py's value of a defined byte: bytes above 128 are negative,
      128 - byte. */
  function PlaneValue(b: Byte): (v: int)
    requires b != UndefinedDepth
    ensures -127 <= v <= 127
    ensures (v < 0) == (b > 128)
  {
    if b > 128 then 128 - b else b
  }

  /** AddDepthToXml.py's value of a defined byte: the low seven bits
      (`h & 127`), negated when the top bit is set (`h & 128`), doubled. */
  function EventValue(b: Byte): (v: int)
    requires b != UndefinedDepth
    ensures -254 <= v <= 254 && v % 2 == 0
  {
    var low := b % 128;
    var signed := if b >= 128 then -low else low;
    signed * 2
  }

  /** The two scripts read a byte alike, AddDepthToXml.py at twice the
      scale. */
  lemma EventValueIsDoubled(b: Byte)
    requires b != UndefinedDepth
    ensures EventValue(b) == 2 * PlaneValue(b)
  {
  }

  // ------------------------------------------------------------ statistics

  /** The number of undefined frames. */
  function CountUndefined(d: seq<Byte>): (n: nat)
    ensures n <= |d|
    decreases |d|
  {
    if |d| == 0 then 0
    else CountUndefined(d[..|d| - 1]) + (if d[|d| - 1] == UndefinedDepth then 1 else 0)
  }

  /** The values of the defined frames, in order. */
  function Defined(d: seq<Byte>): seq<int>
    decreases |d|
  {
    if |d| == 0 then []
    else Defined(d[..|d| - 1]) + (if d[|d| - 1] == UndefinedDepth then [] else [PlaneValue(d[|d| - 1])])
  }

  /** Every frame is counted once: defined or undefined. */
  lemma {:induction false} DefinedCount(d: seq<Byte>)
    ensures |Defined(d)| + CountUndefined(d) == |d|
    ensures forall v :: v in Defined(d) ==> -127 <= v <= 127
    decreases |d|
  {
    if |d| > 0 {
      DefinedCount(d[..|d| - 1]);
    }
  }

  function Sum(vs: seq<int>): int
    decreases |vs|
  {
    if |vs| == 0 then 0 else Sum(vs[..|vs| - 1]) + vs[|vs| - 1]
  }

  /** 1 for the first frame plus one for every frame whose byte differs
      from the one before. */
  function Cuts(d: seq<Byte>): nat
    decreases |d|
  {
    if |d| == 0 then 0
    else if |d| == 1 then 1
    else Cuts(d[..|d| - 1]) + (if d[|d| - 1] != d[|d| - 2] then 1 else 0)
  }

  /** The index of the first defined frame, -1 when there is none. */
  predicate FirstDefinedAt(d: seq<Byte>, i: int)
  {
    if i == -1 then forall k :: 0 <= k < |d| ==> d[k] == UndefinedDepth
    else 0 <= i < |d| && d[i] != UndefinedDepth && forall k :: 0 <= k < i ==> d[k] == UndefinedDepth
  }

  /** The index of the last defined frame, -1 when there is none. */
  predicate LastDefinedAt(d: seq<Byte>, i: int)
  {
    if i == -1 then forall k :: 0 <= k < |d| ==> d[k] == UndefinedDepth
    else 0 <= i < |d| && d[i] != UndefinedDepth && forall k :: i < k < |d| ==> d[k] == UndefinedDepth
  }

  /** The least and greatest defined value, 128 and -128 when there is
      none. */
  predicate Extremes(vs: seq<int>, lo: int, hi: int)
  {
    if |vs| == 0 then lo == 128 && hi == -128
    else lo in vs && hi in vs && forall v :: v in vs ==> lo <= v <= hi
  }

  /** One more frame, as the loop body sees it. */
  lemma PlaneStep(d: seq<Byte>, i: nat)
    requires i < |d|
    ensures CountUndefined(d[..i + 1]) == CountUndefined(d[..i]) + (if d[i] == UndefinedDepth then 1 else 0)
    ensures Defined(d[..i + 1]) == Defined(d[..i]) + (if d[i] == UndefinedDepth then [] else [PlaneValue(d[i])])
    ensures Cuts(d[..i + 1]) == if i == 0 then 1 else Cuts(d[..i]) + (if d[i] != d[i - 1] then 1 else 0)
  {
    assert d[..i + 1][..i] == d[..i];
  }

  lemma SumSnoc(vs: seq<int>, v: int)
    ensures Sum(vs + [v]) == Sum(vs) + v
  {
    assert (vs + [v])[..|vs|] == vs;
  }

  lemma ExtremesSnoc(vs: seq<int>, lo: int, hi: int, v: int)
    requires Extremes(vs, lo, hi) && -127 <= v <= 127
    ensures Extremes(vs + [v], if v < lo then v else lo, if v > hi then v else hi)
  {
  }

  lemma FirstLastSnoc(d: seq<Byte>, i: nat, first: int, last: int)
    requires i < |d| && FirstDefinedAt(d[..i], first) && LastDefinedAt(d[..i], last)
    ensures d[i] == UndefinedDepth ==> FirstDefinedAt(d[..i + 1], first) && LastDefinedAt(d[..i + 1], last)
    ensures d[i] != UndefinedDepth ==>
      FirstDefinedAt(d[..i + 1], if first == -1 then i else first) && LastDefinedAt(d[..i + 1], i)
  {
  }

  datatype Stats = Stats(minVal: int, maxVal: int, total: int, undefined: nat, firstFrame: int, lastFrame: int, cuts: nat)

  /** What the loop of get3DPlanesData knows after the first `i` frames;
      `lastVal` is the previous byte (-1 standing for the initial "" that
      no byte equals). */
  predicate Inv(d: seq<Byte>, i: nat, s: Stats, lastVal: int)
  {
    i <= |d| && s.undefined == CountUndefined(d[..i]) && s.total == Sum(Defined(d[..i]))
    && Extremes(Defined(d[..i]), s.minVal, s.maxVal)
    && FirstDefinedAt(d[..i], s.firstFrame) && LastDefinedAt(d[..i], s.lastFrame)
    && s.cuts == Cuts(d[..i]) && lastVal == (if i == 0 then -1 else d[i - 1])
  }

  /** The loop body on frame `i`. */
  function Step(s: Stats, i: nat, b: Byte, lastVal: int): Stats
  {
    var cuts := if b != lastVal then s.cuts + 1 else s.cuts;
    if b == UndefinedDepth then s.(undefined := s.undefined + 1, cuts := cuts)
    else
      var v := PlaneValue(b);
      Stats(if v < s.minVal then v else s.minVal, if v > s.maxVal then v else s.maxVal, s.total + v,
            s.undefined, if s.firstFrame == -1 then i else s.firstFrame, i, cuts)
  }

  lemma StepInv(d: seq<Byte>, i: nat, s: Stats, lastVal: int)
    requires i < |d| && Inv(d, i, s, lastVal)
    ensures Inv(d, i + 1, Step(s, i, d[i], lastVal), d[i])
  {
    PlaneStep(d, i);
    FirstLastSnoc(d, i, s.firstFrame, s.lastFrame);
    if d[i] != UndefinedDepth {
      ExtremesSnoc(Defined(d[..i]), s.minVal, s.maxVal, PlaneValue(d[i]));
      SumSnoc(Defined(d[..i]), PlaneValue(d[i]));
    } else {
      assert Defined(d[..i + 1]) == Defined(d[..i]);
    }
  }

  /** get3DPlanesData over a whole plane. The report divides the total by
      the number of defined frames, so a plane with none ends in
      ZeroDivisionError. */
  method Get3DPlanesData(data: seq<Byte>) returns (r: Result<Stats>)
    ensures r.Fail? <==> CountUndefined(data) == |data|
    ensures r.Fail? ==> r.failure == ZeroDivision
    ensures r.Ok? ==> r.value.undefined == CountUndefined(data) && r.value.cuts == Cuts(data)
    ensures r.Ok? ==> r.value.total == Sum(Defined(data)) && Extremes(Defined(data), r.value.minVal, r.value.maxVal)
    ensures r.Ok? ==> FirstDefinedAt(data, r.value.firstFrame) && LastDefinedAt(data, r.value.lastFrame)
  {
    var minVal, maxVal, total, undefined := 128, -128, 0, 0;
    var firstFrame, lastFrame := -1, -1;
    var lastVal: int := -1;
    var cuts := 0;
    for i := 0 to |data|
      invariant Inv(data, i, Stats(minVal, maxVal, total, undefined, firstFrame, lastFrame, cuts), lastVal)
    {
      ghost var before := Stats(minVal, maxVal, total, undefined, firstFrame, lastFrame, cuts);
      ghost var previous := lastVal;
      StepInv(data, i, before, previous);
      var b := data[i];
      if b != lastVal {
        cuts := cuts + 1;
        lastVal := b;
      }
      if b == UndefinedDepth {
        undefined := undefined + 1;
        assert Stats(minVal, maxVal, total, undefined, firstFrame, lastFrame, cuts) == Step(before, i, b, previous);
        continue;
      }
      lastFrame := i;
      if firstFrame == -1 {
        firstFrame := i;
      }
      var v := PlaneValue(b);
      if v < minVal {
        minVal := v;
      }
      if v > maxVal {
        maxVal := v;
      }
      total := total + v;
      assert Stats(minVal, maxVal, total, undefined, firstFrame, lastFrame, cuts) == Step(before, i, b, previous);
    }
    assert data[..|data|] == data;
    if undefined == |data| {
      return Fail(ZeroDivision);
    }
    r := Ok(Stats(minVal, maxVal, total, undefined, firstFrame, lastFrame, cuts));
  }

  /** main over sys.argv: without a file argument it prints its usage and
      exits with 1; a file that cannot be opened (`read` gives nothing) is an
      OSError; otherwise the header is stripped and the statistics of what
      is left are computed. */
  method PlaneMain(argv: seq<string>, read: string -> Option<seq<Byte>>) returns (r: Result<Stats>)
    ensures |argv| < 2 ==> r == Fail(Exit(1))
    ensures |argv| >= 2 && read(argv[1]).None? ==> r == Fail(OSError)
    ensures r.Ok? ==> (|argv| >= 2 && read(argv[1]).Some?
      && r.value.undefined + |Defined(StripOfs(read(argv[1]).value))| == |StripOfs(read(argv[1]).value)|)
    ensures |argv| >= 2 && read(argv[1]).Some? ==>
      (r.Fail? <==> CountUndefined(StripOfs(read(argv[1]).value)) == |StripOfs(read(argv[1]).value)|)
  {
    if |argv| < 2 {
      return Fail(Exit(1));
    }
    match read(argv[1])
    case None =>
      r := Fail(OSError);
    case Some(raw) =>
      r := Get3DPlanesData(StripOfs(raw));
      DefinedCount(StripOfs(raw));
  }
}

=== FILE: dsd_to_flac.dfy ===
// dsd-to-flac/dsd-to-flac.py: mirrors a tree of DSD (.dsf) files as FLAC.
// The walk of the input tree is given as the list of file paths os.walk
// yields; the plan is the folders to create, the files to copy and the
// ffmpeg commands to run, in the script's order.
module DsdToFlac {
  import opened Results
  import opened Text
  import opened PyPath

  // ------------------------------------------------------------ options

  /** main's settings once the options have been read. */
  datatype Settings = Settings(dsdDir: string, flacDir: string, sampleRate: string, bitdepth: string)

  /** main's checks: both directories given and a bit depth of "24" or
      "16"; anything else exits with 1. */
  function Validate(dsdDir: Option<string>, flacDir: Option<string>, sampleRate: string, bitdepth: string)
    : (r: Result<Settings>)
    ensures r.Ok? <==> dsdDir.Some? && flacDir.Some? && (bitdepth == "24" || bitdepth == "16")
    ensures r.Fail? ==> r.failure == Exit(1)
    ensures r.Ok? ==> r.value == Settings(dsdDir.value, flacDir.value, sampleRate, bitdepth)
  {
    if dsdDir.None? || flacDir.None? then Fail(Exit(1))
    else if bitdepth != "24" && bitdepth != "16" then Fail(Exit(1))
    else Ok(Settings(dsdDir.value, flacDir.value, sampleRate, bitdepth))
  }

  /** transcodeDSDtoFLAC's sample format. `bitdepth in "24"` and
      `bitdepth in "16"` are substring tests, the later one winning; when
      neither holds `depth` is never bound. */
  function SampleFormat(bitdepth: string): (r: Result<string>)
    ensures r.Ok? <==> Contains("24", bitdepth) || Contains("16", bitdepth)
    ensures r.Fail? ==> r.failure == NameError
    ensures r.Ok? ==> r.value == (if Contains("16", bitdepth) then "s16" else "s32")
  {
    if Contains("16", bitdepth) then Ok("s16")
    else if Contains("24", bitdepth) then Ok("s32")
    else Fail(NameError)
  }

  /** The two bit depths main lets through map to 32-bit and 16-bit
      samples. */
  lemma ValidatedSampleFormat(dsdDir: Option<string>, flacDir: Option<string>, sampleRate: string, bitdepth: string)
    requires Validate(dsdDir, flacDir, sampleRate, bitdepth).Ok?
    ensures SampleFormat(bitdepth) == Ok(if bitdepth == "24" then "s32" else "s16")
  {
    assert IsPrefix(bitdepth, bitdepth);
    if bitdepth == "24" {
      ContainsIffOccurs("16", "24");
      forall i ensures !OccursAt("16", "24", i) {
        if 0 <= i && i + 2 <= 2 {
          assert "16"[i..i + 2][0] != "24"[0];
        }
      }
    }
  }

  // ------------------------------------------------------------ getFilesAndDirectories

  /** A file is DSD exactly when its last '.'-field, lower-cased, is "dsf". */
  predicate IsDsf(f: string)
  {
    Lower(LastField(f, '.')) == "dsf"
  }

  /** listDsf: the DSD files, in walk order. */
  function DsfFiles(fs: seq<string>): seq<string>
    decreases |fs|
  {
    if |fs| == 0 then []
    else DsfFiles(fs[..|fs| - 1]) + (if IsDsf(fs[|fs| - 1]) then [fs[|fs| - 1]] else [])
  }

  /** listNotDsf: every other file, in walk order. */
  function OtherFiles(fs: seq<string>): seq<string>
    decreases |fs|
  {
    if |fs| == 0 then []
    else OtherFiles(fs[..|fs| - 1]) + (if IsDsf(fs[|fs| - 1]) then [] else [fs[|fs| - 1]])
  }

  /** Every walked file lands in exactly one of the two lists. */
  lemma {:induction false} PartitionExact(fs: seq<string>)
    ensures multiset(DsfFiles(fs)) + multiset(OtherFiles(fs)) == multiset(fs)
    ensures forall f :: f in DsfFiles(fs) <==> f in fs && IsDsf(f)
    ensures forall f :: f in OtherFiles(fs) <==> f in fs && !IsDsf(f)
    decreases |fs|
  {
    if |fs| > 0 {
      var init := fs[..|fs| - 1];
      PartitionExact(init);
      assert fs == init + [fs[|fs| - 1]];
    }
  }

  /** The directories as listDir collects them: a directory is appended only
      when it differs from the last one appended. */
  function Collapse(ds: seq<string>): (r: seq<string>)
    ensures |ds| > 0 <==> |r| > 0
    ensures |ds| > 0 ==> r[|r| - 1] == ds[|ds| - 1]
    decreases |ds|
  {
    if |ds| == 0 then []
    else
      var c := Collapse(ds[..|ds| - 1]);
      if |c| > 0 && c[|c| - 1] == ds[|ds| - 1] then c else c + [ds[|ds| - 1]]
  }

  predicate NoAdjacentRepeats(ds: seq<string>)
  {
    forall k :: 0 < k < |ds| ==> ds[k - 1] != ds[k]
  }

  /** listDir holds the same directories as the walk, with no directory
      twice in a row. */
  lemma {:induction false} CollapseProps(ds: seq<string>)
    ensures NoAdjacentRepeats(Collapse(ds))
    ensures forall d :: d in Collapse(ds) <==> d in ds
    decreases |ds|
  {
    if |ds| > 0 {
      var init := ds[..|ds| - 1];
      CollapseProps(init);
      assert ds == init + [ds[|ds| - 1]];
    }
  }

  /** A walk without consecutive repeats is kept as it is. */
  lemma {:induction false} CollapseKeeps(ds: seq<string>)
    requires NoAdjacentRepeats(ds)
    ensures Collapse(ds) == ds
    decreases |ds|
  {
    if |ds| > 0 {
      var init := ds[..|ds| - 1];
      assert NoAdjacentRepeats(init) by {
        forall k | 0 < k < |init| ensures init[k - 1] != init[k] {
          assert init[k - 1] == ds[k - 1] && init[k] == ds[k];
        }
      }
      CollapseKeeps(init);
      if |init| > 0 {
        assert ds[|ds| - 2] != ds[|ds| - 1];
      }
      assert ds == init + [ds[|ds| - 1]];
    }
  }

  function Dirnames(fs: seq<string>): (r: seq<string>)
    ensures |r| == |fs| && forall k :: 0 <= k < |fs| ==> r[k] == Dirname(fs[k])
  {
    seq(|fs|, k requires 0 <= k < |fs| => Dirname(fs[k]))
  }

  /** A path relative to dsdDir as the script computes it: every occurrence
      of dsdDir removed, then one leading '/'. `newPath[0]` raises
      IndexError when nothing is left. */
  function Relative(p: string, dsdDir: string): (r: Result<string>)
    ensures r.Fail? <==> RemoveAll(p, dsdDir) == ""
    ensures r.Fail? ==> r.failure == IndexError
  {
    var n := RemoveAll(p, dsdDir);
    if |n| == 0 then Fail(IndexError)
    else if n[0] == '/' then Ok(n[1..]) else Ok(n)
  }

  /** Relative with the evidently intended case for the input directory
      itself: nothing left means the top of the tree. */
  function CorrectedRelative(p: string, dsdDir: string): (r: string)
    ensures Relative(p, dsdDir).Ok? ==> r == Relative(p, dsdDir).value
    ensures Relative(p, dsdDir).Fail? ==> r == ""
  {
    var n := RemoveAll(p, dsdDir);
    if |n| == 0 then ""
    else if n[0] == '/' then n[1..] else n
  }

  /** Relative as the function the second loop maps over the directories. */
  function RelativeIn(dsdDir: string): string -> Result<string>
  {
    (d: string) => Relative(d, dsdDir)
  }

  datatype Listing = Listing(dirs: seq<string>, dsf: seq<string>, other: seq<string>)

  /** getFilesAndDirectories over a walk. */
  function ListingOf(files: seq<string>, dsdDir: string): (r: Result<Listing>)
    ensures r.Fail? ==> r.failure == IndexError
  {
    match MapAll(Collapse(Dirnames(files)), RelativeIn(dsdDir))
    case Fail(e) => Fail(e)
    case Ok(ds) => Ok(Listing(ds, DsfFiles(files), OtherFiles(files)))
  }

  /** The same with CorrectedRelative for the directories. */
  function CorrectedListing(files: seq<string>, dsdDir: string): (r: Listing)
    ensures ListingOf(files, dsdDir).Ok? ==> r == ListingOf(files, dsdDir).value
  {
    var ds := Collapse(Dirnames(files));
    var rel := seq(|ds|, k requires 0 <= k < |ds| => CorrectedRelative(ds[k], dsdDir));
    var m := MapAll(ds, RelativeIn(dsdDir));
    assert m.Ok? ==> m.value == rel;
    Listing(rel, DsfFiles(files), OtherFiles(files))
  }

  lemma RemoveAllSelf(s: string)
    requires |s| > 0
    ensures RemoveAll(s, s) == ""
  {
    assert IsPrefix(s, s);
    assert s[|s|..] == "";
  }

  /** As written, a file that sits directly in the input directory stops the
      listing with IndexError. */
  lemma TopLevelFileFails(files: seq<string>, dsdDir: string, f: string)
    requires |dsdDir| > 0 && f in files && Dirname(f) == dsdDir
    ensures ListingOf(files, dsdDir) == Fail(IndexError)
  {
    var ds := Collapse(Dirnames(files));
    CollapseProps(Dirnames(files));
    var i :| 0 <= i < |files| && files[i] == f;
    assert Dirnames(files)[i] == dsdDir;
    assert dsdDir in Dirnames(files);
    assert dsdDir in ds;
    var k :| 0 <= k < |ds| && ds[k] == dsdDir;
    RemoveAllSelf(dsdDir);
    assert Relative(ds[k], dsdDir).Fail?;
  }

  /** Corrected, such a file's directory is the top of the output tree. */
  lemma CorrectedTopLevel(files: seq<string>, dsdDir: string, f: string)
    requires |dsdDir| > 0 && f in files && Dirname(f) == dsdDir
    ensures "" in CorrectedListing(files, dsdDir).dirs
  {
    var ds := Collapse(Dirnames(files));
    CollapseProps(Dirnames(files));
    var i :| 0 <= i < |files| && files[i] == f;
    assert Dirnames(files)[i] == dsdDir;
    assert dsdDir in Dirnames(files);
    assert dsdDir in ds;
    var k :| 0 <= k < |ds| && ds[k] == dsdDir;
    RemoveAllSelf(dsdDir);
    assert CorrectedListing(files, dsdDir).dirs[k] == "";
  }

  /** One more walked file, as the first loop's body sees it. */
  lemma ScanStep(fs: seq<string>, i: nat)
    requires i < |fs|
    ensures var c := Collapse(Dirnames(fs[..i])); var d := Dirname(fs[i]);
      Collapse(Dirnames(fs[..i + 1])) == if |c| > 0 && c[|c| - 1] == d then c else c + [d]
    ensures DsfFiles(fs[..i + 1]) == DsfFiles(fs[..i]) + (if IsDsf(fs[i]) then [fs[i]] else [])
    ensures OtherFiles(fs[..i + 1]) == OtherFiles(fs[..i]) + (if IsDsf(fs[i]) then [] else [fs[i]])
  {
    assert fs[..i + 1][..i] == fs[..i];
    var ds := Dirnames(fs[..i + 1]);
    assert ds[..i] == Dirnames(fs[..i]);
    assert ds[i] == Dirname(fs[i]);
  }

  /** The script's first loop: the walk sorted into directories, DSD files
      and other files. */
  method Scan(files: seq<string>) returns (dirs: seq<string>, dsf: seq<string>, other: seq<string>)
    ensures dirs == Collapse(Dirnames(files))
    ensures dsf == DsfFiles(files) && other == OtherFiles(files)
  {
    dirs, dsf, other := [], [], [];
    for i := 0 to |files|
      invariant dirs == Collapse(Dirnames(files[..i]))
      invariant dsf == DsfFiles(files[..i]) && other == OtherFiles(files[..i])
    {
      var f := files[i];
      var dirName := Dirname(f);
      if |dirs| > 0 {
        if dirs[|dirs| - 1] != dirName {
          dirs := dirs + [dirName];
        }
      } else {
        dirs := dirs + [dirName];
      }
      if "dsf" == Lower(LastField(f, '.')) {
        dsf := dsf + [f];
      } else {
        other := other + [f];
      }
      ScanStep(files, i);
    }
    assert files[..|files|] == files;
  }

  /** The script's second loop: each directory made relative to dsdDir. */
  method RelativeDirs(dirs: seq<string>, dsdDir: string) returns (r: Result<seq<string>>)
    ensures r == MapAll(dirs, RelativeIn(dsdDir))
  {
    var rel: seq<string> := [];
    for i := 0 to |dirs|
      invariant |rel| == i
      invariant forall k :: 0 <= k < i ==> Relative(dirs[k], dsdDir) == Ok(rel[k])
    {
      var newDir := RemoveAll(dirs[i], dsdDir);
      if |newDir| == 0 {
        ghost var m := MapAll(dirs, RelativeIn(dsdDir));
        assert Relative(dirs[i], dsdDir).Fail?;
        assert m.Fail?;
        ghost var k :| 0 <= k < |dirs| && Relative(dirs[k], dsdDir) == Fail(m.failure);
        assert m == Fail(IndexError);
        return Fail(IndexError);
      }
      if newDir[0] == '/' {
        newDir := newDir[1..];
      }
      rel := rel + [newDir];
    }
    ghost var m := MapAll(dirs, RelativeIn(dsdDir));
    assert m.Ok? && |m.value| == |rel|;
    assert forall k :: 0 <= k < |rel| ==> m.value[k] == rel[k];
    assert m.value == rel;
    r := Ok(rel);
  }

  /** getFilesAndDirectories: both loops. */
  method GetFilesAndDirectories(files: seq<string>, dsdDir: string) returns (r: Result<Listing>)
    ensures r == ListingOf(files, dsdDir)
  {
    var dirs, dsf, other := Scan(files);
    var rel := RelativeDirs(dirs, dsdDir);
    match rel
    case Fail(e) => r := Fail(e);
    case Ok(ds) => r := Ok(Listing(ds, dsf, other));
  }

  // ------------------------------------------------------------ output paths

  /** outputFlacList's path for one DSD file: relative to dsdDir, the last
      ".dsf" replaced by ".flac", under flacDir. */
  function FlacPath(f: string, dsdDir: string, flacDir: string): (r: Result<string>)
    ensures r.Fail? <==> Relative(f, dsdDir).Fail?
  {
    match Relative(f, dsdDir)
    case Fail(e) => Fail(e)
    case Ok(rel) => Ok(OsJoin(flacDir, ReplaceLast(rel, ".dsf", ".flac")))
  }

  lemma RemoveAllAfterPrefix(p: string, t: string)
    requires |p| > 0
    ensures RemoveAll(p + t, p) == RemoveAll(t, p)
  {
    assert IsPrefix(p, p + t);
    assert (p + t)[|p|..] == t;
  }

  /** A path below dsdDir, "/" and a tail that does not repeat the
      directory's name, is that tail. */
  lemma RelativeOfPrefixed(dsdDir: string, t: string)
    requires |dsdDir| > 0 && |t| > 0 && t[0] == '/' && !Contains(t, dsdDir)
    ensures Relative(dsdDir + t, dsdDir) == Ok(t[1..])
  {
    RemoveAllAfterPrefix(dsdDir, t);
  }

  /** The FLAC path of a file whose relative path is known. */
  lemma FlacPathOfRelative(f: string, dsdDir: string, flacDir: string, stem: string)
    requires Relative(f, dsdDir) == Ok(stem + ".dsf")
    ensures FlacPath(f, dsdDir, flacDir) == Ok(OsJoin(flacDir, stem + ".flac"))
  {
    ReplaceLastOfAppend(stem, ".dsf", ".flac");
  }

  /** A file `<dsdDir>/<stem>.dsf` becomes `<flacDir>/<stem>.flac`, when
      the input directory's name does not recur below it. */
  lemma FlacPathOf(dsdDir: string, flacDir: string, stem: string)
    requires |dsdDir| > 0 && !Contains("/" + stem + ".dsf", dsdDir)
    ensures FlacPath(dsdDir + "/" + stem + ".dsf", dsdDir, flacDir) == Ok(OsJoin(flacDir, stem + ".flac"))
  {
    var t := "/" + stem + ".dsf";
    var f := dsdDir + "/" + stem + ".dsf";
    assert f == dsdDir + t;
    RelativeOfPrefixed(dsdDir, t);
    assert t[1..] == stem + ".dsf";
    FlacPathOfRelative(f, dsdDir, flacDir, stem);
  }

  /** outputFlacList: one output path per DSD file, in the same order. */
  function OutputFlacList(dsf: seq<string>, dsdDir: string, flacDir: string): (r: Result<seq<string>>)
    ensures r.Ok? <==> forall k :: 0 <= k < |dsf| ==> Relative(dsf[k], dsdDir).Ok?
    ensures r.Ok? ==> |r.value| == |dsf| && forall k :: 0 <= k < |dsf| ==> FlacPath(dsf[k], dsdDir, flacDir) == Ok(r.value[k])
  {
    MapAll(dsf, (f: string) => FlacPath(f, dsdDir, flacDir))
  }

  /** copyNonDsfFiles' target for one file: relative to dsdDir, under
      flacDir. */
  function CopyTarget(f: string, dsdDir: string, flacDir: string): (r: Result<(string, string)>)
    ensures r.Ok? ==> r.value.0 == f
    ensures r.Fail? <==> Relative(f, dsdDir).Fail?
  {
    match Relative(f, dsdDir)
    case Fail(e) => Fail(e)
    case Ok(rel) => Ok((f, OsJoin(flacDir, rel)))
  }

  // ------------------------------------------------------------ main

  datatype Plan = Plan(folders: seq<string>, copies: seq<(string, string)>, commands: seq<seq<string>>)

  /** copyNonDsfFiles: a source and target per other file. */
  function CopyNonDsfFiles(other: seq<string>, dsdDir: string, flacDir: string): (r: Result<seq<(string, string)>>)
    ensures r.Ok? ==> |r.value| == |other| && forall k :: 0 <= k < |other| ==> r.value[k].0 == other[k]
  {
    MapAll(other, (f: string) => CopyTarget(f, dsdDir, flacDir))
  }

  /** createOutputFolders: flacDir joined with each relative directory. */
  function CreateOutputFolders(dirs: seq<string>, flacDir: string): (r: seq<string>)
    ensures |r| == |dirs|
  {
    seq(|dirs|, k requires 0 <= k < |dirs| => OsJoin(flacDir, dirs[k]))
  }

  /** transcodeDSDtoFLAC: one ffmpeg command per DSD file, pairing it with
      the FLAC path at the same index. The sample format is read only when
      the first command is built, so without DSD files an unknown bit
      depth raises nothing. */
  function TranscodeDsdToFlac(dsf: seq<string>, flac: seq<string>, sampleRate: string, bitdepth: string)
    : (r: Result<seq<seq<string>>>)
    requires |flac| == |dsf|
    ensures r.Ok? <==> |dsf| == 0 || SampleFormat(bitdepth).Ok?
    ensures r.Fail? ==> r.failure == SampleFormat(bitdepth).failure
    ensures r.Ok? ==> |r.value| == |dsf| && forall k :: 0 <= k < |dsf| ==>
      (|r.value[k]| == 8 && r.value[k][2] == dsf[k] && r.value[k][7] == flac[k]
       && r.value[k][4] == SampleFormat(bitdepth).value && r.value[k][6] == sampleRate)
  {
    if |dsf| == 0 then Ok([])
    else match SampleFormat(bitdepth)
    case Fail(e) => Fail(e)
    case Ok(depth) =>
      Ok(seq(|dsf|, k requires 0 <= k < |dsf| => ["ffmpeg", "-i", dsf[k], "-sample_fmt", depth, "-ar", sampleRate, flac[k]]))
  }

  /** main after option parsing: validation, the listing, the output
      folders, the copies and the ffmpeg commands, stopping at the first
      failure. */
  function MainPlan(dsdDir: Option<string>, flacDir: Option<string>, sampleRate: string, bitdepth: string,
                    files: seq<string>): (r: Result<Plan>)
    ensures r.Ok? ==> Validate(dsdDir, flacDir, sampleRate, bitdepth).Ok?
    ensures r.Ok? ==> |r.value.commands| == |DsfFiles(files)| && |r.value.copies| == |OtherFiles(files)|
  {
    match Validate(dsdDir, flacDir, sampleRate, bitdepth)
    case Fail(e) => Fail(e)
    case Ok(s) =>
      match ListingOf(files, s.dsdDir)
      case Fail(e) => Fail(e)
      case Ok(l) =>
        match OutputFlacList(l.dsf, s.dsdDir, s.flacDir)
        case Fail(e) => Fail(e)
        case Ok(flac) =>
          match CopyNonDsfFiles(l.other, s.dsdDir, s.flacDir)
          case Fail(e) => Fail(e)
          case Ok(copies) =>
            match TranscodeDsdToFlac(l.dsf, flac, s.sampleRate, s.bitdepth)
            case Fail(e) => Fail(e)
            case Ok(commands) => Ok(Plan(CreateOutputFolders(l.dirs, s.flacDir), copies, commands))
  }

  /** Each ffmpeg command converts one DSD file of the walk, at the sample
      format the bit depth names and the sample rate given, into the path
      outputFlacList gives it. */
  lemma MainPlanCommand(dsdDir: Option<string>, flacDir: Option<string>, sampleRate: string, bitdepth: string,
                        files: seq<string>, k: nat)
    requires MainPlan(dsdDir, flacDir, sampleRate, bitdepth, files).Ok?
    requires k < |MainPlan(dsdDir, flacDir, sampleRate, bitdepth, files).value.commands|
    ensures var c := MainPlan(dsdDir, flacDir, sampleRate, bitdepth, files).value.commands[k];
      |c| == 8 && c[2] in files && IsDsf(c[2])
      && c[4] == (if bitdepth == "24" then "s32" else "s16")
      && c[6] == sampleRate
      && FlacPath(c[2], dsdDir.value, flacDir.value) == Ok(c[7])
  {
    ValidatedSampleFormat(dsdDir, flacDir, sampleRate, bitdepth);
    var s := Validate(dsdDir, flacDir, sampleRate, bitdepth).value;
    var l := ListingOf(files, s.dsdDir).value;
    var flac := OutputFlacList(l.dsf, s.dsdDir, s.flacDir).value;
    PartitionExact(files);
    assert l.dsf[k] in DsfFiles(files);
  }
}

=== FILE: encode_extras.dfy ===
// batchconvert/encode_extras.py: the earliest converter. Its info file holds
// strings throughout (ids, "yes"/"no" flags, defaults), its progress is a
// status word in resume-file, and the night-mode tracks it adds are built
// with the fixed matrix of NightmodeAudio.FixedPanFilter.
module EncodeExtras {
  import opened Results
  import opened Text
  import MkvArgs
  import NightmodeAudio
  import opened NightmodeNorm
  import BatchConvert

  datatype ExtraAudio = ExtraAudio(
    title: string, language: string, default: string, id: string, extension: string,
    convert: string,            // "yes": ffmpeg converts it; "no": mkvextract copies it
    ffmpegOpts: seq<string>,
    nightmode: string, nightmodeCodec: string, loudnormName: string, drcName: string)

  datatype ExtraSub = ExtraSub(title: string, language: string, default: string, id: string, extension: string)

  /** The info file; `subs` is None when the key is absent. */
  datatype ExtraInfo = ExtraInfo(
    title: string, outputFile: string, sourceFile: string,
    videoTitle: string, videoLanguage: string, x264Opts: seq<string>,
    audio: seq<ExtraAudio>, subs: Option<seq<ExtraSub>>)

  // ------------------------------------------------------------ resume-file

  /** The status words in the order convertMKV checks them. */
  const StageNames: seq<string> := ["juststarted", "extracted", "nightmode", "encoded", "merged"]

  /** What convertMKV does: the stage checked against each status word. */
  datatype ExtraStage = ExtractStage | NightmodeStage | EncodeStage | MergeStage | DoneStage

  const AllStages: seq<ExtraStage> := [ExtractStage, NightmodeStage, EncodeStage, MergeStage, DoneStage]

  /** `f.readlines()`: the lines of the text, each keeping its newline. */
  function ReadLines(s: string): (r: seq<string>)
    ensures Join("", r) == s
    ensures forall i :: 0 <= i < |r| ==> r[i] != ""
    ensures s != "" && '\n' !in s ==> r == [s]
    decreases |s|
  {
    if |s| == 0 then []
    else if '\n' !in s then [s]
    else
      var k := IndexOfChar(s, '\n');
      var rest := ReadLines(s[k + 1..]);
      assert s[..k + 1] + s[k + 1..] == s;
      [s[..k + 1]] + rest
  }

  /** The status variable: the lines readResume returned, or the word the
      last writeResume returned. `in` is list membership on the first and a
      substring test on the second. */
  datatype Status = Lines(lines: seq<string>) | Word(word: string)

  predicate Holds(name: string, st: Status)
  {
    match st
    case Lines(ls) => name in ls
    case Word(w) => Contains(w, name)
  }

  /** The checks from the i-th on: a stage runs when its word holds, and
      then writes the next word (the last stage only prints Done). */
  function RunFrom(i: nat, st: Status): seq<ExtraStage>
    requires i <= 5
    decreases 5 - i
  {
    if i == 5 then []
    else if !Holds(StageNames[i], st) then RunFrom(i + 1, st)
    else if i == 4 then [DoneStage]
    else [AllStages[i]] + RunFrom(i + 1, Word(StageNames[i + 1]))
  }

  /** convertMKV: the stored lines when resume-file exists, otherwise the
      word "juststarted". */
  function ConvertStages(resume: Option<string>): (r: seq<ExtraStage>)
    ensures resume.None? ==> r == AllStages
  {
    WordRunsRest(0);
    RunFrom(0, match resume case None => Word("juststarted") case Some(content) => Lines(ReadLines(content)))
  }

  /** Once a stage has run, every later one runs. */
  lemma {:induction false} WordRunsRest(i: nat)
    requires i <= 4
    ensures RunFrom(i, Word(StageNames[i])) == AllStages[i..]
    decreases 4 - i
  {
    assert IsPrefix(StageNames[i], StageNames[i]);
    if i < 4 {
      WordRunsRest(i + 1);
      assert AllStages[i..] == [AllStages[i]] + AllStages[i + 1..];
    }
  }

  /** The first stage whose word is among the stored lines, from i on. */
  function FirstStored(lines: seq<string>, i: nat): (k: nat)
    requires i <= 5
    ensures i <= k <= 5
    ensures forall j :: i <= j < k ==> StageNames[j] !in lines
    ensures k < 5 ==> StageNames[k] in lines
    decreases 5 - i
  {
    if i == 5 then 5 else if StageNames[i] in lines then i else FirstStored(lines, i + 1)
  }

  /** Resuming runs the first stored stage and every later one; lines that
      name no stage run nothing, not even Done. */
  lemma {:induction false} ResumeRunsFrom(lines: seq<string>, i: nat)
    requires i <= 5
    ensures RunFrom(i, Lines(lines)) == AllStages[FirstStored(lines, i)..]
    decreases 5 - i
  {
    if i < 5 {
      if StageNames[i] !in lines {
        ResumeRunsFrom(lines, i + 1);
        assert RunFrom(i, Lines(lines)) == RunFrom(i + 1, Lines(lines));
      } else {
        StoredRunsRest(lines, i);
      }
    }
  }

  /** A stored word runs its stage and every later one. */
  lemma StoredRunsRest(lines: seq<string>, i: nat)
    requires i < 5 && StageNames[i] in lines
    ensures RunFrom(i, Lines(lines)) == AllStages[i..]
  {
    assert Holds(StageNames[i], Lines(lines));
    if i < 4 {
      WordRunsRest(i + 1);
      assert AllStages[i..] == [AllStages[i]] + AllStages[i + 1..];
    }
  }

  /** writeResume overwrites the file with one word; a run interrupted after
      stage j-1 wrote the j-th word, and the next run starts at stage j. */
  lemma ResumeAfterStage(j: nat)
    requires 1 <= j <= 4
    ensures ConvertStages(Some(StageNames[j])) == AllStages[j..]
  {
    var w := StageNames[j];
    assert w != "" && '\n' !in w;
    assert ReadLines(w) == [w];
    ResumeRunsFrom([w], 0);
    assert forall i :: 0 <= i < j ==> StageNames[i] != w;
    assert FirstStored([w], 0) == j;
  }

  // ------------------------------------------------------------ mkvmerge

  /** The per-track options: name, language and default flag. */
  function TrackOpts(title: string, language: string, default: string): seq<(string, string)>
  {
    [("--track-name", "0:" + title), ("--language", "0:" + language), ("--default-track", "0:" + default)]
  }

  function AudioFile(t: ExtraAudio): string
  {
    "audio-" + t.id + "." + t.extension
  }

  function SubFile(t: ExtraSub): string
  {
    "subtitles-" + t.id + "." + t.extension
  }

  /** The extension mergeMKV expects of the night-mode files. */
  function NightmodeExt(codec: string): string
  {
    if Contains(codec, "flac") then "flac" else "m4a"
  }

  function LoudnormFile(id: string, ext: string): string
  {
    "nightmode-loudnorm-" + id + "." + ext
  }

  function DrcFile(id: string, ext: string): string
  {
    "nightmode-drc-" + id + "." + ext
  }

  /** A track's inputs: its own file, then the two night-mode files when
      "yes" is in its nightmode flag. */
  function AudioInputs(t: ExtraAudio): (r: seq<MkvArgs.Input>)
    ensures |r| == if Contains(t.nightmode, "yes") then 3 else 1
    ensures r[0] == MkvArgs.Input(AudioFile(t), TrackOpts(t.title, t.language, t.default))
    ensures |r| == 3 ==> (
      r[1] == MkvArgs.Input(LoudnormFile(t.id, NightmodeExt(t.nightmodeCodec)), TrackOpts(t.loudnormName, t.language, t.default))
      && r[2] == MkvArgs.Input(DrcFile(t.id, NightmodeExt(t.nightmodeCodec)), TrackOpts(t.drcName, t.language, t.default)))
  {
    var own := MkvArgs.Input(AudioFile(t), TrackOpts(t.title, t.language, t.default));
    if Contains(t.nightmode, "yes") then
      var ext := NightmodeExt(t.nightmodeCodec);
      [own, MkvArgs.Input(LoudnormFile(t.id, ext), TrackOpts(t.loudnormName, t.language, t.default)),
            MkvArgs.Input(DrcFile(t.id, ext), TrackOpts(t.drcName, t.language, t.default))]
    else [own]
  }

  function AudioInputsAll(ts: seq<ExtraAudio>): seq<MkvArgs.Input>
    decreases |ts|
  {
    if |ts| == 0 then [] else AudioInputs(ts[0]) + AudioInputsAll(ts[1..])
  }

  function SubInputsAll(ts: seq<ExtraSub>): (r: seq<MkvArgs.Input>)
    ensures |r| == |ts|
    ensures forall i :: 0 <= i < |ts| ==> r[i] == MkvArgs.Input(SubFile(ts[i]), TrackOpts(ts[i].title, ts[i].language, ts[i].default))
    decreases |ts|
  {
    if |ts| == 0 then [] else [MkvArgs.Input(SubFile(ts[0]), TrackOpts(ts[0].title, ts[0].language, ts[0].default))] + SubInputsAll(ts[1..])
  }

  const VideoFile := "video.mkv"

  /** The subtitle tracks; an absent key means none. */
  function SubList(info: ExtraInfo): seq<ExtraSub>
  {
    match info.subs
    case Some(s) => s
    case None => []
  }

  /** The inputs mergeMKV names: video.mkv with the global options, every
      audio track (and its night-mode files), then every subtitle. */
  function MergeInputs(info: ExtraInfo): seq<MkvArgs.Input>
  {
    [MkvArgs.Input(VideoFile, [("--output", info.outputFile), ("--title", info.title),
                              ("--track-name", "0:" + info.videoTitle), ("--language", "0:" + info.videoLanguage)])]
    + AudioInputsAll(info.audio)
    + SubInputsAll(SubList(info))
  }

  /** mergeMKV's command: the inputs spelled out, then the chapters when
      chapters.xml exists. mkvmerge reads it back as exactly those inputs. */
  function MergeCommand(info: ExtraInfo, chaptersExist: bool): (r: seq<string>)
    ensures |r| > 0 && r[0] == "mkvmerge"
    ensures MkvArgs.Parse(r[1..]) ==
      MkvArgs.State(MergeInputs(info), if chaptersExist then [("--chapters", "chapters.xml")] else [], None)
  {
    var ins := MergeInputs(info);
    var chapters := BatchConvert.ChapterArgs(chaptersExist);
    var r := ["mkvmerge"] + (MkvArgs.Spell(ins) + chapters);
    assert r[1..] == MkvArgs.Spell(ins) + chapters;
    MergeReadsBack(info, chaptersExist);
    r
  }

  lemma MergeReadsBack(info: ExtraInfo, chaptersExist: bool)
    ensures MkvArgs.Run(MkvArgs.Spell(MergeInputs(info)) + BatchConvert.ChapterArgs(chaptersExist), MkvArgs.Start) ==
      MkvArgs.State(MergeInputs(info), if chaptersExist then [("--chapters", "chapters.xml")] else [], None)
  {
    var ins := MergeInputs(info);
    assert MkvArgs.Spellable(ins) by {
      forall i | 0 <= i < |ins| ensures MkvArgs.WellFormed(ins[i].opts) && !MkvArgs.IsOption(ins[i].file) {
        InputsSpellable(info, i);
      }
    }
    MkvArgs.RunAppend(MkvArgs.Spell(ins), BatchConvert.ChapterArgs(chaptersExist), MkvArgs.Start);
    MkvArgs.SpellReadsBack(ins, MkvArgs.Start);
    assert MkvArgs.Start.inputs + ins == ins;
    BatchConvert.RunChapters(chaptersExist, MkvArgs.State(ins, [], None));
  }

  /** Every input has a file name starting with a letter and the options
      of a track or of the video. */
  lemma InputsSpellable(info: ExtraInfo, i: nat)
    requires i < |MergeInputs(info)|
    ensures MkvArgs.WellFormed(MergeInputs(info)[i].opts) && !MkvArgs.IsOption(MergeInputs(info)[i].file)
  {
    var video := MergeInputs(info)[0];
    var audio := AudioInputsAll(info.audio);
    var ss := SubList(info);
    var subs := SubInputsAll(ss);
    assert MergeInputs(info) == [video] + audio + subs;
    IndexOfThree([video], audio, subs, i);
    if i == 0 {
      VideoInputGood(info);
    } else if i - 1 < |audio| {
      AudioInputGood(info.audio, i - 1);
    } else {
      SubInputGood(ss, i - 1 - |audio|);
    }
  }

  lemma AudioInputGood(ts: seq<ExtraAudio>, k: nat)
    requires k < |AudioInputsAll(ts)|
    ensures MkvArgs.WellFormed(AudioInputsAll(ts)[k].opts) && !MkvArgs.IsOption(AudioInputsAll(ts)[k].file)
  {
    var e := AudioInputsAll(ts)[k];
    AudioInputsAllShape(ts, k);
    var title, lang, def :| e.opts == TrackOpts(title, lang, def);
    TrackInputGood(e.file, title, lang, def);
  }

  lemma SubInputGood(ts: seq<ExtraSub>, k: nat)
    requires k < |ts|
    ensures MkvArgs.WellFormed(SubInputsAll(ts)[k].opts) && !MkvArgs.IsOption(SubInputsAll(ts)[k].file)
  {
    TrackInputGood(SubFile(ts[k]), ts[k].title, ts[k].language, ts[k].default);
  }

  lemma VideoInputGood(info: ExtraInfo)
    ensures MkvArgs.WellFormed(MergeInputs(info)[0].opts) && !MkvArgs.IsOption(MergeInputs(info)[0].file)
  {
    MkvArgs.NotDashed(VideoFile);
  }

  lemma TrackInputGood(file: string, title: string, language: string, default: string)
    requires |file| > 0 && file[0] != '-'
    ensures MkvArgs.WellFormed(TrackOpts(title, language, default)) && !MkvArgs.IsOption(file)
  {
    MkvArgs.NotDashed(file);
  }

  lemma IndexOfThree<T>(a: seq<T>, b: seq<T>, c: seq<T>, i: nat)
    requires i < |a + b + c|
    ensures (a + b + c)[i] == if i < |a| then a[i] else if i < |a| + |b| then b[i - |a|] else c[i - |a| - |b|]
  {
  }


  /** An audio input is a track's own file or one of its night-mode files,
      with track options. */
  lemma {:induction false} AudioInputsAllShape(ts: seq<ExtraAudio>, k: nat)
    requires k < |AudioInputsAll(ts)|
    ensures var e := AudioInputsAll(ts)[k];
      |e.file| > 0 && e.file[0] != '-' && exists title, lang, def :: e.opts == TrackOpts(title, lang, def)
    decreases |ts|
  {
    var head := AudioInputs(ts[0]);
    if k < |head| {
      assert AudioInputsAll(ts)[k] == head[k];
    } else {
      assert AudioInputsAll(ts)[k] == AudioInputsAll(ts[1..])[k - |head|];
      AudioInputsAllShape(ts[1..], k - |head|);
    }
  }

  // ------------------------------------------------------------ extractTracks

  /** What one "yes" track adds to the ffmpeg command. */
  function ConvertPart(t: ExtraAudio): (r: seq<string>)
    ensures |r| > 0 && r[|r| - 1] == AudioFile(t)
  {
    ["-map", "0:" + t.id] + t.ffmpegOpts + [AudioFile(t)]
  }

  /** The tracks ffmpeg converts, in order. */
  function Converted(ts: seq<ExtraAudio>): (r: seq<ExtraAudio>)
    ensures |r| <= |ts|
    decreases |ts|
  {
    if |ts| == 0 then []
    else (if Contains(ts[0].convert, "yes") then [ts[0]] else []) + Converted(ts[1..])
  }

  /** Exactly the tracks with "yes" in their convert flag are converted. */
  lemma {:induction false} ConvertedMembers(ts: seq<ExtraAudio>, x: ExtraAudio)
    ensures x in Converted(ts) <==> x in ts && Contains(x.convert, "yes")
    decreases |ts|
  {
    if |ts| > 0 {
      ConvertedMembers(ts[1..], x);
      assert x in ts <==> x == ts[0] || x in ts[1..];
    }
  }

  function Parts(ts: seq<ExtraAudio>): seq<string>
    decreases |ts|
  {
    if |ts| == 0 then [] else ConvertPart(ts[0]) + Parts(ts[1..])
  }

  lemma {:induction false} PartsSnoc(ts: seq<ExtraAudio>, t: ExtraAudio)
    ensures Parts(ts + [t]) == Parts(ts) + ConvertPart(t)
    decreases |ts|
  {
    if |ts| == 0 {
      assert ts + [t] == [t];
      assert Parts([t]) == ConvertPart(t) + Parts([]);
    } else {
      var u := ts + [t];
      assert u[0] == ts[0] && u[1..] == ts[1..] + [t];
      PartsSnoc(ts[1..], t);
      assert Parts(u) == ConvertPart(ts[0]) + (Parts(ts[1..]) + ConvertPart(t));
      assert Parts(ts) == ConvertPart(ts[0]) + Parts(ts[1..]);
    }
  }

  function FfmpegHead(source: string): seq<string>
  {
    ["ffmpeg", "-y", "-i", source]
  }

  /** The ffmpeg runs as written: `cmd` is extended for every "yes" track
      and never reset, and each extension is run. */
  function FfmpegRuns(cmd: seq<string>, ts: seq<ExtraAudio>): (r: seq<seq<string>>)
    ensures |r| == |Converted(ts)|
    decreases |ts|
  {
    if |ts| == 0 then []
    else if !Contains(ts[0].convert, "yes") then FfmpegRuns(cmd, ts[1..])
    else
      var c := cmd + ConvertPart(ts[0]);
      [c] + FfmpegRuns(c, ts[1..])
  }

  /** Run k holds every conversion up to and including the k-th. */
  lemma {:induction false} FfmpegRunAt(cmd: seq<string>, ts: seq<ExtraAudio>, k: nat)
    requires k < |Converted(ts)|
    ensures FfmpegRuns(cmd, ts)[k] == cmd + Parts(Converted(ts)[..k + 1])
    decreases |ts|
  {
    if !Contains(ts[0].convert, "yes") {
      assert Converted(ts) == Converted(ts[1..]);
      FfmpegRunAt(cmd, ts[1..], k);
    } else if k == 0 {
      assert Converted(ts)[..1] == [ts[0]];
      assert Parts([ts[0]]) == ConvertPart(ts[0]) + Parts([]);
    } else {
      var c := cmd + ConvertPart(ts[0]);
      FfmpegRunAt(c, ts[1..], k - 1);
      FfmpegRunLater(cmd, ts, k);
    }
  }

  /** The step of FfmpegRunAt past a converted first track. */
  lemma FfmpegRunLater(cmd: seq<string>, ts: seq<ExtraAudio>, k: nat)
    requires 0 < k < |Converted(ts)| && Contains(ts[0].convert, "yes")
    requires FfmpegRuns(cmd + ConvertPart(ts[0]), ts[1..])[k - 1]
             == cmd + ConvertPart(ts[0]) + Parts(Converted(ts[1..])[..k])
    ensures FfmpegRuns(cmd, ts)[k] == cmd + Parts(Converted(ts)[..k + 1])
  {
    var c := cmd + ConvertPart(ts[0]);
    assert FfmpegRuns(cmd, ts)[k] == FfmpegRuns(c, ts[1..])[k - 1];
    var rest := Converted(ts[1..])[..k];
    var front := Converted(ts)[..k + 1];
    ConvertedPrefix(ts, k);
    assert front[0] == ts[0] && front[1..] == rest;
    PartsCons(front, ts[0]);
    SeqAssoc(cmd, ConvertPart(ts[0]), Parts(rest));
  }

  lemma ConvertedPrefix(ts: seq<ExtraAudio>, k: nat)
    requires 0 < k < |Converted(ts)| && Contains(ts[0].convert, "yes")
    ensures Converted(ts)[..k + 1] == [ts[0]] + Converted(ts[1..])[..k]
  {
    assert Converted(ts) == [ts[0]] + Converted(ts[1..]);
  }

  lemma SeqAssoc<T>(a: seq<T>, b: seq<T>, c: seq<T>)
    ensures a + (b + c) == a + b + c
  {
  }



  /** Run k ends with the k-th converted track's file. */
  lemma FfmpegRunEnds(cmd: seq<string>, ts: seq<ExtraAudio>, k: nat)
    requires k < |Converted(ts)|
    ensures var run := FfmpegRuns(cmd, ts)[k];
      run == cmd + Parts(Converted(ts)[..k]) + ConvertPart(Converted(ts)[k])
      && run[|run| - 1] == AudioFile(Converted(ts)[k])
  {
    var conv := Converted(ts);
    FfmpegRunAt(cmd, ts, k);
    assert conv[..k + 1] == conv[..k] + [conv[k]];
    PartsSnoc(conv[..k], conv[k]);
  }

  /** As written, every run after the first converts the first "yes" track
      again (and every other earlier one) before its own. */
  lemma FfmpegRunRepeatsFirst(source: string, ts: seq<ExtraAudio>, k: nat)
    requires 1 <= k < |Converted(ts)|
    ensures var run := FfmpegRuns(FfmpegHead(source), ts)[k];
      var first := ConvertPart(Converted(ts)[0]);
      |run| > 4 + |first| && run[4..4 + |first|] == first && run[|run| - 1] == AudioFile(Converted(ts)[k])
      && AudioFile(Converted(ts)[0]) in run[..|run| - 1]
  {
    var conv := Converted(ts);
    var first := ConvertPart(conv[0]);
    var tail := ConvertPart(conv[k]);
    var mid := Parts(conv[..k][1..]);
    var h := FfmpegHead(source);
    FfmpegRunEnds(h, ts, k);
    PartsCons(conv[..k], conv[0]);
    var run := FfmpegRuns(h, ts)[k];
    assert run == h + (first + mid) + tail;
    var rest := mid + tail;
    Regroup(h, first, mid, tail);
    assert |h| == 4;
    Middle(h, first, rest);
    assert run[4..4 + |first|] == first;
    assert first[|first| - 1] == AudioFile(conv[0]);
    assert run[|run| - 1] == tail[|tail| - 1];
  }

  lemma PartsCons(xs: seq<ExtraAudio>, x: ExtraAudio)
    requires |xs| > 0 && xs[0] == x
    ensures Parts(xs) == ConvertPart(x) + Parts(xs[1..])
  {
  }

  lemma Regroup<T>(a: seq<T>, b: seq<T>, c: seq<T>, d: seq<T>)
    ensures a + (b + c) + d == a + b + (c + d)
  {
  }

  lemma Middle<T>(a: seq<T>, b: seq<T>, c: seq<T>)
    requires |b| > 0 && |c| > 0
    ensures var s := a + b + c;
      s[|a|..|a| + |b|] == b && b[|b| - 1] in s[..|s| - 1] && s[|s| - 1] == c[|c| - 1]
  {
    var s := a + b + c;
    assert s[..|s| - 1][|a| + |b| - 1] == b[|b| - 1];
  }

  /** The runs as evidently intended: each converted track by itself. */
  function CorrectedFfmpegRuns(source: string, ts: seq<ExtraAudio>): (r: seq<seq<string>>)
    ensures |r| == |Converted(ts)|
    ensures forall k :: 0 <= k < |r| ==> r[k] == FfmpegHead(source) + ConvertPart(Converted(ts)[k])
    decreases |ts|
  {
    if |ts| == 0 then []
    else
      var rest := CorrectedFfmpegRuns(source, ts[1..]);
      if Contains(ts[0].convert, "yes") then [FfmpegHead(source) + ConvertPart(ts[0])] + rest else rest
  }

  /** The first run is the same either way. */
  lemma FirstRunAgrees(source: string, ts: seq<ExtraAudio>)
    requires |Converted(ts)| > 0
    ensures FfmpegRuns(FfmpegHead(source), ts)[0] == CorrectedFfmpegRuns(source, ts)[0]
  {
    FfmpegRunEnds(FfmpegHead(source), ts, 0);
    assert Parts(Converted(ts)[..0]) == [];
  }

  /** mkvextract targets of the "no" tracks, `id:audio-id.ext`. */
  function AudioTargets(ts: seq<ExtraAudio>): (r: seq<string>)
    ensures |r| <= |ts|
    ensures forall x :: x in r <==> exists i :: 0 <= i < |ts| && Contains(ts[i].convert, "no")
                                                 && x == ts[i].id + ":" + AudioFile(ts[i])
    decreases |ts|
  {
    if |ts| == 0 then []
    else
      var rest := AudioTargets(ts[1..]);
      assert forall i :: 1 <= i < |ts| ==> ts[i] == ts[1..][i - 1];
      (if Contains(ts[0].convert, "no") then [ts[0].id + ":" + AudioFile(ts[0])] else []) + rest
  }

  /** Every subtitle is extracted, `id:subtitles-id.ext`. */
  function SubTargets(ts: seq<ExtraSub>): (r: seq<string>)
    ensures |r| == |ts|
    ensures forall i :: 0 <= i < |ts| ==> r[i] == ts[i].id + ":" + SubFile(ts[i])
    decreases |ts|
  {
    if |ts| == 0 then [] else [ts[0].id + ":" + SubFile(ts[0])] + SubTargets(ts[1..])
  }

  /** The mkvextract command: the "no" audio tracks, every subtitle, the
      chapters. */
  function ExtractCommand(info: ExtraInfo): (r: seq<string>)
    ensures |r| == 5 + |AudioTargets(info.audio)| + match info.subs case Some(s) => |s| case None => 0
    ensures r[..3] == ["mkvextract", info.sourceFile, "tracks"]
    ensures r[|r| - 2..] == ["chapters", "chapters.xml"]
    ensures r[3..3 + |AudioTargets(info.audio)|] == AudioTargets(info.audio)
  {
    ["mkvextract", info.sourceFile, "tracks"] + AudioTargets(info.audio)
      + SubTargets(SubList(info)) + ["chapters", "chapters.xml"]
  }

  /** Every audio file mergeMKV reads for a "yes" or "no" track is written
      by extractTracks: as the output of an ffmpeg run, or as the file of a
      mkvextract target. */
  lemma AudioFileWritten(info: ExtraInfo, i: nat)
    requires i < |info.audio|
    requires Contains(info.audio[i].convert, "yes") || Contains(info.audio[i].convert, "no")
    ensures var t := info.audio[i];
      var runs := FfmpegRuns(FfmpegHead(info.sourceFile), info.audio);
      (exists k :: 0 <= k < |runs| && |runs[k]| > 0 && runs[k][|runs[k]| - 1] == AudioFile(t))
      || (t.id + ":" + AudioFile(t)) in ExtractCommand(info)
  {
    var t := info.audio[i];
    var conv := Converted(info.audio);
    var runs := FfmpegRuns(FfmpegHead(info.sourceFile), info.audio);
    if Contains(t.convert, "yes") {
      ConvertedMembers(info.audio, t);
      assert t in conv;
      var k :| 0 <= k < |conv| && conv[k] == t;
      FfmpegRunEnds(FfmpegHead(info.sourceFile), info.audio, k);
    } else {
      var x := t.id + ":" + AudioFile(t);
      var targets := AudioTargets(info.audio);
      assert x in targets;
      var c := ExtractCommand(info);
      assert c[3..3 + |targets|] == targets;
      assert x in c[3..3 + |targets|];
    }
  }

  // ------------------------------------------------------------ prepForcedSubs

  /** The Java BDSup2Sub invocation of this revision. */
  const Java: seq<string> := ["/usr/lib64/openjdk-11/bin/java", "-jar", "/home/james/.local/share/bdsup2sub/BDSup2Sub.jar"]

  function SupName(id: string): string
  {
    "subtitles-" + id + ".sup"
  }

  function ForcedSup(id: string): string
  {
    "subtitles-forced-" + id + ".sup"
  }

  /** createNonForced: the same BDXML round as batchconvert.py. */
  function NonForcedSteps(source: string): (r: seq<BatchConvert.SubStep>)
    ensures |r| == 9 && r[3] == BatchConvert.ToggleForced("subtitles.xml", "subtitles-new.xml")
    ensures r[6] == BatchConvert.Tool(Java + ["--force-all", "clear", "--output", source, "subtitles-temp.sup"])
  {
    [BatchConvert.MakeDir("subtitles"), BatchConvert.ChangeDir("subtitles"),
     BatchConvert.Tool(Java + ["--output", "subtitles.xml", "../" + source]),
     BatchConvert.ToggleForced("subtitles.xml", "subtitles-new.xml"), BatchConvert.ChangeDir(".."),
     BatchConvert.Tool(Java + ["--forced-only", "--output", "subtitles-temp.sup", "subtitles/subtitles-new.xml"]),
     BatchConvert.Tool(Java + ["--force-all", "clear", "--output", source, "subtitles-temp.sup"]),
     BatchConvert.RemoveTree("subtitles"), BatchConvert.RemoveFile("subtitles-temp.sup")]
  }

  /** The loop over the subtitles: a missing `subtitles-<id>.sup` returns
      from the whole function. */
  function PrepForced(subs: seq<ExtraSub>, present: string -> bool): (r: seq<BatchConvert.SubStep>)
    ensures |subs| > 0 && present(SupName(subs[0].id)) ==>
      |r| > 0 && r[0] == BatchConvert.Tool(Java + ["--forced-only", "--output", ForcedSup(subs[0].id), SupName(subs[0].id)])
    ensures |subs| > 0 && !present(SupName(subs[0].id)) ==> r == []
    decreases |subs|
  {
    if |subs| == 0 || !present(SupName(subs[0].id)) then []
    else
      var id := subs[0].id;
      [BatchConvert.Tool(Java + ["--forced-only", "--output", ForcedSup(id), SupName(id)])]
      + (if present(ForcedSup(id)) then NonForcedSteps(SupName(id)) else [])
      + PrepForced(subs[1..], present)
  }

  /** No track after the first missing one is looked at. */
  lemma {:induction false} PrepStopsAtMissing(subs: seq<ExtraSub>, present: string -> bool, j: nat)
    requires j < |subs| && !present(SupName(subs[j].id))
    ensures PrepForced(subs, present) == PrepForced(subs[..j], present)
    decreases j
  {
    if j > 0 && present(SupName(subs[0].id)) {
      assert subs[1..][j - 1] == subs[j];
      PrepStopsAtMissing(subs[1..], present, j - 1);
      assert subs[..j][1..] == subs[1..][..j - 1];
      assert subs[..j][0] == subs[0];
    } else if j > 0 {
      assert subs[..j][0] == subs[0];
    }
  }

  /** prepForcedSubs: nothing without a "subs" key. */
  function PrepForcedSubs(subs: Option<seq<ExtraSub>>, present: string -> bool): (r: seq<BatchConvert.SubStep>)
    ensures subs.None? ==> r == []
  {
    match subs case None => [] case Some(s) => PrepForced(s, present)
  }

  // ------------------------------------------------------------ encodeVideo

  /** The forced subtitle burnt in: the first whose forced file exists.
      The loop reads `info['subs']` unconditionally, so an info file
      without subtitles raises KeyError here. */
  function Hardcoded(subs: Option<seq<ExtraSub>>, present: string -> bool): (r: Result<Option<string>>)
    ensures r.Fail? <==> subs.None?
    ensures r.Ok? && r.value.Some? ==> exists i :: 0 <= i < |subs.value| && r.value.value == ForcedSup(subs.value[i].id)
                                                  && present(r.value.value)
    ensures r.Ok? && r.value.None? ==> forall i :: 0 <= i < |subs.value| ==> !present(ForcedSup(subs.value[i].id))
  {
    match subs
    case None => Fail(KeyError)
    case Some(s) => Ok(FirstForced(s, present))
  }

  function FirstForced(s: seq<ExtraSub>, present: string -> bool): (r: Option<string>)
    ensures r.Some? ==> exists i :: 0 <= i < |s| && r.value == ForcedSup(s[i].id) && present(r.value)
    ensures r.None? ==> forall i :: 0 <= i < |s| ==> !present(ForcedSup(s[i].id))
    decreases |s|
  {
    if |s| == 0 then None
    else if present(ForcedSup(s[0].id)) then Some(ForcedSup(s[0].id))
    else
      assert forall i :: 1 <= i < |s| ==> s[i] == s[1..][i - 1];
      FirstForced(s[1..], present)
  }

  /** The x264 command: y4m from stdin, the info file's options, the frame
      count, and video.mkv, the file mergeMKV reads first. */
  function X264Command(info: ExtraInfo, frames: int): (r: seq<string>)
    ensures |r| == 8 + |info.x264Opts|
    ensures r[..3] == ["x264", "--demuxer", "y4m"] && r[3..3 + |info.x264Opts|] == info.x264Opts
    ensures ParseInt(r[|r| - 4]) == Some(frames)
    ensures r[|r| - 2] == MergeInputs(info)[0].file && r[|r| - 1] == "-"
  {
    ParseIntToString(frames);
    ["x264", "--demuxer", "y4m"] + info.x264Opts + ["--frames", IntToString(frames), "--output", VideoFile, "-"]
  }

  // ------------------------------------------------------------ createNightmodeTracks

  const MaxDb := "-0.5"

  /** The two files createNightmodeTracks writes for a track. */
  function LoudnormOut(t: ExtraAudio): string { LoudnormFile(t.id, "flac") }

  function DrcOut(t: ExtraAudio): string { DrcFile(t.id, "flac") }

  /** One track: the loudnorm file with `loudnormDrc` as its compressor
      flag, then the DRC file with the compressor. */
  function NightmodePair(t: ExtraAudio, loudnormDrc: bool, peaks: string -> Peaks): (r: Result<seq<FileOp>>)
    ensures r.Ok? ==> (
      ExtrasNightmodeTrack(AudioFile(t), LoudnormOut(t), t.nightmodeCodec, loudnormDrc, MaxDb, peaks(LoudnormOut(t))).Ok?
      && var a := ExtrasNightmodeTrack(AudioFile(t), LoudnormOut(t), t.nightmodeCodec, loudnormDrc, MaxDb, peaks(LoudnormOut(t))).value;
      |r.value| > |a| && r.value[..|a|] == a
      && r.value[|a|] == Filter(AudioFile(t), PrenormFile, NightmodeAudio.BatchNightmodeFilter(NightmodeAudio.FixedPanFilter, true)))
  {
    var inFile := AudioFile(t);
    match ExtrasNightmodeTrack(inFile, LoudnormOut(t), t.nightmodeCodec, loudnormDrc, MaxDb, peaks(LoudnormOut(t)))
    case Fail(f) => Fail(f)
    case Ok(a) =>
      match ExtrasNightmodeTrack(inFile, DrcOut(t), t.nightmodeCodec, true, MaxDb, peaks(DrcOut(t)))
      case Fail(f) => Fail(f)
      case Ok(b) => Ok(a + b)
  }

  /** createNightmodeTracks as written: withDRC=True for both files. */
  function CreateNightmodeTrack(t: ExtraAudio, peaks: string -> Peaks): Result<seq<FileOp>>
  {
    NightmodePair(t, true, peaks)
  }

  /** As evidently intended: the loudnorm file without the compressor. */
  function CorrectedCreateNightmodeTrack(t: ExtraAudio, peaks: string -> Peaks): Result<seq<FileOp>>
  {
    NightmodePair(t, false, peaks)
  }

  /** As written the "Loudnorm" and "DRC+Loudnorm" files come from the same
      filter, compressor included. */
  lemma LoudnormTrackCompressed(t: ExtraAudio, peaks: string -> Peaks)
    ensures var r := CreateNightmodeTrack(t, peaks);
      r.Ok? ==>
        var a := ExtrasNightmodeTrack(AudioFile(t), LoudnormOut(t), t.nightmodeCodec, true, MaxDb, peaks(LoudnormOut(t))).value;
        r.value[0] == r.value[|a|]
        && r.value[0] == Filter(AudioFile(t), PrenormFile, NightmodeAudio.BatchNightmodeFilter(NightmodeAudio.FixedPanFilter, true))
  {
  }

  /** Corrected, the loudnorm file is filtered with the matrix and loudnorm
      only, and the two files differ in their filter. */
  lemma CorrectedLoudnormPlain(t: ExtraAudio, peaks: string -> Peaks)
    ensures var r := CorrectedCreateNightmodeTrack(t, peaks);
      r.Ok? ==>
        var a := ExtrasNightmodeTrack(AudioFile(t), LoudnormOut(t), t.nightmodeCodec, false, MaxDb, peaks(LoudnormOut(t))).value;
        r.value[0] == Filter(AudioFile(t), PrenormFile, NightmodeAudio.FixedPanFilter + ",loudnorm")
        && r.value[0].filter != r.value[|a|].filter
  {
    var f := NightmodeAudio.FixedPanFilter;
    assert |f + ",loudnorm"| != |f + ",acompressor=ratio=4,loudnorm"|;
  }

  /** createNightmodeTracks over every track with "yes" in its nightmode
      flag, in order; the first failure ends it. */
  function CreateNightmodeTracks(ts: seq<ExtraAudio>, peaks: string -> Peaks, corrected: bool): Result<seq<FileOp>>
    decreases |ts|
  {
    if |ts| == 0 then Ok([])
    else
      var rest := CreateNightmodeTracks(ts[1..], peaks, corrected);
      if !Contains(ts[0].nightmode, "yes") then rest
      else BatchConvert.Then(if corrected then CorrectedCreateNightmodeTrack(ts[0], peaks) else CreateNightmodeTrack(ts[0], peaks), rest)
  }

  lemma NoDotNoFlac(stem: string)
    requires '.' !in stem
    ensures !Contains(stem, ".flac")
  {
    ContainsIffOccurs(stem, ".flac");
    forall i | 0 <= i && i + 5 <= |stem| ensures !OccursAt(stem, ".flac", i) {
      assert stem[i..i + 5][0] == stem[i];
    }
  }

  lemma LoudnormNames(t: ExtraAudio)
    requires '.' !in t.id
    ensures LoudnormOut(t) != PrenormFile
    ensures M4aName(LoudnormOut(t)) == LoudnormFile(t.id, "m4a")
  {
    var out := LoudnormOut(t);
    assert out[0] != PrenormFile[0];
    var stem := "nightmode-loudnorm-" + t.id;
    assert '.' !in stem by {
      assert forall i :: 0 <= i < |stem| ==> stem[i] == if i < 19 then "nightmode-loudnorm-"[i] else t.id[i - 19];
    }
    NoDotNoFlac(stem);
    assert out == stem + ".flac";
    BeforeFirstOfAppend(stem, ".flac");
  }

  lemma NightmodeExtOfCodecs()
    ensures NightmodeExt("flac") == "flac" && NightmodeExt("aac") == "m4a"
  {
    assert IsPrefix("flac", "flac");
    assert !Contains("aac", "flac");
  }

  /** For a "flac" or "aac" track whose loudnorm pass verifies, the file
      mergeMKV names is the one the pass leaves: the FLAC itself, or the
      m4a flacToM4a makes of it. */
  lemma MergeFindsLoudnormFile(files: set<string>, t: ExtraAudio, peaks: string -> Peaks, withDrc: bool)
    requires '.' !in t.id
    requires t.nightmodeCodec == "flac" || t.nightmodeCodec == "aac"
    requires peaks(LoudnormOut(t)).measured != ZeroPeak && peaks(LoudnormOut(t)).verified == MaxDb
    ensures var r := ExtrasNightmodeTrack(AudioFile(t), LoudnormOut(t), t.nightmodeCodec, withDrc, MaxDb, peaks(LoudnormOut(t)));
      r.Ok? && LoudnormFile(t.id, NightmodeExt(t.nightmodeCodec)) in Apply(files, r.value)
  {
    LoudnormNames(t);
    NightmodeExtOfCodecs();
    CorrectedExtrasKeepsTrack(files, AudioFile(t), LoudnormOut(t), t.nightmodeCodec, withDrc, MaxDb, peaks(LoudnormOut(t)));
  }

  // ------------------------------------------------------------ main

  /** The first of a folder's stages that raises: `raises(folder, stage)`
      is the failure the stage raises there (a KeyError of getInfo's dict,
      the exit of normAudio, ...), None when it returns. */
  function FirstRaised(folder: string, stages: seq<ExtraStage>, raises: (string, ExtraStage) -> Option<Failure>)
    : (r: Option<Failure>)
    ensures r.None? <==> forall k :: 0 <= k < |stages| ==> raises(folder, stages[k]).None?
    ensures r.Some? ==> exists k :: 0 <= k < |stages| && raises(folder, stages[k]) == r
                                    && forall j :: 0 <= j < k ==> raises(folder, stages[j]).None?
    decreases |stages|
  {
    if |stages| == 0 then None
    else if raises(folder, stages[0]).Some? then raises(folder, stages[0])
    else
      var rest := FirstRaised(folder, stages[1..], raises);
      assert forall k :: 1 <= k < |stages| ==> stages[k] == stages[1..][k - 1];
      assert rest.Some? ==> exists k :: 1 <= k < |stages| && raises(folder, stages[k]) == rest
                                        && forall j :: 0 <= j < k ==> raises(folder, stages[j]).None? by {
        if rest.Some? {
          var k :| 0 <= k < |stages| - 1 && raises(folder, stages[1..][k]) == rest
                   && forall j :: 0 <= j < k ==> raises(folder, stages[1..][j]).None?;
          assert raises(folder, stages[k + 1]) == rest;
        }
      }
      rest
  }

  /** convertMKV in one folder: the stages its resume-file calls for, in
      order, until one raises. */
  function FolderRun(folder: string, resumes: string -> Option<string>, raises: (string, ExtraStage) -> Option<Failure>)
    : (r: Result<(string, seq<ExtraStage>)>)
    ensures var stages := ConvertStages(resumes(folder));
      r.Ok? <==> forall k :: 0 <= k < |stages| ==> raises(folder, stages[k]).None?
    ensures r.Ok? ==> r.value == (folder, ConvertStages(resumes(folder)))
    ensures r.Fail? ==> var stages := ConvertStages(resumes(folder));
      exists k :: 0 <= k < |stages| && raises(folder, stages[k]) == Some(r.failure)
  {
    var stages := ConvertStages(resumes(folder));
    match FirstRaised(folder, stages, raises)
    case None => Ok((folder, stages))
    case Some(e) => Fail(e)
  }

  /** main: the folders found as batchconvert.py finds them, each running
      the stages convertMKV takes from its own resume-file (`resumes(folder)`,
      None when the folder has none). Nothing catches a failure, so the
      first stage that raises ends the whole run. */
  function Main(cwdHasInfo: bool, cwd: string, entries: seq<string>, isDir: string -> bool,
                hasInfo: string -> bool, resumes: string -> Option<string>,
                raises: (string, ExtraStage) -> Option<Failure>): (r: Result<seq<(string, seq<ExtraStage>)>>)
    ensures var folders := BatchConvert.FindFolders(cwdHasInfo, cwd, entries, isDir, hasInfo);
      r.Ok? <==> forall i :: 0 <= i < |folders| ==> FolderRun(folders[i], resumes, raises).Ok?
    ensures var folders := BatchConvert.FindFolders(cwdHasInfo, cwd, entries, isDir, hasInfo);
      r.Ok? ==> |r.value| == |folders|
                && forall i :: 0 <= i < |folders| ==> r.value[i] == (folders[i], ConvertStages(resumes(folders[i])))
    ensures var folders := BatchConvert.FindFolders(cwdHasInfo, cwd, entries, isDir, hasInfo);
      r.Fail? ==> exists i :: 0 <= i < |folders| && FolderRun(folders[i], resumes, raises) == Fail(r.failure)
                              && forall j :: 0 <= j < i ==> FolderRun(folders[j], resumes, raises).Ok?
  {
    var folders := BatchConvert.FindFolders(cwdHasInfo, cwd, entries, isDir, hasInfo);
    MapAll(folders, (folder: string) => FolderRun(folder, resumes, raises))
  }

  /** A run that gets through works in the current directory alone when it
      holds the info file, otherwise in subdirectories that hold one, and
      runs every stage in a folder without a resume file. */
  lemma MainFolders(cwdHasInfo: bool, cwd: string, entries: seq<string>, isDir: string -> bool,
                    hasInfo: string -> bool, resumes: string -> Option<string>,
                    raises: (string, ExtraStage) -> Option<Failure>)
    requires Main(cwdHasInfo, cwd, entries, isDir, hasInfo, resumes, raises).Ok?
    ensures var r := Main(cwdHasInfo, cwd, entries, isDir, hasInfo, resumes, raises).value;
      && (cwdHasInfo ==> |r| == 1 && r[0].0 == cwd)
      && (forall i :: 0 <= i < |r| && resumes(r[i].0).None? ==> r[i].1 == AllStages)
      && (!cwdHasInfo ==> forall i :: 0 <= i < |r| ==> r[i].0 in entries && isDir(r[i].0) && hasInfo(r[i].0))
  {
  }


}

=== FILE: filters.dfy ===
// The audio "convert" settings of an info file and how convertAudioTrack
// turns their "filters" list into ffmpeg / ffmpeg-normalize settings. The
// same loop appears in nightmode/new-nightmode.py, batchconvert.py and
// batchconvert/batchconvert.py; they differ in the downmix matrix and in
// whether a normalize entry must carry "true_peak".
module AudioFilters {
  import opened Results
  import opened Text
  import opened Lists

  /** A "downmixStereo" entry: the three gains handed to getffFilter. */
  datatype Downmix = Downmix(center: real, lfe: real, surrounds: real)

  /** "loudness_range_target": the string "keep", or a target in LU. */
  datatype Lra = KeepLra | LraTarget(lu: real)

  /** A "normalize" entry; `truePeak` is None when the key is absent. */
  datatype NormalizeSpec = NormalizeSpec(lra: Lra, targetLevel: real, truePeak: Option<real>)

  /** One element of "filters": a dict that may hold any of the three keys. */
  datatype FilterEntry = FilterEntry(ffmpeg: Option<string>, downmix: Option<Downmix>, normalize: Option<NormalizeSpec>)

  /** A track's "convert" dict; `encodeOpts` is None when the key is absent,
      `filters` likewise. */
  datatype ConvertSettings = ConvertSettings(codec: string, encodeOpts: Option<seq<string>>, filters: Option<seq<FilterEntry>>)

  /** The attributes of the FFmpegNormalize object the loop configures. */
  datatype NormConfig = NormConfig(
    codec: string,
    extraOutputOptions: Option<seq<string>>,
    preFilter: Option<string>,
    postFilter: Option<string>,
    keepLra: bool,
    lraTarget: Option<real>,
    targetLevel: Option<real>,
    truePeak: Option<real>)

  /** The ffmpeg filters one entry contributes, "ffmpeg" before the downmix. */
  function EntryFilters(e: FilterEntry, pan: Downmix -> string): seq<string>
  {
    (match e.ffmpeg case Some(f) => [f] case None => [])
    + (match e.downmix case Some(d) => [pan(d)] case None => [])
  }

  /** Every filter of a list of entries, in order. */
  function FiltersOf(es: seq<FilterEntry>, pan: Downmix -> string): seq<string>
    decreases |es|
  {
    if |es| == 0 then [] else FiltersOf(es[..|es| - 1], pan) + EntryFilters(es[|es| - 1], pan)
  }

  lemma {:induction false} FiltersOfAppend(a: seq<FilterEntry>, b: seq<FilterEntry>, pan: Downmix -> string)
    ensures FiltersOf(a + b, pan) == FiltersOf(a, pan) + FiltersOf(b, pan)
    decreases |b|
  {
    if |b| == 0 {
      assert a + b == a;
    } else {
      assert (a + b)[..|a + b| - 1] == a + b[..|b| - 1];
      FiltersOfAppend(a, b[..|b| - 1], pan);
    }
  }

  /** The loop's state: whether a normalize entry was seen, the filters
      since the last one, and the normaliser's attributes. */
  datatype Acc = Acc(normalize: bool, pending: seq<string>, cfg: NormConfig)

  /** One iteration of the loop. Without `truePeakOptional` (new-nightmode)
      a normalize entry lacking "true_peak" raises KeyError. */
  function StepEntry(acc: Acc, e: FilterEntry, pan: Downmix -> string, truePeakOptional: bool): (r: Result<Acc>)
    ensures r.Fail? <==> e.normalize.Some? && e.normalize.value.truePeak.None? && !truePeakOptional
    ensures r.Fail? ==> r.failure == KeyError
  {
    var pending := acc.pending + EntryFilters(e, pan);
    match e.normalize
    case None => Ok(Acc(acc.normalize, pending, acc.cfg))
    case Some(n) =>
      if n.truePeak.None? && !truePeakOptional then Fail(KeyError)
      else
        var cfg := acc.cfg.(preFilter := Some(Join(",", pending)),
                            keepLra := acc.cfg.keepLra || n.lra.KeepLra?,
                            lraTarget := if n.lra.KeepLra? then acc.cfg.lraTarget else Some(n.lra.lu),
                            targetLevel := Some(n.targetLevel),
                            truePeak := if n.truePeak.Some? then n.truePeak else acc.cfg.truePeak);
        Ok(Acc(true, [], cfg))
  }

  /** A loop over entries from the front, each entry one `step`. */
  function FoldBy(es: seq<FilterEntry>, init: Acc, step: (Acc, FilterEntry) -> Result<Acc>): Result<Acc>
    decreases |es|
  {
    if |es| == 0 then Ok(init)
    else
      match FoldBy(es[..|es| - 1], init, step)
      case Fail(f) => Fail(f)
      case Ok(acc) => step(acc, es[|es| - 1])
  }

  /** A loop whose steps cannot fail cannot fail. */
  lemma {:induction false} FoldByTotal(es: seq<FilterEntry>, init: Acc, step: (Acc, FilterEntry) -> Result<Acc>)
    requires forall acc: Acc, e: FilterEntry :: step(acc, e).Ok?
    ensures FoldBy(es, init, step).Ok?
    decreases |es|
  {
    if |es| > 0 {
      FoldByTotal(es[..|es| - 1], init, step);
    }
  }

  /** A loop stops with the failure of the step that stopped it. */
  lemma {:induction false} FoldByFailure(es: seq<FilterEntry>, init: Acc, step: (Acc, FilterEntry) -> Result<Acc>, f: Failure)
    requires forall acc: Acc, e: FilterEntry :: step(acc, e).Fail? ==> step(acc, e).failure == f
    ensures FoldBy(es, init, step).Fail? ==> FoldBy(es, init, step).failure == f
    decreases |es|
  {
    if |es| > 0 {
      FoldByFailure(es[..|es| - 1], init, step, f);
    }
  }

  /** Entries without "normalize" only add pending filters: the flag and
      the normaliser's attributes stay as they were. */
  lemma {:induction false} FoldByPlain(es: seq<FilterEntry>, init: Acc, step: (Acc, FilterEntry) -> Result<Acc>)
    requires forall acc: Acc, e: FilterEntry :: e.normalize.None? ==>
      step(acc, e).Ok? && step(acc, e).value.normalize == acc.normalize && step(acc, e).value.cfg == acc.cfg
    requires forall j :: 0 <= j < |es| ==> es[j].normalize.None?
    ensures var r := FoldBy(es, init, step);
      r.Ok? && r.value.normalize == init.normalize && r.value.cfg == init.cfg
    decreases |es|
  {
    if |es| > 0 {
      assert forall j :: 0 <= j < |es| - 1 ==> es[..|es| - 1][j] == es[j];
      FoldByPlain(es[..|es| - 1], init, step);
    }
  }

  /** The loop over the entries. It can only fail with KeyError, and only
      when "true_peak" is required. */
  function Fold(es: seq<FilterEntry>, init: Acc, pan: Downmix -> string, truePeakOptional: bool): (r: Result<Acc>)
    ensures r.Fail? ==> r.failure == KeyError && !truePeakOptional
    ensures (forall j :: 0 <= j < |es| ==> es[j].normalize.None?) ==>
      r.Ok? && r.value.normalize == init.normalize && r.value.cfg == init.cfg
  {
    var step := (acc: Acc, e: FilterEntry) => StepEntry(acc, e, pan, truePeakOptional);
    FoldByFailure(es, init, step, KeyError);
    if forall j :: 0 <= j < |es| ==> es[j].normalize.None? then
      FoldByPlain(es, init, step);
      FoldBy(es, init, step)
    else if truePeakOptional then
      FoldByTotal(es, init, step);
      FoldBy(es, init, step)
    else
      FoldBy(es, init, step)
  }

  /** Index of the last entry holding "normalize". */
  function LastNormalize(es: seq<FilterEntry>): (r: Option<nat>)
    ensures r.Some? ==> r.value < |es| && es[r.value].normalize.Some?
                         && forall j :: r.value < j < |es| ==> es[j].normalize.None?
    ensures r.None? ==> forall j :: 0 <= j < |es| ==> es[j].normalize.None?
    decreases |es|
  {
    if |es| == 0 then None
    else if es[|es| - 1].normalize.Some? then Some(|es| - 1)
    else LastNormalize(es[..|es| - 1])
  }

  /** Where the filters still pending after the loop begin. */
  function PendingStart(es: seq<FilterEntry>): (k: nat)
    ensures k <= |es|
  {
    match LastNormalize(es) case Some(i) => i + 1 case None => 0
  }

  /** What one iteration does to the pending filters and the flag, and
      the pre_filter a normalize entry sets. */
  lemma StepEntryFacts(acc: Acc, e: FilterEntry, pan: Downmix -> string, truePeakOptional: bool)
    ensures var r := StepEntry(acc, e, pan, truePeakOptional);
      r.Ok? ==> r.value.pending == (if e.normalize.Some? then [] else acc.pending + EntryFilters(e, pan))
                && r.value.normalize == (acc.normalize || e.normalize.Some?)
                && (e.normalize.Some? ==> r.value.cfg.preFilter == Some(Join(",", acc.pending + EntryFilters(e, pan))))
  {
  }

  /** One more entry unfolds the loop once. */
  lemma FoldSnoc(es: seq<FilterEntry>, init: Acc, pan: Downmix -> string, truePeakOptional: bool)
    requires |es| > 0
    ensures Fold(es, init, pan, truePeakOptional)
            == match Fold(es[..|es| - 1], init, pan, truePeakOptional)
               case Fail(f) => Fail(f)
               case Ok(acc) => StepEntry(acc, es[|es| - 1], pan, truePeakOptional)
  {
  }

  lemma FiltersOfSingle(e: FilterEntry, pan: Downmix -> string)
    ensures FiltersOf([e], pan) == EntryFilters(e, pan)
  {
    assert [e][..0] == [];
  }

  /** The filters from `k` on, with one more entry at the end. */
  lemma FiltersOfSnoc(front: seq<FilterEntry>, e: FilterEntry, k: nat, pan: Downmix -> string)
    requires k <= |front|
    ensures FiltersOf((front + [e])[k..], pan) == FiltersOf(front[k..], pan) + EntryFilters(e, pan)
  {
    assert (front + [e])[k..] == front[k..] + [e];
    FiltersOfAppend(front[k..], [e], pan);
    FiltersOfSingle(e, pan);
  }

  /** The loop leaves pending exactly the filters of the entries after the
      last normalize entry (all of them when there is none), and records
      whether there was one. */
  lemma {:induction false} FoldPending(es: seq<FilterEntry>, init: Acc, pan: Downmix -> string, truePeakOptional: bool)
    requires init.pending == [] && !init.normalize
    ensures var r := Fold(es, init, pan, truePeakOptional);
      r.Ok? ==> r.value.pending == FiltersOf(es[PendingStart(es)..], pan)
                && (r.value.normalize <==> LastNormalize(es).Some?)
    decreases |es|
  {
    if |es| > 0 {
      var front := es[..|es| - 1];
      var e := es[|es| - 1];
      assert es == front + [e];
      FoldPending(front, init, pan, truePeakOptional);
      FoldSnoc(es, init, pan, truePeakOptional);
      var r := Fold(es, init, pan, truePeakOptional);
      if r.Ok? {
        var acc := Fold(front, init, pan, truePeakOptional).value;
        StepEntryFacts(acc, e, pan, truePeakOptional);
        if e.normalize.None? {
          assert LastNormalize(es) == LastNormalize(front);
          FiltersOfSnoc(front, e, PendingStart(front), pan);
        } else {
          assert PendingStart(es) == |es|;
          assert es[|es|..] == [];
        }
      }
    }
  }

  /** When the last entry normalises, its pre_filter is the comma-join of
      the filters pending before it and its own. */
  lemma PreFilterAtLast(es: seq<FilterEntry>, init: Acc, pan: Downmix -> string, truePeakOptional: bool)
    requires init.pending == [] && !init.normalize
    requires |es| > 0 && es[|es| - 1].normalize.Some?
    ensures var r := Fold(es, init, pan, truePeakOptional);
      r.Ok? ==> r.value.cfg.preFilter == Some(Join(",", FiltersOf(es[PendingStart(es[..|es| - 1])..], pan)))
  {
    var front := es[..|es| - 1];
    var e := es[|es| - 1];
    FoldSnoc(es, init, pan, truePeakOptional);
    var f := Fold(front, init, pan, truePeakOptional);
    if f.Ok? {
      StepEntryFacts(f.value, e, pan, truePeakOptional);
      FoldPending(front, init, pan, truePeakOptional);
      var s := PendingStart(front);
      assert es == front + [e];
      FiltersOfSnoc(front, e, s, pan);
    }
  }

  /** A normalize entry's pre_filter is the comma-join of the filters since
      the previous normalize entry, including its own entry's. */
  lemma {:induction false} FoldPreFilter(es: seq<FilterEntry>, init: Acc, pan: Downmix -> string, truePeakOptional: bool)
    requires init.pending == [] && !init.normalize
    requires LastNormalize(es).Some?
    ensures var r := Fold(es, init, pan, truePeakOptional);
      var k := LastNormalize(es).value;
      r.Ok? ==> r.value.cfg.preFilter == Some(Join(",", FiltersOf(es[PendingStart(es[..k])..k + 1], pan)))
    decreases |es|
  {
    var k := LastNormalize(es).value;
    if k < |es| - 1 {
      var front := es[..|es| - 1];
      FoldSnoc(es, init, pan, truePeakOptional);
      var f := Fold(front, init, pan, truePeakOptional);
      if f.Ok? {
        StepEntryFacts(f.value, es[|es| - 1], pan, truePeakOptional);
      }
      assert LastNormalize(front) == LastNormalize(es);
      assert front[..k] == es[..k];
      assert front[PendingStart(es[..k])..k + 1] == es[PendingStart(es[..k])..k + 1];
      FoldPreFilter(front, init, pan, truePeakOptional);
    } else {
      PreFilterAtLast(es, init, pan, truePeakOptional);
      assert es[..k + 1] == es;
    }
  }

  /** The loop never touches the codec or the extra output options. */
  lemma {:induction false} FoldKeepsOptions(es: seq<FilterEntry>, init: Acc, pan: Downmix -> string, truePeakOptional: bool)
    ensures var r := Fold(es, init, pan, truePeakOptional);
      r.Ok? ==> r.value.cfg.codec == init.cfg.codec && r.value.cfg.extraOutputOptions == init.cfg.extraOutputOptions
    decreases |es|
  {
    if |es| > 0 {
      FoldKeepsOptions(es[..|es| - 1], init, pan, truePeakOptional);
      FoldSnoc(es, init, pan, truePeakOptional);
    }
  }

  /** Only an entry without "true_peak" in the strict revision fails. */
  lemma {:induction false} FoldFails(es: seq<FilterEntry>, init: Acc, pan: Downmix -> string, truePeakOptional: bool)
    ensures Fold(es, init, pan, truePeakOptional).Fail? <==>
      (!truePeakOptional && exists j :: 0 <= j < |es| && es[j].normalize.Some? && es[j].normalize.value.truePeak.None?)
    ensures Fold(es, init, pan, truePeakOptional).Fail? ==> Fold(es, init, pan, truePeakOptional).failure == KeyError
    decreases |es|
  {
    if |es| > 0 {
      var front := es[..|es| - 1];
      FoldFails(front, init, pan, truePeakOptional);
      FoldSnoc(es, init, pan, truePeakOptional);
      assert forall j :: 0 <= j < |front| ==> front[j] == es[j];
      if exists j :: 0 <= j < |es| && es[j].normalize.Some? && es[j].normalize.value.truePeak.None? {
        var j :| 0 <= j < |es| && es[j].normalize.Some? && es[j].normalize.value.truePeak.None?;
        if j < |es| - 1 {
          assert front[j] == es[j];
        }
      }
    }
  }

  // ------------------------------------------------------------ the ffmpeg command

  /** The command of the non-normalising path: source, map, codec, the
      encode options when non-empty, "-af" with the filters when there are
      any, and the output last. */
  function FfmpegCommand(source: string, trackId: string, codec: string, encodeOpts: seq<string>,
                         filters: seq<string>, output: string): seq<string>
  {
    ["ffmpeg", "-y", "-i", source, "-map", "0:" + trackId, "-c:a", codec]
      + encodeOpts
      + (if |filters| > 0 then ["-af", Join(",", filters)] else [])
      + [output]
  }

  /** The command can be read back: its fixed head, the options after it,
      the filter argument, and the output as its last element. */
  lemma FfmpegCommandParts(source: string, trackId: string, codec: string, encodeOpts: seq<string>,
                           filters: seq<string>, output: string)
    ensures var c := FfmpegCommand(source, trackId, codec, encodeOpts, filters, output);
      |c| == 9 + |encodeOpts| + (if |filters| > 0 then 2 else 0)
      && c[3] == source && c[5] == "0:" + trackId && c[7] == codec
      && c[8..8 + |encodeOpts|] == encodeOpts
      && (|filters| > 0 ==> c[8 + |encodeOpts|] == "-af" && c[9 + |encodeOpts|] == Join(",", filters))
      && c[|c| - 1] == output
  {
    var c := FfmpegCommand(source, trackId, codec, encodeOpts, filters, output);
    var head := ["ffmpeg", "-y", "-i", source, "-map", "0:" + trackId, "-c:a", codec];
    assert c[..8] == head;
    assert c[8..8 + |encodeOpts|] == encodeOpts;
  }

  /** `encodeOpts = None; if [] != convert["encodeOpts"]: encodeOpts = ...`,
      then `if encodeOpts:`: the options the command gets; a missing key
      raises KeyError. */
  function EncodeOpts(c: ConvertSettings): (r: Result<seq<string>>)
    ensures r.Fail? <==> c.encodeOpts.None?
    ensures r.Ok? ==> r.value == c.encodeOpts.value
  {
    match c.encodeOpts case None => Fail(KeyError) case Some(o) => Ok(o)
  }

  /** What convertAudioTrack runs for a track. */
  datatype AudioPlan =
    | RunFfmpeg(cmd: seq<string>)
    | RunNormalize(cfg: NormConfig, input: string, output: string)

  /** The FFmpegNormalize object as constructed, before the loop: its
      extra output options are the `encodeOpts` local at that moment, None. */
  function InitialConfig(codec: string): NormConfig
  {
    NormConfig(codec, None, None, None, false, None, None, None)
  }

  /** convertAudioTrack's choice, for a given downmix matrix: ffmpeg with
      every filter when no normalize entry is present, otherwise
      ffmpeg-normalize with the configured pre/post filters reading
      `normInput`. */
  function PlanAudio(c: ConvertSettings, source: string, trackId: string, output: string, normInput: string,
                     pan: Downmix -> string, truePeakOptional: bool): (r: Result<AudioPlan>)
    ensures r.Ok? ==> c.encodeOpts.Some?
  {
    match EncodeOpts(c)
    case Fail(f) => Fail(f)
    case Ok(opts) =>
      var es := match c.filters case Some(es) => es case None => [];
      match Fold(es, Acc(false, [], InitialConfig(c.codec)), pan, truePeakOptional)
      case Fail(f) => Fail(f)
      case Ok(acc) =>
        if acc.normalize then
          Ok(RunNormalize(acc.cfg.(postFilter := Some(Join(",", acc.pending))), normInput, output))
        else Ok(RunFfmpeg(FfmpegCommand(source, trackId, c.codec, opts, acc.pending, output)))
  }

  /** Without a normalize entry the command carries every filter in order. */
  lemma PlanWithoutNormalize(c: ConvertSettings, source: string, trackId: string, output: string, normInput: string,
                             pan: Downmix -> string, truePeakOptional: bool)
    requires c.encodeOpts.Some?
    requires c.filters.None? || LastNormalize(c.filters.value).None?
    ensures PlanAudio(c, source, trackId, output, normInput, pan, truePeakOptional)
            == Ok(RunFfmpeg(FfmpegCommand(source, trackId, c.codec, c.encodeOpts.value,
                                          FiltersOf(match c.filters case Some(es) => es case None => [], pan), output)))
  {
    var es := match c.filters case Some(es) => es case None => [];
    var init := Acc(false, [], InitialConfig(c.codec));
    FoldPending(es, init, pan, truePeakOptional);
    FoldFails(es, init, pan, truePeakOptional);
    assert es[0..] == es;
  }

  /** With a normalize entry the post filter is the comma-join of the
      filters after the last one. */
  lemma PlanPostFilter(c: ConvertSettings, source: string, trackId: string, output: string, normInput: string,
                       pan: Downmix -> string, truePeakOptional: bool)
    requires c.filters.Some? && LastNormalize(c.filters.value).Some?
    ensures var r := PlanAudio(c, source, trackId, output, normInput, pan, truePeakOptional);
      r.Ok? ==> r.value.RunNormalize?
                && r.value.cfg.postFilter == Some(Join(",", FiltersOf(c.filters.value[PendingStart(c.filters.value)..], pan)))
  {
    FoldPending(c.filters.value, Acc(false, [], InitialConfig(c.codec)), pan, truePeakOptional);
  }

  /** As written, the encode options never reach ffmpeg-normalize: a
      normalising track with options (as every night-mode template has)
      is configured without them. */
  lemma NormalizeDropsEncodeOpts(c: ConvertSettings, source: string, trackId: string, output: string,
                                 normInput: string, pan: Downmix -> string, truePeakOptional: bool)
    requires c.encodeOpts.Some? && c.encodeOpts.value != []
    requires c.filters.Some? && LastNormalize(c.filters.value).Some?
    ensures var r := PlanAudio(c, source, trackId, output, normInput, pan, truePeakOptional);
      r.Ok? ==> r.value.RunNormalize? && r.value.cfg.extraOutputOptions == None
                && r.value.cfg.codec == c.codec
  {
    FoldKeepsOptions(c.filters.value, Acc(false, [], InitialConfig(c.codec)), pan, truePeakOptional);
    FoldPending(c.filters.value, Acc(false, [], InitialConfig(c.codec)), pan, truePeakOptional);
  }

  /** A filter list whose only normalize entry is its last: everything goes
      into the pre-filter, the post-filter is empty, and the entry's settings
      are taken. */
  lemma PlanNormalizeLast(c: ConvertSettings, source: string, trackId: string, output: string, normInput: string,
                          pan: Downmix -> string, truePeakOptional: bool)
    requires c.encodeOpts.Some? && c.filters.Some? && |c.filters.value| > 0
    requires var es := c.filters.value;
      es[|es| - 1].normalize.Some? && (truePeakOptional || es[|es| - 1].normalize.value.truePeak.Some?)
      && forall j :: 0 <= j < |es| - 1 ==> es[j].normalize.None?
    ensures var es := c.filters.value;
      var n := es[|es| - 1].normalize.value;
      var r := PlanAudio(c, source, trackId, output, normInput, pan, truePeakOptional);
      r.Ok? && r.value.RunNormalize?
      && r.value.cfg.preFilter == Some(Join(",", FiltersOf(es, pan)))
      && r.value.cfg.postFilter == Some("")
      && r.value.cfg.keepLra == n.lra.KeepLra?
      && r.value.cfg.targetLevel == Some(n.targetLevel)
      && r.value.cfg.extraOutputOptions == None
  {
    var es := c.filters.value;
    var k := |es| - 1;
    var init := Acc(false, [], InitialConfig(c.codec));
    assert LastNormalize(es) == Some(k);
    assert LastNormalize(es[..k]) == None by {
      assert forall j :: 0 <= j < k ==> es[..k][j].normalize.None?;
    }
    FoldFails(es, init, pan, truePeakOptional);
    assert Fold(es, init, pan, truePeakOptional).Ok? by {
      if !truePeakOptional {
        forall j | 0 <= j < |es| && es[j].normalize.Some?
          ensures es[j].normalize.value.truePeak.Some?
        {
          assert j == k;
        }
      }
    }
    FoldPreFilter(es, init, pan, truePeakOptional);
    FoldPending(es, init, pan, truePeakOptional);
    FoldKeepsOptions(es, init, pan, truePeakOptional);
    assert es[0..k + 1] == es;
    assert es[k + 1..] == [];
    assert es[..k + 1] == es;
    var front := Fold(es[..k], init, pan, truePeakOptional);
    FoldKeepsOptions(es[..k], init, pan, truePeakOptional);
    FoldPending(es[..k], init, pan, truePeakOptional);
    assert front.Ok? && !front.value.cfg.keepLra by {
      FoldFails(es[..k], init, pan, truePeakOptional);
      FoldKeepsLra(es[..k], init, pan, truePeakOptional);
    }
  }

  /** Without normalize entries the loop leaves the keep flag as it was. */
  lemma {:induction false} FoldKeepsLra(es: seq<FilterEntry>, init: Acc, pan: Downmix -> string, truePeakOptional: bool)
    requires forall j :: 0 <= j < |es| ==> es[j].normalize.None?
    ensures var r := Fold(es, init, pan, truePeakOptional);
      r.Ok? && r.value.cfg.keepLra == init.cfg.keepLra
    decreases |es|
  {
    if |es| > 0 {
      FoldKeepsLra(es[..|es| - 1], init, pan, truePeakOptional);
      FoldSnoc(es, init, pan, truePeakOptional);
    }
  }

  /** The plan as evidently intended: the normaliser is given the same
      non-empty encode options the ffmpeg command would get. */
  function CorrectedPlanAudio(c: ConvertSettings, source: string, trackId: string, output: string, normInput: string,
                              pan: Downmix -> string, truePeakOptional: bool): (r: Result<AudioPlan>)
    ensures r.Fail? <==> PlanAudio(c, source, trackId, output, normInput, pan, truePeakOptional).Fail?
    ensures r.Ok? && r.value.RunFfmpeg? ==> r == PlanAudio(c, source, trackId, output, normInput, pan, truePeakOptional)
  {
    match PlanAudio(c, source, trackId, output, normInput, pan, truePeakOptional)
    case Fail(f) => Fail(f)
    case Ok(RunFfmpeg(cmd)) => Ok(RunFfmpeg(cmd))
    case Ok(RunNormalize(cfg, i, o)) =>
      var opts := c.encodeOpts.value;
      Ok(RunNormalize(cfg.(extraOutputOptions := if opts != [] then Some(opts) else None), i, o))
  }

  /** With the correction, normalising tracks keep their encode options. */
  lemma CorrectedNormalizeKeepsEncodeOpts(c: ConvertSettings, source: string, trackId: string, output: string,
                                          normInput: string, pan: Downmix -> string, truePeakOptional: bool)
    requires c.encodeOpts.Some? && c.encodeOpts.value != []
    ensures var r := CorrectedPlanAudio(c, source, trackId, output, normInput, pan, truePeakOptional);
      r.Ok? && r.value.RunNormalize? ==> r.value.cfg.extraOutputOptions == Some(c.encodeOpts.value)
  {
  }

  // ------------------------------------------------------------ new-nightmode output names

  /** `"{base}-{id}-{tracks.index(track)}.{ext}"`: a track is named after
      the position of the first equal settings dict in the list. */
  function NightmodeOutFile<T(==)>(base: string, trackId: string, ext: string, tracks: seq<T>, track: T): string
    requires track in tracks
  {
    base + "-" + trackId + "-" + NatToString(IndexOf(tracks, track)) + "." + ext
  }

  /** In a list without repeated settings the k-th track is named with k,
      so two positions never share an output file. */
  lemma NightmodeOutFilesDistinct<T>(base: string, trackId: string, ext: string, tracks: seq<T>, i: nat, j: nat)
    requires Distinct(tracks) && i < |tracks| && j < |tracks| && i != j
    ensures NightmodeOutFile(base, trackId, ext, tracks, tracks[i])
            != NightmodeOutFile(base, trackId, ext, tracks, tracks[j])
  {
    DistinctIndexOf(tracks, i);
    DistinctIndexOf(tracks, j);
    var head := base + "-" + trackId + "-";
    var a := NatToString(i);
    var b := NatToString(j);
    NatToStringInjective(i, j);
    if |a| == |b| {
      var k :| 0 <= k < |a| && a[k] != b[k];
      assert (head + a + "." + ext)[|head| + k] == a[k];
      assert (head + b + "." + ext)[|head| + k] == b[k];
    } else {
      assert |head + a + "." + ext| != |head + b + "." + ext|;
    }
  }

  /** Repeated settings collide: every copy is named after the first. */
  lemma NightmodeOutFileRepeats<T>(base: string, trackId: string, ext: string, tracks: seq<T>, i: nat, j: nat)
    requires i < j < |tracks| && tracks[i] == tracks[j]
    ensures IndexOf(tracks, tracks[j]) <= i
    ensures NightmodeOutFile(base, trackId, ext, tracks, tracks[j])
            == NightmodeOutFile(base, trackId, ext, tracks, tracks[i])
  {
    var k := IndexOf(tracks, tracks[j]);
    assert k <= i by {
      if k > i {
        assert false;
      }
    }
  }
}

=== FILE: forced.dfy ===
// forced-subtitles/compare-forced-subtitles.py: BDN XML timecodes as seconds,
// the overlap test between two subtitle events, marking the events of one
// file that overlap the other file, and the Forced flag toggle the batch
// converters share.
module ForcedSubs {
  import opened Results
  import opened Text

  // ------------------------------------------------------------ timecodes

  /** A field of a timecode: `float(field)` for plain digit strings. */
  predicate Numeric(p: string)
  {
    |p| > 0 && AllDigits(p)
  }

  /** `float(timecode.split(":")[k])`: IndexError when the field is missing,
      ValueError when it is not a number. */
  function Field(parts: seq<string>, k: nat): (r: Result<real>)
    ensures r.Ok? <==> k < |parts| && Numeric(parts[k])
    ensures r.Ok? ==> r.value == ParseNat(parts[k]) as real
    ensures r.Fail? ==> r.failure == (if k < |parts| then ValueError else IndexError)
  {
    if k >= |parts| then Fail(IndexError)
    else if !Numeric(parts[k]) then Fail(ValueError)
    else Ok(ParseNat(parts[k]) as real)
  }

  /** tc2sec: hours, minutes, seconds and frames, the frames divided by the
      frame rate; the fields are read in that order. */
  function Tc2Sec(tc: string, fps: real): (r: Result<real>)
    ensures var p := Split(tc, ':');
      r.Ok? <==> (|p| >= 4 && Numeric(p[0]) && Numeric(p[1]) && Numeric(p[2]) && Numeric(p[3]) && fps != 0.0)
    ensures r.Fail? ==> r.failure in {IndexError, ValueError, ZeroDivision}
    ensures r.Ok? && fps > 0.0 ==> r.value >= 0.0
  {
    Seconds(Split(tc, ':'), fps)
  }

  /** The value of the colon-separated fields of a timecode. */
  function Seconds(parts: seq<string>, fps: real): (r: Result<real>)
    ensures r.Ok? <==> (|parts| >= 4 && Numeric(parts[0]) && Numeric(parts[1]) && Numeric(parts[2]) && Numeric(parts[3])
                        && fps != 0.0)
    ensures r.Fail? ==> r.failure in {IndexError, ValueError, ZeroDivision}
    ensures r.Ok? && fps > 0.0 ==> r.value >= 0.0
  {
    match (Field(parts, 0), Field(parts, 1), Field(parts, 2), Field(parts, 3))
    case (Fail(e), _, _, _) => Fail(e)
    case (_, Fail(e), _, _) => Fail(e)
    case (_, _, Fail(e), _) => Fail(e)
    case (_, _, _, Fail(e)) => Fail(e)
    case (Ok(h), Ok(m), Ok(s), Ok(f)) =>
      if fps == 0.0 then Fail(ZeroDivision)
      else
        QuotientSign(f, fps);
        Ok(h * 3600.0 + m * 60.0 + s + f / fps)
  }

  lemma QuotientSign(f: real, fps: real)
    requires fps != 0.0
    ensures f >= 0.0 && fps > 0.0 ==> f / fps >= 0.0
  {
    if f >= 0.0 && fps > 0.0 {
      assert f / fps * fps == f;
    }
  }

  /** Four numeric fields give the time they spell; fewer fields are an
      IndexError. */
  lemma SecondsOfFields(parts: seq<string>, fps: real, h: nat, m: nat, s: nat, f: nat)
    requires |parts| >= 4 && Numeric(parts[0]) && Numeric(parts[1]) && Numeric(parts[2]) && Numeric(parts[3])
    requires ParseNat(parts[0]) == h && ParseNat(parts[1]) == m && ParseNat(parts[2]) == s && ParseNat(parts[3]) == f
    ensures Seconds(parts, fps) ==
      if fps == 0.0 then Fail(ZeroDivision) else Ok(h as real * 3600.0 + m as real * 60.0 + s as real + f as real / fps)
  {
  }

  lemma MissingField(parts: seq<string>, fps: real)
    requires |parts| < 4
    ensures Seconds(parts, fps).Fail?
  {
  }

  /** The `%02d:%02d:%02d:%02d` form the files use. */
  function Timecode(h: nat, m: nat, s: nat, f: nat): string
  {
    Join([':'], [ZeroPad(h, 2), ZeroPad(m, 2), ZeroPad(s, 2), ZeroPad(f, 2)])
  }

  lemma ZeroPadNoColon(n: nat, w: nat)
    ensures ':' !in ZeroPad(n, w) && Numeric(ZeroPad(n, w))
  {
    assert |NatToString(n)| >= 1;
  }

  /** Four colon-free fields joined with colons split back into themselves. */
  lemma SplitFour(a: string, b: string, c: string, d: string)
    requires ':' !in a && ':' !in b && ':' !in c && ':' !in d
    ensures Split(Join([':'], [a, b, c, d]), ':') == [a, b, c, d]
  {
    var parts := [a, b, c, d];
    assert forall i :: 0 <= i < |parts| ==> ':' !in parts[i];
    SplitJoin(parts, ':');
  }

  /** A well-formed timecode reads back as its value in seconds. */
  lemma Tc2SecOfTimecode(h: nat, m: nat, s: nat, f: nat, fps: real)
    requires fps != 0.0
    ensures Tc2Sec(Timecode(h, m, s, f), fps) == Ok(h as real * 3600.0 + m as real * 60.0 + s as real + f as real / fps)
  {
    var parts := [ZeroPad(h, 2), ZeroPad(m, 2), ZeroPad(s, 2), ZeroPad(f, 2)];
    assert Split(Timecode(h, m, s, f), ':') == parts by {
      ZeroPadNoColon(h, 2);
      ZeroPadNoColon(m, 2);
      ZeroPadNoColon(s, 2);
      ZeroPadNoColon(f, 2);
      SplitFour(ZeroPad(h, 2), ZeroPad(m, 2), ZeroPad(s, 2), ZeroPad(f, 2));
    }
    assert Seconds(parts, fps) == Ok(h as real * 3600.0 + m as real * 60.0 + s as real + f as real / fps) by {
      ZeroPadNoColon(h, 2);
      ZeroPadNoColon(m, 2);
      ZeroPadNoColon(s, 2);
      ZeroPadNoColon(f, 2);
      SecondsOfFields(parts, fps, h, m, s, f);
    }
  }

  // ------------------------------------------------------------ overlap

  /** A subtitle event with its in and out times already in seconds. */
  datatype Event = Event(inSec: real, outSec: real, forced: string)

  function Max(a: real, b: real): real { if a >= b then a else b }
  function Min(a: real, b: real): real { if a <= b then a else b }

  /** isOverlap: the earliest end lies strictly after the latest start,
      which is the usual test for open intervals: each event starts before
      the other ends, and both are non-empty. */
  predicate IsOverlap(e1: Event, e2: Event): (r: bool)
    ensures r <==> e1.inSec < e2.outSec && e2.inSec < e1.outSec && e1.inSec < e1.outSec && e2.inSec < e2.outSec
  {
    Min(e1.outSec, e2.outSec) - Max(e1.inSec, e2.inSec) > 0.0
  }

  lemma OverlapSymmetric(e1: Event, e2: Event)
    ensures IsOverlap(e1, e2) <==> IsOverlap(e2, e1)
  {
  }

  /** Events that only touch do not overlap. */
  lemma TouchingNoOverlap(e1: Event, e2: Event)
    requires e1.outSec == e2.inSec
    ensures !IsOverlap(e1, e2)
  {
  }

  // ------------------------------------------------------------ marking

  /** How many events of `others` overlap `e`. */
  function OverlapCount(e: Event, others: seq<Event>): (n: nat)
    ensures n <= |others|
    ensures n > 0 <==> exists j :: 0 <= j < |others| && IsOverlap(e, others[j])
    decreases |others|
  {
    if |others| == 0 then 0
    else
      var rest := OverlapCount(e, others[1..]);
      assert forall j :: 0 <= j < |others| - 1 ==> others[1..][j] == others[j + 1];
      (if IsOverlap(e, others[0]) then 1 else 0) + rest
  }

  /** The nested loop: every event of the first file that overlaps some
      event of the second is set Forced="True"; the counter counts the
      overlapping pairs. */
  function MarkForced(events: seq<Event>, others: seq<Event>): (r: (seq<Event>, nat))
    ensures |r.0| == |events|
    ensures forall i :: 0 <= i < |events| ==>
      r.0[i] == (if OverlapCount(events[i], others) > 0 then events[i].(forced := "True") else events[i])
    decreases |events|
  {
    if |events| == 0 then ([], 0)
    else
      var e := events[0];
      var rest := MarkForced(events[1..], others);
      var n := OverlapCount(e, others);
      ([if n > 0 then e.(forced := "True") else e] + rest.0, n + rest.1)
  }

  /** The total of overlapping pairs. */
  function PairCount(events: seq<Event>, others: seq<Event>): nat
    decreases |events|
  {
    if |events| == 0 then 0 else OverlapCount(events[0], others) + PairCount(events[1..], others)
  }

  /** The counter is the number of overlapping pairs, and it is zero
      exactly when no event was marked by the loop. */
  lemma {:induction false} MarkForcedCount(events: seq<Event>, others: seq<Event>)
    ensures MarkForced(events, others).1 == PairCount(events, others)
    ensures PairCount(events, others) == 0 <==>
      forall i, j :: 0 <= i < |events| && 0 <= j < |others| ==> !IsOverlap(events[i], others[j])
    decreases |events|
  {
    if |events| > 0 {
      MarkForcedCount(events[1..], others);
      if PairCount(events, others) == 0 {
        forall i, j | 0 <= i < |events| && 0 <= j < |others| ensures !IsOverlap(events[i], others[j]) {
          if i > 0 {
            assert events[i] == events[1..][i - 1];
          }
        }
      } else if OverlapCount(events[0], others) == 0 {
        var i, j :| 0 <= i < |events[1..]| && 0 <= j < |others| && IsOverlap(events[1..][i], others[j]);
        assert events[i + 1] == events[1..][i];
      }
    }
  }

  // ------------------------------------------------------------ toggle

  /** `"True" if value in "False" else "False"`: a substring test, so the
      empty string and any piece of "False" turn into "True". */
  function Toggle(v: string): (r: string)
    ensures r == "True" || r == "False"
  {
    if Contains("False", v) then "True" else "False"
  }

  lemma SubstringOfFalse(v: string)
    requires v == "False"
    ensures Contains("False", v)
  {
    assert OccursAt("False", v, 0);
  }

  lemma NotSubstringOfFalse(v: string)
    requires v == "True"
    ensures !Contains("False", v)
  {
    ContainsIffOccurs("False", v);
    forall i | 0 <= i <= |"False"| - |v| ensures !OccursAt("False", v, i) {
      assert i == 0 || i == 1;
      assert "False"[i..i + 4][0] != 'T';
    }
  }

  /** On the two flag values the toggle swaps them, so applying it twice
      gives the flag back. */
  lemma ToggleSwaps(v: string)
    requires v == "True" || v == "False"
    ensures Toggle(v) == (if v == "True" then "False" else "True")
    ensures Toggle(Toggle(v)) == v
  {
    if v == "True" {
      NotSubstringOfFalse(v);
      SubstringOfFalse("False");
    } else {
      SubstringOfFalse(v);
      NotSubstringOfFalse("True");
    }
  }

  /** The second loop: every event's flag toggled. */
  function ToggleAll(events: seq<Event>): (r: seq<Event>)
    ensures |r| == |events|
    ensures forall i :: 0 <= i < |r| ==> r[i] == events[i].(forced := Toggle(events[i].forced))
  {
    seq(|events|, i requires 0 <= i < |events| => events[i].(forced := Toggle(events[i].forced)))
  }

  /** The "-nonforced" file: an event whose flag was "True" or "False"
      ends up forced exactly when it neither overlapped the other file nor
      was forced already. */
  lemma NonforcedFile(events: seq<Event>, others: seq<Event>, i: nat)
    requires i < |events| && (events[i].forced == "True" || events[i].forced == "False")
    ensures ToggleAll(MarkForced(events, others).0)[i].forced == "True" <==>
      OverlapCount(events[i], others) == 0 && events[i].forced == "False"
  {
    var m := MarkForced(events, others).0;
    ToggleSwaps(m[i].forced);
  }

  // ------------------------------------------------------------ file names

  /** `BDNXML.split(".xml")[0] + suffix`: the outputs are named after the
      first input with ".xml" cut at its first occurrence. */
  function OutputName(input: string, suffix: string): string
  {
    BeforeFirst(input, ".xml") + suffix
  }

  lemma OutputNameOfXml(stem: string, suffix: string)
    requires !Contains(stem, ".xml")
    ensures OutputName(stem + ".xml", suffix) == stem + suffix
  {
    BeforeFirstOfAppend(stem, ".xml");
  }

  /** getBnxmlFps: the FrameRate attribute of the first Format element;
      StopIteration without one, KeyError without the attribute. */
  function FrameRateAttr(formats: seq<seq<(string, string)>>): (r: Result<string>)
    ensures |formats| == 0 ==> r == Fail(StopIteration)
  {
    if |formats| == 0 then Fail(StopIteration) else Attr(formats[0], "FrameRate")
  }

  /** An XML attribute lookup. */
  function Attr(attrs: seq<(string, string)>, key: string): (r: Result<string>)
    ensures r.Ok? ==> (key, r.value) in attrs
    ensures r.Fail? <==> forall i :: 0 <= i < |attrs| ==> attrs[i].0 != key
    ensures r.Fail? ==> r.failure == KeyError
    decreases |attrs|
  {
    if |attrs| == 0 then Fail(KeyError)
    else if attrs[0].0 == key then Ok(attrs[0].1)
    else
      var r := Attr(attrs[1..], key);
      assert forall i :: 0 <= i < |attrs| - 1 ==> attrs[1..][i] == attrs[i + 1];
      assert r.Ok? ==> (key, r.value) in attrs[1..];
      r
  }
}

=== FILE: full3d.dfy ===
// 3d-misc/full-3D.py: splits a BDN XML subtitle set with per-graphic depths
// into a left-eye and a right-eye set, shifting each graphic horizontally
// by half its depth in opposite directions.
module Full3D {
  import opened Results
  import opened Text
  import opened PyPath
  import opened Bdn

  const Java := "java"
  const BdSup2Sub := "~/.local/share/bdsup2sub/BDSup2Sub.jar"

  /** The horizontal distance between the two eyes' copies of a graphic
      with the given depth: the depth itself, one less for a negative
      depth. */
  function Disparity(depth: int): nat
  {
    if depth >= 0 then depth else -depth - 1
  }

  /** leftX and rightX: half the depth (rounded up for the left eye) added
      and subtracted, then both moved right when the right copy would start
      left of the frame. */
  function Offsets(x: int, depth: int): (r: (int, int))
    ensures r.1 >= 0 && r.0 >= 0
    ensures r.0 - r.1 == Disparity(depth)
    ensures r.1 == (if x >= Abs(depth) / 2 then x - Abs(depth) / 2 else 0)
  {
    var leftX := x + Abs(depth + 1) / 2;
    var rightX := x - Abs(depth) / 2;
    if rightX < 0 then (leftX - rightX, 0) else (leftX, rightX)
  }

  /** modifyAttrib: X and Y replaced, a non-empty Depth removed, and
      OriginalDepth added. make3DXML has read Depth from the same
      attributes before, so the key is there. */
  function ModifyAttrib(a: Attrib, x: int, y: int, originalDepth: int): (r: Attrib)
    requires "Depth" in a
    ensures r.Keys == (if a["Depth"] != "" then a.Keys - {"Depth"} else a.Keys) + {"X", "Y", "OriginalDepth"}
    ensures ParseInt(r["X"]) == Some(x) && ParseInt(r["Y"]) == Some(y) && ParseInt(r["OriginalDepth"]) == Some(originalDepth)
    ensures forall k :: k in a && k !in {"X", "Y", "Depth", "OriginalDepth"} ==> k in r && r[k] == a[k]
  {
    ParseIntToString(x);
    ParseIntToString(y);
    ParseIntToString(originalDepth);
    var b := a["X" := IntToString(x)]["Y" := IntToString(y)];
    var c := if a["Depth"] != "" then b - {"Depth"} else b;
    c["OriginalDepth" := IntToString(originalDepth)]
  }

  datatype Views = Views(left: Attrib, right: Attrib)

  /** One Graphic of make3DXML's loop. A depth too great for the graphic's
      width reaches the warning, which adds an int to a str and raises
      TypeError before the depth is reduced. */
  function ConvertGraphic(a: Attrib): (r: Result<Views>)
    ensures ReadGraphic(a).Fail? ==> r == Fail(ReadGraphic(a).failure)
    ensures ReadGraphic(a).Ok? && DepthTooGreat(ReadGraphic(a).value.width, ReadGraphic(a).value.depth) ==> r == Fail(TypeError)
    ensures r.Ok? <==> ReadGraphic(a).Ok? && !DepthTooGreat(ReadGraphic(a).value.width, ReadGraphic(a).value.depth)
  {
    match ReadGraphic(a)
    case Fail(e) => Fail(e)
    case Ok(g) =>
      if DepthTooGreat(g.width, g.depth) then Fail(TypeError)
      else
        var (leftX, rightX) := Offsets(g.x, g.depth);
        Ok(Views(ModifyAttrib(a, leftX, g.y, g.depth), ModifyAttrib(a, rightX, g.y, g.depth)))
  }

  /** The two eyes' copies of a graphic: the same Y and original depth, the
      right copy inside the frame, the left one Disparity(depth) further
      right. */
  lemma ConvertGraphicViews(a: Attrib)
    requires ConvertGraphic(a).Ok?
    ensures var g := ReadGraphic(a).value; var v := ConvertGraphic(a).value;
      ParseInt(v.left["Y"]) == Some(g.y) && ParseInt(v.right["Y"]) == Some(g.y)
      && ParseInt(v.left["OriginalDepth"]) == Some(g.depth) && ParseInt(v.right["OriginalDepth"]) == Some(g.depth)
      && ParseInt(v.left["X"]).Some? && ParseInt(v.right["X"]).Some?
      && ParseInt(v.right["X"]).value >= 0
      && ParseInt(v.left["X"]).value - ParseInt(v.right["X"]).value == Disparity(g.depth)
  {
  }

  datatype Output = Output(numSubs: nat, numWarn: nat, left: seq<Attrib>, right: seq<Attrib>)

  /** make3DXML: every Graphic converted, in order. A run that gets through
      has counted every graphic and never warned. */
  function Make3DXml(graphics: seq<Attrib>): (r: Result<Output>)
    ensures r.Ok? <==> forall k :: 0 <= k < |graphics| ==> ConvertGraphic(graphics[k]).Ok?
    ensures r.Ok? ==> r.value.numSubs == |graphics| && r.value.numWarn == 0
    ensures r.Ok? ==> |r.value.left| == |graphics| && |r.value.right| == |graphics|
    ensures r.Ok? ==> forall k :: 0 <= k < |graphics| ==>
      ConvertGraphic(graphics[k]) == Ok(Views(r.value.left[k], r.value.right[k]))
  {
    match MapAll(graphics, ConvertGraphic)
    case Fail(e) => Fail(e)
    case Ok(vs) =>
      Ok(Output(|graphics|, 0, seq(|vs|, k requires 0 <= k < |vs| => vs[k].left),
                seq(|vs|, k requires 0 <= k < |vs| => vs[k].right)))
  }

  /** convertXMLtoSup: the BDSup2Sub command for one eye's XML. */
  function SupCommand(inXml: string, outSup: string, home: string): (r: seq<string>)
    ensures |r| == 8 && r[0] == Java && r[6] == outSup && r[7] == inXml
  {
    [Java, "-jar", ExpandUser(BdSup2Sub, home), "--fps-target", "keep", "--output", outSup, inXml]
  }

  /** main over sys.argv: at least three arguments after the program name;
      then make3DXML over the Graphics of <inFolder>/Output.xml, whose
      failure nothing catches; then the two conversion commands, whose
      inputs are named <inFolder>/Output_left.xml and
      <inFolder>/Output_right.xml. They are run after os.chdir('..'), from
      the input folder's parent, so they name the files make3DXML wrote only
      when <inFolder> is absolute or a single relative component; the
      working directory is not part of this model. */
  function MainCommands(args: seq<string>, home: string, graphics: seq<Attrib>): (r: Result<seq<seq<string>>>)
    ensures |args| < 4 ==> r == Fail(Exit(1))
    ensures r.Ok? <==> |args| >= 4 && forall k :: 0 <= k < |graphics| ==> ConvertGraphic(graphics[k]).Ok?
    ensures r.Fail? && |args| >= 4 ==>
      exists k :: 0 <= k < |graphics| && ConvertGraphic(graphics[k]) == Fail(r.failure)
    ensures r.Ok? ==>
      (|r.value| == 2 && |r.value[0]| == 8 && |r.value[1]| == 8 && r.value[0][6] == args[2] && r.value[1][6] == args[3]
      && r.value[0][7] == OsJoin(args[1], "Output_left.xml") && r.value[1][7] == OsJoin(args[1], "Output_right.xml"))
  {
    if |args| < 4 then Fail(Exit(1))
    else
      match Make3DXml(graphics)
      case Fail(e) =>
        assert MapAll(graphics, ConvertGraphic) == Fail(e);
        Fail(e)
      case Ok(_) =>
        Ok([SupCommand(OsJoin(args[1], "Output_left.xml"), args[2], home),
            SupCommand(OsJoin(args[1], "Output_right.xml"), args[3], home)])
  }

}

=== FILE: info.dfy ===
// utils/info.py: the track records of an info file, their output names,
// index assignment and subtitle source linking, language filtering, the
// night-mode track template and the ffprobe-based track templates.
module Info {
  import opened Results
  import opened Text
  import opened Lists
  import opened Json
  import AudioFilters

  /** An AudioTrackInfo; `convert` is the settings dict ({} when off). */
  datatype AudioTrack = AudioTrack(
    title: string, extension: string, default: bool, id: int, language: string,
    sync: int, convert: Json, index: int)

  /** A SubtitleTrackInfo; `sourceTrack` is the position of the linked track. */
  datatype SubTrack = SubTrack(
    title: string, extension: string, default: bool, id: int, language: string,
    sync: int, sup2srt: bool, srtFilter: bool, external: Option<string>,
    sourceTrack: Option<nat>, index: int)

  datatype VideoTrack = VideoTrack(
    title: string, language: string, output: string, convert: bool, twoPass: bool,
    x265Opts: seq<string>, vsScript: string, vsVars: seq<(string, Json)>, mkvmergeOpts: seq<string>)

  datatype InfoFile = InfoFile(
    title: string, sourceMKV: string, outputFile: string, video: VideoTrack,
    audio: seq<AudioTrack>, subs: seq<SubTrack>)

  /** AudioTrackInfo(...): the index starts at -1. */
  function NewAudio(title: string, extension: string, default: bool, id: int, language: string,
                    sync: int, convert: Json): (t: AudioTrack)
    ensures t.index == -1 && t.convert == convert && t.id == id
  {
    AudioTrack(title, extension, default, id, language, sync, convert, -1)
  }

  /** SubtitleTrackInfo(...): an external file is kept only when it is named
      and exists; no source track yet, index -1. */
  function NewSub(title: string, extension: string, default: bool, id: int, language: string,
                  sync: int, sup2srt: bool, srtFilter: bool, external: string,
                  fileExists: string -> bool): (t: SubTrack)
    ensures t.external.Some? <==> external != "" && fileExists(external)
    ensures t.external.Some? ==> t.external.value == external
    ensures t.sourceTrack.None? && t.index == -1
  {
    SubTrack(title, extension, default, id, language, sync, sup2srt, srtFilter,
             if external != "" && fileExists(external) then Some(external) else None, None, -1)
  }

  // ------------------------------------------------------------ output names

  /** TrackInfo.getOutFile: "{id}-{index}.{extension}". */
  function OutFile(id: int, index: int, extension: string): string
  {
    IntToString(id) + "-" + IntToString(index) + "." + extension
  }

  /** SubtitleTrackInfo.getForcedFile: "forced-" before the output name. */
  function ForcedFile(id: int, index: int, extension: string): (r: string)
    ensures IsPrefix("forced-", r) && r[7..] == OutFile(id, index, extension)
  {
    "forced-" + OutFile(id, index, extension)
  }

  lemma NoSignInDigits(n: nat)
    ensures '-' !in NatToString(n) && '.' !in NatToString(n)
  {
    var s := NatToString(n);
    assert !IsDigit('-') && !IsDigit('.');
    assert forall i :: 0 <= i < |s| ==> IsDigit(s[i]);
  }

  lemma JoinTwo(a: string, b: string, c: char)
    ensures Join([c], [a, b]) == a + [c] + b
  {
    assert [a, b][1..] == [b];
  }

  /** The name splits back into its id and "index.extension" at '-', and
      the latter into index and extension at '.'. */
  lemma OutFileSplit(id: nat, index: nat, ext: string)
    requires '-' !in ext && '.' !in ext
    ensures Split(OutFile(id, index, ext), '-') == [NatToString(id), NatToString(index) + "." + ext]
    ensures Split(NatToString(index) + "." + ext, '.') == [NatToString(index), ext]
  {
    NoSignInDigits(id);
    NoSignInDigits(index);
    var t := NatToString(index) + "." + ext;
    JoinTwo(NatToString(id), t, '-');
    JoinTwo(NatToString(index), ext, '.');
    assert OutFile(id, index, ext) == Join(['-'], [NatToString(id), t]);
    SplitJoin([NatToString(id), t], '-');
    SplitJoin([NatToString(index), ext], '.');
  }

  /** Once indices are assigned, an output name determines the track id,
      index and extension (for extensions without '-' or '.'). */
  lemma OutFileInjective(id1: nat, index1: nat, ext1: string, id2: nat, index2: nat, ext2: string)
    requires '-' !in ext1 && '.' !in ext1 && '-' !in ext2 && '.' !in ext2
    ensures OutFile(id1, index1, ext1) == OutFile(id2, index2, ext2) ==>
              id1 == id2 && index1 == index2 && ext1 == ext2
  {
    OutFileSplit(id1, index1, ext1);
    OutFileSplit(id2, index2, ext2);
    NatToStringInjective(id1, id2);
    NatToStringInjective(index1, index2);
  }

  // ------------------------------------------------------------ indices and links

  /** The loop `track.index = i` over the audio list. */
  function IndexAudio(ts: seq<AudioTrack>): (r: seq<AudioTrack>)
    ensures |r| == |ts|
    ensures forall i :: 0 <= i < |r| ==> r[i].index == i && r[i] == ts[i].(index := i)
    decreases |ts|
  {
    if |ts| == 0 then []
    else IndexAudio(ts[..|ts| - 1]) + [ts[|ts| - 1].(index := |ts| - 1)]
  }

  /** The same loop over the subtitle list. */
  function IndexSubs(ts: seq<SubTrack>): (r: seq<SubTrack>)
    ensures |r| == |ts|
    ensures forall i :: 0 <= i < |r| ==> r[i].index == i && r[i] == ts[i].(index := i)
    decreases |ts|
  {
    if |ts| == 0 then []
    else IndexSubs(ts[..|ts| - 1]) + [ts[|ts| - 1].(index := |ts| - 1)]
  }

  /** After index assignment no two audio tracks share an output file. */
  lemma IndexedOutFilesDistinct(ts: seq<AudioTrack>)
    requires forall i :: 0 <= i < |ts| ==> ts[i].id >= 0 && '-' !in ts[i].extension && '.' !in ts[i].extension
    ensures var r := IndexAudio(ts);
      forall i, j :: 0 <= i < j < |r| ==> OutFile(r[i].id, r[i].index, r[i].extension) != OutFile(r[j].id, r[j].index, r[j].extension)
  {
    var r := IndexAudio(ts);
    forall i, j | 0 <= i < j < |r|
      ensures OutFile(r[i].id, r[i].index, r[i].extension) != OutFile(r[j].id, r[j].index, r[j].extension)
    {
      OutFileInjective(r[i].id, i, r[i].extension, r[j].id, j, r[j].extension);
    }
  }

  /** A subtitle that an OCR track can take its images from. */
  predicate IsSourceFor(s: SubTrack, id: int)
  {
    !s.sup2srt && s.id == id
  }

  /** The first non-sup2srt subtitle with the given id. */
  function FirstSource(subs: seq<SubTrack>, id: int): (r: Option<nat>)
    ensures r.Some? ==> r.value < |subs| && IsSourceFor(subs[r.value], id)
                         && forall m :: 0 <= m < r.value ==> !IsSourceFor(subs[m], id)
    ensures r.None? ==> forall m :: 0 <= m < |subs| ==> !IsSourceFor(subs[m], id)
    decreases |subs|
  {
    if |subs| == 0 then None
    else if IsSourceFor(subs[0], id) then Some(0)
    else match FirstSource(subs[1..], id)
      case None => None
      case Some(j) => Some(j + 1)
  }

  /** Every sup2srt subtitle is linked to the first non-sup2srt subtitle
      with its id, or to nothing; the other tracks are untouched. */
  function LinkSources(subs: seq<SubTrack>): (r: seq<SubTrack>)
    ensures |r| == |subs|
    ensures forall i :: 0 <= i < |r| && !subs[i].sup2srt ==> r[i] == subs[i]
    ensures forall i :: 0 <= i < |r| && subs[i].sup2srt ==>
      r[i] == subs[i].(sourceTrack := r[i].sourceTrack)
      && (r[i].sourceTrack.Some? ==>
            var j := r[i].sourceTrack.value;
            j < |subs| && IsSourceFor(subs[j], subs[i].id) && forall m :: 0 <= m < j ==> !IsSourceFor(subs[m], subs[i].id))
      && (r[i].sourceTrack.None? ==> forall m :: 0 <= m < |subs| ==> !IsSourceFor(subs[m], subs[i].id))
  {
    seq(|subs|, i requires 0 <= i < |subs| =>
      if subs[i].sup2srt then subs[i].(sourceTrack := FirstSource(subs, subs[i].id)) else subs[i])
  }

  /** The link depends only on the sup2srt flags and ids. */
  lemma {:induction false} FirstSourceSameKeys(a: seq<SubTrack>, b: seq<SubTrack>, id: int)
    requires |a| == |b|
    requires forall i :: 0 <= i < |a| ==> a[i].sup2srt == b[i].sup2srt && a[i].id == b[i].id
    ensures FirstSource(a, id) == FirstSource(b, id)
    decreases |a|
  {
    if |a| > 0 {
      FirstSourceSameKeys(a[1..], b[1..], id);
    }
  }

  // ------------------------------------------------------------ language filter

  /** The tracks whose language is listed, in order. */
  function KeepLanguages<T(!new)>(ts: seq<T>, lang: T -> string, langs: seq<string>): (r: seq<T>)
    ensures |r| <= |ts|
    ensures forall x :: x in r <==> x in ts && lang(x) in langs
    decreases |ts|
  {
    if |ts| == 0 then []
    else
      var front := KeepLanguages(ts[..|ts| - 1], lang, langs);
      var last := ts[|ts| - 1];
      assert ts == ts[..|ts| - 1] + [last];
      if lang(last) in langs then front + [last] else front
  }

  /** filterLanguages on one list: an empty language list keeps everything. */
  function FilterLanguages<T(!new)>(ts: seq<T>, lang: T -> string, langs: seq<string>): (r: seq<T>)
    ensures |langs| == 0 ==> r == ts
    ensures |langs| > 0 ==> forall x :: x in r <==> x in ts && lang(x) in langs
  {
    if |langs| > 0 then KeepLanguages(ts, lang, langs) else ts
  }

  /** Filtering keeps the order: it distributes over concatenation. */
  lemma {:induction false} KeepLanguagesAppend<T(!new)>(a: seq<T>, b: seq<T>, lang: T -> string, langs: seq<string>)
    ensures KeepLanguages(a + b, lang, langs) == KeepLanguages(a, lang, langs) + KeepLanguages(b, lang, langs)
    decreases |b|
  {
    if |b| == 0 {
      assert a + b == a;
    } else {
      assert (a + b)[..|a + b| - 1] == a + b[..|b| - 1];
      KeepLanguagesAppend(a, b[..|b| - 1], lang, langs);
    }
  }

  /** Each kept track keeps its multiplicity. */
  lemma {:induction false} KeepLanguagesCount<T(!new)>(ts: seq<T>, lang: T -> string, langs: seq<string>, x: T)
    ensures Count(KeepLanguages(ts, lang, langs), x) == if lang(x) in langs then Count(ts, x) else 0
    decreases |ts|
  {
    if |ts| > 0 {
      var front := ts[..|ts| - 1];
      var last := ts[|ts| - 1];
      KeepLanguagesCount(front, lang, langs, x);
      CountAppend(front, [last], x);
      CountAppend(KeepLanguages(front, lang, langs), [last], x);
      assert ts == front + [last];
    }
  }

  lemma {:induction false} CountAppend<T>(a: seq<T>, b: seq<T>, x: T)
    ensures Count(a + b, x) == Count(a, x) + Count(b, x)
    decreases |a|
  {
    if |a| > 0 {
      assert (a + b)[1..] == a[1..] + b;
      CountAppend(a[1..], b, x);
    }
  }

  // ------------------------------------------------------------ night-mode template

  const DynaudnormFilter := "dynaudnorm=compress=27.0:gausssize=53"

  /** The filter entries of a night-mode track, as JSON. */
  function NightmodeFilters(center: real, lfe: real, surrounds: real, dynaudnorm: bool): seq<Json>
  {
    (if dynaudnorm then [JObj([("ffmpeg", JStr(DynaudnormFilter))])] else [])
    + [JObj([("downmixStereo", JObj([("center", JNum(center)), ("lfe", JNum(lfe)), ("surrounds", JNum(surrounds))]))])]
    + [JObj([("normalize", JObj([("loudness_range_target", JStr("keep")), ("target_level", JInt(-23))]))])]
  }

  /** AudioTrackInfo.nightmodeTemplate: a copy of the track converted to
      256 kb/s AAC through the downmix and a loudness normalisation. */
  function NightmodeTemplate(t: AudioTrack, trackName: string, center: real, lfe: real, surrounds: real,
                             dynaudnorm: bool): (r: AudioTrack)
    ensures r.id == t.id && r.language == t.language && r.sync == t.sync && r.index == t.index
    ensures r.title == trackName + " (AAC)" && r.extension == "m4a" && !r.default
  {
    t.(title := trackName + " (AAC)", extension := "m4a",
       convert := JObj([("codec", JStr("aac")),
                        ("encodeOpts", JArr(Strs(["-b:a", "256K"]))),
                        ("filters", JArr(NightmodeFilters(center, lfe, surrounds, dynaudnorm)))]),
       default := false)
  }

  /** generateTemplate's audio list: every audio stream's template, with
      the three night-mode variants right after the first one. */
  function AudioList(templates: seq<Option<AudioTrack>>, nightmode: bool): seq<AudioTrack>
    decreases |templates|
  {
    if |templates| == 0 then []
    else match templates[0]
      case None => AudioList(templates[1..], nightmode)
      case Some(t) => [t] + (if nightmode then NightmodeVariants(t) else []) + AudioList(templates[1..], false)
  }

  function NightmodeVariants(t: AudioTrack): seq<AudioTrack>
  {
    [NightmodeTemplate(t, "Stereo 'downmix'", 2.0, 0.707, 0.707, false),
     NightmodeTemplate(t, "Stereo 'dynaudnorm,downmix'", 2.0, 0.707, 0.707, true),
     NightmodeTemplate(t, "Stereo 'dynaudnorm,downmix-nolfe'", 2.0, 0.0, 0.707, true)]
  }

  /** The stream templates that exist, in stream order. */
  function Present<T>(xs: seq<Option<T>>): seq<T>
    decreases |xs|
  {
    if |xs| == 0 then [] else (match xs[0] case Some(x) => [x] case None => []) + Present(xs[1..])
  }

  /** Without night mode the list is the present templates; with it the
      three variants of the first audio track follow that track. */
  lemma {:induction false} AudioListShape(templates: seq<Option<AudioTrack>>, nightmode: bool)
    ensures var p := Present(templates);
      AudioList(templates, nightmode)
        == if nightmode && |p| > 0 then [p[0]] + NightmodeVariants(p[0]) + p[1..] else p
    decreases |templates|
  {
    if |templates| > 0 {
      AudioListShape(templates[1..], nightmode);
      AudioListShape(templates[1..], false);
    }
  }

  // ------------------------------------------------------------ settings dict

  /** An entry's "ffmpeg" filter, if any; the filters are later joined with
      ",", so anything but a string raises TypeError. */
  function FfmpegOf(f: seq<(string, Json)>): (r: Result<Option<string>>)
    ensures r.Ok? <==> Get(f, "ffmpeg").None? || Get(f, "ffmpeg").value.JStr?
    ensures r.Ok? ==> r.value == (if Get(f, "ffmpeg").None? then None else Some(Get(f, "ffmpeg").value.s))
    ensures r.Fail? ==> r.failure == TypeError
  {
    match Get(f, "ffmpeg")
    case None => Ok(None)
    case Some(JStr(s)) => Ok(Some(s))
    case Some(_) => Fail(TypeError)
  }

  /** A "downmixStereo" value getffFilter can use: a dict of three numbers. */
  predicate DownmixReadable(v: Json)
  {
    v.JObj? && NumberAt(v.fields, "center") && NumberAt(v.fields, "lfe") && NumberAt(v.fields, "surrounds")
  }

  /** An entry's "downmixStereo" gains, if any. convertAudioTrack looks up
      "surrounds", "lfe" and "center" first (KeyError when one is missing);
      getffFilter then halves the LFE and centre gains, which an int or a
      float allows and anything else refuses with TypeError. */
  function DownmixOf(f: seq<(string, Json)>): (r: Result<Option<AudioFilters.Downmix>>)
    ensures r.Ok? <==> Get(f, "downmixStereo").None? || DownmixReadable(Get(f, "downmixStereo").value)
    ensures r.Ok? ==> (r.value.Some? <==> Get(f, "downmixStereo").Some?)
    ensures r.Ok? && r.value.Some? ==>
      var d := Get(f, "downmixStereo").value.fields;
      r.value.value == AudioFilters.Downmix(AsReal(Get(d, "center").value), AsReal(Get(d, "lfe").value),
                                            AsReal(Get(d, "surrounds").value))
    ensures r.Fail? ==>
      && Get(f, "downmixStereo").Some?
      && var v := Get(f, "downmixStereo").value;
      r.failure == (if v.JObj? && (Get(v.fields, "center").None? || Get(v.fields, "lfe").None?
                                   || Get(v.fields, "surrounds").None?)
                    then KeyError else TypeError)
  {
    match Get(f, "downmixStereo")
    case None => Ok(None)
    case Some(JObj(d)) =>
      (match (Field(d, "surrounds"), Field(d, "lfe"), Field(d, "center"))
       case (Ok(s), Ok(l), Ok(c)) =>
         (match (Number(c), Number(l), Number(s))
          case (Ok(cv), Ok(lv), Ok(sv)) => Ok(Some(AudioFilters.Downmix(cv, lv, sv)))
          case _ => Fail(TypeError))
       case _ => Fail(KeyError))
    case Some(_) => Fail(TypeError)
  }

  /** "loudness_range_target": the string "keep" sets the keep flag, a
      number is the target; anything else raises TypeError. */
  function LraOf(v: Json): (r: Result<AudioFilters.Lra>)
    ensures r.Ok? <==> v == JStr("keep") || IsNumber(v)
    ensures r.Ok? ==> (r.value.KeepLra? <==> v == JStr("keep"))
    ensures r.Ok? && r.value.LraTarget? ==> r.value.lu == AsReal(v)
    ensures r.Fail? ==> r.failure == TypeError
  {
    if v == JStr("keep") then Ok(AudioFilters.KeepLra)
    else match Number(v) case Ok(x) => Ok(AudioFilters.LraTarget(x)) case Fail(e) => Fail(e)
  }

  /** The optional "true_peak", an int or a float. */
  function TruePeakOf(n: seq<(string, Json)>): (r: Result<Option<real>>)
    ensures r.Ok? <==> Get(n, "true_peak").None? || IsNumber(Get(n, "true_peak").value)
    ensures r.Ok? ==> (r.value.Some? <==> Get(n, "true_peak").Some?)
    ensures r.Ok? && r.value.Some? ==> r.value.value == AsReal(Get(n, "true_peak").value)
    ensures r.Fail? ==> r.failure == TypeError
  {
    match Get(n, "true_peak")
    case None => Ok(None)
    case Some(v) => (match Number(v) case Ok(x) => Ok(Some(x)) case Fail(e) => Fail(e))
  }

  /** A "normalize" value convertAudioTrack can use: a dict with a "keep" or
      numeric loudness range target, a numeric target level and, if present,
      a numeric true peak. */
  predicate NormalizeReadable(v: Json)
  {
    && v.JObj?
    && Get(v.fields, "loudness_range_target").Some?
    && (Get(v.fields, "loudness_range_target").value == JStr("keep")
        || IsNumber(Get(v.fields, "loudness_range_target").value))
    && NumberAt(v.fields, "target_level")
    && (Get(v.fields, "true_peak").None? || IsNumber(Get(v.fields, "true_peak").value))
  }

  /** An entry's "normalize" settings, if any. "loudness_range_target" and
      "target_level" are indexed (KeyError when missing); "true_peak" is
      read only when present. */
  function NormalizeOf(f: seq<(string, Json)>): (r: Result<Option<AudioFilters.NormalizeSpec>>)
    ensures r.Ok? <==> Get(f, "normalize").None? || NormalizeReadable(Get(f, "normalize").value)
    ensures r.Ok? ==> (r.value.Some? <==> Get(f, "normalize").Some?)
    ensures r.Ok? && r.value.Some? ==>
      var n := Get(f, "normalize").value.fields;
      var spec := r.value.value;
      && (spec.lra.KeepLra? <==> Get(n, "loudness_range_target") == Some(JStr("keep")))
      && (spec.lra.LraTarget? ==> spec.lra.lu == AsReal(Get(n, "loudness_range_target").value))
      && spec.targetLevel == AsReal(Get(n, "target_level").value)
      && (spec.truePeak.Some? <==> Get(n, "true_peak").Some?)
      && (spec.truePeak.Some? ==> spec.truePeak.value == AsReal(Get(n, "true_peak").value))
    ensures r.Fail? ==>
      && Get(f, "normalize").Some?
      && var v := Get(f, "normalize").value;
      r.failure == (if v.JObj? && (Get(v.fields, "loudness_range_target").None? || Get(v.fields, "target_level").None?)
                    then KeyError else TypeError)
  {
    match Get(f, "normalize")
    case None => Ok(None)
    case Some(JObj(n)) =>
      (match (Field(n, "loudness_range_target"), Field(n, "target_level"))
       case (Ok(l), Ok(t)) =>
         (match (LraOf(l), Number(t), TruePeakOf(n))
          case (Ok(lra), Ok(tl), Ok(tp)) => Ok(Some(AudioFilters.NormalizeSpec(lra, tl, tp)))
          case _ => Fail(TypeError))
       case _ => Fail(KeyError))
    case Some(_) => Fail(TypeError)
  }

  /** A "filters" entry convertAudioTrack can use: a dict whose optional
      "ffmpeg", "downmixStereo" and "normalize" parts are each usable. */
  predicate EntryReadable(j: Json)
  {
    && j.JObj?
    && (Get(j.fields, "ffmpeg").None? || Get(j.fields, "ffmpeg").value.JStr?)
    && (Get(j.fields, "downmixStereo").None? || DownmixReadable(Get(j.fields, "downmixStereo").value))
    && (Get(j.fields, "normalize").None? || NormalizeReadable(Get(j.fields, "normalize").value))
  }

  /** Reads one "filters" entry the way convertAudioTrack indexes it. */
  function EntryOf(j: Json): (r: Result<AudioFilters.FilterEntry>)
    ensures r.Ok? <==> EntryReadable(j)
    ensures r.Fail? ==> r.failure == TypeError || r.failure == KeyError
    ensures r.Ok? ==>
      && (r.value.ffmpeg.Some? <==> Get(j.fields, "ffmpeg").Some?)
      && (r.value.downmix.Some? <==> Get(j.fields, "downmixStereo").Some?)
      && (r.value.normalize.Some? <==> Get(j.fields, "normalize").Some?)
    ensures j.JObj? && FfmpegOf(j.fields).Ok? && DownmixOf(j.fields).Ok? && NormalizeOf(j.fields).Ok? ==>
      r == Ok(AudioFilters.FilterEntry(FfmpegOf(j.fields).value, DownmixOf(j.fields).value, NormalizeOf(j.fields).value))
  {
    match j
    case JObj(f) =>
      (match (FfmpegOf(f), DownmixOf(f), NormalizeOf(f))
       case (Ok(a), Ok(b), Ok(c)) => Ok(AudioFilters.FilterEntry(a, b, c))
       case (Fail(e), _, _) => Fail(e)
       case (_, Fail(e), _) => Fail(e)
       case (_, _, Fail(e)) => Fail(e))
    case _ => Fail(TypeError)
  }

  /** Every entry of a "filters" list, read in order; the first entry that
      cannot be read stops the reading with its failure. */
  function EntriesOf(items: seq<Json>): (r: Result<seq<AudioFilters.FilterEntry>>)
    ensures r.Ok? <==> forall i :: 0 <= i < |items| ==> EntryReadable(items[i])
    ensures r.Ok? ==> |r.value| == |items| && forall i :: 0 <= i < |items| ==> EntryOf(items[i]) == Ok(r.value[i])
    ensures r.Fail? ==> r.failure == TypeError || r.failure == KeyError
    decreases |items|
  {
    if |items| == 0 then Ok([])
    else
      assert forall i :: 1 <= i < |items| ==> items[i] == items[1..][i - 1];
      match (EntryOf(items[0]), EntriesOf(items[1..]))
      case (Ok(e), Ok(rest)) => Ok([e] + rest)
      case (Fail(f), _) => Fail(f)
      case (_, Fail(f)) => Fail(f)
  }

  /** The "encodeOpts" list, None when the key is absent. */
  function EncodeOptsOf(f: seq<(string, Json)>): Result<Option<seq<string>>>
  {
    match Get(f, "encodeOpts")
    case None => Ok(None)
    case Some(JArr(items)) => (match StrsOf(items) case Some(ss) => Ok(Some(ss)) case None => Fail(TypeError))
    case Some(_) => Fail(TypeError)
  }

  /** The "filters" list, None when the key is absent. */
  function FilterListOf(f: seq<(string, Json)>): Result<Option<seq<AudioFilters.FilterEntry>>>
  {
    match Get(f, "filters")
    case None => Ok(None)
    case Some(JArr(items)) => (match EntriesOf(items) case Ok(es) => Ok(Some(es)) case Fail(e) => Fail(e))
    case Some(_) => Fail(TypeError)
  }

  /** A track's "convert" dict read as settings; "codec" must be present. */
  function ConvertOf(j: Json): (r: Result<AudioFilters.ConvertSettings>)
    ensures j.JObj? && StrField(j.fields, "codec").Ok? && EncodeOptsOf(j.fields).Ok? && FilterListOf(j.fields).Ok? ==>
      r == Ok(AudioFilters.ConvertSettings(StrField(j.fields, "codec").value, EncodeOptsOf(j.fields).value, FilterListOf(j.fields).value))
    ensures j.JObj? && Get(j.fields, "codec").None? ==> r == Fail(KeyError)
    ensures r.Fail? ==> r.failure == TypeError || r.failure == KeyError
    ensures r.Ok? ==> j.JObj? && (r.value.filters.Some? <==> Get(j.fields, "filters").Some?)
    ensures j.JObj? && StrField(j.fields, "codec").Ok? && EncodeOptsOf(j.fields).Ok?
            && Get(j.fields, "filters").Some? && Get(j.fields, "filters").value.JArr? ==>
      var items := Get(j.fields, "filters").value.items;
      (r.Ok? <==> forall i :: 0 <= i < |items| ==> EntryReadable(items[i]))
  {
    match j
    case JObj(f) =>
      (match (StrField(f, "codec"), EncodeOptsOf(f), FilterListOf(f))
       case (Ok(codec), Ok(o), Ok(fs)) => Ok(AudioFilters.ConvertSettings(codec, o, fs))
       case (Fail(e), _, _) => Fail(e)
       case (_, Fail(e), _) => Fail(e)
       case (_, _, Fail(e)) => Fail(e))
    case _ => Fail(TypeError)
  }

  /** The filter entries a night-mode template stands for. */
  function NightmodeEntries(center: real, lfe: real, surrounds: real, dynaudnorm: bool): seq<AudioFilters.FilterEntry>
  {
    (if dynaudnorm then [AudioFilters.FilterEntry(Some(DynaudnormFilter), None, None)] else [])
    + [AudioFilters.FilterEntry(None, Some(AudioFilters.Downmix(center, lfe, surrounds)), None),
       AudioFilters.FilterEntry(None, None, Some(AudioFilters.NormalizeSpec(AudioFilters.KeepLra, -23.0, None)))]
  }

  lemma DynaudnormEntry(f: seq<(string, Json)>)
    requires f == [("ffmpeg", JStr(DynaudnormFilter))]
    ensures EntryOf(JObj(f)) == Ok(AudioFilters.FilterEntry(Some(DynaudnormFilter), None, None))
  {
    assert Get(f, "ffmpeg") == Some(JStr(DynaudnormFilter));
    assert Get(f, "downmixStereo") == None;
    assert Get(f, "normalize") == None;
  }

  lemma DownmixEntry(f: seq<(string, Json)>, d: seq<(string, Json)>, center: real, lfe: real, surrounds: real)
    requires d == [("center", JNum(center)), ("lfe", JNum(lfe)), ("surrounds", JNum(surrounds))]
    requires f == [("downmixStereo", JObj(d))]
    ensures EntryOf(JObj(f)) == Ok(AudioFilters.FilterEntry(None, Some(AudioFilters.Downmix(center, lfe, surrounds)), None))
  {
    assert Get(f, "ffmpeg") == None;
    assert Get(f, "normalize") == None;
    assert Get(f, "downmixStereo") == Some(JObj(d));
    assert Get(d, "center") == Some(JNum(center));
    GetSkip(d[0], d[1..], "lfe");
    assert d == [d[0]] + d[1..];
    assert Get(d[1..], "lfe") == Some(JNum(lfe));
    GetSkip(d[0], d[1..], "surrounds");
    GetSkip(d[1], d[2..], "surrounds");
    assert d[1..] == [d[1]] + d[2..];
    assert Get(d[2..], "surrounds") == Some(JNum(surrounds));
  }

  lemma NormalizeEntry(f: seq<(string, Json)>, n: seq<(string, Json)>)
    requires n == [("loudness_range_target", JStr("keep")), ("target_level", JInt(-23))]
    requires f == [("normalize", JObj(n))]
    ensures EntryOf(JObj(f)) == Ok(AudioFilters.FilterEntry(None, None, Some(AudioFilters.NormalizeSpec(AudioFilters.KeepLra, -23.0, None))))
  {
    assert Get(f, "ffmpeg") == None;
    assert Get(f, "downmixStereo") == None;
    assert Get(f, "normalize") == Some(JObj(n));
    assert Get(n, "loudness_range_target") == Some(JStr("keep"));
    GetSkip(n[0], n[1..], "target_level");
    assert n == [n[0]] + n[1..];
    assert Get(n[1..], "target_level") == Some(JInt(-23));
    GetSpec(n, "true_peak");
  }

  lemma EntriesCons(x: Json, rest: seq<Json>, e: AudioFilters.FilterEntry, es: seq<AudioFilters.FilterEntry>)
    requires EntryOf(x) == Ok(e) && EntriesOf(rest) == Ok(es)
    ensures EntriesOf([x] + rest) == Ok([e] + es)
  {
    assert ([x] + rest)[1..] == rest;
  }

  lemma NightmodeEntriesDecode(center: real, lfe: real, surrounds: real, dynaudnorm: bool)
    ensures EntriesOf(NightmodeFilters(center, lfe, surrounds, dynaudnorm)) == Ok(NightmodeEntries(center, lfe, surrounds, dynaudnorm))
  {
    var js := NightmodeFilters(center, lfe, surrounds, dynaudnorm);
    var es := NightmodeEntries(center, lfe, surrounds, dynaudnorm);
    var k := |js| - 2;
    var d := [("center", JNum(center)), ("lfe", JNum(lfe)), ("surrounds", JNum(surrounds))];
    var n := [("loudness_range_target", JStr("keep")), ("target_level", JInt(-23))];
    assert js[k] == JObj([("downmixStereo", JObj(d))]);
    assert js[k + 1] == JObj([("normalize", JObj(n))]);
    DownmixEntry(js[k].fields, d, center, lfe, surrounds);
    NormalizeEntry(js[k + 1].fields, n);
    EntriesCons(js[k + 1], [], es[k + 1], []);
    assert js[k + 1..] == [js[k + 1]] + [];
    assert es[k + 1..] == [es[k + 1]] + [];
    EntriesCons(js[k], js[k + 1..], es[k], es[k + 1..]);
    assert js[k..] == [js[k]] + js[k + 1..];
    assert es[k..] == [es[k]] + es[k + 1..];
    if dynaudnorm {
      DynaudnormEntry(js[0].fields);
      EntriesCons(js[0], js[k..], es[0], es[k..]);
      assert js == [js[0]] + js[k..];
      assert es == [es[0]] + es[k..];
    } else {
      assert js == js[k..] && es == es[k..];
    }
  }

  /** The three lookups in a dict of exactly codec, options and filters. */
  lemma SettingsLookups(c: seq<(string, Json)>, a: Json, b: Json, d: Json)
    requires c == [("codec", a), ("encodeOpts", b), ("filters", d)]
    ensures Get(c, "codec") == Some(a) && Get(c, "encodeOpts") == Some(b) && Get(c, "filters") == Some(d)
  {
    GetSkip(c[0], c[1..], "encodeOpts");
    GetSkip(c[0], c[1..], "filters");
    GetSkip(c[1], c[2..], "filters");
    assert c == [c[0]] + c[1..];
    assert c[1..] == [c[1]] + c[2..];
  }

  lemma ConvertOfFields(c: seq<(string, Json)>, codec: string, opts: seq<string>, js: seq<Json>)
    requires c == [("codec", JStr(codec)), ("encodeOpts", JArr(Strs(opts))), ("filters", JArr(js))]
    requires EntriesOf(js).Ok?
    ensures ConvertOf(JObj(c)) == Ok(AudioFilters.ConvertSettings(codec, Some(opts), Some(EntriesOf(js).value)))
  {
    StrsRoundTrip(opts);
    SettingsLookups(c, JStr(codec), JArr(Strs(opts)), JArr(js));
    assert StrField(c, "codec") == Ok(codec);
    assert EncodeOptsOf(c) == Ok(Some(opts));
    assert FilterListOf(c) == Ok(Some(EntriesOf(js).value));
  }

  /** The template's settings read back as 256 kb/s AAC with the filter
      entries [dynaudnorm if asked, downmix, normalize without true_peak]. */
  lemma NightmodeTemplateSettings(t: AudioTrack, trackName: string, center: real, lfe: real, surrounds: real, dynaudnorm: bool)
    ensures ConvertOf(NightmodeTemplate(t, trackName, center, lfe, surrounds, dynaudnorm).convert)
            == Ok(AudioFilters.ConvertSettings("aac", Some(["-b:a", "256K"]),
                                               Some(NightmodeEntries(center, lfe, surrounds, dynaudnorm))))
  {
    NightmodeEntriesDecode(center, lfe, surrounds, dynaudnorm);
    ConvertOfFields(NightmodeTemplate(t, trackName, center, lfe, surrounds, dynaudnorm).convert.fields,
                    "aac", ["-b:a", "256K"], NightmodeFilters(center, lfe, surrounds, dynaudnorm));
  }

  /** Read through batchconvert's convertAudioTrack (where "true_peak" is
      optional), a night-mode template normalises: its pre-filter is the
      dynaudnorm filter (if any) and the downmix, its post-filter empty, the
      loudness range kept, the target -23 -- and, as written, the 256K
      option is not passed on. */
  lemma NightmodeTemplatePlan(t: AudioTrack, trackName: string, center: real, lfe: real, surrounds: real, dynaudnorm: bool,
                              source: string, trackId: string, output: string, normInput: string,
                              pan: AudioFilters.Downmix -> string)
    ensures var cs := ConvertOf(NightmodeTemplate(t, trackName, center, lfe, surrounds, dynaudnorm).convert);
      cs.Ok? &&
      var r := AudioFilters.PlanAudio(cs.value, source, trackId, output, normInput, pan, true);
      r.Ok? && r.value.RunNormalize?
      && r.value.cfg.preFilter == Some(Join(",", (if dynaudnorm then [DynaudnormFilter] else [])
                                                  + [pan(AudioFilters.Downmix(center, lfe, surrounds))]))
      && r.value.cfg.postFilter == Some("")
      && r.value.cfg.keepLra && r.value.cfg.targetLevel == Some(-23.0)
      && r.value.cfg.extraOutputOptions == None
  {
    NightmodeTemplateSettings(t, trackName, center, lfe, surrounds, dynaudnorm);
    var cs := ConvertOf(NightmodeTemplate(t, trackName, center, lfe, surrounds, dynaudnorm).convert).value;
    var es := NightmodeEntries(center, lfe, surrounds, dynaudnorm);
    assert es[|es| - 1].normalize == Some(AudioFilters.NormalizeSpec(AudioFilters.KeepLra, -23.0, None));
    AudioFilters.PlanNormalizeLast(cs, source, trackId, output, normInput, pan, true);
    NightmodeEntryFilters(center, lfe, surrounds, dynaudnorm, pan);
  }

  lemma NightmodeEntryFilters(center: real, lfe: real, surrounds: real, dynaudnorm: bool, pan: AudioFilters.Downmix -> string)
    ensures AudioFilters.FiltersOf(NightmodeEntries(center, lfe, surrounds, dynaudnorm), pan)
            == (if dynaudnorm then [DynaudnormFilter] else []) + [pan(AudioFilters.Downmix(center, lfe, surrounds))]
  {
    var es := NightmodeEntries(center, lfe, surrounds, dynaudnorm);
    var k := |es| - 2;
    AudioFilters.FiltersOfAppend(es[..k], es[k..], pan);
    AudioFilters.FiltersOfAppend([es[k]], [es[k + 1]], pan);
    assert es[k..] == [es[k]] + [es[k + 1]];
    assert es == es[..k] + es[k..];
    assert [es[k]][..0] == [] && [es[k + 1]][..0] == [];
    if dynaudnorm {
      assert es[..k] == [es[0]] && [es[0]][..0] == [];
    } else {
      assert es[..k] == [];
    }
  }

  /** new-nightmode's stricter loop reads "true_peak" unconditionally, so it
      cannot run a night-mode template. */
  lemma NightmodeTemplateStrictFails(t: AudioTrack, trackName: string, center: real, lfe: real, surrounds: real, dynaudnorm: bool,
                                     source: string, trackId: string, output: string, normInput: string,
                                     pan: AudioFilters.Downmix -> string)
    ensures var cs := ConvertOf(NightmodeTemplate(t, trackName, center, lfe, surrounds, dynaudnorm).convert);
      cs.Ok? && AudioFilters.PlanAudio(cs.value, source, trackId, output, normInput, pan, false) == Fail(KeyError)
  {
    NightmodeTemplateSettings(t, trackName, center, lfe, surrounds, dynaudnorm);
    var es := NightmodeEntries(center, lfe, surrounds, dynaudnorm);
    var init := AudioFilters.Acc(false, [], AudioFilters.InitialConfig("aac"));
    AudioFilters.FoldFails(es, init, pan, false);
    assert es[|es| - 1].normalize.Some? && es[|es| - 1].normalize.value.truePeak.None?;
  }

  // ------------------------------------------------------------ ffprobe templates

  /** The parts of an ffprobe stream the templates read; None stands for a
      missing key. */
  datatype Stream = Stream(codecType: string, codecName: string, profile: Option<string>,
                           tagLanguage: Option<string>, channels: int, channelLayout: Option<string>)

  /** The audio extension, chosen by substring tests of the lower-cased
      codec name against "dts", "truehd" and "ac3". */
  function AudioExtension(codecName: string, profile: Option<string>): (r: Result<string>)
    ensures r.Ok? ==> r.value in {"dts", "dtshd", "truehd", "ac3", "mka"}
    ensures r.Ok? ==> (r.value == "dts" || r.value == "dtshd" <==> Contains("dts", Lower(codecName)))
    ensures r.Ok? && r.value == "dtshd" ==> profile.Some? && Contains(Lower(profile.value), "dts-hd")
    ensures r.Ok? && r.value == "mka" ==>
      !Contains("dts", Lower(codecName)) && !Contains("truehd", Lower(codecName)) && !Contains("ac3", Lower(codecName))
    ensures r.Fail? <==> Contains("dts", Lower(codecName)) && profile.None?
    ensures r.Fail? ==> r.failure == KeyError
  {
    var c := Lower(codecName);
    if Contains("dts", c) then
      match profile
      case None => Fail(KeyError)
      case Some(p) => Ok(if Contains(Lower(p), "dts-hd") then "dtshd" else "dts")
    else if Contains("truehd", c) then Ok("truehd")
    else if Contains("ac3", c) then Ok("ac3")
    else Ok("mka")
  }

  /** The title's channel part: Mono/Stereo, else the first three
      characters of the layout and Surround, Atmos or DTS:X (the last
      match wins). */
  function ChannelTitle(st: Stream): (r: Result<string>)
    ensures st.channels == 1 ==> r == Ok("Mono ")
    ensures st.channels == 2 ==> r == Ok("Stereo ")
    ensures st.channels != 1 && st.channels != 2 ==> (r.Fail? <==> st.channelLayout.None?)
  {
    if st.channels == 1 then Ok("Mono ")
    else if st.channels == 2 then Ok("Stereo ")
    else match st.channelLayout
      case None => Fail(KeyError)
      case Some(layout) =>
        var sub :=
          match st.profile
          case None => "Surround "
          case Some(p) =>
            if Contains(Lower(p), "dts:x") then "DTS:X "
            else if Contains(Lower(p), "atmos") then "Atmos "
            else "Surround ";
        Ok(PySlice(layout, 0, 3) + " " + sub)
  }

  /** `if streamInfo["tags"]["language"]:` -- a missing or empty language
      leaves the key unset, and reading it back raises KeyError. */
  function StreamLanguage(st: Stream): (r: Result<string>)
    ensures r.Ok? <==> st.tagLanguage.Some? && st.tagLanguage.value != ""
    ensures r.Ok? ==> r.value == st.tagLanguage.value
  {
    match st.tagLanguage
    case Some(l) => if l != "" then Ok(l) else Fail(KeyError)
    case None => Fail(KeyError)
  }

  /** Info.getAudioTemplate: None for a stream whose type is not a
      substring of "audio"; otherwise an AudioTrackInfo that remuxes unknown
      codecs (convert {"codec": "copy"}) and keeps the known ones. */
  function AudioTemplate(st: Stream, trackId: nat): (r: Result<Option<AudioTrack>>)
    ensures !Contains("audio", st.codecType) ==> r == Ok(None)
    ensures r.Fail? ==> r.failure == KeyError
    ensures r.Ok? && r.value.Some? ==>
      var t := r.value.value;
      Contains("audio", st.codecType)
      && AudioExtension(st.codecName, st.profile) == Ok(t.extension)
      && (t.convert == JObj([("codec", JStr("copy"))]) <==> t.extension == "mka")
      && (t.extension != "mka" ==> t.convert == JObj([]))
      && IsSuffix("(" + Upper(if t.extension == "mka" then st.codecName else t.extension) + ")", t.title)
      && ChannelTitle(st).Ok? && IsPrefix(ChannelTitle(st).value, t.title)
      && StreamLanguage(st) == Ok(t.language)
      && t.id == trackId && !t.default && t.sync == 0 && t.index == -1
  {
    if !Contains("audio", st.codecType) then Ok(None)
    else match (AudioExtension(st.codecName, st.profile), StreamLanguage(st), ChannelTitle(st))
      case (Ok(ext), Ok(lang), Ok(prefix)) =>
        var convert := if Contains("mka", ext) then JObj([("codec", JStr("copy"))]) else JObj([]);
        var suffix := "(" + Upper(if ext == "mka" then st.codecName else ext) + ")";
        Ok(Some(NewAudio(prefix + suffix, ext, false, trackId, lang, 0, convert)))
      case (Fail(e), _, _) => Fail(e)
      case (_, Fail(e), _) => Fail(e)
      case (_, _, Fail(e)) => Fail(e)
  }

  /** PGS codecs (substrings of "hdmv_pgs_subtitle") give "sup", all
      others "srt". */
  function SubtitleExtension(codecName: string): (r: string)
    ensures r == "sup" <==> Contains("hdmv_pgs_subtitle", Lower(codecName))
    ensures r == "sup" || r == "srt"
  {
    if Contains("hdmv_pgs_subtitle", Lower(codecName)) then "sup" else "srt"
  }

  /** "{LANG} Subtitles" and the format in brackets. */
  function SubtitleTitle(lang: string, ext: string): (r: string)
    requires ext == "sup" || ext == "srt"
    ensures IsPrefix(Upper(lang) + " Subtitles (", r)
    ensures IsSuffix(if ext == "sup" then "(PGS)" else "(SRT)", r)
  {
    Upper(lang) + " Subtitles" + (if ext == "sup" then " (PGS)" else "") + (if ext == "srt" then " (SRT)" else "")
  }

  /** Info.getSubtitleTemplate: None unless the lower-cased type is a
      substring of "subtitle". */
  function SubtitleTemplate(st: Stream, trackId: nat, fileExists: string -> bool): (r: Result<Option<SubTrack>>)
    ensures !Contains("subtitle", Lower(st.codecType)) ==> r == Ok(None)
    ensures r.Fail? <==> Contains("subtitle", Lower(st.codecType)) && StreamLanguage(st).Fail?
    ensures r.Ok? && r.value.Some? ==>
      var t := r.value.value;
      t.extension == SubtitleExtension(st.codecName)
      && t.title == SubtitleTitle(t.language, t.extension)
      && StreamLanguage(st) == Ok(t.language)
      && !t.sup2srt && !t.srtFilter && !t.default && t.external.None? && t.id == trackId
  {
    if !Contains("subtitle", Lower(st.codecType)) then Ok(None)
    else match StreamLanguage(st)
      case Fail(e) => Fail(e)
      case Ok(lang) =>
        var ext := SubtitleExtension(st.codecName);
        Ok(Some(NewSub(SubtitleTitle(lang, ext), ext, false, trackId, lang, 0, false, false, "", fileExists)))
  }

  /** E-AC-3 is not a substring of "ac3", so such a stream is remuxed as
      .mka; an empty codec name is a substring of "dts". */
  lemma CodecSubstringClasses(eac3: string, empty: string, profile: Option<string>)
    requires eac3 == "eac3" && empty == ""
    ensures AudioExtension(eac3, profile) == Ok("mka")
    ensures profile.Some? ==> AudioExtension(empty, profile).Ok? && AudioExtension(empty, profile).value in {"dts", "dtshd"}
  {
    assert Lower(eac3) == eac3;
    assert !Contains("dts", eac3) && !Contains("truehd", eac3) && !Contains("ac3", eac3) by {
      ContainsIffOccurs("dts", eac3);
      ContainsIffOccurs("truehd", eac3);
      forall i | 0 <= i <= 2
        ensures !OccursAt("truehd", eac3, i)
      {
        assert "truehd"[i..i + 4][0] == "truehd"[i] != 'e';
      }
      ContainsIffOccurs("ac3", eac3);
    }
    assert Lower(empty) == "";
    assert IsPrefix(empty, "dts");
  }
}

=== FILE: info_json.dfy ===
// utils/info.py: writing an Info as a dict (the `__iter__` methods) and
// reading an info file back (Info.__init__ with a jsonFile). As written the
// two do not fit together: see LoadOfSerializedFails.
module InfoJson {
  import opened Results
  import opened Json
  import opened Info

  // ------------------------------------------------------------ writing

  /** The five keys every track dict starts with. */
  function TrackHead(title: string, extension: string, default: bool, id: int, language: string): seq<(string, Json)>
  {
    [("title", JStr(title)), ("extension", JStr(extension)), ("default", JBool(default)),
     ("id", JInt(id)), ("language", JStr(language))]
  }

  /** `if self.sync: yield "sync", self.sync`. */
  function SyncPart(sync: int): seq<(string, Json)>
  {
    if sync != 0 then [("sync", JInt(sync))] else []
  }

  /** `yield "convert", self.convert` when truthy, else false. */
  function ConvertJson(convert: Json): Json
  {
    if Truthy(convert) then convert else JBool(false)
  }

  /** AudioTrackInfo.__iter__. */
  function AudioFields(t: AudioTrack): seq<(string, Json)>
  {
    TrackHead(t.title, t.extension, t.default, t.id, t.language) + SyncPart(t.sync)
    + [("convert", ConvertJson(t.convert))]
  }

  /** `if self.external: yield "external", self.external`. */
  function ExternalPart(external: Option<string>): seq<(string, Json)>
  {
    if external.Some? && external.value != "" then [("external", JStr(external.value))] else []
  }

  /** SubtitleTrackInfo.__iter__. */
  function SubFields(t: SubTrack): seq<(string, Json)>
  {
    TrackHead(t.title, t.extension, t.default, t.id, t.language) + SyncPart(t.sync)
    + [("sup2srt", JBool(t.sup2srt)), ("filter", JBool(t.srtFilter))] + ExternalPart(t.external)
  }

  /** The "vapoursynth" value: false without a script, else the script and
      the variables when there are any. */
  function VapoursynthJson(v: VideoTrack): (j: Json)
    ensures Truthy(j) <==> v.vsScript != ""
  {
    if v.vsScript != "" then
      JObj([("script", JStr(v.vsScript))] + (if v.vsVars != [] then [("variables", JObj(v.vsVars))] else []))
    else JBool(false)
  }

  function VideoHead(v: VideoTrack): seq<(string, Json)>
  {
    [("title", JStr(v.title)), ("language", JStr(v.language)), ("output", JStr(v.output)),
     ("convert", JBool(v.convert)), ("x265Opts", JArr(Strs(v.x265Opts)))]
  }

  /** VideoTrackInfo.__iter__, which always writes "vapoursynth" and never
      the two-pass flag; `with2pass` adds it (the corrected writer). */
  function VideoFields(v: VideoTrack, with2pass: bool): seq<(string, Json)>
  {
    VideoHead(v) + [("vapoursynth", VapoursynthJson(v))]
    + (if v.mkvmergeOpts != [] then [("mkvmergeOpts", JArr(Strs(v.mkvmergeOpts)))] else [])
    + (if with2pass then [("2pass", JBool(v.twoPass))] else [])
  }

  function AudioJsons(ts: seq<AudioTrack>): (r: seq<Json>)
    ensures |r| == |ts|
    decreases |ts|
  {
    if |ts| == 0 then [] else [JObj(AudioFields(ts[0]))] + AudioJsons(ts[1..])
  }

  function SubJsons(ts: seq<SubTrack>): (r: seq<Json>)
    ensures |r| == |ts|
    decreases |ts|
  {
    if |ts| == 0 then [] else [JObj(SubFields(ts[0]))] + SubJsons(ts[1..])
  }

  /** Info.__iter__ (what `str(info)` prints as JSON). */
  function InfoFields(info: InfoFile, with2pass: bool): seq<(string, Json)>
  {
    [("title", JStr(info.title)), ("sourceFile", JStr(info.sourceMKV)),
     ("outputFile", JStr(info.outputFile)), ("video", JObj(VideoFields(info.video, with2pass))),
     ("audio", JArr(AudioJsons(info.audio))), ("subs", JArr(SubJsons(info.subs)))]
  }

  /** The key order of Info.__iter__. */
  lemma InfoGet(info: InfoFile, with2pass: bool, key: string)
    ensures Get(InfoFields(info, with2pass), key) ==
      if key == "title" then Some(JStr(info.title))
      else if key == "sourceFile" then Some(JStr(info.sourceMKV))
      else if key == "outputFile" then Some(JStr(info.outputFile))
      else if key == "video" then Some(JObj(VideoFields(info.video, with2pass)))
      else if key == "audio" then Some(JArr(AudioJsons(info.audio)))
      else if key == "subs" then Some(JArr(SubJsons(info.subs)))
      else None
  {
    var f := InfoFields(info, with2pass);
    assert f == [f[0]] + ([f[1]] + ([f[2]] + ([f[3]] + ([f[4]] + ([f[5]] + []))))); 
    GetCons(f[5], [], key);
    GetCons(f[4], [f[5]] + [], key);
    GetCons(f[3], [f[4]] + ([f[5]] + []), key);
    GetCons(f[2], [f[3]] + ([f[4]] + ([f[5]] + [])), key);
    GetCons(f[1], [f[2]] + ([f[3]] + ([f[4]] + ([f[5]] + []))), key);
    GetCons(f[0], [f[1]] + ([f[2]] + ([f[3]] + ([f[4]] + ([f[5]] + [])))), key);
  }

  /** The key order of VideoTrackInfo.__iter__. */
  lemma VideoGet(v: VideoTrack, with2pass: bool, key: string)
    ensures Get(VideoFields(v, with2pass), key) ==
      if key == "title" then Some(JStr(v.title))
      else if key == "language" then Some(JStr(v.language))
      else if key == "output" then Some(JStr(v.output))
      else if key == "convert" then Some(JBool(v.convert))
      else if key == "x265Opts" then Some(JArr(Strs(v.x265Opts)))
      else if key == "vapoursynth" then Some(VapoursynthJson(v))
      else if key == "mkvmergeOpts" && v.mkvmergeOpts != [] then Some(JArr(Strs(v.mkvmergeOpts)))
      else if key == "2pass" && with2pass then Some(JBool(v.twoPass))
      else None
  {
    var h := VideoHead(v) + [("vapoursynth", VapoursynthJson(v))];
    var m := if v.mkvmergeOpts != [] then [("mkvmergeOpts", JArr(Strs(v.mkvmergeOpts)))] else [];
    var p := if with2pass then [("2pass", JBool(v.twoPass))] else [];
    assert h == [h[0]] + ([h[1]] + ([h[2]] + ([h[3]] + ([h[4]] + ([h[5]] + []))))); 
    GetCons(h[5], [], key);
    GetCons(h[4], [h[5]] + [], key);
    GetCons(h[3], [h[4]] + ([h[5]] + []), key);
    GetCons(h[2], [h[3]] + ([h[4]] + ([h[5]] + [])), key);
    GetCons(h[1], [h[2]] + ([h[3]] + ([h[4]] + ([h[5]] + []))), key);
    GetCons(h[0], [h[1]] + ([h[2]] + ([h[3]] + ([h[4]] + ([h[5]] + [])))), key);
    if v.mkvmergeOpts != [] { GetCons(m[0], [], key); assert m == [m[0]] + []; }
    if with2pass { GetCons(p[0], [], key); assert p == [p[0]] + []; }
    GetAppend(h, m, key);
    GetAppend(h + m, p, key);
  }

  // ------------------------------------------------------------ reading

  /** `sync = track["sync"] if "sync" in track else 0`. */
  function SyncOf(f: seq<(string, Json)>): Result<int>
  {
    match Get(f, "sync")
    case None => Ok(0)
    case Some(JInt(i)) => Ok(i)
    case Some(_) => Fail(TypeError)
  }

  /** One audio track: a falsy "convert" becomes {}, and any truthy value
      is kept as it is, dict or not. */
  function LoadAudio(j: Json): (r: Result<AudioTrack>)
    ensures r.Ok? ==> r.value.index == -1 && (Truthy(r.value.convert) || r.value.convert == JObj([]))
    ensures j.JObj? && SyncOf(j.fields).Ok? && Get(j.fields, "convert") == None ==> r == Fail(KeyError)
  {
    match j
    case JObj(f) =>
      var sync := SyncOf(f);
      var conv := Field(f, "convert");
      var title := StrField(f, "title");
      var ext := StrField(f, "extension");
      var default := BoolField(f, "default");
      var id := IntField(f, "id");
      var lang := StrField(f, "language");
      if sync.Fail? then Fail(sync.failure)
      else if conv.Fail? then Fail(conv.failure)
      else if title.Fail? then Fail(title.failure)
      else if ext.Fail? then Fail(ext.failure)
      else if default.Fail? then Fail(default.failure)
      else if id.Fail? then Fail(id.failure)
      else if lang.Fail? then Fail(lang.failure)
      else Ok(NewAudio(title.value, ext.value, default.value, id.value, lang.value, sync.value,
                       if Truthy(conv.value) then conv.value else JObj([])))
    case _ => Fail(TypeError)
  }

  /** `external = track["external"]` when present and truthy, else "". */
  function ExternalOf(f: seq<(string, Json)>): Result<string>
  {
    match Get(f, "external")
    case None => Ok("")
    case Some(JStr(s)) => Ok(s)
    case Some(v) => if Truthy(v) then Fail(TypeError) else Ok("")
  }

  /** One subtitle track. */
  function LoadSub(j: Json, fileExists: string -> bool): (r: Result<SubTrack>)
    ensures r.Ok? ==> r.value.index == -1 && r.value.sourceTrack.None?
  {
    match j
    case JObj(f) =>
      var sync := SyncOf(f);
      var external := ExternalOf(f);
      var title := StrField(f, "title");
      var ext := StrField(f, "extension");
      var default := BoolField(f, "default");
      var id := IntField(f, "id");
      var lang := StrField(f, "language");
      var sup := BoolField(f, "sup2srt");
      var filter := BoolField(f, "filter");
      if sync.Fail? then Fail(sync.failure)
      else if external.Fail? then Fail(external.failure)
      else if title.Fail? then Fail(title.failure)
      else if ext.Fail? then Fail(ext.failure)
      else if default.Fail? then Fail(default.failure)
      else if id.Fail? then Fail(id.failure)
      else if lang.Fail? then Fail(lang.failure)
      else if sup.Fail? then Fail(sup.failure)
      else if filter.Fail? then Fail(filter.failure)
      else Ok(NewSub(title.value, ext.value, default.value, id.value, lang.value, sync.value,
                     sup.value, filter.value, external.value, fileExists))
    case _ => Fail(TypeError)
  }

  function LoadAudios(items: seq<Json>): (r: Result<seq<AudioTrack>>)
    ensures r.Ok? ==> |r.value| == |items|
    decreases |items|
  {
    if |items| == 0 then Ok([])
    else match (LoadAudio(items[0]), LoadAudios(items[1..]))
      case (Ok(t), Ok(rest)) => Ok([t] + rest)
      case (Fail(e), _) => Fail(e)
      case (_, Fail(e)) => Fail(e)
  }

  function LoadSubs(items: seq<Json>, fileExists: string -> bool): (r: Result<seq<SubTrack>>)
    ensures r.Ok? ==> |r.value| == |items|
    decreases |items|
  {
    if |items| == 0 then Ok([])
    else match (LoadSub(items[0], fileExists), LoadSubs(items[1..], fileExists))
      case (Ok(t), Ok(rest)) => Ok([t] + rest)
      case (Fail(e), _) => Fail(e)
      case (_, Fail(e)) => Fail(e)
  }

  /** An optional list: absent means empty. */
  function OptionalList(f: seq<(string, Json)>, key: string): Result<seq<Json>>
  {
    match Get(f, key)
    case None => Ok([])
    case Some(JArr(items)) => Ok(items)
    case Some(_) => Fail(TypeError)
  }

  /** The rest of the video dict once the vapoursynth script and variables
      are known. */
  function LoadVideoWith(v: seq<(string, Json)>, script: string, vars: seq<(string, Json)>): Result<VideoTrack>
  {
    var mkv: Result<seq<string>> :=
      match Get(v, "mkvmergeOpts")
      case None => Ok([])
      case Some(JArr(items)) => (match StrsOf(items) case Some(ss) => Ok(ss) case None => Fail(TypeError))
      case Some(_) => Fail(TypeError);
    var twoPass: Result<bool> :=
      match Get(v, "2pass")
      case None => Ok(false)
      case Some(JBool(b)) => Ok(b)
      case Some(_) => Fail(TypeError);
    var title := StrField(v, "title");
    var lang := StrField(v, "language");
    var output := StrField(v, "output");
    var convert := BoolField(v, "convert");
    var x265 := StrListField(v, "x265Opts");
    if mkv.Fail? then Fail(mkv.failure)
    else if twoPass.Fail? then Fail(twoPass.failure)
    else if title.Fail? then Fail(title.failure)
    else if lang.Fail? then Fail(lang.failure)
    else if output.Fail? then Fail(output.failure)
    else if convert.Fail? then Fail(convert.failure)
    else if x265.Fail? then Fail(x265.failure)
    else Ok(VideoTrack(title.value, lang.value, output.value, convert.value, twoPass.value,
                       x265.value, script, vars, mkv.value))
  }

  /** The video dict as written: when "vapoursynth" is present the script
      is looked up in the video dict itself (`jsonData["video"]["script"]`). */
  function LoadVideo(v: seq<(string, Json)>): (r: Result<VideoTrack>)
    ensures Get(v, "vapoursynth").Some? && Get(v, "script").None? ==> r == Fail(KeyError)
  {
    match Get(v, "vapoursynth")
    case None => LoadVideoWith(v, "", [])
    case Some(vs) =>
      match StrField(v, "script")
      case Fail(e) => Fail(e)
      case Ok(script) =>
        match vs
        case JObj(vf) =>
          (match Get(vf, "variables")
           case None => LoadVideoWith(v, script, [])
           case Some(JObj(vars)) => LoadVideoWith(v, script, vars)
           case Some(_) => Fail(TypeError))
        case _ => Fail(TypeError)
  }

  /** Assigns indices and links sources, as the constructor's final loops. */
  function Finish(title: string, source: string, output: string, video: VideoTrack,
                  audio: seq<AudioTrack>, subs: seq<SubTrack>): InfoFile
  {
    InfoFile(title, source, output, video, IndexAudio(audio), LinkSources(IndexSubs(subs)))
  }

  /** Info(jsonFile) as written: "sourceFile" is never read, so the source
      stays "". */
  function Load(j: Json, fileExists: string -> bool): (r: Result<InfoFile>)
    ensures r.Ok? ==> j.JObj? && r.value.sourceMKV == ""
  {
    match j
    case JObj(f) =>
      var title := StrField(f, "title");
      var output := StrField(f, "outputFile");
      var video := Field(f, "video");
      if title.Fail? then Fail(title.failure)
      else if output.Fail? then Fail(output.failure)
      else if video.Fail? then Fail(video.failure)
      else if !video.value.JObj? then Fail(TypeError)
      else (match LoadVideo(video.value.fields)
        case Fail(e) => Fail(e)
        case Ok(v) => LoadTracks(f, title.value, "", output.value, v, fileExists))
    case _ => Fail(TypeError)
  }

  /** The "audio" and "subs" lists, each optional. */
  function LoadTracks(f: seq<(string, Json)>, title: string, source: string, output: string, v: VideoTrack,
                      fileExists: string -> bool): (r: Result<InfoFile>)
    ensures r.Ok? ==> r.value.sourceMKV == source
  {
    match (OptionalList(f, "audio"), OptionalList(f, "subs"))
    case (Ok(aj), Ok(sj)) =>
      (match (LoadAudios(aj), LoadSubs(sj, fileExists))
       case (Ok(a), Ok(s)) => Ok(Finish(title, source, output, v, a, s))
       case (Fail(e), _) => Fail(e)
       case (_, Fail(e)) => Fail(e))
    case (Fail(e), _) => Fail(e)
    case (_, Fail(e)) => Fail(e)
  }

  /** Every info file this class writes fails to load: the writer always
      puts "vapoursynth" in the video dict, and the reader then looks for
      "script" beside it, where the writer never puts one. */
  lemma LoadOfSerializedFails(info: InfoFile, fileExists: string -> bool)
    ensures Load(JObj(InfoFields(info, false)), fileExists) == Fail(KeyError)
  {
    InfoGet(info, false, "title");
    InfoGet(info, false, "outputFile");
    InfoGet(info, false, "video");
    VideoGet(info.video, false, "vapoursynth");
    VideoGet(info.video, false, "script");
  }

  // ------------------------------------------------------------ corrected reader

  /** The video dict read from the nested "vapoursynth" dict, as the writer
      lays it out. */
  function CorrectedLoadVideo(v: seq<(string, Json)>): Result<VideoTrack>
  {
    match Get(v, "vapoursynth")
    case None => LoadVideoWith(v, "", [])
    case Some(JObj(vf)) =>
      if vf == [] then LoadVideoWith(v, "", [])
      else
        (match StrField(vf, "script")
         case Fail(e) => Fail(e)
         case Ok(script) =>
           match Get(vf, "variables")
           case None => LoadVideoWith(v, script, [])
           case Some(JObj(vars)) => LoadVideoWith(v, script, vars)
           case Some(_) => Fail(TypeError))
    case Some(other) => if Truthy(other) then Fail(TypeError) else LoadVideoWith(v, "", [])
  }

  /** Info(jsonFile) reading "sourceFile" and the nested script. */
  function CorrectedLoad(j: Json, fileExists: string -> bool): (r: Result<InfoFile>)
    ensures r.Ok? ==> j.JObj? && Get(j.fields, "sourceFile") == Some(JStr(r.value.sourceMKV))
  {
    match j
    case JObj(f) =>
      var title := StrField(f, "title");
      var source := StrField(f, "sourceFile");
      var output := StrField(f, "outputFile");
      var video := Field(f, "video");
      if title.Fail? then Fail(title.failure)
      else if source.Fail? then Fail(source.failure)
      else if output.Fail? then Fail(output.failure)
      else if video.Fail? then Fail(video.failure)
      else if !video.value.JObj? then Fail(TypeError)
      else (match CorrectedLoadVideo(video.value.fields)
        case Fail(e) => Fail(e)
        case Ok(v) => LoadTracks(f, title.value, source.value, output.value, v, fileExists))
    case _ => Fail(TypeError)
  }

  /** The infos the constructor can produce: indices are positions, every
      sup2srt subtitle is linked, external files exist, convert settings are
      dicts, and vapoursynth variables come with a script. */
  predicate Canonical(info: InfoFile, fileExists: string -> bool)
  {
    (forall i :: 0 <= i < |info.audio| ==> info.audio[i].index == i && info.audio[i].convert.JObj?)
    && (forall i :: 0 <= i < |info.subs| ==>
          info.subs[i].index == i
          && (info.subs[i].external.Some? ==> info.subs[i].external.value != "" && fileExists(info.subs[i].external.value))
          && info.subs[i].sourceTrack == (if info.subs[i].sup2srt then FirstSource(info.subs, info.subs[i].id) else None))
    && (info.video.vsScript == "" ==> info.video.vsVars == [])
  }

  // ------------------------------------------------------------ corrected round trip

  /** The key order of the five common track keys. */
  lemma HeadGet(title: string, extension: string, default: bool, id: int, language: string, key: string)
    ensures Get(TrackHead(title, extension, default, id, language), key) ==
      if key == "title" then Some(JStr(title))
      else if key == "extension" then Some(JStr(extension))
      else if key == "default" then Some(JBool(default))
      else if key == "id" then Some(JInt(id))
      else if key == "language" then Some(JStr(language))
      else None
  {
    var h := TrackHead(title, extension, default, id, language);
    assert h == [h[0]] + ([h[1]] + ([h[2]] + ([h[3]] + ([h[4]] + []))));
    GetCons(h[4], [], key);
    GetCons(h[3], [h[4]] + [], key);
    GetCons(h[2], [h[3]] + ([h[4]] + []), key);
    GetCons(h[1], [h[2]] + ([h[3]] + ([h[4]] + [])), key);
    GetCons(h[0], [h[1]] + ([h[2]] + ([h[3]] + ([h[4]] + []))), key);
  }

  lemma SyncGet(sync: int, key: string)
    ensures Get(SyncPart(sync), key) == if key == "sync" && sync != 0 then Some(JInt(sync)) else None
  {
    if sync != 0 {
      GetCons(("sync", JInt(sync)), [], key);
      assert SyncPart(sync) == [("sync", JInt(sync))] + [];
    }
  }

  /** The key order of AudioTrackInfo.__iter__. */
  lemma AudioGet(t: AudioTrack, key: string)
    ensures Get(AudioFields(t), key) ==
      if key == "title" then Some(JStr(t.title))
      else if key == "extension" then Some(JStr(t.extension))
      else if key == "default" then Some(JBool(t.default))
      else if key == "id" then Some(JInt(t.id))
      else if key == "language" then Some(JStr(t.language))
      else if key == "sync" then (if t.sync != 0 then Some(JInt(t.sync)) else None)
      else if key == "convert" then Some(ConvertJson(t.convert))
      else None
  {
    var h := TrackHead(t.title, t.extension, t.default, t.id, t.language);
    var sp := SyncPart(t.sync);
    var c := [("convert", ConvertJson(t.convert))];
    HeadGet(t.title, t.extension, t.default, t.id, t.language, key);
    SyncGet(t.sync, key);
    GetCons(c[0], [], key);
    assert c == [c[0]] + [];
    GetAppend(h, sp, key);
    GetAppend(h + sp, c, key);
  }

  /** A written audio track reads back as itself, before indexing. */
  lemma AudioRoundTrip(t: AudioTrack)
    requires t.convert.JObj? || Truthy(t.convert)
    ensures LoadAudio(JObj(AudioFields(t))) == Ok(t.(index := -1))
  {
    AudioGet(t, "sync");
    AudioGet(t, "convert");
    AudioGet(t, "title");
    AudioGet(t, "extension");
    AudioGet(t, "default");
    AudioGet(t, "id");
    AudioGet(t, "language");
  }

  /** What the reader finds in a written subtitle dict. */
  lemma SubGet(t: SubTrack, key: string)
    ensures Get(SubFields(t), key) ==
      if key == "title" then Some(JStr(t.title))
      else if key == "extension" then Some(JStr(t.extension))
      else if key == "default" then Some(JBool(t.default))
      else if key == "id" then Some(JInt(t.id))
      else if key == "language" then Some(JStr(t.language))
      else if key == "sync" then (if t.sync != 0 then Some(JInt(t.sync)) else None)
      else if key == "sup2srt" then Some(JBool(t.sup2srt))
      else if key == "filter" then Some(JBool(t.srtFilter))
      else if key == "external" && t.external.Some? && t.external.value != "" then Some(JStr(t.external.value))
      else None
  {
    var h := TrackHead(t.title, t.extension, t.default, t.id, t.language);
    var sp := SyncPart(t.sync);
    var c := [("sup2srt", JBool(t.sup2srt)), ("filter", JBool(t.srtFilter))];
    var e := ExternalPart(t.external);
    HeadGet(t.title, t.extension, t.default, t.id, t.language, key);
    SyncGet(t.sync, key);
    assert c == [c[0]] + ([c[1]] + []);
    GetCons(c[1], [], key);
    GetCons(c[0], [c[1]] + [], key);
    if e != [] { GetCons(e[0], [], key); assert e == [e[0]] + []; }
    GetAppend(h, sp, key);
    GetAppend(h + sp, c, key);
    GetAppend(h + sp + c, e, key);
  }

  /** A written subtitle track reads back as itself, before indexing and
      linking, when its external file is named and exists. */
  lemma SubRoundTrip(t: SubTrack, fileExists: string -> bool)
    requires t.external.Some? ==> t.external.value != "" && fileExists(t.external.value)
    ensures LoadSub(JObj(SubFields(t)), fileExists) == Ok(t.(index := -1, sourceTrack := None))
  {
    var f := SubFields(t);
    SubGet(t, "sync");
    SubGet(t, "external");
    SubGet(t, "title");
    SubGet(t, "extension");
    SubGet(t, "default");
    SubGet(t, "id");
    SubGet(t, "language");
    SubGet(t, "sup2srt");
    SubGet(t, "filter");
  }

  lemma {:induction false} AudiosRoundTrip(ts: seq<AudioTrack>)
    requires forall i :: 0 <= i < |ts| ==> ts[i].convert.JObj?
    ensures LoadAudios(AudioJsons(ts)).Ok?
    ensures var r := LoadAudios(AudioJsons(ts)).value;
      |r| == |ts| && forall i :: 0 <= i < |ts| ==> r[i] == ts[i].(index := -1)
    decreases |ts|
  {
    if |ts| > 0 {
      var js := AudioJsons(ts);
      assert js[1..] == AudioJsons(ts[1..]);
      AudioRoundTrip(ts[0]);
      AudiosRoundTrip(ts[1..]);
    }
  }

  lemma {:induction false} SubsRoundTrip(ts: seq<SubTrack>, fileExists: string -> bool)
    requires forall i :: 0 <= i < |ts| ==>
      ts[i].external.Some? ==> ts[i].external.value != "" && fileExists(ts[i].external.value)
    ensures LoadSubs(SubJsons(ts), fileExists).Ok?
    ensures var r := LoadSubs(SubJsons(ts), fileExists).value;
      |r| == |ts| && forall i :: 0 <= i < |ts| ==> r[i] == ts[i].(index := -1, sourceTrack := None)
    decreases |ts|
  {
    if |ts| > 0 {
      var js := SubJsons(ts);
      assert js[1..] == SubJsons(ts[1..]);
      SubRoundTrip(ts[0], fileExists);
      SubsRoundTrip(ts[1..], fileExists);
    }
  }

  /** The nested "vapoursynth" dict reads back as the script and variables. */
  lemma VapoursynthRoundTrip(v: VideoTrack)
    requires v.vsScript != ""
    ensures var vf := VapoursynthJson(v).fields;
      vf != [] && StrField(vf, "script") == Ok(v.vsScript)
      && Get(vf, "variables") == (if v.vsVars != [] then Some(JObj(v.vsVars)) else None)
  {
    var a := [("script", JStr(v.vsScript))];
    var b := if v.vsVars != [] then [("variables", JObj(v.vsVars))] else [];
    GetCons(a[0], b, "script");
    GetCons(a[0], b, "variables");
    if b != [] { GetCons(b[0], [], "variables"); assert b == [b[0]] + []; }
  }

  /** Every video key except the script reads back. */
  lemma VideoWithRoundTrip(v: VideoTrack)
    ensures LoadVideoWith(VideoFields(v, true), v.vsScript, v.vsVars) == Ok(v)
  {
    VideoGet(v, true, "mkvmergeOpts");
    VideoGet(v, true, "2pass");
    VideoGet(v, true, "title");
    VideoGet(v, true, "language");
    VideoGet(v, true, "output");
    VideoGet(v, true, "convert");
    VideoGet(v, true, "x265Opts");
    StrsRoundTrip(v.x265Opts);
    StrsRoundTrip(v.mkvmergeOpts);
  }

  lemma VideoRoundTrip(v: VideoTrack)
    requires v.vsScript == "" ==> v.vsVars == []
    ensures CorrectedLoadVideo(VideoFields(v, true)) == Ok(v)
  {
    VideoGet(v, true, "vapoursynth");
    VideoWithRoundTrip(v);
    if v.vsScript != "" {
      VapoursynthRoundTrip(v);
    }
  }

  /** Indexing and linking the read-back tracks restores a canonical info. */
  lemma FinishRestores(info: InfoFile, fileExists: string -> bool, a: seq<AudioTrack>, s: seq<SubTrack>)
    requires Canonical(info, fileExists)
    requires |a| == |info.audio| && forall i :: 0 <= i < |a| ==> a[i] == info.audio[i].(index := -1)
    requires |s| == |info.subs| && forall i :: 0 <= i < |s| ==> s[i] == info.subs[i].(index := -1, sourceTrack := None)
    ensures Finish(info.title, info.sourceMKV, info.outputFile, info.video, a, s) == info
  {
    var ia := IndexAudio(a);
    assert ia == info.audio;
    var xs := IndexSubs(s);
    var ls := LinkSources(xs);
    FirstSourceSameKeysAll(xs, info.subs);
    assert ls == info.subs;
  }

  lemma FirstSourceSameKeysAll(a: seq<SubTrack>, b: seq<SubTrack>)
    requires |a| == |b|
    requires forall i :: 0 <= i < |a| ==> a[i].sup2srt == b[i].sup2srt && a[i].id == b[i].id
    ensures forall id :: FirstSource(a, id) == FirstSource(b, id)
  {
    forall id ensures FirstSource(a, id) == FirstSource(b, id) {
      FirstSourceSameKeys(a, b, id);
    }
  }

  lemma TracksRoundTrip(info: InfoFile, fileExists: string -> bool)
    requires Canonical(info, fileExists)
    ensures LoadTracks(InfoFields(info, true), info.title, info.sourceMKV, info.outputFile, info.video, fileExists) == Ok(info)
  {
    InfoGet(info, true, "audio");
    InfoGet(info, true, "subs");
    AudiosRoundTrip(info.audio);
    SubsRoundTrip(info.subs, fileExists);
    var f := InfoFields(info, true);
    var a := LoadAudios(AudioJsons(info.audio)).value;
    var s := LoadSubs(SubJsons(info.subs), fileExists).value;
    assert OptionalList(f, "audio") == Ok(AudioJsons(info.audio));
    assert OptionalList(f, "subs") == Ok(SubJsons(info.subs));
    assert LoadAudios(AudioJsons(info.audio)) == Ok(a);
    assert LoadSubs(SubJsons(info.subs), fileExists) == Ok(s);
    FinishRestores(info, fileExists, a, s);
  }

  /** With the nested script read and "sourceFile" read, every canonical info
      written with its two-pass flag loads back unchanged. */
  lemma CorrectedRoundTrip(info: InfoFile, fileExists: string -> bool)
    requires Canonical(info, fileExists)
    ensures CorrectedLoad(JObj(InfoFields(info, true)), fileExists) == Ok(info)
  {
    InfoGet(info, true, "title");
    InfoGet(info, true, "sourceFile");
    InfoGet(info, true, "outputFile");
    InfoGet(info, true, "video");
    VideoRoundTrip(info.video);
    TracksRoundTrip(info, fileExists);
    CorrectedLoadFields(InfoFields(info, true), info, VideoFields(info.video, true), fileExists);
  }

  /** CorrectedLoad on fields whose header keys hold the info's strings and
      whose tracks load back. */
  lemma CorrectedLoadFields(f: seq<(string, Json)>, info: InfoFile, vf: seq<(string, Json)>,
                            fileExists: string -> bool)
    requires Get(f, "title") == Some(JStr(info.title))
    requires Get(f, "sourceFile") == Some(JStr(info.sourceMKV))
    requires Get(f, "outputFile") == Some(JStr(info.outputFile))
    requires Get(f, "video") == Some(JObj(vf))
    requires CorrectedLoadVideo(vf) == Ok(info.video)
    requires LoadTracks(f, info.title, info.sourceMKV, info.outputFile, info.video, fileExists) == Ok(info)
    ensures CorrectedLoad(JObj(f), fileExists) == Ok(info)
  {
  }
}

=== FILE: json.dfy ===
// JSON values as the info files and track settings hold them once parsed:
// dicts are kept as their key/value entries in file order, and lookups take
// the first entry with the key. Parsing and printing text is not modelled.
module Json {
  import opened Results

  datatype Json =
    | JNull
    | JBool(b: bool)
    | JInt(i: int)
    | JNum(r: real)
    | JStr(s: string)
    | JArr(items: seq<Json>)
    | JObj(fields: seq<(string, Json)>)

  /** Python's truth value of the parsed value. */
  predicate Truthy(j: Json)
  {
    match j
    case JNull => false
    case JBool(b) => b
    case JInt(i) => i != 0
    case JNum(r) => r != 0.0
    case JStr(s) => s != ""
    case JArr(items) => items != []
    case JObj(fields) => fields != []
  }

  /** `key in d` and `d[key]` on a dict. */
  function Get(fields: seq<(string, Json)>, key: string): Option<Json>
  {
    if |fields| == 0 then None
    else if fields[0].0 == key then Some(fields[0].1)
    else Get(fields[1..], key)
  }

  /** A lookup finds an entry with the key, and fails only when no entry
      has it. */
  lemma {:induction false} GetSpec(fields: seq<(string, Json)>, key: string)
    ensures Get(fields, key).Some? ==> exists i :: 0 <= i < |fields| && fields[i] == (key, Get(fields, key).value)
    ensures Get(fields, key).None? <==> forall i :: 0 <= i < |fields| ==> fields[i].0 != key
    decreases |fields|
  {
    if |fields| > 0 && fields[0].0 != key {
      GetSpec(fields[1..], key);
      if Get(fields, key).Some? {
        var i :| 0 <= i < |fields| - 1 && fields[1..][i] == (key, Get(fields, key).value);
        assert fields[i + 1] == (key, Get(fields, key).value);
      }
    }
  }

  /** Looking up in a dict that starts with a given entry. */
  lemma GetCons(e: (string, Json), rest: seq<(string, Json)>, key: string)
    ensures Get([e] + rest, key) == if e.0 == key then Some(e.1) else Get(rest, key)
  {
    assert ([e] + rest)[1..] == rest;
  }

  /** Looking up a key that a dict does not start with skips its head. */
  lemma GetSkip(head: (string, Json), rest: seq<(string, Json)>, key: string)
    requires head.0 != key
    ensures Get([head] + rest, key) == Get(rest, key)
  {
    assert ([head] + rest)[1..] == rest;
  }

  /** The first entry with the key is the one found. */
  lemma {:induction false} GetAt(fields: seq<(string, Json)>, p: nat, key: string)
    requires p < |fields| && fields[p].0 == key
    requires forall i :: 0 <= i < p ==> fields[i].0 != key
    ensures Get(fields, key) == Some(fields[p].1)
    decreases p
  {
    if p > 0 {
      GetAt(fields[1..], p - 1, key);
    }
  }

  /** Looking up in a concatenation: the left part first. */
  lemma {:induction false} GetAppend(a: seq<(string, Json)>, b: seq<(string, Json)>, key: string)
    ensures Get(a + b, key) == if Get(a, key).Some? then Get(a, key) else Get(b, key)
    decreases |a|
  {
    if |a| > 0 {
      assert (a + b)[1..] == a[1..] + b;
      GetAppend(a[1..], b, key);
    } else {
      assert a + b == b;
    }
  }

  /** `d[key]`: a missing key raises KeyError. */
  function Field(fields: seq<(string, Json)>, key: string): (r: Result<Json>)
    ensures r.Fail? <==> Get(fields, key).None?
    ensures r.Fail? ==> r.failure == KeyError
    ensures r.Ok? ==> Get(fields, key) == Some(r.value)
  {
    match Get(fields, key)
    case None => Fail(KeyError)
    case Some(v) => Ok(v)
  }

  /** A field used as a string. */
  function StrField(fields: seq<(string, Json)>, key: string): (r: Result<string>)
    ensures r.Ok? <==> Get(fields, key).Some? && Get(fields, key).value.JStr?
    ensures r.Ok? ==> Get(fields, key) == Some(JStr(r.value))
  {
    match Field(fields, key)
    case Fail(f) => Fail(f)
    case Ok(JStr(s)) => Ok(s)
    case Ok(_) => Fail(TypeError)
  }

  /** A field used as a bool. */
  function BoolField(fields: seq<(string, Json)>, key: string): (r: Result<bool>)
    ensures r.Ok? <==> Get(fields, key).Some? && Get(fields, key).value.JBool?
    ensures r.Ok? ==> Get(fields, key) == Some(JBool(r.value))
  {
    match Field(fields, key)
    case Fail(f) => Fail(f)
    case Ok(JBool(b)) => Ok(b)
    case Ok(_) => Fail(TypeError)
  }

  /** A field used as an int. */
  function IntField(fields: seq<(string, Json)>, key: string): (r: Result<int>)
    ensures r.Ok? <==> Get(fields, key).Some? && Get(fields, key).value.JInt?
    ensures r.Ok? ==> Get(fields, key) == Some(JInt(r.value))
  {
    match Field(fields, key)
    case Fail(f) => Fail(f)
    case Ok(JInt(i)) => Ok(i)
    case Ok(_) => Fail(TypeError)
  }

  /** A value Python's arithmetic accepts as a number: an int or a float. */
  predicate IsNumber(v: Json)
  {
    v.JInt? || v.JNum?
  }

  /** The number a JSON int or float stands for, an int widened to a real. */
  function AsReal(v: Json): real
    requires IsNumber(v)
  {
    if v.JInt? then v.i as real else v.r
  }

  /** A value used as a number; anything else raises TypeError. */
  function Number(v: Json): (r: Result<real>)
    ensures r.Ok? <==> IsNumber(v)
    ensures r.Ok? ==> r.value == AsReal(v)
    ensures r.Fail? ==> r.failure == TypeError
  {
    match v
    case JInt(i) => Ok(i as real)
    case JNum(x) => Ok(x)
    case _ => Fail(TypeError)
  }

  /** `key` is present and holds a number. */
  predicate NumberAt(fields: seq<(string, Json)>, key: string)
  {
    Get(fields, key).Some? && IsNumber(Get(fields, key).value)
  }

  /** A list of strings written as JSON. */
  function Strs(ss: seq<string>): (r: seq<Json>)
    ensures |r| == |ss|
    decreases |ss|
  {
    if |ss| == 0 then [] else [JStr(ss[0])] + Strs(ss[1..])
  }

  /** A JSON list read back as strings; None when an item is not a string. */
  function StrsOf(items: seq<Json>): (r: Option<seq<string>>)
    ensures r.Some? ==> |r.value| == |items|
    ensures r.Some? <==> forall i :: 0 <= i < |items| ==> items[i].JStr?
    decreases |items|
  {
    if |items| == 0 then Some([])
    else match (items[0], StrsOf(items[1..]))
      case (JStr(s), Some(rest)) => Some([s] + rest)
      case _ => None
  }

  lemma {:induction false} StrsRoundTrip(ss: seq<string>)
    ensures StrsOf(Strs(ss)) == Some(ss)
    decreases |ss|
  {
    if |ss| > 0 {
      StrsRoundTrip(ss[1..]);
      assert Strs(ss)[1..] == Strs(ss[1..]);
      assert ss == [ss[0]] + ss[1..];
    }
  }

  /** A field used as a list of strings. */
  function StrListField(fields: seq<(string, Json)>, key: string): (r: Result<seq<string>>)
    ensures Get(fields, key).None? ==> r == Fail(KeyError)
  {
    match Field(fields, key)
    case Fail(f) => Fail(f)
    case Ok(JArr(items)) =>
      (match StrsOf(items) case Some(ss) => Ok(ss) case None => Fail(TypeError))
    case Ok(_) => Fail(TypeError)
  }
}

=== FILE: lists.dfy ===
// Python list operations the scripts use: index(), remove(), membership-based
// de-duplication, filtering, and flattening of per-item argument lists.
module Lists {

  predicate Distinct<T(==)>(xs: seq<T>)
  {
    forall i, j :: 0 <= i < j < |xs| ==> xs[i] != xs[j]
  }

  /** Python's `xs.index(x)`: the position of the first occurrence. */
  function IndexOf<T(==)>(xs: seq<T>, x: T): (i: nat)
    requires x in xs
    ensures i < |xs| && xs[i] == x && x !in xs[..i]
  {
    if xs[0] == x then 0 else 1 + IndexOf(xs[1..], x)
  }

  /** In a list without repeats every element's first occurrence is itself. */
  lemma DistinctIndexOf<T>(xs: seq<T>, i: nat)
    requires Distinct(xs) && i < |xs|
    ensures IndexOf(xs, xs[i]) == i
  {
    var k := IndexOf(xs, xs[i]);
    assert k <= i by {
      assert xs[i] !in xs[..k];
    }
  }

  /** Python's `xs.remove(x)`: drops the first occurrence of `x`. */
  function RemoveFirst<T(==)>(xs: seq<T>, x: T): (r: seq<T>)
    ensures |r| <= |xs|
    ensures x in xs ==> multiset(r) == multiset(xs) - multiset{x}
    ensures x !in xs ==> r == xs
  {
    if |xs| == 0 then xs
    else if xs[0] == x then
      assert xs == [xs[0]] + xs[1..];
      xs[1..]
    else
      assert xs == [xs[0]] + xs[1..];
      [xs[0]] + RemoveFirst(xs[1..], x)
  }

  /** Concatenation of a list of lists. */
  function Flatten<T>(xss: seq<seq<T>>): seq<T>
  {
    if |xss| == 0 then [] else xss[0] + Flatten(xss[1..])
  }

  lemma {:induction false} FlattenAppend<T>(xss: seq<seq<T>>, ys: seq<T>)
    ensures Flatten(xss + [ys]) == Flatten(xss) + ys
  {
    if |xss| == 0 {
      assert xss + [ys] == [ys];
    } else {
      assert (xss + [ys])[1..] == xss[1..] + [ys];
      FlattenAppend(xss[1..], ys);
    }
  }

  /** An element of the concatenation is an element of one of the lists. */
  lemma {:induction false} FlattenIn<T>(xss: seq<seq<T>>, x: T)
    ensures x in Flatten(xss) <==> exists i :: 0 <= i < |xss| && x in xss[i]
  {
    if |xss| > 0 {
      FlattenIn(xss[1..], x);
      assert forall i :: 1 <= i < |xss| ==> xss[1..][i - 1] == xss[i];
      if x in Flatten(xss[1..]) {
        var i :| 0 <= i < |xss[1..]| && x in xss[1..][i];
        assert x in xss[i + 1];
      }
    }
  }

  /** The loop `for x in xs: if x not in seen: seen.append(x)` started from `seen`. */
  function AppendUnseen<T(==,!new)>(seen: seq<T>, xs: seq<T>): (r: seq<T>)
    ensures Distinct(seen) ==> Distinct(r)
    ensures forall x :: x in r <==> x in seen || x in xs
    ensures |seen| <= |r| && r[..|seen|] == seen
    decreases |xs|
  {
    if |xs| == 0 then seen
    else if xs[0] in seen then AppendUnseen(seen, xs[1..])
    else
      var r := AppendUnseen(seen + [xs[0]], xs[1..]);
      assert (seen + [xs[0]])[..|seen|] == seen;
      assert r[..|seen|] == r[..|seen| + 1][..|seen|];
      r
  }

  /** The distinct elements of `xs` in order of first appearance. */
  function Dedup<T(==,!new)>(xs: seq<T>): (r: seq<T>)
    ensures Distinct(r)
    ensures forall x :: x in r <==> x in xs
  {
    AppendUnseen([], xs)
  }

  /** The number of occurrences of `x` in `xs`. */
  function Count<T(==)>(xs: seq<T>, x: T): nat
  {
    multiset(xs)[x]
  }

  /** Appending only unseen elements changes nothing when all are seen. */
  lemma {:induction false} AppendUnseenAllSeen<T(!new)>(seen: seq<T>, xs: seq<T>)
    requires forall i :: 0 <= i < |xs| ==> xs[i] in seen
    ensures AppendUnseen(seen, xs) == seen
    decreases |xs|
  {
    if |xs| > 0 {
      AppendUnseenAllSeen(seen, xs[1..]);
    }
  }

  /** The elements AppendUnseen adds were not seen before. */
  lemma {:induction false} AppendUnseenNew<T(!new)>(seen: seq<T>, xs: seq<T>)
    ensures var r := AppendUnseen(seen, xs);
      forall a :: |seen| <= a < |r| ==> r[a] !in seen
    decreases |xs|
  {
    if |xs| > 0 && xs[0] !in seen {
      var seen' := seen + [xs[0]];
      AppendUnseenNew(seen', xs[1..]);
      var r := AppendUnseen(seen, xs);
      assert r == AppendUnseen(seen', xs[1..]);
      assert r[|seen|] == seen'[|seen|];
      assert forall a :: |seen| < a < |r| ==> r[a] !in seen';
    } else if |xs| > 0 {
      AppendUnseenNew(seen, xs[1..]);
      assert AppendUnseen(seen, xs) == AppendUnseen(seen, xs[1..]);
    }
  }

  lemma IndexOfTail<T>(xs: seq<T>, y: T)
    requires |xs| > 0 && y in xs[1..] && y != xs[0]
    ensures IndexOf(xs, y) == 1 + IndexOf(xs[1..], y)
  {
  }

  /** The elements AppendUnseen adds keep the order of their first
      occurrences in `xs`. */
  lemma {:induction false} AppendUnseenOrder<T(!new)>(seen: seq<T>, xs: seq<T>)
    ensures var r := AppendUnseen(seen, xs);
      forall a, b :: |seen| <= a < b < |r| && r[a] in xs && r[b] in xs ==> IndexOf(xs, r[a]) < IndexOf(xs, r[b])
    decreases |xs|
  {
    var r := AppendUnseen(seen, xs);
    if |xs| > 0 {
      var x := xs[0];
      var tail := xs[1..];
      if x in seen {
        AppendUnseenOrder(seen, tail);
        AppendUnseenNew(seen, tail);
        assert r == AppendUnseen(seen, tail);
        forall a, b | |seen| <= a < b < |r| && r[a] in xs && r[b] in xs
          ensures IndexOf(xs, r[a]) < IndexOf(xs, r[b])
        {
          assert r[a] in tail && r[b] in tail;
          IndexOfTail(xs, r[a]);
          IndexOfTail(xs, r[b]);
        }
      } else {
        var seen' := seen + [x];
        AppendUnseenOrder(seen', tail);
        AppendUnseenNew(seen', tail);
        assert r == AppendUnseen(seen', tail);
        assert r[|seen|] == seen'[|seen|] == x;
        forall a, b | |seen| <= a < b < |r| && r[a] in xs && r[b] in xs
          ensures IndexOf(xs, r[a]) < IndexOf(xs, r[b])
        {
          assert r[b] !in seen' && r[b] in tail;
          IndexOfTail(xs, r[b]);
          if a > |seen| {
            assert r[a] !in seen' && r[a] in tail;
            IndexOfTail(xs, r[a]);
          }
        }
      }
    }
  }

  /** Dedup lists the distinct elements in the order they first occur. */
  lemma DedupOrder<T(!new)>(xs: seq<T>)
    ensures forall a, b :: 0 <= a < b < |Dedup(xs)| ==> IndexOf(xs, Dedup(xs)[a]) < IndexOf(xs, Dedup(xs)[b])
  {
    var empty: seq<T> := [];
    AppendUnseenOrder(empty, xs);
    var r := Dedup(xs);
    assert r == AppendUnseen(empty, xs);
    assert forall a :: 0 <= a < |r| ==> r[a] in xs;
  }

  lemma {:induction false} DistinctCounts<T>(a: seq<T>)
    requires Distinct(a)
    ensures forall x :: multiset(a)[x] <= 1
    decreases |a|
  {
    if |a| > 0 {
      DistinctCounts(a[1..]);
      assert a == [a[0]] + a[1..];
      assert a[0] !in a[1..];
    }
  }

  lemma TwoOccurrences<T>(b: seq<T>, i: nat, j: nat)
    requires i < j < |b|
    ensures b[i] == b[j] ==> multiset(b)[b[i]] >= 2
  {
    assert b == b[..i] + [b[i]] + b[i + 1..j] + [b[j]] + b[j + 1..];
  }

  /** A rearrangement of a list without repeats has none either. */
  lemma DistinctPermutation<T>(a: seq<T>, b: seq<T>)
    requires Distinct(a) && multiset(a) == multiset(b)
    ensures Distinct(b)
  {
    DistinctCounts(a);
    forall i, j | 0 <= i < j < |b| ensures b[i] != b[j] {
      TwoOccurrences(b, i, j);
    }
  }

  /** `[x for x in xs if p(x)]`: the elements that pass, in their order. */
  function Filter<T>(xs: seq<T>, p: T -> bool): (r: seq<T>)
    ensures |r| <= |xs|
    ensures forall i :: 0 <= i < |r| ==> p(r[i])
    ensures forall i :: 0 <= i < |r| ==> r[i] in xs
    ensures forall i :: 0 <= i < |xs| && p(xs[i]) ==> xs[i] in r
    decreases |xs|
  {
    if |xs| == 0 then []
    else
      var init := xs[..|xs| - 1];
      var last := xs[|xs| - 1];
      assert xs == init + [last];
      Filter(init, p) + if p(last) then [last] else []
  }

  /** Filter keeps every passing element as many times as it occurs, and
      no other. */
  lemma {:induction false} FilterCounts<T>(xs: seq<T>, p: T -> bool, x: T)
    ensures multiset(Filter(xs, p))[x] == if p(x) then multiset(xs)[x] else 0
    decreases |xs|
  {
    if |xs| > 0 {
      var init := xs[..|xs| - 1];
      assert xs == init + [xs[|xs| - 1]];
      FilterCounts(init, p, x);
    }
  }

  /** Filter of a one-element extension: the loop step of a filtering loop. */
  lemma FilterSnoc<T>(xs: seq<T>, i: nat, p: T -> bool)
    requires i < |xs|
    ensures Filter(xs[..i + 1], p) == Filter(xs[..i], p) + if p(xs[i]) then [xs[i]] else []
  {
    assert xs[..i + 1][..i] == xs[..i];
  }
}

=== FILE: mkvargs.dfy ===
// How mkvmerge reads the argument lists the scripts build: options that take
// a value consume the next argument, `--no-chapters` stands alone, and any
// other argument is an input file that takes the options gathered since the
// previous file. Only the options the scripts use are known here.
module MkvArgs {
  import opened Results

  /** An input file and the per-file options written before it. A flag is
      recorded with an empty value. */
  datatype Input = Input(file: string, opts: seq<(string, string)>)

  /** The reader's state: the files read so far, the options waiting for
      the next file, and an option still waiting for its value. */
  datatype State = State(inputs: seq<Input>, pending: seq<(string, string)>, awaiting: Option<string>)

  predicate ValueOption(a: string)
  {
    a == "--output" || a == "--title" || a == "--track-name" || a == "--language"
    || a == "--sync" || a == "--default-track" || a == "--chapters"
    || a == "--track-order" || a == "--audio-tracks"
  }

  predicate FlagOption(a: string)
  {
    a == "--no-chapters"
  }

  predicate IsOption(a: string)
  {
    ValueOption(a) || FlagOption(a)
  }

  function Step(st: State, a: string): State
  {
    if st.awaiting.Some? then State(st.inputs, st.pending + [(st.awaiting.value, a)], None)
    else if ValueOption(a) then st.(awaiting := Some(a))
    else if FlagOption(a) then st.(pending := st.pending + [(a, "")])
    else State(st.inputs + [Input(a, st.pending)], [], None)
  }

  function Run(args: seq<string>, st: State): State
    decreases |args|
  {
    if |args| == 0 then st else Run(args[1..], Step(st, args[0]))
  }

  const Start := State([], [], None)

  /** What mkvmerge makes of the arguments after the program name. */
  function Parse(args: seq<string>): State
  {
    Run(args, Start)
  }

  lemma {:induction false} RunAppend(a: seq<string>, b: seq<string>, st: State)
    ensures Run(a + b, st) == Run(b, Run(a, st))
    decreases |a|
  {
    if |a| == 0 {
      assert a + b == b;
    } else {
      assert (a + b)[1..] == a[1..] + b;
      RunAppend(a[1..], b, Step(st, a[0]));
    }
  }

  /** Options written the way the scripts write them. */
  predicate WellFormed(ps: seq<(string, string)>)
  {
    forall i :: 0 <= i < |ps| ==> ValueOption(ps[i].0) || (FlagOption(ps[i].0) && ps[i].1 == "")
  }

  /** The arguments that spell out a list of options. */
  function Args(ps: seq<(string, string)>): seq<string>
    decreases |ps|
  {
    if |ps| == 0 then []
    else (if FlagOption(ps[0].0) then [ps[0].0] else [ps[0].0, ps[0].1]) + Args(ps[1..])
  }

  /** Reading spelled-out options only adds them to the pending ones. */
  lemma {:induction false} RunArgs(ps: seq<(string, string)>, st: State)
    requires WellFormed(ps) && st.awaiting.None?
    ensures Run(Args(ps), st) == st.(pending := st.pending + ps)
    decreases |ps|
  {
    if |ps| == 0 {
      assert st.pending + ps == st.pending;
    } else {
      var head := if FlagOption(ps[0].0) then [ps[0].0] else [ps[0].0, ps[0].1];
      var mid := st.(pending := st.pending + [ps[0]]);
      assert Run(head, st) == mid by {
        if FlagOption(ps[0].0) {
          assert Run(head, st) == Run([], Step(st, ps[0].0));
        } else {
          var s1 := Step(st, ps[0].0);
          assert s1 == st.(awaiting := Some(ps[0].0));
          assert Run(head, st) == Run([ps[0].1], s1);
          assert Run([ps[0].1], s1) == Run([], Step(s1, ps[0].1));
        }
      }
      RunAppend(head, Args(ps[1..]), st);
      assert WellFormed(ps[1..]) by {
        forall i | 0 <= i < |ps[1..]| ensures ValueOption(ps[1..][i].0) || (FlagOption(ps[1..][i].0) && ps[1..][i].1 == "") {
          assert ps[1..][i] == ps[i + 1];
        }
      }
      RunArgs(ps[1..], mid);
      assert st.pending + [ps[0]] + ps[1..] == st.pending + ps;
    }
  }

  /** Options followed by a file: the file is read with every pending
      option. */
  lemma FileWithOptions(ps: seq<(string, string)>, file: string, st: State)
    requires WellFormed(ps) && st.awaiting.None? && !IsOption(file)
    ensures Run(Args(ps) + [file], st) == State(st.inputs + [Input(file, st.pending + ps)], [], None)
  {
    RunAppend(Args(ps), [file], st);
    RunArgs(ps, st);
  }

  /** Inputs spelled out the way the scripts write them: each file after
      its own options. */
  function Spell(ins: seq<Input>): seq<string>
    decreases |ins|
  {
    if |ins| == 0 then [] else Args(ins[0].opts) + [ins[0].file] + Spell(ins[1..])
  }

  /** Inputs whose options are written the scripts' way and whose files are
      not option names. */
  predicate Spellable(ins: seq<Input>)
  {
    forall i :: 0 <= i < |ins| ==> WellFormed(ins[i].opts) && !IsOption(ins[i].file)
  }

  /** mkvmerge reads spelled-out inputs back as exactly those inputs. */
  lemma {:induction false} SpellReadsBack(ins: seq<Input>, st: State)
    requires Spellable(ins) && st.pending == [] && st.awaiting.None?
    ensures Run(Spell(ins), st) == State(st.inputs + ins, [], None)
    decreases |ins|
  {
    if |ins| == 0 {
      assert st.inputs + ins == st.inputs;
    } else {
      var head := Args(ins[0].opts) + [ins[0].file];
      FileWithOptions(ins[0].opts, ins[0].file, st);
      assert st.pending + ins[0].opts == ins[0].opts;
      var mid := State(st.inputs + [ins[0]], [], None);
      assert Run(head, st) == mid;
      RunAppend(head, Spell(ins[1..]), st);
      assert Spellable(ins[1..]) by {
        forall i | 0 <= i < |ins| - 1 ensures WellFormed(ins[1..][i].opts) && !IsOption(ins[1..][i].file) {
          assert ins[1..][i] == ins[i + 1];
        }
      }
      SpellReadsBack(ins[1..], mid);
      assert mid.inputs + ins[1..] == st.inputs + ins;
    }
  }

  lemma {:induction false} SpellAppend(a: seq<Input>, b: seq<Input>)
    ensures Spell(a + b) == Spell(a) + Spell(b)
    decreases |a|
  {
    if |a| == 0 {
      assert a + b == b;
    } else {
      assert (a + b)[1..] == a[1..] + b;
      SpellAppend(a[1..], b);
    }
  }

  /** An argument that does not start with '-' is read as a file. */
  lemma NotDashed(a: string)
    requires |a| > 0 && a[0] != '-'
    ensures !IsOption(a)
  {
  }
}

=== FILE: nightmode_audio.dfy ===
// Audio helpers shared by the night-mode scripts: the ffmpeg pan filter that
// downmixes surround to stereo (four revisions), reading ffmpeg's
// volumedetect and stream lines, the normalisation decision, and
// utils/nightmode.py's per-track pipeline and file naming.
module NightmodeAudio {
  import opened Results
  import opened Text
  import opened PyPath

  // ------------------------------------------------------------ getffFilter

  /** One side of the pan matrix: output channel F<side> is the centre plus
      `s` times the side's front, front-centre, back and side channels plus
      `l` times the LFE. `op` is '=' or '<' (renormalising); `c` is the
      centre factor including its '*', or empty. */
  function PanSide(side: string, op: string, c: string, s: string, l: string): string
  {
    "F" + side + op + PanTerms(side, c, s, l)
  }

  /** The right-hand side of one channel definition. */
  function PanTerms(side: string, c: string, s: string, l: string): string
  {
    c + "FC+" + s + "*F" + side + "+" + s + "*F" + side + "C+"
      + s + "*B" + side + "+" + s + "*S" + side + "+" + l + "*LFE"
  }

  /** The whole filter: "pan=stereo|<left>|<right>". */
  function PanFilter(op: string, c: string, s: string, l: string): string
  {
    "pan=stereo" + "|" + PanSide("L", op, c, s, l) + "|" + PanSide("R", op, c, s, l)
  }

  /** When no gain holds a '|', the filter splits back into its three
      ffmpeg arguments. */
  lemma PanFilterSplits(op: string, c: string, s: string, l: string)
    requires '|' !in op && '|' !in c && '|' !in s && '|' !in l
    ensures Split(PanFilter(op, c, s, l), '|') == ["pan=stereo", PanSide("L", op, c, s, l), PanSide("R", op, c, s, l)]
  {
    var left := PanSide("L", op, c, s, l);
    var right := PanSide("R", op, c, s, l);
    PanSideNoBar("L", op, c, s, l);
    PanSideNoBar("R", op, c, s, l);
    JoinThree("pan=stereo", left, right, '|');
    assert "|" == ['|'];
    SplitJoin(["pan=stereo", left, right], '|');
  }

  /** The filter begins "pan=stereo|FL" and the operator, and splits into
      the two channel definitions, each its head and its terms. */
  lemma PanFilterChannels(op: string, c: string, s: string, l: string)
    requires op == "=" || op == "<"
    requires '|' !in c && '|' !in s && '|' !in l
    ensures Split(PanFilter(op, c, s, l), '|')
      == ["pan=stereo", ['F', 'L', op[0]] + PanTerms("L", c, s, l), ['F', 'R', op[0]] + PanTerms("R", c, s, l)]
  {
    PanFilterSplits(op, c, s, l);
    ChannelSpelled("L", op, c, s, l);
    ChannelSpelled("R", op, c, s, l);
  }

  /** The filter's first fourteen characters name the left channel and its
      operator. */
  lemma PanFilterHead(op: string, c: string, s: string, l: string)
    requires |op| == 1
    ensures |PanFilter(op, c, s, l)| >= 14 && PanFilter(op, c, s, l)[..14] == "pan=stereo|FL" + op
  {
    var f := PanFilter(op, c, s, l);
    assert f == ("pan=stereo|FL" + op) + (PanTerms("L", c, s, l) + "|" + PanSide("R", op, c, s, l));
  }

  /** A channel definition is its three-character head and its terms. */
  lemma ChannelSpelled(side: string, op: string, c: string, s: string, l: string)
    requires (side == "L" || side == "R") && (op == "=" || op == "<")
    ensures PanSide(side, op, c, s, l) == ['F', side[0], op[0]] + PanTerms(side, c, s, l)
  {
    assert "F" + side + op == ['F', side[0], op[0]];
  }

  lemma PanSideNoBar(side: string, op: string, c: string, s: string, l: string)
    requires side == "L" || side == "R"
    requires '|' !in op && '|' !in c && '|' !in s && '|' !in l
    ensures '|' !in PanSide(side, op, c, s, l)
  {
  }

  lemma JoinThree(a: string, b: string, c: string, sep: char)
    ensures Join([sep], [a, b, c]) == a + [sep] + b + [sep] + c
  {
    assert [a, b, c][1..] == [b, c];
    assert [b, c][1..] == [c];
    assert Join([sep], [c]) == c;
    assert Join([sep], [b, c]) == b + [sep] + c;
    assert Join([sep], [a, b, c]) == a + [sep] + (b + [sep] + c);
  }

  /** nightmode/batch_nightmode.py: gains formatted as given, plain centre,
      '=' definitions. */
  function BatchPanFilter(fmt: real -> string, surVol: real, lfeVol: real): (r: string)
    ensures |r| >= 14 && r[..14] == "pan=stereo|FL="
    ensures '|' !in fmt(surVol) && '|' !in fmt(lfeVol) ==>
      Split(r, '|') == ["pan=stereo", "FL=" + PanTerms("L", "", fmt(surVol), fmt(lfeVol)),
                        "FR=" + PanTerms("R", "", fmt(surVol), fmt(lfeVol))]
  {
    var s, l := fmt(surVol), fmt(lfeVol);
    PanFilterHead("=", "", s, l);
    if '|' !in s && '|' !in l then
      PanFilterChannels("=", "", s, l);
      PanFilter("=", "", s, l)
    else
      PanFilter("=", "", s, l)
  }

  /** utils/nightmode.py: centre and LFE gains halved, surround unhalved. */
  function UtilsPanFilter(fmt: real -> string, surVol: real, lfeVol: real, centerVol: real): (r: string)
    ensures |r| >= 14 && r[..14] == "pan=stereo|FL="
    ensures var c, s, l := fmt(centerVol / 2.0) + "*", fmt(surVol), fmt(lfeVol / 2.0);
      '|' !in c && '|' !in s && '|' !in l ==>
      Split(r, '|') == ["pan=stereo", "FL=" + PanTerms("L", c, s, l), "FR=" + PanTerms("R", c, s, l)]
  {
    var c, s, l := fmt(centerVol / 2.0) + "*", fmt(surVol), fmt(lfeVol / 2.0);
    PanFilterHead("=", c, s, l);
    if '|' !in c && '|' !in s && '|' !in l then
      PanFilterChannels("=", c, s, l);
      PanFilter("=", c, s, l)
    else
      PanFilter("=", c, s, l)
  }

  /** batchconvert.py and batchconvert/batchconvert.py: as utils/nightmode.py
      but with the renormalising '<' operator. */
  function ConvertPanFilter(fmt: real -> string, surVol: real, lfeVol: real, centerVol: real): (r: string)
    ensures |r| >= 14 && r[..14] == "pan=stereo|FL<"
    ensures var c, s, l := fmt(centerVol / 2.0) + "*", fmt(surVol), fmt(lfeVol / 2.0);
      '|' !in c && '|' !in s && '|' !in l ==>
      Split(r, '|') == ["pan=stereo", "FL<" + PanTerms("L", c, s, l), "FR<" + PanTerms("R", c, s, l)]
  {
    var c, s, l := fmt(centerVol / 2.0) + "*", fmt(surVol), fmt(lfeVol / 2.0);
    PanFilterHead("<", c, s, l);
    if '|' !in c && '|' !in s && '|' !in l then
      PanFilterChannels("<", c, s, l);
      PanFilter("<", c, s, l)
    else
      PanFilter("<", c, s, l)
  }

  /** The filter nightmode/replace_nightmode.py and
      batchconvert/encode_extras.py spell out by hand: the batch shape with
      surround gain "0.30" and LFE gain "0.60". */
  const FixedPanFilter := PanFilter("=", "", "0.30", "0.60")

  /** The two stereo matrices of the later revisions agree on the first
      argument and on every channel's terms, and differ only in the channel
      operator. */
  lemma ConvertDiffersOnlyInOperator(fmt: real -> string, surVol: real, lfeVol: real, centerVol: real)
    requires '|' !in fmt(surVol) && '|' !in fmt(lfeVol / 2.0) && '|' !in fmt(centerVol / 2.0)
    ensures var u := Split(UtilsPanFilter(fmt, surVol, lfeVol, centerVol), '|');
      var v := Split(ConvertPanFilter(fmt, surVol, lfeVol, centerVol), '|');
      var c := fmt(centerVol / 2.0) + "*";
      |u| == |v| == 3 && u[0] == v[0] == "pan=stereo"
      && OperatorSwapped(u[1], v[1], "L", PanTerms("L", c, fmt(surVol), fmt(lfeVol / 2.0)))
      && OperatorSwapped(u[2], v[2], "R", PanTerms("R", c, fmt(surVol), fmt(lfeVol / 2.0)))
  {
    var c := fmt(centerVol / 2.0) + "*";
    var s := fmt(surVol);
    var l := fmt(lfeVol / 2.0);
    assert '|' !in c;
    PanFilterSplits("=", c, s, l);
    PanFilterSplits("<", c, s, l);
    OperatorPosition("L", "=", PanTerms("L", c, s, l));
    OperatorPosition("L", "<", PanTerms("L", c, s, l));
    OperatorPosition("R", "=", PanTerms("R", c, s, l));
    OperatorPosition("R", "<", PanTerms("R", c, s, l));
  }

  /** `a` defines channel F<side> with '=' and `b` the same channel, with
      the same terms `t`, with '<'. */
  ghost predicate OperatorSwapped(a: string, b: string, side: string, t: string)
  {
    |a| == |b| == 3 + |t| && a[..2] == b[..2] == "F" + side
    && a[2] == '=' && b[2] == '<' && a[3..] == b[3..] == t
  }

  lemma OperatorPosition(side: string, op: string, t: string)
    requires |side| == 1 && |op| == 1
    ensures var p := "F" + side + op + t;
      |p| == 3 + |t| && p[..2] == "F" + side && p[2] == op[0] && p[3..] == t
  {
    var p := "F" + side + op + t;
    assert p[..2] == "F" + side;
    assert p[3..] == t;
  }

  /** The batch filter chains: the pan matrix, then DRC (if asked) and
      loudnorm. */
  function BatchNightmodeFilter(pan: string, withDrc: bool): string
  {
    pan + (if withDrc then ",acompressor=ratio=4,loudnorm" else ",loudnorm")
  }

  // ------------------------------------------------------------ reading ffmpeg output

  /** The loop `for line in out: line = line.rstrip(); if key in line: temp = line`:
      the last stripped line containing `key`. */
  function LastLineWith(lines: seq<string>, key: string): (r: Option<string>)
    ensures r.Some? ==> Contains(r.value, key)
    ensures r.Some? ==> exists i :: (0 <= i < |lines| && RStripSpace(lines[i]) == r.value
                                     && forall j :: i < j < |lines| ==> !Contains(RStripSpace(lines[j]), key))
    ensures r.None? ==> forall i :: 0 <= i < |lines| ==> !Contains(RStripSpace(lines[i]), key)
    decreases |lines|
  {
    if |lines| == 0 then None
    else
      var last := RStripSpace(lines[|lines| - 1]);
      if Contains(last, key) then Some(last)
      else
        var r := LastLineWith(lines[..|lines| - 1], key);
        assert forall i :: 0 <= i < |lines| - 1 ==> lines[..|lines| - 1][i] == lines[i];
        r
  }

  /** `temp[temp.index(':') + 2:-3]`: after ": " and before the final " dB";
      a line without ':' raises ValueError. */
  function VolumeField(temp: string): (r: Result<string>)
    ensures r.Fail? <==> ':' !in temp
    ensures r.Fail? ==> r.failure == ValueError
    ensures r.Ok? ==> var k := IndexOfChar(temp, ':');
      k + 2 <= |temp| - 3 ==> temp == temp[..k + 2] + r.value + temp[|temp| - 3..]
    ensures r.Ok? ==> |r.value| <= |temp|
  {
    if ':' !in temp then Fail(ValueError)
    else
      var k := IndexOfChar(temp, ':');
      var v := PySlice(temp, k + 2, -3);
      assert k + 2 <= |temp| - 3 ==> temp == temp[..k + 2] + temp[k + 2..|temp| - 3] + temp[|temp| - 3..];
      Ok(v)
  }

  /** getMaxdB of nightmode/batch_nightmode.py and
      batchconvert/encode_extras.py: with no max_volume line `temp` is never
      bound (NameError). */
  function BatchMaxdB(lines: seq<string>): (r: Result<string>)
    ensures LastLineWith(lines, "max_volume").None? ==> r == Fail(NameError)
    ensures LastLineWith(lines, "max_volume").Some? ==> r == VolumeField(LastLineWith(lines, "max_volume").value)
  {
    match LastLineWith(lines, "max_volume")
    case None => Fail(NameError)
    case Some(temp) => VolumeField(temp)
  }

  /** getMaxdB of nightmode/replace_nightmode.py: `temp` starts as '' and
      the character loop copies the same slice. */
  function ReplaceMaxdB(lines: seq<string>): (r: Result<string>)
    ensures LastLineWith(lines, "max_volume").None? ==> r == Fail(ValueError)
  {
    var temp := match LastLineWith(lines, "max_volume") case None => "" case Some(t) => t;
    if ':' !in temp then Fail(ValueError)
    else
      var k := IndexOfChar(temp, ':');
      Ok(CopyRange(temp, k + 2, |temp| - 3))
  }

  /** `for x in range(lo, hi): out += s[x]`. */
  function CopyRange(s: string, lo: int, hi: int): (r: string)
    requires 0 <= lo && hi <= |s|
    ensures lo <= hi ==> r == s[lo..hi]
    ensures hi < lo ==> r == ""
    decreases hi - lo
  {
    if lo >= hi then "" else [s[lo]] + CopyRange(s, lo + 1, hi)
  }

  /** The two revisions read the same value whenever a max_volume line
      exists; they differ only in how the missing line fails. */
  lemma MaxdBRevisionsAgree(lines: seq<string>)
    requires LastLineWith(lines, "max_volume").Some?
    ensures ReplaceMaxdB(lines) == BatchMaxdB(lines)
  {
    var temp := LastLineWith(lines, "max_volume").value;
    MaxVolumeLineLength(temp);
  }

  lemma MaxVolumeLineLength(temp: string)
    requires Contains(temp, "max_volume")
    ensures |temp| >= 10
  {
    ContainsIffOccurs(temp, "max_volume");
  }

  /** getMaxdB of utils/nightmode.py: "0.0" when ffmpeg gives no output or
      no max_volume line. */
  function UtilsMaxdB(output: Option<seq<string>>): (r: Result<string>)
    ensures output.None? ==> r == Ok("0.0")
    ensures output.Some? && LastLineWith(output.value, "max_volume").None? ==> r == Ok("0.0")
    ensures output.Some? && LastLineWith(output.value, "max_volume").Some? ==> r == BatchMaxdB(output.value)
  {
    match output
    case None => Ok("0.0")
    case Some(lines) =>
      match LastLineWith(lines, "max_volume")
      case None => Ok("0.0")
      case Some(temp) => VolumeField(temp)
  }

  /** The sample-rate field " 48000 Hz" without its first and last three
      characters. */
  function TrimField(f: string): (r: string)
    ensures |f| >= 4 ==> f == [f[0]] + r + f[|f| - 3..]
    ensures |f| < 5 ==> r == ""
  {
    if |f| >= 4 then
      assert f == [f[0]] + f[1..|f| - 3] + f[|f| - 3..];
      CopyRange(f, 1, |f| - 3)
    else ""
  }

  /** getSamplerate of nightmode/replace_nightmode.py: the last 'Stream'
      line's second ','-field, trimmed; no such line leaves `metadata`
      unbound, and a line without ',' has no second field. */
  function ReplaceSamplerate(lines: seq<string>): (r: Result<string>)
    ensures LastLineWith(lines, "Stream").None? ==> r == Fail(NameError)
    ensures LastLineWith(lines, "Stream").Some? ==>
      var f := Split(LastLineWith(lines, "Stream").value, ',');
      (|f| < 2 ==> r == Fail(IndexError)) && (|f| >= 2 ==> r == Ok(TrimField(f[1])))
  {
    match LastLineWith(lines, "Stream")
    case None => Fail(NameError)
    case Some(metadata) =>
      var fields := Split(metadata, ',');
      if |fields| < 2 then Fail(IndexError) else Ok(TrimField(fields[1]))
  }
}

=== FILE: nightmode_cleanup.dfy ===
// The cleanup step that ends a night-mode job: nightmode/batch_nightmode.py
// deletes the audio and video intermediates by extension,
// nightmode/replace_nightmode.py deletes everything not on a keep list.
module NightmodeCleanup {
  import opened Results
  import opened Text
  import opened PyPath

  /** One entry of `os.listdir('.')`. */
  datatype DirEntry = DirEntry(name: string, isDir: bool)

  const ResumeFile := "resume.txt"

  /** `os.remove` of each name in order: removing a directory raises. */
  function RemoveAllOf(entries: seq<DirEntry>): (r: Result<seq<string>>)
    ensures r.Ok? <==> forall i :: 0 <= i < |entries| ==> !entries[i].isDir
    ensures r.Ok? ==> |r.value| == |entries|
    ensures r.Ok? ==> forall i :: 0 <= i < |entries| ==> r.value[i] == entries[i].name
    ensures r.Fail? ==> r.failure == OSError
  {
    if |entries| == 0 then Ok([])
    else if entries[0].isDir then Fail(OSError)
    else
      match RemoveAllOf(entries[1..])
      case Fail(e) => Fail(e)
      case Ok(rest) => Ok([entries[0].name] + rest)
  }

  // ------------------------------------------------------------ batch_nightmode

  /** The extensions the batch cleanup means to delete, as written: without
      the dot that `os.path.splitext` keeps. */
  const DeleteExt := ["flac", "m4a", "mkv"]

  /** The entries `keep` accepts, in listing order. */
  function Select(listing: seq<DirEntry>, keep: DirEntry -> bool): (r: seq<DirEntry>)
    ensures forall i :: 0 <= i < |r| ==> r[i] in listing && keep(r[i])
    ensures forall e :: e in listing && keep(e) ==> e in r
    ensures (forall e :: e in listing ==> !keep(e)) ==> r == []
  {
    if |listing| == 0 then []
    else
      var rest := Select(listing[1..], keep);
      assert forall e :: e in listing ==> e == listing[0] || e in listing[1..];
      if keep(listing[0]) then [listing[0]] + rest else rest
  }

  /** Entries whose lowered extension is in `exts`, in listing order. */
  function WithExt(listing: seq<DirEntry>, exts: seq<string>): (r: seq<DirEntry>)
    ensures forall i :: 0 <= i < |r| ==> r[i] in listing && Lower(SplitExt(r[i].name).1) in exts
    ensures forall e :: e in listing && Lower(SplitExt(e.name).1) in exts ==> e in r
    ensures (forall e :: e in listing ==> Lower(SplitExt(e.name).1) !in exts) ==> r == []
  {
    Select(listing, (e: DirEntry) => Lower(SplitExt(e.name).1) in exts)
  }

  /** The batch cleanup as written: the files selected by extension, then
      resume.txt, removed in that order. */
  function BatchCleanup(listing: seq<DirEntry>, exts: seq<string>): (r: Result<seq<string>>)
    ensures r.Ok? ==> |r.value| > 0 && r.value[|r.value| - 1] == ResumeFile
  {
    RemoveAllOf(WithExt(listing, exts) + [DirEntry(ResumeFile, false)])
  }

  lemma LowerKeepsDot(s: string)
    requires s == "" || s[0] == '.'
    ensures Lower(s) == "" || Lower(s)[0] == '.'
  {
  }

  /** A dotted or empty extension is none of the as-written entries. */
  lemma NotInDeleteExt(x: string)
    requires x == "" || x[0] == '.'
    ensures x !in DeleteExt
  {
    assert "flac"[0] != '.' && "m4a"[0] != '.' && "mkv"[0] != '.';
  }

  lemma RemoveResumeOnly(last: DirEntry)
    requires last == DirEntry(ResumeFile, false)
    ensures RemoveAllOf([last]) == Ok([ResumeFile])
  {
    var r := RemoveAllOf([last]);
    assert r.Ok? && |r.value| == 1 && r.value[0] == ResumeFile;
    assert r.value == [ResumeFile];
  }

  /** No extension from `os.path.splitext` lacks its dot, so the as-written
      list matches nothing and only resume.txt is deleted. */
  lemma BatchCleanupKeepsIntermediates(listing: seq<DirEntry>)
    ensures WithExt(listing, DeleteExt) == []
    ensures BatchCleanup(listing, DeleteExt) == Ok([ResumeFile])
  {
    forall e | e in listing ensures Lower(SplitExt(e.name).1) !in DeleteExt {
      LowerKeepsDot(SplitExt(e.name).1);
      NotInDeleteExt(Lower(SplitExt(e.name).1));
    }
    var last := DirEntry(ResumeFile, false);
    assert WithExt(listing, DeleteExt) + [last] == [last];
    RemoveResumeOnly(last);
  }

  /** The extensions as evidently intended, with the dot. */
  const DeleteExtDotted := [".flac", ".m4a", ".mkv"]

  /** Removing a listing of files removes every one of them. */
  lemma RemoveAllListed(entries: seq<DirEntry>, x: string)
    requires forall i :: 0 <= i < |entries| ==> !entries[i].isDir
    requires DirEntry(x, false) in entries
    ensures RemoveAllOf(entries).Ok? && x in RemoveAllOf(entries).value
  {
    var k :| 0 <= k < |entries| && entries[k] == DirEntry(x, false);
    assert RemoveAllOf(entries).value[k] == x;
  }

  lemma FlacSelected(listing: seq<DirEntry>, stem: string)
    requires HasStem(stem) && '.' !in stem && '/' !in stem
    requires DirEntry(stem + ".flac", false) in listing
    ensures DirEntry(stem + ".flac", false) in WithExt(listing, DeleteExtDotted)
  {
    SplitExtOfAppend(stem, "flac");
    assert stem + "." + "flac" == stem + ".flac";
    assert Lower(".flac") == ".flac" by {
      assert forall i :: 0 <= i < 5 ==> LowerChar(".flac"[i]) == ".flac"[i];
    }
    assert ".flac" in DeleteExtDotted;
  }

  /** The corrected cleanup deletes the muxed output, the copied source and
      every extracted or night-mode FLAC track. */
  lemma CorrectedCleanupDeletes(listing: seq<DirEntry>, stem: string)
    requires forall i :: 0 <= i < |listing| ==> !listing[i].isDir
    requires HasStem(stem) && '.' !in stem && '/' !in stem
    requires DirEntry(stem + ".flac", false) in listing
    ensures BatchCleanup(listing, DeleteExtDotted).Ok?
    ensures stem + ".flac" in BatchCleanup(listing, DeleteExtDotted).value
  {
    FlacSelected(listing, stem);
    var w := WithExt(listing, DeleteExtDotted);
    var all := w + [DirEntry(ResumeFile, false)];
    forall i | 0 <= i < |all| ensures !all[i].isDir {
      if i < |w| { assert w[i] in listing; }
    }
    RemoveAllListed(all, stem + ".flac");
  }

  // ------------------------------------------------------------ replace_nightmode

  /** The names replaceNightmode never deletes. */
  const DoNotRemove := ["filelist.txt", "gen_nightmode.py", "rejectFiles.txt",
                        "replace_nightmode.py", "resumeDictList.json", "workDictList.json"]

  function Unprotected(listing: seq<DirEntry>): (r: seq<DirEntry>)
    ensures forall e :: e in r <==> e in listing && e.name !in DoNotRemove
  {
    if |listing| == 0 then []
    else
      var rest := Unprotected(listing[1..]);
      assert forall e :: e in listing ==> e == listing[0] || e in listing[1..];
      if listing[0].name in DoNotRemove then rest else [listing[0]] + rest
  }

  /** The replace cleanup: every entry not on the keep list is removed, so
      it fails on the first unprotected directory. */
  function ReplaceCleanup(listing: seq<DirEntry>): (r: Result<seq<string>>)
    ensures r.Ok? ==> forall x :: x in r.value <==> exists e :: e in listing && e.name == x && x !in DoNotRemove
    ensures r.Ok? <==> forall e :: e in listing && e.name !in DoNotRemove ==> !e.isDir
  {
    ReplaceCleanupNames(listing);
    RemoveAllOf(Unprotected(listing))
  }

  lemma ReplaceCleanupNames(listing: seq<DirEntry>)
    ensures var r := RemoveAllOf(Unprotected(listing));
      r.Ok? ==> forall x :: x in r.value <==> exists e :: e in listing && e.name == x && x !in DoNotRemove
    ensures RemoveAllOf(Unprotected(listing)).Ok? <==> forall e :: e in listing && e.name !in DoNotRemove ==> !e.isDir
  {
    var u := Unprotected(listing);
    var r := RemoveAllOf(u);
    if r.Ok? {
      forall x ensures x in r.value <==> exists e :: e in listing && e.name == x && x !in DoNotRemove {
        if x in r.value {
          var i :| 0 <= i < |r.value| && r.value[i] == x;
          assert u[i] in listing;
        }
        if exists e :: e in listing && e.name == x && x !in DoNotRemove {
          var e :| e in listing && e.name == x && x !in DoNotRemove;
          var i :| 0 <= i < |u| && u[i] == e;
          assert r.value[i] == x;
        }
      }
    }
    assert (forall i :: 0 <= i < |u| ==> !u[i].isDir) <==> (forall e :: e in u ==> !e.isDir);
  }

  /** Unlike the batch variant, the replace cleanup deletes resume.txt along
      with everything else the job left behind. */
  lemma ReplaceCleanupDeletesResume(listing: seq<DirEntry>)
    requires DirEntry(ResumeFile, false) in listing
    requires ReplaceCleanup(listing).Ok?
    ensures ResumeFile in ReplaceCleanup(listing).value
  {
    assert ResumeFile !in DoNotRemove;
  }
}

=== FILE: nightmode_jobs.dfy ===
// Building the night-mode job list (nightmode/gen_nightmode.py and
// generateJobList in nightmode/batch_nightmode.py): the files found are
// sorted, the user rejects some, the rest are grouped by identical audio
// tracks, and each group's answers become one job per file.
module NightmodeJobs {
  import opened Results
  import opened Text
  import opened Lists
  import opened Prompts

  /** The ffprobe fields getFileStats keeps for one audio stream. */
  datatype AudioStream = AudioStream(index: int, title: string, lang: string, codec: string,
                                     channelLayout: string, sampleRate: string, sampleFmt: string)

  /** A file's `ffaudio_info`: its audio streams in order. */
  type AudioInfo = seq<AudioStream>

  datatype FileStat = FileStat(mkv: string, info: AudioInfo)

  /** One entry of getSimilarTracks' result. */
  datatype Group = Group(info: AudioInfo, mkvs: seq<string>)

  /** The answers given once per group. */
  datatype TrackLists = TrackLists(surroundTracks: seq<seq<string>>, keepTracks: seq<string>, codec: string)

  datatype Job = Job(sourceFile: string, tracks: TrackLists)

  // ------------------------------------------------------------ getFilesList

  /** getFilesList: the paths rglob found, sorted. */
  function FilesList(found: seq<string>): (r: seq<string>)
    ensures Sorted(r)
    ensures multiset(r) == multiset(found)
  {
    Sort(found)
  }

  /** The listing order of the directory walk does not matter. */
  lemma FilesListOrderFree(a: seq<string>, b: seq<string>)
    requires multiset(a) == multiset(b)
    ensures FilesList(a) == FilesList(b)
  {
    SortedUnique(FilesList(a), FilesList(b));
  }

  // ------------------------------------------------------------ getSimilarTracks

  function Mkvs(stats: seq<FileStat>): (r: seq<string>)
    ensures |r| == |stats| && forall i :: 0 <= i < |stats| ==> r[i] == stats[i].mkv
  {
    if |stats| == 0 then [] else [stats[0].mkv] + Mkvs(stats[1..])
  }

  function Infos(stats: seq<FileStat>): (r: seq<AudioInfo>)
    ensures |r| == |stats| && forall i :: 0 <= i < |stats| ==> r[i] == stats[i].info
  {
    if |stats| == 0 then [] else [stats[0].info] + Infos(stats[1..])
  }

  /** The inner loop: the files whose info equals `info`, in input order. */
  function MkvsWith(stats: seq<FileStat>, info: AudioInfo): (r: seq<string>)
    ensures forall m :: m in r <==> exists i :: 0 <= i < |stats| && stats[i].info == info && stats[i].mkv == m
  {
    if |stats| == 0 then []
    else
      var rest := MkvsWith(stats[1..], info);
      assert forall i :: 1 <= i < |stats| ==> stats[i] == stats[1..][i - 1];
      if stats[0].info == info then [stats[0].mkv] + rest else rest
  }

  /** Walking one more file appends it when its info matches: the loop keeps
      input order. */
  lemma {:induction false} MkvsWithSnoc(stats: seq<FileStat>, s: FileStat, info: AudioInfo)
    ensures MkvsWith(stats + [s], info) == MkvsWith(stats, info) + (if s.info == info then [s.mkv] else [])
    decreases |stats|
  {
    if |stats| == 0 {
      assert [s][1..] == [];
    } else {
      assert (stats + [s])[1..] == stats[1..] + [s];
      MkvsWithSnoc(stats[1..], s, info);
    }
  }

  function GroupsFor(infos: seq<AudioInfo>, stats: seq<FileStat>): (r: seq<Group>)
    ensures |r| == |infos|
    ensures forall g :: 0 <= g < |r| ==> r[g].info == infos[g] && r[g].mkvs == MkvsWith(stats, infos[g])
  {
    if |infos| == 0 then [] else [Group(infos[0], MkvsWith(stats, infos[0]))] + GroupsFor(infos[1..], stats)
  }

  /** getSimilarTracks: one group per distinct info in first-occurrence
      order, each holding the files with exactly that info. */
  function SimilarTracks(stats: seq<FileStat>): (r: seq<Group>)
    ensures forall g, h :: 0 <= g < h < |r| ==> r[g].info != r[h].info
    ensures forall x :: (exists g :: 0 <= g < |r| && r[g].info == x) <==> x in Infos(stats)
    ensures forall g, m :: 0 <= g < |r| ==>
      (m in r[g].mkvs <==> exists i :: 0 <= i < |stats| && stats[i].info == r[g].info && stats[i].mkv == m)
  {
    var infos := Dedup(Infos(stats));
    GroupsForDistinct(infos, stats);
    GroupsForInfos(infos, stats);
    GroupsForMembers(infos, stats);
    GroupsFor(infos, stats)
  }

  lemma GroupsForDistinct(infos: seq<AudioInfo>, stats: seq<FileStat>)
    requires Distinct(infos)
    ensures var r := GroupsFor(infos, stats); forall g, h :: 0 <= g < h < |r| ==> r[g].info != r[h].info
  {
  }

  lemma GroupsForInfos(infos: seq<AudioInfo>, stats: seq<FileStat>)
    ensures var r := GroupsFor(infos, stats); forall g :: 0 <= g < |r| ==> r[g].info in infos
    ensures var r := GroupsFor(infos, stats); forall x :: x in infos ==> exists g :: 0 <= g < |r| && r[g].info == x
  {
    var r := GroupsFor(infos, stats);
    forall x | x in infos ensures exists g :: 0 <= g < |r| && r[g].info == x {
      var g :| 0 <= g < |infos| && infos[g] == x;
      assert r[g].info == x;
    }
    forall g | 0 <= g < |r| ensures r[g].info in infos {
      assert r[g].info == infos[g];
    }
  }

  lemma GroupsForMembers(infos: seq<AudioInfo>, stats: seq<FileStat>)
    ensures var r := GroupsFor(infos, stats);
      forall g, m :: 0 <= g < |r| ==>
        (m in r[g].mkvs <==> exists i :: 0 <= i < |stats| && stats[i].info == r[g].info && stats[i].mkv == m)
  {
    var r := GroupsFor(infos, stats);
    forall g, m | 0 <= g < |r|
      ensures m in r[g].mkvs <==> exists i :: 0 <= i < |stats| && stats[i].info == r[g].info && stats[i].mkv == m
    {
      assert r[g].mkvs == MkvsWith(stats, infos[g]);
    }
  }

  /** The groups come in the order their info first occurs among the files. */
  lemma SimilarTracksOrder(stats: seq<FileStat>)
    ensures var r := SimilarTracks(stats);
      forall g, h :: 0 <= g < h < |r| ==> IndexOf(Infos(stats), r[g].info) < IndexOf(Infos(stats), r[h].info)
  {
    DedupOrder(Infos(stats));
  }

  function GroupMkvs(groups: seq<Group>): (r: seq<seq<string>>)
    ensures |r| == |groups| && forall g :: 0 <= g < |groups| ==> r[g] == groups[g].mkvs
  {
    if |groups| == 0 then [] else [groups[0].mkvs] + GroupMkvs(groups[1..])
  }

  /** The files whose info is in `infos`, in input order. */
  function MkvsIn(stats: seq<FileStat>, infos: set<AudioInfo>): seq<string>
  {
    if |stats| == 0 then []
    else (if stats[0].info in infos then [stats[0].mkv] else []) + MkvsIn(stats[1..], infos)
  }

  lemma {:induction false} MkvsInSplit(stats: seq<FileStat>, a: AudioInfo, rest: set<AudioInfo>)
    requires a !in rest
    ensures multiset(MkvsIn(stats, {a} + rest)) == multiset(MkvsWith(stats, a)) + multiset(MkvsIn(stats, rest))
    decreases |stats|
  {
    if |stats| > 0 {
      MkvsInSplit(stats[1..], a, rest);
    }
  }

  lemma {:induction false} MkvsInAll(stats: seq<FileStat>, infos: set<AudioInfo>)
    requires forall i :: 0 <= i < |stats| ==> stats[i].info in infos
    ensures MkvsIn(stats, infos) == Mkvs(stats)
    decreases |stats|
  {
    if |stats| > 0 {
      MkvsInAll(stats[1..], infos);
    }
  }

  lemma {:induction false} MkvsInNone(stats: seq<FileStat>)
    ensures MkvsIn(stats, {}) == []
    decreases |stats|
  {
    if |stats| > 0 {
      MkvsInNone(stats[1..]);
    }
  }

  lemma FlattenGroupsCons(infos: seq<AudioInfo>, stats: seq<FileStat>)
    requires |infos| > 0
    ensures Flatten(GroupMkvs(GroupsFor(infos, stats)))
         == MkvsWith(stats, infos[0]) + Flatten(GroupMkvs(GroupsFor(infos[1..], stats)))
  {
    var gs := GroupsFor(infos, stats);
    assert gs[1..] == GroupsFor(infos[1..], stats);
    assert GroupMkvs(gs)[1..] == GroupMkvs(gs[1..]);
  }

  lemma DistinctTail<T>(xs: seq<T>)
    requires Distinct(xs) && |xs| > 0
    ensures Distinct(xs[1..]) && xs[0] !in (set x | x in xs[1..])
  {
    assert forall i, j :: 0 <= i < j < |xs| - 1 ==> xs[1..][i] == xs[i + 1] && xs[1..][j] == xs[j + 1];
  }

  lemma {:induction false} GroupsForCover(infos: seq<AudioInfo>, stats: seq<FileStat>)
    requires Distinct(infos)
    ensures multiset(Flatten(GroupMkvs(GroupsFor(infos, stats)))) == multiset(MkvsIn(stats, set x | x in infos))
    decreases |infos|
  {
    var gs := GroupsFor(infos, stats);
    if |infos| == 0 {
      assert (set x | x in infos) == {};
      MkvsInNone(stats);
    } else {
      var a := infos[0];
      var restSet := set x | x in infos[1..];
      DistinctTail(infos);
      GroupsForCover(infos[1..], stats);
      FlattenGroupsCons(infos, stats);
      assert (set x | x in infos) == {a} + restSet;
      MkvsInSplit(stats, a, restSet);
      var f := Flatten(GroupMkvs(GroupsFor(infos[1..], stats)));
      assert multiset(MkvsWith(stats, a) + f) == multiset(MkvsWith(stats, a)) + multiset(f);
    }
  }

  /** Every file lands in exactly one group: together the groups hold the
      files, each as often as in the input. */
  lemma SimilarTracksPartition(stats: seq<FileStat>)
    ensures multiset(Flatten(GroupMkvs(SimilarTracks(stats)))) == multiset(Mkvs(stats))
  {
    var infos := Dedup(Infos(stats));
    GroupsForCover(infos, stats);
    forall i | 0 <= i < |stats| ensures stats[i].info in (set x | x in infos) {
      assert Infos(stats)[i] == stats[i].info;
    }
    MkvsInAll(stats, set x | x in infos);
  }

  // ------------------------------------------------------------ getRejectedFiles

  /** "Process this file? (y or n)": the lowered answer must be y or n. */
  predicate ProcessAnswer(a: string) { Lower(a) == "y" || Lower(a) == "n" }

  /** One accepted answer per file, in file order; true means rejected. */
  function Decisions(n: nat, answers: seq<string>, pos: nat): (r: Result<(seq<bool>, nat)>)
    ensures r.Ok? ==> |r.value.0| == n && pos <= r.value.1
    ensures r.Ok? && n > 0 ==> pos < r.value.1 <= |answers|
    ensures r.Fail? ==> r.failure == EOFError
    decreases n
  {
    if n == 0 then Ok(([], pos))
    else
      match Ask(answers, pos, ProcessAnswer)
      case Fail(e) => Fail(e)
      case Ok(q) =>
        match Decisions(n - 1, answers, q + 1)
        case Fail(e) => Fail(e)
        case Ok(rest) => Ok(([Lower(answers[q]) == "n"] + rest.0, rest.1))
  }

  /** The first file is rejected exactly when the first accepted answer is n. */
  lemma DecisionsFirst(n: nat, answers: seq<string>, pos: nat)
    requires n > 0 && Decisions(n, answers, pos).Ok?
    ensures var q := Ask(answers, pos, ProcessAnswer).value;
      Decisions(n, answers, pos).value.0[0] <==> Lower(answers[q]) == "n"
  {
    var q := Ask(answers, pos, ProcessAnswer).value;
    var rest := Decisions(n - 1, answers, q + 1);
    assert Decisions(n, answers, pos) == Ok(([Lower(answers[q]) == "n"] + rest.value.0, rest.value.1));
  }

  /** The elements whose flag equals `want`, in order. */
  function Pick<T>(xs: seq<T>, flags: seq<bool>, want: bool): (r: seq<T>)
    requires |flags| == |xs|
    ensures |r| <= |xs|
    ensures forall y :: y in r ==> y in xs
    ensures forall i :: 0 <= i < |xs| && flags[i] == want ==> xs[i] in r
  {
    if |xs| == 0 then []
    else
      var rest := Pick(xs[1..], flags[1..], want);
      assert forall i :: 1 <= i < |xs| ==> xs[i] == xs[1..][i - 1] && flags[i] == flags[1..][i - 1];
      (if flags[0] == want then [xs[0]] else []) + rest
  }

  /** `for r in rejected: fileStats.remove(r)`. */
  function RemoveEach<T(==)>(xs: seq<T>, rs: seq<T>): (r: seq<T>)
    ensures |r| <= |xs|
    decreases |rs|
  {
    if |rs| == 0 then xs else RemoveEach(RemoveFirst(xs, rs[0]), rs[1..])
  }

  lemma {:induction false} RemoveEachSkips<T>(x: T, xs: seq<T>, rs: seq<T>)
    requires x !in rs
    ensures RemoveEach([x] + xs, rs) == [x] + RemoveEach(xs, rs)
    decreases |rs|
  {
    if |rs| > 0 {
      assert ([x] + xs)[1..] == xs;
      assert RemoveFirst([x] + xs, rs[0]) == [x] + RemoveFirst(xs, rs[0]);
      RemoveEachSkips(x, RemoveFirst(xs, rs[0]), rs[1..]);
    }
  }

  /** Removing the rejected files one by one leaves exactly the accepted
      ones, in order, when no file is listed twice. */
  lemma {:induction false} RemoveRejected<T>(xs: seq<T>, flags: seq<bool>)
    requires |flags| == |xs| && Distinct(xs)
    ensures RemoveEach(xs, Pick(xs, flags, true)) == Pick(xs, flags, false)
    decreases |xs|
  {
    if |xs| > 0 {
      var x := xs[0];
      var t := xs[1..];
      var rt := Pick(t, flags[1..], true);
      RemoveRejected(t, flags[1..]);
      assert x !in t;
      if flags[0] {
        assert Pick(xs, flags, true) == [x] + rt;
        assert [x] + rt != [] && ([x] + rt)[1..] == rt;
        assert RemoveFirst(xs, x) == t;
      } else {
        assert Pick(xs, flags, true) == rt;
        assert x !in rt;
        assert xs == [x] + t;
        RemoveEachSkips(x, t, rt);
      }
    }
  }

  // ------------------------------------------------------------ per-group answers

  /** The keep-tracks prompt repeats while the answer has no ',' and is not
      a single character. */
  predicate KeepAnswer(a: string) { ',' in a || |a| == 1 }

  /** The codec prompt repeats until the answer is flac or aac. */
  predicate CodecAnswer(a: string) { a == "flac" || a == "aac" }

  function SplitEach(pieces: seq<string>, c: char): (r: seq<seq<string>>)
    ensures |r| == |pieces|
    ensures forall k :: 0 <= k < |r| ==> Join([c], r[k]) == pieces[k] && |r[k]| >= 1
  {
    if |pieces| == 0 then [] else [Split(pieces[0], c)] + SplitEach(pieces[1..], c)
  }

  function JoinEach(parts: seq<seq<string>>, c: char): (r: seq<string>)
    ensures |r| == |parts| && forall k :: 0 <= k < |r| ==> r[k] == Join([c], parts[k])
  {
    if |parts| == 0 then [] else [Join([c], parts[0])] + JoinEach(parts[1..], c)
  }

  /** The surround answer "1:eng,2:jpn" split on ',' and each piece on ':'. */
  function SurroundTracks(a: string): (r: seq<seq<string>>)
    ensures |r| >= 1
    ensures Join(",", JoinEach(r, ':')) == a
  {
    var pieces := Split(a, ',');
    var parts := SplitEach(pieces, ':');
    assert JoinEach(parts, ':') == pieces;
    parts
  }

  /** The three questions asked for one group: keep tracks (re-asked until
      acceptable), surround tracks (asked once), codec (re-asked). */
  function AskTrackLists(answers: seq<string>, pos: nat): (r: Result<(TrackLists, nat)>)
    ensures r.Ok? ==> pos < r.value.1 <= |answers|
    ensures r.Ok? ==> CodecAnswer(r.value.0.codec)
    ensures r.Ok? ==> exists q :: (pos <= q < r.value.1 && KeepAnswer(answers[q])
                                  && Join(",", r.value.0.keepTracks) == answers[q])
    ensures r.Ok? ==> exists q :: pos < q < r.value.1 && Join(",", JoinEach(r.value.0.surroundTracks, ':')) == answers[q]
    ensures r.Fail? ==> r.failure == EOFError
  {
    match Ask(answers, pos, KeepAnswer)
    case Fail(e) => Fail(e)
    case Ok(k) =>
      if k + 1 >= |answers| then Fail(EOFError)
      else
        match Ask(answers, k + 2, CodecAnswer)
        case Fail(e) => Fail(e)
        case Ok(c) =>
          var tl := TrackLists(SurroundTracks(answers[k + 1]), Split(answers[k], ','), answers[c]);
          Ok((tl, c + 1))
  }

  // ------------------------------------------------------------ generateWorkDictList

  function Sources(jobs: seq<Job>): (r: seq<string>)
    ensures |r| == |jobs| && forall j :: 0 <= j < |jobs| ==> r[j] == jobs[j].sourceFile
  {
    if |jobs| == 0 then [] else [jobs[0].sourceFile] + Sources(jobs[1..])
  }

  lemma {:induction false} SourcesAppend(a: seq<Job>, b: seq<Job>)
    ensures Sources(a + b) == Sources(a) + Sources(b)
    decreases |a|
  {
    if |a| > 0 {
      assert (a + b)[1..] == a[1..] + b;
      SourcesAppend(a[1..], b);
    }
  }

  /** One job per file of a group, each with the group's answers. */
  function JobsOf(mkvs: seq<string>, tl: TrackLists): (r: seq<Job>)
    ensures Sources(r) == mkvs
    ensures forall j :: 0 <= j < |r| ==> r[j].tracks == tl
  {
    if |mkvs| == 0 then []
    else
      var rest := JobsOf(mkvs[1..], tl);
      SourcesAppend([Job(mkvs[0], tl)], rest);
      [Job(mkvs[0], tl)] + rest
  }

  /** The questions asked group by group, and the jobs of each group in
      group order. */
  function GenerateJobs(groups: seq<Group>, answers: seq<string>, pos: nat): (r: Result<(seq<Job>, nat)>)
    ensures r.Ok? ==> Sources(r.value.0) == Flatten(GroupMkvs(groups))
    ensures r.Ok? ==> forall j :: 0 <= j < |r.value.0| ==> CodecAnswer(r.value.0[j].tracks.codec)
    ensures r.Ok? ==> pos <= r.value.1
    ensures r.Ok? && |groups| > 0 ==> r.value.1 <= |answers|
    ensures r.Fail? ==> r.failure == EOFError
    decreases |groups|
  {
    if |groups| == 0 then Ok(([], pos))
    else
      match AskTrackLists(answers, pos)
      case Fail(e) => Fail(e)
      case Ok(a) =>
        match GenerateJobs(groups[1..], answers, a.1)
        case Fail(e) => Fail(e)
        case Ok(rest) =>
          var here := JobsOf(groups[0].mkvs, a.0);
          SourcesAppend(here, rest.0);
          assert GroupMkvs(groups)[1..] == GroupMkvs(groups[1..]);
          Ok((here + rest.0, rest.1))
  }

  // ------------------------------------------------------------ the whole list

  function StatsOf(files: seq<string>, infoOf: string -> AudioInfo): (r: seq<FileStat>)
    ensures Mkvs(r) == files
  {
    if |files| == 0 then [] else [FileStat(files[0], infoOf(files[0]))] + StatsOf(files[1..], infoOf)
  }

  /** generateWorkDictList with the files it is given: the found paths
      sorted, probed (`infoOf`), filtered by the user, grouped and asked
      about. The result is the job list and the rejected files. */
  function GenerateJobList(found: seq<string>, infoOf: string -> AudioInfo, answers: seq<string>)
    : (r: Result<(seq<Job>, seq<string>)>)
    ensures r.Ok? ==> forall j :: 0 <= j < |r.value.0| ==> CodecAnswer(r.value.0[j].tracks.codec)
    ensures r.Fail? ==> r.failure == EOFError
  {
    var stats := StatsOf(FilesList(found), infoOf);
    match Decisions(|stats|, answers, 0)
    case Fail(e) => Fail(e)
    case Ok(d) =>
      var rejected := Pick(stats, d.0, true);
      var kept := RemoveEach(stats, rejected);
      match GenerateJobs(SimilarTracks(kept), answers, d.1)
      case Fail(e) => Fail(e)
      case Ok(jobs) => Ok((jobs.0, Mkvs(rejected)))
  }

  lemma {:induction false} MkvsPick(stats: seq<FileStat>, flags: seq<bool>, want: bool)
    requires |flags| == |stats|
    ensures Mkvs(Pick(stats, flags, want)) == Pick(Mkvs(stats), flags, want)
    decreases |stats|
  {
    if |stats| > 0 {
      MkvsPick(stats[1..], flags[1..], want);
      assert Mkvs(stats)[1..] == Mkvs(stats[1..]);
      var head := if flags[0] == want then [stats[0]] else [];
      assert Mkvs(head + Pick(stats[1..], flags[1..], want))[..|head|] == Mkvs(head);
    }
  }

  lemma {:induction false} PickSplit<T>(xs: seq<T>, flags: seq<bool>)
    requires |flags| == |xs|
    ensures multiset(Pick(xs, flags, false)) + multiset(Pick(xs, flags, true)) == multiset(xs)
    decreases |xs|
  {
    if |xs| > 0 {
      PickSplit(xs[1..], flags[1..]);
      assert xs == [xs[0]] + xs[1..];
    }
  }

  lemma PickDisjoint<T>(xs: seq<T>, flags: seq<bool>, y: T)
    requires |flags| == |xs| && Distinct(xs)
    ensures y in Pick(xs, flags, false) ==> y !in Pick(xs, flags, true)
  {
    PickSplit(xs, flags);
    DistinctCounts(xs);
    var f := Pick(xs, flags, false);
    var t := Pick(xs, flags, true);
    assert y in f ==> multiset(f)[y] >= 1;
    assert y in t ==> multiset(t)[y] >= 1;
    assert multiset(f)[y] + multiset(t)[y] == multiset(xs)[y] <= 1;
  }

  /** With no path found twice, every found file either becomes exactly one
      job or is rejected, and no job names a rejected file. */
  lemma JobListPartition(found: seq<string>, infoOf: string -> AudioInfo, answers: seq<string>)
    requires Distinct(found)
    requires GenerateJobList(found, infoOf, answers).Ok?
    ensures var r := GenerateJobList(found, infoOf, answers).value;
      multiset(Sources(r.0)) + multiset(r.1) == multiset(found)
    ensures var r := GenerateJobList(found, infoOf, answers).value;
      forall j :: 0 <= j < |r.0| ==> r.0[j].sourceFile !in r.1
  {
    var files := FilesList(found);
    DistinctPermutation(found, files);
    var stats := StatsOf(files, infoOf);
    var d := Decisions(|stats|, answers, 0).value;
    var rejected := Pick(stats, d.0, true);
    assert Distinct(stats) by {
      forall i, j | 0 <= i < j < |stats| ensures stats[i] != stats[j] {
        assert Mkvs(stats)[i] != Mkvs(stats)[j];
      }
    }
    RemoveRejected(stats, d.0);
    var kept := Pick(stats, d.0, false);
    var jobs := GenerateJobs(SimilarTracks(kept), answers, d.1).value;
    SimilarTracksPartition(kept);
    assert multiset(Sources(jobs.0)) == multiset(Mkvs(kept));
    MkvsPick(stats, d.0, false);
    MkvsPick(stats, d.0, true);
    PickSplit(files, d.0);
    forall j | 0 <= j < |jobs.0| ensures jobs.0[j].sourceFile !in Mkvs(rejected) {
      var y := jobs.0[j].sourceFile;
      assert y in Sources(jobs.0);
      assert y in multiset(Mkvs(kept));
      PickDisjoint(files, d.0, y);
    }
  }
}

=== FILE: nightmode_mkv.dfy ===
// The mkvmerge arguments that put the night-mode tracks back into the film:
// `--audio-tracks` (genKeepAudioTracks), `--track-order` (genTrackOrder) and
// the per-track name/language/file arguments of outputMkv, in both
// batch_nightmode.py and replace_nightmode.py. A surround track is the job's
// JSON pair [track id, language].
module NightmodeMkv {
  import opened Results
  import opened Text
  import opened Lists
  import opened NightmodeStages

  // ------------------------------------------------------------ --audio-tracks

  /** The loop of genKeepAudioTracks after its first id: a comma before
      every id that is not equal to the first one. */
  function KeepFrom(first: string, ids: seq<string>): string
  {
    if |ids| == 0 then ""
    else (if ids[0] != first then "," else "") + ids[0] + KeepFrom(first, ids[1..])
  }

  /** genKeepAudioTracks: the `--audio-tracks` value, which is the comma
      join of the kept ids as long as the first id is not repeated. */
  function KeepAudioTracks(keep: seq<string>): (r: string)
    ensures |keep| == 0 ==> r == ""
    ensures |keep| > 0 ==> |keep[0]| <= |r| && r[..|keep[0]|] == keep[0]
    ensures (|keep| > 0 ==> keep[0] !in keep[1..]) ==> r == Join(",", keep)
  {
    if |keep| == 0 then ""
    else
      KeepFromFirst(keep[0], keep);
      if |keep| == 1 then
        assert KeepFrom(keep[0], keep[1..]) == "";
        KeepFrom(keep[0], keep)
      else if keep[0] !in keep[1..] then
        KeepFromJoin(keep[0], keep[1..]);
        JoinCons(",", keep);
        KeepFrom(keep[0], keep)
      else KeepFrom(keep[0], keep)
  }

  /** When the first id is not repeated the loop is the comma join. */
  lemma {:induction false} KeepFromJoin(first: string, ids: seq<string>)
    requires |ids| > 0 && first !in ids
    ensures KeepFrom(first, ids) == "," + Join(",", ids)
  {
    if |ids| > 1 {
      KeepFromJoin(first, ids[1..]);
    }
  }

  /** The first id opens the loop's string without a separator. */
  lemma KeepFromFirst(first: string, ids: seq<string>)
    requires |ids| > 0 && ids[0] == first
    ensures KeepFrom(first, ids) == first + KeepFrom(first, ids[1..])
  {
    var sep: string := if ids[0] != first then "," else "";
    assert sep == "";
    assert sep + ids[0] == first;
  }

  lemma JoinCons(sep: string, parts: seq<string>)
    requires |parts| > 1
    ensures Join(sep, parts) == parts[0] + (sep + Join(sep, parts[1..]))
  {
  }

  /** A repeated first id loses its separator: ["1", "1", "2"] gives "11,2"
      where mkvmerge expects "1,1,2" (or "1,2"). */
  lemma KeepAudioTracksRepeatedFirst()
    ensures KeepAudioTracks(["1", "1", "2"]) == "11,2"
    ensures Join(",", ["1", "1", "2"]) == "1,1,2"
  {
    var k := ["1", "1", "2"];
    assert k[1..] == ["1", "2"] && k[1..][1..] == ["2"];
  }

  /** The `--audio-tracks` value as intended: the comma join, which splits
      back into the ids whatever they repeat. */
  function KeepAudioTracksJoined(keep: seq<string>): (r: string)
    requires forall i :: 0 <= i < |keep| ==> ',' !in keep[i]
    ensures |keep| > 0 ==> Split(r, ',') == keep
  {
    if |keep| > 0 then SplitJoin(keep, ','); Join(",", keep) else ""
  }

  // ------------------------------------------------------------ --track-order

  /** The id of every surround track, `x[0]`: an empty entry is an IndexError. */
  function SurroundIds(surround: seq<SurroundTrack>): (r: Result<seq<string>>)
    ensures r.Ok? <==> forall k :: 0 <= k < |surround| ==> |surround[k]| > 0
    ensures r.Ok? ==> |r.value| == |surround|
    ensures r.Ok? ==> forall k :: 0 <= k < |surround| ==> r.value[k] == surround[k][0]
    ensures r.Fail? ==> r.failure == IndexError
  {
    if |surround| == 0 then Ok([])
    else if |surround[0]| == 0 then Fail(IndexError)
    else
      match SurroundIds(surround[1..])
      case Fail(e) => Fail(e)
      case Ok(rest) => Ok([surround[0][0]] + rest)
  }

  /** keepTracks after genTrackOrder: every surround id added when missing,
      then sorted. */
  function FinalKeep(keep: seq<string>, ids: seq<string>): (r: seq<string>)
    ensures Sorted(r)
    ensures forall x :: x in r <==> x in keep || x in ids
    ensures multiset(r) == multiset(AppendUnseen(keep, ids))
  {
    var r := Sort(AppendUnseen(keep, ids));
    assert forall x :: x in r <==> x in multiset(r);
    r
  }

  const FirstPair := "1:0,2:0"
  const LaterPair := "3:0,4:0"

  /** The inner loop over the surround tracks for keep id `x`. */
  function MatchLoop(x: string, ids: seq<string>, acc: string): string
  {
    if |ids| == 0 then acc
    else
      var acc' := if x == ids[0] then acc + "," + (if Contains(acc, FirstPair) then LaterPair else FirstPair) else acc;
      MatchLoop(x, ids[1..], acc')
  }

  /** The outer loop over the sorted keep ids. */
  function OrderLoop(keep: seq<string>, ids: seq<string>, acc: string): string
  {
    if |keep| == 0 then acc
    else OrderLoop(keep[1..], ids, MatchLoop(keep[0], ids, acc + ",0:" + keep[0]))
  }

  /** genTrackOrder as written: the `--track-order` value and the job's
      updated keepTracks. */
  function TrackOrder(keep: seq<string>, surround: seq<SurroundTrack>): (r: Result<(string, seq<string>)>)
    ensures r.Ok? <==> forall k :: 0 <= k < |surround| ==> |surround[k]| > 0
    ensures r.Ok? ==> IsPrefix("0:0", r.value.0)
  {
    match SurroundIds(surround)
    case Fail(e) => Fail(e)
    case Ok(ids) =>
      var k := FinalKeep(keep, ids);
      OrderLoopPrefix(k, ids, "0:0");
      Ok((OrderLoop(k, ids, "0:0"), k))
  }

  // The reference: after ",0:<id>" come as many pairs as surround tracks
  // carry that id, the j-th pair of the whole value being pair(j).

  /** How many surround ids equal `x`. */
  function Matches(ids: seq<string>, x: string): nat
  {
    if |ids| == 0 then 0 else (if ids[0] == x then 1 else 0) + Matches(ids[1..], x)
  }

  function Pairs(j: nat, c: nat, pair: nat -> string): string
    decreases c
  {
    if c == 0 then "" else "," + pair(j) + Pairs(j + 1, c - 1, pair)
  }

  function OrderSpec(keep: seq<string>, ids: seq<string>, j: nat, pair: nat -> string): string
  {
    if |keep| == 0 then ""
    else
      var c := Matches(ids, keep[0]);
      ",0:" + keep[0] + Pairs(j, c, pair) + OrderSpec(keep[1..], ids, j + c, pair)
  }

  /** The pair genTrackOrder writes for the j-th match: "1:0,2:0" for the
      first, "3:0,4:0" for every later one. */
  function PairAfterMatches(j: nat): string
  {
    if j == 0 then FirstPair else LaterPair
  }

  /** Every ':' of `s` comes right after a '0', as in "0:0,0:3,0:5". */
  predicate ColonAfterZero(s: string)
  {
    forall i :: 0 <= i < |s| && s[i] == ':' ==> 0 < i && s[i - 1] == '0'
  }

  lemma NoFirstPair(s: string)
    requires ColonAfterZero(s)
    ensures !Contains(s, FirstPair)
  {
    forall i | 0 <= i && i + 7 <= |s| ensures !OccursAt(s, FirstPair, i) {
      if s[i + 1] == ':' {
        assert s[i..i + 7][0] == '0' != FirstPair[0];
      } else {
        assert s[i..i + 7][1] != FirstPair[1];
      }
    }
    ContainsIffOccurs(s, FirstPair);
  }

  /** Whether the first pair has been written, told apart by the colons. */
  predicate PairState(acc: string, j: nat)
  {
    if j == 0 then ColonAfterZero(acc) else Contains(acc, FirstPair)
  }

  /** Writing the next pair: which one is chosen by looking for the first,
      and the state after it. */
  lemma AddPair(acc: string, j: nat)
    requires PairState(acc, j)
    ensures acc + "," + (if Contains(acc, FirstPair) then LaterPair else FirstPair) == acc + ("," + PairAfterMatches(j))
    ensures PairState(acc + ("," + PairAfterMatches(j)), j + 1)
  {
    var added := "," + PairAfterMatches(j);
    if j == 0 {
      NoFirstPair(acc);
      assert Contains(added, FirstPair) by { assert IsPrefix(FirstPair, added[1..]); }
      ContainsInRight(acc, added, FirstPair);
    } else {
      ContainsInLeft(acc, added, FirstPair);
    }
  }

  /** One matching surround id: the loop and the reference both add pair j. */
  lemma MatchStep(x: string, ids: seq<string>, acc: string, j: nat)
    requires |ids| > 0 && ids[0] == x
    ensures MatchLoop(x, ids, acc)
         == MatchLoop(x, ids[1..], acc + "," + (if Contains(acc, FirstPair) then LaterPair else FirstPair))
    ensures Matches(ids, x) == 1 + Matches(ids[1..], x)
    ensures Pairs(j, Matches(ids, x), PairAfterMatches)
         == "," + PairAfterMatches(j) + Pairs(j + 1, Matches(ids[1..], x), PairAfterMatches)
  {
  }

  lemma Regroup2(a: string, b: string, c: string)
    ensures a + b + c == a + (b + c)
  {
  }

  lemma {:induction false} MatchLoopSpec(x: string, ids: seq<string>, acc: string, j: nat)
    requires PairState(acc, j)
    ensures MatchLoop(x, ids, acc) == acc + Pairs(j, Matches(ids, x), PairAfterMatches)
    ensures PairState(MatchLoop(x, ids, acc), j + Matches(ids, x))
  {
    if |ids| > 0 {
      if x == ids[0] {
        var added := "," + PairAfterMatches(j);
        AddPair(acc, j);
        MatchStep(x, ids, acc, j);
        MatchLoopSpec(x, ids[1..], acc + added, j + 1);
        Regroup2(acc, added, Pairs(j + 1, Matches(ids[1..], x), PairAfterMatches));
      } else {
        MatchLoopSpec(x, ids[1..], acc, j);
      }
    }
  }

  lemma AppendKeepsColonAfterZero(acc: string, x: string)
    requires ColonAfterZero(acc) && ':' !in x
    ensures ColonAfterZero(acc + ",0:" + x)
  {
    var s := acc + ",0:" + x;
    forall i | 0 <= i < |s| ensures s[i] == ':' ==> 0 < i && s[i - 1] == '0' {
      if i >= |acc| + 3 {
        assert s[i] == x[i - |acc| - 3] && x[i - |acc| - 3] in x;
      } else if i < |acc| {
        assert s[i] == acc[i];
        if i > 0 { assert s[i - 1] == acc[i - 1]; }
      } else if i == |acc| + 2 {
        assert s[i - 1] == '0';
      } else {
        assert s[i] == ',' || s[i] == '0';
      }
    }
  }

  lemma {:induction false} OrderLoopPrefix(keep: seq<string>, ids: seq<string>, acc: string)
    ensures |OrderLoop(keep, ids, acc)| >= |acc|
    ensures OrderLoop(keep, ids, acc)[..|acc|] == acc
  {
    if |keep| > 0 {
      var m := MatchLoop(keep[0], ids, acc + ",0:" + keep[0]);
      MatchLoopPrefix(keep[0], ids, acc + ",0:" + keep[0]);
      OrderLoopPrefix(keep[1..], ids, m);
      assert m[..|acc|] == acc;
    }
  }

  lemma {:induction false} MatchLoopPrefix(x: string, ids: seq<string>, acc: string)
    ensures |MatchLoop(x, ids, acc)| >= |acc| && MatchLoop(x, ids, acc)[..|acc|] == acc
  {
    if |ids| > 0 {
      var acc' := if x == ids[0] then acc + "," + (if Contains(acc, FirstPair) then LaterPair else FirstPair) else acc;
      MatchLoopPrefix(x, ids[1..], acc');
      assert acc'[..|acc|] == acc;
    }
  }

  /** Opening a keep id does not change which pair comes next. */
  lemma StartKeepsPairState(acc: string, x: string, j: nat)
    requires PairState(acc, j) && ':' !in x
    ensures PairState(acc + ",0:" + x, j)
  {
    if j == 0 {
      AppendKeepsColonAfterZero(acc, x);
    } else {
      ContainsInLeft(acc, ",0:" + x, FirstPair);
      assert acc + ",0:" + x == acc + (",0:" + x);
    }
  }

  /** One turn of the outer loop and of the reference. */
  lemma OrderCons(keep: seq<string>, ids: seq<string>, acc: string, j: nat, pair: nat -> string)
    requires |keep| > 0
    ensures OrderLoop(keep, ids, acc) == OrderLoop(keep[1..], ids, MatchLoop(keep[0], ids, acc + ",0:" + keep[0]))
    ensures OrderSpec(keep, ids, j, pair)
         == ",0:" + keep[0] + Pairs(j, Matches(ids, keep[0]), pair) + OrderSpec(keep[1..], ids, j + Matches(ids, keep[0]), pair)
  {
  }

  lemma Regroup(a: string, b: string, x: string, c: string, d: string)
    ensures a + b + x + c + d == a + (b + x + c + d)
  {
  }

  /** The outer loop against the reference, from any state of the pairs. */
  lemma {:induction false} OrderLoopMatchesSpec(keep: seq<string>, ids: seq<string>, acc: string, j: nat)
    requires forall i :: 0 <= i < |keep| ==> ':' !in keep[i]
    requires PairState(acc, j)
    ensures OrderLoop(keep, ids, acc) == acc + OrderSpec(keep, ids, j, PairAfterMatches)
  {
    if |keep| > 0 {
      var x := keep[0];
      var start := acc + ",0:" + x;
      StartKeepsPairState(acc, x, j);
      MatchLoopSpec(x, ids, start, j);
      var c := Matches(ids, x);
      var m := MatchLoop(x, ids, start);
      OrderLoopMatchesSpec(keep[1..], ids, m, j + c);
      OrderCons(keep, ids, acc, j, PairAfterMatches);
      Regroup(acc, ",0:", x, Pairs(j, c, PairAfterMatches), OrderSpec(keep[1..], ids, j + c, PairAfterMatches));
    }
  }

  /** genTrackOrder against the reference: ",0:<id>" for each id of the
      final keep list, each followed by one pair per surround track with
      that id, the first pair "1:0,2:0" and every later one "3:0,4:0". */
  lemma TrackOrderMatchesSpec(keep: seq<string>, surround: seq<SurroundTrack>)
    requires forall i :: 0 <= i < |keep| ==> ':' !in keep[i]
    requires forall k :: 0 <= k < |surround| ==> |surround[k]| > 0 && ':' !in surround[k][0]
    ensures SurroundIds(surround).Ok?
    ensures var ids := SurroundIds(surround).value;
      var k := FinalKeep(keep, ids);
      TrackOrder(keep, surround) == Ok(("0:0" + OrderSpec(k, ids, 0, PairAfterMatches), k))
  {
    var ids := SurroundIds(surround).value;
    var k := FinalKeep(keep, ids);
    forall i | 0 <= i < |k| ensures ':' !in k[i] {
      assert k[i] in keep || k[i] in ids;
    }
    assert ColonAfterZero("0:0");
    OrderLoopMatchesSpec(k, ids, "0:0", 0);
  }

  lemma PairsOne(j: nat, pair: nat -> string)
    ensures Pairs(j, 1, pair) == "," + pair(j)
  {
    assert Pairs(j + 1, 0, pair) == "";
  }

  /** The reference for a keep id matched by exactly one surround id. */
  lemma OrderSpecSingleMatch(x: string, rest: seq<string>, ids: seq<string>, j: nat)
    requires Matches(ids, x) == 1
    ensures OrderSpec([x] + rest, ids, j, PairAfterMatches)
         == ",0:" + x + ("," + PairAfterMatches(j)) + OrderSpec(rest, ids, j + 1, PairAfterMatches)
  {
    PairsOne(j, PairAfterMatches);
    assert ([x] + rest)[0] == x && ([x] + rest)[1..] == rest;
  }

  lemma MatchesCons(a: string, rest: seq<string>, x: string)
    ensures Matches([a] + rest, x) == (if a == x then 1 else 0) + Matches(rest, x)
  {
    assert ([a] + rest)[1..] == rest;
  }

  lemma ThreeMatches(ids: seq<string>)
    requires ids == ["1", "2", "3"]
    ensures Matches(ids, "1") == 1 && Matches(ids, "2") == 1 && Matches(ids, "3") == 1
  {
    var one, two, three := "1", "2", "3";
    assert one != two && one != three && two != three by {
      assert one[0] != two[0] && one[0] != three[0] && two[0] != three[0];
    }
    assert ids == [one] + ([two] + ([three] + []));
    forall x | x == one || x == two || x == three
      ensures Matches(ids, x) == 1
    {
      assert Matches([], x) == 0;
      MatchesCons(three, [], x);
      MatchesCons(two, [three] + [], x);
      MatchesCons(one, [two] + ([three] + []), x);
    }
  }

  /** The reference on three tracks whose ids are the keep ids. */
  lemma ThreeTrackSpec(ids: seq<string>)
    requires ids == ["1", "2", "3"]
    ensures OrderSpec(ids, ids, 0, PairAfterMatches)
      == ",0:1,1:0,2:0" + ",0:2,3:0,4:0" + ",0:3,3:0,4:0"
  {
    ThreeMatches(ids);
    var t1, t2, t3: seq<string> := ids[1..], ids[2..], ids[3..];
    assert ids == [ids[0]] + t1 && t1 == [ids[1]] + t2 && t2 == [ids[2]] + t3 && t3 == [];
    OrderSpecSingleMatch(ids[2], t3, ids, 2);
    OrderSpecSingleMatch(ids[1], t2, ids, 1);
    OrderSpecSingleMatch(ids[0], t1, ids, 0);
    var p3 := ",0:" + ids[2] + ("," + PairAfterMatches(2));
    var p2 := ",0:" + ids[1] + ("," + PairAfterMatches(1));
    var p1 := ",0:" + ids[0] + ("," + PairAfterMatches(0));
    assert OrderSpec(t3, ids, 3, PairAfterMatches) == "";
    assert OrderSpec(ids, ids, 0, PairAfterMatches) == p1 + (p2 + (p3 + ""));
    OrderPieces();
    assert ids[0] == "1" && ids[1] == "2" && ids[2] == "3";
    assert PairAfterMatches(0) == FirstPair && PairAfterMatches(1) == LaterPair && PairAfterMatches(2) == LaterPair;
    Regroup3(p1, p2, p3);
  }

  /** The three pieces of the three-track reference, spelled out. */
  lemma OrderPieces()
    ensures ",0:" + "1" + ("," + FirstPair) == ",0:1,1:0,2:0"
    ensures ",0:" + "2" + ("," + LaterPair) == ",0:2,3:0,4:0"
    ensures ",0:" + "3" + ("," + LaterPair) == ",0:3,3:0,4:0"
  {
  }

  lemma Regroup3(a: string, b: string, c: string)
    ensures a + (b + (c + "")) == a + b + c
  {
  }

  lemma ThreeTrackKeep(keep: seq<string>)
    requires keep == ["1", "2", "3"]
    ensures FinalKeep(keep, keep) == keep
  {
    AppendUnseenAllSeen(keep, keep);
    assert Sorted(keep) by {
      assert LexLe(keep[0], keep[1]) && LexLe(keep[0], keep[2]) && LexLe(keep[1], keep[2]);
    }
    SortedFixed(keep);
  }

  /** Three surround tracks: the third pair repeats "3:0,4:0" and the files
      5 and 6 (the third track's night-mode files) are never placed. */
  lemma ThirdSurroundTrackRepeatsPair(keep: seq<string>, surround: seq<SurroundTrack>)
    requires keep == ["1", "2", "3"] && surround == [["1", "eng"], ["2", "jpn"], ["3", "eng"]]
    ensures TrackOrder(keep, surround)
      == Ok(("0:0" + (",0:1,1:0,2:0" + ",0:2,3:0,4:0" + ",0:3,3:0,4:0"), keep))
  {
    assert surround[0][0] == "1" && surround[1][0] == "2" && surround[2][0] == "3";
    TrackOrderMatchesSpec(keep, surround);
    var ids := SurroundIds(surround).value;
    assert ids == keep;
    ThreeTrackKeep(keep);
    ThreeTrackSpec(keep);
    var spec := OrderSpec(keep, ids, 0, PairAfterMatches);
    assert spec == ",0:1,1:0,2:0" + ",0:2,3:0,4:0" + ",0:3,3:0,4:0";
    assert TrackOrder(keep, surround) == Ok(("0:0" + spec, keep));
  }

  // ------------------------------------------------------------ corrected order

  /** mkvmerge numbers the input files in command order: the source is 0 and
      surround track k's loudnorm and DRC files are 2k+1 and 2k+2. */
  function PairFor(k: nat): string
  {
    NatToString(2 * k + 1) + ":0," + NatToString(2 * k + 2) + ":0"
  }

  function CorrectedMatches(x: string, ids: seq<string>, k: nat): string
    requires k <= |ids|
    decreases |ids| - k
  {
    if k == |ids| then ""
    else (if ids[k] == x then "," + PairFor(k) else "") + CorrectedMatches(x, ids, k + 1)
  }

  function CorrectedOrderFrom(keep: seq<string>, ids: seq<string>): string
  {
    if |keep| == 0 then "" else ",0:" + keep[0] + CorrectedMatches(keep[0], ids, 0) + CorrectedOrderFrom(keep[1..], ids)
  }

  /** The track order as evidently intended: after each kept id, the file
      pair of every surround track with that id. */
  function CorrectedTrackOrder(keep: seq<string>, surround: seq<SurroundTrack>): (r: Result<(string, seq<string>)>)
    ensures r.Ok? <==> forall k :: 0 <= k < |surround| ==> |surround[k]| > 0
    ensures r.Ok? ==> forall k :: 0 <= k < |surround| ==> Contains(r.value.0, "," + PairFor(k))
    ensures r.Ok? ==> r.value.1 == FinalKeep(keep, SurroundIds(surround).value)
  {
    match SurroundIds(surround)
    case Fail(e) => Fail(e)
    case Ok(ids) =>
      var k := FinalKeep(keep, ids);
      CorrectedOrderPlacesAll(k, ids);
      Ok(("0:0" + CorrectedOrderFrom(k, ids), k))
  }

  lemma CorrectedOrderPlacesAll(k: seq<string>, ids: seq<string>)
    requires forall t :: 0 <= t < |ids| ==> ids[t] in k
    ensures forall t :: 0 <= t < |ids| ==> Contains("0:0" + CorrectedOrderFrom(k, ids), "," + PairFor(t))
  {
    forall t | 0 <= t < |ids| ensures Contains("0:0" + CorrectedOrderFrom(k, ids), "," + PairFor(t)) {
      var p :| 0 <= p < |k| && k[p] == ids[t];
      CorrectedOrderPlaces(k, ids, p, t);
      ContainsInRight("0:0", CorrectedOrderFrom(k, ids), "," + PairFor(t));
    }
  }

  lemma {:induction false} CorrectedMatchesPlaces(x: string, ids: seq<string>, k: nat, t: nat)
    requires k <= t < |ids| && ids[t] == x
    ensures Contains(CorrectedMatches(x, ids, k), "," + PairFor(t))
    decreases t - k
  {
    var head := if ids[k] == x then "," + PairFor(k) else "";
    if k == t {
      assert Contains(head, "," + PairFor(t)) by { assert IsPrefix("," + PairFor(t), head); }
      ContainsInLeft(head, CorrectedMatches(x, ids, k + 1), "," + PairFor(t));
    } else {
      CorrectedMatchesPlaces(x, ids, k + 1, t);
      ContainsInRight(head, CorrectedMatches(x, ids, k + 1), "," + PairFor(t));
    }
  }

  lemma {:induction false} CorrectedOrderPlaces(keep: seq<string>, ids: seq<string>, p: nat, t: nat)
    requires p < |keep| && t < |ids| && keep[p] == ids[t]
    ensures Contains(CorrectedOrderFrom(keep, ids), "," + PairFor(t))
  {
    var pat := "," + PairFor(t);
    var head := ",0:" + keep[0];
    var rest := CorrectedOrderFrom(keep[1..], ids);
    if p == 0 {
      CorrectedMatchesPlaces(keep[0], ids, 0, t);
      ContainsInRight(head, CorrectedMatches(keep[0], ids, 0), pat);
      ContainsInLeft(head + CorrectedMatches(keep[0], ids, 0), rest, pat);
    } else {
      CorrectedOrderPlaces(keep[1..], ids, p - 1, t);
      ContainsInRight(head + CorrectedMatches(keep[0], ids, 0), rest, pat);
    }
  }

  lemma ThreeTrackOrderHasNoFive(order: string)
    requires order == "0:0" + (",0:1,1:0,2:0" + ",0:2,3:0,4:0" + ",0:3,3:0,4:0")
    ensures '5' !in order
  {
    assert '5' !in "0:0";
    assert '5' !in ",0:1,1:0,2:0";
  }

  lemma PairForThird()
    ensures "," + PairFor(2) == ",5:0,6:0"
  {
    assert NatToString(5) == "5" && NatToString(6) == "6";
  }

  /** With three or more surround tracks, the corrected order places the
      third track's files 5 and 6. */
  lemma CorrectedOrderPlacesThird(keep: seq<string>, surround: seq<SurroundTrack>)
    requires |surround| >= 3
    requires forall k :: 0 <= k < |surround| ==> |surround[k]| > 0
    ensures CorrectedTrackOrder(keep, surround).Ok?
    ensures Contains(CorrectedTrackOrder(keep, surround).value.0, ",5:0,6:0")
  {
    var r := CorrectedTrackOrder(keep, surround);
    assert Contains(r.value.0, "," + PairFor(2));
    PairForThird();
  }

  /** genTrackOrder leaves files 5 and 6 out for three surround tracks. */
  lemma ThirdSurroundTrackMissing(keep: seq<string>, surround: seq<SurroundTrack>)
    requires keep == ["1", "2", "3"] && surround == [["1", "eng"], ["2", "jpn"], ["3", "eng"]]
    ensures TrackOrder(keep, surround).Ok?
    ensures !Contains(TrackOrder(keep, surround).value.0, ",5:0,6:0")
  {
    ThirdSurroundTrackRepeatsPair(keep, surround);
    var order := TrackOrder(keep, surround).value.0;
    ThreeTrackOrderHasNoFive(order);
    MissingCharNotContained(order, ",5:0,6:0", 1);
  }

  /** A string without some character of `pat` does not contain `pat`. */
  lemma MissingCharNotContained(s: string, pat: string, m: nat)
    requires m < |pat| && pat[m] !in s
    ensures !Contains(s, pat)
  {
    forall i | 0 <= i && i + |pat| <= |s| ensures !OccursAt(s, pat, i) {
      assert s[i..i + |pat|][m] == s[i + m];
    }
    ContainsIffOccurs(s, pat);
  }

  // ------------------------------------------------------------ outputMkv

  /** The file a night-mode step writes for a surround track: the base name,
      '-', the language and the codec's extension (an unset `extension` is a
      NameError for a codec other than flac or aac). */
  function StepOutputFile(base: string, track: SurroundTrack, codec: string): (r: Result<string>)
    ensures r.Ok? ==> codec == "flac" || codec == "aac"
  {
    if |track| < 2 then Fail(IndexError)
    else if codec == "flac" then Ok(base + "-" + track[1] + ".flac")
    else if codec == "aac" then Ok(base + "-" + track[1] + ".m4a")
    else Fail(NameError)
  }

  /** languageMap of outputMkv. */
  function LanguageName(lang: string): Option<string>
  {
    if lang == "eng" then Some("English") else if lang == "jpn" then Some("Japanese") else None
  }

  /** codecMap of outputMkv: the title and the file extension. */
  function CodecEntry(codec: string): Option<(string, string)>
  {
    if codec == "flac" then Some(("FLAC", "flac")) else if codec == "aac" then Some(("AAC", "m4a")) else None
  }

  /** The ten arguments that add one surround track's two night-mode files. */
  function TrackArgs(langName: string, lang: string, codecTitle: string, ext: string, loudBase: string, drcBase: string): (r: seq<string>)
    ensures |r| == 10
  {
    ["--track-name", "0:" + langName + " Stereo Nightmode Loudnorm (" + codecTitle + ")",
     "--language", "0:" + lang, loudBase + "-" + lang + "." + ext,
     "--track-name", "0:" + langName + " Stereo Nightmode DRC+Loudnorm (" + codecTitle + ")",
     "--language", "0:" + lang, drcBase + "-" + lang + "." + ext]
  }

  /** The per-track arguments of batch_nightmode.py's outputMkv: a language
      or codec outside the two maps is a KeyError. */
  function BatchTracksArgs(surround: seq<SurroundTrack>, codec: string, loudBase: string, drcBase: string): (r: Result<seq<string>>)
    ensures r.Ok? ==> |r.value| == 10 * |surround|
    ensures r.Ok? <==> ((|surround| == 0 || CodecEntry(codec).Some?)
                        && forall k :: 0 <= k < |surround| ==> |surround[k]| >= 2 && LanguageName(surround[k][1]).Some?)
  {
    if |surround| == 0 then Ok([])
    else if |surround[0]| < 2 then Fail(IndexError)
    else
      var t := surround[0];
      match LanguageName(t[1])
      case None => Fail(KeyError)
      case Some(name) =>
        match CodecEntry(codec)
        case None => Fail(KeyError)
        case Some(entry) =>
          match BatchTracksArgs(surround[1..], codec, loudBase, drcBase)
          case Fail(e) => Fail(e)
          case Ok(rest) => Ok(TrackArgs(name, t[1], entry.0, entry.1, loudBase, drcBase) + rest)
  }

  /** The eight arguments both outputMkv versions start with. */
  function MkvmergeHead(outMkv: string, order: string, audio: string, inMkv: string): (r: seq<string>)
    ensures |r| == 8 && r[..4] == ["mkvmerge", "-o", outMkv, "--track-order"]
    ensures r[4] == order && r[5] == "--audio-tracks" && r[6] == audio && r[7] == inMkv
  {
    ["mkvmerge", "-o", outMkv, "--track-order", order, "--audio-tracks", audio, inMkv]
  }

  /** The command outputMkv builds from a track order (with the keep list
      genTrackOrder leaves) and the per-track arguments; the order is
      computed first, so its failure comes first. */
  function OutputMkvWith(order: Result<(string, seq<string>)>, tracks: Result<seq<string>>,
                         inMkv: string, outMkv: string): (r: Result<seq<string>>)
    ensures r.Ok? <==> order.Ok? && tracks.Ok?
    ensures order.Fail? ==> r == Fail(order.failure)
    ensures r.Ok? ==> r.value == MkvmergeHead(outMkv, order.value.0, KeepAudioTracks(order.value.1), inMkv) + tracks.value
    ensures r.Ok? ==> (|r.value| == 8 + |tracks.value| && r.value[..4] == ["mkvmerge", "-o", outMkv, "--track-order"]
                       && r.value[4] == order.value.0 && r.value[5] == "--audio-tracks"
                       && r.value[6] == KeepAudioTracks(order.value.1) && r.value[7] == inMkv)
  {
    match order
    case Fail(e) => Fail(e)
    case Ok(ok) =>
      match tracks
      case Fail(e) => Fail(e)
      case Ok(args) =>
        var head := MkvmergeHead(outMkv, ok.0, KeepAudioTracks(ok.1), inMkv);
        HeadKept(head, args);
        Ok(head + args)
  }

  /** The mkvmerge command of batch_nightmode.py's outputMkv: the track order
      genTrackOrder writes, the job's keepTracks as genTrackOrder leaves them,
      and ten arguments per surround track. */
  function BatchOutputMkv(keep: seq<string>, surround: seq<SurroundTrack>, inMkv: string, outMkv: string,
                          loudBase: string, drcBase: string, codec: string): (r: Result<seq<string>>)
    ensures r.Ok? <==> TrackOrder(keep, surround).Ok? && BatchTracksArgs(surround, codec, loudBase, drcBase).Ok?
    ensures r.Ok? ==> |r.value| == 8 + 10 * |surround|
    ensures r.Ok? ==> r.value[..4] == ["mkvmerge", "-o", outMkv, "--track-order"] && r.value[5] == "--audio-tracks" && r.value[7] == inMkv
    ensures r.Ok? ==> (r.value[4] == TrackOrder(keep, surround).value.0
                       && r.value[6] == KeepAudioTracks(FinalKeep(keep, SurroundIds(surround).value)))
  {
    OutputMkvWith(TrackOrder(keep, surround), BatchTracksArgs(surround, codec, loudBase, drcBase), inMkv, outMkv)
  }

  /** The intended command: the same, with the corrected track order that
      places every surround track's own two files. */
  function CorrectedBatchOutputMkv(keep: seq<string>, surround: seq<SurroundTrack>, inMkv: string, outMkv: string,
                                   loudBase: string, drcBase: string, codec: string): (r: Result<seq<string>>)
    ensures r.Ok? ==> |r.value| == 8 + 10 * |surround| && r.value[..4] == ["mkvmerge", "-o", outMkv, "--track-order"]
    ensures r.Ok? ==> forall k :: 0 <= k < |surround| ==> Contains(r.value[4], "," + PairFor(k))
  {
    OutputMkvWith(CorrectedTrackOrder(keep, surround), BatchTracksArgs(surround, codec, loudBase, drcBase), inMkv, outMkv)
  }

  /** The two commands fail alike and differ at most in the track order. */
  lemma OutputMkvRevisionsDiffer(keep: seq<string>, surround: seq<SurroundTrack>, inMkv: string, outMkv: string,
                                 loudBase: string, drcBase: string, codec: string)
    ensures var a := BatchOutputMkv(keep, surround, inMkv, outMkv, loudBase, drcBase, codec);
      var b := CorrectedBatchOutputMkv(keep, surround, inMkv, outMkv, loudBase, drcBase, codec);
      a.Ok? == b.Ok? && (a.Fail? ==> a == b)
      && (a.Ok? ==> |a.value| == |b.value| && forall i :: 0 <= i < |a.value| && i != 4 ==> a.value[i] == b.value[i])
  {
  }

  /** For surround tracks 1:eng, 2:jpn, 3:eng the command as written never
      names files 5 and 6, which the intended command places. */
  lemma ThirdTrackCommand(keep: seq<string>, surround: seq<SurroundTrack>, inMkv: string, outMkv: string,
                          loudBase: string, drcBase: string, codec: string)
    requires keep == ["1", "2", "3"] && surround == [["1", "eng"], ["2", "jpn"], ["3", "eng"]]
    requires codec == "flac" || codec == "aac"
    ensures BatchOutputMkv(keep, surround, inMkv, outMkv, loudBase, drcBase, codec).Ok?
    ensures !Contains(BatchOutputMkv(keep, surround, inMkv, outMkv, loudBase, drcBase, codec).value[4], ",5:0,6:0")
    ensures Contains(CorrectedBatchOutputMkv(keep, surround, inMkv, outMkv, loudBase, drcBase, codec).value[4], ",5:0,6:0")
  {
    ThirdSurroundTrackMissing(keep, surround);
    CorrectedOrderPlacesThird(keep, surround);
    ThreeTracksArgs(surround, codec, loudBase, drcBase);
  }

  /** Three English or Japanese tracks with a known codec give their
      arguments. */
  lemma ThreeTracksArgs(surround: seq<SurroundTrack>, codec: string, loudBase: string, drcBase: string)
    requires surround == [["1", "eng"], ["2", "jpn"], ["3", "eng"]]
    requires codec == "flac" || codec == "aac"
    ensures BatchTracksArgs(surround, codec, loudBase, drcBase).Ok?
  {
    assert surround[1..][1..][1..] == [];
    assert LanguageName(surround[0][1]).Some? && LanguageName(surround[1][1]).Some? && LanguageName(surround[2][1]).Some?;
  }

  /** The first surround track's ten arguments open the list. */
  lemma BatchTracksArgsCons(surround: seq<SurroundTrack>, codec: string, loudBase: string, drcBase: string)
    requires BatchTracksArgs(surround, codec, loudBase, drcBase).Ok? && |surround| > 0
    ensures |surround[0]| >= 2 && LanguageName(surround[0][1]).Some? && CodecEntry(codec).Some?
    ensures BatchTracksArgs(surround[1..], codec, loudBase, drcBase).Ok?
    ensures BatchTracksArgs(surround, codec, loudBase, drcBase).value
         == TrackArgs(LanguageName(surround[0][1]).value, surround[0][1], CodecEntry(codec).value.0,
                      CodecEntry(codec).value.1, loudBase, drcBase)
            + BatchTracksArgs(surround[1..], codec, loudBase, drcBase).value
  {
  }

  /** The two files of one track's arguments are the step outputs. */
  lemma TrackArgsFiles(name: string, t: SurroundTrack, codec: string, loudBase: string, drcBase: string)
    requires |t| >= 2 && CodecEntry(codec).Some?
    ensures var a := TrackArgs(name, t[1], CodecEntry(codec).value.0, CodecEntry(codec).value.1, loudBase, drcBase);
      StepOutputFile(loudBase, t, codec) == Ok(a[4]) && StepOutputFile(drcBase, t, codec) == Ok(a[9])
  {
    var entry := CodecEntry(codec).value;
    var ext := if codec == "flac" then ".flac" else ".m4a";
    assert ext == "." + entry.1;
    var l := loudBase + "-" + t[1];
    var d := drcBase + "-" + t[1];
    assert l + "." + entry.1 == l + ext;
    assert d + "." + entry.1 == d + ext;
  }

  lemma IndexPastTen<T>(here: seq<T>, rest: seq<T>, i: nat)
    requires |here| == 10 && 10 <= i < 10 + |rest|
    ensures (here + rest)[i] == rest[i - 10]
  {
  }

  /** The files the mux adds for surround track k are exactly the files the
      loudnorm and DRC steps wrote for it. */
  lemma {:induction false} BatchMuxesStepOutputs(surround: seq<SurroundTrack>, codec: string, loudBase: string, drcBase: string, k: nat)
    requires BatchTracksArgs(surround, codec, loudBase, drcBase).Ok? && k < |surround|
    ensures var args := BatchTracksArgs(surround, codec, loudBase, drcBase).value;
      StepOutputFile(loudBase, surround[k], codec) == Ok(args[10 * k + 4])
      && StepOutputFile(drcBase, surround[k], codec) == Ok(args[10 * k + 9])
  {
    BatchTracksArgsCons(surround, codec, loudBase, drcBase);
    var t := surround[0];
    var entry := CodecEntry(codec).value;
    var here := TrackArgs(LanguageName(t[1]).value, t[1], entry.0, entry.1, loudBase, drcBase);
    var rest := BatchTracksArgs(surround[1..], codec, loudBase, drcBase).value;
    if k == 0 {
      TrackArgsFiles(LanguageName(t[1]).value, t, codec, loudBase, drcBase);
    } else {
      assert surround[1..][k - 1] == surround[k];
      BatchMuxesStepOutputs(surround[1..], codec, loudBase, drcBase, k - 1);
      IndexPastTen(here, rest, 10 * k + 4);
      IndexPastTen(here, rest, 10 * k + 9);
    }
  }

  /** replace_nightmode.py's language titles (its own spelling). */
  function ReplaceLanguageName(lang: string): Option<string>
  {
    if lang == "eng" then Some("English") else if lang == "jpn" then Some("Japenese") else None
  }

  /** The per-track arguments of replace_nightmode.py's outputMkv: only eng
      or jpn with flac or aac add anything; other pairs add nothing. */
  function ReplaceTracksArgs(surround: seq<SurroundTrack>, codec: string, loudBase: string, drcBase: string): (r: Result<seq<string>>)
    ensures r.Ok? <==> forall k :: 0 <= k < |surround| ==> |surround[k]| >= 2
    ensures r.Ok? ==> |r.value| % 10 == 0 && |r.value| <= 10 * |surround|
    ensures r.Ok? && CodecEntry(codec).None? ==> r.value == []
  {
    if |surround| == 0 then Ok([])
    else if |surround[0]| < 2 then Fail(IndexError)
    else
      var t := surround[0];
      var here := match (ReplaceLanguageName(t[1]), CodecEntry(codec))
        case (Some(name), Some(entry)) => TrackArgs(name, t[1], entry.0, entry.1, loudBase, drcBase)
        case _ => [];
      match ReplaceTracksArgs(surround[1..], codec, loudBase, drcBase)
      case Fail(e) => Fail(e)
      case Ok(rest) => Ok(here + rest)
  }

  /** For English tracks the two scripts add the same arguments; where the
      batch script raises KeyError the replace script adds nothing. */
  lemma {:induction false} ReplaceAgreesOnEnglish(surround: seq<SurroundTrack>, codec: string, loudBase: string, drcBase: string)
    requires CodecEntry(codec).Some?
    requires forall k :: 0 <= k < |surround| ==> |surround[k]| >= 2 && surround[k][1] == "eng"
    ensures ReplaceTracksArgs(surround, codec, loudBase, drcBase) == BatchTracksArgs(surround, codec, loudBase, drcBase)
  {
    if |surround| > 0 {
      ReplaceAgreesOnEnglish(surround[1..], codec, loudBase, drcBase);
    }
  }

  lemma ReplaceSkipsOtherLanguages(t: SurroundTrack, codec: string, loudBase: string, drcBase: string)
    requires |t| >= 2 && t[1] != "eng" && t[1] != "jpn"
    ensures ReplaceTracksArgs([t], codec, loudBase, drcBase) == Ok([])
    ensures BatchTracksArgs([t], codec, loudBase, drcBase) == Fail(KeyError)
  {
    assert [t][1..] == [];
  }

  /** The mkvmerge command of replace_nightmode.py's outputMkv; its
      genTrackOrder is batch_nightmode.py's. */
  function ReplaceOutputMkv(keep: seq<string>, surround: seq<SurroundTrack>, inMkv: string, outMkv: string,
                            loudBase: string, drcBase: string, codec: string): (r: Result<seq<string>>)
    ensures r.Ok? <==> TrackOrder(keep, surround).Ok? && ReplaceTracksArgs(surround, codec, loudBase, drcBase).Ok?
    ensures r.Ok? ==> |r.value| >= 8 && (|r.value| - 8) % 10 == 0
    ensures r.Ok? ==> r.value[..4] == ["mkvmerge", "-o", outMkv, "--track-order"] && r.value[7] == inMkv
    ensures r.Ok? ==> r.value[4] == TrackOrder(keep, surround).value.0
  {
    OutputMkvWith(TrackOrder(keep, surround), ReplaceTracksArgs(surround, codec, loudBase, drcBase), inMkv, outMkv)
  }

  /** Arguments appended after the head leave it in place. */
  lemma HeadKept(head: seq<string>, args: seq<string>)
    requires |head| == 8
    ensures |head + args| == 8 + |args| && (head + args)[..4] == head[..4]
    ensures forall i :: 4 <= i < 8 ==> (head + args)[i] == head[i]
  {
    assert (head + args)[..4] == head[..4];
  }
}

=== FILE: nightmode_norm.dfy ===
// The normalisation step of every night-mode revision: normAudio's decision
// on two peak measurements, the file operations the per-track pipelines
// perform around it, and the names they give the results. A run is a list
// of file operations; `Apply` says which files exist afterwards.
module NightmodeNorm {
  import opened Results
  import opened Text
  import opened PyPath
  import opened NightmodeAudio

  /** The two volumedetect readings normAudio takes: the peak of the file it
      is given, and the peak of the file its volume pass writes. */
  datatype Peaks = Peaks(measured: string, verified: string)

  /** What a pipeline does to the working directory. */
  datatype FileOp =
    | Filter(src: string, dst: string, filter: string)  // ffmpeg -af <filter>
    | VolumePass(src: string, dst: string)              // ffmpeg -af volume=<adj>dB
    | CopyFile(src: string, dst: string)                // shutil.copy2
    | Remove(path: string)                              // os.remove
    | Rename(src: string, dst: string)                  // os.rename
    | ToM4a(flac: string, m4a: string, keep: bool)      // flac -> aac, flac removed unless kept

  /** The files present after one operation. */
  function Step(files: set<string>, op: FileOp): set<string>
  {
    match op
    case Filter(_, dst, _) => files + {dst}
    case VolumePass(_, dst) => files + {dst}
    case CopyFile(_, dst) => files + {dst}
    case Remove(path) => files - {path}
    case Rename(src, dst) => files - {src} + {dst}
    case ToM4a(flac, m4a, keep) => (if keep then files else files - {flac}) + {m4a}
  }

  /** The files present after a run. */
  function Apply(files: set<string>, ops: seq<FileOp>): set<string>
    decreases |ops|
  {
    if |ops| == 0 then files else Apply(Step(files, ops[0]), ops[1..])
  }

  /** The names an operation can make disappear. */
  predicate Removes(op: FileOp, x: string)
  {
    (op.Remove? && op.path == x) || (op.Rename? && op.src == x && op.dst != x)
    || (op.ToM4a? && !op.keep && op.flac == x && op.m4a != x)
  }

  /** The names an operation creates. */
  predicate Creates(op: FileOp, x: string)
  {
    match op
    case Filter(_, dst, _) => dst == x
    case VolumePass(_, dst) => dst == x
    case CopyFile(_, dst) => dst == x
    case Remove(_) => false
    case Rename(_, dst) => dst == x
    case ToM4a(_, m4a, _) => m4a == x
  }

  lemma StepIn(files: set<string>, op: FileOp, x: string)
    ensures x in Step(files, op) <==> Creates(op, x) || (x in files && !Removes(op, x))
  {
  }

  lemma {:induction false} ApplyAppend(files: set<string>, a: seq<FileOp>, b: seq<FileOp>)
    ensures Apply(files, a + b) == Apply(Apply(files, a), b)
    decreases |a|
  {
    if |a| > 0 {
      assert (a + b)[1..] == a[1..] + b;
      ApplyAppend(Step(files, a[0]), a[1..], b);
    } else {
      assert a + b == b;
    }
  }

  /** A file is present after a run exactly when some operation created it
      (or it was there) and no later operation removed it. */
  lemma {:induction false} ApplyIn(files: set<string>, ops: seq<FileOp>, x: string)
    ensures x in Apply(files, ops) <==>
      ((x in files && forall j :: 0 <= j < |ops| ==> !Removes(ops[j], x))
       || exists i :: 0 <= i < |ops| && Creates(ops[i], x)
                      && forall j :: i < j < |ops| ==> !Removes(ops[j], x))
    decreases |ops|
  {
    if |ops| > 0 {
      StepIn(files, ops[0], x);
      ApplyIn(Step(files, ops[0]), ops[1..], x);
      var t := ops[1..];
      assert forall j :: 1 <= j < |ops| ==> ops[j] == t[j - 1];
      if exists i :: 0 <= i < |t| && Creates(t[i], x) && forall j :: i < j < |t| ==> !Removes(t[j], x) {
        var i :| 0 <= i < |t| && Creates(t[i], x) && forall j :: i < j < |t| ==> !Removes(t[j], x);
        assert Creates(ops[i + 1], x) && forall j :: i + 1 < j < |ops| ==> !Removes(ops[j], x);
      }
      if exists i :: 0 <= i < |ops| && Creates(ops[i], x) && forall j :: i < j < |ops| ==> !Removes(ops[j], x) {
        var i :| 0 <= i < |ops| && Creates(ops[i], x) && forall j :: i < j < |ops| ==> !Removes(ops[j], x);
        if i > 0 {
          assert Creates(t[i - 1], x) && forall j :: i - 1 < j < |t| ==> !Removes(t[j], x);
        }
      }
    }
  }

  lemma ApplyTwo(files: set<string>, ops: seq<FileOp>)
    requires |ops| == 2
    ensures Apply(files, ops) == Step(Step(files, ops[0]), ops[1])
  {
    assert ops[1..][1..] == [];
    assert Apply(files, ops) == Apply(Step(files, ops[0]), ops[1..]);
    assert Apply(Step(files, ops[0]), ops[1..]) == Apply(Step(Step(files, ops[0]), ops[1]), ops[1..][1..]);
  }

  lemma ApplyThree(files: set<string>, ops: seq<FileOp>)
    requires |ops| == 3
    ensures Apply(files, ops) == Step(Step(Step(files, ops[0]), ops[1]), ops[2])
  {
    assert ops[1..][0] == ops[1];
    ApplyTwo(Step(files, ops[0]), ops[1..]);
  }

  lemma ApplyFour(files: set<string>, ops: seq<FileOp>)
    requires |ops| == 4
    ensures Apply(files, ops) == Step(Step(Step(Step(files, ops[0]), ops[1]), ops[2]), ops[3])
  {
    assert ops[1..][0] == ops[1] && ops[1..][1] == ops[2] && ops[1..][2] == ops[3];
    ApplyThree(Step(files, ops[0]), ops[1..]);
  }

  /** A run with no operation that removes `x` keeps it. */
  lemma {:induction false} ApplyKeeps(files: set<string>, ops: seq<FileOp>, x: string)
    requires x in files
    requires forall j :: 0 <= j < |ops| ==> !Removes(ops[j], x)
    ensures x in Apply(files, ops)
    decreases |ops|
  {
    if |ops| > 0 {
      StepIn(files, ops[0], x);
      ApplyKeeps(Step(files, ops[0]), ops[1..], x);
    }
  }

  // ------------------------------------------------------------ normAudio

  /** normAudio's outcome: its return value and the operations it ran. */
  datatype NormRun = NormRun(normalized: bool, ops: seq<FileOp>)

  /** The peak string ffmpeg reports for a file already at 0 dB. */
  const ZeroPeak := "0.0"

  /** normAudio of nightmode/batch_nightmode.py: a zero peak counts as
      normalised without writing anything; otherwise the volume pass writes
      the FLAC named after `outFile`'s root, and only a verified peak
      converts it to m4a (for "aac"). */
  function BatchNorm(inFile: string, outFile: string, codec: string, maxdB: string, p: Peaks): (r: NormRun)
    ensures r.normalized <==> p.measured == ZeroPeak || p.verified == maxdB
    ensures r.ops == [] <==> p.measured == ZeroPeak
    ensures r.ops != [] ==> r.ops[0] == VolumePass(inFile, SplitExt(outFile).0 + ".flac")
    ensures (|r.ops| == 2) <==> (p.measured != ZeroPeak && p.verified == maxdB && codec == "aac")
  {
    if p.measured == ZeroPeak then NormRun(true, [])
    else
      var flac := SplitExt(outFile).0 + ".flac";
      if p.verified == maxdB then
        NormRun(true, [VolumePass(inFile, flac)]
                      + (if codec == "aac" then [ToM4a(flac, SplitExt(flac).0 + ".m4a", false)] else []))
      else NormRun(false, [VolumePass(inFile, flac)])
  }

  /** normAudio of nightmode/replace_nightmode.py: as the batch revision,
      but for "aac" the FLAC name is `outFile` cut at its first ".m4a", and
      the m4a name is the FLAC name cut at its first ".flac". */
  function ReplaceNorm(inFile: string, outFile: string, codec: string, maxdB: string, p: Peaks): (r: NormRun)
    ensures r.normalized <==> p.measured == ZeroPeak || p.verified == maxdB
    ensures r.ops == [] <==> p.measured == ZeroPeak
    ensures r.ops != [] ==> r.ops[0] == VolumePass(inFile, ReplaceFlacName(outFile, codec))
    ensures (|r.ops| == 2) <==> (p.measured != ZeroPeak && p.verified == maxdB && codec == "aac")
  {
    if p.measured == ZeroPeak then NormRun(true, [])
    else
      var flac := ReplaceFlacName(outFile, codec);
      if p.verified == maxdB then
        NormRun(true, [VolumePass(inFile, flac)]
                      + (if codec == "aac" then [ToM4a(flac, M4aName(flac), false)] else []))
      else NormRun(false, [VolumePass(inFile, flac)])
  }

  function ReplaceFlacName(outFile: string, codec: string): string
  {
    if codec == "aac" then BeforeFirst(outFile, ".m4a") + ".flac" else outFile
  }

  /** `flac.split('.flac')[0] + '.m4a'`, the m4a name of flacToM4a and
      encodeFlacToM4a; it never names the FLAC itself. */
  function M4aName(flac: string): (r: string)
    ensures r != flac
    ensures IsSuffix(".m4a", r)
  {
    var stem := BeforeFirst(flac, ".flac");
    assert |stem| < |flac| ==> OccursAt(flac, ".flac", |stem|);
    stem + ".m4a"
  }

  /** normAudio of utils/nightmode.py: a zero peak returns False without
      writing; a verified peak returns True; any other reading exits. */
  function UtilsNorm(inFile: string, outFile: string, maxdB: string, p: Peaks): (r: Result<NormRun>)
    ensures r.Fail? <==> p.measured != ZeroPeak && p.verified != maxdB
    ensures r.Fail? ==> r.failure == Exit(0)
    ensures r.Ok? ==> (r.value.normalized <==> p.measured != ZeroPeak)
    ensures r.Ok? ==> r.value.ops == (if r.value.normalized then [VolumePass(inFile, outFile)] else [])
  {
    if p.measured == ZeroPeak then Ok(NormRun(false, []))
    else if p.verified == maxdB then Ok(NormRun(true, [VolumePass(inFile, outFile)]))
    else Fail(Exit(0))
  }

  /** normAudio of batchconvert/encode_extras.py: the utils decision, with
      the m4a conversion of a verified "aac" track. */
  function ExtrasNorm(inFile: string, outFile: string, codec: string, maxdB: string, p: Peaks): (r: Result<NormRun>)
    ensures r.Fail? <==> p.measured != ZeroPeak && p.verified != maxdB
    ensures r.Fail? ==> r.failure == Exit(0)
    ensures r.Ok? ==> (r.value.normalized <==> p.measured != ZeroPeak)
    ensures r.Ok? && r.value.normalized ==> |r.value.ops| > 0 && r.value.ops[0] == VolumePass(inFile, outFile)
  {
    if p.measured == ZeroPeak then Ok(NormRun(false, []))
    else if p.verified == maxdB then
      Ok(NormRun(true, [VolumePass(inFile, outFile)]
                       + (if codec == "aac" then [ToM4a(outFile, M4aName(outFile), false)] else [])))
    else Fail(Exit(0))
  }

  /** On a non-zero peak the four revisions make the same decision: success
      exactly when the re-measured peak is the target (the later two exit
      where the earlier two return False). */
  lemma NormRevisionsAgree(inFile: string, outFile: string, codec: string, maxdB: string, p: Peaks)
    requires p.measured != ZeroPeak
    ensures BatchNorm(inFile, outFile, codec, maxdB, p).normalized == (p.verified == maxdB)
    ensures ReplaceNorm(inFile, outFile, codec, maxdB, p).normalized == (p.verified == maxdB)
    ensures UtilsNorm(inFile, outFile, maxdB, p).Ok? == (p.verified == maxdB)
    ensures ExtrasNorm(inFile, outFile, codec, maxdB, p).Ok? == (p.verified == maxdB)
    ensures UtilsNorm(inFile, outFile, maxdB, p).Ok? ==> UtilsNorm(inFile, outFile, maxdB, p).value.normalized
  {
  }

  /** On a zero peak they split: the night-mode scripts report success, the
      later two report failure; none of them writes a file. */
  lemma NormZeroPeakSplit(inFile: string, outFile: string, codec: string, maxdB: string, p: Peaks)
    requires p.measured == ZeroPeak
    ensures BatchNorm(inFile, outFile, codec, maxdB, p) == NormRun(true, [])
    ensures ReplaceNorm(inFile, outFile, codec, maxdB, p) == NormRun(true, [])
    ensures UtilsNorm(inFile, outFile, maxdB, p) == Ok(NormRun(false, []))
    ensures ExtrasNorm(inFile, outFile, codec, maxdB, p) == Ok(NormRun(false, []))
  {
  }

  /** For an "aac" track named root + ".m4a", the batch revision's FLAC is
      root + ".flac" and its m4a lands back on the requested name. */
  lemma BatchAacKeepsName(inFile: string, root: string, maxdB: string, p: Peaks)
    requires HasStem(root)
    requires p.measured != ZeroPeak && p.verified == maxdB
    ensures BatchNorm(inFile, root + ".m4a", "aac", maxdB, p).ops
            == [VolumePass(inFile, root + ".flac"), ToM4a(root + ".flac", root + ".m4a", false)]
  {
    SplitExtOfAppend(root, "m4a");
    SplitExtOfAppend(root, "flac");
    assert root + "." + "m4a" == root + ".m4a";
    assert root + "." + "flac" == root + ".flac";
  }

  /** The same for the replace revision, whose names are cut at the first
      ".m4a" and ".flac": the stem must not contain either. */
  lemma ReplaceAacKeepsName(inFile: string, stem: string, maxdB: string, p: Peaks)
    requires !Contains(stem, ".m4a") && !Contains(stem, ".flac")
    requires p.measured != ZeroPeak && p.verified == maxdB
    ensures ReplaceNorm(inFile, stem + ".m4a", "aac", maxdB, p).ops
            == [VolumePass(inFile, stem + ".flac"), ToM4a(stem + ".flac", stem + ".m4a", false)]
  {
    BeforeFirstOfAppend(stem, ".m4a");
    BeforeFirstOfAppend(stem, ".flac");
  }

  // ------------------------------------------------------------ per-track pipelines

  const PrenormFile := "prenorm.flac"
  const NorminFile := "normin.flac"
  const DownmixFile := "downmix.flac"

  /** The m4a step nightmodeTrack of utils/nightmode.py ends with: "both"
      keeps the FLAC beside the m4a, "aac" replaces it. */
  function CodecOps(outFile: string, codec: string): seq<FileOp>
  {
    if codec == "both" then [ToM4a(outFile, M4aName(outFile), true)]
    else if codec == "aac" then [ToM4a(outFile, M4aName(outFile), false)]
    else []
  }

  /** The filter list of nightmodeTrack: the compressor (with DRC) before
      loudnorm (with loudness normalisation), comma-joined. */
  function UtilsTrackFilter(withLoudNorm: bool, withDrc: bool): (r: string)
    ensures Split(r, ',') == (if withDrc then ["acompressor=ratio=4"] else []) + (if withLoudNorm then ["loudnorm"] else [])
            || (!withDrc && !withLoudNorm && r == "")
  {
    var parts := (if withDrc then ["acompressor=ratio=4"] else []) + (if withLoudNorm then ["loudnorm"] else []);
    assert forall i :: 0 <= i < |parts| ==> ',' !in parts[i];
    if |parts| > 0 then SplitJoin(parts, ','); Join([','], parts) else Join([','], parts)
  }

  /** nightmodeTrack of utils/nightmode.py. Without either filter the input
      is normalised straight to `outFile` (copied when already normalised,
      and never converted); otherwise the filtered audio goes to
      prenorm.flac, which is normalised into `outFile` and removed, or
      renamed to `outFile` when already normalised; then the codec step. */
  function UtilsNightmodeTrack(inFile: string, outFile: string, codec: string, withLoudNorm: bool, withDrc: bool,
                               maxdB: string, p: Peaks): (r: Result<seq<FileOp>>)
    ensures r.Fail? <==> ((UtilsNorm(inFile, outFile, maxdB, p).Fail? && !withLoudNorm && !withDrc)
                          || (UtilsNorm(PrenormFile, outFile, maxdB, p).Fail? && (withLoudNorm || withDrc)))
  {
    if !withLoudNorm && !withDrc then
      match UtilsNorm(inFile, outFile, maxdB, p)
      case Fail(f) => Fail(f)
      case Ok(run) => Ok(run.ops + (if run.normalized then [] else [CopyFile(inFile, outFile)]))
    else
      var pre := [Filter(inFile, PrenormFile, UtilsTrackFilter(withLoudNorm, withDrc))];
      match UtilsNorm(PrenormFile, outFile, maxdB, p)
      case Fail(f) => Fail(f)
      case Ok(run) =>
        Ok(pre + run.ops + (if run.normalized then [Remove(PrenormFile)] else [Rename(PrenormFile, outFile)])
           + CodecOps(outFile, codec))
  }

  lemma M4aNotPrenorm(outFile: string)
    ensures M4aName(outFile) != PrenormFile
  {
    var m4a := M4aName(outFile);
    assert m4a[|m4a| - 1] == 'a';
    assert PrenormFile[|PrenormFile| - 1] == 'c';
  }

  /** An unfiltered track: the volume pass or the copy writes the output. */
  lemma PlainTrackLeaves(files: set<string>, inFile: string, outFile: string, maxdB: string, p: Peaks)
    requires UtilsNorm(inFile, outFile, maxdB, p).Ok?
    ensures var run := UtilsNorm(inFile, outFile, maxdB, p).value;
      outFile in Apply(files, run.ops + (if run.normalized then [] else [CopyFile(inFile, outFile)]))
  {
    var run := UtilsNorm(inFile, outFile, maxdB, p).value;
    var ops := run.ops + (if run.normalized then [] else [CopyFile(inFile, outFile)]);
    assert |ops| == 1 && Creates(ops[0], outFile);
    assert Apply(files, ops) == Step(files, ops[0]);
  }

  /** A filtered track up to its codec step: the output is written and
      prenorm.flac is gone. */
  lemma FilteredTrackLeaves(files: set<string>, inFile: string, outFile: string, filter: string, maxdB: string, p: Peaks)
    requires outFile != PrenormFile && UtilsNorm(PrenormFile, outFile, maxdB, p).Ok?
    ensures var run := UtilsNorm(PrenormFile, outFile, maxdB, p).value;
      var mid := [Filter(inFile, PrenormFile, filter)] + run.ops
                 + (if run.normalized then [Remove(PrenormFile)] else [Rename(PrenormFile, outFile)]);
      PrenormFile !in Apply(files, mid) && outFile in Apply(files, mid)
  {
    var run := UtilsNorm(PrenormFile, outFile, maxdB, p).value;
    var mid := [Filter(inFile, PrenormFile, filter)] + run.ops
               + (if run.normalized then [Remove(PrenormFile)] else [Rename(PrenormFile, outFile)]);
    if run.normalized {
      assert mid == [Filter(inFile, PrenormFile, filter), VolumePass(PrenormFile, outFile), Remove(PrenormFile)];
      ApplyThree(files, mid);
    } else {
      assert mid == [Filter(inFile, PrenormFile, filter), Rename(PrenormFile, outFile)];
      ApplyTwo(files, mid);
    }
  }

  /** The codec step: "aac" replaces the output by its m4a, the others keep
      it; none brings prenorm.flac back. */
  lemma CodecOpsLeave(files: set<string>, outFile: string, codec: string)
    requires outFile in files && PrenormFile !in files && outFile != PrenormFile
    ensures var after := Apply(files, CodecOps(outFile, codec));
      PrenormFile !in after
      && (codec != "aac" ==> outFile in after)
      && (codec == "aac" ==> M4aName(outFile) in after && outFile !in after)
  {
    M4aNotPrenorm(outFile);
    var ops := CodecOps(outFile, codec);
    if |ops| == 1 {
      assert Apply(files, ops) == Step(files, ops[0]);
    }
  }

  /** Whatever the peaks, a completed utils track leaves its output (the
      m4a alone for a filtered "aac" track) and never leaves prenorm.flac
      behind when it made one. */
  lemma UtilsTrackLeavesOutput(files: set<string>, inFile: string, outFile: string, codec: string,
                               withLoudNorm: bool, withDrc: bool, maxdB: string, p: Peaks)
    requires outFile != PrenormFile
    ensures var r := UtilsNightmodeTrack(inFile, outFile, codec, withLoudNorm, withDrc, maxdB, p);
      r.Ok? ==>
        var after := Apply(files, r.value);
        ((withLoudNorm || withDrc) ==> PrenormFile !in after)
        && ((codec != "aac" || (!withLoudNorm && !withDrc)) ==> outFile in after)
        && ((codec == "aac" && (withLoudNorm || withDrc)) ==> M4aName(outFile) in after && outFile !in after)
  {
    var r := UtilsNightmodeTrack(inFile, outFile, codec, withLoudNorm, withDrc, maxdB, p);
    if r.Ok? {
      if !withLoudNorm && !withDrc {
        PlainTrackLeaves(files, inFile, outFile, maxdB, p);
      } else {
        var filter := UtilsTrackFilter(withLoudNorm, withDrc);
        var run := UtilsNorm(PrenormFile, outFile, maxdB, p).value;
        var mid := [Filter(inFile, PrenormFile, filter)] + run.ops
                   + (if run.normalized then [Remove(PrenormFile)] else [Rename(PrenormFile, outFile)]);
        assert r.value == mid + CodecOps(outFile, codec);
        ApplyAppend(files, mid, CodecOps(outFile, codec));
        FilteredTrackLeaves(files, inFile, outFile, filter, maxdB, p);
        CodecOpsLeave(Apply(files, mid), outFile, codec);
      }
    }
  }

  /** A track run without "aac" removes nothing but prenorm.flac. */
  lemma UtilsTrackRemovesOnlyPrenorm(inFile: string, outFile: string, codec: string, withLoudNorm: bool,
                                     withDrc: bool, maxdB: string, p: Peaks, x: string)
    requires codec != "aac" && x != PrenormFile
    ensures var r := UtilsNightmodeTrack(inFile, outFile, codec, withLoudNorm, withDrc, maxdB, p);
      r.Ok? ==> forall j :: 0 <= j < |r.value| ==> !Removes(r.value[j], x)
  {
  }

  /** The night-mode files of utils/nightmode.py's createNightmodeTracks:
      the input name before its first "." + ext, with the three suffixes. */
  function UtilsNightmodeNames(inFile: string, ext: string): (r: (string, string, string))
    ensures r.0 != r.1 && r.1 != r.2 && r.0 != r.2
    ensures r.0 !in {DownmixFile, PrenormFile} && r.1 !in {DownmixFile, PrenormFile} && r.2 !in {DownmixFile, PrenormFile}
  {
    var stem := BeforeFirst(inFile, "." + ext);
    (stem + "-nightmode.flac", stem + "-nightmode-loudnorm.flac", stem + "-nightmode-drc.flac")
  }

  /** For an input named stem + "." + ext the names keep the stem. */
  lemma UtilsNamesOfStem(stem: string, ext: string)
    requires '.' !in ext && !Contains(stem, "." + ext)
    ensures UtilsNightmodeNames(stem + "." + ext, ext)
            == (stem + "-nightmode.flac", stem + "-nightmode-loudnorm.flac", stem + "-nightmode-drc.flac")
  {
    assert ("." + ext)[1..] == ext;
    assert stem + "." + ext == stem + ("." + ext);
    BeforeFirstOfAppend(stem, "." + ext);
  }

  /** Peaks for the three nightmodeTrack calls. */
  datatype TrackPeaks = TrackPeaks(downmixOnly: Peaks, loudnorm: Peaks, drc: Peaks)

  /** createNightmodeTracks of utils/nightmode.py: downmix to downmix.flac
      with getffFilter(0.707, 1.0, 1.0), then the plain, loudnorm and
      DRC+loudnorm tracks from it, then remove downmix.flac. */
  function UtilsCreateNightmodeTracks(codec: string, ext: string, inFile: string, fmt: real -> string,
                                      maxdB: string, peaks: TrackPeaks): (r: Result<seq<FileOp>>)
    ensures r.Ok? ==> |r.value| > 0 && r.value[0] == Filter(inFile, DownmixFile, UtilsPanFilter(fmt, 0.707, 1.0, 1.0))
    ensures r.Ok? ==> r.value[|r.value| - 1] == Remove(DownmixFile)
  {
    var names := UtilsNightmodeNames(inFile, ext);
    var downmix := [Filter(inFile, DownmixFile, UtilsPanFilter(fmt, 0.707, 1.0, 1.0))];
    match UtilsNightmodeTrack(DownmixFile, names.0, codec, false, false, maxdB, peaks.downmixOnly)
    case Fail(f) => Fail(f)
    case Ok(t1) =>
      match UtilsNightmodeTrack(DownmixFile, names.1, codec, true, false, maxdB, peaks.loudnorm)
      case Fail(f) => Fail(f)
      case Ok(t2) =>
        match UtilsNightmodeTrack(DownmixFile, names.2, codec, true, true, maxdB, peaks.drc)
        case Fail(f) => Fail(f)
        case Ok(t3) => Ok(downmix + t1 + t2 + t3 + [Remove(DownmixFile)])
  }

  /** Without "aac", a completed run leaves all three night-mode files and
      neither intermediate. */
  lemma UtilsCreateLeavesTracks(files: set<string>, codec: string, ext: string, inFile: string,
                                fmt: real -> string, maxdB: string, peaks: TrackPeaks)
    requires codec != "aac"
    ensures var r := UtilsCreateNightmodeTracks(codec, ext, inFile, fmt, maxdB, peaks);
      var names := UtilsNightmodeNames(inFile, ext);
      r.Ok? ==>
        var after := Apply(files, r.value);
        names.0 in after && names.1 in after && names.2 in after
        && DownmixFile !in after && PrenormFile !in after
  {
    var r := UtilsCreateNightmodeTracks(codec, ext, inFile, fmt, maxdB, peaks);
    var names := UtilsNightmodeNames(inFile, ext);
    if r.Ok? {
      var d := [Filter(inFile, DownmixFile, UtilsPanFilter(fmt, 0.707, 1.0, 1.0))];
      var t1 := UtilsNightmodeTrack(DownmixFile, names.0, codec, false, false, maxdB, peaks.downmixOnly).value;
      var t2 := UtilsNightmodeTrack(DownmixFile, names.1, codec, true, false, maxdB, peaks.loudnorm).value;
      var t3 := UtilsNightmodeTrack(DownmixFile, names.2, codec, true, true, maxdB, peaks.drc).value;
      assert r.value == d + t1 + t2 + t3 + [Remove(DownmixFile)];
      var s0 := Apply(files, d);
      var s1 := Apply(s0, t1);
      var s2 := Apply(s1, t2);
      UtilsTrackLeavesOutput(s0, DownmixFile, names.0, codec, false, false, maxdB, peaks.downmixOnly);
      UtilsTrackLeavesOutput(s1, DownmixFile, names.1, codec, true, false, maxdB, peaks.loudnorm);
      UtilsTrackLeavesOutput(s2, DownmixFile, names.2, codec, true, true, maxdB, peaks.drc);
      UtilsTrackRemovesOnlyPrenorm(DownmixFile, names.1, codec, true, false, maxdB, peaks.loudnorm, names.0);
      UtilsTrackRemovesOnlyPrenorm(DownmixFile, names.2, codec, true, true, maxdB, peaks.drc, names.0);
      UtilsTrackRemovesOnlyPrenorm(DownmixFile, names.2, codec, true, true, maxdB, peaks.drc, names.1);
      ThreeTracksLeave(files, d, t1, t2, t3, names.0, names.1, names.2);
    }
  }

  /** Three track runs and the final removal of the downmix: what each run
      leaves and the later runs keep is present at the end. */
  lemma ThreeTracksLeave(files: set<string>, d: seq<FileOp>, t1: seq<FileOp>, t2: seq<FileOp>, t3: seq<FileOp>,
                         n0: string, n1: string, n2: string)
    requires n0 != DownmixFile && n1 != DownmixFile && n2 != DownmixFile
    requires n0 in Apply(Apply(files, d), t1)
    requires n1 in Apply(Apply(Apply(files, d), t1), t2)
    requires n2 in Apply(Apply(Apply(Apply(files, d), t1), t2), t3)
    requires PrenormFile !in Apply(Apply(Apply(Apply(files, d), t1), t2), t3)
    requires forall j :: 0 <= j < |t2| ==> !Removes(t2[j], n0)
    requires forall j :: 0 <= j < |t3| ==> !Removes(t3[j], n0) && !Removes(t3[j], n1)
    ensures var after := Apply(files, d + t1 + t2 + t3 + [Remove(DownmixFile)]);
      n0 in after && n1 in after && n2 in after && DownmixFile !in after && PrenormFile !in after
  {
    var s1 := Apply(Apply(files, d), t1);
    var s2 := Apply(s1, t2);
    var s3 := Apply(s2, t3);
    ApplyAppend(files, d, t1);
    ApplyAppend(files, d + t1, t2);
    ApplyAppend(files, d + t1 + t2, t3);
    ApplyAppend(files, d + t1 + t2 + t3, [Remove(DownmixFile)]);
    assert Apply(s3, [Remove(DownmixFile)]) == s3 - {DownmixFile};
    ApplyKeeps(s1, t2, n0);
    ApplyKeeps(s2, t3, n0);
    ApplyKeeps(s2, t3, n1);
  }

  // ------------------------------------------------------------ the filtered revisions

  /** nightmode() of nightmode/batch_nightmode.py: the filtered audio goes to
      normin.flac, normAudio runs on it, and normin.flac is removed when
      normAudio reports success. */
  function BatchNightmode(inFile: string, outFile: string, codec: string, maxdB: string, filter: string,
                          p: Peaks): (r: seq<FileOp>)
    ensures |r| > 0 && r[0] == Filter(inFile, NorminFile, filter)
    ensures Remove(NorminFile) in r <==> BatchNorm(NorminFile, outFile, codec, maxdB, p).normalized
  {
    var run := BatchNorm(NorminFile, outFile, codec, maxdB, p);
    [Filter(inFile, NorminFile, filter)] + run.ops + (if run.normalized then [Remove(NorminFile)] else [])
  }

  /** nightmodeLoudnorm / nightmodeDRCplusLoudnorm of the batch revision. */
  function BatchNightmodeTrack(inFile: string, outFile: string, codec: string, maxdB: string, fmt: real -> string,
                               withDrc: bool, p: Peaks): seq<FileOp>
  {
    BatchNightmode(inFile, outFile, codec, maxdB, BatchNightmodeFilter(BatchPanFilter(fmt, 0.60, 0.60), withDrc), p)
  }

  /** The same two functions of nightmode/replace_nightmode.py, with the
      fixed filter text and the replace revision's normAudio. */
  function ReplaceNightmodeTrack(inFile: string, outFile: string, codec: string, maxdB: string, withDrc: bool,
                                 p: Peaks): (r: seq<FileOp>)
    ensures |r| > 0 && r[0] == Filter(inFile, NorminFile, BatchNightmodeFilter(FixedPanFilter, withDrc))
    ensures Remove(NorminFile) in r <==> ReplaceNorm(NorminFile, outFile, codec, maxdB, p).normalized
  {
    var run := ReplaceNorm(NorminFile, outFile, codec, maxdB, p);
    [Filter(inFile, NorminFile, BatchNightmodeFilter(FixedPanFilter, withDrc))] + run.ops
      + (if run.normalized then [Remove(NorminFile)] else [])
  }

  /** As written, a filtered track whose peak already reads 0.0 dB is
      reported normalised with nothing written, and normin.flac, the only
      copy of the filtered audio, is then removed: the night-mode track
      never appears. */
  lemma BatchZeroPeakLosesTrack(files: set<string>, inFile: string, outFile: string, codec: string,
                                maxdB: string, filter: string, p: Peaks)
    requires p.measured == ZeroPeak
    ensures Apply(files, BatchNightmode(inFile, outFile, codec, maxdB, filter, p)) == files - {NorminFile}
    ensures outFile !in files ==> outFile !in Apply(files, BatchNightmode(inFile, outFile, codec, maxdB, filter, p))
  {
    var ops := BatchNightmode(inFile, outFile, codec, maxdB, filter, p);
    assert ops == [Filter(inFile, NorminFile, filter), Remove(NorminFile)];
    ApplyTwo(files, ops);
  }

  /** The FLAC name the batch revision writes for `outFile`. */
  function BatchFlacName(outFile: string): string
  {
    SplitExt(outFile).0 + ".flac"
  }

  /** The batch pipeline as evidently intended: an already-normalised
      normin.flac becomes the output (converted for "aac"), as the later
      utils/nightmode.py revision does by renaming it. */
  function CorrectedBatchNightmode(inFile: string, outFile: string, codec: string, maxdB: string, filter: string,
                                   p: Peaks): (r: seq<FileOp>)
    ensures |r| > 0 && r[0] == Filter(inFile, NorminFile, filter)
    ensures p.measured != ZeroPeak ==> r == BatchNightmode(inFile, outFile, codec, maxdB, filter, p)
  {
    if p.measured == ZeroPeak then
      var flac := BatchFlacName(outFile);
      [Filter(inFile, NorminFile, filter), Rename(NorminFile, flac)]
        + (if codec == "aac" then [ToM4a(flac, SplitExt(flac).0 + ".m4a", false)] else [])
    else BatchNightmode(inFile, outFile, codec, maxdB, filter, p)
  }

  /** The three endings of the corrected batch pipeline, on names alone:
      renamed, normalised and removed, or left unverified. */
  lemma RenamedLeaves(files: set<string>, f: FileOp, flac: string, m4a: string)
    requires f.Filter? && f.dst == NorminFile
    ensures flac in Apply(files, [f, Rename(NorminFile, flac)])
    ensures m4a in Apply(files, [f, Rename(NorminFile, flac), ToM4a(flac, m4a, false)])
  {
    ApplyTwo(files, [f, Rename(NorminFile, flac)]);
    ApplyThree(files, [f, Rename(NorminFile, flac), ToM4a(flac, m4a, false)]);
  }

  lemma NormalisedLeaves(files: set<string>, f: FileOp, flac: string, m4a: string)
    requires f.Filter? && f.dst == NorminFile && flac != NorminFile && m4a != NorminFile
    ensures flac in Apply(files, [f, VolumePass(NorminFile, flac), Remove(NorminFile)])
    ensures m4a in Apply(files, [f, VolumePass(NorminFile, flac), ToM4a(flac, m4a, false), Remove(NorminFile)])
  {
    ApplyThree(files, [f, VolumePass(NorminFile, flac), Remove(NorminFile)]);
    ApplyFour(files, [f, VolumePass(NorminFile, flac), ToM4a(flac, m4a, false), Remove(NorminFile)]);
  }

  lemma UnverifiedLeaves(files: set<string>, f: FileOp, flac: string)
    requires f.Filter? && f.dst == NorminFile
    ensures flac in Apply(files, [f, VolumePass(NorminFile, flac)])
  {
    ApplyTwo(files, [f, VolumePass(NorminFile, flac)]);
  }

  /** Whatever the peaks, the corrected pipeline leaves a track: the m4a
      when an "aac" track is normalised, the FLAC otherwise. */
  lemma CorrectedBatchKeepsTrack(files: set<string>, inFile: string, outFile: string, codec: string,
                                 maxdB: string, filter: string, p: Peaks)
    requires BatchFlacName(outFile) != NorminFile
    ensures var after := Apply(files, CorrectedBatchNightmode(inFile, outFile, codec, maxdB, filter, p));
      var flac := BatchFlacName(outFile);
      var m4a := SplitExt(flac).0 + ".m4a";
      (codec == "aac" && (p.measured == ZeroPeak || p.verified == maxdB) ==> m4a in after)
      && (codec != "aac" || (p.measured != ZeroPeak && p.verified != maxdB) ==> flac in after)
  {
    var flac := BatchFlacName(outFile);
    var m4a := SplitExt(flac).0 + ".m4a";
    assert m4a != NorminFile by { assert m4a[|m4a| - 1] == 'a'; }
    var ops := CorrectedBatchNightmode(inFile, outFile, codec, maxdB, filter, p);
    var f := Filter(inFile, NorminFile, filter);
    if p.measured == ZeroPeak {
      RenamedLeaves(files, f, flac, m4a);
      if codec == "aac" {
        assert ops == [f, Rename(NorminFile, flac), ToM4a(flac, m4a, false)];
      } else {
        assert ops == [f, Rename(NorminFile, flac)];
      }
    } else if p.verified == maxdB {
      NormalisedLeaves(files, f, flac, m4a);
      if codec == "aac" {
        assert ops == [f, VolumePass(NorminFile, flac), ToM4a(flac, m4a, false), Remove(NorminFile)];
      } else {
        assert ops == [f, VolumePass(NorminFile, flac), Remove(NorminFile)];
      }
    } else {
      assert ops == [f, VolumePass(NorminFile, flac)];
      UnverifiedLeaves(files, f, flac);
    }
  }

  /** nightmodeTrack of batchconvert/encode_extras.py: the fixed filter
      (with or without the compressor) into prenorm.flac, that revision's
      normAudio, and prenorm.flac removed only on success. */
  function ExtrasNightmodeTrack(inFile: string, outFile: string, codec: string, withDrc: bool, maxdB: string,
                                p: Peaks): (r: Result<seq<FileOp>>)
    ensures r.Fail? <==> ExtrasNorm(PrenormFile, outFile, codec, maxdB, p).Fail?
    ensures r.Ok? ==> |r.value| > 0 && r.value[0] == Filter(inFile, PrenormFile, BatchNightmodeFilter(FixedPanFilter, withDrc))
  {
    match ExtrasNorm(PrenormFile, outFile, codec, maxdB, p)
    case Fail(f) => Fail(f)
    case Ok(run) =>
      Ok([Filter(inFile, PrenormFile, BatchNightmodeFilter(FixedPanFilter, withDrc))] + run.ops
         + (if run.normalized then [Remove(PrenormFile)] else []))
  }

  /** As written, a zero peak leaves prenorm.flac in place and never
      creates the track. */
  lemma ExtrasZeroPeakNoOutput(files: set<string>, inFile: string, outFile: string, codec: string,
                               withDrc: bool, maxdB: string, p: Peaks)
    requires p.measured == ZeroPeak
    ensures var r := ExtrasNightmodeTrack(inFile, outFile, codec, withDrc, maxdB, p);
      r.Ok? && Apply(files, r.value) == files + {PrenormFile}
    ensures outFile !in files && outFile != PrenormFile ==>
      outFile !in Apply(files, ExtrasNightmodeTrack(inFile, outFile, codec, withDrc, maxdB, p).value)
  {
    var r := ExtrasNightmodeTrack(inFile, outFile, codec, withDrc, maxdB, p);
    assert r.value == [Filter(inFile, PrenormFile, BatchNightmodeFilter(FixedPanFilter, withDrc))];
    assert r.value[1..] == [];
  }

  /** The encode_extras pipeline as evidently intended: an unnormalised
      prenorm.flac is renamed to the output, as utils/nightmode.py does. */
  function CorrectedExtrasNightmodeTrack(inFile: string, outFile: string, codec: string, withDrc: bool,
                                         maxdB: string, p: Peaks): (r: Result<seq<FileOp>>)
    ensures r.Fail? <==> ExtrasNorm(PrenormFile, outFile, codec, maxdB, p).Fail?
    ensures p.measured != ZeroPeak ==> r == ExtrasNightmodeTrack(inFile, outFile, codec, withDrc, maxdB, p)
  {
    match ExtrasNorm(PrenormFile, outFile, codec, maxdB, p)
    case Fail(f) => Fail(f)
    case Ok(run) =>
      Ok([Filter(inFile, PrenormFile, BatchNightmodeFilter(FixedPanFilter, withDrc))] + run.ops
         + (if run.normalized then [Remove(PrenormFile)] else [Rename(PrenormFile, outFile)]))
  }

  /** Every completed corrected run leaves no prenorm.flac and a track:
      the m4a for a normalised "aac" track, `outFile` otherwise. */
  lemma CorrectedExtrasKeepsTrack(files: set<string>, inFile: string, outFile: string, codec: string,
                                  withDrc: bool, maxdB: string, p: Peaks)
    requires outFile != PrenormFile
    ensures var r := CorrectedExtrasNightmodeTrack(inFile, outFile, codec, withDrc, maxdB, p);
      r.Ok? ==>
        var after := Apply(files, r.value);
        PrenormFile !in after
        && (codec == "aac" && p.measured != ZeroPeak ==> M4aName(outFile) in after)
        && (codec != "aac" || p.measured == ZeroPeak ==> outFile in after)
  {
    var r := CorrectedExtrasNightmodeTrack(inFile, outFile, codec, withDrc, maxdB, p);
    if r.Ok? {
      var m4a := M4aName(outFile);
      assert m4a != PrenormFile by { assert PrenormFile[|PrenormFile| - 1] == 'c'; }
      var f := Filter(inFile, PrenormFile, BatchNightmodeFilter(FixedPanFilter, withDrc));
      if p.measured == ZeroPeak {
        assert r.value == [f, Rename(PrenormFile, outFile)];
        ApplyTwo(files, r.value);
      } else if codec == "aac" {
        assert r.value == [f, VolumePass(PrenormFile, outFile), ToM4a(outFile, m4a, false), Remove(PrenormFile)];
        ApplyFour(files, r.value);
      } else {
        assert r.value == [f, VolumePass(PrenormFile, outFile), Remove(PrenormFile)];
        ApplyThree(files, r.value);
      }
    }
  }
}

=== FILE: nightmode_queue.dfy ===
// The job queue around the per-file stage machine: batch_nightmode.py and
// replace_nightmode.py both run a list of jobs, record the jobs still to do
// in a resume file after each one, and delete that file after the last job.
// batch_nightmode.py stores the list together with a hash of the jobs
// database and only trusts it when the hash still matches.
module NightmodeQueue {
  import opened Results
  import opened Lists
  import opened Text
  import Prompts
  import NightmodeJobs
  import NightmodeMkv

  /** resume_database.json: the hash of jobs_database.json it was written
      against and the jobs still to run. The hash is an opaque string. */
  datatype ResumeDb<J> = ResumeDb(jobsHash: string, jobList: seq<J>)

  /** What one pass of the main loop does, in order. */
  datatype QueueEvent<J> =
    | Ran(job: J)               // the job's stage machine ran to its end
    | Saved(rest: seq<J>)       // the resume file was rewritten with `rest`
    | Removed                   // the resume file was deleted

  /** The queue batch_nightmode.py runs: the resume database's list when its
      hash matches the current jobs database, the jobs database otherwise. */
  function BatchQueue<J>(jobs: seq<J>, jobsHash: string, saved: Option<ResumeDb<J>>): (q: seq<J>)
    ensures q == jobs || (saved.Some? && q == saved.value.jobList)
    ensures saved.Some? && saved.value.jobsHash == jobsHash ==> q == saved.value.jobList
  {
    match saved
    case Some(db) => if db.jobsHash == jobsHash then db.jobList else jobs
    case None => jobs
  }

  /** The queue replace_nightmode.py runs: the resume list whenever the
      file exists, with no check that it belongs to the current work list. */
  function ReplaceQueue<J>(work: seq<J>, saved: Option<seq<J>>): (q: seq<J>)
    ensures saved.Some? ==> q == saved.value
    ensures saved.None? ==> q == work
  {
    if saved.Some? then saved.value else work
  }

  /** The main loop over `queue` from job `i`, stopping before job `stop`
      (`stop < |queue|` is a run interrupted inside job `stop`). `remaining`
      is the copy of the queue that is popped and saved after each job; the
      resume file goes when the job just run equals the queue's last job.
      The job is compared as its run leaves it, `after(job)`: outputMkv
      sorts and extends its keepTracks in place (AfterMux). The last job is
      the very object compared with, so it always matches; every other job
      is compared with the last one as it was loaded. */
  function QueueLoop<J(==)>(queue: seq<J>, i: nat, remaining: seq<J>, stop: nat, after: J -> J): (r: seq<QueueEvent<J>>)
    requires i <= stop <= |queue|
    ensures |r| >= stop - i
    decreases stop - i
  {
    if i == stop then []
    else
      var job := queue[i];
      var save := if |remaining| != 0 then [Saved(remaining[1..])] else [];
      var rest := if |remaining| != 0 then remaining[1..] else remaining;
      var remove := if i == |queue| - 1 || after(job) == queue[|queue| - 1] then [Removed] else [];
      [Ran(job)] + save + remove + QueueLoop(queue, i + 1, rest, stop, after)
  }

  /** No job before the last one, as its run leaves it, equals the last
      job: the resume file then survives until the end. */
  predicate LastUnmatched<J(==)>(queue: seq<J>, after: J -> J)
  {
    forall i :: 0 <= i < |queue| - 1 ==> after(queue[i]) != queue[|queue| - 1]
  }

  /** Distinct jobs that their runs leave as they were never match the last. */
  lemma DistinctSettledUnmatched<J>(queue: seq<J>, after: J -> J)
    requires Distinct(queue)
    requires forall i :: 0 <= i < |queue| ==> after(queue[i]) == queue[i]
    ensures LastUnmatched(queue, after)
  {
  }

  /** The job as batch_nightmode.py's outputMkv leaves it: genTrackOrder
      appends the surround ids missing from keepTracks and sorts the list in
      place. A surround track without an id raises inside genTrackOrder
      before the list is touched. */
  function AfterMux(job: NightmodeJobs.Job): (r: NightmodeJobs.Job)
    ensures r.sourceFile == job.sourceFile && r.tracks.surroundTracks == job.tracks.surroundTracks
      && r.tracks.codec == job.tracks.codec
    ensures NightmodeMkv.SurroundIds(job.tracks.surroundTracks).Ok? ==>
      Sorted(r.tracks.keepTracks)
      && forall x :: x in r.tracks.keepTracks <==> x in job.tracks.keepTracks || x in NightmodeMkv.SurroundIds(job.tracks.surroundTracks).value
    ensures NightmodeMkv.SurroundIds(job.tracks.surroundTracks).Fail? ==> r == job
  {
    match NightmodeMkv.SurroundIds(job.tracks.surroundTracks)
    case Fail(_) => job
    case Ok(ids) => job.(tracks := job.tracks.(keepTracks := NightmodeMkv.FinalKeep(job.tracks.keepTracks, ids)))
  }

  /** The jobs that ran, in order. */
  function RanJobs<J>(events: seq<QueueEvent<J>>): (r: seq<J>)
    ensures |r| <= |events|
  {
    if |events| == 0 then []
    else (if events[0].Ran? then [events[0].job] else []) + RanJobs(events[1..])
  }

  /** The resume file after the events, from `file`; `content` is what a
      saved list looks like on disk. Deleting a missing file is an OSError. */
  function FileAfter<J, C>(file: Option<C>, events: seq<QueueEvent<J>>, content: seq<J> -> C): (r: Result<Option<C>>)
    ensures |events| == 0 ==> r == Ok(file)
    decreases |events|
  {
    if |events| == 0 then Ok(file)
    else match events[0]
      case Ran(_) => FileAfter(file, events[1..], content)
      case Saved(rest) => FileAfter(Some(content(rest)), events[1..], content)
      case Removed =>
        if file.None? then Fail(OSError) else FileAfter(None, events[1..], content)
  }

  /** What batch_nightmode.py writes: the list with the jobs database's hash. */
  function BatchContent<J>(jobsHash: string): seq<J> -> ResumeDb<J>
  {
    rest => ResumeDb(jobsHash, rest)
  }

  // ------------------------------------------------------------ lemmas

  lemma RanJobsAppend<J>(a: seq<QueueEvent<J>>, b: seq<QueueEvent<J>>)
    ensures RanJobs(a + b) == RanJobs(a) + RanJobs(b)
  {
    if |a| == 0 {
      assert a + b == b;
    } else {
      assert (a + b)[1..] == a[1..] + b;
      assert (a + b)[0] == a[0];
      RanJobsAppend(a[1..], b);
    }
  }

  lemma FileAfterAppend<J, C>(file: Option<C>, a: seq<QueueEvent<J>>, b: seq<QueueEvent<J>>, content: seq<J> -> C)
    ensures FileAfter(file, a + b, content) ==
      (match FileAfter(file, a, content)
       case Ok(f) => FileAfter(f, b, content)
       case Fail(e) => Fail(e))
    decreases |a|
  {
    if |a| == 0 {
      assert a + b == b;
    } else {
      assert (a + b)[1..] == a[1..] + b;
      assert (a + b)[0] == a[0];
      match a[0]
      case Ran(_) => FileAfterAppend(file, a[1..], b, content);
      case Saved(rest) => FileAfterAppend(Some(content(rest)), a[1..], b, content);
      case Removed =>
        if file.Some? { FileAfterAppend(None, a[1..], b, content); }
    }
  }

  /** The events of one pass: run, save, and delete when `last`. */
  function Pass<J>(job: J, rest: seq<J>, last: bool): seq<QueueEvent<J>>
  {
    if last then [Ran(job), Saved(rest), Removed] else [Ran(job), Saved(rest)]
  }

  lemma PassRuns<J>(job: J, rest: seq<J>, last: bool)
    ensures RanJobs(Pass(job, rest, last)) == [job]
  {
    var p := Pass(job, rest, last);
    var tail: seq<QueueEvent<J>> := if last then [Removed] else [];
    assert p[1..][1..] == tail;
    assert RanJobs(tail) == [] by {
      if last { assert tail[1..] == []; }
    }
    assert RanJobs(p[1..]) == [];
  }

  lemma PassFile<J, C>(file: Option<C>, job: J, rest: seq<J>, last: bool, content: seq<J> -> C)
    ensures FileAfter(file, Pass(job, rest, last), content) == Ok(if last then None else Some(content(rest)))
  {
    var p := Pass(job, rest, last);
    var tail: seq<QueueEvent<J>> := if last then [Removed] else [];
    assert p[1..][1..] == tail;
    assert FileAfter(Some(content(rest)), tail, content) == Ok(if last then None else Some(content(rest))) by {
      if last { assert tail[1..] == []; }
    }
  }

  /** One pass of the loop, for job `i` of a queue whose earlier jobs do
      not match the last and whose remaining copy is still in step with it. */
  lemma QueueLoopStep<J>(queue: seq<J>, i: nat, stop: nat, after: J -> J)
    requires LastUnmatched(queue, after) && i < stop <= |queue|
    ensures QueueLoop(queue, i, queue[i..], stop, after) ==
      Pass(queue[i], queue[i + 1..], i == |queue| - 1) + QueueLoop(queue, i + 1, queue[i + 1..], stop, after)
  {
    assert queue[i..][1..] == queue[i + 1..];
    if i != |queue| - 1 {
      assert after(queue[i]) != queue[|queue| - 1];
      assert [Ran(queue[i])] + [Saved(queue[i + 1..])] + [] == [Ran(queue[i]), Saved(queue[i + 1..])];
    } else {
      assert [Ran(queue[i])] + [Saved(queue[i + 1..])] + [Removed] == [Ran(queue[i]), Saved(queue[i + 1..]), Removed];
    }
  }

  lemma SliceCons<J>(queue: seq<J>, i: nat, stop: nat)
    requires i < stop <= |queue|
    ensures queue[i..stop] == [queue[i]] + queue[i + 1..stop]
  {
  }

  /** Jobs `i` up to `stop` run in queue order, each exactly once. */
  lemma {:induction false} QueueLoopRuns<J>(queue: seq<J>, i: nat, stop: nat, after: J -> J)
    requires LastUnmatched(queue, after) && i <= stop <= |queue|
    ensures RanJobs(QueueLoop(queue, i, queue[i..], stop, after)) == queue[i..stop]
    decreases stop - i
  {
    if i < stop {
      QueueLoopStep(queue, i, stop, after);
      var head := Pass(queue[i], queue[i + 1..], i == |queue| - 1);
      var tail := QueueLoop(queue, i + 1, queue[i + 1..], stop, after);
      RanJobsAppend(head, tail);
      QueueLoopRuns(queue, i + 1, stop, after);
      PassRuns(queue[i], queue[i + 1..], i == |queue| - 1);
      SliceCons(queue, i, stop);
    }
  }

  /** After jobs `i` up to `stop` (at least one), the resume file holds the
      jobs after `stop`; a run that reaches the end deletes it. */
  lemma {:induction false} QueueLoopLeaves<J, C>(queue: seq<J>, i: nat, stop: nat, file: Option<C>, content: seq<J> -> C, after: J -> J)
    requires LastUnmatched(queue, after) && i < stop <= |queue|
    ensures FileAfter(file, QueueLoop(queue, i, queue[i..], stop, after), content) ==
      Ok(if stop == |queue| then None else Some(content(queue[stop..])))
    decreases stop - i
  {
    QueueLoopStep(queue, i, stop, after);
    var head := Pass(queue[i], queue[i + 1..], i == |queue| - 1);
    var tail := QueueLoop(queue, i + 1, queue[i + 1..], stop, after);
    FileAfterAppend(file, head, tail, content);
    var mid: Option<C> := if i == |queue| - 1 then None else Some(content(queue[i + 1..]));
    PassFile(file, queue[i], queue[i + 1..], i == |queue| - 1, content);
    if i + 1 < stop {
      QueueLoopLeaves(queue, i + 1, stop, mid, content, after);
    }
  }

  /** A run of batch_nightmode.py that is not interrupted runs every queued
      job once, in order, and leaves no resume database behind. */
  lemma BatchRunCompletes<J>(jobs: seq<J>, jobsHash: string, saved: Option<ResumeDb<J>>, after: J -> J)
    requires LastUnmatched(BatchQueue(jobs, jobsHash, saved), after) && |BatchQueue(jobs, jobsHash, saved)| > 0
    ensures var q := BatchQueue(jobs, jobsHash, saved);
      var events := QueueLoop(q, 0, q, |q|, after);
      RanJobs(events) == q && FileAfter(saved, events, BatchContent(jobsHash)) == Ok(None)
  {
    var q := BatchQueue(jobs, jobsHash, saved);
    assert q[0..] == q && q[0..|q|] == q;
    QueueLoopRuns(q, 0, |q|, after);
    QueueLoopLeaves(q, 0, |q|, saved, BatchContent(jobsHash), after);
  }

  /** A suffix keeps the queue's last job, so it stays unmatched. */
  lemma UnmatchedSuffix<J>(q: seq<J>, k: nat, after: J -> J)
    requires LastUnmatched(q, after) && k < |q|
    ensures LastUnmatched(q[k..], after)
  {
    var r := q[k..];
    forall i | 0 <= i < |r| - 1 ensures after(r[i]) != r[|r| - 1] {
      assert r[i] == q[k + i] && r[|r| - 1] == q[|q| - 1];
    }
  }

  lemma SplitAt<J>(q: seq<J>, k: nat)
    requires k <= |q|
    ensures q[0..k] + q[k..] == q && q[0..|q|] == q
  {
  }

  /** The loop started on the whole queue runs its first `stop` jobs. */
  lemma QueueFromStart<J>(q: seq<J>, stop: nat, after: J -> J)
    requires LastUnmatched(q, after) && stop <= |q|
    ensures QueueLoop(q, 0, q, stop, after) == QueueLoop(q, 0, q[0..], stop, after)
    ensures RanJobs(QueueLoop(q, 0, q, stop, after)) == q[0..stop]
  {
    assert q[0..] == q;
    QueueLoopRuns(q, 0, stop, after);
  }

  /** A run interrupted inside job `k` (after at least one job) leaves the
      jobs from `k` on in the resume file; a second run over exactly those
      jobs completes the queue, each job once and in order. */
  lemma {:induction false} InterruptedRunResumes<J, C>(q: seq<J>, k: nat, file: Option<C>, content: seq<J> -> C, after: J -> J)
    requires LastUnmatched(q, after) && 0 < k < |q|
    ensures FileAfter(file, QueueLoop(q, 0, q, k, after), content) == Ok(Some(content(q[k..])))
    ensures RanJobs(QueueLoop(q, 0, q, k, after)) + RanJobs(QueueLoop(q[k..], 0, q[k..], |q| - k, after)) == q
  {
    QueueFromStart(q, k, after);
    QueueLoopLeaves(q, 0, k, file, content, after);
    var r := q[k..];
    UnmatchedSuffix(q, k, after);
    QueueFromStart(r, |r|, after);
    SplitAt(q, k);
  }

  /** For batch_nightmode.py: the resume database an interrupted run leaves
      is accepted by the next run against the same jobs database, and the
      two runs together run the whole queue once, in order. */
  lemma BatchRunResumes<J>(jobs: seq<J>, jobsHash: string, saved: Option<ResumeDb<J>>, k: nat, after: J -> J)
    requires LastUnmatched(BatchQueue(jobs, jobsHash, saved), after)
    requires 0 < k < |BatchQueue(jobs, jobsHash, saved)|
    ensures var q := BatchQueue(jobs, jobsHash, saved);
      var left := FileAfter(saved, QueueLoop(q, 0, q, k, after), BatchContent(jobsHash));
      left == Ok(Some(ResumeDb(jobsHash, q[k..])))
      && BatchQueue(jobs, jobsHash, left.value) == q[k..]
      && RanJobs(QueueLoop(q, 0, q, k, after)) + RanJobs(QueueLoop(q[k..], 0, q[k..], |q| - k, after)) == q
  {
    var q := BatchQueue(jobs, jobsHash, saved);
    InterruptedRunResumes(q, k, saved, BatchContent(jobsHash), after);
    assert BatchContent(jobsHash)(q[k..]) == ResumeDb(jobsHash, q[k..]);
  }

  /** A resume database written against an older jobs database is ignored:
      the run starts over from the jobs database. */
  lemma BatchStaleResumeIgnored<J>(jobs: seq<J>, jobsHash: string, db: ResumeDb<J>)
    requires db.jobsHash != jobsHash
    ensures BatchQueue(jobs, jobsHash, Some(db)) == jobs
  {
  }

  /** The identity content: replace_nightmode.py saves the bare list. */
  function ListContent<J>(): seq<J> -> seq<J>
  {
    rest => rest
  }

  /** For replace_nightmode.py: an interrupted run leaves the jobs from `k`
      on as the bare resume list, which the next run takes whatever the work
      list is (the rest of the run is InterruptedRunResumes). */
  lemma ReplaceRunResumes<J>(work: seq<J>, saved: Option<seq<J>>, k: nat, after: J -> J)
    requires LastUnmatched(ReplaceQueue(work, saved), after)
    requires 0 < k < |ReplaceQueue(work, saved)|
    ensures var q := ReplaceQueue(work, saved);
      var left := FileAfter(saved, QueueLoop(q, 0, q, k, after), ListContent());
      left == Ok(Some(q[k..]))
      && ReplaceQueue(work, left.value) == q[k..]
  {
    var q := ReplaceQueue(work, saved);
    var content: seq<J> -> seq<J> := ListContent();
    InterruptedRunResumes(q, k, saved, content, after);
    assert content(q[k..]) == q[k..];
  }

  /** The first pass over a three-job queue [a, b, c] deletes the resume
      file exactly when `a`, as its run leaves it, equals `c`; otherwise the
      file holds [b, c]. */
  lemma FirstPassOfThree<J>(a: J, b: J, c: J, after: J -> J, file: Option<ResumeDb<J>>, jobsHash: string)
    ensures FileAfter(file, QueueLoop([a, b, c], 0, [a, b, c], 1, after), BatchContent(jobsHash))
      == Ok(if after(a) == c then None else Some(ResumeDb(jobsHash, [b, c])))
  {
    var q := [a, b, c];
    assert q[1..] == [b, c] && q[|q| - 1] == c;
    assert QueueLoop(q, 1, q[1..], 1, after) == [];
    if after(a) == c {
      assert QueueLoop(q, 0, q, 1, after) == [Ran(a)] + [Saved([b, c])] + [Removed] + [];
      assert QueueLoop(q, 0, q, 1, after) == Pass(a, [b, c], true);
      PassFile(file, a, [b, c], true, BatchContent(jobsHash));
    } else {
      assert QueueLoop(q, 0, q, 1, after) == [Ran(a)] + [Saved([b, c])] + [] + [];
      assert QueueLoop(q, 0, q, 1, after) == Pass(a, [b, c], false);
      PassFile(file, a, [b, c], false, BatchContent(jobsHash));
    }
  }

  /** A queue whose first job, as outputMkv leaves it, equals its last job
      deletes the resume file after that first job, so an interruption
      inside the second job leaves no resume file and the next run starts
      the whole queue again. A job listed twice whose keepTracks are not
      already sorted is changed by its mux and no longer matches its
      repetition: then the resume file survives. */
  lemma RepeatedLastJobDropsResume(a: NightmodeJobs.Job, b: NightmodeJobs.Job, c: NightmodeJobs.Job,
                                   file: Option<ResumeDb<NightmodeJobs.Job>>, jobsHash: string)
    ensures var left := FileAfter(file, QueueLoop([a, b, c], 0, [a, b, c], 1, AfterMux), BatchContent(jobsHash));
      (AfterMux(a) == c ==> left == Ok(None))
      && (c == a && NightmodeMkv.SurroundIds(a.tracks.surroundTracks).Ok? && !Sorted(a.tracks.keepTracks)
          ==> left == Ok(Some(ResumeDb(jobsHash, [b, c]))))
  {
    FirstPassOfThree(a, b, c, AfterMux, file, jobsHash);
    if c == a && NightmodeMkv.SurroundIds(a.tracks.surroundTracks).Ok? && !Sorted(a.tracks.keepTracks) {
      assert AfterMux(a) != c;
    }
  }

  // ------------------------------------------------------------ start

  /** How batch_nightmode.py's main obtains its jobs database. */
  datatype Start = Resume | Generate(dir: string)

  /** "Want to resume? (y or n)": the lowered answer must be y or n. */
  predicate YesNo(a: string) { Lower(a) == "y" || Lower(a) == "n" }

  /** The start of batch_nightmode.py's main: when either database file is
      present the user is asked, until the answer is y or n, whether to
      resume; without a resume the job list is generated from the first
      argument, and with no argument the script exits with 1. `args` are
      the arguments after the script name. */
  function BatchStart(dbExists: bool, args: seq<string>, answers: seq<string>): (r: Result<Start>)
    ensures r == Ok(Resume) <==> dbExists && Prompts.Ask(answers, 0, YesNo).Ok?
                                   && Lower(answers[Prompts.Ask(answers, 0, YesNo).value]) == "y"
    ensures r.Ok? && r.value.Generate? ==> |args| > 0 && r.value.dir == args[0]
    ensures r.Fail? ==> (dbExists && r.failure == EOFError) || (|args| == 0 && r.failure == Exit(1))
  {
    var resume :=
      if dbExists then
        (match Prompts.Ask(answers, 0, YesNo)
         case Fail(e) => Fail(e)
         case Ok(q) => Ok(Lower(answers[q]) == "y"))
      else Ok(false);
    match resume
    case Fail(e) => Fail(e)
    case Ok(yes) =>
      if yes then Ok(Resume)
      else if |args| < 1 then Fail(Exit(1))
      else Ok(Generate(args[0]))
  }

  /** Without either database file nothing is asked: the first argument is
      the directory to generate from, whatever the answers. */
  lemma FreshStartAsksNothing(args: seq<string>, answers: seq<string>)
    requires |args| > 0
    ensures BatchStart(false, args, answers) == BatchStart(false, args, []) == Ok(Generate(args[0]))
  {
  }

  /** Answers that are neither y nor n are skipped: "x", "N" declines. */
  lemma InvalidAnswerReasked(args: seq<string>)
    requires |args| > 0
    ensures BatchStart(true, args, ["x", "N"]) == Ok(Generate(args[0]))
    ensures BatchStart(true, args, ["x", "Y"]) == Ok(Resume)
  {
    assert Lower("x") == "x" && Lower("N") == "n" && Lower("Y") == "y";
    assert Prompts.Ask(["x", "N"], 0, YesNo) == Ok(1);
    assert Prompts.Ask(["x", "Y"], 0, YesNo) == Ok(1);
  }
}

=== FILE: nightmode_stages.dfy ===
// The resumable per-job pipeline of nightmode/batch_nightmode.py
// (replaceNightmode) and nightmode/replace_nightmode.py (same function):
// every finished step overwrites resume.txt with its stage name, and a rerun
// reads that name back and continues with the steps after it.
module NightmodeStages {
  import opened Results
  import opened Text
  import opened Lists

  /** A surround track as the job lists it: the pieces of "id:lang". */
  type SurroundTrack = seq<string>

  /** The stage names the pipeline writes to resume.txt. */
  datatype Stage =
    | CopiedToSource          // the source mkv was copied to ./source.mkv
    | ExtractedAudio(k: nat)  // surround track k was extracted to audio.flac
    | NightmodeLoudnorm(k: nat)
    | NightmodeDrc(k: nat)
    | CreatedNewMkv           // output.mkv was muxed
    | CopiedNewMkv            // output.mkv was copied over the source file

  function StageName(s: Stage): string
  {
    match s
    case CopiedToSource => "copyed-to-source"
    case ExtractedAudio(k) => "extracted-audio" + NatToString(k)
    case NightmodeLoudnorm(k) => "nightmode-loudnorm" + NatToString(k)
    case NightmodeDrc(k) => "nightmode-drc" + NatToString(k)
    case CreatedNewMkv => "created-newmkv"
    case CopiedNewMkv => "copyed-newmkv"
  }

  /** What one call of replaceNightmode did: the stages it wrote, in order,
      and whether it reached the clean-up step. */
  datatype Run = Run(written: seq<Stage>, cleanedUp: bool)

  /** The stages the per-track loop writes. */
  predicate PerTrack(s: Stage)
  {
    s.ExtractedAudio? || s.NightmodeLoudnorm? || s.NightmodeDrc?
  }

  /** The three steps for the track whose first position is `k`, entered with
      `resume` as the last stage name: the stages written and the new name. */
  function TrackStep(k: nat, resume: string): (r: (seq<Stage>, string))
    ensures forall i :: 0 <= i < |r.0| ==> PerTrack(r.0[i])
  {
    var extract := resume == "copyed-to-source" || resume == "nightmode-drc" + IntToString(k - 1);
    var r1 := if extract then StageName(ExtractedAudio(k)) else resume;
    var loudnorm := r1 == StageName(ExtractedAudio(k));
    var r2 := if loudnorm then StageName(NightmodeLoudnorm(k)) else r1;
    var drc := r2 == StageName(NightmodeLoudnorm(k));
    var r3 := if drc then StageName(NightmodeDrc(k)) else r2;
    ((if extract then [ExtractedAudio(k)] else [])
       + (if loudnorm then [NightmodeLoudnorm(k)] else [])
       + (if drc then [NightmodeDrc(k)] else []),
     r3)
  }

  /** The per-track part of the pipeline, from track position `p` on, starting
      with `resume` as the last stage name; returns the stages written and the
      last stage name. Steps are keyed by `surroundTracks.index(track)`. */
  function TrackLoop(tracks: seq<SurroundTrack>, p: nat, resume: string): (r: (seq<Stage>, string))
    requires p <= |tracks|
    ensures forall i :: 0 <= i < |r.0| ==> PerTrack(r.0[i])
    decreases |tracks| - p
  {
    if p == |tracks| then ([], resume)
    else
      var step := TrackStep(IndexOf(tracks, tracks[p]), resume);
      var rest := TrackLoop(tracks, p + 1, step.1);
      (step.0 + rest.0, rest.1)
  }

  /** The mux and copy-back steps after the loop, for `n` surround tracks. */
  function Tail(n: nat, resume: string): (r: (seq<Stage>, string))
    ensures forall i :: 0 <= i < |r.0| ==> r.0[i].CreatedNewMkv? || r.0[i].CopiedNewMkv?
    ensures CopiedNewMkv in r.0 ==> r.1 == StageName(CopiedNewMkv)
  {
    var mux := resume == "nightmode-drc" + IntToString(n - 1);
    var r1 := if mux then StageName(CreatedNewMkv) else resume;
    var copyBack := r1 == StageName(CreatedNewMkv);
    var r2 := if copyBack then StageName(CopiedNewMkv) else r1;
    ((if mux then [CreatedNewMkv] else []) + (if copyBack then [CopiedNewMkv] else []), r2)
  }

  /** replaceNightmode: `resumeLines` is the content of resume.txt (None when
      the file does not exist). An empty resume.txt makes `resume[0]` fail. */
  function ReplaceNightmode(tracks: seq<SurroundTrack>, resumeLines: Option<seq<string>>): (r: Result<Run>)
    ensures r.Fail? <==> resumeLines == Some([])
    ensures r.Fail? ==> r.failure == IndexError
    ensures r.Ok? ==> (CopiedToSource in r.value.written <==> resumeLines.None?)
    ensures r.Ok? && resumeLines.None? ==> r.value.written[0] == CopiedToSource
    ensures r.Ok? && CopiedNewMkv in r.value.written ==> r.value.cleanedUp
  {
    if resumeLines.Some? && |resumeLines.value| == 0 then Fail(IndexError)
    else
      var w0 := if resumeLines.None? then [CopiedToSource] else [];
      var r0 := if resumeLines.None? then StageName(CopiedToSource) else RStripSpace(resumeLines.value[0]);
      var loop := TrackLoop(tracks, 0, r0);
      var tail := Tail(|tracks|, loop.1);
      WrittenParts(w0, loop.0, tail.0);
      Ok(Run(w0 + loop.0 + tail.0, tail.1 == StageName(CopiedNewMkv)))
  }

  /** Where the copy stages of a run can come from: the source copy only from
      the first part, the copy back only from the tail. */
  lemma WrittenParts(w0: seq<Stage>, loop: seq<Stage>, tail: seq<Stage>)
    requires w0 == [] || w0 == [CopiedToSource]
    requires forall i :: 0 <= i < |loop| ==> PerTrack(loop[i])
    requires forall i :: 0 <= i < |tail| ==> tail[i].CreatedNewMkv? || tail[i].CopiedNewMkv?
    ensures CopiedToSource in w0 + loop + tail <==> w0 != []
    ensures w0 != [] ==> (w0 + loop + tail)[0] == CopiedToSource
    ensures CopiedNewMkv in w0 + loop + tail ==> CopiedNewMkv in tail
  {
    var all := w0 + loop + tail;
    forall j | |w0| <= j < |all| ensures all[j] != CopiedToSource {
      if j >= |w0| + |loop| {
        assert all[j] == tail[j - |w0| - |loop|];
      } else {
        assert all[j] == loop[j - |w0|];
      }
    }
    forall j | 0 <= j < |w0| + |loop| ensures all[j] != CopiedNewMkv {
      if j >= |w0| {
        assert all[j] == loop[j - |w0|];
      }
    }
    if CopiedNewMkv in all {
      var i :| 0 <= i < |all| && all[i] == CopiedNewMkv;
      assert all[i] == tail[i - |w0| - |loop|];
    }
  }

  // ------------------------------------------------------------ the schedule

  /** The three stages of every track from `p` on, track by track. */
  function TrackStages(p: nat, n: nat): (r: seq<Stage>)
    ensures |r| == if p <= n then 3 * (n - p) else 0
    decreases n - p
  {
    if p >= n then []
    else [ExtractedAudio(p), NightmodeLoudnorm(p), NightmodeDrc(p)] + TrackStages(p + 1, n)
  }

  /** Every stage a job with `n` surround tracks goes through, in order:
      copy, extract/loudnorm/drc per track, mux, copy back. */
  function Schedule(n: nat): seq<Stage>
  {
    [CopiedToSource] + TrackStages(0, n) + [CreatedNewMkv, CopiedNewMkv]
  }

  /** The per-track stages that follow `s` in the schedule for `n` tracks. */
  function TrackRest(s: Stage, n: nat): seq<Stage>
  {
    match s
    case CopiedToSource => TrackStages(0, n)
    case ExtractedAudio(k) => [NightmodeLoudnorm(k), NightmodeDrc(k)] + TrackStages(k + 1, n)
    case NightmodeLoudnorm(k) => [NightmodeDrc(k)] + TrackStages(k + 1, n)
    case NightmodeDrc(k) => TrackStages(k + 1, n)
    case _ => []
  }

  /** The stages that follow `s` in the schedule for `n` tracks. */
  function After(s: Stage, n: nat): seq<Stage>
  {
    match s
    case CreatedNewMkv => [CopiedNewMkv]
    case CopiedNewMkv => []
    case _ => TrackRest(s, n) + [CreatedNewMkv, CopiedNewMkv]
  }

  /** The position of a stage in the schedule for `n` tracks. */
  function Ord(s: Stage, n: nat): nat
  {
    match s
    case CopiedToSource => 0
    case ExtractedAudio(k) => 3 * k + 1
    case NightmodeLoudnorm(k) => 3 * k + 2
    case NightmodeDrc(k) => 3 * k + 3
    case CreatedNewMkv => 3 * n + 1
    case CopiedNewMkv => 3 * n + 2
  }

  predicate InSchedule(s: Stage, n: nat)
  {
    match s
    case ExtractedAudio(k) => k < n
    case NightmodeLoudnorm(k) => k < n
    case NightmodeDrc(k) => k < n
    case _ => true
  }

  /** From track `p` on, the stages of track `k` start at 3(k - p). */
  lemma {:induction false} TrackStagesFrom(p: nat, k: nat, n: nat)
    requires p <= k < n
    ensures TrackStages(p, n)[3 * (k - p)..]
         == [ExtractedAudio(k), NightmodeLoudnorm(k), NightmodeDrc(k)] + TrackStages(k + 1, n)
    decreases k - p
  {
    if p < k {
      TrackStagesFrom(p + 1, k, n);
      var head := [ExtractedAudio(p), NightmodeLoudnorm(p), NightmodeDrc(p)];
      assert (head + TrackStages(p + 1, n))[3 * (k - p)..] == TrackStages(p + 1, n)[3 * (k - p - 1)..];
    }
  }

  /** Position `i` of the track stages from `p` on holds a stage whose
      schedule position is 3p + 1 + i. */
  lemma {:induction false} TrackStagesAt(p: nat, n: nat, i: nat)
    requires p < n && i < 3 * (n - p)
    ensures InSchedule(TrackStages(p, n)[i], n) && Ord(TrackStages(p, n)[i], n) == 3 * p + 1 + i
    decreases i
  {
    if i >= 3 {
      TrackStagesAt(p + 1, n, i - 3);
    }
  }

  /** Every position of the schedule holds a stage of the schedule placed
      there by `Ord`. */
  lemma ScheduleAt(n: nat, j: nat)
    requires j < |Schedule(n)|
    ensures InSchedule(Schedule(n)[j], n) && Ord(Schedule(n)[j], n) == j
  {
    if 1 <= j <= 3 * n {
      TrackStagesAt(0, n, j - 1);
    }
  }

  /** The schedule from the first stage of track `k` on. */
  lemma ScheduleFromTrack(n: nat, k: nat)
    requires k < n
    ensures Schedule(n)[3 * k + 1..]
         == [ExtractedAudio(k), NightmodeLoudnorm(k), NightmodeDrc(k)]
            + (TrackStages(k + 1, n) + [CreatedNewMkv, CopiedNewMkv])
  {
    var body := TrackStages(0, n);
    var tail := [CreatedNewMkv, CopiedNewMkv];
    TrackStagesFrom(0, k, n);
    assert Schedule(n) == [CopiedToSource] + (body + tail);
    assert Schedule(n)[3 * k + 1..] == body[3 * k..] + tail;
  }

  /** A sequence whose elements from `i` on are `[x, y, z] + (later + tail)`. */
  lemma DropThree<T>(xs: seq<T>, i: nat, x: T, y: T, z: T, later: seq<T>, tail: seq<T>)
    requires i <= |xs| && xs[i..] == [x, y, z] + (later + tail)
    ensures i + 2 < |xs| && xs[i] == x && xs[i + 1] == y && xs[i + 2] == z
    ensures xs[i + 1..] == ([y, z] + later) + tail
    ensures xs[i + 2..] == ([z] + later) + tail
    ensures xs[i + 3..] == later + tail
  {
    assert xs[i + 1..] == xs[i..][1..];
    assert xs[i + 2..] == xs[i..][2..];
    assert xs[i + 3..] == xs[i..][3..];
  }

  /** The schedule around the three stages of track `k`. */
  lemma ScheduleAroundTrack(n: nat, k: nat)
    requires k < n
    ensures 3 * k + 3 < |Schedule(n)|
    ensures Schedule(n)[3 * k + 1] == ExtractedAudio(k) && Schedule(n)[3 * k + 2] == NightmodeLoudnorm(k)
            && Schedule(n)[3 * k + 3] == NightmodeDrc(k)
    ensures Schedule(n)[3 * k + 2..] == TrackRest(ExtractedAudio(k), n) + [CreatedNewMkv, CopiedNewMkv]
    ensures Schedule(n)[3 * k + 3..] == TrackRest(NightmodeLoudnorm(k), n) + [CreatedNewMkv, CopiedNewMkv]
    ensures Schedule(n)[3 * k + 4..] == TrackRest(NightmodeDrc(k), n) + [CreatedNewMkv, CopiedNewMkv]
  {
    ScheduleFromTrack(n, k);
    DropThree(Schedule(n), 3 * k + 1, ExtractedAudio(k), NightmodeLoudnorm(k), NightmodeDrc(k),
              TrackStages(k + 1, n), [CreatedNewMkv, CopiedNewMkv]);
  }

  /** What follows a track stage in the schedule. */
  lemma ScheduleAfterTrackStage(n: nat, s: Stage)
    requires InSchedule(s, n) && (s.ExtractedAudio? || s.NightmodeLoudnorm? || s.NightmodeDrc?)
    ensures Ord(s, n) < |Schedule(n)| && Schedule(n)[Ord(s, n)] == s
    ensures Schedule(n)[Ord(s, n) + 1..] == TrackRest(s, n) + [CreatedNewMkv, CopiedNewMkv]
  {
    ScheduleAroundTrack(n, s.k);
  }

  /** `After` is what follows a stage at its position in the schedule. */
  lemma ScheduleAfter(n: nat, s: Stage)
    requires InSchedule(s, n)
    ensures Ord(s, n) < |Schedule(n)| && Schedule(n)[Ord(s, n)] == s
    ensures Schedule(n)[Ord(s, n) + 1..] == After(s, n)
  {
    if s.ExtractedAudio? || s.NightmodeLoudnorm? || s.NightmodeDrc? {
      ScheduleAfterTrackStage(n, s);
    } else {
      assert Schedule(n) == [CopiedToSource] + (TrackStages(0, n) + [CreatedNewMkv, CopiedNewMkv]);
    }
  }

  // ------------------------------------------------------------ stage names

  lemma PrefixedEqual(p: string, a: string, b: string)
    requires p + a == p + b
    ensures a == b
  {
    assert a == (p + a)[|p|..];
  }

  /** Four characters that tell the stage names apart by kind. */
  function NameSig(s: Stage): (char, char, char, char)
  {
    match s
    case CopiedToSource => ('c', 'o', 't', 's')
    case ExtractedAudio(_) => ('e', 'x', 'e', 'a')
    case NightmodeLoudnorm(_) => ('n', 'i', 'd', 'l')
    case NightmodeDrc(_) => ('n', 'i', 'd', 'd')
    case CreatedNewMkv => ('c', 'r', '-', 'w')
    case CopiedNewMkv => ('c', 'o', 'n', 'm')
  }

  lemma NameSigOf(s: Stage)
    ensures |StageName(s)| > 10
    ensures (StageName(s)[0], StageName(s)[1], StageName(s)[7], StageName(s)[10]) == NameSig(s)
  {
    var p, t := NamePieces(s);
    PrefixChars(p, t);
  }

  /** A stage name as its fixed prefix and its track number, if any. */
  lemma NamePieces(s: Stage) returns (p: string, t: string)
    ensures StageName(s) == p + t && |p| > 10
    ensures (p[0], p[1], p[7], p[10]) == NameSig(s)
  {
    p := NamePrefix(s);
    t := match s
      case ExtractedAudio(k) => NatToString(k)
      case NightmodeLoudnorm(k) => NatToString(k)
      case NightmodeDrc(k) => NatToString(k)
      case _ => "";
    PrefixSig(s);
  }

  function NamePrefix(s: Stage): string
  {
    match s
    case CopiedToSource => "copyed-to-source"
    case ExtractedAudio(_) => "extracted-audio"
    case NightmodeLoudnorm(_) => "nightmode-loudnorm"
    case NightmodeDrc(_) => "nightmode-drc"
    case CreatedNewMkv => "created-newmkv"
    case CopiedNewMkv => "copyed-newmkv"
  }

  lemma PrefixSig(s: Stage)
    ensures var p := NamePrefix(s); |p| > 10 && (p[0], p[1], p[7], p[10]) == NameSig(s)
  {
  }

  lemma PrefixChars(p: string, t: string)
    requires |p| > 10
    ensures |p + t| > 10 && (p + t)[0] == p[0] && (p + t)[1] == p[1] && (p + t)[7] == p[7] && (p + t)[10] == p[10]
  {
  }

  /** Two numbered names with the same prefix have the same number. */
  lemma NumberedNameInjective(p: string, a: nat, b: nat)
    requires p + NatToString(a) == p + NatToString(b)
    ensures a == b
  {
    PrefixedEqual(p, NatToString(a), NatToString(b));
    NatToStringInjective(a, b);
  }

  /** Different stages have different names, and no stage is named like the
      "nightmode-drc-1" the first track compares against. */
  lemma StageNameInjective(a: Stage, b: Stage)
    ensures StageName(a) == StageName(b) ==> a == b
    ensures StageName(a) != "nightmode-drc-1"
  {
    if StageName(a) == StageName(b) {
      NameSigOf(a);
      NameSigOf(b);
      match a
      case ExtractedAudio(k) => NumberedNameInjective("extracted-audio", k, b.k);
      case NightmodeLoudnorm(k) => NumberedNameInjective("nightmode-loudnorm", k, b.k);
      case NightmodeDrc(k) => NumberedNameInjective("nightmode-drc", k, b.k);
      case _ =>
    }
    if a.NightmodeDrc? {
      var na := StageName(a);
      assert na[13] != '-';
    } else {
      NameSigOf(a);
    }
  }

  lemma StageNameStripped(s: Stage)
    ensures RStripSpace(StageName(s)) == StageName(s)
  {
    var n := StageName(s);
    if s.ExtractedAudio? || s.NightmodeLoudnorm? || s.NightmodeDrc? {
      assert IsDigit(n[|n| - 1]);
    }
  }

  // ------------------------------------------------------------ resumption

  /** The stages one track writes, by which of its three steps fire: each
      step that fires sets the name the next one compares against. */
  lemma TrackStepShape(k: nat, resume: string)
    ensures var extract := resume == "copyed-to-source" || resume == "nightmode-drc" + IntToString(k - 1);
      var loudnorm := extract || resume == StageName(ExtractedAudio(k));
      var drc := loudnorm || resume == StageName(NightmodeLoudnorm(k));
      TrackStep(k, resume) ==
        (if extract then [ExtractedAudio(k), NightmodeLoudnorm(k), NightmodeDrc(k)]
         else if loudnorm then [NightmodeLoudnorm(k), NightmodeDrc(k)]
         else if drc then [NightmodeDrc(k)]
         else [],
         if drc then StageName(NightmodeDrc(k)) else resume)
  {
    var e, l, d := ExtractedAudio(k), NightmodeLoudnorm(k), NightmodeDrc(k);
    StageNameInjective(e, l);
    if resume == "copyed-to-source" || resume == "nightmode-drc" + IntToString(k - 1) {
      assert TrackStep(k, resume).0 == [e] + [l] + [d] == [e, l, d];
    } else if resume == StageName(e) {
      assert TrackStep(k, resume).0 == [] + [l] + [d] == [l, d];
    } else if resume == StageName(l) {
      assert TrackStep(k, resume).0 == [] + [] + [d] == [d];
    } else {
      assert TrackStep(k, resume).0 == [] + [] + [];
    }
  }

  /** One track's steps, by the stage the track is entered with. */
  lemma TrackStepFrom(k: nat, s: Stage)
    ensures s == CopiedToSource || (k > 0 && s == NightmodeDrc(k - 1)) ==>
      TrackStep(k, StageName(s))
        == ([ExtractedAudio(k), NightmodeLoudnorm(k), NightmodeDrc(k)], StageName(NightmodeDrc(k)))
    ensures s == ExtractedAudio(k) ==>
      TrackStep(k, StageName(s)) == ([NightmodeLoudnorm(k), NightmodeDrc(k)], StageName(NightmodeDrc(k)))
    ensures s == NightmodeLoudnorm(k) ==>
      TrackStep(k, StageName(s)) == ([NightmodeDrc(k)], StageName(NightmodeDrc(k)))
    ensures (s != CopiedToSource && !(k > 0 && s == NightmodeDrc(k - 1))
             && s != ExtractedAudio(k) && s != NightmodeLoudnorm(k)) ==>
      TrackStep(k, StageName(s)) == ([], StageName(s))
  {
    TrackStepShape(k, StageName(s));
    StageNameInjective(s, ExtractedAudio(k));
    StageNameInjective(s, NightmodeLoudnorm(k));
    StageNameInjective(s, CopiedToSource);
    if k > 0 {
      StageNameInjective(s, NightmodeDrc(k - 1));
      assert "nightmode-drc" + IntToString(k - 1) == StageName(NightmodeDrc(k - 1));
    } else {
      assert "nightmode-drc" + IntToString(k - 1) == "nightmode-drc-1";
    }
  }

  /** The mux and copy-back steps, by which of them fire. */
  lemma TailShape(n: nat, resume: string)
    ensures var mux := resume == "nightmode-drc" + IntToString(n - 1);
      var copyBack := mux || resume == StageName(CreatedNewMkv);
      Tail(n, resume) ==
        (if mux then [CreatedNewMkv, CopiedNewMkv]
         else if copyBack then [CopiedNewMkv]
         else [],
         if copyBack then StageName(CopiedNewMkv) else resume)
  {
    if resume == "nightmode-drc" + IntToString(n - 1) {
      assert Tail(n, resume).0 == [CreatedNewMkv] + [CopiedNewMkv] == [CreatedNewMkv, CopiedNewMkv];
    } else if resume == StageName(CreatedNewMkv) {
      assert Tail(n, resume).0 == [] + [CopiedNewMkv] == [CopiedNewMkv];
    } else {
      assert Tail(n, resume).0 == [] + [];
    }
  }

  /** One turn of the per-track loop over distinct tracks: track `p` is
      keyed by its own position. */
  lemma TrackLoopUnfold(tracks: seq<SurroundTrack>, p: nat, resume: string)
    requires Distinct(tracks) && p < |tracks|
    ensures var step := TrackStep(p, resume);
      var rest := TrackLoop(tracks, p + 1, step.1);
      TrackLoop(tracks, p, resume) == (step.0 + rest.0, rest.1)
  {
    DistinctIndexOf(tracks, p);
  }

  /** The stage a run stands at when it reaches track `p` in order. */
  function Entry(p: nat): Stage
  {
    if p == 0 then CopiedToSource else NightmodeDrc(p - 1)
  }

  /** Entering the loop at track `p` just after the previous track's DRC
      stage runs every remaining track's three stages. */
  lemma {:induction false} TrackLoopRuns(tracks: seq<SurroundTrack>, p: nat)
    requires Distinct(tracks) && 1 <= |tracks| && p <= |tracks|
    ensures TrackLoop(tracks, p, StageName(Entry(p)))
         == (TrackStages(p, |tracks|), StageName(NightmodeDrc(|tracks| - 1)))
    decreases |tracks| - p
  {
    if p < |tracks| {
      var e, l, d := ExtractedAudio(p), NightmodeLoudnorm(p), NightmodeDrc(p);
      TrackLoopUnfold(tracks, p, StageName(Entry(p)));
      TrackStepFrom(p, Entry(p));
      assert TrackStep(p, StageName(Entry(p))) == ([e, l, d], StageName(d));
      TrackLoopRuns(tracks, p + 1);
      assert Entry(p + 1) == d;
      assert TrackLoop(tracks, p, StageName(Entry(p)))
          == ([e, l, d] + TrackStages(p + 1, |tracks|), StageName(NightmodeDrc(|tracks| - 1)));
    }
  }

  /** When track `k`'s steps end at its DRC stage, the loop goes on with
      every later track's three stages. */
  lemma TrackLoopFromStep(tracks: seq<SurroundTrack>, k: nat, resume: string, w: seq<Stage>)
    requires Distinct(tracks) && k < |tracks|
    requires TrackStep(k, resume) == (w, StageName(NightmodeDrc(k)))
    ensures TrackLoop(tracks, k, resume) == (w + TrackStages(k + 1, |tracks|), StageName(NightmodeDrc(|tracks| - 1)))
  {
    TrackLoopRuns(tracks, k + 1);
    assert Entry(k + 1) == NightmodeDrc(k);
    TrackLoopUnfold(tracks, k, resume);
  }

  /** Resuming at track `k`'s extract, loudnorm or DRC stage. */
  lemma TrackLoopResumesExtracted(tracks: seq<SurroundTrack>, k: nat)
    requires Distinct(tracks) && k < |tracks|
    ensures TrackLoop(tracks, k, StageName(ExtractedAudio(k)))
         == (TrackRest(ExtractedAudio(k), |tracks|), StageName(NightmodeDrc(|tracks| - 1)))
  {
    TrackStepFrom(k, ExtractedAudio(k));
    TrackLoopFromStep(tracks, k, StageName(ExtractedAudio(k)), [NightmodeLoudnorm(k), NightmodeDrc(k)]);
  }

  lemma TrackLoopResumesLoudnorm(tracks: seq<SurroundTrack>, k: nat)
    requires Distinct(tracks) && k < |tracks|
    ensures TrackLoop(tracks, k, StageName(NightmodeLoudnorm(k)))
         == (TrackRest(NightmodeLoudnorm(k), |tracks|), StageName(NightmodeDrc(|tracks| - 1)))
  {
    TrackStepFrom(k, NightmodeLoudnorm(k));
    TrackLoopFromStep(tracks, k, StageName(NightmodeLoudnorm(k)), [NightmodeDrc(k)]);
  }

  lemma TrackLoopResumesDrc(tracks: seq<SurroundTrack>, k: nat)
    requires Distinct(tracks) && k < |tracks|
    ensures TrackLoop(tracks, k, StageName(NightmodeDrc(k)))
         == (TrackRest(NightmodeDrc(k), |tracks|), StageName(NightmodeDrc(|tracks| - 1)))
  {
    TrackStepFrom(k, NightmodeDrc(k));
    TrackLoopFromStep(tracks, k, StageName(NightmodeDrc(k)), []);
    assert [] + TrackStages(k + 1, |tracks|) == TrackStages(k + 1, |tracks|);
  }

  /** Entering the loop at the name of a track stage `s` runs what follows it
      in that track, then the remaining tracks. */
  lemma TrackLoopResumes(tracks: seq<SurroundTrack>, s: Stage)
    requires Distinct(tracks) && 1 <= |tracks|
    requires InSchedule(s, |tracks|) && (s.ExtractedAudio? || s.NightmodeLoudnorm? || s.NightmodeDrc?)
    ensures TrackLoop(tracks, s.k, StageName(s)) == (TrackRest(s, |tracks|), StageName(NightmodeDrc(|tracks| - 1)))
  {
    match s
    case ExtractedAudio(k) => TrackLoopResumesExtracted(tracks, k);
    case NightmodeLoudnorm(k) => TrackLoopResumesLoudnorm(tracks, k);
    case NightmodeDrc(k) => TrackLoopResumesDrc(tracks, k);
  }

  /** A track whose steps all skip leaves the loop to the next track. */
  lemma TrackLoopSkip(tracks: seq<SurroundTrack>, p: nat, resume: string)
    requires Distinct(tracks) && p < |tracks|
    requires TrackStep(p, resume) == ([], resume)
    ensures TrackLoop(tracks, p, resume) == TrackLoop(tracks, p + 1, resume)
  {
    TrackLoopUnfold(tracks, p, resume);
    var after := TrackLoop(tracks, p + 1, resume);
    assert [] + after.0 == after.0;
  }

  /** Track `p` skips every step on the name of a later stage. */
  lemma TrackStepSkipsLater(p: nat, s: Stage)
    requires s == CreatedNewMkv || s == CopiedNewMkv
          || ((s.ExtractedAudio? || s.NightmodeLoudnorm? || s.NightmodeDrc?) && p < s.k)
    ensures TrackStep(p, StageName(s)) == ([], StageName(s))
  {
    TrackStepFrom(p, s);
  }

  /** Tracks `p` to `q` skipping every step leave the loop to track `q`. */
  lemma {:induction false} TrackLoopSkipsTo(tracks: seq<SurroundTrack>, p: nat, q: nat, resume: string)
    requires Distinct(tracks) && p <= q <= |tracks|
    requires forall i :: p <= i < q ==> TrackStep(i, resume) == ([], resume)
    ensures TrackLoop(tracks, p, resume) == TrackLoop(tracks, q, resume)
    decreases q - p
  {
    if p < q {
      assert TrackStep(p, resume) == ([], resume);
      TrackLoopSkip(tracks, p, resume);
      TrackLoopSkipsTo(tracks, p + 1, q, resume);
    }
  }

  /** Tracks before the one a stage belongs to do nothing with its name. */
  lemma TrackLoopPasses(tracks: seq<SurroundTrack>, p: nat, s: Stage)
    requires Distinct(tracks) && p <= |tracks|
    requires s == CreatedNewMkv || s == CopiedNewMkv
          || ((s.ExtractedAudio? || s.NightmodeLoudnorm? || s.NightmodeDrc?) && p <= s.k < |tracks|)
    ensures s.CreatedNewMkv? || s.CopiedNewMkv? ==> TrackLoop(tracks, p, StageName(s)) == ([], StageName(s))
    ensures !(s.CreatedNewMkv? || s.CopiedNewMkv?) ==> TrackLoop(tracks, p, StageName(s)) == TrackLoop(tracks, s.k, StageName(s))
  {
    var later := s.CreatedNewMkv? || s.CopiedNewMkv?;
    var q := if later then |tracks| else s.k;
    forall i | p <= i < q
      ensures TrackStep(i, StageName(s)) == ([], StageName(s))
    {
      TrackStepSkipsLater(i, s);
    }
    TrackLoopSkipsTo(tracks, p, q, StageName(s));
  }

  /** The mux and copy-back steps run from the DRC stage of the last track,
      or from the stage a rerun read if that is later. */
  lemma TailRuns(n: nat, s: Stage)
    requires n >= 1 && (s == NightmodeDrc(n - 1) || s == CreatedNewMkv || s == CopiedNewMkv)
    ensures Tail(n, StageName(s))
         == (if s.NightmodeDrc? then [CreatedNewMkv, CopiedNewMkv] else After(s, n), StageName(CopiedNewMkv))
  {
    TailShape(n, StageName(s));
    assert "nightmode-drc" + IntToString(n - 1) == StageName(NightmodeDrc(n - 1));
    StageNameInjective(s, NightmodeDrc(n - 1));
    StageNameInjective(s, CreatedNewMkv);
  }

  /** A run without resume.txt copies the source, then runs the per-track
      loop from the copy stage, then the mux and copy-back steps. */
  lemma FreshRunShape(tracks: seq<SurroundTrack>)
    ensures var loop := TrackLoop(tracks, 0, StageName(CopiedToSource));
      var tail := Tail(|tracks|, loop.1);
      ReplaceNightmode(tracks, None)
        == Ok(Run([CopiedToSource] + loop.0 + tail.0, tail.1 == StageName(CopiedNewMkv)))
  {
  }

  /** A job started without resume.txt writes every stage of the schedule in
      order and ends with the clean-up, when its surround tracks are distinct. */
  lemma FreshRunWritesSchedule(tracks: seq<SurroundTrack>)
    requires Distinct(tracks) && |tracks| >= 1
    ensures ReplaceNightmode(tracks, None) == Ok(Run(Schedule(|tracks|), true))
  {
    var n := |tracks|;
    FreshRunShape(tracks);
    TrackLoopRuns(tracks, 0);
    assert Entry(0) == CopiedToSource;
    var loop := TrackLoop(tracks, 0, StageName(CopiedToSource));
    assert loop == (TrackStages(0, n), StageName(NightmodeDrc(n - 1)));
    TailRuns(n, NightmodeDrc(n - 1));
  }

  /** A run that read `line` from resume.txt is the per-track loop from its
      stripped text followed by the mux and copy-back steps. */
  lemma ResumedRunShape(tracks: seq<SurroundTrack>, line: string)
    ensures var loop := TrackLoop(tracks, 0, RStripSpace(line));
      var tail := Tail(|tracks|, loop.1);
      ReplaceNightmode(tracks, Some([line])) == Ok(Run([] + loop.0 + tail.0, tail.1 == StageName(CopiedNewMkv)))
  {
  }

  /** From the name of the copy stage or of a per-track stage, the loop
      writes the per-track stages after it and ends on the last DRC stage. */
  lemma LoopFromTrackStage(tracks: seq<SurroundTrack>, s: Stage)
    requires Distinct(tracks) && |tracks| >= 1 && InSchedule(s, |tracks|)
    requires !s.CreatedNewMkv? && !s.CopiedNewMkv?
    ensures TrackLoop(tracks, 0, StageName(s)) == (TrackRest(s, |tracks|), StageName(NightmodeDrc(|tracks| - 1)))
  {
    if s.CopiedToSource? {
      TrackLoopRuns(tracks, 0);
      assert Entry(0) == s;
    } else {
      TrackLoopPasses(tracks, 0, s);
      TrackLoopResumes(tracks, s);
    }
  }

  /** A rerun that finds the name of a per-track stage, or of the copy
      stage, runs the rest of the schedule from there. */
  lemma ResumedRunWritesAfterTrackStage(tracks: seq<SurroundTrack>, s: Stage)
    requires Distinct(tracks) && |tracks| >= 1 && InSchedule(s, |tracks|)
    requires !s.CreatedNewMkv? && !s.CopiedNewMkv?
    ensures ReplaceNightmode(tracks, Some([StageName(s)])) == Ok(Run(After(s, |tracks|), true))
  {
    var n := |tracks|;
    StageNameStripped(s);
    ResumedRunShape(tracks, StageName(s));
    var loop := TrackLoop(tracks, 0, StageName(s));
    LoopFromTrackStage(tracks, s);
    TailRuns(n, NightmodeDrc(n - 1));
    assert [] + loop.0 == loop.0;
    assert After(s, n) == TrackRest(s, n) + [CreatedNewMkv, CopiedNewMkv];
  }

  /** A rerun that finds the name of the stage of the mux step or of the copy
      back runs what is left of those two. */
  lemma ResumedRunWritesAfterMux(tracks: seq<SurroundTrack>, s: Stage)
    requires Distinct(tracks) && |tracks| >= 1
    requires s.CreatedNewMkv? || s.CopiedNewMkv?
    ensures ReplaceNightmode(tracks, Some([StageName(s)])) == Ok(Run(After(s, |tracks|), true))
  {
    StageNameStripped(s);
    ResumedRunShape(tracks, StageName(s));
    TrackLoopPasses(tracks, 0, s);
    TailRuns(|tracks|, s);
  }

  /** A rerun that finds the name of stage `s` in resume.txt writes exactly
      the stages after `s` and ends with the clean-up. */
  lemma ResumedRunWritesAfter(tracks: seq<SurroundTrack>, s: Stage)
    requires Distinct(tracks) && |tracks| >= 1 && InSchedule(s, |tracks|)
    ensures ReplaceNightmode(tracks, Some([StageName(s)])) == Ok(Run(After(s, |tracks|), true))
  {
    if s.CreatedNewMkv? || s.CopiedNewMkv? {
      ResumedRunWritesAfterMux(tracks, s);
    } else {
      ResumedRunWritesAfterTrackStage(tracks, s);
    }
  }

  /** Resuming from any position `j` of the schedule writes exactly the
      stages after it: nothing is repeated and nothing is skipped, whichever
      step the previous run stopped after. */
  lemma ResumedRunWritesRest(tracks: seq<SurroundTrack>, j: nat)
    requires Distinct(tracks) && |tracks| >= 1 && j < |Schedule(|tracks|)|
    ensures ReplaceNightmode(tracks, Some([StageName(Schedule(|tracks|)[j])]))
         == Ok(Run(Schedule(|tracks|)[j + 1..], true))
  {
    var n := |tracks|;
    var s := Schedule(n)[j];
    ScheduleAt(n, j);
    assert Ord(s, n) == j;
    ScheduleAfter(n, s);
    assert Schedule(n)[j + 1..] == After(s, n);
    ResumedRunWritesAfter(tracks, s);
  }

  /** A job with no surround tracks stops after copying the source: the stage
      it then compares against is "nightmode-drc-1", which nothing writes. */
  lemma NoSurroundTracksStalls()
    ensures ReplaceNightmode([], None) == Ok(Run([CopiedToSource], false))
  {
    FreshRunShape([]);
    assert TrackLoop([], 0, StageName(CopiedToSource)) == ([], StageName(CopiedToSource));
    TailShape(0, StageName(CopiedToSource));
    assert "nightmode-drc" + IntToString(-1) == "nightmode-drc-1";
    StageNameInjective(CopiedToSource, CopiedToSource);
    StageNameInjective(CopiedToSource, CreatedNewMkv);
    StageNameInjective(CopiedToSource, CopiedNewMkv);
    assert Tail(0, StageName(CopiedToSource)) == ([], StageName(CopiedToSource));
    assert [CopiedToSource] + [] + [] == [CopiedToSource];
  }
}

=== FILE: prompts.dfy ===
// Interactive prompts as the scripts write them: `input()` in a loop until
// the answer is acceptable. The user's answers are a sequence consumed from
// a position; running out of answers is input()'s EOFError.
module Prompts {
  import opened Results

  /** The position of the first answer at or after `pos` that `ok` accepts:
      the loop `a = input(); while not ok(a): a = input()`. */
  function Ask(answers: seq<string>, pos: nat, ok: string -> bool): (r: Result<nat>)
    ensures r.Ok? ==> pos <= r.value < |answers| && ok(answers[r.value])
    ensures r.Ok? ==> forall j :: pos <= j < r.value ==> !ok(answers[j])
    ensures r.Fail? ==> r.failure == EOFError && forall j :: pos <= j < |answers| ==> !ok(answers[j])
    decreases |answers| - pos
  {
    if pos >= |answers| then Fail(EOFError)
    else if ok(answers[pos]) then Ok(pos)
    else Ask(answers, pos + 1, ok)
  }
}

=== FILE: pypath.dfy ===
// POSIX path handling as the scripts use it: os.path.join/basename/dirname/
// splitext on strings, and pathlib's PurePosixPath as a value of parts.
module PyPath {
  import opened Results
  import opened Text

  /** Python's `p.rfind(c)` for one character: -1 when absent. */
  function RFind(p: string, c: char): (r: int)
    ensures -1 <= r < |p|
    ensures r >= 0 ==> p[r] == c
    ensures forall j :: r < j < |p| ==> p[j] != c
    decreases |p|
  {
    if |p| == 0 then -1
    else if p[|p| - 1] == c then |p| - 1
    else RFind(p[..|p| - 1], c)
  }

  /** Where the last `c` of `a + b` is, in terms of `a` and `b`. */
  lemma RFindConcat(a: string, b: string, c: char)
    ensures c !in b ==> RFind(a + b, c) == RFind(a, c)
    ensures c in b ==> RFind(a + b, c) == |a| + RFind(b, c)
  {
    var r := RFind(a + b, c);
    if c !in b {
      var q := RFind(a, c);
      assert forall j :: |a| <= j < |a + b| ==> (a + b)[j] == b[j - |a|];
      if q >= 0 { assert (a + b)[q] == c; }
    } else {
      var q := RFind(b, c);
      assert (a + b)[|a| + q] == c;
    }
  }

  /** Python's `os.path.join(a, b)` on POSIX. */
  function OsJoin(a: string, b: string): string
  {
    if |b| > 0 && b[0] == '/' then b
    else if |a| == 0 || a[|a| - 1] == '/' then a + b
    else a + "/" + b
  }

  /** Python's `os.path.basename(p)`: the text after the last slash. */
  function Basename(p: string): string
  {
    p[RFind(p, '/') + 1..]
  }

  /** The string with every trailing `c` removed (`s.rstrip(c)`). */
  function RStrip(s: string, c: char): (r: string)
    ensures IsPrefix(r, s)
    ensures |r| > 0 ==> r[|r| - 1] != c
    decreases |s|
  {
    if |s| > 0 && s[|s| - 1] == c then RStrip(s[..|s| - 1], c) else s
  }

  /** Python's `os.path.dirname(p)` on POSIX. */
  function Dirname(p: string): string
  {
    var head := p[..RFind(p, '/') + 1];
    if |head| > 0 && RStrip(head, '/') != "" then RStrip(head, '/') else head
  }

  /** Python's `os.path.expanduser(p)` for "~" and "~/...", with the home
      directory given; other paths are returned unchanged. */
  function ExpandUser(p: string, home: string): (r: string)
    ensures !(|p| > 0 && p[0] == '~' && (|p| == 1 || p[1] == '/')) ==> r == p
  {
    if |p| > 0 && p[0] == '~' && (|p| == 1 || p[1] == '/') then
      var e := RStrip(home, '/') + p[1..];
      if e == "" then "/" else e
    else p
  }

  /** The file name of a joined path is the name joined. */
  lemma BasenameOfJoin(d: string, n: string)
    requires '/' !in n
    ensures Basename(OsJoin(d, n)) == n
  {
    var p := OsJoin(d, n);
    if |d| == 0 {
      assert RFind(p, '/') == -1;
    } else if d[|d| - 1] == '/' {
      RFindConcat(d, n, '/');
      assert RFind(d, '/') == |d| - 1;
    } else {
      RFindConcat(d + "/", n, '/');
      RFindConcat(d, "/", '/');
      assert "/"[0] == '/';
    }
  }

  /** The directory of a joined path is the directory joined, when that
      directory is non-empty and has no trailing slash. */
  lemma DirnameOfJoin(d: string, n: string)
    requires '/' !in n && |d| > 0 && d[|d| - 1] != '/'
    ensures Dirname(OsJoin(d, n)) == d
  {
    var p := OsJoin(d, n);
    assert p == (d + "/") + n;
    RFindConcat(d + "/", n, '/');
    RFindConcat(d, "/", '/');
    assert "/"[0] == '/';
    assert p[..|d| + 1] == d + "/";
    assert RStrip(d + "/", '/') == RStrip(d, '/') by {
      assert (d + "/")[..|d|] == d;
    }
  }

  /** The last component of `p` has a character other than '.', so a final
      ".ext" on it counts as an extension. */
  predicate HasStem(p: string)
  {
    exists k :: RFind(p, '/') < k < |p| && p[k] != '.'
  }

  /** Python's `os.path.splitext(p)`: (root, extension). */
  function SplitExt(p: string): (r: (string, string))
    ensures r.0 + r.1 == p
    ensures r.1 == "" || r.1[0] == '.'
  {
    var sep := RFind(p, '/');
    var dot := RFind(p, '.');
    if dot > sep && exists k :: sep < k < dot && p[k] != '.' then (p[..dot], p[dot..])
    else (p, "")
  }

  /** splitext cuts at the last '.' once a non-dot lies between it and the
      last '/'. */
  lemma SplitExtAt(p: string, dot: int, k: int)
    requires dot == RFind(p, '.') && RFind(p, '/') < k < dot && 0 <= k < |p| && p[k] != '.'
    ensures SplitExt(p) == (p[..dot], p[dot..])
  {
  }

  /** Where the last '/' and the last '.' of `root + "." + e` are. */
  lemma RFindsOfAppend(root: string, e: string)
    requires '.' !in e && '/' !in e
    ensures RFind(root + ("." + e), '/') == RFind(root, '/')
    ensures RFind(root + ("." + e), '.') == |root|
  {
    RFindConcat(root, "." + e, '/');
    RFindConcat(root, "." + e, '.');
    RFindConcat(".", e, '.');
    RFindConcat(".", e, '/');
    assert "."[0] == '.';
  }

  /** Appending an extension to a root with a stem splits back into the two. */
  lemma SplitExtOfAppend(root: string, e: string)
    requires HasStem(root)
    requires '.' !in e && '/' !in e
    ensures SplitExt(root + "." + e) == (root, "." + e)
  {
    var p := root + ("." + e);
    assert p == root + "." + e;
    RFindsOfAppend(root, e);
    var k :| RFind(root, '/') < k < |root| && root[k] != '.';
    assert p[k] == root[k];
    SplitExtAt(p, |root|, k);
    assert p[..|root|] == root && p[|root|..] == "." + e;
  }

  // ------------------------------------------------------------ pathlib

  /** A pathlib.PurePosixPath: absolute or relative, and its named parts. */
  datatype Path = Path(absolute: bool, parts: seq<string>)

  /** The named components of a split path string ("" and "." dropped). */
  function Components(pieces: seq<string>): (r: seq<string>)
    ensures forall i :: 0 <= i < |r| ==> r[i] != "" && r[i] != "."
  {
    if |pieces| == 0 then []
    else if pieces[0] == "" || pieces[0] == "." then Components(pieces[1..])
    else [pieces[0]] + Components(pieces[1..])
  }

  /** `pathlib.Path(s)`. */
  function PathOf(s: string): Path
  {
    Path(|s| > 0 && s[0] == '/', Components(Split(s, '/')))
  }

  /** `p.joinpath(q)` / `p / q`: an absolute `q` replaces `p`. */
  function JoinPath(p: Path, q: Path): Path
  {
    if q.absolute then q else Path(p.absolute, p.parts + q.parts)
  }

  /** `p.name`. */
  function Name(p: Path): string
  {
    if |p.parts| == 0 then "" else p.parts[|p.parts| - 1]
  }

  /** `p.suffix`: the final ".ext" of the name, "" when there is none. */
  function Suffix(p: Path): (r: string)
    ensures r != "" ==> r[0] == '.' && IsSuffix(r, Name(p)) && |r| < |Name(p)|
    ensures r != "" ==> '.' !in r[1..]
  {
    var name := Name(p);
    var i := RFind(name, '.');
    if 0 < i < |name| - 1 then name[i..] else ""
  }

  /** `p.with_name(n)`. */
  function WithName(p: Path, n: string): (r: Result<Path>)
    ensures r.Ok? ==> Name(r.value) == n && r.value.absolute == p.absolute
    ensures r.Ok? ==> |p.parts| > 0 && |r.value.parts| == |p.parts| && r.value.parts[..|p.parts| - 1] == p.parts[..|p.parts| - 1]
    ensures r.Ok? <==> Name(p) != "" && n != "" && n != "." && '/' !in n
  {
    if Name(p) == "" || n == "" || n == "." || '/' in n then Fail(ValueError)
    else Ok(Path(p.absolute, p.parts[..|p.parts| - 1] + [n]))
  }

  /** `str(p)`. */
  function PathString(p: Path): string
  {
    if p.absolute then "/" + Join("/", p.parts)
    else if |p.parts| == 0 then "."
    else Join("/", p.parts)
  }
}

=== FILE: results.dfy ===
// Outcomes shared by every script model: optional values, and the Python
// exceptions or process exits a script ends with instead of a value.
module Results {

  datatype Option<T> = None | Some(value: T)
  {
    predicate IsSome() { Some? }
  }

  /** The ways a script stops without producing its value. */
  datatype Failure =
    | IndexError      // a list or string index out of range
    | KeyError        // a dict lookup of a missing key
    | ValueError      // int()/float() of malformed text, list.index of a missing item
    | TypeError       // str + int and similar
    | ZeroDivision    // x / 0 or x // 0
    | NameError       // a local variable read before it was assigned
    | StopIteration   // next() on an exhausted iterator
    | EOFError        // input() with no answer left
    | OSError         // os.remove of a file that is not there, and similar
    | Exit(code: int) // exit(code)

  datatype Result<T> = Ok(value: T) | Fail(failure: Failure)
  {
    predicate IsOk() { Ok? }
  }

  /** `[f(x) for x in xs]` where each `f(x)` may raise: the first failure
      ends the loop. */
  function MapAll<T, U>(xs: seq<T>, f: T -> Result<U>): (r: Result<seq<U>>)
    ensures r.Ok? <==> forall k :: 0 <= k < |xs| ==> f(xs[k]).Ok?
    ensures r.Ok? ==> |r.value| == |xs| && forall k :: 0 <= k < |xs| ==> f(xs[k]) == Ok(r.value[k])
    ensures r.Fail? ==>
      (exists k :: 0 <= k < |xs| && f(xs[k]) == Fail(r.failure) && forall j :: 0 <= j < k ==> f(xs[j]).Ok?)
    decreases |xs|
  {
    if |xs| == 0 then Ok([])
    else
      var rest := MapAll(xs[1..], f);
      assert forall k :: 1 <= k < |xs| ==> xs[1..][k - 1] == xs[k];
      match f(xs[0])
      case Fail(e) => Fail(e)
      case Ok(y) =>
        match rest
        case Fail(e) =>
          ghost var k :| 0 <= k < |xs| - 1 && f(xs[1..][k]) == Fail(e) && forall j :: 0 <= j < k ==> f(xs[1..][j]).Ok?;
          assert f(xs[k + 1]) == Fail(e);
          Fail(e)
        case Ok(ys) => Ok([y] + ys)
  }
}

=== FILE: sbs.dfy ===
// 3d-misc/convertToSBS.py: turns a BDN XML subtitle set with per-graphic
// depths into half-width side-by-side graphics. Each graphic is composed
// twice onto a wider canvas (ImageMagick), squeezed to half width, and its
// attributes rewritten to the new size and position.
module Sbs {
  import opened Results
  import opened Text
  import opened PyPath
  import opened Bdn

  const ImExe := "convert"

  // ------------------------------------------------------------ main

  /** The eye order as main leaves it: the "--rightfirst" branch assigns -1,
      and the next line sets 1 again unconditionally. */
  function LeftFirst(args: seq<string>): (r: int)
    ensures r == 1
  {
    1
  }

  /** The evidently intended eye order: -1 exactly for a third argument
      "--rightfirst". */
  function CorrectedLeftFirst(args: seq<string>): (r: int)
    ensures r == -1 <==> |args| == 3 && args[2] == "--rightfirst"
    ensures r == 1 || r == -1
  {
    if |args| == 3 && args[2] == "--rightfirst" then -1 else 1
  }

  /** Asking for the right eye first changes nothing: the depths keep their
      sign, where the intended order would negate them. */
  lemma RightFirstIgnored(input: string, output: string)
    ensures LeftFirst([input, output, "--rightfirst"]) == 1
    ensures CorrectedLeftFirst([input, output, "--rightfirst"]) == -1
  {
  }

  // ------------------------------------------------------------ geometry

  /** `(n + 1) // 2`: half, rounded up. */
  function HalfUp(n: int): (r: int)
    ensures 2 * r - 1 <= n <= 2 * r
  {
    (n + 1) / 2
  }

  /** `math.ceil(n / 4)`. */
  function CeilQuarter(n: int): (r: int)
    ensures (r - 1) * 4 < n <= r * 4
  {
    -((-n) / 4)
  }

  /** Where a graphic goes: the canvas width holding both copies, the final
      (halved) width, the new X, and the columns cropped off on the left
      when the new X would be negative. */
  datatype Placement = Placement(newWidth: int, finalWidth: int, newX: int, crop: Option<nat>)

  /** The geometry of convertXMLto3DSBS for one graphic at an (already
      signed) depth: the canvas is the graphic plus the frame width less
      the depth, the final width half of it, and the new X
      ceil((x + depth / 2) / 2). A negative new X is cropped away, the
      width shrinking with it and capped at the frame width. */
  function Place(g: Geometry, depth: int): (r: Placement)
    ensures r.newWidth == g.width + FrameWidth - depth
    ensures r.newX >= 0
    ensures r.crop.None? <==> CeilQuarter(2 * g.x + depth) >= 0
    ensures r.crop.None? ==> r.newX == CeilQuarter(2 * g.x + depth) && r.finalWidth == HalfUp(r.newWidth)
    ensures r.crop.Some? ==>
      (r.newX == 0 && r.crop.value > 0 && r.crop.value == -CeilQuarter(2 * g.x + depth)
       && r.finalWidth <= FrameWidth
       && (r.finalWidth == FrameWidth || r.finalWidth == HalfUp(r.newWidth) - r.crop.value))
  {
    var newWidth := g.width + FrameWidth - depth;
    var finalWidth := HalfUp(newWidth);
    var newX := CeilQuarter(2 * g.x + depth);
    if newX < 0 then
      var w := finalWidth + newX;
      Placement(newWidth, if w > FrameWidth then FrameWidth else w, 0, Some(-newX))
    else Placement(newWidth, finalWidth, newX, None)
  }

  /** Without cropping the new X is the graphic's centre line, shifted by
      half the depth, in half-width coordinates: 4 * newX lies within 3 of
      2 * x + depth. */
  lemma PlaceUncropped(g: Geometry, depth: int)
    requires 2 * g.x + depth >= 0
    ensures Place(g, depth).crop.None?
    ensures 2 * g.x + depth <= 4 * Place(g, depth).newX < 2 * g.x + depth + 4
  {
  }

  // ------------------------------------------------------------ one graphic

  datatype Graphic = Graphic(attrib: Attrib, text: string)

  /** "sub_{0:04d}.png" for the 1-based subtitle counter. */
  function SubPng(n: nat): (r: string)
    ensures |r| >= 12 && r[..4] == "sub_" && r[|r| - 4..] == ".png"
  {
    "sub_" + ZeroPad(n, 4) + ".png"
  }

  /** Different subtitles get different PNG files. */
  lemma SubPngInjective(i: nat, j: nat)
    requires SubPng(i) == SubPng(j)
    ensures i == j
  {
    var a := ZeroPad(i, 4);
    var b := ZeroPad(j, 4);
    assert |a| == |SubPng(i)| - 8 && |b| == |SubPng(j)| - 8;
    assert a == SubPng(i)[4..|SubPng(i)| - 4];
    assert b == SubPng(j)[4..|SubPng(j)| - 4];
  }

  /** The ImageMagick command: the graphic composed at the west and the
      east edge of the wider canvas, squeezed to half width, and cropped
      when the placement says so. */
  function ImCommand(p: Placement, height: int, input: string, output: string): (r: seq<string>)
    ensures |r| == (if p.crop.Some? then 25 else 21)
    ensures r[0] == ImExe && r[|r| - 1] == output
  {
    var size := IntToString(p.newWidth) + "x" + IntToString(height);
    var compose := ["-size", size, "xc:none", input, "-gravity", "West", "-composite", ")",
                    input, "-gravity", "East", "-composite", ")", "-filter", "Mitchell", "-resize", "50%%x100%%!"];
    match p.crop
    case Some(cropx) =>
      [ImExe, "(", "(", "("] + compose
        + [")", "-crop", IntToString(p.finalWidth) + "x" + IntToString(height) + "+" + IntToString(cropx) + "+0", output]
    case None => [ImExe, "(", "("] + compose + [output]
  }

  /** One Graphic of convertXMLto3DSBS's loop, the n-th (from 1): the
      depth signed by the eye order, a too-great depth raising TypeError in
      the warning, then the command and the rewritten attributes. */
  function ConvertGraphic(gr: Graphic, n: nat, leftFirst: int, inDir: string, outDir: string)
    : (r: Result<(Graphic, seq<string>)>)
    ensures r.Ok? <==>
      (ReadGraphic(gr.attrib).Ok?
       && !DepthTooGreat(ReadGraphic(gr.attrib).value.width, ReadGraphic(gr.attrib).value.depth * leftFirst))
    ensures r.Ok? ==> r.value.0.text == SubPng(n) && |r.value.1| > 0 && r.value.1[|r.value.1| - 1] == OsJoin(outDir, SubPng(n))
  {
    match ReadGraphic(gr.attrib)
    case Fail(e) => Fail(e)
    case Ok(g) =>
      var depth := g.depth * leftFirst;
      if DepthTooGreat(g.width, depth) then Fail(TypeError)
      else
        var p := Place(g, depth);
        var png := SubPng(n);
        var cmd := ImCommand(p, g.height, OsJoin(inDir, gr.text), OsJoin(outDir, png));
        var a := RewriteAttrib(gr.attrib, IntToString(p.finalWidth), IntToString(g.height),
                               IntToString(p.newX), IntToString(g.y), IntToString(g.depth));
        Ok((Graphic(a, png), cmd))
  }

  /** The attributes set, Depth dropped and OrigDepth added. */
  function RewriteAttrib(attrib: Attrib, w: string, h: string, x: string, y: string, d: string): (a: Attrib)
    ensures "Depth" !in a && a.Keys == attrib.Keys - {"Depth"} + {"Width", "Height", "X", "Y", "OrigDepth"}
    ensures a["Width"] == w && a["Height"] == h && a["X"] == x && a["Y"] == y && a["OrigDepth"] == d
    ensures forall k :: k in attrib && k !in {"Width", "Height", "X", "Y", "Depth", "OrigDepth"} ==> a[k] == attrib[k]
  {
    (attrib["Width" := w]["Height" := h]["X" := x]["Y" := y] - {"Depth"})["OrigDepth" := d]
  }

  /** The rewritten graphic: the placement's width and X, the height and Y
      kept, no Depth, OrigDepth holding the depth read, every other
      attribute untouched. */
  lemma ConvertGraphicAttributes(gr: Graphic, n: nat, leftFirst: int, inDir: string, outDir: string)
    requires ConvertGraphic(gr, n, leftFirst, inDir, outDir).Ok?
    ensures var g := ReadGraphic(gr.attrib).value; var p := Place(g, g.depth * leftFirst);
      var a := ConvertGraphic(gr, n, leftFirst, inDir, outDir).value.0.attrib;
      "Depth" !in a && a.Keys == gr.attrib.Keys - {"Depth"} + {"Width", "Height", "X", "Y", "OrigDepth"}
      && ParseInt(a["Width"]) == Some(p.finalWidth) && ParseInt(a["Height"]) == Some(g.height)
      && ParseInt(a["X"]) == Some(p.newX) && ParseInt(a["Y"]) == Some(g.y)
      && ParseInt(a["OrigDepth"]) == Some(g.depth)
      && (forall k :: k in gr.attrib && k !in {"Width", "Height", "X", "Y", "Depth", "OrigDepth"} ==> a[k] == gr.attrib[k])
  {
    var g := ReadGraphic(gr.attrib).value;
    var p := Place(g, g.depth * leftFirst);
    ParseIntToString(p.finalWidth);
    ParseIntToString(g.height);
    ParseIntToString(p.newX);
    ParseIntToString(g.y);
    ParseIntToString(g.depth);
  }

  // ------------------------------------------------------------ the file

  datatype SbsOutput = SbsOutput(outDir: string, graphics: seq<Graphic>, commands: seq<seq<string>>, xmlPath: string)

  /** The graphics numbered from 1, as the loop counts them. */
  function Numbered(graphics: seq<Graphic>): (r: seq<(Graphic, nat)>)
    ensures |r| == |graphics| && forall k :: 0 <= k < |r| ==> r[k] == (graphics[k], k + 1)
  {
    seq(|graphics|, k requires 0 <= k < |graphics| => (graphics[k], k + 1))
  }

  /** convertXMLto3DSBS: the output directory is the output XML name up to
      its first '.'; every graphic is converted in order, and the XML is
      written into the output directory. */
  function ConvertXmlTo3DSbs(inXml: string, outXml: string, leftFirst: int, graphics: seq<Graphic>)
    : (r: Result<SbsOutput>)
    ensures r.Ok? ==> |r.value.graphics| == |graphics| && |r.value.commands| == |graphics|
    ensures r.Ok? ==> r.value.outDir == Split(outXml, '.')[0] && r.value.xmlPath == OsJoin(r.value.outDir, outXml)
    ensures r.Ok? ==> forall k :: 0 <= k < |graphics| ==> r.value.graphics[k].text == SubPng(k + 1)
  {
    var outDir := Split(outXml, '.')[0];
    var inDir := Dirname(inXml);
    match MapAll(Numbered(graphics), ConvertNumbered(leftFirst, inDir, outDir))
    case Fail(e) => Fail(e)
    case Ok(done) =>
      ConvertedTexts(graphics, done, leftFirst, inDir, outDir);
      Ok(SbsOutput(outDir, Firsts(done), Seconds(done), OsJoin(outDir, outXml)))
  }

  function Firsts<A, B>(ps: seq<(A, B)>): (r: seq<A>)
    ensures |r| == |ps| && forall k :: 0 <= k < |ps| ==> r[k] == ps[k].0
  {
    seq(|ps|, k requires 0 <= k < |ps| => ps[k].0)
  }

  function Seconds<A, B>(ps: seq<(A, B)>): (r: seq<B>)
    ensures |r| == |ps| && forall k :: 0 <= k < |ps| ==> r[k] == ps[k].1
  {
    seq(|ps|, k requires 0 <= k < |ps| => ps[k].1)
  }

  function ConvertNumbered(leftFirst: int, inDir: string, outDir: string): ((Graphic, nat)) -> Result<(Graphic, seq<string>)>
  {
    (p: (Graphic, nat)) => ConvertGraphic(p.0, p.1, leftFirst, inDir, outDir)
  }

  /** The k-th converted graphic shows the k-th PNG. */
  lemma ConvertedTexts(graphics: seq<Graphic>, done: seq<(Graphic, seq<string>)>, leftFirst: int, inDir: string, outDir: string)
    requires MapAll(Numbered(graphics), ConvertNumbered(leftFirst, inDir, outDir)) == Ok(done)
    ensures |done| == |graphics| && forall k :: 0 <= k < |done| ==> done[k].0.text == SubPng(k + 1)
  {
    var f := ConvertNumbered(leftFirst, inDir, outDir);
    forall k | 0 <= k < |done| ensures done[k].0.text == SubPng(k + 1) {
      assert Numbered(graphics)[k] == (graphics[k], k + 1);
      assert f(Numbered(graphics)[k]) == Ok(done[k]);
    }
  }

  /** main: at least two arguments; the output XML is the second one plus
      ".xml", and the eye order is LeftFirst's. */
  function Main(args: seq<string>, home: string, graphics: seq<Graphic>): (r: Result<SbsOutput>)
    ensures |args| < 2 ==> r == Fail(Exit(1))
    ensures r.Ok? ==> r == ConvertXmlTo3DSbs(ExpandUser(args[0], home), ExpandUser(args[1], home) + ".xml", 1, graphics)
  {
    if |args| < 2 then Fail(Exit(1))
    else ConvertXmlTo3DSbs(ExpandUser(args[0], home), ExpandUser(args[1], home) + ".xml", LeftFirst(args), graphics)
  }
}

=== FILE: slideshow.dfy ===
// slideshow/ffmpegSlideshow.py: a fade-in/fade-out slideshow of the JPEG
// files of the current directory, as one ffmpeg command.
module Slideshow {
  import opened Results
  import opened Text
  import Lists

  const FfmpegPath := "ffmpeg"

  // ------------------------------------------------------------ images

  /** An entry is taken as an image when "JPG" or "jpg" occurs anywhere in
      its name, not only as its extension. */
  predicate IsImage(f: string)
  {
    Contains(f, "JPG") || Contains(f, "jpg")
  }

  function IsImageFn(): string -> bool
  {
    f => IsImage(f)
  }

  /** main's image list: the matching entries in listing order. */
  function Images(listing: seq<string>): (r: seq<string>)
    ensures forall i :: 0 <= i < |r| ==> r[i] in listing && IsImage(r[i])
    ensures forall i :: 0 <= i < |listing| && IsImage(listing[i]) ==> listing[i] in r
  {
    var r := Lists.Filter(listing, IsImageFn());
    assert forall i :: 0 <= i < |r| ==> IsImageFn()(r[i]);
    r
  }

  /** Each image is taken exactly as often as it is listed. */
  lemma ImagesCounts(listing: seq<string>, x: string)
    ensures multiset(Images(listing))[x] == if IsImage(x) then multiset(listing)[x] else 0
  {
    Lists.FilterCounts(listing, IsImageFn(), x);
  }

  // ------------------------------------------------------------ the filter graph

  /** The fade chain of image `k`: fade in over the first second, fade out
      from second 4, whatever the display time. */
  function FadeChain(k: nat): string
  {
    "[" + NatToString(k) + ":v]fade=t=in:st=0:d=1,fade=t=out:st=4:d=1[v" + NatToString(k) + "]"
  }

  /** The fade chains of the first `n` images, each closed by "; ". */
  function FadeChains(n: nat): string
    decreases n
  {
    if n == 0 then "" else FadeChains(n - 1) + FadeChain(n - 1) + "; "
  }

  /** "[v0][v1]…[v(n-1)]". */
  function Labels(n: nat): string
    decreases n
  {
    if n == 0 then "" else Labels(n - 1) + "[v" + NatToString(n - 1) + "]"
  }

  /** The last chain: the faded streams concatenated, converted to
      yuv420p and scaled to 720 lines. */
  function ConcatChain(n: nat): string
  {
    Labels(n) + "concat=n=" + NatToString(n) + ":v=1:a=0,format=yuv420p,scale=-1:720[v]"
  }

  function FilterString(n: nat): string
  {
    FadeChains(n) + ConcatChain(n)
  }

  /** The space that "; " leaves in front of every chain but the first. */
  function Lead(k: nat): string
  {
    if k == 0 then "" else " "
  }

  /** The chains an ffmpeg filter graph separates with ';'. */
  function Chains(n: nat): (r: seq<string>)
    ensures |r| == n
  {
    seq(n, k requires 0 <= k < n => Lead(k) + FadeChain(k))
  }

  lemma {:induction false} JoinLast(sep: string, a: seq<string>, x: string, y: string)
    ensures Join(sep, a + [x + sep + y]) == Join(sep, a + [x, y])
    decreases |a|
  {
    if |a| > 0 {
      JoinLast(sep, a[1..], x, y);
      assert (a + [x + sep + y])[1..] == a[1..] + [x + sep + y];
      assert (a + [x, y])[1..] == a[1..] + [x, y];
    }
  }

  lemma ChainsSnoc(k: nat)
    ensures Chains(k + 1) == Chains(k) + [Lead(k) + FadeChain(k)]
  {
  }

  lemma LeadStep(k: nat, x: string, rest: string)
    requires x == Lead(k) + FadeChain(k)
    ensures Lead(k) + (FadeChain(k) + "; " + rest) == x + ";" + (Lead(k + 1) + rest)
  {
    assert Lead(k + 1) == " ";
    Regroup(Lead(k), FadeChain(k), rest);
  }

  /** "; " is the separator ';' followed by the next chain's leading space. */
  lemma Regroup(a: string, b: string, rest: string)
    ensures a + (b + "; " + rest) == (a + b) + ";" + (" " + rest)
  {
    assert "; " == ";" + " ";
  }

  lemma {:induction false} FadeChainsJoin(n: nat, rest: string)
    ensures FadeChains(n) + rest == Join(";", Chains(n) + [Lead(n) + rest])
    decreases n
  {
    if n > 0 {
      var k := n - 1;
      var y := FadeChain(k) + "; " + rest;
      var x := Lead(k) + FadeChain(k);
      FadeChainsJoin(k, y);
      FadeChainsSnoc(k, rest);
      LeadStep(k, x, rest);
      JoinLast(";", Chains(k), x, Lead(n) + rest);
      ChainsSnoc(k);
      assert Chains(k) + [x, Lead(n) + rest] == Chains(n) + [Lead(n) + rest];
    }
  }

  lemma FadeChainsSnoc(k: nat, rest: string)
    ensures FadeChains(k + 1) + rest == FadeChains(k) + (FadeChain(k) + "; " + rest)
  {
    Assoc(FadeChains(k), FadeChain(k), rest);
  }

  lemma Assoc(f: string, c: string, rest: string)
    ensures f + c + "; " + rest == f + (c + "; " + rest)
  {
  }

  lemma NoSemicolonInNumber(k: nat)
    ensures ';' !in NatToString(k)
  {
    var d := NatToString(k);
    assert forall i :: 0 <= i < |d| ==> IsDigit(d[i]);
  }

  lemma {:induction false} NoSemicolonInLabels(n: nat)
    ensures ';' !in Labels(n)
    decreases n
  {
    if n > 0 {
      NoSemicolonInLabels(n - 1);
      NoSemicolonInNumber(n - 1);
    }
  }

  lemma NoSemicolonInFade(k: nat)
    ensures ';' !in FadeChain(k)
  {
    NoSemicolonInNumber(k);
    var a := ":v]fade=t=in:st=0:d=1,fade=t=out:st=4:d=1[v";
    assert forall i :: 0 <= i < |a| ==> a[i] != ';';
  }

  lemma NoSemicolonInConcat(n: nat)
    ensures ';' !in Lead(n) + ConcatChain(n)
  {
    NoSemicolonInLabels(n);
    NoSemicolonInNumber(n);
    var a := ":v=1:a=0,format=yuv420p,scale=-1:720[v]";
    assert forall i :: 0 <= i < |a| ==> a[i] != ';';
    assert forall i :: 0 <= i < |"concat=n="| ==> "concat=n="[i] != ';';
  }

  lemma NoSemicolonInChains(n: nat)
    ensures forall k :: 0 <= k < n ==> ';' !in Chains(n)[k]
  {
    forall k | 0 <= k < n ensures ';' !in Chains(n)[k] {
      NoSemicolonInFade(k);
    }
  }

  /** Split at ';' as ffmpeg reads a filter graph, the filter string is one
      fade chain per image, in image order, then the concat chain. */
  lemma FilterChains(n: nat)
    ensures Split(FilterString(n), ';') == Chains(n) + [Lead(n) + ConcatChain(n)]
  {
    var parts := Chains(n) + [Lead(n) + ConcatChain(n)];
    FadeChainsJoin(n, ConcatChain(n));
    NoSemicolonInChains(n);
    NoSemicolonInConcat(n);
    assert forall k :: 0 <= k < |parts| ==> ';' !in parts[k];
    SplitJoin(parts, ';');
  }

  // ------------------------------------------------------------ FFmpegCmd

  /** The input options of one image: looped for `displaySec` seconds at
      the NTSC video rate. */
  function InputArgs(img: string, displaySec: string): (r: seq<string>)
    ensures |r| == 8 && r[7] == img
  {
    ["-framerate", "30000/1001", "-loop", "1", "-t", displaySec, "-i", img]
  }

  function Inputs(images: seq<string>, displaySec: string): (r: seq<string>)
    ensures |r| == 8 * |images|
    ensures forall i :: 0 <= i < |images| ==> r[8 * i..8 * i + 8] == InputArgs(images[i], displaySec)
    decreases |images|
  {
    if |images| == 0 then []
    else
      var init := images[..|images| - 1];
      var front := Inputs(init, displaySec);
      GroupsSnoc(front, images, displaySec);
      front + InputArgs(images[|images| - 1], displaySec)
  }

  /** One more image adds its group after the groups of the others. */
  lemma GroupsSnoc(front: seq<string>, images: seq<string>, displaySec: string)
    requires |images| > 0 && |front| == 8 * (|images| - 1)
    requires forall i :: 0 <= i < |images| - 1 ==> front[8 * i..8 * i + 8] == InputArgs(images[i], displaySec)
    ensures var r := front + InputArgs(images[|images| - 1], displaySec);
      forall i :: 0 <= i < |images| ==> r[8 * i..8 * i + 8] == InputArgs(images[i], displaySec)
  {
    var last := InputArgs(images[|images| - 1], displaySec);
    var r := front + last;
    forall i | 0 <= i < |images| ensures r[8 * i..8 * i + 8] == InputArgs(images[i], displaySec) {
      if i < |images| - 1 {
        assert r[8 * i..8 * i + 8] == front[8 * i..8 * i + 8];
      } else {
        assert r[8 * i..8 * i + 8] == last;
      }
    }
  }

  /** The output options: x264, veryfast, tuned for still images, CRF 15. */
  function OutputArgs(output: string): (r: seq<string>)
    ensures |r| == 11 && r[10] == output
  {
    ["-map", "[v]", "-vcodec", "libx264", "-preset", "veryfast", "-tune", "stillimage", "-crf", "15", output]
  }

  /** FFmpegCmd: eight input arguments per image in image order, the
      filter graph, then the output options with the output file last. */
  function FfmpegCmd(images: seq<string>, displaySec: string, output: string): (r: seq<string>)
    ensures |r| == 8 * |images| + 14
    ensures r[0] == FfmpegPath && r[|r| - 1] == output
    ensures forall i :: 0 <= i < |images| ==> r[1 + 8 * i..9 + 8 * i] == InputArgs(images[i], displaySec)
    ensures r[1 + 8 * |images|] == "-filter_complex" && r[2 + 8 * |images|] == FilterString(|images|)
    ensures r[3 + 8 * |images|..] == OutputArgs(output)
  {
    var ins := Inputs(images, displaySec);
    var r := Assemble(ins, FilterString(|images|), output);
    assert forall i :: 0 <= i < |images| ==> r[1 + 8 * i..9 + 8 * i] == ins[8 * i..8 * i + 8];
    r
  }

  /** The program, the inputs, the filter graph and the output options. */
  function Assemble(ins: seq<string>, graph: string, output: string): (r: seq<string>)
    ensures |r| == |ins| + 14 && r[0] == FfmpegPath && r[|r| - 1] == output
    ensures forall lo, hi :: 0 <= lo <= hi <= |ins| ==> r[1 + lo..1 + hi] == ins[lo..hi]
    ensures r[1 + |ins|] == "-filter_complex" && r[2 + |ins|] == graph
    ensures r[3 + |ins|..] == OutputArgs(output)
  {
    var tail := ["-filter_complex", graph] + OutputArgs(output);
    SliceInMiddle([FfmpegPath], ins, tail);
    assert ([FfmpegPath] + ins + tail)[1 + |ins|..] == tail;
    [FfmpegPath] + ins + tail
  }

  lemma SliceInMiddle(head: seq<string>, mid: seq<string>, tail: seq<string>)
    ensures forall lo, hi :: 0 <= lo <= hi <= |mid| ==> (head + mid + tail)[|head| + lo..|head| + hi] == mid[lo..hi]
  {
    var all := head + mid + tail;
    forall lo, hi | 0 <= lo <= hi <= |mid| ensures all[|head| + lo..|head| + hi] == mid[lo..hi] {
      assert forall j :: 0 <= j < hi - lo ==> all[|head| + lo..|head| + hi][j] == mid[lo..hi][j];
    }
  }

  /** The image of each input group: the argument after its "-i". */
  function InputImages(cmd: seq<string>): (r: seq<string>)
    requires |cmd| >= 14 && (|cmd| - 14) % 8 == 0
    ensures |r| == (|cmd| - 14) / 8
  {
    seq((|cmd| - 14) / 8, i requires 0 <= i < (|cmd| - 14) / 8 => cmd[8 + 8 * i])
  }

  /** The command feeds ffmpeg exactly the images, in order. */
  lemma FfmpegCmdImages(images: seq<string>, displaySec: string, output: string)
    ensures InputImages(FfmpegCmd(images, displaySec, output)) == images
  {
    var cmd := FfmpegCmd(images, displaySec, output);
    forall i | 0 <= i < |images| ensures cmd[8 + 8 * i] == images[i] {
      assert cmd[1 + 8 * i..9 + 8 * i] == InputArgs(images[i], displaySec);
      assert cmd[1 + 8 * i..9 + 8 * i][7] == cmd[8 + 8 * i];
    }
  }

  /** main over sys.argv: the display time and the output file are argv[1]
      and argv[2]; fewer arguments are an IndexError. */
  function Main(argv: seq<string>, listing: seq<string>): (r: Result<seq<string>>)
    ensures r.Fail? <==> |argv| < 3
    ensures r.Fail? ==> r.failure == IndexError
    ensures r.Ok? ==> (|r.value| == 8 * |Images(listing)| + 14
      && InputImages(r.value) == Images(listing) && r.value[|r.value| - 1] == argv[2])
  {
    if |argv| < 3 then Fail(IndexError)
    else
      FfmpegCmdImages(Images(listing), argv[1], argv[2]);
      Ok(FfmpegCmd(Images(listing), argv[1], argv[2]))
  }
}

=== FILE: text.dfy ===
// Python string operations the scripts rely on, written out over seq<char>:
// substring tests (`a in b`), split/join, str()/int() of integers, slicing
// with negative indices, replace/rsplit and code-point ordering for sort().
module Text {
  import opened Results

  predicate IsPrefix(p: string, s: string) { |p| <= |s| && s[..|p|] == p }

  predicate IsSuffix(p: string, s: string) { |p| <= |s| && s[|s| - |p|..] == p }

  /** `sub` occurs in `s` starting at index `i`. */
  predicate OccursAt(s: string, sub: string, i: int)
  {
    0 <= i && i + |sub| <= |s| && s[i..i + |sub|] == sub
  }

  /** Python's `sub in s` on two strings. */
  predicate Contains(s: string, sub: string)
    decreases |s|
  {
    IsPrefix(sub, s) || (|s| > 0 && Contains(s[1..], sub))
  }

  lemma {:induction false} ContainsIffOccurs(s: string, sub: string)
    ensures Contains(s, sub) <==> exists i :: OccursAt(s, sub, i)
    decreases |s|
  {
    if Contains(s, sub) {
      if IsPrefix(sub, s) {
        assert OccursAt(s, sub, 0);
      } else {
        ContainsIffOccurs(s[1..], sub);
        var j :| OccursAt(s[1..], sub, j);
        assert s[1..][j..j + |sub|] == s[j + 1..j + 1 + |sub|];
        assert OccursAt(s, sub, j + 1);
      }
    }
    if exists i :: OccursAt(s, sub, i) {
      var i :| OccursAt(s, sub, i);
      if i == 0 {
        assert IsPrefix(sub, s);
      } else {
        assert s[1..][i - 1..i - 1 + |sub|] == s[i..i + |sub|];
        assert OccursAt(s[1..], sub, i - 1);
        ContainsIffOccurs(s[1..], sub);
      }
    }
  }

  lemma ContainsInLeft(a: string, b: string, t: string)
    requires Contains(a, t)
    ensures Contains(a + b, t)
  {
    ContainsIffOccurs(a, t);
    var i :| OccursAt(a, t, i);
    assert (a + b)[i..i + |t|] == a[i..i + |t|];
    assert OccursAt(a + b, t, i);
    ContainsIffOccurs(a + b, t);
  }

  lemma ContainsInRight(a: string, b: string, t: string)
    requires Contains(b, t)
    ensures Contains(a + b, t)
  {
    ContainsIffOccurs(b, t);
    var i :| OccursAt(b, t, i);
    assert (a + b)[|a| + i..|a| + i + |t|] == b[i..i + |t|];
    assert OccursAt(a + b, t, |a| + i);
    ContainsIffOccurs(a + b, t);
  }

  /** Index of the first `c` in `s` (Python's `s.index(c)` when `c in s`). */
  function IndexOfChar(s: string, c: char): (i: nat)
    requires c in s
    ensures i < |s| && s[i] == c && c !in s[..i]
  {
    if s[0] == c then 0 else 1 + IndexOfChar(s[1..], c)
  }

  /** Python's `sep.join(parts)`. */
  function Join(sep: string, parts: seq<string>): string
  {
    if |parts| == 0 then ""
    else if |parts| == 1 then parts[0]
    else parts[0] + sep + Join(sep, parts[1..])
  }

  /** Python's `s.split(c)` for a one-character separator: always at least one
      piece, no piece holds the separator, and the pieces join back to `s`. */
  function Split(s: string, c: char): (parts: seq<string>)
    ensures |parts| >= 1
    ensures forall i :: 0 <= i < |parts| ==> c !in parts[i]
    ensures Join([c], parts) == s
    decreases |s|
  {
    if c !in s then [s]
    else
      var i := IndexOfChar(s, c);
      var rest := Split(s[i + 1..], c);
      assert ([s[..i]] + rest)[1..] == rest;
      assert s[..i] + [c] + s[i + 1..] == s;
      [s[..i]] + rest
  }

  /** Splitting a join of separator-free pieces gives the pieces back. */
  lemma {:induction false} SplitJoin(parts: seq<string>, c: char)
    requires |parts| >= 1
    requires forall i :: 0 <= i < |parts| ==> c !in parts[i]
    ensures Split(Join([c], parts), c) == parts
  {
    if |parts| > 1 {
      var s := Join([c], parts);
      var p0 := parts[0];
      assert s == p0 + [c] + Join([c], parts[1..]);
      assert s[|p0|] == c;
      var i := IndexOfChar(s, c);
      assert s[..i] == p0;
      assert s[i + 1..] == Join([c], parts[1..]);
      SplitJoin(parts[1..], c);
      assert parts == [p0] + parts[1..];
    }
  }

  /** Python's `s.split(c)[-1]`. */
  function LastField(s: string, c: char): string
  {
    var fields := Split(s, c);
    fields[|fields| - 1]
  }

  /** The last field is the text after the last `c` (all of `s` when it has
      none). */
  lemma {:induction false} LastFieldIsSuffix(s: string, c: char)
    ensures var e := LastField(s, c);
      IsSuffix(e, s) && c !in e && (|e| < |s| ==> s[|s| - |e| - 1] == c)
    decreases |s|
  {
    if c in s {
      var i := IndexOfChar(s, c);
      var tail := s[i + 1..];
      assert Split(s, c) == [s[..i]] + Split(tail, c);
      assert LastField(s, c) == LastField(tail, c);
      LastFieldIsSuffix(tail, c);
      var e := LastField(tail, c);
      assert |tail| == |s| - i - 1;
      SuffixOfTail(s, i + 1, e);
      if |e| == |tail| {
        assert s[|s| - |e| - 1] == s[i];
      } else {
        assert s[|s| - |e| - 1] == tail[|tail| - |e| - 1];
      }
    }
  }

  lemma SuffixOfTail(s: string, j: nat, e: string)
    requires j <= |s| && IsSuffix(e, s[j..])
    ensures IsSuffix(e, s)
  {
    assert s[|s| - |e|..] == s[j..][|s| - j - |e|..];
  }

  // ---------------------------------------------------------------- integers

  predicate IsDigit(ch: char) { '0' <= ch <= '9' }

  predicate AllDigits(s: string) { forall i :: 0 <= i < |s| ==> IsDigit(s[i]) }

  function DigitChar(d: nat): char
    requires d < 10
  {
    (('0' as int) + d) as char
  }

  function DigitValue(ch: char): nat
    requires IsDigit(ch)
  {
    (ch as int) - ('0' as int)
  }

  /** The decimal value of a string of digits (leading zeros allowed, as int() does). */
  function ParseNat(s: string): nat
    requires AllDigits(s)
    decreases |s|
  {
    if |s| == 0 then 0 else 10 * ParseNat(s[..|s| - 1]) + DigitValue(s[|s| - 1])
  }

  /** Python's `str(n)` for n >= 0: shortest decimal, which reads back as n. */
  function NatToString(n: nat): (s: string)
    ensures |s| >= 1 && AllDigits(s)
    ensures |s| > 1 ==> s[0] != '0'
    ensures ParseNat(s) == n
    decreases n
  {
    if n < 10 then [DigitChar(n)]
    else
      var t := NatToString(n / 10);
      var s := t + [DigitChar(n % 10)];
      assert s[..|s| - 1] == t;
      s
  }

  lemma NatToStringInjective(a: nat, b: nat)
    ensures NatToString(a) == NatToString(b) ==> a == b
  {
  }

  /** Python's `str(i)`. */
  function IntToString(i: int): (s: string)
  {
    if i < 0 then "-" + NatToString(-i) else NatToString(i)
  }

  /** Python's `int(s)` on text: an optional sign and at least one digit
      (surrounding white space and `_` separators are not accepted here). */
  function ParseInt(s: string): (r: Option<int>)
    ensures r.Some? ==> |s| > 0
  {
    if |s| > 1 && (s[0] == '-' || s[0] == '+') && AllDigits(s[1..]) then
      var v: int := ParseNat(s[1..]);
      Some(if s[0] == '-' then -v else v)
    else if |s| > 0 && AllDigits(s) then Some(ParseNat(s))
    else None
  }

  lemma ParseIntToString(i: int)
    ensures ParseInt(IntToString(i)) == Some(i)
  {
    if i < 0 {
      assert IntToString(i)[1..] == NatToString(-i);
    } else {
      assert !IsDigit('-') && !IsDigit('+');
    }
  }

  /** Python's `"%0*d" % (width, n)` for n >= 0: zero-padded to `width` digits. */
  function ZeroPad(n: nat, width: nat): (s: string)
    ensures |s| >= width && AllDigits(s) && ParseNat(s) == n
  {
    var d := NatToString(n);
    if |d| >= width then d else ZerosThenDigits(width - |d|, d)
  }

  function ZerosThenDigits(k: nat, d: string): (s: string)
    requires AllDigits(d)
    ensures |s| == k + |d| && AllDigits(s) && ParseNat(s) == ParseNat(d)
    decreases k
  {
    if k == 0 then d
    else
      var t := ZerosThenDigits(k - 1, d);
      ZeroPrefixValue(t);
      "0" + t
  }

  lemma {:induction false} ZeroPrefixValue(t: string)
    requires AllDigits(t)
    ensures AllDigits("0" + t) && ParseNat("0" + t) == ParseNat(t)
    decreases |t|
  {
    if |t| > 0 {
      var u := "0" + t;
      assert u[..|u| - 1] == "0" + t[..|t| - 1];
      ZeroPrefixValue(t[..|t| - 1]);
    }
  }

  // ---------------------------------------------------------------- case

  function LowerChar(ch: char): char
  {
    if 'A' <= ch <= 'Z' then ((ch as int) + 32) as char else ch
  }

  function UpperChar(ch: char): char
  {
    if 'a' <= ch <= 'z' then ((ch as int) - 32) as char else ch
  }

  /** Python's `s.lower()` on ASCII letters. */
  function Lower(s: string): string
  {
    seq(|s|, i requires 0 <= i < |s| => LowerChar(s[i]))
  }

  /** Python's `s.upper()` on ASCII letters. */
  function Upper(s: string): string
  {
    seq(|s|, i requires 0 <= i < |s| => UpperChar(s[i]))
  }

  /** The characters Python's `str.rstrip()` removes (ASCII white space). */
  predicate IsSpace(ch: char)
  {
    ch == ' ' || ch == '\t' || ch == '\n' || ch == '\r' || ch == '\U{000B}' || ch == '\U{000C}'
  }

  /** Python's `s.rstrip()`. */
  function RStripSpace(s: string): (r: string)
    ensures IsPrefix(r, s)
    ensures |r| > 0 ==> !IsSpace(r[|r| - 1])
    ensures forall i :: |r| <= i < |s| ==> IsSpace(s[i])
    decreases |s|
  {
    if |s| > 0 && IsSpace(s[|s| - 1]) then RStripSpace(s[..|s| - 1]) else s
  }

  // ---------------------------------------------------------------- slicing

  /** Where a Python slice bound `i` lands in a sequence of length `n`. */
  function SliceBound(i: int, n: nat): (k: nat)
    ensures k <= n
  {
    if i < 0 then (if i + n < 0 then 0 else i + n)
    else if i > n then n
    else i
  }

  /** Python's `s[lo:hi]`. */
  function PySlice<T>(s: seq<T>, lo: int, hi: int): seq<T>
  {
    var a := SliceBound(lo, |s|);
    var b := SliceBound(hi, |s|);
    if a < b then s[a..b] else []
  }

  // ---------------------------------------------------------------- replace

  /** Python's `s.replace(pat, "")`. */
  function RemoveAll(s: string, pat: string): (r: string)
    ensures |r| <= |s|
    ensures !Contains(s, pat) ==> r == s
    decreases |s|
  {
    if |pat| == 0 then s
    else if IsPrefix(pat, s) then RemoveAll(s[|pat|..], pat)
    else if |s| == 0 then s
    else [s[0]] + RemoveAll(s[1..], pat)
  }

  /** The last index `<= k` where `sub` occurs in `s`. */
  function LastIndexFrom(s: string, sub: string, k: int): (r: Option<nat>)
    ensures r.Some? ==> r.value <= k && OccursAt(s, sub, r.value)
    ensures r.Some? ==> forall j :: r.value < j <= k ==> !OccursAt(s, sub, j)
    ensures r.None? ==> forall j :: j <= k ==> !OccursAt(s, sub, j)
    decreases k + 1
  {
    if k < 0 then None
    else if OccursAt(s, sub, k) then Some(k)
    else LastIndexFrom(s, sub, k - 1)
  }

  /** Python's `rep.join(s.rsplit(pat, 1))`: the LAST occurrence of `pat` is
      replaced, everything else is kept. */
  function ReplaceLast(s: string, pat: string, rep: string): (r: string)
    requires |pat| > 0
    ensures !Contains(s, pat) ==> r == s
    ensures Contains(s, pat) ==>
      exists i :: OccursAt(s, pat, i) && (forall j :: i < j ==> !OccursAt(s, pat, j))
                  && r == s[..i] + rep + s[i + |pat|..]
  {
    ContainsIffOccurs(s, pat);
    match LastIndexFrom(s, pat, |s| - |pat|)
    case None => s
    case Some(i) => s[..i] + rep + s[i + |pat|..]
  }

  /** On a string that ends with `pat`, the last occurrence is that one. */
  lemma ReplaceLastOfAppend(stem: string, pat: string, rep: string)
    requires |pat| > 0
    ensures ReplaceLast(stem + pat, pat, rep) == stem + rep
  {
    var s := stem + pat;
    assert s[|stem|..|stem| + |pat|] == pat;
    assert OccursAt(s, pat, |stem|);
    ContainsIffOccurs(s, pat);
    var i :| OccursAt(s, pat, i) && (forall j :: i < j ==> !OccursAt(s, pat, j))
             && ReplaceLast(s, pat, rep) == s[..i] + rep + s[i + |pat|..];
    assert i == |stem|;
    assert s[..i] == stem;
  }

  lemma OccursAtTail(s: string, pat: string, i: nat)
    requires |s| > 0
    ensures OccursAt(s, pat, i + 1) <==> OccursAt(s[1..], pat, i)
  {
    if i + 1 + |pat| <= |s| {
      assert s[i + 1..i + 1 + |pat|] == s[1..][i..i + |pat|];
    }
  }

  /** Python's `s.split(pat)[0]`: the text before the first `pat`, or all of
      `s` when `pat` does not occur. */
  function BeforeFirst(s: string, pat: string): (r: string)
    requires |pat| > 0
    ensures IsPrefix(r, s)
    ensures forall i :: 0 <= i < |r| ==> !OccursAt(s, pat, i)
    ensures |r| < |s| ==> OccursAt(s, pat, |r|)
    decreases |s|
  {
    if |s| == 0 || IsPrefix(pat, s) then ""
    else
      var rest := BeforeFirst(s[1..], pat);
      forall j | 1 <= j <= |rest| ensures !OccursAt(s, pat, j) {
        OccursAtTail(s, pat, j - 1);
      }
      OccursAtTail(s, pat, |rest|);
      assert !OccursAt(s, pat, 0);
      [s[0]] + rest
  }

  /** `(stem + pat).split(pat)[0] == stem` when `pat` is an extension such
      as ".flac" (one leading '.', no other) that `stem` does not contain. */
  lemma BeforeFirstOfAppend(stem: string, pat: string)
    requires |pat| > 0 && pat[0] == '.' && '.' !in pat[1..]
    requires !Contains(stem, pat)
    ensures BeforeFirst(stem + pat, pat) == stem
  {
    var s := stem + pat;
    ContainsIffOccurs(stem, pat);
    forall i | 0 <= i < |stem| ensures !OccursAt(s, pat, i) {
      if i + |pat| <= |stem| {
        assert s[i..i + |pat|] == stem[i..i + |pat|];
        assert !OccursAt(stem, pat, i);
      } else {
        var k := |stem| - i;
        assert 0 < k < |pat| && s[|stem|] == '.';
        assert pat[k] == pat[1..][k - 1];
        assert s[i..i + |pat|][k] == s[|stem|];
      }
    }
    assert s[|stem|..|stem| + |pat|] == pat;
    assert OccursAt(s, pat, |stem|);
    var r := BeforeFirst(s, pat);
    assert |r| == |stem|;
    assert r == s[..|stem|];
  }

  // ---------------------------------------------------------------- ordering

  /** Python's `a <= b` on strings: code-point lexicographic order. */
  predicate LexLe(a: string, b: string)
    decreases |a|
  {
    |a| == 0 || (|b| > 0 && (a[0] < b[0] || (a[0] == b[0] && LexLe(a[1..], b[1..]))))
  }

  lemma {:induction false} LexLeTotal(a: string, b: string)
    ensures LexLe(a, b) || LexLe(b, a)
    decreases |a|
  {
    if |a| > 0 && |b| > 0 && a[0] == b[0] {
      LexLeTotal(a[1..], b[1..]);
    }
  }

  lemma {:induction false} LexLeTrans(a: string, b: string, c: string)
    requires LexLe(a, b) && LexLe(b, c)
    ensures LexLe(a, c)
    decreases |a|
  {
    if |a| > 0 && a[0] == b[0] && b[0] == c[0] {
      LexLeTrans(a[1..], b[1..], c[1..]);
    }
  }

  lemma {:induction false} LexLeAntisym(a: string, b: string)
    requires LexLe(a, b) && LexLe(b, a)
    ensures a == b
    decreases |a|
  {
    if |a| > 0 {
      LexLeAntisym(a[1..], b[1..]);
      assert a == [a[0]] + a[1..] && b == [b[0]] + b[1..];
    }
  }

  predicate Sorted(s: seq<string>)
  {
    forall i, j :: 0 <= i < j < |s| ==> LexLe(s[i], s[j])
  }

  function Insert(x: string, s: seq<string>): (r: seq<string>)
    requires Sorted(s)
    ensures Sorted(r)
    ensures multiset(r) == multiset(s) + multiset{x}
  {
    if |s| == 0 then [x]
    else if LexLe(x, s[0]) then
      assert forall j :: 0 <= j < |s| ==> LexLe(s[0], s[j]) by {
        forall j | 0 <= j < |s| ensures LexLe(s[0], s[j]) {
          if j == 0 { LexLeRefl(s[0]); }
        }
      }
      forall j | 0 <= j < |s| ensures LexLe(x, s[j]) {
        LexLeTrans(x, s[0], s[j]);
      }
      [x] + s
    else
      LexLeTotal(x, s[0]);
      assert s == [s[0]] + s[1..];
      var t := Insert(x, s[1..]);
      forall j | 0 <= j < |t| ensures LexLe(s[0], t[j]) {
        assert t[j] in multiset(t);
        if t[j] != x {
          assert t[j] in multiset(s[1..]);
          var k :| 0 <= k < |s[1..]| && s[1..][k] == t[j];
          assert LexLe(s[0], s[k + 1]);
        }
      }
      [s[0]] + t
  }

  lemma {:induction false} LexLeRefl(a: string)
    ensures LexLe(a, a)
    decreases |a|
  {
    if |a| > 0 { LexLeRefl(a[1..]); }
  }

  /** Python's `sorted(s)` / `s.sort()` on a list of strings. */
  function Sort(s: seq<string>): (r: seq<string>)
    ensures Sorted(r)
    ensures multiset(r) == multiset(s)
  {
    if |s| == 0 then []
    else
      assert s == [s[0]] + s[1..];
      Insert(s[0], Sort(s[1..]))
  }

  /** Two non-empty sorted lists with the same elements start alike. */
  lemma SortedSameHead(a: seq<string>, b: seq<string>)
    requires |a| > 0 && Sorted(a) && Sorted(b) && multiset(a) == multiset(b)
    ensures |b| > 0 && a[0] == b[0]
  {
    assert a[0] in multiset(b) && b[0] in multiset(a);
    var i :| 0 <= i < |b| && b[i] == a[0];
    var j :| 0 <= j < |a| && a[j] == b[0];
    if i == 0 { LexLeRefl(b[0]); }
    if j == 0 { LexLeRefl(a[0]); }
    LexLeAntisym(a[0], b[0]);
  }

  lemma MultisetTail<T>(a: seq<T>, b: seq<T>)
    requires |a| > 0 && |b| > 0 && a[0] == b[0] && multiset(a) == multiset(b)
    ensures multiset(a[1..]) == multiset(b[1..])
  {
    assert a == [a[0]] + a[1..] && b == [b[0]] + b[1..];
    assert multiset(a) == multiset([a[0]]) + multiset(a[1..]);
    assert multiset(b) == multiset([b[0]]) + multiset(b[1..]);
    assert multiset(a[1..]) == multiset(a) - multiset([a[0]]);
  }

  /** Two sorted lists with the same elements are the same list. */
  lemma {:induction false} SortedUnique(a: seq<string>, b: seq<string>)
    requires Sorted(a) && Sorted(b) && multiset(a) == multiset(b)
    ensures a == b
    decreases |a|
  {
    if |a| == 0 {
      assert |b| == |multiset(b)| == 0;
    } else {
      SortedSameHead(a, b);
      MultisetTail(a, b);
      SortedUnique(a[1..], b[1..]);
      assert a == [a[0]] + a[1..] && b == [b[0]] + b[1..];
    }
  }

  /** Sorting a list that is already sorted leaves it as it is. */
  lemma SortedFixed(s: seq<string>)
    requires Sorted(s)
    ensures Sort(s) == s
  {
    SortedUnique(Sort(s), s);
  }
}

=== FILE: video_hdr.dfy ===
// batchconvert/video-hdr.py: re-encoding an HDR10 video with x265, keeping
// HDR10+ and Dolby Vision metadata. The model covers the ffmpeg command that
// streams the video, the side-data checks on the first frames, the HDR10
// strings and the order of the x265 arguments; running the tools is left to
// the caller.
module VideoHdr {
  import opened Results
  import opened Text
  import opened PyPath
  import opened VideoInfo

  /** `-c:v copy`: the raw HEVC stream. */
  const CopyArgs := ["-c:v", "copy", "-vbsf", "hevc_mp4toannexb", "-f", "hevc"]

  /** Decoded frames for x265. */
  const DecodeArgs := ["-f", "yuv4mpegpipe", "-strict", "-1"]

  /** ffmpeg_video_cmd: ffmpeg writing one video track of `input` to stdout. */
  function FfmpegVideoCmd(input: string, track: int, stats: bool, decode: bool): (r: seq<string>)
    ensures var k := if stats then 4 else 3;
      |r| == k + 5 + (if decode then 4 else 6)
      && r[..3] == ["ffmpeg", "-loglevel", "fatal"]
      && (stats ==> r[3] == "-stats")
      && r[k..k + 4] == ["-i", input, "-map", "0:" + IntToString(track)]
      && r[k + 4..|r| - 1] == (if decode then DecodeArgs else CopyArgs)
      && r[|r| - 1] == "-"
  {
    var head := ["ffmpeg", "-loglevel", "fatal"] + (if stats then ["-stats"] else []);
    var source := ["-i", input, "-map", "0:" + IntToString(track)];
    var args := if decode then DecodeArgs else CopyArgs;
    Layout4(head, source, args, ["-"]);
    assert head[..3] == ["ffmpeg", "-loglevel", "fatal"];
    head + (source + (args + ["-"]))
  }

  /** Where each piece of a right-nested concatenation of four sits. */
  lemma Layout4(a: seq<string>, b: seq<string>, c: seq<string>, d: seq<string>)
    ensures var s := a + (b + (c + d));
      |s| == |a| + |b| + |c| + |d|
      && s[..|a|] == a && s[|a|..|a| + |b|] == b && s[|a| + |b|..|s| - |d|] == c && s[|s| - |d|..] == d
  {
    var s := a + (b + (c + d));
    assert s[|a|..] == b + (c + d);
    assert s[|a| + |b|..] == c + d;
  }

  /** The track ffmpeg is told to map reads back from its "-map" value. */
  lemma MapReadsBack(input: string, track: int, stats: bool, decode: bool)
    ensures var r := FfmpegVideoCmd(input, track, stats, decode);
      var k := if stats then 4 else 3;
      |r[k + 3]| >= 2 && r[k + 3][..2] == "0:" && ParseInt(r[k + 3][2..]) == Some(track)
  {
    var k := if stats then 4 else 3;
    var r := FfmpegVideoCmd(input, track, stats, decode);
    assert r[k + 3] == "0:" + IntToString(track);
    assert r[k + 3][2..] == IntToString(track);
    ParseIntToString(track);
  }

  // ------------------------------------------------------------ first frames

  /** `get_first_frame_info(...)["side_data_list"]`: None when the stream has
      no frame; a frame without the key raises KeyError. */
  function FirstSideData(frames: seq<Frame>, index: int): (r: Result<Option<seq<SideData>>>)
    ensures r == Ok(None) <==> FirstFrame(frames, index).None?
    ensures r.Ok? && r.value.Some? ==> SideDataList(frames, index) == r.value
  {
    match FirstFrame(frames, index)
    case None => Ok(None)
    case Some(k) =>
      match frames[k].sideData
      case None => Fail(KeyError)
      case Some(l) => Ok(Some(l))
  }

  /** A side data kind on the first frame of a stream (the loops of
      is_dv_separate_layer, is_dolby_vision and is_hdr10plus). */
  function KindAt(frames: seq<Frame>, index: int, kind: string): Result<bool>
  {
    match FirstSideData(frames, index)
    case Fail(f) => Fail(f)
    case Ok(None) => Ok(false)
    case Ok(Some(l)) => HasKind(l, kind)
  }

  /** The side data of a kind on stream 0's first frame
      (get_master_display_data, get_content_light_level_data). */
  function FirstData(frames: seq<Frame>, kind: string): Result<Option<SideData>>
  {
    match FirstSideData(frames, 0)
    case Fail(f) => Fail(f)
    case Ok(None) => Ok(None)
    case Ok(Some(l)) => FindData(l, kind)
  }

  /** is_dv_separate_layer: Dolby Vision metadata on stream 1. */
  function IsDvSeparateLayer(frames: seq<Frame>): Result<bool>
  {
    KindAt(frames, 1, DoviKind)
  }

  /** is_dolby_vision: stream 1 is checked first, then stream 0. */
  function IsDolbyVision(frames: seq<Frame>): (r: Result<bool>)
    ensures r.Ok? ==> (r.value <==> KindAt(frames, 1, DoviKind) == Ok(true) || KindAt(frames, 0, DoviKind) == Ok(true))
    ensures KindAt(frames, 1, DoviKind) == Ok(true) ==> r == Ok(true)
  {
    match IsDvSeparateLayer(frames)
    case Fail(f) => Fail(f)
    case Ok(true) => Ok(true)
    case Ok(false) => KindAt(frames, 0, DoviKind)
  }

  /** is_hdr10plus: HDR10+ metadata on stream 0. */
  function IsHdr10Plus(frames: seq<Frame>): Result<bool>
  {
    KindAt(frames, 0, Hdr10PlusKind)
  }

  // ------------------------------------------------------------ HDR10 strings

  /** What get_x265_master_display_string returns: the display string and
      the light level string, or None without mastering data. Both lookups
      run before the check. */
  datatype MasterInfo = MasterInfo(display: string, lightLevel: Option<string>)

  function MasterDisplayInfo(frames: seq<Frame>): (r: Result<Option<MasterInfo>>)
    ensures r == Ok(None) <==> FirstData(frames, MasteringKind) == Ok(None) && FirstData(frames, LightLevelKind).Ok?
    ensures r.Ok? && r.value.Some? ==>
      FirstData(frames, MasteringKind).Ok? && FirstData(frames, MasteringKind).value.Some?
      && Ok(r.value.value.display) == MasterDisplayString(FirstData(frames, MasteringKind).value.value, true)
      && (r.value.value.lightLevel.Some? <==> FirstData(frames, LightLevelKind) != Ok(None))
  {
    match (FirstData(frames, MasteringKind), FirstData(frames, LightLevelKind))
    case (Fail(f), _) => Fail(f)
    case (_, Fail(f)) => Fail(f)
    case (Ok(None), Ok(_)) => Ok(None)
    case (Ok(Some(md)), Ok(cl)) =>
      match MasterDisplayString(md, true)
      case Fail(f) => Fail(f)
      case Ok(d) =>
        match cl
        case None => Ok(Some(MasterInfo(d, None)))
        case Some(c) =>
          match CllString(c)
          case Fail(f) => Fail(f)
          case Ok(cs) => Ok(Some(MasterInfo(d, Some(cs))))
  }

  /** x265 reads the luminance pair of this script's string as (maximum,
      minimum), which is what the mastering data holds. */
  lemma DisplayLuminanceOrder(frames: seq<Frame>)
    requires MasterDisplayInfo(frames).Ok? && MasterDisplayInfo(frames).value.Some?
    ensures var md := FirstData(frames, MasteringKind).value.value;
      X265Luminance(MasterDisplayInfo(frames).value.value.display)
      == Some((FieldValue(md, "max_luminance", 10000).value, FieldValue(md, "min_luminance", 10000).value))
  {
    CorrectedLuminanceOrder(FirstData(frames, MasteringKind).value.value);
  }

  // ------------------------------------------------------------ x265 arguments

  function BaseOpts(output: string): seq<string>
  {
    ["x265", "--y4m", "--input", "-", "--output", output, "--preset", "medium",
     "--crf", "20", "--tune", "grain", "--qcomp", "0.75"]
  }

  const TenBitOpts := ["--input-depth", "10", "--output-depth", "10"]

  const Bt2020Opts := ["--colorprim", "bt2020", "--transfer", "smpte2084", "--colormatrix", "bt2020nc", "--range", "limited"]

  const Bt709Opts := ["--colorprim", "bt709", "--transfer", "bt709", "--colormatrix", "bt709", "--range", "limited"]

  /** The Dolby Vision options: the RPU file, profile 8.1 and the VBV
      limits it needs. */
  function DvOpts(rpu: string): seq<string>
  {
    ["--dolby-vision-rpu", rpu, "--dolby-vision-profile", "8.1", "--vbv-bufsize", "50000", "--vbv-maxrate", "50000"]
  }

  /** The HDR10 options: the mastering display always, the light level
      only when one exists and is not empty. */
  function HdrOpts(m: MasterInfo): (o: seq<string>)
    ensures var cll := m.lightLevel.Some? && m.lightLevel.value != "";
      |o| == 3 + (if cll then 2 else 0) && o[..3] == ["--hdr10-opt", "--master-display", m.display]
      && (cll ==> o[3..] == ["--max-cll", m.lightLevel.value])
  {
    ["--hdr10-opt", "--master-display", m.display]
      + (if m.lightLevel.Some? && m.lightLevel.value != "" then ["--max-cll", m.lightLevel.value] else [])
  }

  /** The x265 command of encode_video_x265, in this order: the base
      options, 10-bit depth, the HDR10 options (with --max-cll only when a
      light level exists), exactly one of the BT.709 and BT.2020 groups, the
      HDR10+ file, the Dolby Vision options, and the frame count last. */
  function X265Command(output: string, m: MasterInfo, bt709: bool, hdrPlus: bool, dv: bool,
                       hdrPlusFile: string, rpu: string, frameCount: int): (c: seq<string>)
    ensures var cll := m.lightLevel.Some? && m.lightLevel.value != "";
      var h := 21 + (if cll then 2 else 0);
      var p := h + 8 + (if hdrPlus then 1 else 0);
      |c| == p + (if dv then 8 else 0) + 2
      && c[..14] == BaseOpts(output) && c[14..18] == TenBitOpts
      && c[18..h] == HdrOpts(m)
      && c[h..h + 8] == (if bt709 then Bt709Opts else Bt2020Opts)
      && (hdrPlus ==> c[h + 8] == "--dhdr10-info=" + hdrPlusFile)
      && (dv ==> c[p..p + 8] == DvOpts(rpu))
      && c[|c| - 2..] == ["--frames", IntToString(frameCount)]
  {
    var colour := if bt709 then Bt709Opts else Bt2020Opts;
    var plus: seq<string> := if hdrPlus then ["--dhdr10-info=" + hdrPlusFile] else [];
    var dovi := if dv then DvOpts(rpu) else [];
    var frames := ["--frames", IntToString(frameCount)];
    PieceLengths(output, rpu);
    X265Layout(BaseOpts(output), TenBitOpts, HdrOpts(m), colour, plus, dovi, frames);
    BaseOpts(output) + (TenBitOpts + (HdrOpts(m) + (colour + (plus + (dovi + frames)))))
  }

  /** Layout7 with the lengths of the x265 pieces filled in. */
  lemma X265Layout(base: seq<string>, ten: seq<string>, hdr: seq<string>, colour: seq<string>,
                   plus: seq<string>, dovi: seq<string>, frames: seq<string>)
    requires |base| == 14 && |ten| == 4 && |hdr| >= 3 && |colour| == 8 && |plus| <= 1 && |frames| == 2
    ensures var c := base + (ten + (hdr + (colour + (plus + (dovi + frames)))));
      var h := 18 + |hdr|;
      var p := h + 8 + |plus|;
      |c| == p + |dovi| + 2
      && c[..14] == base && c[14..18] == ten && c[18..h] == hdr && c[h..h + 8] == colour
      && (|plus| == 1 ==> c[h + 8] == plus[0])
      && c[p..p + |dovi|] == dovi
      && c[|c| - 2..] == frames
  {
    Layout7(base, ten, hdr, colour, plus, dovi, frames);
    var c := base + (ten + (hdr + (colour + (plus + (dovi + frames)))));
    var h := 18 + |hdr|;
    if |plus| == 1 {
      assert c[h + 8] == c[h + 8..h + 9][0];
    }
  }

  /** Where each piece of a right-nested concatenation of seven sits. */
  lemma Layout7(a: seq<string>, b: seq<string>, c: seq<string>, d: seq<string>, e: seq<string>,
                f: seq<string>, g: seq<string>)
    ensures var s := a + (b + (c + (d + (e + (f + g)))));
      var i := |a| + |b|;
      var j := i + |c|;
      var k := j + |d|;
      var l := k + |e|;
      |s| == l + |f| + |g|
      && s[..|a|] == a && s[|a|..i] == b && s[i..j] == c && s[j..k] == d
      && s[k..l] == e && s[l..l + |f|] == f && s[l + |f|..] == g
  {
    var s := a + (b + (c + (d + (e + (f + g)))));
    var i := |a| + |b|;
    var j := i + |c|;
    var k := j + |d|;
    var l := k + |e|;
    assert s[|a|..] == b + (c + (d + (e + (f + g))));
    assert s[i..] == c + (d + (e + (f + g)));
    assert s[j..] == d + (e + (f + g));
    assert s[k..] == e + (f + g);
    assert s[l..] == f + g;
  }

  lemma PieceLengths(output: string, rpu: string)
    ensures |BaseOpts(output)| == 14 && |TenBitOpts| == 4 && |Bt709Opts| == 8 && |Bt2020Opts| == 8
    ensures |DvOpts(rpu)| == 8
  {
  }

  // ------------------------------------------------------------ the encode

  /** A step of encode_video_x265. */
  datatype Action =
    | Pipe(producer: seq<string>, consumer: seq<string>)   // ffmpeg's stdout into a tool
    | ToFile(cmd: seq<string>, file: string)               // a command's stdout into a file
    | Run(cmd: seq<string>)                                // a command on its own (x265 reads the frames)
    | Unlink(path: string)

  /** extract_hdr10plus_metadata: nothing when hdr10plus_tool is missing. */
  function Hdr10PlusExtract(input: string, json: string, haveTool: bool): seq<Action>
  {
    if !haveTool then []
    else [Pipe(FfmpegVideoCmd(input, 0, true, false), ["hdr10plus_tool", "extract", "--output", json, "-i", "-"])]
  }

  /** extract_dovi_rpu: reads track 1 when the metadata is a separate
      layer; nothing when dovi_tool is missing. */
  function DoviExtract(input: string, rpu: string, separate: bool, haveTool: bool): seq<Action>
  {
    if !haveTool then []
    else [Pipe(FfmpegVideoCmd(input, if separate then 1 else 0, true, false),
               ["dovi_tool", "--mode", "2", "extract-rpu", "--rpu-out", rpu, "-"])]
  }

  /** `p.with_suffix(s)`. */
  function WithSuffix(p: PyPath.Path, s: string): Result<PyPath.Path>
  {
    var n := Name(p);
    WithName(p, n[..|n| - |Suffix(p)|] + s)
  }

  /** The --skip-encode branch: the raw stream is written under the bare
      file name of the temporary (or of the output), the RPU injected when
      there is Dolby Vision, and the temporary removed by its full path. */
  function SkipEncodeActions(input: string, output: string, rpu: string, dv: bool): Result<seq<Action>>
  {
    if !dv then Ok([ToFile(FfmpegVideoCmd(input, 0, true, false), Name(PathOf(output)))])
    else match WithSuffix(PathOf(input), ".temp.hevc")
      case Fail(f) => Fail(f)
      case Ok(temp) =>
        Ok([ToFile(FfmpegVideoCmd(input, 0, true, false), Name(temp)),
            Run(["dovi_tool", "inject-rpu", "--input", Name(temp), "--output", output, "--rpu-in", rpu]),
            Unlink(PathString(temp))])
  }

  /** encode_video_x265 for a frame listing: None when it returns without
      doing anything, otherwise its steps. `haveTool` answers
      shutil.which; `frameCount` is the source's frame count. */
  function EncodePlan(input: string, output: string, frames: seq<Frame>, bt709: bool, skipEncode: bool,
                      haveTool: string -> bool, frameCount: int): (r: Result<Option<seq<Action>>>)
    ensures MasterDisplayInfo(frames) == Ok(None) ==> r == Ok(None)
    ensures r.Ok? && r.value.Some? ==> MasterDisplayInfo(frames).Ok? && MasterDisplayInfo(frames).value.Some?
  {
    match MasterDisplayInfo(frames)
    case Fail(f) => Fail(f)
    case Ok(None) => Ok(None)
    case Ok(Some(m)) =>
      var json := input + "_hdrplus.json";
      var rpu := input + "_dv.rpu";
      match (IsHdr10Plus(frames), IsDolbyVision(frames), IsDvSeparateLayer(frames))
      case (Fail(f), _, _) => Fail(f)
      case (_, Fail(f), _) => Fail(f)
      case (_, _, Fail(f)) => Fail(f)
      case (Ok(plus), Ok(dv), Ok(separate)) =>
        var extract := (if plus then Hdr10PlusExtract(input, json, haveTool("hdr10plus_tool")) else [])
          + (if dv then DoviExtract(input, rpu, separate, haveTool("dovi_tool")) else []);
        if skipEncode then
          match SkipEncodeActions(input, output, rpu, dv)
          case Fail(f) => Fail(f)
          case Ok(acts) => Ok(Some(extract + acts))
        else Ok(Some(extract + [Run(X265Command(output, m, bt709, plus, dv, json, rpu, frameCount))]))
  }

  /** Without --skip-encode, the last step is the x265 encode with the
      detected HDR10+ and Dolby Vision settings. */
  lemma EncodeEndsWithX265(input: string, output: string, frames: seq<Frame>, bt709: bool,
                           haveTool: string -> bool, frameCount: int)
    requires EncodePlan(input, output, frames, bt709, false, haveTool, frameCount).Ok?
    requires EncodePlan(input, output, frames, bt709, false, haveTool, frameCount).value.Some?
    ensures var acts := EncodePlan(input, output, frames, bt709, false, haveTool, frameCount).value.value;
      IsHdr10Plus(frames).Ok? && IsDolbyVision(frames).Ok?
      && |acts| > 0
      && acts[|acts| - 1] == Run(X265Command(output, MasterDisplayInfo(frames).value.value, bt709,
                                             IsHdr10Plus(frames).value, IsDolbyVision(frames).value,
                                             input + "_hdrplus.json", input + "_dv.rpu", frameCount))
  {
    var m := MasterDisplayInfo(frames).value.value;
    var plus := IsHdr10Plus(frames).value;
    var dv := IsDolbyVision(frames).value;
    var separate := IsDvSeparateLayer(frames).value;
    var json := input + "_hdrplus.json";
    var rpu := input + "_dv.rpu";
    var extract := (if plus then Hdr10PlusExtract(input, json, haveTool("hdr10plus_tool")) else [])
      + (if dv then DoviExtract(input, rpu, separate, haveTool("dovi_tool")) else []);
    var last := Run(X265Command(output, m, bt709, plus, dv, json, rpu, frameCount));
    assert EncodePlan(input, output, frames, bt709, false, haveTool, frameCount).value.value == extract + [last];
  }
}

=== FILE: videoinfo.dfy ===
// utils/videoinfo.py: what the videoInfo constructor derives from ffprobe's
// stream and frame listing (colour settings of the first video stream, the
// HDR10 mastering display and content light level, HDR10+ and Dolby Vision
// detection) and the x265 strings it writes for HDR10. The side-data
// lookups, the colour value and the display string are shared with
// batchconvert/video-hdr.py.
module VideoInfo {
  import opened Results
  import opened Text
  import opened Json

  /** One entry of a frame's side_data_list: a dict. */
  type SideData = seq<(string, Json)>

  /** A frame of the listing: the stream it belongs to and its side data
      list, None when the frame has no "side_data_list" key. */
  datatype Frame = Frame(streamIndex: int, sideData: Option<seq<SideData>>)

  /** A stream of the listing; `fields` holds the colour keys. */
  datatype Stream = Stream(codecType: string, index: int, fields: seq<(string, Json)>)

  // Side data types, lower-cased: the scripts compare `.lower()` of both sides.
  const MasteringKind := "mastering display metadata"
  const LightLevelKind := "content light level metadata"
  const DoviKind := "dolby vision metadata"
  const Hdr10PlusKind := "hdr dynamic metadata smpte2094-40 (hdr10+)"

  // ------------------------------------------------------------ side data

  /** `sideData["side_data_type"].lower() == kind`: a missing key raises
      KeyError; a value that is not text fails as well. */
  function KindIs(sd: SideData, kind: string): Result<bool>
  {
    match StrField(sd, "side_data_type")
    case Fail(f) => Fail(f)
    case Ok(t) => Ok(Lower(t) == kind)
  }

  /** The loop that returns the first side data of a kind: its position,
      None when the loop runs out. */
  function FindKind(list: seq<SideData>, kind: string): (r: Result<Option<nat>>)
    ensures r.Ok? && r.value.Some? ==> r.value.value < |list| && KindIs(list[r.value.value], kind) == Ok(true)
    ensures r.Ok? ==> forall i :: 0 <= i < |list| && (r.value.None? || i < r.value.value) ==> KindIs(list[i], kind) == Ok(false)
    ensures r.Fail? ==> exists i :: 0 <= i < |list| && KindIs(list[i], kind).Fail?
    decreases |list|
  {
    if |list| == 0 then Ok(None)
    else match KindIs(list[0], kind)
      case Fail(f) => Fail(f)
      case Ok(true) => Ok(Some(0))
      case Ok(false) =>
        match FindKind(list[1..], kind)
        case Fail(f) =>
          assert exists i :: 0 <= i < |list| - 1 && KindIs(list[1..][i], kind).Fail?;
          var i :| 0 <= i < |list| - 1 && KindIs(list[1..][i], kind).Fail?;
          assert KindIs(list[i + 1], kind).Fail?;
          Fail(f)
        case Ok(None) =>
          assert forall i :: 1 <= i < |list| ==> list[i] == list[1..][i - 1];
          Ok(None)
        case Ok(Some(k)) =>
          assert forall i :: 1 <= i < |list| ==> list[i] == list[1..][i - 1];
          Ok(Some(k + 1))
  }

  /** The side data found by that loop. */
  function FindData(list: seq<SideData>, kind: string): Result<Option<SideData>>
  {
    match FindKind(list, kind)
    case Fail(f) => Fail(f)
    case Ok(None) => Ok(None)
    case Ok(Some(i)) => Ok(Some(list[i]))
  }

  /** The loops that answer whether a kind is present (`__isDolbyVision`,
      `__isHDR10Plus`): True at the first match, False when none matches,
      and the lookup error of an earlier entry otherwise. */
  function HasKind(list: seq<SideData>, kind: string): (r: Result<bool>)
    decreases |list|
  {
    if |list| == 0 then Ok(false)
    else match KindIs(list[0], kind)
      case Fail(f) => Fail(f)
      case Ok(true) => Ok(true)
      case Ok(false) => HasKind(list[1..], kind)
  }

  /** The two loops agree: a kind is present exactly when the first-match
      loop finds it, and both fail alike. */
  lemma {:induction false} HasKindFind(list: seq<SideData>, kind: string)
    ensures HasKind(list, kind) == match FindKind(list, kind) case Fail(f) => Fail(f) case Ok(o) => Ok(o.Some?)
    decreases |list|
  {
    if |list| > 0 && KindIs(list[0], kind) == Ok(false) {
      HasKindFind(list[1..], kind);
    }
  }

  /** A present kind: True exactly when some entry is of that kind, once
      every entry has a readable type. */
  lemma HasKindMeans(list: seq<SideData>, kind: string)
    requires forall i :: 0 <= i < |list| ==> KindIs(list[i], kind).Ok?
    ensures HasKind(list, kind) == Ok(exists i :: 0 <= i < |list| && KindIs(list[i], kind) == Ok(true))
  {
    HasKindFind(list, kind);
  }

  // ------------------------------------------------------------ frames

  /** The first frame of a stream, by position. */
  function FirstFrame(frames: seq<Frame>, index: int): (r: Option<nat>)
    ensures r.Some? ==> r.value < |frames| && frames[r.value].streamIndex == index
    ensures forall j :: 0 <= j < |frames| && (r.None? || j < r.value) ==> frames[j].streamIndex != index
    decreases |frames|
  {
    if |frames| == 0 then None
    else if frames[0].streamIndex == index then Some(0)
    else
      var r := FirstFrame(frames[1..], index);
      assert forall j :: 1 <= j < |frames| ==> frames[j] == frames[1..][j - 1];
      match r case None => None case Some(k) => Some(k + 1)
  }

  /** `__getFrameSideDataList`: the side data list of the stream's first
      frame; None when no frame belongs to the stream or that frame has
      no list. */
  function SideDataList(frames: seq<Frame>, index: int): Option<seq<SideData>>
  {
    match FirstFrame(frames, index)
    case None => None
    case Some(k) => frames[k].sideData
  }

  // ------------------------------------------------------------ colour values

  /** Python's `a // b`: the quotient rounded down. */
  function FloorDiv(a: int, b: int): (q: int)
    requires b != 0
    ensures b > 0 ==> b * q <= a < b * q + b
    ensures b < 0 ==> b * q >= a > b * q + b
  {
    if b > 0 || a % b == 0 then a / b else a / b - 1
  }

  /** `__getMasterDisplayColorValue` / `get_master_display_color_value`:
      the fraction "num/den" rescaled to `target` as
      `(target // den) * num`. int() of a malformed part raises ValueError
      (the numerator is read first), a fraction without '/' raises
      IndexError and a zero denominator ZeroDivisionError. */
  function ColorValue(fraction: string, target: int): Result<int>
  {
    var parts := Split(fraction, '/');
    match ParseInt(parts[0])
    case None => Fail(ValueError)
    case Some(n) =>
      if |parts| < 2 then Fail(IndexError)
      else match ParseInt(parts[1])
        case None => Fail(ValueError)
        case Some(d) => if d == 0 then Fail(ZeroDivision) else Ok(FloorDiv(target, d) * n)
  }

  lemma JoinPair(a: string, b: string, c: char)
    ensures Join([c], [a, b]) == a + [c] + b
  {
    assert [a, b][1..] == [b];
  }

  lemma IntToStringChars(i: int)
    ensures forall k :: 0 <= k < |IntToString(i)| ==> IntToString(i)[k] == '-' || IsDigit(IntToString(i)[k])
  {
    if i < 0 {
      var s := IntToString(i);
      assert s == "-" + NatToString(-i);
      assert forall k :: 1 <= k < |s| ==> s[k] == NatToString(-i)[k - 1];
    }
  }

  /** A fraction written from two integers reads back as those integers. */
  lemma ColorValueOfFraction(n: int, d: int, target: int)
    requires d != 0
    ensures ColorValue(IntToString(n) + "/" + IntToString(d), target) == Ok(FloorDiv(target, d) * n)
  {
    var a := IntToString(n);
    var b := IntToString(d);
    IntToStringChars(n);
    IntToStringChars(d);
    JoinPair(a, b, '/');
    SplitJoin([a, b], '/');
    ParseIntToString(n);
    ParseIntToString(d);
  }

  /** The rescaled value never exceeds the exact one, and equals it when
      the denominator divides the target: the division is applied first. */
  lemma ColorValueBounds(n: int, d: int, target: int)
    requires d > 0 && target >= 0
    ensures ColorValue(IntToString(n) + "/" + IntToString(d), target).Ok?
    ensures var v := ColorValue(IntToString(n) + "/" + IntToString(d), target).value;
      (n >= 0 ==> v * d <= n * target) && (target % d == 0 ==> v * d == n * target)
  {
    ColorValueOfFraction(n, d, target);
    RescaleBounds(n, d, target);
  }

  lemma RescaleBounds(n: int, d: int, target: int)
    requires d > 0 && target >= 0
    ensures n >= 0 ==> FloorDiv(target, d) * n * d <= n * target
    ensures target % d == 0 ==> FloorDiv(target, d) * n * d == n * target
  {
    var q := FloorDiv(target, d);
    assert q * n * d == (q * d) * n;
    if n >= 0 {
      MulMono(q * d, target, n);
    }
    if target % d == 0 {
      assert q * d == target;
    }
  }

  lemma MulMono(a: int, b: int, n: int)
    requires a <= b && n >= 0
    ensures a * n <= b * n
  {
  }

  /** Chromaticities below the rescaled unit are lost: a denominator above
      the target gives 0 for any non-negative target below it. */
  lemma ColorValueLosesSmall(n: int, d: int, target: int)
    requires 0 <= target < d
    ensures ColorValue(IntToString(n) + "/" + IntToString(d), target) == Ok(0)
  {
    assert FloorDiv(target, d) == 0 by {
      assert target / d == 0;
    }
    ColorValueOfFraction(n, d, target);
  }

  // ------------------------------------------------------------ display string

  /** One "Name(a,b)" group of the x265 master-display string. */
  datatype Pair = Pair(name: string, a: int, b: int)

  /** A group without its closing parenthesis. */
  function Body(p: Pair): string
  {
    p.name + "(" + (IntToString(p.a) + "," + IntToString(p.b))
  }

  /** The groups written one after the other, each closed by ')'. */
  function Display(ps: seq<Pair>): string
    decreases |ps|
  {
    if |ps| == 0 then "" else Body(ps[0]) + ")" + Display(ps[1..])
  }

  function Bodies(ps: seq<Pair>): (r: seq<string>)
    ensures |r| == |ps| && forall i :: 0 <= i < |ps| ==> r[i] == Body(ps[i])
    decreases |ps|
  {
    if |ps| == 0 then [] else [Body(ps[0])] + Bodies(ps[1..])
  }

  /** Reads "Name(a,b)": None unless the text has exactly that shape. */
  function ReadBody(s: string): Option<Pair>
  {
    var q := Split(s, '(');
    if |q| != 2 then None
    else
      var v := Split(q[1], ',');
      if |v| != 2 then None
      else match (ParseInt(v[0]), ParseInt(v[1]))
        case (Some(a), Some(b)) => Some(Pair(q[0], a, b))
        case _ => None
  }

  function ReadBodies(bs: seq<string>): Option<seq<Pair>>
    decreases |bs|
  {
    if |bs| == 0 then Some([])
    else match (ReadBody(bs[0]), ReadBodies(bs[1..]))
      case (Some(p), Some(ps)) => Some([p] + ps)
      case _ => None
  }

  /** How a reader of the x265 option splits the string back into groups. */
  function ReadDisplay(s: string): Option<seq<Pair>>
  {
    var pieces := Split(s, ')');
    if pieces[|pieces| - 1] != "" then None
    else ReadBodies(pieces[..|pieces| - 1])
  }

  /** Group names the strings use: no parenthesis or comma. */
  predicate PlainName(n: string)
  {
    '(' !in n && ')' !in n && ',' !in n
  }

  lemma {:induction false} DisplayJoin(ps: seq<Pair>)
    ensures Display(ps) == Join(")", Bodies(ps) + [""])
    decreases |ps|
  {
    if |ps| > 0 {
      DisplayJoin(ps[1..]);
      var parts := Bodies(ps) + [""];
      assert parts[1..] == Bodies(ps[1..]) + [""];
    }
  }

  lemma SplitTwo(a: string, b: string, c: char)
    requires c !in a && c !in b
    ensures Split(a + [c] + b, c) == [a, b]
  {
    JoinPair(a, b, c);
    SplitJoin([a, b], c);
  }

  lemma IntToStringPlain(i: int)
    ensures '(' !in IntToString(i) && ')' !in IntToString(i) && ',' !in IntToString(i)
  {
    IntToStringChars(i);
  }

  lemma BodyReadsBack(p: Pair)
    requires PlainName(p.name)
    ensures ReadBody(Body(p)) == Some(p)
    ensures ')' !in Body(p)
  {
    var a := IntToString(p.a);
    var b := IntToString(p.b);
    IntToStringPlain(p.a);
    IntToStringPlain(p.b);
    var x := a + "," + b;
    SplitTwo(a, b, ',');
    SplitTwo(p.name, x, '(');
    ParseIntToString(p.a);
    ParseIntToString(p.b);
    assert Body(p) == p.name + "(" + x;
  }

  lemma BodiesTail(ps: seq<Pair>)
    requires |ps| > 0
    ensures Bodies(ps)[0] == Body(ps[0]) && Bodies(ps)[1..] == Bodies(ps[1..])
  {
  }

  lemma ReadBodiesCons(bs: seq<string>, ps: seq<Pair>)
    requires |bs| > 0 && |ps| > 0
    requires ReadBody(bs[0]) == Some(ps[0]) && ReadBodies(bs[1..]) == Some(ps[1..])
    ensures ReadBodies(bs) == Some(ps)
  {
    assert [ps[0]] + ps[1..] == ps;
  }

  lemma {:induction false} BodiesReadBack(ps: seq<Pair>)
    requires forall i :: 0 <= i < |ps| ==> PlainName(ps[i].name)
    ensures ReadBodies(Bodies(ps)) == Some(ps)
    decreases |ps|
  {
    if |ps| > 0 {
      var bs := Bodies(ps);
      BodiesTail(ps);
      BodyReadsBack(ps[0]);
      BodiesReadBack(ps[1..]);
      ReadBodiesCons(bs, ps);
    }
  }

  /** The display string reads back as the groups it was written from. */
  lemma DisplayReadsBack(ps: seq<Pair>)
    requires forall i :: 0 <= i < |ps| ==> PlainName(ps[i].name)
    ensures ReadDisplay(Display(ps)) == Some(ps)
  {
    var parts := Bodies(ps) + [""];
    assert Split(Display(ps), ')') == parts by {
      DisplayJoin(ps);
      forall i | 0 <= i < |parts| ensures ')' !in parts[i] {
        if i < |ps| {
          BodyReadsBack(ps[i]);
        }
      }
      SplitJoin(parts, ')');
    }
    assert parts[..|parts| - 1] == Bodies(ps);
    BodiesReadBack(ps);
  }

  // ------------------------------------------------------------ master display

  /** A field of the mastering data rescaled: text is expected, anything
      else fails. */
  function FieldValue(md: SideData, key: string, target: int): Result<int>
  {
    match Field(md, key)
    case Fail(f) => Fail(f)
    case Ok(JStr(s)) => ColorValue(s, target)
    case Ok(_) => Fail(TypeError)
  }

  /** The rescaled fields, read in order; the first failure ends it. */
  function FieldValues(md: SideData, keys: seq<(string, int)>): (r: Result<seq<int>>)
    ensures r.Ok? ==> |r.value| == |keys| && forall i :: 0 <= i < |keys| ==> FieldValue(md, keys[i].0, keys[i].1) == Ok(r.value[i])
    ensures r.Fail? ==> exists i :: 0 <= i < |keys| && FieldValue(md, keys[i].0, keys[i].1).Fail?
    decreases |keys|
  {
    if |keys| == 0 then Ok([])
    else match FieldValue(md, keys[0].0, keys[0].1)
      case Fail(f) => Fail(f)
      case Ok(v) =>
        match FieldValues(md, keys[1..])
        case Fail(f) =>
          var i :| 0 <= i < |keys| - 1 && FieldValue(md, keys[1..][i].0, keys[1..][i].1).Fail?;
          assert keys[1..][i] == keys[i + 1];
          Fail(f)
        case Ok(vs) =>
          assert forall i :: 1 <= i < |keys| ==> keys[i] == keys[1..][i - 1];
          Ok([v] + vs)
  }

  /** The chromaticity fields, rescaled to 50000. */
  const ChromaKeys: seq<(string, int)> := [
    ("green_x", 50000), ("green_y", 50000), ("blue_x", 50000), ("blue_y", 50000),
    ("red_x", 50000), ("red_y", 50000), ("white_point_x", 50000), ("white_point_y", 50000)]

  /** The luminance fields, rescaled to 10000, in the order a script writes
      them: utils/videoinfo.py puts the minimum first, video-hdr.py the
      maximum. */
  function LuminanceKeys(maxFirst: bool): seq<(string, int)>
  {
    if maxFirst then [("max_luminance", 10000), ("min_luminance", 10000)]
    else [("min_luminance", 10000), ("max_luminance", 10000)]
  }

  function MasterKeys(maxFirst: bool): (r: seq<(string, int)>)
    ensures |r| == 10 && r[..8] == ChromaKeys && r[8..] == LuminanceKeys(maxFirst)
  {
    ChromaKeys + LuminanceKeys(maxFirst)
  }

  /** The five groups G, B, R, WP and L from ten values. */
  function Groups(v: seq<int>): seq<Pair>
    requires |v| == 10
  {
    [Pair("G", v[0], v[1]), Pair("B", v[2], v[3]), Pair("R", v[4], v[5]),
     Pair("WP", v[6], v[7]), Pair("L", v[8], v[9])]
  }

  /** The x265 --master-display string of a mastering-display side data. */
  function MasterDisplayString(md: SideData, maxFirst: bool): (r: Result<string>)
    ensures r.Ok? <==> FieldValues(md, MasterKeys(maxFirst)).Ok?
    ensures r.Ok? ==> ReadDisplay(r.value) == Some(Groups(FieldValues(md, MasterKeys(maxFirst)).value))
  {
    match FieldValues(md, MasterKeys(maxFirst))
    case Fail(f) => Fail(f)
    case Ok(v) =>
      GroupsPlain(v);
      DisplayReadsBack(Groups(v));
      Ok(Display(Groups(v)))
  }

  /** x265's reading of the L group: maximum first, then minimum. */
  function X265Luminance(s: string): Option<(int, int)>
  {
    match ReadDisplay(s)
    case Some(ps) =>
      if |ps| == 5 && ps[4].name == "L" then Some((ps[4].a, ps[4].b)) else None
    case None => None
  }

  lemma GroupsPlain(v: seq<int>)
    requires |v| == 10
    ensures forall i :: 0 <= i < 5 ==> PlainName(Groups(v)[i].name)
  {
  }

  /** The string reads back as the five groups of the rescaled fields in
      key order: chromaticities G, B, R, WP, then the two luminances in
      the script's order. */
  lemma MasterDisplayReadsBack(md: SideData, maxFirst: bool)
    requires MasterDisplayString(md, maxFirst).Ok?
    ensures var v := FieldValues(md, MasterKeys(maxFirst)).value;
      ReadDisplay(MasterDisplayString(md, maxFirst).value) == Some(Groups(v))
      && X265Luminance(MasterDisplayString(md, maxFirst).value) == Some((v[8], v[9]))
      && FieldValue(md, LuminanceKeys(maxFirst)[0].0, 10000) == Ok(v[8])
      && FieldValue(md, LuminanceKeys(maxFirst)[1].0, 10000) == Ok(v[9])
  {
    var keys := MasterKeys(maxFirst);
    var v := FieldValues(md, keys).value;
    GroupsPlain(v);
    DisplayReadsBack(Groups(v));
    assert keys[8] == LuminanceKeys(maxFirst)[0];
    assert keys[9] == LuminanceKeys(maxFirst)[1];
  }

  /** As utils/videoinfo.py writes it, x265 takes the minimum luminance for
      the maximum and the maximum for the minimum. */
  lemma VideoinfoLuminanceReversed(md: SideData)
    requires MasterDisplayString(md, false).Ok?
    ensures X265Luminance(MasterDisplayString(md, false).value)
            == Some((FieldValue(md, "min_luminance", 10000).value, FieldValue(md, "max_luminance", 10000).value))
  {
    MasterDisplayReadsBack(md, false);
  }

  /** With the maximum first, as video-hdr.py writes it, x265 reads each
      luminance as what it is. */
  lemma CorrectedLuminanceOrder(md: SideData)
    requires MasterDisplayString(md, true).Ok?
    ensures X265Luminance(MasterDisplayString(md, true).value)
            == Some((FieldValue(md, "max_luminance", 10000).value, FieldValue(md, "min_luminance", 10000).value))
  {
    MasterDisplayReadsBack(md, true);
  }

  // ------------------------------------------------------------ content light level

  /** `"{}".format(value)` of a light-level field; only integers and text
      are formatted here. */
  function FormatValue(j: Json): Result<string>
  {
    match j
    case JInt(i) => Ok(IntToString(i))
    case JStr(s) => Ok(s)
    case _ => Fail(TypeError)
  }

  function FormatField(cll: SideData, key: string): Result<string>
  {
    match Field(cll, key)
    case Fail(f) => Fail(f)
    case Ok(j) => FormatValue(j)
  }

  /** The x265 --max-cll string: "max_content,max_average". Integer light
      levels read back as themselves, in that order. */
  function CllString(cll: SideData): (r: Result<string>)
    ensures r.Ok? <==> FormatField(cll, "max_content").Ok? && FormatField(cll, "max_average").Ok?
    ensures IntField(cll, "max_content").Ok? && IntField(cll, "max_average").Ok? ==>
      r.Ok? && ReadCll(r.value) == Some((IntField(cll, "max_content").value, IntField(cll, "max_average").value))
  {
    match (FormatField(cll, "max_content"), FormatField(cll, "max_average"))
    case (Fail(f), _) => Fail(f)
    case (_, Fail(f)) => Fail(f)
    case (Ok(a), Ok(b)) =>
      if IntField(cll, "max_content").Ok? && IntField(cll, "max_average").Ok? then
        CllIntsReadBack(IntField(cll, "max_content").value, IntField(cll, "max_average").value);
        Ok(a + "," + b)
      else Ok(a + "," + b)
  }

  /** x265's reading of --max-cll. */
  function ReadCll(s: string): Option<(int, int)>
  {
    var v := Split(s, ',');
    if |v| != 2 then None
    else match (ParseInt(v[0]), ParseInt(v[1]))
      case (Some(a), Some(b)) => Some((a, b))
      case _ => None
  }

  lemma CllIntsReadBack(a: int, b: int)
    ensures ReadCll(IntToString(a) + "," + IntToString(b)) == Some((a, b))
  {
    IntToStringChars(a);
    IntToStringChars(b);
    JoinPair(IntToString(a), IntToString(b), ',');
    SplitJoin([IntToString(a), IntToString(b)], ',');
    ParseIntToString(a);
    ParseIntToString(b);
  }

  // ------------------------------------------------------------ the stream loop

  /** The attributes the constructor sets; None and JNull stand for Python's
      None. */
  datatype Probe = Probe(
    hdr10: bool, masterData: Option<SideData>, masterString: Option<string>,
    cllData: Option<SideData>, cllString: Option<string>,
    dolbyVision: bool, dvTrack: int, hdr10Plus: bool,
    colorMatrix: Json, colorTransfer: Json, colorPrimaries: Json, colorRange: Option<string>)

  /** The class attributes before the loop. */
  const Initial := Probe(false, None, None, None, None, false, 0, false, JNull, JNull, JNull, None)

  /** `if not self.X: self.X = stream[key]`. */
  function TakeIfUnset(cur: Json, s: Stream, key: string): (r: Result<Json>)
    ensures Truthy(cur) ==> r == Ok(cur)
    ensures !Truthy(cur) ==> r == Field(s.fields, key)
  {
    if Truthy(cur) then Ok(cur) else Field(s.fields, key)
  }

  /** The colour settings of a video stream. */
  function Colours(p: Probe, s: Stream): (r: Result<Probe>)
    ensures r.Ok? ==> r.value.colorRange.Some?
    ensures r.Ok? && p.colorRange.Some? ==> r.value.colorRange == p.colorRange
    ensures r.Ok? && p.colorRange.None? ==>
      r.value.colorRange == Some(if Field(s.fields, "color_range") == Ok(JStr("tv")) then "limited" else "full")
    ensures r.Ok? ==> r.value == p.(colorMatrix := r.value.colorMatrix, colorTransfer := r.value.colorTransfer,
                                    colorPrimaries := r.value.colorPrimaries, colorRange := r.value.colorRange)
    ensures r.Ok? && Truthy(p.colorMatrix) ==> r.value.colorMatrix == p.colorMatrix
    ensures r.Ok? && Truthy(p.colorTransfer) ==> r.value.colorTransfer == p.colorTransfer
    ensures r.Ok? && Truthy(p.colorPrimaries) ==> r.value.colorPrimaries == p.colorPrimaries
  {
    match (TakeIfUnset(p.colorMatrix, s, "color_space"), TakeIfUnset(p.colorTransfer, s, "color_transfer"),
           TakeIfUnset(p.colorPrimaries, s, "color_primaries"))
    case (Fail(f), _, _) => Fail(f)
    case (_, Fail(f), _) => Fail(f)
    case (_, _, Fail(f)) => Fail(f)
    case (Ok(m), Ok(t), Ok(c)) =>
      var q := p.(colorMatrix := m, colorTransfer := t, colorPrimaries := c);
      if p.colorRange.Some? then Ok(q)
      else match Field(s.fields, "color_range")
        case Fail(f) => Fail(f)
        case Ok(v) => Ok(q.(colorRange := Some(if v == JStr("tv") then "limited" else "full")))
  }

  /** An optional side data turned into its string. */
  function OptString(d: Option<SideData>, toString: SideData -> Result<string>): Result<Option<string>>
  {
    match d
    case None => Ok(None)
    case Some(x) => match toString(x) case Fail(f) => Fail(f) case Ok(s) => Ok(Some(s))
  }

  /** The HDR10 metadata of a side data list, for a probe without it yet. */
  function Hdr10Of(p: Probe, list: seq<SideData>, maxFirst: bool): (r: Result<Probe>)
    ensures r.Ok? ==> FindData(list, MasteringKind).Ok? && FindData(list, LightLevelKind).Ok?
    ensures r.Ok? ==> r.value.hdr10 == (FindData(list, MasteringKind) != Ok(None))
    ensures r.Ok? ==> r.value == p.(hdr10 := r.value.hdr10, masterData := r.value.masterData,
      masterString := r.value.masterString, cllData := r.value.cllData, cllString := r.value.cllString)
    ensures r.Ok? ==> r.value.masterData == FindData(list, MasteringKind).value
    ensures r.Ok? ==> r.value.cllData == FindData(list, LightLevelKind).value
  {
    match FindData(list, MasteringKind)
    case Fail(f) => Fail(f)
    case Ok(md) =>
      match OptString(md, d => MasterDisplayString(d, maxFirst))
      case Fail(f) => Fail(f)
      case Ok(ms) =>
        match FindData(list, LightLevelKind)
        case Fail(f) => Fail(f)
        case Ok(cl) =>
          match OptString(cl, CllString)
          case Fail(f) => Fail(f)
          case Ok(cs) =>
            Ok(p.(masterData := md, masterString := ms, cllData := cl, cllString := cs, hdr10 := md.Some?))
  }

  /** A video stream whose first frame has a non-empty side data list. */
  predicate HasSideData(s: Stream, frames: seq<Frame>)
  {
    s.codecType == "video" && SideDataList(frames, s.index).Some? && SideDataList(frames, s.index).value != []
  }

  /** The HDR10 fields of a probe. */
  function Hdr10Fields(p: Probe): (bool, Option<SideData>, Option<string>, Option<SideData>, Option<string>)
  {
    (p.hdr10, p.masterData, p.masterString, p.cllData, p.cllString)
  }

  /** The side-data part of a pass, for a video stream whose first frame
      has side data: HDR10+ and Dolby Vision recomputed, the HDR10 metadata
      read unless HDR10 is already set. */
  function SideStep(p: Probe, list: seq<SideData>, index: int, maxFirst: bool): (r: Result<Probe>)
    ensures r.Ok? ==> (r.value.hdr10Plus == (HasKind(list, Hdr10PlusKind) == Ok(true))
      && r.value.dolbyVision == (HasKind(list, DoviKind) == Ok(true))
      && r.value.dvTrack == (if r.value.dolbyVision then index else p.dvTrack))
    ensures r.Ok? && p.hdr10 ==> Hdr10Fields(r.value) == Hdr10Fields(p)
    ensures r.Ok? && !p.hdr10 ==> r.value.hdr10 == (FindData(list, MasteringKind) != Ok(None))
    ensures r.Ok? ==> (r.value.colorRange == p.colorRange && r.value.colorMatrix == p.colorMatrix
      && r.value.colorTransfer == p.colorTransfer && r.value.colorPrimaries == p.colorPrimaries)
  {
    match (HasKind(list, Hdr10PlusKind), HasKind(list, DoviKind))
    case (Fail(f), _) => Fail(f)
    case (_, Fail(f)) => Fail(f)
    case (Ok(plus), Ok(dv)) =>
      var p2 := p.(hdr10Plus := plus, dolbyVision := dv, dvTrack := if dv then index else p.dvTrack);
      if p2.hdr10 then Ok(p2) else Hdr10Of(p2, list, maxFirst)
  }

  /** One pass of the constructor's loop. `maxFirst` picks the luminance
      order of the display string. */
  function Step(p: Probe, s: Stream, frames: seq<Frame>, maxFirst: bool): (r: Result<Probe>)
    ensures s.codecType != "video" ==> r == Ok(p)
    ensures r.Ok? && p.hdr10 ==> Hdr10Fields(r.value) == Hdr10Fields(p)
    ensures r.Ok? && p.colorRange.Some? ==> r.value.colorRange == p.colorRange
    ensures r.Ok? && Truthy(p.colorMatrix) ==> r.value.colorMatrix == p.colorMatrix
    ensures r.Ok? && Truthy(p.colorTransfer) ==> r.value.colorTransfer == p.colorTransfer
    ensures r.Ok? && Truthy(p.colorPrimaries) ==> r.value.colorPrimaries == p.colorPrimaries
    ensures r.Ok? && !HasSideData(s, frames) ==>
      Hdr10Fields(r.value) == Hdr10Fields(p) && r.value.dolbyVision == p.dolbyVision
      && r.value.hdr10Plus == p.hdr10Plus && r.value.dvTrack == p.dvTrack
    ensures r.Ok? && HasSideData(s, frames) ==>
      var list := SideDataList(frames, s.index).value;
      r.value.hdr10Plus == (HasKind(list, Hdr10PlusKind) == Ok(true))
      && r.value.dolbyVision == (HasKind(list, DoviKind) == Ok(true))
      && r.value.dvTrack == (if r.value.dolbyVision then s.index else p.dvTrack)
      && (!p.hdr10 ==> r.value.hdr10 == (FindData(list, MasteringKind) != Ok(None)))
  {
    if s.codecType != "video" then Ok(p)
    else match Colours(p, s)
      case Fail(f) => Fail(f)
      case Ok(p1) =>
        var sdl := SideDataList(frames, s.index);
        if sdl.None? || sdl.value == [] then Ok(p1)
        else SideStep(p1, sdl.value, s.index, maxFirst)
  }

  /** The loop over every stream. */
  function Run(ss: seq<Stream>, p: Probe, frames: seq<Frame>, maxFirst: bool): Result<Probe>
    decreases |ss|
  {
    if |ss| == 0 then Ok(p)
    else match Step(p, ss[0], frames, maxFirst)
      case Fail(f) => Fail(f)
      case Ok(q) => Run(ss[1..], q, frames, maxFirst)
  }

  /** videoInfo(...) as written: HDR10 is found exactly when some stream
      carries mastering-display metadata, and without side data on any
      stream neither HDR10+ nor Dolby Vision is. */
  function VideoInfoOf(ss: seq<Stream>, frames: seq<Frame>): (r: Result<Probe>)
    ensures r.Ok? ==> (r.value.hdr10 <==> exists k :: 0 <= k < |ss| && HasMastering(ss[k], frames))
    ensures r.Ok? && (forall k :: 0 <= k < |ss| ==> !HasSideData(ss[k], frames)) ==>
      !r.value.hdr10 && !r.value.hdr10Plus && !r.value.dolbyVision
  {
    InitialRunFacts(ss, frames, false);
    Run(ss, Initial, frames, false)
  }

  lemma InitialRunFacts(ss: seq<Stream>, frames: seq<Frame>, maxFirst: bool)
    ensures var r := Run(ss, Initial, frames, maxFirst);
      r.Ok? ==> (r.value.hdr10 <==> exists k :: 0 <= k < |ss| && HasMastering(ss[k], frames))
    ensures var r := Run(ss, Initial, frames, maxFirst);
      r.Ok? && (forall k :: 0 <= k < |ss| ==> !HasSideData(ss[k], frames)) ==>
      !r.value.hdr10 && !r.value.hdr10Plus && !r.value.dolbyVision
  {
    if Run(ss, Initial, frames, maxFirst).Ok? {
      Hdr10Iff(ss, Initial, frames, maxFirst);
      if forall k :: 0 <= k < |ss| ==> !HasSideData(ss[k], frames) {
        NoSideDataKeeps(ss, Initial, frames, maxFirst);
      }
    }
  }

  /** videoInfo(...) with the luminance pair in x265's order. */
  function CorrectedVideoInfoOf(ss: seq<Stream>, frames: seq<Frame>): Result<Probe>
  {
    Run(ss, Initial, frames, true)
  }

  /** A stream that carries mastering-display metadata. */
  predicate HasMastering(s: Stream, frames: seq<Frame>)
  {
    HasSideData(s, frames) && FindData(SideDataList(frames, s.index).value, MasteringKind).Ok?
    && FindData(SideDataList(frames, s.index).value, MasteringKind).value.Some?
  }

  /** Once HDR10 is set, no later stream changes the HDR10 metadata. */
  lemma {:induction false} Hdr10Frozen(ss: seq<Stream>, p: Probe, frames: seq<Frame>, maxFirst: bool)
    requires p.hdr10 && Run(ss, p, frames, maxFirst).Ok?
    ensures Hdr10Fields(Run(ss, p, frames, maxFirst).value) == Hdr10Fields(p)
    decreases |ss|
  {
    if |ss| > 0 {
      Hdr10Frozen(ss[1..], Step(p, ss[0], frames, maxFirst).value, frames, maxFirst);
    }
  }

  /** HDR10 ends up set exactly when it was set before or some stream
      carries mastering-display metadata. */
  lemma {:induction false} Hdr10Iff(ss: seq<Stream>, p: Probe, frames: seq<Frame>, maxFirst: bool)
    requires Run(ss, p, frames, maxFirst).Ok?
    ensures Run(ss, p, frames, maxFirst).value.hdr10 <==> p.hdr10 || exists k :: 0 <= k < |ss| && HasMastering(ss[k], frames)
    decreases |ss|
  {
    if |ss| > 0 {
      var q := Step(p, ss[0], frames, maxFirst).value;
      Hdr10Iff(ss[1..], q, frames, maxFirst);
      StepHdr10(p, ss[0], frames, maxFirst);
      MasteringCons(ss, frames);
    }
  }

  lemma StepHdr10(p: Probe, s: Stream, frames: seq<Frame>, maxFirst: bool)
    requires Step(p, s, frames, maxFirst).Ok?
    ensures Step(p, s, frames, maxFirst).value.hdr10 <==> p.hdr10 || HasMastering(s, frames)
  {
    if !p.hdr10 && HasSideData(s, frames) {
      assert Step(p, s, frames, maxFirst).value.hdr10 == HasMastering(s, frames);
    }
  }

  lemma MasteringCons(ss: seq<Stream>, frames: seq<Frame>)
    requires |ss| > 0
    ensures (exists k :: 0 <= k < |ss| && HasMastering(ss[k], frames))
      <==> HasMastering(ss[0], frames) || exists k :: 0 <= k < |ss[1..]| && HasMastering(ss[1..][k], frames)
  {
    if exists k :: 0 <= k < |ss| && HasMastering(ss[k], frames) {
      var k :| 0 <= k < |ss| && HasMastering(ss[k], frames);
      if k > 0 {
        assert HasMastering(ss[1..][k - 1], frames);
      }
    }
    if exists k :: 0 <= k < |ss[1..]| && HasMastering(ss[1..][k], frames) {
      var k :| 0 <= k < |ss[1..]| && HasMastering(ss[1..][k], frames);
      assert HasMastering(ss[k + 1], frames);
    }
  }

  /** Streams without side data leave the HDR10+, Dolby Vision and HDR10
      results as they were. */
  lemma {:induction false} NoSideDataKeeps(ss: seq<Stream>, p: Probe, frames: seq<Frame>, maxFirst: bool)
    requires Run(ss, p, frames, maxFirst).Ok?
    requires forall k :: 0 <= k < |ss| ==> !HasSideData(ss[k], frames)
    ensures var r := Run(ss, p, frames, maxFirst).value;
      r.dolbyVision == p.dolbyVision && r.hdr10Plus == p.hdr10Plus && r.dvTrack == p.dvTrack
      && Hdr10Fields(r) == Hdr10Fields(p)
    decreases |ss|
  {
    if |ss| > 0 {
      assert !HasSideData(ss[0], frames);
      assert forall k :: 0 <= k < |ss| - 1 ==> ss[1..][k] == ss[k + 1];
      NoSideDataKeeps(ss[1..], Step(p, ss[0], frames, maxFirst).value, frames, maxFirst);
    }
  }

  lemma {:induction false} RunAppend(a: seq<Stream>, b: seq<Stream>, p: Probe, frames: seq<Frame>, maxFirst: bool)
    requires Run(a, p, frames, maxFirst).Ok?
    ensures Run(a + b, p, frames, maxFirst) == Run(b, Run(a, p, frames, maxFirst).value, frames, maxFirst)
    decreases |a|
  {
    if |a| == 0 {
      assert a + b == b;
    } else {
      assert (a + b)[1..] == a[1..] + b;
      RunAppend(a[1..], b, Step(p, a[0], frames, maxFirst).value, frames, maxFirst);
    }
  }

  lemma {:induction false} RunFailsAppend(a: seq<Stream>, b: seq<Stream>, p: Probe, frames: seq<Frame>, maxFirst: bool)
    requires Run(a, p, frames, maxFirst).Fail?
    ensures Run(a + b, p, frames, maxFirst).Fail?
    decreases |a|
  {
    assert |a| > 0;
    assert (a + b)[1..] == a[1..] + b;
    if Step(p, a[0], frames, maxFirst).Ok? {
      RunFailsAppend(a[1..], b, Step(p, a[0], frames, maxFirst).value, frames, maxFirst);
    }
  }

  /** HDR10+ and Dolby Vision are decided by the last stream with side
      data: each such stream recomputes them, and DVTrack is that stream's
      index when it carries Dolby Vision. */
  lemma LastSideDataDecides(ss: seq<Stream>, p: Probe, frames: seq<Frame>, maxFirst: bool, k: nat)
    requires k < |ss| && HasSideData(ss[k], frames)
    requires forall j :: k < j < |ss| ==> !HasSideData(ss[j], frames)
    requires Run(ss, p, frames, maxFirst).Ok?
    ensures var r := Run(ss, p, frames, maxFirst).value;
      var list := SideDataList(frames, ss[k].index).value;
      r.hdr10Plus == (HasKind(list, Hdr10PlusKind) == Ok(true))
      && r.dolbyVision == (HasKind(list, DoviKind) == Ok(true))
      && (r.dolbyVision ==> r.dvTrack == ss[k].index)
  {
    var before := ss[..k];
    var rest := ss[k..];
    assert ss == before + rest;
    if Run(before, p, frames, maxFirst).Fail? {
      RunFailsAppend(before, rest, p, frames, maxFirst);
    }
    var q := Run(before, p, frames, maxFirst).value;
    RunAppend(before, rest, p, frames, maxFirst);
    var q2 := Step(q, ss[k], frames, maxFirst).value;
    assert rest[1..] == ss[k + 1..];
    NoSideDataKeeps(ss[k + 1..], q2, frames, maxFirst);
  }

  /** Colour range comes from the first video stream: "tv" means limited,
      any other value full. */
  lemma {:induction false} RangeFromFirstVideo(ss: seq<Stream>, p: Probe, frames: seq<Frame>, maxFirst: bool, k: nat)
    requires p.colorRange.None?
    requires k < |ss| && ss[k].codecType == "video"
    requires forall j :: 0 <= j < k ==> ss[j].codecType != "video"
    requires Run(ss, p, frames, maxFirst).Ok?
    ensures Run(ss, p, frames, maxFirst).value.colorRange
            == Some(if Field(ss[k].fields, "color_range") == Ok(JStr("tv")) then "limited" else "full")
    decreases k
  {
    var q := Step(p, ss[0], frames, maxFirst).value;
    if k == 0 {
      assert q.colorRange == Some(if Field(ss[0].fields, "color_range") == Ok(JStr("tv")) then "limited" else "full");
      RangeKept(ss[1..], q, frames, maxFirst);
    } else {
      assert q == p;
      assert forall j :: 0 <= j < k - 1 ==> ss[1..][j] == ss[j + 1];
      RangeFromFirstVideo(ss[1..], q, frames, maxFirst, k - 1);
    }
  }

  lemma {:induction false} RangeKept(ss: seq<Stream>, p: Probe, frames: seq<Frame>, maxFirst: bool)
    requires p.colorRange.Some? && Run(ss, p, frames, maxFirst).Ok?
    ensures Run(ss, p, frames, maxFirst).value.colorRange == p.colorRange
    decreases |ss|
  {
    if |ss| > 0 {
      RangeKept(ss[1..], Step(p, ss[0], frames, maxFirst).value, frames, maxFirst);
    }
  }
}
